=== FILE: README.md ===
# Omega-FX core in Dafny

A Dafny model of the decision and bookkeeping logic of Omega-FX, a toolkit for
trading FX prop-firm challenges. It covers the backtester, the risk engine,
the signal generators, the simulated broker, and the analytics over execution
logs. Prices and money are `real`. A NaN or missing cell is `None`. A Python
exception is the `Err` case of a `Result`. Mutable objects become immutable
records threaded through step functions. Loops become folds over sequences of
events or rows.

The modules follow the program:

- **Risk engine.** `Risk` models the modes, the equity state with its sticky
  locks, the pre-trade daily-loss check and the mode ladder. `PositionSizing`,
  `Sizing` and `RiskUtils` model lot sizing and pip arithmetic.
- **Signals and gates.** `Strategy`, `OmegaM15`, `MeanReversion` and
  `LondonSession` model the signals. `Filters` and `RiskAggression` model the
  gates.
- **Backtest.** `BacktestHelpers` holds the pure helpers, `EventStream` the
  chronological merge, and `Backtest` the per-event step and its fold.
- **Simulated broker.** `Simulated` models order admission, closing and the
  drawdown summaries.
- **Outcome evaluators.**
  - `Challenge` resolves a challenge outcome; `ChallengeSummary` summarises a
    sweep.
  - `FundedPayouts` models the funded payout ratchet.
  - `CapitalPolicy` and `LegacyCapitalPlan` model the capital plans, with the
    random draws as inputs.
- **Log analytics.** `Metrics`, `Drawdown`, `TradeAnalysis`, `ExecLog`,
  `ExecReport`, `RecentLogs`, `ExportLogs`, `LastTrades`, `LiveVsSim`,
  `NotificationSnapshot` and `Monitoring`. Each works on already-parsed rows or
  lines.
- **Configuration and identifiers.** `Session`, `RiskProfiles`,
  `ExecutionAccounts`, `BotProfiles`, `StrategyRegistry`, `Mt5Prep` and
  `ExportBundle`. Each works on already-parsed documents.
- **Shared support.** `Wrappers`, `Num`, `Text`, `Dicts`, `Yaml`, `Sorting`
  and `Grouping`. These hold the Python building blocks the code relies on:
  - `Dicts`: dicts as insertion-ordered pairs;
  - `Text`: `str.strip`, `lower` and `upper`, `int()`, and Python string order;
  - `Sorting`: stable sorting;
  - `Grouping`: grouping in order of first appearance.

Several things are parameters rather than part of the model:

- clocks, random draws and indicator columns;
- file existence and parsed file contents;
- Python's `float()` on strings;
- the settings the shown code imports but does not define.

Each source citation below is a path inside the repository.

## Model

| member | source | states |
|---|---|---|
| Risk.ProfilesOrdered | core/risk.py:30-52 | A more aggressive mode never has a smaller per-trade risk, daily limit or trailing limit; every daily limit lies in (0, 2%] and each mode allows one open trade |
| Risk.Init | core/risk.py:65-82 | A new risk state starts with peak, current and start-of-day equity all equal to the initial equity, no lock set and no timestamp recorded, so it can trade |
| Risk.TotalDdFromPeak | core/risk.py:83-89 | The drawdown is 0 when the peak is not positive, otherwise the fall from the peak as a fraction of it; it is never negative while the peak is at least the current equity, and at most 1 for non-negative equity |
| Risk.DailyDd | core/risk.py:90-94 | The daily drawdown is 0 when the day's opening equity is not positive, otherwise the fall from it as a fraction of it; it is 0 when equity has not moved |
| Risk.UpdateEquity | core/risk.py:96-100 | Sets the current equity, raises the peak to it when it is higher and otherwise keeps the peak, keeps the peak at or above equity, and changes no other field |
| Risk.OnNewDay | core/risk.py:102-104 | Re-bases the day's opening equity to the current equity, which makes the daily drawdown 0, and changes nothing else |
| Risk.FirstTimestamp | core/risk.py:114-115 | A lock time is recorded only when none was recorded before |
| Risk.EnforceDrawdownLimits | core/risk.py:106-129 | A drawdown at or past the prop cap sets the prop fail and the pause; one at or past the internal limit (the firm's when present, else the mode's) sets the internal stop and the pause; a limit breached now with no time recorded records this time, a recorded time never changes, and a limit not breached records nothing; equity, peak, mode and firm are untouched |
| Risk.RunKeepsInvariants | core/risk.py:96-132 | Over any sequence of equity updates, day rolls, limit checks and mode changes, the state stays valid, the peak never falls, the locks are never cleared, recorded times never change, and once trading is refused it stays refused |
| Risk.Run | core/risk.py:96-132 | applying operations in order to a valid state leaves it valid |
| Risk.ApplyKeeps | core/risk.py:96-132 | Each single operation keeps the peak at or above equity and keeps every lock and recorded time of the state before it |
| Risk.ConservativeFivePercentStopsInternally | core/risk.py:106-132 | A 5% drawdown in CONSERVATIVE mode with no firm profile and a prop cap above 5% trips the internal 4% stop, but not the prop fail, and trading is refused |
| Risk.CanOpenNewTrade | core/risk.py:135-163 | Fails with ValueError exactly when the internal daily limit exceeds the prop firm's cap by more than 1e-9; otherwise admits the trade exactly when today's realised loss plus every open position's maximum loss plus the proposed risk stays within the internal limit; agrees with the one-expression reference `Admission` |
| Risk.AddUp | core/risk.py:150-155 | The loop total of the open positions' maximum losses equals the start plus their sum |
| Risk.WorstCaseLossMonotone | core/risk.py:150-160 | A better day or a smaller proposed risk never raises the worst-case loss, so it never turns an admitted trade away |
| Risk.UltraUltraDailyLimitExample | core/risk.py:135-163 | With ULTRA_ULTRA's 1% daily limit on 100k, a day at -500 with a 400 open risk refuses a 200 trade because 1100 exceeds 1000 |
| Risk.BoundedAppend | core/risk.py:175-183 | A bounded deque append keeps the last `n` items of the old contents followed by the new item |
| Risk.NewController | core/risk.py:170-180 | A new controller wraps the state with no transitions and empty trade and equity windows of the given positive size |
| Risk.Transition | core/risk.py:187-194 | A transition to the current mode changes nothing; otherwise it appends exactly one record from the old mode to the new one and sets the mode |
| Risk.TransitionKeepsChain | core/risk.py:187-194 | Transitions keep the log chained: every record changes the mode, each starts where the previous one ended, and the last ends at the current mode |
| Risk.StepDownForDrawdown | core/risk.py:196-200 | A drawdown of at least 3% moves to ULTRA_ULTRA; one in [2%, 3%) moves CONSERVATIVE to ULTRA; anything else changes nothing; the mode never rises |
| Risk.RecentDrawdownFromHistory | core/risk.py:224-231 | The window's range drawdown is 0 with fewer than two points or a flat window, and lies in [0, 1) when every point is positive |
| Risk.RangeBelowOne | core/risk.py:229-231 | With 0 < min <= max, (max - min) / max lies in [0, 1) |
| Risk.MaybeStepUp | core/risk.py:207-222 | The mode rises exactly one level exactly when the (positive-size) window is full, equity is within 1e-9 of the peak, the win rate is at least 0.58, the window's range drawdown is at most 1.5% and the mode is not already CONSERVATIVE; nothing else changes |
| Risk.StepUpEligible | core/risk.py:207-216 | Eligibility needs a full window, which for a positive window size holds at least one trade, so the win rate's division is always defined |
| Risk.RecordTrade | core/risk.py:202-205 | Appends the trade and the equity to their bounded windows, then may step the mode up by at most one level |
| Risk.NoStepUpBeforeFullWindow | core/risk.py:207-209 | While the trade window is not yet full, recording a trade never changes the mode |
| PositionSizing.GetSymbolMeta | core/position_sizing.py:18-30 | Looks up the upper-cased symbol and falls back to EURUSD's metadata for any symbol outside the table; every entry has a positive pip and pip value and a 0.01 lot step |
| PositionSizing.GetSymbolMetaCaseInsensitive | core/position_sizing.py:29-30 | Symbols that agree after upper-casing get the same metadata |
| PositionSizing.XauUsdFallsBackToEurUsd | core/position_sizing.py:18-30 | XAUUSD is not in the table and gets EURUSD's 0.0001 pip; "usdjpy" finds USDJPY |
| PositionSizing.CostPerStandardLot | core/position_sizing.py:52-61 | For distinct entry and stop, the cost of one standard lot (pip distance times pip value) is positive, so the source's two inner guards never fire |
| PositionSizing.FinalLots | core/position_sizing.py:63-66 | Clipping to [0.01, 2.0], rounding to the 0.01 lot step, clipping again and rounding to two decimals gives a whole number of lot steps in [0.01, 2.0] within half a step of the clipped raw size, and on an exact tie the even step, as Python's `round` does |
| PositionSizing.RoundToLotStep | core/position_sizing.py:65 | `round(x / lot_step) * lot_step` lands on the lot grid within half a step of x, and on an exact tie on the even step |
| PositionSizing.RoundToLotStepOnGrid | core/position_sizing.py:65-66 | A size already on the lot grid rounds to itself, so the final two-decimal rounding changes nothing |
| PositionSizing.LotStepStaysInBounds | core/position_sizing.py:64-66 | Rounding a size in [0.01, 2.0] to the lot step stays in [0.01, 2.0], so the second clip changes nothing |
| PositionSizing.FinalLotsTieGoesToEven | core/position_sizing.py:65 | A clipped size of 0.125 gives 0.12, the even step, not 0.13 |
| PositionSizing.CalculatePositionSize | core/position_sizing.py:33-66 | ValueError exactly for a non-positive equity, risk fraction or price, or equal entry and stop; otherwise a whole number of 0.01 lot steps in [0.01, 2.0] within half a step of the raw size clipped to those bounds, so a tiny size is raised to 0.01 |
| PositionSizing.CalculatePositionSizeSymmetric | core/position_sizing.py:52 | Only the distance between entry and stop matters: swapping them gives the same result |
| PositionSizing.OneLotExample | core/position_sizing.py:51-66 | 100k at 1% with a 100-pip EURUSD stop is exactly one lot |
| Sizing.ComputePositionSize | core/sizing.py:9-35 | ValueError exactly when the stop distance is not positive; otherwise a size in [0.01, 2.0] within half a 1e-4 step of the raw size (equity times the mode's risk fraction over stop pips times pip value) clamped to those bounds |
| Sizing.SizeGrowsWithEquity | core/sizing.py:30-35 | More equity never gives a smaller size |
| Sizing.SizeShrinksWithStop | core/sizing.py:30-35 | A wider stop never gives a larger size |
| Sizing.SizeGrowsWithModeRisk | core/sizing.py:30-35 | A mode with a larger configured risk fraction never gives a smaller size |
| Sizing.SizeFromRawMonotone | core/sizing.py:34-35 | Clamping and rounding to four decimals preserve the order of raw sizes |
| RiskUtils.PipSize | core/risk_utils.py:8-18 | The pip is the symbol metadata's pip, 0.0001 or 0.01 |
| RiskUtils.PipConversionsInverse | core/risk_utils.py:21-54 | Pips-to-price and price-to-pips undo each other in both directions |
| RiskUtils.PriceToPips | core/risk_utils.py:39-54 | the pip distance is zero exactly when the price distance is, and positive exactly when it is |
| RiskUtils.PipsToPrice | core/risk_utils.py:21-36 | the price distance is zero exactly when the pip distance is, and positive exactly when it is |
| RiskUtils.CalculateSlTpPrices | core/risk_utils.py:57-93 | The stop lies the stop distance below entry for "long" and above it for any other direction; the target lies the target distance on the other side and is None exactly when the target distance is None or 0; with a positive stop distance the stop is on the losing side |
| RiskUtils.LongShortMirror | core/risk_utils.py:86-91 | A long and a short with the same distances place stop and target symmetrically about the entry |
| RiskUtils.EurUsdLongExample | core/risk_utils.py:77-79 | Long EURUSD at 1.1 with a 20-pip stop and a 40-pip target gives 1.098 and 1.104 |
| Strategy.MomentumSignal | core/strategy.py:184-212 | Momentum is long exactly when all four SMAs are present, fast is above slow on both bars and the close is at most 0.1% below the slow SMA; short is the mirror; otherwise there is no momentum signal, and it is never flat |
| Strategy.GenerateSignal | core/strategy.py:105-181 | Missing indicators give a flat "Insufficient data" decision; a bullish cross gives long, then a bearish cross gives short, then momentum decides, and otherwise the decision is flat "No signal"; a decision trades exactly when it carries both distances, the stop is 1.5 ATR in pips and the target twice the stop |
| Strategy.CrossDown | core/strategy.py:149-158 | in a bearish cross the fast SMA falls back against the slow one |
| Strategy.CrossUp | core/strategy.py:138-147 | a bullish cross is never also a bearish one, and the fast SMA gains on the slow one |
| Strategy.LongExactly | core/strategy.py:138-171 | With indicators present, the decision is long exactly when a bullish cross happened, or no bearish cross happened and momentum is long |
| Strategy.BullishCrossExample | core/strategy.py:129-147 | A bullish crossover on EURUSD with an ATR of 0.0006 goes long with a 9-pip stop |
| OmegaM15.RequiredFeatures | strategies/omega/m15.py:25-32 | The strategy asks for exactly the current and previous M15 timeframes, each with close, both SMAs and ATR |
| OmegaM15.ToSeries | strategies/omega/m15.py:62-67 | A row-like payload becomes a bar and anything else, including a missing key, becomes nothing |
| OmegaM15.OnBar | strategies/omega/m15.py:34-59 | A missing current or previous bar gives flat with reason missing_features; otherwise the action and metadata are those of the crossover signal; the risk tier is always UNKNOWN |
| OmegaM15.OnBarTradesCarryDistances | strategies/omega/m15.py:47-59 | Whenever the wrapper trades, its metadata carries a stop and a target, and the target is twice the stop |
| MeanReversion.OrDefault | strategies/omega_mr_m15.py:18-26 | A cell reads as the default when it is absent or zero, and stays NaN exactly when it is NaN |
| MeanReversion.StopPips | strategies/omega_mr_m15.py:29 | The stop is at least one pip and at least 1.5 ATR in pips |
| MeanReversion.TargetPips | strategies/omega_mr_m15.py:31-33 | A positive distance to the mid band is the target in pips; otherwise the target falls back to the stop |
| MeanReversion.GenerateMeanReversionSignal | strategies/omega_mr_m15.py:16-56 | An ADX of 30 or more (or NaN) and any NaN band or ATR give no signal; otherwise it is long exactly when close is under the lower band with RSI under 30, else short exactly when close is over the upper band with RSI over 70; a signal carries the ATR stop and a positive target |
| MeanReversion.HighAdxRejected | strategies/omega_mr_m15.py:18-20 | An ADX of 40 suppresses the signal whatever the other cells hold |
| MeanReversion.LongFadeExample | strategies/omega_mr_m15.py:29-42 | Close 0.99 under a 1.005 lower band with RSI 20 and ADX 25 fades long with a 7.5-pip stop and a 120-pip target to the mid band |
| LondonSession.Reset | strategies/omega_session_london.py:52-62 | A new day starts from the initial box state, stamped with that day |
| LondonSession.RecordAsianRange | strategies/omega_session_london.py:64-71 | The Asian high and low widen to include the bar, starting from the bar itself when empty, and nothing else changes |
| LondonSession.FinalizeBox | strategies/omega_session_london.py:73-90 | The box becomes ready exactly when both extremes exist and its height in pips lies in the configured range, else it is marked invalid and nothing else changes; a ready box has triggers the buffer above the high and below the low |
| LondonSession.BreakoutDistances | strategies/omega_session_london.py:142-147 | The stop is the pip distance from the entry to the box mid, or half the box height (at least one pip) when that is zero; the target is the box height in pips, at least one |
| LondonSession.Step | strategies/omega_session_london.py:92-156 | A row for another symbol changes nothing; otherwise the day is stamped; a signal only comes inside the London window, on a day with no side taken, when the bar touches a trigger (buy before sell), and it records the side; conversely a priced bar of the symbol inside the London window signals exactly when the prepared box is ready, no side is taken and a trigger is touched, with the side of the breakout and stop and target from BreakoutDistances |
| LondonSession.Breakout | strategies/omega_session_london.py:126-136 | A bar at or above the buy trigger goes long at the trigger; otherwise one at or below the sell trigger goes short at the trigger; there is no breakout exactly when neither is touched |
| LondonSession.Prepared | strategies/omega_session_london.py:97-116 | A bar outside the Asian hours is judged against a valid box stamped with its day: a new day forgets the side taken, and a box neither ready nor invalid is finalised once the Asian session is over |
| LondonSession.Run | strategies/omega_session_london.py:92-156 | Feeding rows keeps the box state valid and gives one decision per row; every signal comes from a priced bar of the configured symbol inside the London window with a long or short action, and the first decision is that of the first row |
| LondonSession.RunAppend | strategies/omega_session_london.py:34-156 | Feeding two stretches of rows is feeding the first and then the second from the state the first left, since the closure keeps its state between calls |
| LondonSession.TriggeredDayIsSilent | strategies/omega_session_london.py:123-124 | Once the day's side is taken, no later row of that day signals and the side stays taken |
| LondonSession.AtMostOneSignalPerDay | strategies/omega_session_london.py:97-141 | The rows of one calendar day produce at most one breakout signal |
| LondonSession.OtherSymbolIgnored | strategies/omega_session_london.py:93-95 | With the default GBPUSD configuration, a EURUSD row is ignored and leaves the state as it was |
| Filters.ShouldAllowTrade | core/filters.py:31-70 | The trade is allowed exactly when the session, trend and volatility gates pass; otherwise the first failing gate is the reason and every earlier gate's flag is set |
| Filters.TrendGate | core/filters.py:34-47 | with the trend filter off, or no trend tag, the trend gate passes |
| Filters.SessionGate | core/filters.py:33-41 | with the session filter off, or no session tag, the session gate passes |
| Filters.LowerCaseAsiaBlocked | core/filters.py:33-44 | Tags compare after upper-casing, so with the session filter on a lower-case "asia" tag is blocked for the session |
| Filters.SwitchesOffOnlyCheckLabel | core/filters.py:31-70 | With every switch off, a trade is allowed exactly when its volatility label is a recognised one |
| RiskAggression.NormalizeValue | core/risk_aggression.py:51-55 | The value is kept, stripped, exactly when it is present and not blank after stripping |
| RiskAggression.EdgeTier | core/risk_aggression.py:76-95 | A row earns a tier only with a trade count and expectancy present and at least the minimum trade count; the tier is A, B or C, and C only for negative expectancy |
| RiskAggression.EdgeMap | core/risk_aggression.py:67-99 | Every entry has a known tier and that tier's default scale |
| RiskAggression.LastQualifying | core/risk_aggression.py:76-98 | The index found is the last row that earns a tier for the combo, and none is found only when no row does |
| RiskAggression.EdgeMapLastRowWins | core/risk_aggression.py:67-99 | A combo is in the edge map exactly when some row earns it a tier, and the last such row decides its tier |
| RiskAggression.OverrideEntry | core/risk_aggression.py:111-129 | An override row is used only with a known tier and a combo that is not all-empty; its scale is the row's number when it parses and the tier default otherwise |
| RiskAggression.OverrideMap | core/risk_aggression.py:102-130 | Every override entry has a known tier and a combo that is not all-empty |
| RiskAggression.OverrideKeys | core/risk_aggression.py:111-129 | One key per override row, in row order: the normalised combo when the row is used, nothing otherwise |
| RiskAggression.OverrideMapLastRowWins | core/risk_aggression.py:102-130 | A combo is in the override map exactly when some used row has it as its normalised combo, and its entry is the one the last such row supplies |
| RiskAggression.BuildComboMap | core/risk_aggression.py:133-140 | The keys are those of the edge map and the overrides together; an override replaces the edge entry and other entries come from the edge map |
| RiskAggression.ResolveCombo | core/risk_aggression.py:143-147 | A known combo gives its entry; an unknown one gives UNKNOWN at the 0.5 default scale |
| RiskAggression.ShouldAllowRiskAggression | core/risk_aggression.py:150-160 | With the filter off every combo is allowed at scale 1.0 as UNFILTERED; with it on, tier C or a non-positive scale refuses at scale 0, otherwise the combo's tier and scale are used; an allowed result always has a positive scale |
| RiskAggression.UnknownComboHalfScale | core/risk_aggression.py:143-160 | With the filter on, a combo missing from the map is allowed at the UNKNOWN half scale |
| RiskAggression.EdgeOnlyScales | core/risk_aggression.py:133-160 | Without overrides, an allowed combo's scale is one of the tier defaults 1.5, 0.75 or 0.5 |
| BacktestHelpers.PipPnl | core/backtest.py:119-123 | The P&L is the price move in pips times the pip value times the lots, with the sign flipped for a short |
| BacktestHelpers.PipPnlProperties | core/backtest.py:119-123 | No move gives no P&L, a long and a short over the same prices mirror each other, and a rising price pays a long position with positive lots |
| BacktestHelpers.RunningMax | core/backtest.py:130 | The running maximum at an index is at least the value there |
| BacktestHelpers.FirstDrawdownNonNegative | core/backtest.py:130-133 | The first point is measured against itself, so its drawdown is never negative |
| BacktestHelpers.Drawdowns | core/backtest.py:130-133 | One drawdown per point, each measured from the running maximum with a zero maximum replaced by 1e-12 |
| BacktestHelpers.RecentDrawdown | core/backtest.py:126-134 | There is no figure for fewer than two points; otherwise the figure is non-negative, bounds every point's drawdown and is attained at some point |
| BacktestHelpers.SessionTag | core/backtest.py:141-147 | Hours 0-7 are ASIA, 8-15 LONDON, and every other hour is NY |
| BacktestHelpers.VolatilityRegime | core/backtest.py:150-157 | A NaN ATR is UNKNOWN; below the low cut-off is LOW, up to the high cut-off NORMAL, and above it HIGH, each exactly |
| BacktestHelpers.TrendRegime | core/backtest.py:160-172 | A missing SMA gives UNKNOWN and a gap under 0.00015 SIDEWAYS; otherwise the tag is WITH_TREND exactly when the slow SMA is on the trade's side of the trend SMA and COUNTER_TREND exactly when it is on the other side; a flat direction is UNKNOWN |
| BacktestHelpers.MeetsBreakoutConditions | core/backtest.py:175-201 | The conditions hold exactly when every input is present, the entry is within the ATR distance limit of the fast SMA, and a long is above both SMAs and at or above the level (anything else is read as a short and needs the mirror) |
| BacktestHelpers.UpdateDynamicExit | core/backtest.py:204-236 | Without a positive risk unit nothing changes; the stop is never loosened and breakeven is never switched off; with a positive risk unit breakeven is on afterwards exactly when it was on or the R multiple reached the trigger, and the stop is the breakeven stop, tightened by the ATR trail (price minus the ATR distance for a long, plus it for a short) once breakeven is on and the trade does not exit; an exit happens exactly at the extended-target R, at the current price |
| BacktestHelpers.BreakevenStop | core/backtest.py:216-218 | When breakeven starts now the stop moves to the entry unless it is already tighter (the higher stop for a long, the lower for a short); otherwise the stop is unchanged |
| BacktestHelpers.DynamicExitMonotone | core/backtest.py:204-236 | Over any run of updates the stop is never loosened, breakeven once on stays on, and the direction is kept |
| Dicts.Bump | core/backtest.py:635 | The counter for the key goes up by one from 0 when missing, the key set gains exactly that key, and every other counter is kept; the backtest, the simulated backend and the execution report all count with it |
| Backtest.InitialLoop | core/backtest.py:474-490 | The loop starts at the starting equity with no trades, no equity points and no position, and its risk state can trade |
| Backtest.TrackDailyLoss | core/backtest.py:534-536 | Only a realised loss on a day opened with positive equity changes anything; the running worst day then covers that loss as a fraction of the day's opening equity, and it never goes down |
| Backtest.IntradayDd | core/backtest.py:508-509 | The intraday drawdown is 0 when the day's peak is not positive, otherwise it is non-negative and at most 1 for a non-negative low |
| Backtest.FinalizeDay | core/backtest.py:505-519 | Without a current day nothing changes; otherwise exactly one stats row is appended, carrying the day, its opening and closing equity, its realised P&L and its mode |
| Backtest.RollDay | core/backtest.py:532-546 | The same day changes nothing; a new day records the old day's loss and stats, reopens the risk state's day at the current equity and zeroes the day's counters, leaving the position, trades, equity and locks alone |
| Backtest.PreTrade | core/backtest.py:548-552 | Enforcing the limits and stepping down keeps the equity and peak, never clears a lock, never raises the mode, and fails the challenge once the drawdown from the peak reaches the challenge's limit |
| Backtest.CloseBasedExit | core/backtest.py:557-572 | A long stops out exactly when the close is at or below the stop and holds exactly when the close is strictly between stop and target; anything else is read as a short with the mirror; the stop is checked first |
| Backtest.BarExit | core/backtest.py:554-583 | A stop or target hit decides; else an opposite signal exits at the close; else the dynamic exit decides, which may tighten but never loosen the stop |
| Backtest.MakeTrade | core/backtest.py:598-622 | The trade record carries the position's symbol, direction, entry price and lots with the given exit price, reason and P&L |
| Backtest.Settle | core/backtest.py:586-592 | A realised P&L moves the equity by exactly that amount, adds it to the day's P&L, and leaves the trades, position and curve alone |
| Backtest.ClosePosition | core/backtest.py:585-624 | Closing appends exactly one trade whose P&L is the pip P&L from entry to exit, moves the equity by that P&L, clears the position and keeps every lock |
| Backtest.ExitOnBar | core/backtest.py:554-624 | Only a position on the event's symbol is examined; at most one trade is appended, a kept position only has its stop tightened, and equity minus the trades' P&L does not change |
| Backtest.EntryAtr | core/backtest.py:640-643 | The entry ATR is the row's when present, else the fallback and at least 1e-6 |
| Backtest.Classify | core/backtest.py:639-645 | The session tag comes from the event's hour and the volatility label is never UNKNOWN, since a NaN ATR is replaced first |
| Backtest.Filter | core/backtest.py:654-667 | A filtered signal bumps exactly its reason's counter and changes nothing else |
| Backtest.FilterStage | core/backtest.py:647-668 | A signal failing the session, trend or volatility gate ends the pass with its reason counted and the position untouched; a position is opened only when none was open, without a `continue`, and placed as the signal says |
| Backtest.PatternTag | core/backtest.py:679-693 | The tag is breakout_v1 exactly when the entry meets the breakout conditions against the level on its side, else non_breakout |
| Backtest.OpenStage | core/backtest.py:670-677 | A non-positive stop distance is an error; otherwise the stage only opens well-placed positions within the daily limit |
| Backtest.AggressionStage | core/backtest.py:698-716 | Tagging and risk aggression only fail on a misconfigured daily cap, and they only open well-placed positions within the daily limit |
| Backtest.Admit | core/backtest.py:718-756 | A lot under 1e-4 is dropped and an open position blocks the entry; an error happens exactly when a position would open under a misconfigured daily cap; an opened position has the sized lots, is well placed and its worst-case loss is within the internal daily limit |
| Backtest.Entry | core/backtest.py:626-756 | A signal that is not tradable changes nothing; a tradable one is counted, and a position opens only when none was open, the signal was tradable and the position is well placed |
| Backtest.MarkedEquity | core/backtest.py:758-763 | The bar's equity is the realised equity when flat and the last value when the position is on another symbol |
| Backtest.RecordEquity | core/backtest.py:758-767 | Exactly one equity point, the marked equity, is appended; it becomes the last equity and the day's range widens to include it |
| Backtest.InternalStopOut | core/backtest.py:769-802 | After an internal stop-out, a position on the event's symbol is closed at the close with reason "Internal stop-out"; otherwise nothing changes |
| Backtest.BeforeEntry | core/backtest.py:521-624 | The loop body up to the entry pass uses the crossover signal, stamps the day, keeps every lock and the equity ledger, adds no equity point, and hands the entry pass the mode after the step-down and before the exits, so the profile it uses is the one fixed before any exit records a trade |
| Backtest.Step | core/backtest.py:521-806 | A skipped event changes nothing; a processed one adds exactly one equity point, keeps the equity ledger and every lock, and never lowers the worst daily loss |
| Backtest.StepAsWritten | core/backtest.py:521-806 | As written, the loop body keeps the ledger and locks but adds at most one equity point, because a `continue` in the entry pass skips it |
| Backtest.Finish | core/backtest.py:758-802 | The end of a processed event appends exactly one equity point, the marked-to-market equity at the event's time, keeps the equity ledger and every lock, keeps a valid risk state valid, and never lowers the worst daily loss |
| Backtest.SessionFilteredBarLosesEquityPoint | core/backtest.py:654-656 | When the session gate turns a signal away, the loop as written records no equity point and keeps the last equity, while the corrected step records one |
| Backtest.AsWrittenSkipsPoint | core/backtest.py:654-656 | As written, an allowed signal turned away by the session gate leaves the step's equity curve and last equity exactly as they were |
| Backtest.SessionGateContinues | core/backtest.py:647-656 | With the session filter on, an allowed signal in the Asian session ends the entry pass with a `continue` and no equity change |
| Backtest.SessionFilteredBarExample | core/backtest.py:521-656 | On a fresh loop, a bullish crossover at 01:00 is processed and tradable, so the session-filter case does occur |
| Backtest.CrossoverIsLong | core/strategy.py:138-147 | The example bar's crossover gives a long decision with both distances |
| Backtest.FreshLoopCanTrade | core/backtest.py:474-552 | On a fresh loop the risk state can still trade after the day roll and the limit checks |
| Backtest.RunInvariants | core/backtest.py:521-806 | Over a whole run, equity minus the recorded trades' P&L is unchanged, locks are never cleared, the risk state stays valid, the worst daily loss never drops, and there is one equity point per processed event |
| Backtest.Run | core/backtest.py:521-806 | a run that ends without error keeps equity minus the recorded trades' P&L unchanged and adds exactly one equity point per processed event |
| Backtest.RunLedger | core/backtest.py:586-587 | From a fresh loop, the final equity is the starting equity plus the P&L of every recorded trade |
| Backtest.WinRate | core/backtest.py:820-824 | The win rate is 0 without trades, otherwise the share of trades with positive P&L, so it lies in [0, 1] |
| Backtest.CountWins | core/backtest.py:821 | The number of winning trades is at most the number of trades |
| Backtest.RiskRewards | core/backtest.py:825 | The figures are those of the trades that carry one, in trade order, one per such trade |
| Backtest.AverageRr | core/backtest.py:825-826 | Without figures the average reward-to-risk is 0; otherwise the average times the number of figures is their sum |
| Backtest.CurveValues | core/backtest.py:812 | The values are the curve's equity figures, in order |
| Backtest.FinalEquity | core/backtest.py:817 | The final equity is the last curve point, or the starting equity for an empty curve |
| Backtest.TotalReturn | core/backtest.py:818 | The total return is the change from the starting equity as a fraction of it |
| Backtest.CurveDrawdown | core/backtest.py:819 | The maximum drawdown is 0 for fewer than two points; otherwise it is the largest drawdown of any point from the running peak before it, attained at some point, and never negative |
| Backtest.CloseBooks | core/backtest.py:804-808 | The last day's loss is tracked and exactly one stats row is appended when a day is open, leaving earlier rows alone |
| Backtest.Summarize | core/backtest.py:804-888 | Books the last day's loss and closes the open day first; the final equity is the last curve point or the start, the return is relative to the start, the drawdown is the curve's, the win rate is the wins over the trades (0 without trades), the average reward-to-risk is that of the trades that carry one, the trade list and count, the worst daily loss, the daily stats, the stop-out and fail flags and timestamps, the mode transitions and the filter counts are those of the finished loop |
| Backtest.RunBacktest | core/backtest.py:445-903 | An empty event stream is a ValueError; when both the given and the challenge starting equity are zero the run fails (the total return divides by zero); a result has a win rate in [0, 1], a non-negative drawdown and worst daily loss, and a trade count equal to the number of trades |
| Backtest.SummarizeRun | core/backtest.py:804-903 | A failed loop stays failed with its own error; a finished loop with a zero starting equity is a ZeroDivisionError; otherwise the result is exactly the summary of the finished loop, with its own trades and in-range figures |
| EventStream.FrameEvents | core/backtest.py:390-392 | One event per row of the frame, in row order, each with the row's timestamp, the frame's symbol and the row index |
| EventStream.Collect | core/backtest.py:384-392 | Collection fails exactly when a non-empty frame lacks timestamps, and the error names the FIRST such frame, all earlier frames being empty or timestamped; otherwise it holds one event per row of every frame, each coming from its frame, the first frame's events (none when it is empty) coming before those of the remaining frames, so events follow frame order and then row order |
| EventStream.CollectAppend | core/backtest.py:384-392 | Collecting two lists of frames in turn: an error in the first list is the error of the whole, the whole succeeds exactly when both parts do, and its events are the first part's followed by the second's |
| EventStream.Insert | core/backtest.py:394 | Inserting adds exactly one event |
| EventStream.InsertPermutes | core/backtest.py:394 | Inserting adds exactly the new event to the multiset of events |
| EventStream.InsertSorted | core/backtest.py:394 | Inserting into a timestamp-ordered list keeps it ordered |
| EventStream.InsertStable | core/backtest.py:394 | Inserting keeps the events of every timestamp in their order, with the new one last among its equals |
| EventStream.SortByTimestamp | core/backtest.py:394 | Sorting keeps the number of events |
| EventStream.SortPermutes | core/backtest.py:394 | Sorting is a permutation of the events |
| EventStream.SortSorted | core/backtest.py:394 | The sorted events are in timestamp order |
| EventStream.SortStable | core/backtest.py:394 | For every timestamp, the sorted events with that timestamp are in their original order, as in Python's stable sort |
| EventStream.SortByTimestampCorrect | core/backtest.py:394 | The sort is ordered, a permutation, and keeps equal timestamps in their original order |
| EventStream.BuildEventStream | core/backtest.py:382-395 | The stream fails exactly when a non-empty frame lacks timestamps; otherwise it has one event per row, comes from the frames, is in timestamp order, and is a stable permutation of the collected events |
| EventStream.InterleavedExample | core/backtest.py:382-395 | Two interleaved frames merge into time order, the earlier-listed symbol first on equal times |
| EventStream.InterleavedCollect | core/backtest.py:384-392 | Collecting two frames lists the first frame's events and then the second's, in row order |
| EventStream.InterleavedSort | core/backtest.py:394 | Four collected events sort into time order with ties kept in collection order |
| EventStream.RollingMax | core/backtest.py:406 | The rolling maximum is absent exactly until a full window exists, and then it bounds the window from above and is attained in it |
| EventStream.RollingMin | core/backtest.py:407 | The rolling minimum is absent exactly until a full window exists, and then it bounds the window from below and is attained in it |
| Simulated.Create | execution_backends/simulated.py:20-42 | A new backend starts disconnected at the initial equity, which is also the day's opening equity, with no positions and no history |
| Simulated.Connect | execution_backends/simulated.py:44-65 | Connecting sets the connected flag and changes nothing else |
| Simulated.Disconnect | execution_backends/simulated.py:67-68 | Disconnecting clears the connected flag and changes nothing else |
| Simulated.IndexOf | execution_backends/simulated.py:120 | The index found holds the ticket, and none is found only when no position has it |
| Simulated.Get | execution_backends/simulated.py:120 | A position is found exactly when one has the ticket, and the one found has it |
| Simulated.Put | execution_backends/simulated.py:108 | Storing under a known ticket replaces that entry in place; a new ticket is appended; tickets stay distinct |
| Simulated.RemoveAt | execution_backends/simulated.py:120 | Removing drops exactly the one entry with that ticket, keeps the others, and keeps tickets distinct |
| Simulated.MaxLosses | execution_backends/simulated.py:182-183 | One maximum loss per open position, in order |
| Simulated.OpenRiskUpdate | execution_backends/simulated.py:108 | Replacing one position changes the open risk by the difference of the two risks |
| Simulated.OpenRiskAppend | execution_backends/simulated.py:108 | Adding a position adds its risk to the open risk |
| Simulated.RiskAmount | execution_backends/simulated.py:216-219 | The risk is non-negative for a non-negative volume and 0 when the stop equals the entry |
| Simulated.RiskAmountSymmetric | execution_backends/simulated.py:216-219 | The risk depends only on the distance between entry and stop, not on which is which |
| Simulated.ClosePnl | execution_backends/simulated.py:123-128 | Closing at the entry gives 0; for a positive volume a long earns exactly when the exit is above the entry and a short exactly when it is below |
| Simulated.ClosePnlMirror | execution_backends/simulated.py:126-128 | A short earns exactly what a long of the same size loses over the same move |
| Simulated.ClosingAtStopLosesRiskAmount | execution_backends/simulated.py:123-128 | Closing at the stop loses exactly the risk amount the position was admitted with |
| Simulated.LimitReason | execution_backends/simulated.py:178-187 | The refusal is max_positions exactly when the book is full, daily_loss exactly when it is not full and the realised loss plus open risk plus the new risk passes the daily cap, and none otherwise |
| Simulated.RecordLimit | execution_backends/simulated.py:198-199 | A refusal sets the last limit reason and bumps exactly its counter |
| Simulated.OrText | execution_backends/simulated.py:105-106 | A non-empty string is kept and an empty one replaced by the default |
| Simulated.OpenedPosition | execution_backends/simulated.py:94-107 | The new position has the ticket, the upper-cased symbol, the order's prices and volume, the computed risk, and the order's strategy id or the default |
| Simulated.SubmitOrder | execution_backends/simulated.py:73-110 | A disconnected backend, a non-positive volume and a missing entry or stop are the three errors, in that order, and change nothing; an order over the per-trade limit is refused with only the limit reason cleared; otherwise a limit is recorded, or the position is opened under the new ticket; equity and history never change |
| Simulated.SubmitPriced | execution_backends/simulated.py:80-110 | A priced order fails exactly when it is over the per-trade limit; otherwise a limit refusal is recorded or the position is opened |
| Simulated.ClearLimitReason | execution_backends/simulated.py:84 | Clearing the last limit reason changes nothing the limits read |
| Simulated.Opened | execution_backends/simulated.py:93-109 | An admitted order stores its position, clears the limit reason and leaves the counters alone |
| Simulated.PutKeepsRisksNonNegative | execution_backends/simulated.py:104-108 | Storing a position with a non-negative risk keeps every stored risk non-negative |
| Simulated.AcceptedOrderStaysWithinDailyCap | execution_backends/simulated.py:83-110 | An accepted order never takes the day's exposure past the daily cap, and the position stored under its ticket carries its risk |
| Simulated.FullBookRefusesWithMaxPositions | execution_backends/simulated.py:89-92 | A full book refuses with max_positions before the daily budget is looked at, and counts exactly that refusal |
| Simulated.ClosePosition | execution_backends/simulated.py:112-148 | An unknown ticket is a KeyError; otherwise the position is popped with the others kept in order, equity moves by its P&L at the given price (the entry when absent), one trade record with the ticket, the entry fields, the exit price, the close time (the clock when absent), the reason and the P&L is appended with one equity point, only a loss accrues to the day, and no other field (counters, day start, last limit reason, limits) changes |
| Simulated.CloseAt | execution_backends/simulated.py:120-148 | Closing the position at an index removes exactly that entry, books its P&L, appends a record carrying its entry fields and the exit, changes no other field, keeps the ledger invariant and leaves no position with that ticket |
| Simulated.ProfitableLongRaisesEquity | execution_backends/simulated.py:123-129 | A long closed above its entry raises the account's equity |
| Simulated.Pnls | execution_backends/simulated.py:254 | One P&L per trade record, in order |
| Simulated.LossParts | execution_backends/simulated.py:146-147 | Each trade contributes its P&L when negative and 0 otherwise |
| Simulated.CloseKeepsLedger | execution_backends/simulated.py:129-147 | Appending a record adds its P&L to the P&L total and its loss part to the loss total |
| Simulated.CloseKeepsValid | execution_backends/simulated.py:120-147 | A close preserves the ledger invariant: distinct tickets, non-negative risks, equity equal to the initial equity plus every record's P&L, one equity point per record ending at the current equity, and the day figure the sum of the losses |
| Simulated.DailyRealizedNeverPositive | execution_backends/simulated.py:146-147 | Only losses accrue to the day's realised figure, so it never goes above zero |
| Simulated.Values | execution_backends/simulated.py:226 | The equity values of the history, in order |
| Simulated.MaxDrawdownFraction | execution_backends/simulated.py:221-231 | The loop's result equals the reference maximum drawdown of the recorded equities and is non-negative |
| Simulated.MaxDrawdownCoversLastPoint | execution_backends/simulated.py:221-231 | The maximum drawdown is at least the last point's drop below the running peak |
| Simulated.InsertByTime | execution_backends/simulated.py:236 | Inserting into a time-ordered history keeps it ordered and adds exactly one entry |
| Simulated.InsertByTimePermutes | execution_backends/simulated.py:236 | Inserting adds exactly the new entry to the multiset |
| Simulated.SortByTime | execution_backends/simulated.py:236 | The sorted history is in time order and has the same length |
| Simulated.SortByTimePermutes | execution_backends/simulated.py:236 | The sorted history is a permutation of the history |
| Simulated.DayLoss | execution_backends/simulated.py:244-245 | A day's loss fraction is never negative, 0 when the day closed at or above its opening, and otherwise the drop as a fraction of the opening |
| Simulated.FoldDayLosses | execution_backends/simulated.py:241-250 | The running worst day never goes below its starting value |
| Simulated.DayCloses | execution_backends/simulated.py:241-248 | A non-empty history has at least one day close, and the last is the last equity |
| Simulated.DailyWalkIsFoldOfDayCloses | execution_backends/simulated.py:241-250 | The loop over records equals the fold of day losses over the day closes, each day opening at the previous close |
| Simulated.MaxDailyLossFraction | execution_backends/simulated.py:233-251 | The figure is never negative, and with any history it is the worst day loss over the sorted history's day closes |
| Simulated.FoldDayLossesCoversEachDay | execution_backends/simulated.py:241-250 | Every day's loss is at most the fold |
| Simulated.FoldDayLossesAttained | execution_backends/simulated.py:241-250 | The fold is its starting value or the loss of some day |
| Simulated.SingleDayLoss | execution_backends/simulated.py:233-251 | Two closes a minute apart on one day give that day's loss from the initial equity to the later close |
| Simulated.CountWins | execution_backends/simulated.py:255 | There are at most as many wins as trades |
| Simulated.CountLosses | execution_backends/simulated.py:256 | There are at most as many losses as trades |
| Simulated.WinsPlusLossesIsTotal | execution_backends/simulated.py:255-257 | A trade with a P&L of 0 or less counts as a loss, so every trade is exactly one of the two |
| Simulated.WinRate | execution_backends/simulated.py:258 | The win rate is the share of winning trades and lies in [0, 1] |
| Simulated.Summarize | execution_backends/simulated.py:253-273 | The initial and final equity are the backend's, the final one being the initial plus every closed trade's P&L; the total P&L is their difference; the trade count and win rate match the records; the drawdown is the reference maximum drawdown of the recorded equities and the daily loss the worst day loss over the sorted history; the limits are copied and the filter counts read the counters, 0 when absent |
| Challenge.FirstIndex | core/challenge.py:43-45 | The index found is the first position holding true, and none is found only when no position does |
| Challenge.DailyLossFraction | core/challenge.py:84-88 | The loss fraction is never negative, 0 for a non-positive opening equity, and otherwise the realised loss (0 for a gain) over the opening equity |
| Challenge.LastOfDay | core/challenge.py:61-67 | The index found is the last curve point on that day, and none is found only when no point falls on it |
| Challenge.DayEnd | core/challenge.py:70-81 | The end of a day is a timestamp on that day: its last curve timestamp, else its midnight |
| Challenge.DayEnds | core/challenge.py:163-166 | One end-of-day timestamp per daily stat, in order |
| Challenge.MeetsTarget | core/challenge.py:148 | Each curve point is marked exactly when its equity is at or above the target |
| Challenge.BelowLoss | core/challenge.py:149 | Each curve point is marked exactly when its equity is at or below the floor |
| Challenge.ProfitTs | core/challenge.py:145-150 | A profit moment exists exactly when some equity reaches the start equity grown by the profit target, and it is the time of the first such point |
| Challenge.LossTs | core/challenge.py:146-151 | A loss moment exists exactly when some equity falls to the start equity reduced by the total-loss fraction, and it is the time of the first such point |
| Challenge.OverDailyCap | core/challenge.py:154-156 | Each day is marked exactly when its loss fraction is strictly above the daily cap |
| Challenge.PropViolationTs | core/challenge.py:153-158 | There is no violation exactly when every day's loss is at most the cap; otherwise the moment is the end of the first day strictly over the cap |
| Challenge.PassDays | core/challenge.py:170-171 | Each trading day is marked exactly when it qualifies as the pass day |
| Challenge.PassTs | core/challenge.py:168-173 | There is no pass exactly when there is no profit moment or no trading day qualifies; otherwise the pass moment is the end of the first trading day, counted from 1, that ends at or after the profit moment and reaches the minimum day count |
| Challenge.MaxTradingDaysTs | core/challenge.py:175-177 | The trading-day limit fires exactly when it is set and enough trading days exist, at the end of the last allowed day |
| Challenge.Candidate | core/challenge.py:180-191 | A missing moment adds no event and a present one adds exactly one, with its reason |
| Challenge.Deadline | core/challenge.py:192-196 | There is a calendar deadline exactly when the rule is on; it is the start plus the allowed days, capped at the last curve timestamp |
| Challenge.EventList | core/challenge.py:179-196 | The candidate events come in the fixed order pass, total_loss, prop_violation, internal_stop, prop_fail, max_trading_days, max_calendar_days; pass can only be first; no prop violation is listed without one |
| Challenge.AfterPass | core/challenge.py:182-196 | The events after the pass never include pass or timeout, and a total loss comes first among them |
| Challenge.Limits | core/challenge.py:184-196 | The limit events never include pass, total_loss or timeout |
| Challenge.Events | core/challenge.py:179-199 | There is always at least one candidate; timeout at the last curve point is added exactly when no other event happens |
| Challenge.EarliestIndex | core/challenge.py:201-203 | The front of a stable sort is the earliest timestamp, the first in list order among equal ones |
| Challenge.CountAtOrBefore | core/challenge.py:205-210 | The count is the number of day ends at or before the moment |
| Challenge.TradesAtOrBefore | core/challenge.py:213-215 | The count is the number of trades with an exit time at or before the end |
| Challenge.EquityUpTo | core/challenge.py:217 | The selection is the equity of every point at or before the end, in curve order, and is empty exactly when every point is later |
| Challenge.SliceFigures | core/challenge.py:217-220 | The final equity is the last curve point at or before the end, and the peak and minimum bound every such point and are each attained by one, so min <= final <= peak |
| Challenge.EquityUpToLast | core/challenge.py:217-218 | The last entry of the selection is the equity of a point at or before the end with no later point at or before it |
| Challenge.EquityUpToExtremes | core/challenge.py:217-220 | The maximum and minimum of the selection bound every point at or before the end and are each the equity of such a point |
| Challenge.EquityUpToStep | core/challenge.py:217 | Extending the selection by one point keeps it within the curve and from points at or before the end |
| Challenge.MaxObservedLoss | core/challenge.py:229-232 | The worst observed loss is never negative, bounds every day that ended at or before the end, and is 0 or the loss of such a day |
| Challenge.LastRowIndex | core/challenge.py:234-238 | The end index is that of the last window row at or before the end, and none is found exactly when every row is later |
| Challenge.BuildOutcome | core/challenge.py:110-262 | An empty curve gives the no_data outcome; otherwise selecting the equity up to the end fails exactly when every point is after the end, and a result summarises the curve up to the winning event: its reason flags, the profit flag, the final equity as the last point by the end, the peak and minimum as attained extremes of those points, the exact day and trade counts by the end, the start and end index and timestamps, the backtest daily-loss figure and the worst observed daily loss as an attained maximum or 0 |
| Challenge.EndEvent | core/challenge.py:201-203 | The ending event is the earliest candidate, the first listed on ties |
| Challenge.OutcomeAt | core/challenge.py:212-262 | Every field of the outcome is pinned: flags from the reason, final equity the last point at or before the end, peak and minimum the attained extremes, day and trade counts exactly those by the end, end index the last window row by the end, and the worst observed loss the attained maximum over days ended by then or 0 |
| Challenge.FlagsExclusive | core/challenge.py:222-227 | Exactly one end reason is reported: the outcome flags never overlap |
| Challenge.LossAtCapIsNoViolation | core/challenge.py:154-158 | Daily losses at or below the cap never produce a prop-violation event, since the test is strict |
| Challenge.FirstEventWins | core/challenge.py:201-203 | The challenge ends no later than any candidate event, and every candidate listed before the winner happened strictly later |
| Challenge.PassBeatsSameTimeLoss | core/challenge.py:180-203 | A total loss at or after the pass moment never ends the challenge; on a tie the pass wins, being listed first |
| Challenge.PassedMeetsMinimumDays | core/challenge.py:168-212 | With day ends in time order, a passed challenge has at least the minimum number of trading days |
| Challenge.CountAtOrBeforePrefix | core/challenge.py:205-210 | In a time-ordered list, at least k + 1 entries are at or before entry k |
| Challenge.CountAtOrBeforeMonotone | core/challenge.py:205-210 | A later moment never counts fewer day ends |
| Challenge.Seeds | core/challenge.py:338 | A zero step is an error; otherwise every seed is a multiple of the step below the length, and a positive step covers the whole length |
| Challenge.SeedsFrom | core/challenge.py:338 | Every generated seed is a multiple of the step below the length, and the generation runs up to the length |
| Challenge.Sweep | core/challenge.py:326-370 | Outcomes are collected in seed order; the first ValueError ends the sweep with what was collected, and any other error is the first failing seed's and propagates |
| Challenge.SweepAllOk | core/challenge.py:338-351 | When every seed succeeds, the sweep returns every outcome |
| FundedPayouts.Share | scripts/run_funded_payout_sim.py:133 | The share paid out is the split clamped into [0, 1] |
| FundedPayouts.GainFraction | scripts/run_funded_payout_sim.py:128 | The gain fraction is 0 for a non-positive floor and positive for a positive gain over a positive floor |
| FundedPayouts.PayoutOn | scripts/run_funded_payout_sim.py:124-135 | A day pays out only when it ends above the floor; the amount is positive, at most the gain, and the whole gain with a full split |
| FundedPayouts.PayoutOnWhen | scripts/run_funded_payout_sim.py:124-135 | A day pays out exactly when it ends above the floor, is scheduled or reaches the ratchet fraction, and the clamped split is positive |
| FundedPayouts.PayoutIsShareOfGain | scripts/run_funded_payout_sim.py:133 | A payout is the clamped split's share of the day's gain over the floor |
| FundedPayouts.Portion | scripts/run_funded_payout_sim.py:133-135 | The share of a positive gain is never more than the gain, positive exactly when the share is, and the whole gain for a share of 1 |
| FundedPayouts.Amounts | scripts/run_funded_payout_sim.py:141 | One amount per payout, in order |
| FundedPayouts.AmountsAppend | scripts/run_funded_payout_sim.py:136-141 | A new payout adds its amount to the total |
| FundedPayouts.Walk | scripts/run_funded_payout_sim.py:119-139 | The floor is always the account size plus everything paid, so it never drops below the account size |
| FundedPayouts.Step | scripts/run_funded_payout_sim.py:123-139 | A day without a payout changes nothing; a paying day appends its payout and raises the floor by it |
| FundedPayouts.WalkPayoutsPositive | scripts/run_funded_payout_sim.py:123-137 | Every payout is positive and falls on a day of the walk |
| FundedPayouts.WalkPayoutDaysIncrease | scripts/run_funded_payout_sim.py:123-136 | Payout days strictly increase |
| FundedPayouts.WalkFirstPayoutDay | scripts/run_funded_payout_sim.py:138-139 | The first payout day is set exactly when there is a payout, to the first one's day |
| FundedPayouts.Largest | scripts/run_funded_payout_sim.py:142 | The largest amount is 0 without payouts, bounds every amount, and is attained by one |
| FundedPayouts.SimulatePayouts | scripts/run_funded_payout_sim.py:111-150 | The total is the sum of the payouts and exactly how far the floor rose; the count, the first day and the largest amount agree with the payouts, each of which is positive |
| FundedPayouts.LargestWithinTotal | scripts/run_funded_payout_sim.py:141-142 | The largest payout never exceeds the total, and neither is negative |
| FundedPayouts.FloorNonDecreasing | scripts/run_funded_payout_sim.py:137 | The floor after more days is never lower, since payouts only raise it |
| FundedPayouts.LastPayoutEquity | scripts/run_funded_payout_sim.py:124-137 | The last payout day's closing equity exists exactly when there was a payout |
| FundedPayouts.FloorWithinLastPayoutEquity | scripts/run_funded_payout_sim.py:125-137 | Each payout takes at most the whole gain, so the floor never passes the closing equity of the last payout day |
| FundedPayouts.FullSplitFloorMeetsLastPayoutEquity | scripts/run_funded_payout_sim.py:133-137 | With a full split the floor ratchets up to exactly the closing equity of the last payout day |
| FundedPayouts.NoGainNoPayout | scripts/run_funded_payout_sim.py:125-127 | A run whose equity never closes a day above the account size pays nothing |
| FundedPayouts.ZeroSplitNeverPays | scripts/run_funded_payout_sim.py:133-135 | A split of zero or less pays nothing, whatever the equity does |
| FundedPayouts.Totals | scripts/run_funded_payout_sim.py:156 | One total payout per run, in order |
| FundedPayouts.Largests | scripts/run_funded_payout_sim.py:157 | One largest payout per run, in order |
| FundedPayouts.PayoutCounts | scripts/run_funded_payout_sim.py:182 | One payout count per run, in order |
| FundedPayouts.DailyLosses | scripts/run_funded_payout_sim.py:183 | One worst daily loss per run, in order |
| FundedPayouts.TrailingDds | scripts/run_funded_payout_sim.py:184 | One worst trailing drawdown per run, in order |
| FundedPayouts.CountAlive | scripts/run_funded_payout_sim.py:158 | The count is the number of runs whose account did not die, all runs exactly when none died |
| FundedPayouts.FirstDays | scripts/run_funded_payout_sim.py:159 | One first payout day per run that had one, in run order, empty exactly when no run paid out |
| FundedPayouts.SurvivalRate | scripts/run_funded_payout_sim.py:169 | The survival rate is the share of surviving runs, in [0, 1], and 1 exactly when no run died |
| FundedPayouts.Summarize | scripts/run_funded_payout_sim.py:153-189 | No runs give the empty summary; otherwise the rates are shares of the runs, the death probability complements the survival rate, the average payout and the payout rate per run are the means of the runs' totals and payout counts, the worst figures bound every run and are attained by one, the mean first payout day is the mean over the runs that paid (none when no run paid), and the monthly payout is the average spread over at least one month |
| FundedPayouts.MonthlyPayout | scripts/run_funded_payout_sim.py:186-187 | The amount times the month count, at least one, gives back the total |
| FundedPayouts.PayoutRatesNested | scripts/run_funded_payout_sim.py:175-178 | Every run reaching 50k reaches 20k, every run reaching 20k reaches 10k, and every run reaching 10k has paid something |
| FundedPayouts.PaidRunHasPayouts | scripts/run_funded_payout_sim.py:141-147 | A run's total is positive exactly when it recorded a payout |
| ChallengeSummary.KeyIndex | scripts/run_challenge_sim.py:198 | The index found holds the label, and none is found only when no entry does |
| ChallengeSummary.BumpCounts | scripts/run_challenge_sim.py:198 | Counting a label keeps labels distinct, adds one to its count and to the total, and leaves other counts alone |
| ChallengeSummary.FailureLabel | scripts/run_challenge_sim.py:198 | A missing or empty failure reason reads as "passed", so the label is never empty |
| ChallengeSummary.LabelCount | scripts/run_challenge_sim.py:198 | A label is carried by at most every outcome |
| ChallengeSummary.Breakdown | scripts/run_challenge_sim.py:198 | The tally has distinct labels |
| ChallengeSummary.BreakdownCounts | scripts/run_challenge_sim.py:198 | Every label's count is its number of outcomes, and the counts add up to the number of runs |
| ChallengeSummary.CountPassed | scripts/run_challenge_sim.py:183 | The count is the number of passed outcomes |
| ChallengeSummary.PassDays | scripts/run_challenge_sim.py:185-189 | The trading-day count of each passed run, in run order, one per passed run |
| ChallengeSummary.FailDays | scripts/run_challenge_sim.py:190-193 | The trading-day count of each failed run, in run order, one per failed run |
| ChallengeSummary.ObservedDailyLosses | scripts/run_challenge_sim.py:194-196 | One worst observed daily loss per run, in order |
| ChallengeSummary.FinalReturns | scripts/run_challenge_sim.py:206-208 | Each run's return is its final equity over the start equity, minus one |
| ChallengeSummary.TradeCounts | scripts/run_challenge_sim.py:227-231 | One trade count per run, in order |
| ChallengeSummary.SummarizeAsWritten | scripts/run_challenge_sim.py:181-271 | As written, the summary fails with an AttributeError on max_trailing_dd_fraction exactly when there is at least one outcome |
| ChallengeSummary.AsWrittenFailsOnEverySweep | scripts/run_challenge_sim.py:197 | Any non-empty sweep makes the summary as written fail, while the empty sweep gets through |
| ChallengeSummary.Outcomes | scripts/run_challenge_sim.py:181 | One outcome per run, in order |
| ChallengeSummary.TrailingDds | scripts/run_challenge_sim.py:197 | One trailing drawdown per run, in order |
| ChallengeSummary.Summarize | scripts/run_challenge_sim.py:181-271 | The pass rate is the share of passed runs; the averages are over the passed and failed groups; the mean return and mean trade count are the means over all runs; the worst figures bound every run, are attained by one, and are 0 for an empty sweep; the tally is the failure breakdown; the hit rates are the shares of returns at 5, 8 and 10 percent |
| ChallengeSummary.EmptySweepAgrees | scripts/run_challenge_sim.py:181-271 | On an empty sweep the summary as written and the corrected one agree |
| ChallengeSummary.PassFailPartition | scripts/run_challenge_sim.py:183-193 | The pass and fail groups together are all the runs, and the pass rate lies in [0, 1] |
| ChallengeSummary.HitRatesNested | scripts/run_challenge_sim.py:245-255 | Every run reaching 10 percent reaches 8, and every run reaching 8 reaches 5 |
| ChallengeSummary.BreakdownCoversRuns | scripts/run_challenge_sim.py:198 | The failure tally counts every run exactly once |
| ChallengeSummary.DailyCapGuard | scripts/run_challenge_sim.py:360-364 | The guard raises RuntimeError exactly when the worst daily loss is more than 1e-9 above the internal cap |
| ChallengeSummary.RunsWithinCapPassGuard | scripts/run_challenge_sim.py:194-197 | A sweep whose every run stayed within the internal cap passes the guard |
| CapitalPolicy.NewPlan | scripts/run_capital_policy_compare.py:50-64 | a new plan has both schedules sized to the horizon and all zero, is in stage 1, and has withdrawn nothing and run no months |
| CapitalPolicy.ActivatePlan | scripts/run_capital_policy_compare.py:67-75 | activation keeps the configuration, sets the bankroll and start month, marks the plan active in stage 1, zeroes its counters and clears every entry of both schedules without changing their length |
| CapitalPolicy.ActivationForgetsHistory | scripts/run_capital_policy_compare.py:67-75 | two plans with the same configuration and horizon are identical after activation, whatever their earlier state |
| CapitalPolicy.ActivateNewPlan | scripts/run_capital_policy_compare.py:144-154 | activating a fresh inactive plan gives the same state as constructing it active with that bankroll and start month |
| CapitalPolicy.LatchStage2 | scripts/run_capital_policy_compare.py:92-94 | only the stage flag may change, and afterwards it is on exactly when it was already on or the withdrawals reached the stage-2 trigger or the months run reached the stage-1 limit |
| CapitalPolicy.Compose | scripts/run_capital_policy_compare.py:95-101 | feeders plus large evaluations always equal the wave size; for a non-negative size both counts are non-negative and at most the size; a non-positive fraction or a negative size gives no large evaluations; for a fraction in [0, 1] the large count is the share rounded to a nearest whole number, an even one on a tie |
| CapitalPolicy.ComposeMonotone | scripts/run_capital_policy_compare.py:95-97 | a larger large-fraction never yields fewer large evaluations |
| CapitalPolicy.WaveMix | scripts/run_capital_policy_compare.py:89-104 | the wave composition adds up to the wave size, and a basic plan, or a PLAN_D plan still in stage 1, launches only feeders |
| CapitalPolicy.WaveCostBetweenFees | scripts/run_capital_policy_compare.py:102-104 | for a wave of valid size the cost lies between the all-feeder price and the all-large price |
| CapitalPolicy.Launch | scripts/run_capital_policy_compare.py:106-110 | a launched wave leaves the bankroll reduced by exactly its cost, non-negative, and no lower than the risk budget allows |
| CapitalPolicy.LaunchWhen | scripts/run_capital_policy_compare.py:106-108 | a wave is launched exactly when its cost is within both the bankroll and the risk-budget share of the bankroll |
| CapitalPolicy.WaveTime | scripts/run_capital_policy_compare.py:88 | every wave of a month starts within that month, and the first wave starts at the month boundary |
| CapitalPolicy.Spread | scripts/run_capital_policy_compare.py:132-141 | the payout loop keeps both schedules at the horizon's length |
| CapitalPolicy.SpreadPointwise | scripts/run_capital_policy_compare.py:132-141 | each month of the horizon gains exactly the positive payout that lands on it, split into a withdrawal of (1 - reinvest fraction) and a reinvestment of the reinvest fraction |
| CapitalPolicy.SpreadConserves | scripts/run_capital_policy_compare.py:132-141 | the two schedules together grow by exactly the positive payouts that land within the horizon |
| CapitalPolicy.SpreadKeepsNonNegative | scripts/run_capital_policy_compare.py:138-141 | with a reinvest fraction in [0, 1], schedules with no negative entries keep none |
| CapitalPolicy.FinishMonth | scripts/run_capital_policy_compare.py:127-128 | the finishing month is the whole-month floor of the wave time plus the duration over 21 trading days |
| CapitalPolicy.ScheduleEvalPayouts | scripts/run_capital_policy_compare.py:116-141 | one evaluation changes only the schedules, keeps their length, and changes nothing when it failed or finished at or past the horizon |
| CapitalPolicy.ScheduleConserves | scripts/run_capital_policy_compare.py:124-141 | one evaluation adds to the schedules exactly its in-horizon payouts, and nothing when it does not count |
| CapitalPolicy.ScheduleEvals | scripts/run_capital_policy_compare.py:112-113 | scheduling a wave's evaluations changes only the schedules and keeps their length |
| CapitalPolicy.WaveStep | scripts/run_capital_policy_compare.py:87-113 | one wave changes at most the bankroll, the stage flag and the schedules, and keeps the schedules' length |
| CapitalPolicy.Waves | scripts/run_capital_policy_compare.py:87-113 | a run of waves changes at most the bankroll, the stage flag and the schedules |
| CapitalPolicy.RunPlanMonth | scripts/run_capital_policy_compare.py:78-113 | a month of a plan changes at most the bankroll, the stage flag and the schedules, and keeps the schedules' length |
| CapitalPolicy.WaveStepKeeps | scripts/run_capital_policy_compare.py:92-110 | a wave keeps a non-negative bankroll non-negative, never switches stage 2 off, never changes a basic plan's stage, and with non-negative fees never raises the bankroll |
| CapitalPolicy.WavesKeep | scripts/run_capital_policy_compare.py:87-110 | the same four facts hold over any number of waves |
| CapitalPolicy.MonthKeeps | scripts/run_capital_policy_compare.py:78-110 | the same four facts hold over a month of a plan |
| CapitalPolicy.LaunchedWaveSolvent | scripts/run_capital_policy_compare.py:106-110 | any wave leaves a non-negative bankroll when it started from a non-negative one, because an unaffordable wave is skipped |
| CapitalPolicy.ScheduleEvalsGrow | scripts/run_capital_policy_compare.py:112-113 | the schedules' total never shrinks while a wave's evaluations are scheduled |
| CapitalPolicy.WaveStepGrowsSchedules | scripts/run_capital_policy_compare.py:87-113 | the schedules' total never shrinks over one wave |
| CapitalPolicy.WavesGrowSchedules | scripts/run_capital_policy_compare.py:87-113 | the schedules' total never shrinks over a month's waves |
| CapitalPolicy.Settle | scripts/run_capital_policy_compare.py:231-243 | settling an active plan clears this month's schedule entries and keeps the schedules' length; an inactive plan is left alone |
| CapitalPolicy.SettleConserves | scripts/run_capital_policy_compare.py:231-243 | settling moves money without creating or losing any: the pool plus bankroll plus schedules keep their total, and the pool, the plan's withdrawn total and the cumulative payout all grow by the withdrawal moved |
| CapitalPolicy.Factory | scripts/run_capital_policy_compare.py:144-154 | the factory starts with plan B active on the initial bankroll and plan D inactive, and has a plan E, inactive, exactly for the ladder policies |
| CapitalPolicy.Seed | scripts/run_capital_policy_compare.py:159-166 | when the plan is inactive, ready, the pool covers the seed and the month is within the horizon, the plan becomes active with the seed as bankroll and the seed leaves the pool; otherwise nothing changes |
| CapitalPolicy.Trigger | scripts/run_capital_policy_compare.py:156-202 | the trigger fails with a KeyError exactly for a ladder policy without plan E; otherwise it never changes plan B or an already active plan, and never makes a non-negative pool negative |
| CapitalPolicy.TriggerIdempotent | scripts/run_capital_policy_compare.py:156-202 | running the trigger a second time in the same month changes nothing, so a plan is seeded at most once |
| CapitalPolicy.TriggerOnlyAtThresholds | scripts/run_capital_policy_compare.py:156-202 | a plan switched on by the trigger saw its withdrawal threshold met, a pool covering its seed and a month within the horizon, and received exactly the seed |
| LegacyCapitalPlan.ParsePayouts | scripts/legacy/run_capital_plan_sim.py:173-181 | a non-empty result comes from a non-blank cell that evaluates to that list, and a blank cell or a non-list literal gives no payouts |
| LegacyCapitalPlan.ParsePayoutsKeepsLists | scripts/legacy/run_capital_plan_sim.py:174-178 | every list that a non-blank cell evaluates to is returned whole |
| LegacyCapitalPlan.FieldValue | scripts/legacy/run_capital_plan_sim.py:187-191 | a missing field reads as 0.0, and the read fails exactly when the field does not convert to a float |
| LegacyCapitalPlan.MonthOf | scripts/legacy/run_capital_plan_sim.py:192 | the month index is the whole number of 21-day months in the day: 21 * m <= day < 21 * (m + 1) |
| LegacyCapitalPlan.PayoutsToMonthly | scripts/legacy/run_capital_plan_sim.py:184-195 | bucketing fails exactly when some record is not a dict, and otherwise gives one bucket per month of the horizon |
| LegacyCapitalPlan.PayoutsToMonthlyPointwise | scripts/legacy/run_capital_plan_sim.py:185-194 | each bucket holds exactly the sum of the convertible records whose day falls in that month |
| LegacyCapitalPlan.PayoutsToMonthlyTotal | scripts/legacy/run_capital_plan_sim.py:185-194 | the buckets sum to the amounts of the records that land within the horizon, so records outside it are dropped |
| LegacyCapitalPlan.Validate | scripts/legacy/run_capital_plan_sim.py:372-381 | the arguments pass exactly when the reinvest fraction, the risk budget and, for PLAN_D, the large fraction lie in [0, 1]; the first failing check names its own error message |
| LegacyCapitalPlan.LegacyCompose | scripts/legacy/run_capital_plan_sim.py:253-261 | this script's split, with its extra guard on a negative feeder count, is the same split as the policy comparison's |
| LegacyCapitalPlan.ProcessEval | scripts/legacy/run_capital_plan_sim.py:277-292 | one evaluation changes only the schedules, keeps their length, and changes nothing when it failed or finished at or past the horizon |
| LegacyCapitalPlan.ProcessEvalConserves | scripts/legacy/run_capital_plan_sim.py:283-292 | an evaluation that passes in time adds to the schedules exactly the positive payouts of its series that land within the horizon |
| LegacyCapitalPlan.WaveMixOf | scripts/legacy/run_capital_plan_sim.py:246-268 | the wave composition adds up to the configured wave size |
| LegacyCapitalPlan.WaveStep | scripts/legacy/run_capital_plan_sim.py:239-297 | a stopped campaign is left alone, death is never undone, and a wave either launches nothing or launches exactly one wave of the configured number of evaluations |
| LegacyCapitalPlan.Launch | scripts/legacy/run_capital_plan_sim.py:274-297 | a launched wave pays exactly its cost from the bankroll and counts one more wave and one more wave's worth of evaluations |
| LegacyCapitalPlan.Waves | scripts/legacy/run_capital_plan_sim.py:239-297 | n waves launch at most n waves and keep the schedules at the horizon's length |
| LegacyCapitalPlan.RunCampaignAsWritten | scripts/legacy/run_capital_plan_sim.py:230-297 | the campaign as written launches at most the number of waves the horizon holds |
| LegacyCapitalPlan.RunCampaign | scripts/legacy/run_capital_plan_sim.py:230-297 | the corrected campaign launches at most the number of waves the horizon holds |
| LegacyCapitalPlan.AsWrittenNeverStage2 | scripts/legacy/run_capital_plan_sim.py:247-252 | as written, with a positive withdrawal trigger and the month limit at or past the horizon, no run of waves ever enters stage 2 |
| LegacyCapitalPlan.AsWrittenIgnoresPayouts | scripts/legacy/run_capital_plan_sim.py:232-252 | as written, such a campaign stays in stage 1 whatever its evaluations pay out |
| LegacyCapitalPlan.TriggerDiscrepancy | scripts/legacy/run_capital_plan_sim.py:247-252 | on a wave whose month has already seen withdrawals reach the trigger, the corrected loop enters stage 2 and the loop as written does not |
| LegacyCapitalPlan.StoppedStaysStopped | scripts/legacy/run_capital_plan_sim.py:241-273 | once a campaign has stopped, later waves change nothing |
| LegacyCapitalPlan.EvalsPerLaunchedWave | scripts/legacy/run_capital_plan_sim.py:275 | the evaluations launched equal the waves launched times the wave size |
| LegacyCapitalPlan.WavesKeepBankroll | scripts/legacy/run_capital_plan_sim.py:270-274 | from a non-negative start the bankroll never goes negative during the wave loop, because a wave costing more than the bankroll kills the campaign instead |
| LegacyCapitalPlan.WavesScheduleNonNegative | scripts/legacy/run_capital_plan_sim.py:289-292 | with a reinvest fraction in [0, 1] the schedules never hold a negative entry |
| LegacyCapitalPlan.SettleMonths | scripts/legacy/run_capital_plan_sim.py:299-308 | after n months the withdrawn total is the sum of the first n withdrawals, the bankroll has gained the first n reinvestments, and a death from the wave loop stays a breach |
| LegacyCapitalPlan.BreachWhen | scripts/legacy/run_capital_plan_sim.py:305-307 | the month loop reports a breach exactly when the campaign already died or some month's running bankroll fell below zero |
| LegacyCapitalPlan.NoBreachFromReinvestments | scripts/legacy/run_capital_plan_sim.py:299-308 | with a non-negative bankroll and non-negative reinvestments the month loop adds no breach of its own |
| LegacyCapitalPlan.FirstReach | scripts/legacy/run_capital_plan_sim.py:301-304 | the milestone month, counted from 1, is the first month by whose end the withdrawals reach the target, and there is none when no month reaches it |
| LegacyCapitalPlan.FirstReachOrdered | scripts/legacy/run_capital_plan_sim.py:301-304 | a lower milestone is reached no later than a higher one |
| LegacyCapitalPlan.Simulate | scripts/legacy/run_capital_plan_sim.py:212-312 | a zero wave rate fails with ZeroDivisionError, a negative horizon fails, and a run reaches 5k no later than 10k |
| LegacyCapitalPlan.SimulateFacts | scripts/legacy/run_capital_plan_sim.py:230-312 | for accepted arguments and a non-negative start, a run reports a breach exactly when a wave was unaffordable, its total payout is everything withdrawn within the horizon, and every launched wave launched the configured number of evaluations |
| Metrics.StreaksCurrent | core/metrics.py:25-30 | the streak still running at the end is exactly the trailing run of losses, preceded by a trade that did not lose |
| Metrics.StreaksBound | core/metrics.py:22-32 | no run of consecutive losses is longer than the longest streak the loop records |
| Metrics.StreaksAttained | core/metrics.py:22-32 | some run of consecutive losses is exactly as long as the longest streak the loop records |
| Metrics.MaxConsecutiveLosses | core/metrics.py:17-32 | the result is the length of the longest run of consecutive losing trades: every run is at most this long and one run is exactly this long (0 for no trades) |
| Metrics.Wins | core/metrics.py:40 | the winners are trades with a strictly positive result, never more than the trades |
| Metrics.Losses | core/metrics.py:41 | the losers are trades with a strictly negative result, never more than the trades |
| Metrics.WinsAndLossesCount | core/metrics.py:58-59 | winners and losers together number at most the trades, and exactly the trades when no trade broke even |
| Metrics.NoWins | core/metrics.py:61 | there are no winners exactly when no trade made money |
| Metrics.NoLosses | core/metrics.py:62 | there are no losers exactly when no trade lost money |
| Metrics.NetSplits | core/metrics.py:40-41 | the net result is the winners' sum plus the losers' sum |
| Metrics.ProfitFactor | core/metrics.py:35-43 | no trades give 0; the factor is infinite exactly when there are trades and none lost; otherwise it is non-negative and times the gross loss gives the gross profit |
| Metrics.ProfitFactorBreakEven | core/metrics.py:40-43 | a finite profit factor over some trades is at least 1 exactly when the trades net a non-negative result |
| Metrics.AverageWin | core/metrics.py:61 | the mean win is 0 without winners, and otherwise positive and times the number of winners gives the gross profit |
| Metrics.AverageLoss | core/metrics.py:62 | the mean loss is 0 without losers, and otherwise negative and times the number of losers gives minus the gross loss |
| Metrics.TotalReturn | core/metrics.py:52-56 | the return is undefined exactly when the first equity is zero, and otherwise times the first equity gives the change; with a positive start it is non-negative exactly when equity did not fall |
| Metrics.PerformanceReport | core/metrics.py:46-68 | an empty curve gives no report; otherwise the report counts all trades, counts the winners as trades above zero and the losers as trades below zero, takes the last equity as final, the win rate is winners over trades (0 without trades), and the return, average win and loss, profit factor, longest losing streak and maximum drawdown over the curve's maximum are the module's own figures |
| Metrics.LossesCountAtLeast | core/metrics.py:59 | the trades below zero and the trades at or above zero together are all trades |
| Metrics.WinsCountAbove | core/metrics.py:58 | the winners are exactly the trades counted above zero |
| Drawdown.MaxDrop | core/metrics.py:63 | the largest fall from a running peak is non-negative, 0 for an empty curve, at least every fall from an earlier point to a later one, and equal to one of them |
| Drawdown.CumSum | scripts/analyze_trades.py:22 | each running total is the sum of the values up to and including its position |
| Drawdown.Peak | execution_backends/simulated.py:224-227 | the running peak is at least the initial value and at least every point seen |
| Drawdown.MaxDrawdown | execution_backends/simulated.py:221-231 | the maximum drawdown fraction is non-negative and at least the drawdown of every recorded point from its running peak, counted while that peak is positive |
| Drawdown.PrefixDrawdowns | execution_backends/simulated.py:225-230 | a later point never changes the drawdown of an earlier one |
| Drawdown.MaxDrawdownAttained | execution_backends/simulated.py:221-231 | the maximum drawdown fraction is 0 or exactly the drawdown of some recorded point |
| TradeAnalysis.RMultiples | scripts/analyze_trades.py:29-31 | the R column holds each trade's R multiple, in order |
| TradeAnalysis.MaxDrawdownR | scripts/analyze_trades.py:19-25 | the drawdown in R is non-negative, 0 without trades, at least every fall of the cumulative R curve from an earlier point to a later one, and equal to one of them |
| TradeAnalysis.DrawdownCoversEachLoss | scripts/analyze_trades.py:19-25 | every losing trade after the first is a drawdown of at least its own size |
| TradeAnalysis.SummarizeGroup | scripts/analyze_trades.py:28-38 | a bucket's summary counts its trades, gives the share of positive R multiples as win rate, the mean R multiple as both average and expectancy, and takes the drawdown over the trades in entry-time order |
| TradeAnalysis.PositiveExpectancyHasWinner | scripts/analyze_trades.py:29-30 | a bucket with positive expectancy has a positive win rate |
| TradeAnalysis.Buckets | scripts/analyze_trades.py:80-81 | the buckets have distinct tag keys in strictly increasing tag order (present tags by string order, a missing tag last), each holds exactly the trades carrying its tags, every trade's tags have a bucket, and the bucket sizes add up to all trades |
| TradeAnalysis.TagOrderTotal | scripts/analyze_trades.py:81 | the tag order groupby sorts by compares any two tag combinations and chains, so sorting by it is well defined |
| TradeAnalysis.SummarizeBuckets | scripts/analyze_trades.py:82-88 | there is one row per bucket, carrying that bucket's tags and its summary |
| TradeAnalysis.Eligible | scripts/analyze_trades.py:98 | the ranking source holds every row with at least the minimum number of trades, only such rows, and nothing that was not a row |
| TradeAnalysis.Ranking | scripts/analyze_trades.py:98-103 | the ranking holds exactly the eligible rows, as a permutation, ordered by expectancy from highest to lowest |
| TradeAnalysis.SortedByExpectancy | scripts/analyze_trades.py:103 | sorting on the negated expectancy orders the rows from highest expectancy to lowest and keeps them as a permutation |
| TradeAnalysis.Analyze | scripts/analyze_trades.py:72-105 | an empty file stops with its message, a file without R multiples stops, and otherwise every bucket is summarised and, exactly when the ranking is not empty, its first and last top-k rows are selected |
| TradeAnalysis.RowsCountTrades | scripts/analyze_trades.py:81-88 | each row counts exactly the trades carrying its tags, and the counts add up to all trades |
| ExecLog.ParseTimestamp | scripts/run_daily_exec_report.py:157-161 | a naive time is read as UTC, an aware time is shifted by its offset to UTC, and a blank or malformed stamp is a ValueError, exactly those two |
| ExecLog.SameInstant | scripts/run_daily_exec_report.py:157-161 | the same instant written with two offsets parses to one UTC time, and a zero offset reads like a naive time |
| ExecLog.SafeFloat | scripts/run_daily_exec_report.py:164-170 | a missing cell, an empty cell and the text "None" give nothing; any other cell gives its number, or nothing when it is not a number |
| ExecLog.Required | scripts/run_daily_exec_report.py:65-67 | a present column gives its value and a missing column is a KeyError naming it |
| ExecLog.DataMode | scripts/analyze_recent_logs.py:115 | an empty or missing mode cell reads as live |
| ExecLog.StrategyOrUnknown | scripts/analyze_recent_logs.py:127 | the strategy id is the stripped cell, or "unknown" when that is blank, so it is never empty |
| ExecLog.PnlShortMirrorsLong | scripts/run_daily_exec_report.py:109-114 | for the same prices and volume a short position's result is minus a long one's |
| ExecLog.PnlSignLong | scripts/run_daily_exec_report.py:109-114 | with a positive volume a long position gains exactly when the price rose, and breaks even exactly when it did not move |
| ExecLog.PnlFromPrices | scripts/run_daily_exec_report.py:109-114 | a position that closes at its entry price, or has no volume, makes nothing |
| ExecReport.FilterReason | scripts/run_daily_exec_report.py:84 | a FILTER row is always counted under a non-empty reason |
| ExecReport.StepRow | scripts/run_daily_exec_report.py:64-94 | a row is read exactly when its stamp parses and it has a ticket and an event, and a priced OPEN also has a symbol and direction; an OPEN with price and volume records its position and a CLOSE removes its ticket, other tickets being untouched; rows before the window add nothing; inside the window an equity cell adds one point, a FILTER row bumps its reason, and a priced CLOSE of a stored ticket appends its PnlFromPrices result |
| ExecReport.ScanRows | scripts/run_daily_exec_report.py:56-94 | the pass keeps at most one result and one point per row, every point lies inside the window, no filter reason is blank, and an unreadable earlier row stops it |
| ExecReport.TradesAreWindowCloses | scripts/run_daily_exec_report.py:79-94 | only CLOSE rows inside the window count as trades |
| ExecReport.EarlyRowsReportNothing | scripts/run_daily_exec_report.py:79 | a log whose rows all precede the window reports no trades, no equity points and no filter counts |
| ExecReport.PointsDrawdown | scripts/run_daily_exec_report.py:117-126 | the drawdown is non-negative, 0 without points, at least every point's fall from the running peak that starts at the first logged point, and 0 or one of those falls |
| ExecReport.AnalyzeLog | scripts/run_daily_exec_report.py:56-106 | the report fails exactly when a row is unreadable; otherwise its trade count is the number of results the pass collected (at most the window's CLOSE rows), its total is their sum, its win rate the share of positive results, its drawdown the running-peak drawdown of the window's equity points, and its filter counts those the pass collected |
| RecentLogs.RiskVolume | scripts/analyze_recent_logs.py:153 | a missing or zero volume counts as one lot, and any other volume is used as it is |
| RecentLogs.RMultiple | scripts/analyze_recent_logs.py:147-155 | an R multiple exists exactly for a known result larger than 0.01 in size with a positive risk estimate, and times the 20-pip risk estimate it gives the result |
| RecentLogs.CloseTrade | scripts/analyze_recent_logs.py:133-166 | a trade is completed exactly when both prices are known; it keeps the entry, closes at the row's time with the hold time as the difference, moves a non-negative number of pips, takes the result as 0 when it is missing, wins exactly when that result is positive, and carries the estimated R multiple |
| RecentLogs.StepRow | scripts/analyze_recent_logs.py:109-166 | a row needs a parseable stamp and a ticket; a row dropped by the data-mode filter changes nothing; a kept OPEN records its position; a kept CLOSE of an open ticket removes it; every other row changes nothing |
| RecentLogs.TradesFromCloses | scripts/analyze_recent_logs.py:109-166 | there are never more completed trades than kept CLOSE rows |
| RecentLogs.StepRowAddsAtMostOne | scripts/analyze_recent_logs.py:132-166 | a row completes at most one trade, and only a kept CLOSE row completes one |
| RecentLogs.BinOf | scripts/analyze_recent_logs.py:274-277 | a value goes into the first bin whose range holds it, and into none when no bin does |
| RecentLogs.Histogram | scripts/analyze_recent_logs.py:267-279 | no values give no entries; every entry holds the positive count of its bin; every bin that received a value has an entry |
| RecentLogs.InRangeIsBinned | scripts/analyze_recent_logs.py:274-277 | with increasing edges every value from the first edge up to, but not including, the last lies in a bin |
| RecentLogs.HoldBinsExamples | scripts/analyze_recent_logs.py:242 | a one-hour hold lands in the 3600-7200 bin, a very long one in the last bin, and a negative one in none |
| RecentLogs.NonZero | scripts/analyze_recent_logs.py:209-213 | the truthiness filter keeps only non-zero values and never more than it was given |
| RecentLogs.MinEntry | scripts/analyze_recent_logs.py:222 | the first time is an entry time of some trade and no later than any trade's entry |
| RecentLogs.MaxExit | scripts/analyze_recent_logs.py:223 | the last time is an exit time of some trade and no earlier than any trade's exit |
| RecentLogs.TradesPerDay | scripts/analyze_recent_logs.py:220-227 | fewer than two trades give 0; otherwise the rate times the span from the earliest entry to the latest exit in days, counted as at least one day, is the number of trades, so it is positive and at most that number |
| RecentLogs.TradesPerDayWithinADay | scripts/analyze_recent_logs.py:220-225 | when the earliest entry and the latest exit are at most a day apart, the rate is the trade count itself |
| RecentLogs.StrategyStatsOf | scripts/analyze_recent_logs.py:196-244 | no trades give the empty result; otherwise the stats carry the strategy id, wins and losses add up to the trades, the win rate is wins over trades, the average result times the trades is the total, hold times and pips average over their non-zero values, the R average exists exactly when some R multiple does, the trades per day are those of TradesPerDay, and the histograms are taken over the R multiples and the non-zero hold times |
| RecentLogs.OverallStats | scripts/analyze_recent_logs.py:248-264 | no trades give only a zero count; otherwise wins and losses add up to the trades, the win rate times the trades is the wins, and the average result times the trades is the total |
| RecentLogs.OverallMatchesSingleStrategy | scripts/analyze_recent_logs.py:196-264 | when every trade belongs to one strategy, the overall figures equal that strategy's figures |
| RecentLogs.PerStrategy | scripts/analyze_recent_logs.py:181-193 | there is one entry per strategy, in order of first trade, each holding the figures of exactly that strategy's trades |
| RecentLogs.AnalyzeLogs | scripts/analyze_recent_logs.py:88-178 | the analysis fails exactly when pairing the rows fails; otherwise it reports the paired trades, at most one per kept CLOSE row, with the overall and per-strategy figures of those trades |
| ExportLogs.WindowStart | scripts/export_recent_logs.py:92-93 | the window never starts after now, and for a non-negative number of hours it starts exactly that many hours earlier |
| ExportLogs.WindowLabel | scripts/export_recent_logs.py:96-100 | the label ends in "d" exactly when the hours are a whole number of days of at least one day, and is then that number of days; otherwise it is the hours truncated toward zero followed by "h" |
| ExportLogs.WindowLabelExamples | scripts/export_recent_logs.py:96-100 | 48 hours are labelled "2d", 36 hours "36h" and 12.5 hours "12h" |
| ExportLogs.SelectRows | scripts/export_recent_logs.py:111-121 | the export holds exactly the rows kept by the data-mode filter that lie inside the window, each once, in log order |
| ExportLogs.SelectRowsIdempotent | scripts/export_recent_logs.py:111-121 | filtering an export again with the same window keeps all of it |
| ExportLogs.FirstBadStamp | scripts/export_recent_logs.py:112 | the export stops with a ValueError exactly when some row's timestamp does not parse |
| ExportLogs.CountStrategyEvent | scripts/export_recent_logs.py:153-158 | a strategy's count of an event is never more than the event's total count |
| ExportLogs.StrategyCounts | scripts/export_recent_logs.py:145-158 | every strategy with an entry has its positive count of rows carrying the event, and every strategy with such rows has an entry |
| ExportLogs.ClosePnls | scripts/export_recent_logs.py:156-163 | the collected results are at most one per CLOSE row |
| ExportLogs.Summarize | scripts/export_recent_logs.py:140-181 | the summary counts all rows and the OPEN, CLOSE and FILTER rows, totals, averages and takes the share of positive results among the parseable CLOSE results, and counts OPEN and CLOSE rows per strategy |
| ExportLogs.EventCountsBounded | scripts/export_recent_logs.py:153-165 | the OPEN, CLOSE and FILTER counts together never exceed the rows |
| ExportLogs.StrategyCountWithinTotal | scripts/export_recent_logs.py:153-158 | every strategy's count of an event is positive and at most that event's total |
| ExportLogs.ExportRecentLogs | scripts/export_recent_logs.py:70-137 | the export fails exactly when some stamp does not parse; otherwise it names the window by its label, spans from the window start to now, holds the selected rows, and its summary is that of those rows, counting no more rows than the log has |
| LastTrades.QueryMode | scripts/query_last_trades.py:84 | a missing, empty or blank mode cell reads as live |
| LastTrades.BlankModeReadings | scripts/query_last_trades.py:84 | a mode cell of blanks is not live for the report scripts but is live for the query |
| LastTrades.RowStrategy | scripts/query_last_trades.py:90-92 | the strategy is the strategy id when present, else the strategy tag when present, else the default, stripped after the choice |
| LastTrades.StepRow | scripts/query_last_trades.py:78-133 | a row without a timestamp is skipped, one whose timestamp does not parse is the only error, a row not considered and any event other than OPEN or CLOSE change nothing, at most one trade is appended after the earlier ones, an OPEN with price and volume records its position, and a priced CLOSE at or after the cutoff of an open ticket removes it and appends its trade |
| LastTrades.ScanRows | scripts/query_last_trades.py:78-133 | the pass fails exactly when some row's timestamp is malformed, and it reports at most one trade per row |
| LastTrades.TradesOfSession | scripts/query_last_trades.py:87-89 | with a session asked for, every trade reported belongs to it |
| LastTrades.TradesAfterCutoff | scripts/query_last_trades.py:108-110 | with a cutoff, every trade reported closed at or after it |
| LastTrades.LoadTrades | scripts/query_last_trades.py:61-135 | a missing log file is a FileNotFoundError naming the path; otherwise the query fails exactly when the scan fails, and else returns the first max(0, limit) trades of the newest-first ordering of all closed trades, newest first and drawn from them |
| LiveVsSim.Equity | scripts/analyze_live_vs_sim.py:96-97 | the equity after each trade is the account size plus the running total of results |
| LiveVsSim.MaxDrawdownPct | scripts/analyze_live_vs_sim.py:134-145 | the drawdown percentage is non-negative, 0 without trades, at least 100 times every point's fall from the running peak that starts at the starting equity, and 0 or one of them |
| LiveVsSim.LossPct | scripts/analyze_live_vs_sim.py:157-158 | a day's loss percentage is non-negative, and positive exactly when the day lost money from a positive start |
| LiveVsSim.Days | scripts/analyze_live_vs_sim.py:153 | there is one group per calendar day, in ascending day order, each holding exactly that day's trades |
| LiveVsSim.DayTotals | scripts/analyze_live_vs_sim.py:155 | each day's total is the sum of that day's results |
| LiveVsSim.WalkDays | scripts/analyze_live_vs_sim.py:151-160 | the walk ends with the start plus all day totals, and the worst loss is non-negative |
| LiveVsSim.WalkDaysWorst | scripts/analyze_live_vs_sim.py:151-160 | the worst day bounds every day's loss relative to the equity that day started with, and is 0 or one of those losses |
| LiveVsSim.MaxDailyLossPct | scripts/analyze_live_vs_sim.py:148-160 | the worst daily loss is non-negative, 0 without trades, and otherwise the worst day of the walk over the calendar days |
| LiveVsSim.Scaled | scripts/analyze_live_vs_sim.py:111 | each scaled result times the reference risk gives the result |
| LiveVsSim.AvgR | scripts/analyze_live_vs_sim.py:108-112 | the average R is 0 without trades or without a positive reference risk, and otherwise times the reference risk and the trade count it gives the total result |
| LiveVsSim.TradesPerDay | scripts/analyze_live_vs_sim.py:125-131 | no trades give 0; otherwise the rate is trades over distinct calendar days, at least 1 and at most the number of trades |
| LiveVsSim.DayCount | scripts/analyze_live_vs_sim.py:128 | a non-empty list of trades spans at least one day and no more days than trades |
| LiveVsSim.ReturnPct | scripts/analyze_live_vs_sim.py:98-102 | the return is undefined exactly when the account size is zero, otherwise times the account size it gives 100 times the total, and with a positive account it is non-negative exactly when the total is |
| LiveVsSim.ComputeLiveMetrics | scripts/analyze_live_vs_sim.py:93-122 | no trades give a zero return; otherwise the return is that of the total result; the drawdown, daily loss, trade count, hit rate as the share of positive results, average R and trade rate are those of the trades |
| LiveVsSim.LastEquity | scripts/analyze_live_vs_sim.py:96-101 | the last equity less the account size is the total result |
| LiveVsSim.SearchRight | scripts/analyze_live_vs_sim.py:200-201 | the position is the length of the leading run of values not above the figure, followed by a larger value or the end |
| LiveVsSim.PercentileRank | scripts/analyze_live_vs_sim.py:197-202 | no runs give NaN; otherwise the rank lies in [0, 100] and is the percentage of runs at or below the figure |
| LiveVsSim.SearchCounts | scripts/analyze_live_vs_sim.py:200-201 | in the sorted copy, the leading run at or below the figure holds exactly the runs not above it |
| LiveVsSim.CountAbovePermutation | scripts/analyze_live_vs_sim.py:200 | counting the runs above a figure does not depend on their order |
| LiveVsSim.PercentileMonotone | scripts/analyze_live_vs_sim.py:197-202 | a higher live figure never ranks lower among the same runs |
| NotificationSnapshot.SplitLine | scripts/build_notification_snapshot.py:90-98 | a line that does not start with "- " after stripping gives nothing; otherwise the key contains no ':' and both key and value are trimmed |
| NotificationSnapshot.SplitBody | scripts/build_notification_snapshot.py:93-98 | the body splits exactly when it contains a ':', at the first one, into a trimmed key without ':' and a trimmed value |
| NotificationSnapshot.SplitLineRoundTrip | scripts/build_notification_snapshot.py:89-98 | writing a trimmed key without ':' and a trimmed value as "- key: value" and splitting it gives them back |
| NotificationSnapshot.SplitBodyRoundTrip | scripts/build_notification_snapshot.py:93-98 | splitting "key: value" gives the trimmed key and value back |
| NotificationSnapshot.Convert | scripts/build_notification_snapshot.py:99-114 | equity and P&L must parse as floats or the report fails with a ValueError; trade and filter counts must parse as integers; percentages, win rate and risk tier are kept as text; a blank environment or session id becomes "unknown" |
| NotificationSnapshot.StepLine | scripts/build_notification_snapshot.py:89-114 | a line that does not split, or whose key is not known, changes nothing; a known key is stored with its converted value, overwriting any earlier one; every failure is a ValueError |
| NotificationSnapshot.ParseLines | scripts/build_notification_snapshot.py:89-114 | the lines are applied in order, and the only failure is the ValueError of a value that does not convert |
| NotificationSnapshot.ParseKeepsKeys | scripts/build_notification_snapshot.py:89-114 | parsing never removes a key, and only adds known keys |
| NotificationSnapshot.LastLineWins | scripts/build_notification_snapshot.py:89-114 | the last line that sets a key decides its value |
| NotificationSnapshot.ParseReport | scripts/build_notification_snapshot.py:79-136 | the report parses exactly when every line converts and every required field is present; the result keeps every default key, and every failure is a ValueError |
| NotificationSnapshot.EmptyReportRejected | scripts/build_notification_snapshot.py:116-136 | a report without lines is rejected, because it lacks the required equity, P&L and counts |
| Monitoring.InferFamily | core/monitoring_helpers.py:21-29 | the family is "unknown" exactly for an id without a hint, and otherwise one of the three hinted families |
| Monitoring.CoerceEntry | core/monitoring_helpers.py:281-312 | given figures are kept; missing wins come from the win rate times the trades rounded half to even, or 0; missing losses are trades less wins, or 0 when wins exceed trades; a missing average is the per-trade or plain average, else the total over the trades, or 0; a missing win rate is wins over trades; a blank family is inferred from the hints |
| Monitoring.CoercedWins | core/monitoring_helpers.py:283-287 | the wins are the given wins, else the win rate times the trades rounded half to even when there are trades, else 0 |
| Monitoring.AverageOr | core/monitoring_helpers.py:293-298 | a given average is kept, and otherwise it is the total spread over the trades, or 0 without trades |
| Monitoring.CoerceEmpty | core/monitoring_helpers.py:281-312 | an id with no figures gets zero statistics and its hinted family |
| Monitoring.CoerceConsistent | core/monitoring_helpers.py:281-312 | given only consistent counts and a total, the filled-in entry has wins plus losses equal to trades, and a win rate and an average that agree with them |
| Monitoring.CoerceWinsFromRate | core/monitoring_helpers.py:285-287 | with only a win rate in [0, 1], the derived wins lie in [0, trades] |
| Monitoring.SourceItems | core/monitoring_helpers.py:257-262 | a dict contributes one pair per entry, a list one pair per payload, and anything else contributes nothing |
| Monitoring.Find | core/monitoring_helpers.py:266 | a bucket is found exactly when one has the id, and the position found holds that id |
| Monitoring.Put | core/monitoring_helpers.py:266 | storing an entry keeps the ids distinct, holds the entry, adds at most its id, and leaves every other bucket as it was |
| Monitoring.SetDefault | core/monitoring_helpers.py:275 | setdefault leaves the buckets unchanged when the id is present, and otherwise stores the entry |
| Monitoring.Fill | core/monitoring_helpers.py:254-266 | the source loop keeps the bucket ids distinct |
| Monitoring.FillLastWins | core/monitoring_helpers.py:254-266 | every named id's bucket holds the entry coerced from the last pair naming it, the ids are exactly the earlier ones plus the named ones, and buckets no pair names are untouched |
| Monitoring.ExpectedIds | core/monitoring_helpers.py:267-273 | the expected ids kept are non-empty, and there are no more of them than were given |
| Monitoring.AddExpected | core/monitoring_helpers.py:274-275 | adding the expected ids keeps the ids distinct and every earlier bucket, adds exactly the missing expected ids, and each added bucket has empty statistics |
| Monitoring.MergedBuckets | core/monitoring_helpers.py:253-277 | the merged buckets have distinct ids and are never empty |
| Monitoring.Breakdown | core/monitoring_helpers.py:250-278 | the breakdown is never empty |
| Monitoring.BreakdownStrictlySorted | core/monitoring_helpers.py:278 | the breakdown has distinct ids in strictly increasing string order |
| Monitoring.BreakdownMembers | core/monitoring_helpers.py:278 | sorting keeps exactly the merged entries |
| Monitoring.BreakdownLastWins | core/monitoring_helpers.py:254-278 | the breakdown holds, for each named id, the entry coerced from the last pair naming it |
| Monitoring.BreakdownHasExpected | core/monitoring_helpers.py:267-278 | every expected id is in the breakdown, with empty statistics unless some source named it |
| Monitoring.BreakdownDefault | core/monitoring_helpers.py:276-278 | with no named pair and no expected id, only the default id is reported, with empty statistics |
| Monitoring.Reconcile | core/monitoring_helpers.py:214-247 | without a session id the reconciliation is empty and ok; otherwise the delta is end less start, the difference is the delta less the logged P&L, and it is ok exactly when that difference is within the epsilon |
| Monitoring.ExplainedBalanceReconciles | core/monitoring_helpers.py:239-246 | a balance change the log fully explains always reconciles |
| Session.ShortenTier | core/session.py:12-16 | a named tier (any letter case) gets its abbreviation; any other tier gives its lower-cased form without '-' cut to six characters, or "custom" when nothing is left; a missing tier gives "unknow"; the result is one to six lower-case characters without '-' |
| Session.UnknownTierKey | core/session.py:12-16 | the default tier "unknown" is lower case, has no '-' and is not a named tier, so it is cut to "unknow" |
| Session.ShortenTierIgnoresCase | core/session.py:13-16 | tiers that differ only in letter case get the same abbreviation |
| Session.Pad2 | core/session.py:24 | a two-digit field is two digits that read back as the number |
| Session.DatePart | core/session.py:24 | the date part is eight digits reading back as year, month and day |
| Session.ClockPart | core/session.py:24 | the time part is six digits reading back as hour, minute and second |
| Session.Stamp | core/session.py:24 | the stamp is sixteen characters: the date, 'T', the time and 'Z' |
| Session.SessionId | core/session.py:19-25 | the id is the lower-cased environment ("unknown" when missing or empty), '_', the tier abbreviation ShortenTier gives, '_' and the UTC stamp |
| Session.SessionIdIgnoresCase | core/session.py:22-24 | the id does not depend on the letter case of the environment or the tier |
| RiskProfiles.EnvBlock | core/risk_profiles.py:30-31 | an environment is found exactly when some top-level key lower-cases to it, and the block found is one stored under such a key |
| RiskProfiles.Cap | core/risk_profiles.py:35-39 | an environment-wide cap is present exactly when its value is a number |
| RiskProfiles.FindTier | core/risk_profiles.py:41-46 | a tier is found exactly when some entry is a mapping with a per-trade fraction whose name lower-cases to the tier, and the entry found is one |
| RiskProfiles.Required | core/risk_profiles.py:50-52 | a required tier value is read exactly when its key is present, and otherwise a KeyError names the key |
| RiskProfiles.Bounded | core/risk_profiles.py:54-59 | a capped value is the smaller of the value and the cap: at most both, and equal to one of them |
| RiskProfiles.TopLevel | core/risk_profiles.py:26-30 | a mapping gives its entries, an empty document gives none, and anything else fails on `.items()` |
| RiskProfiles.EnvFields | core/risk_profiles.py:30-33 | the environment block is usable exactly when it is a non-empty mapping; a missing or empty one is a KeyError |
| RiskProfiles.FromBlock | core/risk_profiles.py:35-67 | a missing tier is a KeyError; for a found tier the profile loads exactly when the per-trade fraction and the daily fraction convert to numbers and max_positions converts to an integer, and then each fraction is the smaller of the tier value and its cap when there is one and the position limit is the smaller of the tier limit and the truncated cap |
| RiskProfiles.FromBlockIgnoresNames | core/risk_profiles.py:33-48 | the names shown in error messages do not change the profile found |
| RiskProfiles.LoadRiskProfile | core/risk_profiles.py:21-67 | a missing file is a FileNotFoundError and an unknown environment a KeyError; a non-empty environment block gives exactly the profile FromBlock reads with the lower-cased names; a loaded profile stays within its caps |
| RiskProfiles.LoadIgnoresCase | core/risk_profiles.py:28-46 | loading does not depend on the letter case of the environment or the tier |
| ExecutionAccounts.ProfilesOf | core/execution_accounts.py:27-31 | a missing file has no profiles, and the only failure is calling `.items()` on a non-mapping |
| ExecutionAccounts.ExampleConfigs | core/execution_accounts.py:47-48 | every example profile is copied in order, and the copy fails only when some profile is not a mapping |
| ExecutionAccounts.UserConfigs | core/execution_accounts.py:49-52 | every user profile is kept in order, an empty one as no fields |
| ExecutionAccounts.LoadAccountProfiles | core/execution_accounts.py:34-53 | with neither file there are no profiles, and every merged profile name is upper-cased |
| ExecutionAccounts.UpperKeys | core/execution_accounts.py:47-52 | merging the example and then the user profiles leaves only upper-cased names |
| ExecutionAccounts.ExamplesUpper | core/execution_accounts.py:47-48 | the example profiles are stored under upper-cased names |
| ExecutionAccounts.UsersUpper | core/execution_accounts.py:49-52 | merging user profiles keeps every name upper-cased |
| ExecutionAccounts.MergeExamplesGet | core/execution_accounts.py:47-48 | under each upper-cased name sits, whole, the last example profile of that name |
| ExecutionAccounts.MergeUsersField | core/execution_accounts.py:49-52 | each field of a merged profile is the one the last user profile of that name set, or else what was there |
| ExecutionAccounts.MergeUsersFieldStep | core/execution_accounts.py:50-52 | one user profile updates the fields it sets under its upper-cased name and nothing else |
| ExecutionAccounts.MergeUsersHas | core/execution_accounts.py:49-52 | after the user merge a profile exists exactly under the earlier names and the upper-cased user names |
| ExecutionAccounts.MergeExamplesHas | core/execution_accounts.py:47-48 | after the example merge a profile exists exactly under the earlier names and the upper-cased example names |
| ExecutionAccounts.ProfileFieldPrecedence | core/execution_accounts.py:34-53 | a field the user file sets for a profile wins; otherwise the field comes from the example profile of the same upper-cased name |
| ExecutionAccounts.AvailableProfileNames | core/execution_accounts.py:98-99 | the names come out in string order, are exactly the loaded names, and are upper-cased when the profiles were loaded |
| ExecutionAccounts.MaybeInt | core/execution_accounts.py:102-108 | None, "" and "None" give nothing; anything else gives an integer exactly when `int()` accepts it, and then that integer |
| ExecutionAccounts.MaybeIntOfRendered | core/execution_accounts.py:102-108 | a rendered integer survives the conversion |
| ExecutionAccounts.ResolveLogin | core/execution_accounts.py:67-73 | an explicit login wins, then a convertible environment login, and only then the profile's login |
| ExecutionAccounts.ResolvePassword | core/execution_accounts.py:69-77 | an explicit password wins, then the environment's, and only then the profile's |
| ExecutionAccounts.ResolveServer | core/execution_accounts.py:68-81 | a non-empty explicit server wins, else the environment's; the profile is asked only when neither is set |
| ExecutionAccounts.ProfileData | core/execution_accounts.py:66 | profile data is found exactly when a non-empty name's upper-cased form is a loaded profile |
| ExecutionAccounts.ProfileField | core/execution_accounts.py:66-85 | A field is absent when no profile matches, and otherwise it is the matched profile's own entry for that field |
| ExecutionAccounts.ProfileFieldFromFiles | core/execution_accounts.py:34-66 | For a loaded name, a profile field is the one the user file sets for that upper-cased name, and otherwise the example profile's |
| ExecutionAccounts.ResolveAccount | core/execution_accounts.py:56-95 | The account is named by the upper-cased profile name or "UNSPECIFIED" and takes the resolved login, password and server; the default symbol is the profile's when it is truthy and "EURUSD" otherwise, the description the profile's when truthy and "" otherwise, and the terminal path the profile's or None |
| ExecutionAccounts.UserFileFieldsWin | core/execution_accounts.py:47-94 | A truthy default symbol or description, or any terminal path, that the user file sets for the profile is the resolved account's, whatever the example file says |
| ExecutionAccounts.NoProfileDefaults | core/execution_accounts.py:83-94 | without a matching profile the account holds the "EURUSD" default symbol, no description or terminal path, and only credentials the arguments or the environment gave |
| ExecutionAccounts.ProfileSuppliesCredentials | core/execution_accounts.py:71-81 | with no argument and an empty environment, the login, password and server are the profile's own |
| BotProfiles.StrategyRiskMap | core/bot_profiles.py:31-32 | each id maps to the risk scale of the last enabled strategy with that id |
| BotProfiles.RiskMapKeys | core/bot_profiles.py:31-32 | the map holds exactly the ids of enabled strategies |
| BotProfiles.NoneEnabledEmptyMap | core/bot_profiles.py:31-32 | with every strategy disabled the map is empty |
| BotProfiles.StrategyFromDict | core/bot_profiles.py:89-101 | a non-mapping or an entry without id or name is a ValueError; the id is the stripped id or name; the scale defaults to 1.0 and is otherwise the float() of the field, a field that does not convert being a ValueError; `enabled` defaults to true and is otherwise read by truthiness; an entry loads exactly when it is a mapping with an id and a convertible scale |
| BotProfiles.ProfileWithId | core/bot_profiles.py:95-101 | an entry with a known id keeps it; the scale defaults to 1.0 and is otherwise the float() of the field, a failing conversion being the only error, a ValueError; the switch defaults to true and is otherwise read by truthiness |
| BotProfiles.Strategies | core/bot_profiles.py:61 | one strategy per entry, and any failure is a ValueError |
| BotProfiles.Symbols | core/bot_profiles.py:53-56 | symbols load exactly when they are a non-empty list, one per entry; otherwise a ValueError |
| BotProfiles.TextOr | core/bot_profiles.py:45-51 | a truthy field is read as stripped text, and otherwise the stripped default |
| BotProfiles.LoadBotProfile | core/bot_profiles.py:39-86 | a missing file is a FileNotFoundError and a truthy document that is not a mapping an AttributeError; a loaded profile has a non-empty account alias, the checked upper-cased symbols, env "demo", firm "FTMO_CHALLENGE" and tier "default" unless the fields give truthy values, and the file name as bot id unless bot_id gives one |
| BotProfiles.FromFields | core/bot_profiles.py:45-86 | a missing alias is a ValueError; a loaded profile has the alias, the checked symbols and the defaulted env, firm, tier and bot id, and its metadata is exactly the fields outside the known ones |
| BotProfiles.Assemble | core/bot_profiles.py:58-86 | the strategies must be a list; the alias and symbols are kept, the env, firm, tier and bot id are defaulted, and the metadata is exactly the unknown fields |
| BotProfiles.WithDefaults | core/bot_profiles.py:45-86 | the profile keeps its inputs; env is the field's text or "demo", firm and tier the stripped fields or "FTMO_CHALLENGE" and "default", the bot id the stripped bot_id field or the file name (also when that strips to nothing), non-empty unless the file name is empty; its metadata is exactly the unknown fields |
| StrategyRegistry.Register | core/strategy_registry.py:23-34 | the spec returned carries the lower-cased tag; a lookup of that tag now finds it, every other tag finds what it found before, and a well-formed registry stays well formed |
| StrategyRegistry.PutKeepsWellFormed | core/strategy_registry.py:31-33 | filing a spec under its own tag keeps every spec filed under its own tag |
| StrategyRegistry.RegisteredUnderOwnKey | core/strategy_registry.py:36-40 | in a registry with distinct tags, each stored spec is what a lookup of its tag finds |
| StrategyRegistry.RegisteredSpec | core/strategy_registry.py:31-40 | in a well-formed registry the spec found under a tag carries that tag |
| StrategyRegistry.GetSpec | core/strategy_registry.py:36-40 | a lookup succeeds exactly when the lower-cased tag is registered, returns that spec, and otherwise raises KeyError |
| StrategyRegistry.ClassOf | core/strategy_registry.py:57-58 | the class is found exactly when the lower-cased tag is registered, and is that spec's class |
| StrategyRegistry.List | core/strategy_registry.py:42-43 | the listing has one spec per entry, in registration order |
| StrategyRegistry.GetAfterRegister | core/strategy_registry.py:23-40 | after registering, a lookup with any letter case of the tag finds the new spec |
| StrategyRegistry.RegisterKeepsOthers | core/strategy_registry.py:23-40 | registering one tag leaves lookups of every other tag as they were |
| StrategyRegistry.GetIgnoresCase | core/strategy_registry.py:36-40 | lookups ignore letter case |
| StrategyRegistry.ListOnePerTag | core/strategy_registry.py:42-43 | a well-formed registry lists one spec per tag, each under its lower-cased tag |
| Mt5Prep.StripAngles | scripts/prepare_mt5_data.py:14 | stripping angle brackets leaves none at either end |
| Mt5Prep.NormalizeHeader | scripts/prepare_mt5_data.py:13-14 | a normalised header has no spaces, no upper-case letters and no angle bracket at either end |
| Mt5Prep.BareHeader | scripts/prepare_mt5_data.py:13-14 | a header without whitespace or angle brackets normalises to its lower-cased word |
| Mt5Prep.BracketedHeader | scripts/prepare_mt5_data.py:13-14 | the bracketed MT5 form of such a header normalises to the same lower-cased word |
| Mt5Prep.Keyed | scripts/prepare_mt5_data.py:18 | every column is kept, in order, beside its normalised header |
| Mt5Prep.LastWith | scripts/prepare_mt5_data.py:18 | a key maps to a column exactly when some header normalises to it, and the column is one of those |
| Mt5Prep.FirstWith | scripts/prepare_mt5_data.py:53-56 | a column is found exactly when some header normalises to the key, and it is one of those |
| Mt5Prep.FirstFound | scripts/prepare_mt5_data.py:22-30 | the result is the value for the first key in priority order that finds anything, and nothing when none does |
| Mt5Prep.DetectColumns | scripts/prepare_mt5_data.py:17-32 | the time column is the one for time, else datetime, else timestamp; the date column the one for date, else day; the third slot repeats the time column |
| Mt5Prep.SelectVolumeColumn | scripts/prepare_mt5_data.py:52-57 | the first tickvol column, else volume, else vol, is chosen; with none of them it is a ValueError |
| Mt5Prep.MatchAt | scripts/prepare_mt5_data.py:64 | a match at a position is an underscore followed by H1, M15 or H4, and no match means none of them follows an underscore there |
| Mt5Prep.Search | scripts/prepare_mt5_data.py:64 | the search finds the leftmost match at or after the start, and nothing exactly when there is no match |
| Mt5Prep.InferTimeframe | scripts/prepare_mt5_data.py:60-67 | a non-empty explicit timeframe is upper-cased and wins; otherwise the first matching suffix of the upper-cased stem, else H1 |
| Mt5Prep.InferFromSymbolStem | scripts/prepare_mt5_data.py:60-67 | a file named symbol, '_', timeframe yields that timeframe when the symbol holds no underscore |
| Mt5Prep.Complete | scripts/prepare_mt5_data.py:100-106 | the rows kept are exactly the rows with a timestamp and all five numbers |
| Mt5Prep.KeepFirstFacts | scripts/prepare_mt5_data.py:108 | dropping duplicates keeps input rows with pairwise different timestamps, and every input timestamp survives |
| Mt5Prep.KeepFirst | scripts/prepare_mt5_data.py:108 | dropping duplicate timestamps never adds rows |
| Mt5Prep.KeepFirstSorted | scripts/prepare_mt5_data.py:108 | dropping duplicates keeps a sorted table sorted |
| Mt5Prep.CleanOrdered | scripts/prepare_mt5_data.py:100-113 | the cleaned bars have strictly increasing timestamps, each is a complete input row, and every timestamp of a complete input row is kept |
| Mt5Prep.Clean | scripts/prepare_mt5_data.py:100-113 | cleaning never yields more bars than raw rows |
| Mt5Prep.Missing | scripts/prepare_mt5_data.py:92-95 | the missing price columns are exactly the required ones no header normalises to |
| Mt5Prep.MissingIsEmpty | scripts/prepare_mt5_data.py:92-95 | no price column is missing exactly when every price column is among the kept headers |
| Mt5Prep.Remaining | scripts/prepare_mt5_data.py:81-83 | the time and date columns are dropped, except a column literally named timestamp, and nothing else is |
| Mt5Prep.NormalizeMt5 | scripts/prepare_mt5_data.py:70-113 | an empty export is a ValueError; otherwise a missing time column, then missing price columns (listed), then a missing volume column each give their ValueError, checked in that order, and when the time column, every price column and a volume column are all found the result is exactly the cleaned bars |
| Mt5Prep.CheckKept | scripts/prepare_mt5_data.py:88-113 | with a price column missing the error lists the missing ones; with all present the volume column decides: its error, or the cleaned bars |
| ExportBundle.ResolveHours | scripts/run_export_bundle.py:44-51 | exactly one of hours and days must be given, and days count 24 hours each; otherwise a ValueError |
| ExportBundle.Span | scripts/run_export_bundle.py:55-58 | a whole number of days reads as days, other whole hours as hours, and any other figure in the general float format followed by 'h' |
| ExportBundle.WholeDaysIntegral | scripts/run_export_bundle.py:55-58 | a whole number of days is a whole number of hours |
| ExportBundle.WindowLabel | scripts/run_export_bundle.py:54-59 | the label is the span, '_' and the environment |
| ExportBundle.ResolveLogPath | scripts/run_export_bundle.py:62-68 | an explicit path wins, then the environment's own log when it exists, then the default log |
| ExportBundle.Bundle | scripts/run_export_bundle.py:79-87 | a bundle exists exactly when the chosen log is on disk and every row's timestamp parses; a missing log is a FileNotFoundError and an unreadable stamp the export's ValueError; the CSV and summary are named after the window label, and the CSV holds the rows the log export selects |
| ExportBundle.DaysLabel | scripts/run_export_bundle.py:44-59 | asking for n days labels the bundle n, 'd', '_', the environment |
| ExportBundle.WholeWindowsLabelledApart | scripts/run_export_bundle.py:54-87 | different whole, non-negative windows in one environment never share a label, so never share files |

## Left out

- File, network and terminal I/O is left out: CSV, YAML and JSON reads and writes, directory creation, printing and the command-line `main`/`parse_args` wrappers. The model takes parsed rows, lines and documents as inputs.
- Floating point is left out: prices and money are exact `real`s. Python's `round(x, n)` to decimal places becomes round-half-up `Num.RoundTo`, which differs only on exact ties. The integer roundings `round(x)` of `CapitalPolicy.Compose`, `LegacyCapitalPlan.LegacyCompose`, Monitoring and the lot-step rounding of `PositionSizing.FinalLots` use the exact half-to-even `Num.RoundHalfEven`.
- Text.Lower and Text.Upper change only the ASCII letters, while Python's `.lower()` and `.upper()` follow Unicode. This affects Session, RiskProfiles, BotProfiles, StrategyRegistry, Filters and Mt5Prep on non-ASCII names.
- Strategy.GenerateSignal and OmegaM15.OnBar: every bar carries all of its indicator columns, and a column can only be absent as `None` (NaN), which gives "Insufficient data". In the source a row-like payload without one of the `SMA_fast`, `SMA_slow` or `ATR_14` keys raises KeyError (core/strategy.py:111-115); that error is not modelled.
- Indicator numerics are inputs: Wilder ATR/RSI/ADX smoothing, Bollinger bands, rolling quantiles, the ATR quantiles and the aggression map of `run_backtest`.
- Risk.NewController: the window size is a positive `Risk.Window`. With `window_size` 0 the source keeps an empty deque and raises ZeroDivisionError at its first peak (core/risk.py:207-213), and a negative size is the ValueError of `deque`; neither error is modelled.
- Clocks, uuid tickets and numpy random draws are parameters. Monte-Carlo percentiles, medians and the Sharpe ratio (`core/metrics.py:9-14`, square roots) are left out.
- Names the shown code imports but does not define are parameters, for example the ENABLE_* switches, the RISK_AGGRESSION_* constants, FUNDEDNEXT_100K and RISK_CONFIG.
- The XAUUSD pip size follows the code's fallback to the EURUSD metadata (0.0001), not the 0.01 that some tests expect.
- tests/test_risk.py expects a 1500 daily limit for ULTRA_ULTRA on 100k. The code's profile fraction gives 1000, and the model follows the code.
- Backtest: CSV loading, the tier and transition summaries, and the London-session clock and timezone handling are left out.
- Backtest.RunBacktest: folds the corrected `Backtest.Step`, which records an equity point and the daily range for every processed event. As written, every `continue` of the event loop (core/backtest.py:524-525, 636-637, 654-667, 708-710 and 720-725) skips the point and the daily peak and minimum update at 758-767. `Backtest.StepAsWritten` models that code, and the Findings table records the difference.
- Backtest.Run: the same as `Backtest.RunBacktest`: it folds the corrected step, not `Backtest.StepAsWritten`.
- Simulated: the CSV trade rows are left out, and the uuid ticket is a parameter.
- CapitalPolicy.Spread: the contract states only the shapes. Its content is stated by `SpreadPointwise` and `SpreadConserves`.
- CapitalPolicy: the month loop of `simulate_policy` and its summary over many simulations are not composed into one function. Its steps `Settle`, `Trigger` and `RunPlanMonth` are modelled.
- LegacyCapitalPlan.Simulate: folds the corrected `LegacyCapitalPlan.RunCampaign`, whose stage-2 trigger sees the withdrawals so far, not `LegacyCapitalPlan.RunCampaignAsWritten`, whose trigger always reads 0. The Findings table records the difference.
- LegacyCapitalPlan: `parse_args` and the CSV loading of evaluation and funded runs are left out. Negative evaluation days, which would index numpy arrays from the end, are excluded by `ValidDraw`.
- TradeAnalysis: pandas' `sort_values` is modelled as a stable sort. The missing-file exit and the printing are left out.
- LastTrades: the source sorts on the ISO timestamp string; the model sorts by the UTC instant.
- TradeAnalysis.SummarizeGroup: `entry_time` is an integer instant, so the drawdown order is by time. pandas sorts the column as strings (scripts/analyze_trades.py:31). The two orders agree only when every stamp has the same fixed-width ISO form.
- RecentLogs.Histogram: a bin is keyed by its index into the edges. The source keys it by the label `"{lo}-{hi}"` built from Python's float text of the two edges (scripts/analyze_recent_logs.py:276). With strictly increasing edges the index and the label name the same bin; float formatting is not modelled.
- LiveVsSim: CSV loading, column coalescing and report rendering are left out.
- ExportBundle: the markdown report written into the summary file is left out. Python's `{h:g}` float formatting is the `shortest` parameter, and file existence is a parameter.
- NotificationSnapshot: report keys other than the known ones are ignored, as the code does.
- NotificationSnapshot.SplitLine: the contract states the shape of the key and value. What they are is stated by `SplitLineRoundTrip`.
- Monitoring: the JSON, log and snapshot reading of the payload builders is left out. The logged balance P&L of a session is a parameter. A `dict` built from a list of pairs is not modelled as a source.
- Monitoring.Breakdown: the contract states only that the result is non-empty. Ordering, membership and override are stated by `BreakdownStrictlySorted`, `BreakdownMembers`, `BreakdownLastWins`, `BreakdownHasExpected` and `BreakdownDefault`.
- Session: years before 1000 are zero-padded to four digits, which a platform's `strftime` may not do. The clock is a parameter.
- Yaml.Show: `str()` of a list or a mapping is not modelled; such values render as the empty string.
- Yaml: `int()` of infinity (OverflowError) and underscores inside integer strings are not modelled. Python's bool-as-int and bool-key nuances are not modelled. `float()` on strings is the `parseFloat` parameter.
- ExecutionAccounts: a profile given as a list of pairs is not modelled. For an example profile, `dict()` of it is treated as the TypeError of a non-mapping. For a user profile, `update` would accept it (core/execution_accounts.py:49-52), while the model keeps a falsy non-mapping user profile as no fields and fails any other with TypeError.
- BotProfiles: `list_bot_profiles` (a directory glob) and the bot YAML data files are left out.
- StrategyRegistry: a strategy class is represented by its name, and the module-level registry is a value passed in and returned.
- Mt5Prep: the CSV reading, `pd.to_datetime`, `_combine_timestamp`, `_validate_timeframe` and `main` are left out; parsed values arrive with each row. Lower-casing is ASCII. A stable sort stands in for pandas' sort before the duplicates are dropped. The file stem is a parameter. Duplicate columns are not represented: when two MT5 headers map to one canonical name ("<OPEN>" and "Open" both to `open`, or a renamed volume column beside an existing `volume`), the source's frame carries both columns (scripts/prepare_mt5_data.py:85-98), while the model's row holds one value per canonical name.

## Findings

| source | as written | input that shows it | evidently intended | confidence | as-written member | corrected member |
|---|---|---|---|---|---|---|
| core/backtest.py:626-767 | when the session gate rejects a signal, the `continue` skips the rest of the loop body, including the equity point appended at the end | a bullish crossover at 01:00 (ASIA) with the session filter on: the event is processed, but no equity point is recorded for it | every processed event adds one point to the equity curve and updates the daily range, as the events without an allowed signal and the events that open a trade do; the other `continue`s of the loop (core/backtest.py:524-525, 636-637, 654-667, 708-710, 720-725) skip the point in the same way | medium, not executed | Backtest.StepAsWritten, Backtest.SessionFilteredBarLosesEquityPoint, Backtest.SessionFilteredBarExample | Backtest.Step, Backtest.RunInvariants |
| scripts/run_challenge_sim.py:197 | the summary reads `max_trailing_dd_fraction`, a field the challenge outcome record does not have | any non-empty list of outcomes: the attribute lookup raises AttributeError | the summary reports the worst figure over the outcomes, as the line above does for daily loss | high, not executed | ChallengeSummary.SummarizeAsWritten, ChallengeSummary.AsWrittenFailsOnEverySweep | ChallengeSummary.Summarize, ChallengeSummary.HitRatesNested, ChallengeSummary.BreakdownCoversRuns, ChallengeSummary.RunsWithinCapPassGuard |
| scripts/legacy/run_capital_plan_sim.py:247-252 | the PLAN_D stage-2 trigger compares `withdrawn_total` during the wave loop, but that total is only accumulated after the loop (lines 299-300), so it is always 0 there | a plan whose withdrawals reach the stage-2 trigger before the stage-1 month limit: the corrected campaign enters stage 2, and the campaign as written does not | stage 2 switches on once the withdrawals so far reach the trigger | medium, not executed | LegacyCapitalPlan.RunCampaignAsWritten, LegacyCapitalPlan.AsWrittenIgnoresPayouts, LegacyCapitalPlan.TriggerDiscrepancy | LegacyCapitalPlan.RunCampaign, LegacyCapitalPlan.SimulateFacts |

=== FILE: backtest.dfy ===
/**
 * The event loop of `run_backtest` in core/backtest.py. Each bar event,
 * already joined with its row, the previous row and its symbol's ATR
 * quantiles, is one `Tick`; `Step` is one pass of the loop body and `Run`
 * folds it over the event stream. The loop keeps at most one open position.
 */
module Backtest {
  import opened Wrappers
  import opened Num
  import opened Strategy
  import opened BacktestHelpers
  import Risk
  import Filters
  import RiskAggression
  import Sizing
  import PositionSizing
  import Text
  import Dicts
  import Grouping

  const SecondsPerDay: int := 86400
  const SecondsPerHour: int := 3600
  /** The mode controller's trade window. */
  const ControllerWindow: Risk.Window := 40

  function DayOf(ts: int): int
  {
    ts / SecondsPerDay
  }

  function HourOf(ts: int): (h: int)
    ensures 0 <= h < 24
  {
    (ts % SecondsPerDay) / SecondsPerHour
  }

  /** The settings the loop reads: challenge limits, breakout tuning, sizing table, filter switches, combo map. */
  datatype Config = Config(
    challenge: Risk.ChallengeLimits,
    challengeStartEquity: real,
    defaultMode: Risk.RiskMode,
    breakout: BreakoutConfig,
    riskConfig: Sizing.RiskConfig,
    switches: Filters.FilterSwitches,
    aggressionEnabled: bool,
    comboMap: map<RiskAggression.Combo, RiskAggression.ComboTier>,
    defaultStrategyId: string)

  /** One bar event with the columns of its row that the loop reads (None is NaN). */
  datatype Tick = Tick(
    symbol: string,
    rowIndex: nat,
    frameLength: nat,
    timestamp: int,
    close: real,
    smaFast: Option<real>,
    smaSlow: Option<real>,
    atr: Option<real>,
    smaTrend: Option<real>,
    highBreakout: Option<real>,
    lowBreakout: Option<real>,
    prev: Bar,
    atrLow: real,
    atrHigh: real)

  function CurrentBar(t: Tick): Bar
  {
    Bar(Some(t.close), t.smaFast, t.smaSlow, t.atr)
  }

  /** The first row of a frame has no previous row and is skipped, as is a row past the frame's end. */
  predicate Skipped(t: Tick)
  {
    t.rowIndex == 0 || t.rowIndex >= t.frameLength
  }

  datatype Position = Position(
    symbol: string,
    entryTime: int,
    lotSize: real,
    takeProfit: real,
    riskModeAtEntry: Risk.RiskMode,
    reason: string,
    riskAmount: real,
    track: ExitTrack,
    sessionTag: string,
    volatilityRegime: string,
    trendRegime: string,
    breakoutHigh: Option<real>,
    breakoutLow: Option<real>,
    patternTag: string,
    riskScale: real,
    riskTier: string)

  datatype Trade = Trade(
    symbol: string,
    entryTime: int,
    exitTime: int,
    direction: Action,
    entryPrice: real,
    exitPrice: real,
    stopLoss: real,
    takeProfit: real,
    lotSize: real,
    pnl: real,
    riskModeAtEntry: Risk.RiskMode,
    reason: string,
    riskReward: Option<real>,
    sessionTag: string,
    volatilityRegime: string,
    trendRegime: string,
    atrAtEntry: real,
    patternTag: string,
    rMultiple: real,
    riskScale: real,
    riskTier: string)

  datatype DailyStats = DailyStats(
    date: int,
    equityStartOfDay: real,
    equityEndOfDay: real,
    realizedPnl: real,
    maxIntradayDdFraction: real,
    riskMode: Risk.RiskMode)

  datatype Counts = Counts(
    raw: nat,
    afterSession: nat,
    afterTrend: nat,
    afterVolatility: nat,
    afterBreakout: nat,
    afterRiskAggression: nat,
    filtered: map<string, nat>,
    variants: map<string, nat>,
    combos: map<RiskAggression.Combo, nat>)

  const InitialFiltered: map<string, nat> := map[
    "session" := 0, "trend" := 0, "low_volatility" := 0, "high_vol_sideways" := 0,
    "volatility" := 0, "breakout" := 0, "risk_aggression" := 0, "max_open_positions" := 0]

  /** Everything the loop carries from one event to the next. */
  datatype Loop = Loop(
    ctl: Risk.Controller,
    position: Option<Position>,
    currentDay: Option<int>,
    todaysPnl: real,
    dailyRealized: real,
    maxDailyLossFraction: real,
    dailyStart: real,
    dailyPeak: real,
    dailyMin: real,
    dailyMode: Risk.RiskMode,
    lastEquity: real,
    curve: seq<(int, real)>,
    trades: seq<Trade>,
    dailyStats: seq<DailyStats>,
    counts: Counts)

  function InitialLoop(start: real, mode: Risk.RiskMode): (st: Loop)
    ensures st.ctl.state.currentEquity == start && st.trades == [] && st.curve == [] && st.position.None?
    ensures Risk.CanTrade(st.ctl.state) && Risk.Valid(st.ctl.state)
    ensures st.maxDailyLossFraction == 0.0 && st.lastEquity == start
  {
    Loop(Risk.NewController(Risk.Init(start, mode, None), ControllerWindow), None, None, 0.0, 0.0, 0.0,
         start, start, start, mode, start, [], [], [],
         Counts(0, 0, 0, 0, 0, 0, InitialFiltered, map[], map[]))
  }

  /** Realised PnL of all closed trades, summed from the back. */
  function TotalPnl(trades: seq<Trade>): real
  {
    if |trades| == 0 then 0.0 else TotalPnl(trades[..|trades| - 1]) + trades[|trades| - 1].pnl
  }

  lemma TotalPnlAppend(trades: seq<Trade>, t: Trade)
    ensures TotalPnl(trades + [t]) == TotalPnl(trades) + t.pnl
  {
    assert (trades + [t])[..|trades|] == trades;
  }

  /** The risk state's equity less the realised PnL: unchanged by every step of the loop. */
  function Unexplained(st: Loop): real
  {
    st.ctl.state.currentEquity - TotalPnl(st.trades)
  }

  /** Trading locks and the recorded stop/fail times are only ever set, never cleared. */
  predicate LocksKept(a: Risk.RiskState, b: Risk.RiskState)
  {
    && (a.tradingPaused ==> b.tradingPaused)
    && (a.internalStopOutTriggered ==> b.internalStopOutTriggered)
    && (a.propFailTriggered ==> b.propFailTriggered)
    && (a.internalStopTimestamp.Some? ==> b.internalStopTimestamp == a.internalStopTimestamp)
    && (a.propFailTimestamp.Some? ==> b.propFailTimestamp == a.propFailTimestamp)
  }

  /** Fold today's realised loss, as a fraction of the day's opening equity, into the running worst day. */
  function TrackDailyLoss(st: Loop): (t: Loop)
    ensures t == st.(maxDailyLossFraction := t.maxDailyLossFraction)
    ensures t.maxDailyLossFraction >= st.maxDailyLossFraction
    ensures st.todaysPnl < 0.0 && st.ctl.state.startOfDayEquity > 0.0 ==>
      t.maxDailyLossFraction * st.ctl.state.startOfDayEquity >= -st.todaysPnl
    ensures !(st.todaysPnl < 0.0 && st.ctl.state.startOfDayEquity > 0.0) ==> t == st
  {
    var sod := st.ctl.state.startOfDayEquity;
    if st.todaysPnl < 0.0 && sod > 0.0 then
      var frac := Abs(st.todaysPnl) / sod;
      assert frac * sod == -st.todaysPnl;
      var m := Max(st.maxDailyLossFraction, frac);
      assert m * sod >= frac * sod;
      st.(maxDailyLossFraction := m)
    else st
  }

  /** Intraday drawdown from the day's peak to its low; 0 when the peak is not positive. */
  function IntradayDd(peak: real, low: real): (dd: real)
    ensures peak <= 0.0 ==> dd == 0.0
    ensures peak > 0.0 && low <= peak ==> dd >= 0.0
    ensures peak > 0.0 && 0.0 <= low <= peak ==> dd <= 1.0
  {
    var p := if peak > 0.0 then peak else 0.0;
    if p > 0.0 then
      if 0.0 <= low then
        assert p - low <= p;
        DivMonotone(p - low, p, p);
        (p - low) / p
      else (p - low) / p
    else 0.0
  }

  /** `finalize_current_day`: close the current day, if any, into a DailyStats row. */
  function FinalizeDay(st: Loop, equityEnd: real): (t: Loop)
    ensures st.currentDay.None? ==> t == st
    ensures st.currentDay.Some? ==> |t.dailyStats| == |st.dailyStats| + 1
    ensures st.currentDay.Some? ==> t == st.(dailyStats := st.dailyStats + [t.dailyStats[|st.dailyStats|]])
    ensures st.currentDay.Some? ==> var d := t.dailyStats[|st.dailyStats|];
      && d.date == st.currentDay.value && d.equityEndOfDay == equityEnd && d.equityStartOfDay == st.dailyStart
      && d.realizedPnl == st.dailyRealized && d.riskMode == st.dailyMode
      && (st.dailyPeak > 0.0 && st.dailyMin <= st.dailyPeak ==> d.maxIntradayDdFraction >= 0.0)
  {
    if st.currentDay.None? then st
    else
      var d := DailyStats(st.currentDay.value, st.dailyStart, equityEnd, st.dailyRealized,
                          IntradayDd(st.dailyPeak, st.dailyMin), st.dailyMode);
      st.(dailyStats := st.dailyStats + [d])
  }

  /**
   * The day roll on the first event of a new calendar day: record the old
   * day's loss and stats, reopen the risk state's day at the current equity
   * and reset the daily counters.
   */
  function RollDay(st: Loop, day: int): (t: Loop)
    ensures t.currentDay == Some(day)
    ensures st.currentDay == Some(day) ==> t == st
    ensures st.currentDay != Some(day) ==>
      && t.todaysPnl == 0.0 && t.dailyRealized == 0.0
      && t.ctl.state == st.ctl.state.(startOfDayEquity := st.ctl.state.currentEquity)
      && t.dailyStart == t.dailyPeak == t.dailyMin == st.ctl.state.currentEquity
      && |t.dailyStats| == |st.dailyStats| + (if st.currentDay.Some? then 1 else 0)
    ensures t.position == st.position && t.trades == st.trades && t.curve == st.curve && t.counts == st.counts
    ensures t.ctl.state.currentEquity == st.ctl.state.currentEquity && t.ctl.state.equityPeak == st.ctl.state.equityPeak
    ensures t.ctl.transitions == st.ctl.transitions && t.ctl.windowSize == st.ctl.windowSize
    ensures LocksKept(st.ctl.state, t.ctl.state) && t.ctl.state.currentMode == st.ctl.state.currentMode
    ensures t.maxDailyLossFraction >= st.maxDailyLossFraction && t.lastEquity == st.lastEquity
  {
    if st.currentDay == Some(day) then st
    else
      var s1 := TrackDailyLoss(st);
      var s2 := FinalizeDay(s1, s1.lastEquity);
      var rs := Risk.OnNewDay(s2.ctl.state);
      s2.(ctl := s2.ctl.(state := rs), todaysPnl := 0.0, dailyRealized := 0.0, currentDay := Some(day),
          dailyStart := rs.startOfDayEquity, dailyPeak := rs.startOfDayEquity, dailyMin := rs.startOfDayEquity,
          dailyMode := rs.currentMode)
  }

  /**
   * Before exits and entries: enforce the drawdown limits under the current
   * mode's profile, then step the mode down for the drawdown from the peak.
   */
  function PreTrade(cfg: Config, st: Loop, ts: int): (t: Loop)
    ensures t == st.(ctl := t.ctl)
    ensures t.ctl.state.currentEquity == st.ctl.state.currentEquity && t.ctl.state.equityPeak == st.ctl.state.equityPeak
    ensures t.ctl.state.startOfDayEquity == st.ctl.state.startOfDayEquity
    ensures LocksKept(st.ctl.state, t.ctl.state)
    ensures Risk.Rank(t.ctl.state.currentMode) <= Risk.Rank(st.ctl.state.currentMode)
    ensures Risk.TotalDdFromPeak(st.ctl.state) >= cfg.challenge.maxTotalLossFraction ==> t.ctl.state.propFailTriggered
    ensures Risk.TotalDdFromPeak(st.ctl.state) >= Risk.InternalTrailingLimit(st.ctl.state, Risk.ProfileOf(st.ctl.state.currentMode))
      ==> !Risk.CanTrade(t.ctl.state)
    ensures t.ctl.tradePnls == st.ctl.tradePnls && t.ctl.windowSize == st.ctl.windowSize
  {
    var s := st.ctl.state;
    var rs := Risk.EnforceDrawdownLimits(s, Risk.ProfileOf(s.currentMode), cfg.challenge, Some(ts));
    var c := Risk.StepDownForDrawdown(st.ctl.(state := rs), ts, Risk.TotalDdFromPeak(rs));
    st.(ctl := c)
  }

  /** Stop and target checked against the bar's close, the stop first; anything but a long is a short. */
  function CloseBasedExit(t: ExitTrack, takeProfit: real, close: real): (r: Option<(real, string)>)
    ensures r.Some? ==> r.value == (t.stopLoss, "Stop Loss") || r.value == (takeProfit, "Take Profit")
    ensures t.direction == Long ==>
      && (close <= t.stopLoss <==> r == Some((t.stopLoss, "Stop Loss")))
      && (r.None? <==> t.stopLoss < close < takeProfit)
    ensures t.direction != Long ==>
      && (close >= t.stopLoss <==> r == Some((t.stopLoss, "Stop Loss")))
      && (r.None? <==> takeProfit < close < t.stopLoss)
  {
    if t.direction == Long then
      if close <= t.stopLoss then Some((t.stopLoss, "Stop Loss"))
      else if close >= takeProfit then Some((takeProfit, "Take Profit"))
      else None
    else
      if close >= t.stopLoss then Some((t.stopLoss, "Stop Loss"))
      else if close <= takeProfit then Some((takeProfit, "Take Profit"))
      else None
  }

  predicate Opposite(signal: Action, direction: Action)
  {
    (signal == Long && direction == Short) || (signal == Short && direction == Long)
  }

  /**
   * The exit decision for an open position on the bar's symbol: a stop or
   * target hit, else an opposite signal at the close, else the dynamic exit
   * (which may also move the stop).
   */
  function BarExit(cfg: Config, p: Position, tick: Tick, signal: Action): (r: (Position, Option<(real, string)>))
    ensures CloseBasedExit(p.track, p.takeProfit, tick.close).Some? ==>
      r == (p, CloseBasedExit(p.track, p.takeProfit, tick.close))
    ensures CloseBasedExit(p.track, p.takeProfit, tick.close).None? && Opposite(signal, p.track.direction) ==>
      r == (p, Some((tick.close, "Opposite signal")))
    ensures r.0 == p.(track := r.0.track) && NotLoosened(p.track, r.0.track)
    ensures r.0.track.direction == p.track.direction && r.0.track.entryPrice == p.track.entryPrice
    ensures r.1.Some? && r.1.value.1 == "Extended TP" ==> r.1.value.0 == tick.close
  {
    var fixed := CloseBasedExit(p.track, p.takeProfit, tick.close);
    if fixed.Some? then (p, fixed)
    else if Opposite(signal, p.track.direction) then (p, Some((tick.close, "Opposite signal")))
    else
      var u := UpdateDynamicExit(p.track, tick.close, cfg.breakout, tick.atr);
      (p.(track := u.0), u.1)
  }

  function MakeTrade(p: Position, exitTime: int, exitPrice: real, pnl: real, reason: string, withRiskReward: bool): (tr: Trade)
    ensures tr.pnl == pnl && tr.symbol == p.symbol && tr.direction == p.track.direction && tr.exitPrice == exitPrice
    ensures tr.reason == reason && tr.entryPrice == p.track.entryPrice && tr.lotSize == p.lotSize
  {
    var risk := Abs(p.track.entryPrice - p.track.stopLoss);
    var reward := Abs(p.takeProfit - p.track.entryPrice);
    var rr := if withRiskReward && risk > 0.000000000001 then Some(reward / risk) else None;
    var rMultiple := if p.riskAmount != 0.0 then pnl / p.riskAmount else 0.0;
    Trade(p.symbol, p.entryTime, exitTime, p.track.direction, p.track.entryPrice, exitPrice, p.track.stopLoss,
          p.takeProfit, p.lotSize, pnl, p.riskModeAtEntry, reason, rr, p.sessionTag, p.volatilityRegime,
          p.trendRegime, p.track.atrAtEntry, p.patternTag, rMultiple, p.riskScale, p.riskTier)
  }

  /**
   * Close `p` at `exitPrice`: realise the pip PnL into the risk state and the
   * day's totals, append the trade, feed the mode controller, and clear the
   * position. The internal stop-out close does not update the worst day.
   */
  /** A realised P&L booked to the equity and the day's figures, the day's loss tracked when asked. */
  function Settle(st: Loop, pnl: real, trackLoss: bool): (t: Loop)
    ensures t.ctl == st.ctl.(state := Risk.UpdateEquity(st.ctl.state, st.ctl.state.currentEquity + pnl))
    ensures t.todaysPnl == st.todaysPnl + pnl
    ensures t.trades == st.trades && t.position == st.position
    ensures t.curve == st.curve && t.counts == st.counts && t.currentDay == st.currentDay && t.lastEquity == st.lastEquity
    ensures t.maxDailyLossFraction >= st.maxDailyLossFraction
  {
    var rs := Risk.UpdateEquity(st.ctl.state, st.ctl.state.currentEquity + pnl);
    var s1 := st.(ctl := st.ctl.(state := rs), todaysPnl := st.todaysPnl + pnl, dailyRealized := st.dailyRealized + pnl);
    if trackLoss then TrackDailyLoss(s1) else s1
  }

  function ClosePosition(st: Loop, p: Position, exitTime: int, exitPrice: real, reason: string, trackLoss: bool, withRiskReward: bool): (t: Loop)
    ensures t.position.None?
    ensures |t.trades| == |st.trades| + 1 && t.trades[..|st.trades|] == st.trades
    ensures var tr := t.trades[|st.trades|];
      && tr.pnl == PipPnl(p.track.entryPrice, exitPrice, p.track.direction, p.lotSize)
      && tr.reason == reason && tr.symbol == p.symbol && tr.exitTime == exitTime
      && t.ctl.state.currentEquity == st.ctl.state.currentEquity + tr.pnl
      && t.todaysPnl == st.todaysPnl + tr.pnl
    ensures Unexplained(t) == Unexplained(st)
    ensures LocksKept(st.ctl.state, t.ctl.state)
    ensures t.curve == st.curve && t.counts == st.counts && t.currentDay == st.currentDay && t.lastEquity == st.lastEquity
    ensures t.maxDailyLossFraction >= st.maxDailyLossFraction
    ensures t.ctl.state.startOfDayEquity == st.ctl.state.startOfDayEquity
    ensures Risk.Valid(t.ctl.state)
  {
    var pnl := PipPnl(p.track.entryPrice, exitPrice, p.track.direction, p.lotSize);
    var s2 := Settle(st, pnl, trackLoss);
    var rs := s2.ctl.state;
    var tr := MakeTrade(p, exitTime, exitPrice, pnl, reason, withRiskReward);
    TotalPnlAppend(st.trades, tr);
    assert (st.trades + [tr])[..|st.trades|] == st.trades;
    s2.(trades := st.trades + [tr], ctl := Risk.RecordTrade(s2.ctl, pnl, rs.currentEquity, exitTime), position := None)
  }

  /** The exit pass of the loop: only a position on the event's symbol is examined. */
  function ExitOnBar(cfg: Config, st: Loop, tick: Tick, signal: Action): (t: Loop)
    ensures st.position.None? || st.position.value.symbol != tick.symbol ==> t == st
    ensures Unexplained(t) == Unexplained(st)
    ensures LocksKept(st.ctl.state, t.ctl.state)
    ensures t.curve == st.curve && t.counts == st.counts && t.currentDay == st.currentDay && t.lastEquity == st.lastEquity
    ensures t.ctl.state.startOfDayEquity == st.ctl.state.startOfDayEquity
    ensures t.maxDailyLossFraction >= st.maxDailyLossFraction
    ensures t.position.Some? ==> st.position.Some? && t.position.value == st.position.value.(track := t.position.value.track)
    ensures t.position.Some? ==> NotLoosened(st.position.value.track, t.position.value.track)
    ensures |t.trades| <= |st.trades| + 1
    ensures Risk.Valid(st.ctl.state) ==> Risk.Valid(t.ctl.state)
  {
    if st.position.None? || st.position.value.symbol != tick.symbol then st
    else
      var e := BarExit(cfg, st.position.value, tick, signal);
      if e.1.None? then st.(position := Some(e.0))
      else ClosePosition(st, e.0, tick.timestamp, e.1.value.0, e.1.value.1, true, true)
  }

  /** A tradable signal: long or short, with both distances, while the risk state allows trading. */
  predicate EntryAllowed(d: TradeDecision, s: Risk.RiskState)
  {
    (d.action == Long || d.action == Short) && d.stopDistancePips.Some? && d.takeProfitDistancePips.Some? && Risk.CanTrade(s)
  }

  /** The entry ATR: the row's, or when NaN the symbol's high quantile (if positive, else low), at least 1e-6. */
  function EntryAtr(tick: Tick): (a: real)
    ensures tick.atr.Some? ==> a == tick.atr.value
    ensures tick.atr.None? ==> a >= 0.000001
  {
    if tick.atr.Some? then tick.atr.value
    else Max(if tick.atrHigh > 0.0 then tick.atrHigh else tick.atrLow, 0.000001)
  }

  datatype EntryTags = EntryTags(session: string, atr: real, volatility: string, trend: string)

  function Classify(tick: Tick, action: Action): (g: EntryTags)
    ensures g.session == SessionTag(HourOf(tick.timestamp))
    ensures g.volatility != "UNKNOWN"
  {
    var atr := EntryAtr(tick);
    EntryTags(SessionTag(HourOf(tick.timestamp)), atr, VolatilityRegime(Some(atr), tick.atrLow, tick.atrHigh),
              TrendRegime(action, tick.smaSlow, tick.smaTrend))
  }

  /** The outcome of the entry pass; `continued` marks a Python `continue` out of the loop body. */
  datatype Gate = Gate(st: Loop, continued: bool)

  function Filter(st: Loop, reason: string): (t: Loop)
    ensures t == st.(counts := st.counts.(filtered := Dicts.Bump(st.counts.filtered, reason)))
  {
    st.(counts := st.counts.(filtered := Dicts.Bump(st.counts.filtered, reason)))
  }

  /** `(reason or "volatility").lower()`. */
  function VolatilityReason(reason: Option<string>): string
  {
    Text.Lower(if reason.Some? && reason.value != "" then reason.value else "volatility")
  }

  /** Only the position and the counters may differ. */
  predicate EntryFrame(a: Loop, b: Loop)
  {
    b == a.(position := b.position, counts := b.counts)
  }

  /** A position opened at the close in the signal's direction, with its stop on the losing side. */
  predicate WellPlaced(p: Position, tick: Tick, d: TradeDecision)
  {
    && p.symbol == tick.symbol && p.entryTime == tick.timestamp
    && p.track.direction == d.action && p.track.entryPrice == tick.close
    && d.stopDistancePips.Some? && d.takeProfitDistancePips.Some?
    && p.track.riskPerUnit == d.stopDistancePips.value / PipFactor
    && (d.action == Long ==> p.track.stopLoss == tick.close - p.track.riskPerUnit && p.takeProfit == tick.close + d.takeProfitDistancePips.value / PipFactor)
    && (d.action != Long ==> p.track.stopLoss == tick.close + p.track.riskPerUnit && p.takeProfit == tick.close - d.takeProfitDistancePips.value / PipFactor)
    && p.lotSize >= 0.0001
    && p.riskAmount == d.stopDistancePips.value * PositionSizing.PipValuePerStandardLot * p.lotSize
    && !p.track.breakevenActivated
  }

  /** The internal daily limit is configured above the prop firm's cap, which the admission check refuses. */
  predicate DailyCapMisconfigured(profile: Risk.RiskProfile, challenge: Risk.ChallengeLimits, sod: real)
  {
    Risk.InternalDailyFraction(profile, None) * sod - challenge.maxDailyLossFraction * sod > 0.000000001
  }

  /**
   * A new position is opened only when none was open, without a `continue`,
   * placed as the signal says, and within the internal daily-loss limit.
   */
  predicate OpensWell(before: Loop, g: Gate, tick: Tick, d: TradeDecision, profile: Risk.RiskProfile)
  {
    g.st.position != before.position ==>
      && before.position.None? && !g.continued && g.st.position.Some?
      && WellPlaced(g.st.position.value, tick, d)
      && Risk.WorstCaseLoss(before.todaysPnl, [], g.st.position.value.riskAmount)
         <= Risk.InternalDailyFraction(profile, None) * before.ctl.state.startOfDayEquity
  }

  /**
   * The last gates for a sized, tagged signal: a negligible lot is dropped,
   * an open position blocks the entry, and the daily-loss admission decides.
   */
  function Admit(cfg: Config, st: Loop, tick: Tick, d: TradeDecision, profile: Risk.RiskProfile, tags: EntryTags,
                 lots: real, scale: real, tier: string, pattern: string): (r: Result<Gate>)
    requires d.stopDistancePips.Some? && d.takeProfitDistancePips.Some?
    ensures r.Err? <==> lots >= 0.0001 && st.position.None? && DailyCapMisconfigured(profile, cfg.challenge, st.ctl.state.startOfDayEquity)
    ensures r.Ok? ==> EntryFrame(st, r.value.st) && r.value.st.counts.raw == st.counts.raw
    ensures r.Ok? ==> OpensWell(st, r.value, tick, d, profile)
    ensures r.Ok? && r.value.st.position != st.position ==> r.value.st.position.value.lotSize == lots
    ensures r.Ok? && st.position.Some? ==> r.value.st.position == st.position && r.value.continued
  {
    var stop := d.stopDistancePips.value;
    var riskAmount := stop * PositionSizing.PipValuePerStandardLot * lots;
    if lots < 0.0001 then Ok(Gate(st, true))
    else if st.position.Some? then Ok(Gate(Filter(st, "max_open_positions"), true))
    else
      var sod := st.ctl.state.startOfDayEquity;
      var admitted :- Risk.Admission(st.todaysPnl, [], riskAmount, sod, profile, cfg.challenge, None);
      if !admitted then Ok(Gate(st, false))
      else
        var entry := tick.close;
        var pipToPrice := stop / PipFactor;
        var tpToPrice := d.takeProfitDistancePips.value / PipFactor;
        var isLong := d.action == Long;
        var stopLoss := if isLong then entry - pipToPrice else entry + pipToPrice;
        var takeProfit := if isLong then entry + tpToPrice else entry - tpToPrice;
        var track := ExitTrack(d.action, entry, stopLoss, pipToPrice, tags.atr, false);
        var p := Position(tick.symbol, tick.timestamp, lots, takeProfit, st.ctl.state.currentMode, d.reason,
                          riskAmount, track, tags.session, tags.volatility, tags.trend, tick.highBreakout,
                          tick.lowBreakout, pattern, scale, tier);
        Ok(Gate(st.(position := Some(p)), false))
  }

  /** "breakout_v1" when the entry meets the breakout conditions against the level on its side, else "non_breakout". */
  function PatternTag(cfg: Config, tick: Tick, action: Action, atr: real): (tag: string)
    ensures tag == "breakout_v1" <==>
      MeetsBreakoutConditions(action, tick.close, tick.smaSlow, tick.smaTrend,
                              if action == Long then tick.highBreakout else tick.lowBreakout, Some(atr), cfg.breakout)
    ensures tag == "breakout_v1" || tag == "non_breakout"
  {
    var level := if action == Long then tick.highBreakout else tick.lowBreakout;
    if MeetsBreakoutConditions(action, tick.close, tick.smaSlow, tick.smaTrend, level, Some(atr), cfg.breakout)
    then "breakout_v1" else "non_breakout"
  }

  /** Breakout tagging and risk aggression for a sized signal. */
  function AggressionStage(cfg: Config, st: Loop, tick: Tick, d: TradeDecision, profile: Risk.RiskProfile, tags: EntryTags, lot: real): (r: Result<Gate>)
    requires d.stopDistancePips.Some? && d.takeProfitDistancePips.Some?
    ensures r.Err? ==> DailyCapMisconfigured(profile, cfg.challenge, st.ctl.state.startOfDayEquity)
    ensures r.Ok? ==> EntryFrame(st, r.value.st) && r.value.st.counts.raw == st.counts.raw
    ensures r.Ok? ==> OpensWell(st, r.value, tick, d, profile)
    ensures r.Ok? && st.position.Some? ==> r.value.st.position == st.position && r.value.continued
  {
    var pattern := PatternTag(cfg, tick, d.action, tags.atr);
    var combo := (Some(tags.session), Some(tags.trend), Some(tags.volatility), Some(pattern));
    var st1 := st.(counts := st.counts.(combos := Dicts.Bump(st.counts.combos, combo), afterBreakout := st.counts.afterBreakout + 1));
    var ra := RiskAggression.ShouldAllowRiskAggression(cfg.aggressionEnabled, cfg.comboMap, combo);
    var tier := if ra.tier == "" then "UNKNOWN" else ra.tier;
    if !ra.allowed then Ok(Gate(Filter(st1, "risk_aggression"), true))
    else
      var st2 := st1.(counts := st1.counts.(afterRiskAggression := st1.counts.afterRiskAggression + 1));
      var scale := Max(0.0, ra.riskScale);
      var scaled := lot * scale;
      var lots := if scaled < 0.0 then 0.0 else scaled;
      var r := Admit(cfg, st2, tick, d, profile, tags, lots, scale, tier, pattern);
      CountsOnly(st, st2, r, tick, d, profile);
      r
  }

  /** A state that differs only in its counters frames and admits the same entries. */
  lemma CountsOnly(a: Loop, b: Loop, r: Result<Gate>, tick: Tick, d: TradeDecision, profile: Risk.RiskProfile)
    requires b == a.(counts := b.counts)
    ensures r.Ok? && EntryFrame(b, r.value.st) ==> EntryFrame(a, r.value.st)
    ensures r.Ok? ==> (OpensWell(b, r.value, tick, d, profile) <==> OpensWell(a, r.value, tick, d, profile))
  {
  }

  /** Sizing from the current equity and mode; a non-positive stop distance is a ValueError. */
  function OpenStage(cfg: Config, st: Loop, tick: Tick, d: TradeDecision, profile: Risk.RiskProfile, tags: EntryTags): (r: Result<Gate>)
    requires d.stopDistancePips.Some? && d.takeProfitDistancePips.Some?
    ensures d.stopDistancePips.value <= 0.0 ==> r.Err?
    ensures r.Err? ==> d.stopDistancePips.value <= 0.0 || DailyCapMisconfigured(profile, cfg.challenge, st.ctl.state.startOfDayEquity)
    ensures r.Ok? ==> EntryFrame(st, r.value.st) && r.value.st.counts.raw == st.counts.raw
    ensures r.Ok? ==> OpensWell(st, r.value, tick, d, profile)
    ensures r.Ok? && st.position.Some? ==> r.value.st.position == st.position && r.value.continued
  {
    var lot :- Sizing.ComputePositionSize(st.ctl.state.currentEquity, st.ctl.state.currentMode, d.stopDistancePips.value,
                                          PositionSizing.PipValuePerStandardLot, cfg.riskConfig);
    AggressionStage(cfg, st, tick, d, profile, tags, lot)
  }

  /** The session, trend and volatility gates, each failure counted under its reason. */
  function FilterStage(cfg: Config, st: Loop, tick: Tick, d: TradeDecision, profile: Risk.RiskProfile): (r: Result<Gate>)
    requires d.stopDistancePips.Some? && d.takeProfitDistancePips.Some?
    ensures r.Ok? ==> EntryFrame(st, r.value.st) && r.value.st.counts.raw == st.counts.raw
    ensures var tags := Classify(tick, d.action);
      var fr := Filters.ShouldAllowTrade(cfg.switches, Filters.TradeTags(Some(tags.session), Some(tags.trend), Some(tags.volatility)));
      !fr.allowed ==> (
        && r.Ok? && r.value.continued && r.value.st.position == st.position
        && r.value.st.counts.filtered == Dicts.Bump(st.counts.filtered, if !fr.sessionPassed then "session" else if !fr.trendPassed then "trend" else VolatilityReason(fr.reason)))
    ensures r.Ok? && r.value.st.position != st.position ==>
      && st.position.None? && !r.value.continued
      && WellPlaced(r.value.st.position.value, tick, d)
    ensures r.Ok? && st.position.Some? ==> r.value.st.position == st.position
  {
    var tags := Classify(tick, d.action);
    var fr := Filters.ShouldAllowTrade(cfg.switches, Filters.TradeTags(Some(tags.session), Some(tags.trend), Some(tags.volatility)));
    if !fr.sessionPassed then Ok(Gate(Filter(st, "session"), true))
    else
      var st1 := st.(counts := st.counts.(afterSession := st.counts.afterSession + 1));
      if !fr.trendPassed then Ok(Gate(Filter(st1, "trend"), true))
      else
        var st2 := st1.(counts := st1.counts.(afterTrend := st1.counts.afterTrend + 1));
        if !fr.volatilityPassed then Ok(Gate(Filter(st2, VolatilityReason(fr.reason)), true))
        else
          var st3 := st2.(counts := st2.counts.(afterVolatility := st2.counts.afterVolatility + 1));
          OpenStage(cfg, st3, tick, d, profile, tags)
  }

  /**
   * The entry pass. A signal that is not tradable leaves everything as it
   * was; a tradable one is counted, then filtered, sized and admitted, and
   * opens a position only when none is open.
   */
  function Entry(cfg: Config, st: Loop, tick: Tick, d: TradeDecision, profile: Risk.RiskProfile): (r: Result<Gate>)
    ensures !EntryAllowed(d, st.ctl.state) ==> r == Ok(Gate(st, false))
    ensures EntryAllowed(d, st.ctl.state) && r.Ok? ==> r.value.st.counts.raw == st.counts.raw + 1
    ensures r.Err? ==> EntryAllowed(d, st.ctl.state)
    ensures r.Ok? ==> EntryFrame(st, r.value.st)
    ensures r.Ok? && r.value.st.position != st.position ==>
      && st.position.None? && !r.value.continued && EntryAllowed(d, st.ctl.state)
      && WellPlaced(r.value.st.position.value, tick, d)
    ensures r.Ok? && st.position.Some? ==> r.value.st.position == st.position
  {
    if !EntryAllowed(d, st.ctl.state) then Ok(Gate(st, false))
    else
      var st0 := st.(counts := st.counts.(raw := st.counts.raw + 1, variants := Dicts.Bump(st.counts.variants, d.variant)));
      if profile.maxOpenTrades <= 0 then Ok(Gate(st0, true))
      else
        var r := FilterStage(cfg, st0, tick, d, profile);
        CountsOnly(st, st0, r, tick, d, profile);
        r
  }

  /** The bar's equity: with a position on this symbol marked to the close, flat at the realised equity, else the last value. */
  function MarkedEquity(st: Loop, tick: Tick): (v: real)
    ensures st.position.None? ==> v == st.ctl.state.currentEquity
    ensures st.position.Some? && st.position.value.symbol != tick.symbol ==> v == st.lastEquity
  {
    if st.position.Some? && st.position.value.symbol == tick.symbol then
      var p := st.position.value;
      st.ctl.state.currentEquity + PipPnl(p.track.entryPrice, tick.close, p.track.direction, p.lotSize)
    else if st.position.None? then st.ctl.state.currentEquity
    else st.lastEquity
  }

  /** Append the bar's equity point and widen the day's range to include it. */
  function RecordEquity(st: Loop, tick: Tick): (t: Loop)
    ensures t.curve == st.curve + [(tick.timestamp, MarkedEquity(st, tick))]
    ensures t.lastEquity == MarkedEquity(st, tick)
    ensures t.dailyMin <= t.lastEquity <= t.dailyPeak
    ensures t.dailyPeak >= st.dailyPeak && t.dailyMin <= st.dailyMin
    ensures t == st.(curve := t.curve, lastEquity := t.lastEquity, dailyPeak := t.dailyPeak, dailyMin := t.dailyMin)
  {
    var v := MarkedEquity(st, tick);
    st.(curve := st.curve + [(tick.timestamp, v)], dailyPeak := Max(st.dailyPeak, v), dailyMin := Min(st.dailyMin, v), lastEquity := v)
  }

  /** After an internal stop-out, a position on the event's symbol is closed at the bar's close. */
  function InternalStopOut(st: Loop, tick: Tick): (t: Loop)
    ensures st.position.Some? && st.ctl.state.internalStopOutTriggered && st.position.value.symbol == tick.symbol ==>
      && t.position.None? && |t.trades| == |st.trades| + 1
      && t.trades[|st.trades|].reason == "Internal stop-out" && t.trades[|st.trades|].exitPrice == tick.close
    ensures !(st.position.Some? && st.ctl.state.internalStopOutTriggered && st.position.value.symbol == tick.symbol) ==> t == st
    ensures Unexplained(t) == Unexplained(st)
    ensures LocksKept(st.ctl.state, t.ctl.state)
    ensures t.curve == st.curve && t.counts == st.counts
    ensures t.maxDailyLossFraction >= st.maxDailyLossFraction
    ensures Risk.Valid(st.ctl.state) ==> Risk.Valid(t.ctl.state)
  {
    if st.position.Some? && st.ctl.state.internalStopOutTriggered && st.position.value.symbol == tick.symbol then
      var t := ClosePosition(st, st.position.value, tick.timestamp, tick.close, "Internal stop-out", false, false);
      assert t.trades[|st.trades|].exitPrice == tick.close;
      t
    else st
  }

  /**
   * The loop body up to the entry pass: day roll, signal, limit enforcement
   * and step-down, and exits. Also returns the mode whose profile the entry
   * pass uses: the mode after the step-down and before the exits, so a
   * step-up recorded by an exit on this bar does not reach it.
   */
  function BeforeEntry(cfg: Config, st: Loop, tick: Tick): (r: (Loop, TradeDecision, Risk.RiskMode))
    ensures r.1 == GenerateSignal(CurrentBar(tick), tick.prev, "EURUSD", cfg.defaultStrategyId)
    ensures r.2 == PreTrade(cfg, RollDay(st, DayOf(tick.timestamp)), tick.timestamp).ctl.state.currentMode
    ensures Unexplained(r.0) == Unexplained(st)
    ensures LocksKept(st.ctl.state, r.0.ctl.state)
    ensures r.0.curve == st.curve && r.0.counts == st.counts && r.0.currentDay == Some(DayOf(tick.timestamp))
    ensures r.0.maxDailyLossFraction >= st.maxDailyLossFraction && r.0.lastEquity == st.lastEquity
    ensures Risk.Valid(st.ctl.state) ==> Risk.Valid(r.0.ctl.state)
  {
    var s1 := RollDay(st, DayOf(tick.timestamp));
    assert Unexplained(s1) == Unexplained(st) && s1.ctl.state.equityPeak == st.ctl.state.equityPeak;
    var signal := GenerateSignal(CurrentBar(tick), tick.prev, "EURUSD", cfg.defaultStrategyId);
    var s2 := PreTrade(cfg, s1, tick.timestamp);
    assert Unexplained(s2) == Unexplained(s1) && LocksKept(st.ctl.state, s2.ctl.state);
    (ExitOnBar(cfg, s2, tick, signal.action), signal, s2.ctl.state.currentMode)
  }

  /** One pass of the loop body, recording an equity point for every processed event. */
  function Step(cfg: Config, st: Loop, tick: Tick): (r: Result<Loop>)
    ensures Skipped(tick) ==> r == Ok(st)
    ensures r.Ok? ==> Unexplained(r.value) == Unexplained(st)
    ensures r.Ok? ==> LocksKept(st.ctl.state, r.value.ctl.state)
    ensures r.Ok? ==> |r.value.curve| == |st.curve| + (if Skipped(tick) then 0 else 1)
    ensures r.Ok? && Risk.Valid(st.ctl.state) ==> Risk.Valid(r.value.ctl.state)
    ensures r.Ok? ==> r.value.maxDailyLossFraction >= st.maxDailyLossFraction
  {
    if Skipped(tick) then Ok(st)
    else
      var b := BeforeEntry(cfg, st, tick);
      var g :- Entry(cfg, b.0, tick, b.1, Risk.ProfileOf(b.2));
      Ok(Finish(b.0, g.st, tick))
  }

  /** The end of a processed event: the equity point, then the internal stop-out close. */
  function Finish(s1: Loop, g: Loop, tick: Tick): (t: Loop)
    requires EntryFrame(s1, g)
    ensures Unexplained(t) == Unexplained(s1)
    ensures LocksKept(s1.ctl.state, t.ctl.state)
    ensures t.curve == s1.curve + [(tick.timestamp, MarkedEquity(g, tick))]
    ensures Risk.Valid(s1.ctl.state) ==> Risk.Valid(t.ctl.state)
    ensures t.maxDailyLossFraction >= s1.maxDailyLossFraction
  {
    assert g.ctl == s1.ctl && g.trades == s1.trades && g.curve == s1.curve;
    InternalStopOut(RecordEquity(g, tick), tick)
  }

  /** The loop body as written: a `continue` in the entry pass also skips the equity point and the internal stop-out close. */
  function StepAsWritten(cfg: Config, st: Loop, tick: Tick): (r: Result<Loop>)
    ensures Skipped(tick) ==> r == Ok(st)
    ensures r.Ok? ==> Unexplained(r.value) == Unexplained(st)
    ensures r.Ok? ==> LocksKept(st.ctl.state, r.value.ctl.state)
    ensures r.Ok? ==> |st.curve| <= |r.value.curve| <= |st.curve| + 1
  {
    if Skipped(tick) then Ok(st)
    else
      var b := BeforeEntry(cfg, st, tick);
      var g :- Entry(cfg, b.0, tick, b.1, Risk.ProfileOf(b.2));
      if g.continued then
        assert g.st.ctl == b.0.ctl && g.st.trades == b.0.trades && g.st.curve == b.0.curve;
        Ok(g.st)
      else Ok(Finish(b.0, g.st, tick))
  }

  /**
   * A tradable signal turned away by the session gate. As written the bar
   * then records no equity point and leaves the last equity, the day's
   * range and the internal stop-out close untouched, even when an exit on
   * the same bar has just realised PnL; the corrected step records the point.
   */
  lemma SessionFilteredBarLosesEquityPoint(cfg: Config, st: Loop, tick: Tick)
    requires !Skipped(tick)
    requires cfg.switches.session && HourOf(tick.timestamp) < 8
    requires EntryAllowed(BeforeEntry(cfg, st, tick).1, BeforeEntry(cfg, st, tick).0.ctl.state)
    ensures StepAsWritten(cfg, st, tick).Ok?
    ensures StepAsWritten(cfg, st, tick).value.curve == st.curve
    ensures StepAsWritten(cfg, st, tick).value.lastEquity == st.lastEquity
    ensures Step(cfg, st, tick).Ok?
    ensures |Step(cfg, st, tick).value.curve| == |st.curve| + 1
  {
    AsWrittenSkipsPoint(cfg, st, tick);
    var b := BeforeEntry(cfg, st, tick);
    SessionGateContinues(cfg, b.0, tick, b.1, b.2);
  }

  /** The as-written half: the `continue` leaves the curve and the last equity as they were. */
  lemma AsWrittenSkipsPoint(cfg: Config, st: Loop, tick: Tick)
    requires !Skipped(tick)
    requires cfg.switches.session && HourOf(tick.timestamp) < 8
    requires EntryAllowed(BeforeEntry(cfg, st, tick).1, BeforeEntry(cfg, st, tick).0.ctl.state)
    ensures StepAsWritten(cfg, st, tick).Ok?
    ensures StepAsWritten(cfg, st, tick).value.curve == st.curve
    ensures StepAsWritten(cfg, st, tick).value.lastEquity == st.lastEquity
  {
    var b := BeforeEntry(cfg, st, tick);
    SessionGateContinues(cfg, b.0, tick, b.1, b.2);
  }

  /** An allowed signal in the Asian session, with the session filter on, ends the entry pass with a `continue`. */
  lemma SessionGateContinues(cfg: Config, st: Loop, tick: Tick, d: TradeDecision, mode: Risk.RiskMode)
    requires EntryAllowed(d, st.ctl.state)
    requires cfg.switches.session && HourOf(tick.timestamp) < 8
    ensures Entry(cfg, st, tick, d, Risk.ProfileOf(mode)).Ok? && Entry(cfg, st, tick, d, Risk.ProfileOf(mode)).value.continued
    ensures Entry(cfg, st, tick, d, Risk.ProfileOf(mode)).value.st.curve == st.curve
    ensures Entry(cfg, st, tick, d, Risk.ProfileOf(mode)).value.st.lastEquity == st.lastEquity
  {
    Risk.ProfilesOrdered(mode, mode);
    assert Text.Upper("ASIA") == "ASIA";
    var tags := Classify(tick, d.action);
    assert tags.session == "ASIA";
    assert !Filters.SessionGate(cfg.switches, Filters.TradeTags(Some(tags.session), Some(tags.trend), Some(tags.volatility)));
  }

  /**
   * The session-filter case occurs: on a fresh loop with the session filter
   * on, a bullish crossover at 01:00 meets every premise of
   * SessionFilteredBarLosesEquityPoint.
   */
  lemma SessionFilteredBarExample(cfg: Config, st: Loop, tick: Tick)
    requires cfg.switches.session
    requires cfg.challenge.maxTotalLossFraction > 0.0
    requires st == InitialLoop(10000.0, Risk.Conservative) && tick == CrossoverTick()
    ensures !Skipped(tick) && HourOf(tick.timestamp) < 8
    ensures EntryAllowed(BeforeEntry(cfg, st, tick).1, BeforeEntry(cfg, st, tick).0.ctl.state)
  {
    FreshLoopCanTrade(cfg, st, tick);
    CrossoverIsLong(cfg);
  }

  /** An EURUSD bar at 01:00 whose fast SMA crosses above the slow one. */
  function CrossoverTick(): (t: Tick)
    ensures !Skipped(t) && HourOf(t.timestamp) == 1
  {
    Tick("EURUSD", 1, 2, 3600, 1.25, Some(1.25), Some(1.23), Some(0.0006), None, None, None,
         Bar(Some(1.2), Some(1.20), Some(1.21), Some(0.0005)), 0.0, 0.0)
  }

  lemma CrossoverIsLong(cfg: Config)
    ensures var d := GenerateSignal(CurrentBar(CrossoverTick()), CrossoverTick().prev, "EURUSD", cfg.defaultStrategyId);
      d.action == Long && d.stopDistancePips.Some? && d.takeProfitDistancePips.Some?
  {
    assert CrossUp(CurrentBar(CrossoverTick()), CrossoverTick().prev);
  }

  lemma FreshLoopCanTrade(cfg: Config, st: Loop, tick: Tick)
    requires st == InitialLoop(10000.0, Risk.Conservative)
    requires cfg.challenge.maxTotalLossFraction > 0.0
    ensures Risk.CanTrade(BeforeEntry(cfg, st, tick).0.ctl.state)
  {
    var s1 := RollDay(st, DayOf(tick.timestamp));
    assert s1.ctl.state.equityPeak == 10000.0 == s1.ctl.state.currentEquity;
    assert Risk.TotalDdFromPeak(s1.ctl.state) == 0.0;
    var s2 := PreTrade(cfg, s1, tick.timestamp);
    assert Risk.CanTrade(s2.ctl.state);
  }

  /** The loop over all events; the first error ends it. */
  function Run(cfg: Config, st: Loop, ticks: seq<Tick>): (r: Result<Loop>)
    ensures r.Ok? ==> Unexplained(r.value) == Unexplained(st)
    ensures r.Ok? ==> |r.value.curve| == |st.curve| + CountProcessed(ticks)
    decreases |ticks|
  {
    if |ticks| == 0 then Ok(st)
    else
      var s1 :- Step(cfg, st, ticks[0]);
      Run(cfg, s1, ticks[1..])
  }

  function CountProcessed(ticks: seq<Tick>): nat
  {
    if |ticks| == 0 then 0 else (if Skipped(ticks[0]) then 0 else 1) + CountProcessed(ticks[1..])
  }

  /**
   * Over a whole run the risk state's equity equals its start plus the PnL
   * of every recorded trade, locks are never cleared, and there is one
   * equity point per processed event.
   */
  lemma {:induction false} RunInvariants(cfg: Config, st: Loop, ticks: seq<Tick>)
    requires Risk.Valid(st.ctl.state)
    ensures var r := Run(cfg, st, ticks);
      r.Ok? ==>
        && Unexplained(r.value) == Unexplained(st)
        && LocksKept(st.ctl.state, r.value.ctl.state)
        && |r.value.curve| == |st.curve| + CountProcessed(ticks)
        && Risk.Valid(r.value.ctl.state)
        && r.value.maxDailyLossFraction >= st.maxDailyLossFraction
    decreases |ticks|
  {
    if |ticks| > 0 {
      var s1 := Step(cfg, st, ticks[0]);
      if s1.Ok? {
        RunInvariants(cfg, s1.value, ticks[1..]);
      }
    }
  }

  /** Equity equals the starting equity plus the sum of the recorded trades' PnL. */
  lemma RunLedger(cfg: Config, start: real, mode: Risk.RiskMode, ticks: seq<Tick>)
    ensures var r := Run(cfg, InitialLoop(start, mode), ticks);
      r.Ok? ==> r.value.ctl.state.currentEquity == start + TotalPnl(r.value.trades)
  {
    RunInvariants(cfg, InitialLoop(start, mode), ticks);
  }

  /** Share of trades with positive PnL; 0 without trades. */
  function WinRate(trades: seq<Trade>): (w: real)
    ensures |trades| == 0 ==> w == 0.0
    ensures |trades| > 0 ==> Scales(w, |trades| as real, CountWins(trades) as real)
    ensures 0.0 <= w <= 1.0
  {
    Ratio(CountWins(trades), |trades|)
  }

  function CountWins(trades: seq<Trade>): (k: nat)
    ensures k <= |trades|
  {
    if |trades| == 0 then 0 else CountWins(trades[..|trades| - 1]) + (if trades[|trades| - 1].pnl > 0.0 then 1 else 0)
  }

  /** Mean of the reward-to-risk figures; 0 when there are none. */
  function AverageRr(rrs: seq<real>): (r: real)
    ensures |rrs| == 0 ==> r == 0.0
    ensures |rrs| > 0 ==> Scales(r, |rrs| as real, Sum(rrs))
  {
    if |rrs| == 0 then 0.0 else Sum(rrs) / (|rrs| as real)
  }

  /** A trade that carries a reward-to-risk figure. */
  predicate HasRr(t: Trade)
  {
    t.riskReward.Some?
  }

  /** The reward-to-risk figures of the trades that have one, in trade order. */
  function RiskRewards(trades: seq<Trade>): (rrs: seq<real>)
    ensures |rrs| <= |trades|
    ensures |rrs| == |Grouping.KeptIndices(trades, HasRr)|
    ensures forall k :: 0 <= k < |rrs| ==> trades[Grouping.KeptIndices(trades, HasRr)[k]].riskReward == Some(rrs[k])
  {
    var kept := Grouping.Filter(trades, HasRr);
    Grouping.FilterInOrder(trades, HasRr);
    seq(|kept|, k requires 0 <= k < |kept| => kept[k].riskReward.GetOr(0.0))
  }

  datatype Summary = Summary(
    finalEquity: real,
    totalReturn: real,
    maxDrawdown: real,
    winRate: real,
    numberOfTrades: nat,
    averageRr: real,
    maxDailyLossFraction: real,
    internalStopOutTriggered: bool,
    propFailTriggered: bool,
    internalStopTimestamp: Option<int>,
    propFailTimestamp: Option<int>,
    trades: seq<Trade>,
    dailyStats: seq<DailyStats>,
    transitions: seq<Risk.ModeTransition>,
    counts: Counts)

  function CurveValues(curve: seq<(int, real)>): (vs: seq<real>)
    ensures |vs| == |curve|
    ensures forall i :: 0 <= i < |curve| ==> vs[i] == curve[i].1
  {
    seq(|curve|, i requires 0 <= i < |curve| => curve[i].1)
  }

  /** The last equity point, or the starting equity when there is none. */
  function FinalEquity(start: real, curve: seq<(int, real)>): (f: real)
    ensures |curve| > 0 ==> f == curve[|curve| - 1].1
    ensures |curve| == 0 ==> f == start
  {
    if |curve| > 0 then curve[|curve| - 1].1 else start
  }

  /** `r` is the return of moving from `start` to `finalEquity`, as a fraction of `start`. */
  predicate IsReturn(r: real, finalEquity: real, start: real)
  {
    r * start == finalEquity - start
  }

  function TotalReturn(finalEquity: real, start: real): (r: real)
    requires start != 0.0
    ensures IsReturn(r, finalEquity, start)
  {
    (finalEquity - start) / start
  }

  /**
   * `_recent_drawdown(curve) or 0.0`: with two or more points, the largest
   * drawdown of any point from the running maximum before it.
   */
  function CurveDrawdown(curve: seq<(int, real)>): (dd: real)
    ensures dd >= 0.0
    ensures |curve| < 2 ==> dd == 0.0
    ensures |curve| >= 2 ==> forall i :: 0 <= i < |curve| ==> DrawdownAt(CurveValues(curve), i) <= dd
    ensures |curve| >= 2 ==> exists i :: 0 <= i < |curve| && DrawdownAt(CurveValues(curve), i) == dd
  {
    var r := RecentDrawdown(CurveValues(curve));
    if r.Some? then r.value else 0.0
  }

  /** The last day's loss is tracked and its stats row closed. */
  function CloseBooks(st: Loop): (t: Loop)
    ensures t.maxDailyLossFraction >= st.maxDailyLossFraction
    ensures |t.dailyStats| == |st.dailyStats| + (if st.currentDay.Some? then 1 else 0)
    ensures t.dailyStats[..|st.dailyStats|] == st.dailyStats
    ensures t.ctl == st.ctl
  {
    var t := TrackDailyLoss(st);
    assert t.currentDay == st.currentDay && t.dailyStats == st.dailyStats && t.ctl == st.ctl;
    FinalizeDay(t, st.lastEquity)
  }

  /** The post-loop bookkeeping: the last day's loss and stats, and the result figures. */
  function Summarize(start: real, st: Loop): (s: Summary)
    requires start != 0.0
    ensures s.finalEquity == FinalEquity(start, st.curve)
    ensures IsReturn(s.totalReturn, s.finalEquity, start)
    ensures s.maxDrawdown >= 0.0
    ensures 0.0 <= s.winRate <= 1.0 && s.numberOfTrades == |st.trades| && s.trades == st.trades
    ensures s.maxDailyLossFraction >= st.maxDailyLossFraction
    ensures |s.dailyStats| == |st.dailyStats| + (if st.currentDay.Some? then 1 else 0)
    ensures s.maxDrawdown == CurveDrawdown(st.curve)
    ensures s.winRate == WinRate(st.trades)
    ensures s.averageRr == AverageRr(RiskRewards(st.trades))
    ensures s.maxDailyLossFraction == CloseBooks(st).maxDailyLossFraction
    ensures s.dailyStats == CloseBooks(st).dailyStats
    ensures s.internalStopOutTriggered == st.ctl.state.internalStopOutTriggered
    ensures s.propFailTriggered == st.ctl.state.propFailTriggered
    ensures s.internalStopTimestamp == st.ctl.state.internalStopTimestamp
    ensures s.propFailTimestamp == st.ctl.state.propFailTimestamp
    ensures s.transitions == st.ctl.transitions && s.counts == st.counts
  {
    var s2 := CloseBooks(st);
    var finalEquity := FinalEquity(start, st.curve);
    var totalReturn := TotalReturn(finalEquity, start);
    var winRate := WinRate(st.trades);
    assert 0.0 <= winRate <= 1.0;
    var rs := s2.ctl.state;
    Summary(finalEquity, totalReturn, CurveDrawdown(st.curve), winRate,
            |st.trades|, AverageRr(RiskRewards(st.trades)), s2.maxDailyLossFraction, rs.internalStopOutTriggered,
            rs.propFailTriggered, rs.internalStopTimestamp, rs.propFailTimestamp, st.trades, s2.dailyStats,
            st.ctl.transitions, st.counts)
  }

  /** The message of the ValueError an empty event stream raises. */
  const NoEventsMessage: string := "No events generated for backtest; ensure your CSVs contain data."

  /**
   * `run_backtest` over a prepared event stream. A zero starting equity is
   * replaced by the challenge's; an empty stream is a ValueError, and when
   * both equities are zero the total return divides by zero.
   */
  function RunBacktest(cfg: Config, startingEquity: real, initialMode: Option<Risk.RiskMode>, ticks: seq<Tick>): (r: Result<Summary>)
    ensures |ticks| == 0 ==> r == Err(ValueError(NoEventsMessage))
    ensures |ticks| > 0 && startingEquity == 0.0 && cfg.challengeStartEquity == 0.0 ==> r.Err?
    ensures r.Ok? ==> 0.0 <= r.value.winRate <= 1.0 && r.value.maxDrawdown >= 0.0 && r.value.maxDailyLossFraction >= 0.0
    ensures r.Ok? ==> r.value.numberOfTrades == |r.value.trades|
  {
    if |ticks| == 0 then Err(ValueError(NoEventsMessage))
    else
      var start := if startingEquity != 0.0 then startingEquity else cfg.challengeStartEquity;
      var mode := if initialMode.Some? then initialMode.value else cfg.defaultMode;
      var init := InitialLoop(start, mode);
      var run := Run(cfg, init, ticks);
      RunInvariants(cfg, init, ticks);
      assert run.Ok? ==> run.value.maxDailyLossFraction >= 0.0;
      SummarizeRun(start, run)
  }

  /**
   * The summary of a finished loop whose daily-loss figure never fell below
   * zero; a failed loop stays failed, and a zero starting equity makes the
   * total return a ZeroDivisionError.
   */
  function SummarizeRun(start: real, run: Result<Loop>): (r: Result<Summary>)
    requires run.Ok? ==> run.value.maxDailyLossFraction >= 0.0
    ensures r.Ok? <==> run.Ok? && start != 0.0
    ensures run.Err? ==> r == Err(run.error)
    ensures run.Ok? && start == 0.0 ==> r == Err(ZeroDivisionError("float division by zero"))
    ensures r.Ok? ==> 0.0 <= r.value.winRate <= 1.0 && r.value.maxDrawdown >= 0.0 && r.value.maxDailyLossFraction >= 0.0
    ensures r.Ok? ==> r.value.numberOfTrades == |r.value.trades| && r.value.trades == run.value.trades
    ensures r.Ok? ==> r.value == Summarize(start, run.value)
  {
    var st :- run;
    if start == 0.0 then Err(ZeroDivisionError("float division by zero"))
    else Ok(Summarize(start, st))
  }
}

=== FILE: backtest_helpers.dfy ===
/**
 * The pure helpers of core/backtest.py: pip PnL, the running-max drawdown,
 * the session/volatility/trend tags, the breakout pattern test, and the
 * breakeven/trailing/extended-target exit update.
 */
module BacktestHelpers {
  import opened Wrappers
  import opened Num
  import opened Strategy
  import PositionSizing

  /** The backtest's fixed pip factor: every symbol is priced with a 0.0001 pip. */
  const PipFactor: real := 10000.0

  /** Realised PnL of a trade: pips moved (sign-flipped for a short) times pip value times lots. */
  function PipPnl(entry: real, exit: real, direction: Action, lot: real): (pnl: real)
    ensures direction != Short ==> pnl == (exit - entry) * PipFactor * PositionSizing.PipValuePerStandardLot * lot
    ensures direction == Short ==> pnl == (entry - exit) * PipFactor * PositionSizing.PipValuePerStandardLot * lot
  {
    var pipDiff := (exit - entry) * PipFactor;
    var signed := if direction == Short then -pipDiff else pipDiff;
    signed * PositionSizing.PipValuePerStandardLot * lot
  }

  /** No move, no PnL; and a long and a short over the same prices mirror each other. */
  lemma PipPnlProperties(entry: real, exit: real, lot: real)
    ensures PipPnl(entry, entry, Long, lot) == 0.0 && PipPnl(entry, entry, Short, lot) == 0.0
    ensures PipPnl(entry, exit, Long, lot) == -PipPnl(entry, exit, Short, lot)
    ensures lot > 0.0 && exit > entry ==> PipPnl(entry, exit, Long, lot) > 0.0
  {
    var d := (exit - entry) * PipFactor * PositionSizing.PipValuePerStandardLot;
    assert PipPnl(entry, exit, Long, lot) == d * lot;
    assert PipPnl(entry, exit, Short, lot) == (-d) * lot;
  }

  /** The running maximum up to and including index `i`. */
  function RunningMax(values: seq<real>, i: nat): (m: real)
    requires i < |values|
    ensures m >= values[i]
  {
    SeqMax(values[..i + 1])
  }

  /** Drawdown at index `i` from the running maximum, a zero maximum being replaced by 1e-12. */
  function DrawdownAt(values: seq<real>, i: nat): real
    requires i < |values|
  {
    var rm := RunningMax(values, i);
    var base := if rm == 0.0 then 0.000000000001 else rm;
    (base - values[i]) / base
  }

  /** The first point is measured against itself, so its drawdown is 0 (1 when it is exactly 0). */
  lemma FirstDrawdownNonNegative(values: seq<real>)
    requires |values| > 0
    ensures DrawdownAt(values, 0) >= 0.0
  {
    assert values[..1] == [values[0]];
    assert RunningMax(values, 0) == values[0];
  }

  /** The drawdown of every point, in order. */
  function Drawdowns(values: seq<real>): (d: seq<real>)
    ensures |d| == |values|
    ensures forall i :: 0 <= i < |values| ==> d[i] == DrawdownAt(values, i)
  {
    seq(|values|, i requires 0 <= i < |values| => DrawdownAt(values, i))
  }

  /** `_recent_drawdown`: None for fewer than two points, else the largest drawdown from the running maximum. */
  function RecentDrawdown(values: seq<real>): (r: Option<real>)
    ensures r.None? <==> |values| < 2
    ensures r.Some? ==> r.value >= 0.0
    ensures r.Some? ==> forall i :: 0 <= i < |values| ==> DrawdownAt(values, i) <= r.value
    ensures r.Some? ==> exists i :: 0 <= i < |values| && DrawdownAt(values, i) == r.value
  {
    if |values| < 2 then None
    else
      var dds := Drawdowns(values);
      FirstDrawdownNonNegative(values);
      Some(SeqMax(dds))
  }

  /** `_session_tag`: hours [0, 8) are ASIA, [8, 16) LONDON, the rest NY. */
  function SessionTag(hour: int): (tag: string)
    ensures 0 <= hour < 8 ==> tag == "ASIA"
    ensures 8 <= hour < 16 ==> tag == "LONDON"
    ensures tag == "NY" <==> !(0 <= hour < 16)
  {
    if 0 <= hour < 8 then "ASIA" else if 8 <= hour < 16 then "LONDON" else "NY"
  }

  /** `_volatility_regime` of an ATR (None is NaN) against the low/high quantile cut-offs. */
  function VolatilityRegime(atr: Option<real>, low: real, high: real): (tag: string)
    ensures atr.None? <==> tag == "UNKNOWN"
    ensures tag == "LOW" <==> atr.Some? && atr.value < low
    ensures tag == "NORMAL" <==> atr.Some? && low <= atr.value <= high
    ensures tag == "HIGH" <==> atr.Some? && atr.value >= low && atr.value > high
  {
    if atr.None? then "UNKNOWN"
    else if atr.value < low then "LOW"
    else if atr.value <= high then "NORMAL"
    else "HIGH"
  }

  const SidewaysBand: real := 0.00015

  /** `_trend_regime`: the slow SMA against the trend SMA, read in the trade's direction. */
  function TrendRegime(direction: Action, smaSlow: Option<real>, smaTrend: Option<real>): (tag: string)
    ensures smaSlow.None? || smaTrend.None? ==> tag == "UNKNOWN"
    ensures smaSlow.Some? && smaTrend.Some? && Abs(smaSlow.value - smaTrend.value) < SidewaysBand ==> tag == "SIDEWAYS"
    ensures tag == "WITH_TREND" <==>
      && smaSlow.Some? && smaTrend.Some? && Abs(smaSlow.value - smaTrend.value) >= SidewaysBand
      && ((direction == Long && smaSlow.value > smaTrend.value) || (direction == Short && smaSlow.value < smaTrend.value))
    ensures tag == "COUNTER_TREND" <==>
      && smaSlow.Some? && smaTrend.Some? && Abs(smaSlow.value - smaTrend.value) >= SidewaysBand
      && ((direction == Long && smaSlow.value < smaTrend.value) || (direction == Short && smaSlow.value > smaTrend.value))
    ensures direction == Flat && tag != "SIDEWAYS" ==> tag == "UNKNOWN"
  {
    if smaSlow.None? || smaTrend.None? then "UNKNOWN"
    else
      var diff := smaSlow.value - smaTrend.value;
      if Abs(diff) < SidewaysBand then "SIDEWAYS"
      else if direction == Long then (if diff > 0.0 then "WITH_TREND" else "COUNTER_TREND")
      else if direction == Short then (if diff < 0.0 then "WITH_TREND" else "COUNTER_TREND")
      else "UNKNOWN"
  }

  datatype BreakoutConfig = BreakoutConfig(
    atrDistanceMax: real,
    breakevenTriggerR: real,
    extendedTpR: real,
    trailingAtrMultiple: real)

  /**
   * `_meets_breakout_conditions`: with every input present, a long needs entry
   * above both SMAs and at or above the breakout level; anything else is read
   * as a short and needs the mirror. Both need entry within the ATR distance
   * limit of the fast SMA.
   */
  function MeetsBreakoutConditions(direction: Action, entry: real, smaFast: Option<real>, smaTrend: Option<real>,
                                   level: Option<real>, atr: Option<real>, cfg: BreakoutConfig): (ok: bool)
    ensures ok ==> smaFast.Some? && smaTrend.Some? && level.Some? && atr.Some?
    ensures ok ==> Abs(entry - smaFast.value) <= cfg.atrDistanceMax * atr.value
    ensures ok && direction == Long ==> entry > smaFast.value && entry > smaTrend.value && entry >= level.value
    ensures ok && direction != Long ==> entry < smaFast.value && entry < smaTrend.value && entry <= level.value
    ensures smaFast.Some? && smaTrend.Some? && level.Some? && atr.Some?
      && Abs(entry - smaFast.value) <= cfg.atrDistanceMax * atr.value
      && (if direction == Long then entry > smaFast.value && entry > smaTrend.value && entry >= level.value
          else entry < smaFast.value && entry < smaTrend.value && entry <= level.value)
      ==> ok
  {
    if smaFast.None? || smaTrend.None? || level.None? || atr.None? then false
    else
      var limit := cfg.atrDistanceMax * atr.value;
      if direction == Long then
        entry > smaFast.value && entry > smaTrend.value && entry >= level.value && Abs(entry - smaFast.value) <= limit
      else
        entry < smaFast.value && entry < smaTrend.value && entry <= level.value && Abs(entry - smaFast.value) <= limit
  }

  /** The parts of an open position the dynamic exit reads and updates. */
  datatype ExitTrack = ExitTrack(
    direction: Action,
    entryPrice: real,
    stopLoss: real,
    riskPerUnit: real,
    atrAtEntry: real,
    breakevenActivated: bool)

  /** Favourable move in units of the initial risk. */
  function RMultiple(t: ExitTrack, price: real): real
    requires t.riskPerUnit > 0.0
  {
    if t.direction == Long then (price - t.entryPrice) / t.riskPerUnit else (t.entryPrice - price) / t.riskPerUnit
  }

  /** A long's stop only rises and a short's only falls. */
  predicate NotLoosened(before: ExitTrack, after: ExitTrack)
  {
    if before.direction == Long then after.stopLoss >= before.stopLoss else after.stopLoss <= before.stopLoss
  }

  /**
   * `_update_dynamic_exit`. Breakeven moves the stop to entry once the move
   * reaches the trigger; an extended move exits at the price; after
   * breakeven the stop trails the price by a multiple of the ATR (the entry
   * ATR when the current one is NaN). Nothing happens without a positive risk
   * unit.
   */
  function UpdateDynamicExit(t: ExitTrack, price: real, cfg: BreakoutConfig, currentAtr: Option<real>): (r: (ExitTrack, Option<(real, string)>))
    ensures t.riskPerUnit <= 0.0 ==> r == (t, None)
    ensures NotLoosened(t, r.0)
    ensures r.0.direction == t.direction && r.0.entryPrice == t.entryPrice && r.0.riskPerUnit == t.riskPerUnit
    ensures r.0.atrAtEntry == t.atrAtEntry
    ensures t.breakevenActivated ==> r.0.breakevenActivated
    ensures r.0.breakevenActivated && !t.breakevenActivated ==> t.riskPerUnit > 0.0 && RMultiple(t, price) >= cfg.breakevenTriggerR
    ensures r.0.breakevenActivated && !t.breakevenActivated ==>
      (if t.direction == Long then r.0.stopLoss >= t.entryPrice else r.0.stopLoss <= t.entryPrice)
    ensures r.1.Some? <==> t.riskPerUnit > 0.0 && RMultiple(t, price) >= cfg.extendedTpR
    ensures r.1.Some? ==> r.1.value == (price, "Extended TP")
    // Reaching the trigger switches breakeven on.
    ensures t.riskPerUnit > 0.0 ==>
      (r.0.breakevenActivated <==> t.breakevenActivated || RMultiple(t, price) >= cfg.breakevenTriggerR)
    // The stop: entry-level protection when breakeven starts now, then the ATR trail unless the trade exits.
    ensures t.riskPerUnit > 0.0 ==>
      var be := BreakevenStop(t, price, cfg);
      var atr := if currentAtr.Some? then currentAtr.value else t.atrAtEntry;
      r.0.stopLoss ==
        (if RMultiple(t, price) >= cfg.extendedTpR || !r.0.breakevenActivated then be
         else Tighter(t.direction, be, Trail(t.direction, price, cfg.trailingAtrMultiple * atr)))
  {
    var atr := if currentAtr.Some? then currentAtr.value else t.atrAtEntry;
    if t.riskPerUnit <= 0.0 then (t, None)
    else ExitAt(t, RMultiple(t, price), price, cfg, atr)
  }

  /** The update of `UpdateDynamicExit` once the move `rm`, in units of the risk, is known. */
  function ExitAt(t: ExitTrack, rm: real, price: real, cfg: BreakoutConfig, atr: real): (r: (ExitTrack, Option<(real, string)>))
    ensures r.0.direction == t.direction && r.0.entryPrice == t.entryPrice && r.0.riskPerUnit == t.riskPerUnit
    ensures r.0.atrAtEntry == t.atrAtEntry
    ensures r.0.breakevenActivated <==> t.breakevenActivated || rm >= cfg.breakevenTriggerR
    ensures r.1.Some? <==> rm >= cfg.extendedTpR
    ensures r.1.Some? ==> r.1.value == (price, "Extended TP")
    ensures
      var be := if !t.breakevenActivated && rm >= cfg.breakevenTriggerR then Tighter(t.direction, t.stopLoss, t.entryPrice) else t.stopLoss;
      r.0.stopLoss ==
        (if rm >= cfg.extendedTpR || !r.0.breakevenActivated then be
         else Tighter(t.direction, be, Trail(t.direction, price, cfg.trailingAtrMultiple * atr)))
  {
    var t1 := if !t.breakevenActivated && rm >= cfg.breakevenTriggerR then
        t.(breakevenActivated := true, stopLoss := Tighter(t.direction, t.stopLoss, t.entryPrice))
      else t;
    if rm >= cfg.extendedTpR then (t1, Some((price, "Extended TP")))
    else if t1.breakevenActivated then
      (t1.(stopLoss := Tighter(t.direction, t1.stopLoss, Trail(t.direction, price, cfg.trailingAtrMultiple * atr))), None)
    else (t1, None)
  }

  /** The stop once the breakeven check has run: never looser than the entry when breakeven starts now. */
  function BreakevenStop(t: ExitTrack, price: real, cfg: BreakoutConfig): (stop: real)
    requires t.riskPerUnit > 0.0
    ensures !t.breakevenActivated && RMultiple(t, price) >= cfg.breakevenTriggerR ==>
      if t.direction == Long then stop == Max(t.stopLoss, t.entryPrice) else stop == Min(t.stopLoss, t.entryPrice)
    ensures t.breakevenActivated || RMultiple(t, price) < cfg.breakevenTriggerR ==> stop == t.stopLoss
  {
    if !t.breakevenActivated && RMultiple(t, price) >= cfg.breakevenTriggerR then
      Tighter(t.direction, t.stopLoss, t.entryPrice)
    else t.stopLoss
  }

  /** The stop a trail of `distance` sets at `price`: below it for a long, above it for a short. */
  function Trail(d: Action, price: real, distance: real): (stop: real)
    ensures d == Long ==> stop == price - distance
    ensures d != Long ==> stop == price + distance
  {
    if d == Long then price - distance else price + distance
  }

  /** The tighter of two stops: the higher for a long, the lower for a short. */
  function Tighter(d: Action, a: real, b: real): (stop: real)
    ensures d == Long ==> stop == Max(a, b)
    ensures d != Long ==> stop == Min(a, b)
  {
    if d == Long then Max(a, b) else Min(a, b)
  }

  /** Repeated updates never loosen the stop, and breakeven, once on, stays on. */
  lemma {:induction false} DynamicExitMonotone(t: ExitTrack, prices: seq<real>, cfg: BreakoutConfig, atr: Option<real>)
    ensures var u := UpdateAll(t, prices, cfg, atr);
      NotLoosened(t, u) && (t.breakevenActivated ==> u.breakevenActivated) && u.direction == t.direction
    decreases |prices|
  {
    if |prices| > 0 {
      var t1 := UpdateDynamicExit(t, prices[0], cfg, atr).0;
      DynamicExitMonotone(t1, prices[1..], cfg, atr);
    }
  }

  /** The position's exit track after a run of bars on which it did not exit. */
  function UpdateAll(t: ExitTrack, prices: seq<real>, cfg: BreakoutConfig, atr: Option<real>): ExitTrack
    decreases |prices|
  {
    if |prices| == 0 then t else UpdateAll(UpdateDynamicExit(t, prices[0], cfg, atr).0, prices[1..], cfg, atr)
  }
}

=== FILE: bot_profiles.dfy ===
/**
 * Bot profiles (core/bot_profiles.py): a parsed YAML document naming the
 * account alias, symbols and strategies a bot runs, with defaults for the
 * optional fields and the remaining keys kept as metadata. Whether the
 * file exists and its parsed contents are parameters; `parseFloat` stands
 * for Python's `float()` on strings.
 */
module BotProfiles {
  import opened Wrappers
  import Text
  import Yaml
  import Dicts

  type Fields = seq<(string, Yaml.Value)>

  const DefaultFirm: string := "FTMO_CHALLENGE"
  const DefaultTier: string := "default"

  datatype StrategyProfile = StrategyProfile(id: string, riskScale: real, enabled: bool)

  datatype BotProfile = BotProfile(
    botId: string,
    env: string,
    mt5Account: string,
    firmProfile: string,
    strategies: seq<StrategyProfile>,
    symbols: seq<string>,
    riskTier: string,
    metadata: Fields)

  /** The fields a profile document defines; every other key is metadata. */
  const KnownFields: set<string> :=
    {"env", "mt5_account", "firm_profile", "strategies", "symbols", "bot_id", "risk_tier"}

  /** The risk scale of the last enabled strategy with this id. */
  function LastEnabledScale(strategies: seq<StrategyProfile>, id: string): Option<real>
  {
    if |strategies| == 0 then None
    else
      var last := strategies[|strategies| - 1];
      if last.enabled && last.id == id then Some(last.riskScale)
      else LastEnabledScale(strategies[..|strategies| - 1], id)
  }

  /** `strategy_risk_map`: enabled strategy id to its risk scale. */
  function StrategyRiskMap(strategies: seq<StrategyProfile>): (m: seq<(string, real)>)
    ensures forall id :: Dicts.Get(m, id) == LastEnabledScale(strategies, id)
  {
    if |strategies| == 0 then []
    else
      var init := StrategyRiskMap(strategies[..|strategies| - 1]);
      var last := strategies[|strategies| - 1];
      if last.enabled then Dicts.Put(init, last.id, last.riskScale) else init
  }

  /** The map holds exactly the ids of enabled strategies. */
  lemma {:induction false} RiskMapKeys(strategies: seq<StrategyProfile>, id: string)
    ensures Dicts.HasKey(StrategyRiskMap(strategies), id)
            <==> exists i :: 0 <= i < |strategies| && strategies[i].enabled && strategies[i].id == id
    decreases |strategies|
  {
    if |strategies| > 0 {
      var init := strategies[..|strategies| - 1];
      RiskMapKeys(init, id);
      assert forall i :: 0 <= i < |init| ==> init[i] == strategies[i];
    }
  }

  /** Disabling every strategy empties the map. */
  lemma NoneEnabledEmptyMap(strategies: seq<StrategyProfile>, id: string)
    requires forall i :: 0 <= i < |strategies| ==> !strategies[i].enabled
    ensures !Dicts.HasKey(StrategyRiskMap(strategies), id)
  {
    RiskMapKeys(strategies, id);
  }

  /** `str(v).strip()`. */
  function StrippedText(v: Yaml.Value): string
  {
    Text.Strip(Yaml.Show(v))
  }

  /** `d.get(key)`, with Python's None as `Yaml.Null`. */
  function Field(d: Fields, key: string): Yaml.Value
  {
    Dicts.Get(d, key).GetOr(Yaml.Null)
  }

  /**
   * `_strategy_from_dict`: the id is the stripped `id` or `name`; the risk
   * scale defaults to 1.0 and must convert with `float()`; `enabled`
   * defaults to true and is read by truthiness.
   */
  function StrategyFromDict(payload: Yaml.Value, botName: string, parseFloat: string -> Option<real>)
    : (r: Result<StrategyProfile>)
    ensures r.Err? ==> r.error.ValueError?
    ensures !payload.Map? ==> r.Err?
    ensures r.Ok? ==> payload.Map? && r.value.id != ""
                      && r.value.id == StrippedText(Yaml.Or(Dicts.Get(payload.fields, "id"),
                                                     Yaml.Or(Dicts.Get(payload.fields, "name"), Yaml.Str(""))))
    ensures r.Ok? && !Dicts.HasKey(payload.fields, "risk_scale") ==> r.value.riskScale == 1.0
    ensures r.Ok? && !Dicts.HasKey(payload.fields, "enabled") ==> r.value.enabled
    ensures r.Ok? && Dicts.HasKey(payload.fields, "enabled") ==>
              r.value.enabled == Yaml.Truthy(Field(payload.fields, "enabled"))
    // A present scale is `float()` of its value; one that does not convert is a ValueError.
    ensures r.Ok? && Dicts.HasKey(payload.fields, "risk_scale") ==>
              Yaml.ToFloat(Field(payload.fields, "risk_scale"), parseFloat) == Ok(r.value.riskScale)
    ensures payload.Map? && Dicts.HasKey(payload.fields, "risk_scale")
            && Yaml.ToFloat(Field(payload.fields, "risk_scale"), parseFloat).Err?
            ==> r.Err?
    ensures r.Ok? <==>
              && payload.Map?
              && StrippedText(Yaml.Or(Dicts.Get(payload.fields, "id"),
                                      Yaml.Or(Dicts.Get(payload.fields, "name"), Yaml.Str("")))) != ""
              && (Dicts.HasKey(payload.fields, "risk_scale") ==>
                    Yaml.ToFloat(Field(payload.fields, "risk_scale"), parseFloat).Ok?)
  {
    if !payload.Map? then Err(ValueError("Invalid strategy entry in bot '" + botName + "'"))
    else
      var d := payload.fields;
      var id := StrippedText(Yaml.Or(Dicts.Get(d, "id"), Yaml.Or(Dicts.Get(d, "name"), Yaml.Str(""))));
      if id == "" then Err(ValueError("Bot '" + botName + "' has a strategy without an id."))
      else ProfileWithId(d, id, botName, parseFloat)
  }

  /** The scale and the switch of a strategy entry whose id is known. */
  function ProfileWithId(d: Fields, id: string, botName: string, parseFloat: string -> Option<real>)
    : (r: Result<StrategyProfile>)
    ensures r.Err? ==> r.error.ValueError?
    ensures r.Ok? ==> r.value.id == id
    ensures r.Ok? && !Dicts.HasKey(d, "risk_scale") ==> r.value.riskScale == 1.0
    ensures r.Ok? && !Dicts.HasKey(d, "enabled") ==> r.value.enabled
    ensures r.Ok? && Dicts.HasKey(d, "enabled") ==> r.value.enabled == Yaml.Truthy(Field(d, "enabled"))
    ensures Dicts.HasKey(d, "risk_scale") ==>
              (r.Ok? <==> Yaml.ToFloat(Field(d, "risk_scale"), parseFloat).Ok?)
              && (r.Ok? ==> Yaml.ToFloat(Field(d, "risk_scale"), parseFloat) == Ok(r.value.riskScale))
    ensures !Dicts.HasKey(d, "risk_scale") ==> r.Ok?
  {
    var raw := Dicts.Get(d, "risk_scale").GetOr(Yaml.Float(1.0, "1.0"));
    match Yaml.ToFloat(raw, parseFloat)
    case Err(_) => Err(ValueError("Bot '" + botName + "' strategy '" + id + "' has invalid risk_scale"))
    case Ok(scale) =>
      Ok(StrategyProfile(id, scale, Yaml.Truthy(Dicts.Get(d, "enabled").GetOr(Yaml.Bool(true)))))
  }

  /** `[_strategy_from_dict(item, name) for item in items]`: the first bad entry fails the load. */
  function Strategies(items: seq<Yaml.Value>, botName: string, parseFloat: string -> Option<real>)
    : (r: Result<seq<StrategyProfile>>)
    ensures r.Ok? ==> |r.value| == |items|
                      && forall i :: 0 <= i < |items| ==> StrategyFromDict(items[i], botName, parseFloat) == Ok(r.value[i])
    ensures r.Err? ==> r.error.ValueError?
  {
    var convert := (item: Yaml.Value) => StrategyFromDict(item, botName, parseFloat);
    var r := MapAll(items, convert);
    assert r.Err? ==> exists i :: 0 <= i < |items| && StrategyFromDict(items[i], botName, parseFloat) == Err(r.error);
    r
  }

  /** `[str(sym).upper() for sym in symbols]` after checking for a non-empty list. */
  function Symbols(d: Fields, botName: string): (r: Result<seq<string>>)
    ensures r.Ok? <==> Yaml.Truthy(Field(d, "symbols")) && Field(d, "symbols").List?
    ensures r.Err? ==> r.error.ValueError?
    ensures r.Ok? ==> |r.value| == |Field(d, "symbols").items| > 0
                      && forall i :: 0 <= i < |r.value| ==>
                           r.value[i] == Text.Upper(Yaml.Show(Field(d, "symbols").items[i]))
                           && Text.Upper(r.value[i]) == r.value[i]
  {
    var raw := Yaml.Or(Dicts.Get(d, "symbols"), Yaml.List([]));
    if !raw.List? || |raw.items| == 0 then Err(ValueError("Bot profile '" + botName + "' symbols must be a non-empty list."))
    else
      var symbols := seq(|raw.items|, i requires 0 <= i < |raw.items| => Text.Upper(Yaml.Show(raw.items[i])));
      assert forall i :: 0 <= i < |symbols| ==> Text.Upper(symbols[i]) == symbols[i] by {
        forall i | 0 <= i < |symbols|
          ensures Text.Upper(symbols[i]) == symbols[i]
        {
          Text.UpperIdempotent(Yaml.Show(raw.items[i]));
        }
      }
      Ok(symbols)
  }

  /** `str(d.get(key) or default).strip()`. */
  function TextOr(d: Fields, key: string, default: string): (s: string)
    ensures Yaml.Truthy(Field(d, key)) ==> s == StrippedText(Field(d, key))
    ensures !Yaml.Truthy(Field(d, key)) ==> s == Text.Strip(default)
  {
    StrippedText(Yaml.Or(Dicts.Get(d, key), Yaml.Str(default)))
  }

  /**
   * The defaults of `load_bot_profile`, each stated by its helper's
   * contract: env "demo", firm "FTMO_CHALLENGE", tier "default" and the
   * file name for the bot id.
   */
  predicate Defaulted(p: BotProfile, name: string, d: Fields)
  {
    p.env == EnvText(d) && p.firmProfile == FirmText(d) && p.riskTier == TierText(d) && p.botId == BotId(d, name)
  }

  /**
   * `load_bot_profile`. Defaults: env "demo", bot id the file name, firm
   * "FTMO_CHALLENGE", tier "default". The account alias must be non-empty,
   * symbols a non-empty list (upper-cased), strategies a list.
   */
  function LoadBotProfile(name: string, fileExists: bool, doc: Yaml.Value, parseFloat: string -> Option<real>)
    : (r: Result<BotProfile>)
    ensures !fileExists ==> r.Err? && r.error.FileNotFoundError?
    ensures r.Ok? ==> doc.Map? || !Yaml.Truthy(doc)
    ensures r.Ok? ==> r.value.mt5Account != ""
    ensures r.Ok? ==> Defaulted(r.value, name, if doc.Map? then doc.fields else [])
    ensures r.Ok? ==> Symbols(if doc.Map? then doc.fields else [], name) == Ok(r.value.symbols)
    ensures fileExists && !doc.Map? && Yaml.Truthy(doc) ==> r.Err? && r.error.AttributeError?
  {
    if !fileExists then Err(FileNotFoundError("bots/" + name + ".yaml"))
    else if Yaml.Truthy(doc) && !doc.Map? then Err(AttributeError("get"))
    else FromFields(name, if doc.Map? then doc.fields else [], parseFloat)
  }

  /** The body of `load_bot_profile` once the document is a mapping. */
  function FromFields(name: string, d: Fields, parseFloat: string -> Option<real>): (r: Result<BotProfile>)
    ensures TextOr(d, "mt5_account", "") == "" ==> r.Err? && r.error.ValueError?
    ensures r.Ok? ==> r.value.mt5Account == TextOr(d, "mt5_account", "") != ""
    ensures r.Ok? ==> Symbols(d, name) == Ok(r.value.symbols)
    ensures r.Ok? ==> forall k :: Dicts.Get(r.value.metadata, k) == if k in KnownFields then None else Dicts.Get(d, k)
    ensures r.Ok? ==> Defaulted(r.value, name, d)
  {
    var account := TextOr(d, "mt5_account", "");
    if account == "" then Err(ValueError("Bot profile '" + name + "' is missing an mt5_account alias."))
    else
      var symbols :- Symbols(d, name);
      Assemble(name, d, account, symbols, parseFloat)
  }

  /** The strategies, the defaults and the metadata, around an already checked alias and symbol list. */
  function Assemble(name: string, d: Fields, account: string, symbols: seq<string>, parseFloat: string -> Option<real>)
    : (r: Result<BotProfile>)
    ensures r.Ok? ==> r.value.mt5Account == account && r.value.symbols == symbols
    ensures r.Ok? ==> forall k :: Dicts.Get(r.value.metadata, k) == if k in KnownFields then None else Dicts.Get(d, k)
    ensures r.Err? ==> r.error.ValueError?
    ensures r.Ok? ==> Yaml.Or(Dicts.Get(d, "strategies"), Yaml.List([])).List?
                      && |r.value.strategies| == |Yaml.Or(Dicts.Get(d, "strategies"), Yaml.List([])).items|
    ensures r.Ok? ==> Defaulted(r.value, name, d)
  {
    var strategiesRaw := Yaml.Or(Dicts.Get(d, "strategies"), Yaml.List([]));
    if !strategiesRaw.List? then Err(ValueError("Bot profile '" + name + "' strategies must be a list."))
    else
      var strategies :- Strategies(strategiesRaw.items, name, parseFloat);
      Ok(WithDefaults(name, d, account, symbols, strategies))
  }

  /** The profile record: the defaulted text fields and the metadata left over from the known keys. */
  function WithDefaults(name: string, d: Fields, account: string, symbols: seq<string>, strategies: seq<StrategyProfile>)
    : (p: BotProfile)
    ensures p.mt5Account == account && p.symbols == symbols && p.strategies == strategies
    ensures p.botId != "" || name == ""
    ensures forall k :: Dicts.Get(p.metadata, k) == if k in KnownFields then None else Dicts.Get(d, k)
    ensures Defaulted(p, name, d)
  {
    BotProfile(BotId(d, name), EnvText(d), account, FirmText(d), strategies, symbols, TierText(d), Metadata(d))
  }

  /** `str(data.get("env") or "demo")`. */
  function EnvText(d: Fields): (s: string)
    ensures s == (if Yaml.Truthy(Field(d, "env")) then Yaml.Show(Field(d, "env")) else "demo")
  {
    Yaml.Show(Yaml.Or(Dicts.Get(d, "env"), Yaml.Str("demo")))
  }

  function FirmText(d: Fields): (s: string)
    ensures s == (if Yaml.Truthy(Field(d, "firm_profile")) then StrippedText(Field(d, "firm_profile")) else DefaultFirm)
  {
    PlainDefaults();
    TextOr(d, "firm_profile", DefaultFirm)
  }

  function TierText(d: Fields): (s: string)
    ensures s == (if Yaml.Truthy(Field(d, "risk_tier")) then StrippedText(Field(d, "risk_tier")) else DefaultTier)
  {
    PlainDefaults();
    TextOr(d, "risk_tier", DefaultTier)
  }

  /** `str(data.get("bot_id") or name).strip() or name`. */
  function BotId(d: Fields, name: string): (s: string)
    ensures s == (if Yaml.Truthy(Field(d, "bot_id"))
                  then (if StrippedText(Field(d, "bot_id")) != "" then StrippedText(Field(d, "bot_id")) else name)
                  else (if Text.Strip(name) != "" then Text.Strip(name) else name))
    ensures s != "" || name == ""
  {
    var botId := TextOr(d, "bot_id", name);
    if botId == "" then name else botId
  }

  /** The keys a profile does not define, with their values. */
  function Metadata(d: Fields): (m: Fields)
    ensures forall k :: Dicts.Get(m, k) == if k in KnownFields then None else Dicts.Get(d, k)
  {
    Dicts.Without(d, KnownFields)
  }

  lemma PlainDefaults()
    ensures Text.Strip(DefaultFirm) == DefaultFirm && Text.Strip(DefaultTier) == DefaultTier
  {
    DefaultsUnpadded();
    Text.StripUnpadded(DefaultFirm);
    Text.StripUnpadded(DefaultTier);
  }

  lemma DefaultsUnpadded()
    ensures !Text.IsSpace(DefaultFirm[0]) && !Text.IsSpace(DefaultFirm[|DefaultFirm| - 1])
    ensures !Text.IsSpace(DefaultTier[0]) && !Text.IsSpace(DefaultTier[|DefaultTier| - 1])
  {
  }
}

=== FILE: capital_policy.dfy ===
/**
 * The multi-stage capital plans of scripts/run_capital_policy_compare.py.
 * A plan spends its bankroll on waves of evaluations; each passed evaluation
 * schedules a funded payout series whose months are split between withdrawal
 * and reinvestment. A policy seeds further plans from the profit pool once
 * withdrawals reach its thresholds. The random draws (evaluation outcomes,
 * durations and payout series) are inputs.
 */
module CapitalPolicy {
  import opened Wrappers
  import opened Num

  const HorizonMonths: nat := 12
  const InitialBankroll: real := 600.0

  /** `mode == "PLAN_D"` selects the staged plan; every other mode is the basic one. */
  datatype Mode = Basic | PlanD

  datatype PlanConfig = PlanConfig(
    name: string,
    mode: Mode,
    evalsPerWave: int,
    wavesPerMonth: int,
    feederFee: real,
    largeFee: real,
    riskBudgetFraction: real,
    reinvestFraction: real,
    stage2Trigger: real,
    stage1Limit: real,
    largeFraction: real)

  /** A configuration with the dataclass defaults for everything but the name. */
  function DefaultConfig(name: string): PlanConfig
  {
    PlanConfig(name, Basic, 4, 1, 50.0, 350.0, 0.7, 0.5, 10000.0, 6.0, 0.5)
  }

  const PlanB: PlanConfig := DefaultConfig("PLAN_B")
  const PlanE: PlanConfig := PlanConfig("PLAN_E", PlanD, 4, 2, 50.0, 350.0, 0.7, 0.5, 10000.0, 6.0, 0.5)
  const PlanDDirect: PlanConfig := PlanConfig("PLAN_D", PlanD, 6, 2, 50.0, 350.0, 0.7, 0.5, 0.0, 0.0, 0.5)

  /**
   * A plan's state. The schedules hold, per month of the horizon, the amounts
   * still to be withdrawn and reinvested.
   */
  datatype PlanState = PlanState(
    config: PlanConfig,
    bankroll: real,
    active: bool,
    startMonth: int,
    stage2Active: bool,
    monthsRunning: real,
    totalWithdrawn: real,
    withdrawSchedule: seq<real>,
    reinvestSchedule: seq<real>)

  /** Both schedules cover the same horizon. */
  predicate Shaped(p: PlanState)
  {
    |p.withdrawSchedule| == |p.reinvestSchedule|
  }

  /** A new plan over `horizon` months, with empty schedules. */
  function NewPlan(config: PlanConfig, horizon: nat, bankroll: real, active: bool, startMonth: int): (p: PlanState)
    ensures Shaped(p) && |p.withdrawSchedule| == horizon
    ensures Sum(p.withdrawSchedule) == 0.0 && Sum(p.reinvestSchedule) == 0.0
    ensures !p.stage2Active && p.totalWithdrawn == 0.0 && p.monthsRunning == 0.0
  {
    SumZeros(horizon);
    PlanState(config, bankroll, active, startMonth, false, 0.0, 0.0, Zeros(horizon), Zeros(horizon))
  }

  /**
   * Activation: the plan gets `bankroll` and starts in `month`, active, in
   * stage 1, with its counters and both schedules cleared.
   */
  function ActivatePlan(p: PlanState, bankroll: real, month: int): (r: PlanState)
    ensures r.config == p.config && r.bankroll == bankroll && r.active && r.startMonth == month
    ensures !r.stage2Active && r.monthsRunning == 0.0 && r.totalWithdrawn == 0.0
    ensures |r.withdrawSchedule| == |p.withdrawSchedule| && |r.reinvestSchedule| == |p.reinvestSchedule|
    ensures forall i :: 0 <= i < |r.withdrawSchedule| ==> r.withdrawSchedule[i] == 0.0
    ensures forall i :: 0 <= i < |r.reinvestSchedule| ==> r.reinvestSchedule[i] == 0.0
  {
    p.(bankroll := bankroll, active := true, startMonth := month, stage2Active := false,
       monthsRunning := 0.0, totalWithdrawn := 0.0,
       withdrawSchedule := Zeros(|p.withdrawSchedule|),
       reinvestSchedule := Zeros(|p.reinvestSchedule|))
  }

  /** Activation forgets the plan's history: only the configuration and horizon survive. */
  lemma ActivationForgetsHistory(p: PlanState, q: PlanState, bankroll: real, month: int)
    requires p.config == q.config && Shaped(p) && Shaped(q)
    requires |p.withdrawSchedule| == |q.withdrawSchedule|
    ensures ActivatePlan(p, bankroll, month) == ActivatePlan(q, bankroll, month)
  {
  }

  /** Activating a plan from the factory is the same as creating it active. */
  lemma ActivateNewPlan(config: PlanConfig, horizon: nat, bankroll: real, month: int)
    ensures ActivatePlan(NewPlan(config, horizon, 0.0, false, 0), bankroll, month)
         == NewPlan(config, horizon, bankroll, true, month)
  {
  }

  // ---------------------------------------------------------------------
  // Wave composition and cost
  // ---------------------------------------------------------------------

  /** Stage 2 is due once withdrawals reach the trigger or the plan has run long enough. */
  predicate Stage2Due(p: PlanState)
  {
    p.totalWithdrawn >= p.config.stage2Trigger || p.monthsRunning >= p.config.stage1Limit
  }

  /** The stage-2 latch checked before every PLAN_D wave. */
  function LatchStage2(p: PlanState): (r: PlanState)
    ensures r == p.(stage2Active := r.stage2Active)
    ensures r.stage2Active <==> p.stage2Active || Stage2Due(p)
  {
    if !p.stage2Active && Stage2Due(p) then p.(stage2Active := true) else p
  }

  /** The numbers of feeder and large evaluations in a wave. */
  datatype Composition = Composition(feeder: int, large: int)

  /**
   * Splitting `evals` evaluations: the large count is `evals * fraction`
   * rounded half to even, as Python's `round`, and clamped into [0, evals];
   * the feeders are the rest.
   */
  function Compose(evals: int, fraction: real): (c: Composition)
    ensures c.feeder + c.large == evals
    ensures evals >= 0 ==> 0 <= c.large <= evals && 0 <= c.feeder
    ensures evals < 0 ==> c.large == 0
    ensures fraction <= 0.0 ==> c.large == 0
    ensures evals >= 0 && 0.0 <= fraction <= 1.0 ==>
      evals as real * fraction - 0.5 <= c.large as real <= evals as real * fraction + 0.5
    ensures evals >= 0 && 0.0 <= fraction <= 1.0 ==>
      (evals as real * fraction - c.large as real == 0.5 || evals as real * fraction - c.large as real == -0.5) ==> c.large % 2 == 0
  {
    var x := evals as real * fraction;
    ScaledBounds(evals, fraction, x);
    ComposeAt(evals, x)
  }

  /** Where `evals * fraction` lies for the fractions `Compose` distinguishes. */
  lemma ScaledBounds(evals: int, fraction: real, x: real)
    requires x == evals as real * fraction
    ensures evals >= 0 && 0.0 <= fraction <= 1.0 ==> 0.0 <= x <= evals as real
    ensures evals >= 0 && fraction <= 0.0 ==> x <= 0.0
  {
    ProductBounds(evals as real, fraction);
  }

  /** The split of `evals` evaluations whose large share, before rounding, is `x`. */
  function ComposeAt(evals: int, x: real): (c: Composition)
    ensures c.feeder + c.large == evals
    ensures evals >= 0 ==> 0 <= c.large <= evals && 0 <= c.feeder
    ensures evals < 0 || x <= 0.0 ==> c.large == 0
    ensures evals >= 0 && 0.0 <= x <= evals as real ==> x - 0.5 <= c.large as real <= x + 0.5
    ensures evals >= 0 && 0.0 <= x <= evals as real ==>
      (x - c.large as real == 0.5 || x - c.large as real == -0.5) ==> c.large % 2 == 0
  {
    var rounded := RoundHalfEven(x);
    var large := IMax(0, IMin(rounded, evals));
    RoundedCount(x, evals);
    var feeder := evals - large;
    if feeder + large == 0 then Composition(evals, 0) else Composition(feeder, large)
  }

  /** A share of `evals` in [0, evals] rounds to a count in [0, evals]; a non-positive one rounds to at most 0. */
  lemma RoundedCount(x: real, evals: int)
    ensures evals >= 0 && 0.0 <= x <= evals as real ==> 0 <= RoundHalfEven(x) <= evals
    ensures x <= 0.0 ==> RoundHalfEven(x) <= 0
  {
  }

  lemma ProductBounds(n: real, f: real)
    ensures n >= 0.0 && 0.0 <= f <= 1.0 ==> 0.0 <= n * f <= n
    ensures n >= 0.0 && f <= 0.0 ==> n * f <= 0.0
  {
    if n >= 0.0 && 0.0 <= f <= 1.0 {
      assert n - n * f == n * (1.0 - f);
    }
    if n > 0.0 && f <= 0.0 {
      MulNonPositive(f, n);
    }
  }

  /** A larger large-fraction never yields fewer large evaluations. */
  lemma ComposeMonotone(evals: int, f: real, g: real)
    requires evals >= 0 && f <= g
    ensures Compose(evals, f).large <= Compose(evals, g).large
  {
    ComposeLarge(evals, f);
    ComposeLarge(evals, g);
    LargeMonotone(evals, f, g);
  }

  /** The large count before the all-zero special case. */
  function LargeOf(evals: int, f: real): int
  {
    IMax(0, IMin(RoundHalfEven(Scaled(evals, f)), evals))
  }

  function Scaled(evals: int, f: real): real
  {
    evals as real * f
  }

  lemma LargeMonotone(evals: int, f: real, g: real)
    requires evals >= 0 && f <= g
    ensures LargeOf(evals, f) <= LargeOf(evals, g)
  {
    MulMonotone(evals as real, f, g);
    RoundHalfEvenMonotone(Scaled(evals, f), Scaled(evals, g));
  }

  lemma ComposeLarge(evals: int, f: real)
    requires evals >= 0
    ensures Compose(evals, f).large == LargeOf(evals, f)
  {
  }

  lemma MulNonNegative(a: real, b: real)
    requires a >= 0.0 && b >= 0.0
    ensures a * b >= 0.0
  {
  }

  lemma MulMonotone(n: real, f: real, g: real)
    requires n >= 0.0 && f <= g
    ensures n * f <= n * g
  {
    assert n * g - n * f == n * (g - f);
  }

  /** The composition a plan launches: all feeders unless it is a PLAN_D plan in stage 2. */
  function WaveMix(p: PlanState): (c: Composition)
    ensures c.feeder + c.large == p.config.evalsPerWave
    ensures p.config.mode == Basic || !p.stage2Active ==> c == Composition(p.config.evalsPerWave, 0)
    ensures p.config.evalsPerWave >= 0 ==> c.feeder >= 0 && c.large >= 0
  {
    match p.config.mode
    case Basic => Composition(p.config.evalsPerWave, 0)
    case PlanD => Compose(p.config.evalsPerWave, if p.stage2Active then p.config.largeFraction else 0.0)
  }

  function WaveCost(cfg: PlanConfig, c: Composition): real
  {
    c.feeder as real * cfg.feederFee + c.large as real * cfg.largeFee
  }

  /** A wave of a valid size costs between its all-feeder and all-large prices. */
  lemma WaveCostBetweenFees(cfg: PlanConfig, fraction: real)
    requires cfg.evalsPerWave >= 0 && cfg.feederFee <= cfg.largeFee
    ensures var n := cfg.evalsPerWave as real;
      n * cfg.feederFee <= WaveCost(cfg, Compose(cfg.evalsPerWave, fraction)) <= n * cfg.largeFee
  {
    MixCostBetweenFees(cfg, Compose(cfg.evalsPerWave, fraction));
  }

  /** Any split of the wave into non-negative parts costs between the all-feeder and all-large prices. */
  lemma MixCostBetweenFees(cfg: PlanConfig, c: Composition)
    requires c.feeder >= 0 && c.large >= 0 && c.feeder + c.large == cfg.evalsPerWave && cfg.feederFee <= cfg.largeFee
    ensures var n := cfg.evalsPerWave as real;
      n * cfg.feederFee <= WaveCost(cfg, c) <= n * cfg.largeFee
  {
    assert cfg.evalsPerWave as real == c.feeder as real + c.large as real;
    FeeMix(c.feeder as real, c.large as real, cfg.feederFee, cfg.largeFee);
  }

  /** A mix of `f` units at price `a` and `l` at price `b >= a` costs between all-`a` and all-`b`. */
  lemma FeeMix(f: real, l: real, a: real, b: real)
    requires f >= 0.0 && l >= 0.0 && a <= b
    ensures (f + l) * a <= f * a + l * b <= (f + l) * b
  {
    MulNonNegative(l, b - a);
    MulNonNegative(f, b - a);
  }

  /**
   * Paying for a wave: skipped (None) when the cost exceeds the bankroll or
   * the risk budget's share of it, otherwise the bankroll after paying.
   */
  function Launch(bankroll: real, budget: real, cost: real): (r: Option<real>)
    ensures r.Some? ==> r.value >= 0.0
    ensures r.Some? ==> r.value + cost == bankroll
    ensures r.Some? ==> r.value >= bankroll - budget * bankroll
  {
    if cost > bankroll || cost > budget * bankroll then None else Some(bankroll - cost)
  }

  /** A wave is launched exactly when both limits admit its cost. */
  lemma LaunchWhen(bankroll: real, budget: real, cost: real)
    ensures Launch(bankroll, budget, cost).Some? <==> cost <= bankroll && cost <= budget * bankroll
  {
  }

  // ---------------------------------------------------------------------
  // Scheduling the payouts of one evaluation
  // ---------------------------------------------------------------------

  /** The draws for one evaluation: pass/fail, its length in trading days and a funded payout series. */
  datatype EvalDraw = EvalDraw(passed: bool, days: real, series: seq<real>)

  /** Evaluation lengths are counts of trading days. */
  predicate ValidDraw(d: EvalDraw)
  {
    d.days >= 0.0
  }

  /** The start of wave `idx` of `month`, in months: the waves of a month start within it. */
  function WaveTime(month: nat, idx: nat, wavesPerMonth: int): (t: real)
    ensures t >= month as real
    ensures idx < wavesPerMonth ==> t < month as real + 1.0
    ensures idx == 0 ==> t == month as real
  {
    var w := IMax(1, wavesPerMonth) as real;
    assert idx < wavesPerMonth ==> idx as real / w < 1.0 by {
      if idx < wavesPerMonth {
        assert idx as real < w;
        assert idx as real / w * w == idx as real;
      }
    }
    month as real + idx as real / w
  }

  datatype Schedules = Schedules(withdraw: seq<real>, reinvest: seq<real>)

  /**
   * What month `m` of the horizon receives from a payout series that starts
   * in month `start`, counting offsets from `k` on: the positive amount with
   * offset m - start, if there is one.
   */
  function Credited(series: seq<real>, start: nat, k: nat, m: nat): (r: real)
    ensures r >= 0.0
  {
    if start + k <= m && m - start < |series| && series[m - start] > 0.0 then series[m - start] else 0.0
  }

  /** What the series adds within a horizon of `horizon` months, from offset `k` on. */
  function InHorizon(series: seq<real>, start: nat, k: nat, horizon: nat): (r: real)
    requires k <= |series|
    ensures r >= 0.0
    decreases |series| - k
  {
    if k == |series| then 0.0
    else (if series[k] > 0.0 && start + k < horizon then series[k] else 0.0) + InHorizon(series, start, k + 1, horizon)
  }

  /**
   * The loop over the payout series from offset `k`: non-positive amounts are
   * skipped, the first positive amount past the horizon ends the loop, and
   * every other amount is split into withdrawal and reinvestment.
   */
  function Spread(s: Schedules, start: nat, series: seq<real>, f: real, k: nat): (r: Schedules)
    requires |s.withdraw| == |s.reinvest| && k <= |series|
    ensures |r.withdraw| == |s.withdraw| && |r.reinvest| == |s.reinvest|
    decreases |series| - k
  {
    if k == |series| then s
    else if series[k] <= 0.0 then Spread(s, start, series, f, k + 1)
    else if start + k >= |s.withdraw| then s
    else
      var m := start + k;
      var s' := Schedules(s.withdraw[m := s.withdraw[m] + series[k] * (1.0 - f)],
                          s.reinvest[m := s.reinvest[m] + series[k] * f]);
      Spread(s', start, series, f, k + 1)
  }

  /** Each month of the horizon gains exactly its credited amount, split by the reinvest fraction. */
  lemma {:induction false} SpreadPointwise(s: Schedules, start: nat, series: seq<real>, f: real, k: nat)
    requires |s.withdraw| == |s.reinvest| && k <= |series|
    ensures forall m: nat :: m < |s.withdraw| ==>
      Spread(s, start, series, f, k).withdraw[m] == s.withdraw[m] + Credited(series, start, k, m) * (1.0 - f)
    ensures forall m: nat :: m < |s.reinvest| ==>
      Spread(s, start, series, f, k).reinvest[m] == s.reinvest[m] + Credited(series, start, k, m) * f
    decreases |series| - k
  {
    if k == |series| {
    } else if series[k] <= 0.0 {
      SpreadPointwise(s, start, series, f, k + 1);
      assert forall m: nat :: Credited(series, start, k, m) == Credited(series, start, k + 1, m);
    } else if start + k >= |s.withdraw| {
    } else {
      var m0 := start + k;
      var s' := Schedules(s.withdraw[m0 := s.withdraw[m0] + series[k] * (1.0 - f)],
                          s.reinvest[m0 := s.reinvest[m0] + series[k] * f]);
      SpreadPointwise(s', start, series, f, k + 1);
      forall m: nat | m < |s.withdraw|
        ensures Spread(s, start, series, f, k).withdraw[m] == s.withdraw[m] + Credited(series, start, k, m) * (1.0 - f)
        ensures Spread(s, start, series, f, k).reinvest[m] == s.reinvest[m] + Credited(series, start, k, m) * f
      {
        if m == m0 {
          assert Credited(series, start, k + 1, m) == 0.0;
        } else {
          assert Credited(series, start, k, m) == Credited(series, start, k + 1, m);
        }
      }
    }
  }

  /** Nothing is lost or invented: the schedules together grow by the in-horizon positive amounts. */
  lemma {:induction false} SpreadConserves(s: Schedules, start: nat, series: seq<real>, f: real, k: nat)
    requires |s.withdraw| == |s.reinvest| && k <= |series|
    ensures var r := Spread(s, start, series, f, k);
      Sum(r.withdraw) + Sum(r.reinvest) == Sum(s.withdraw) + Sum(s.reinvest) + InHorizon(series, start, k, |s.withdraw|)
    decreases |series| - k
  {
    if k == |series| {
    } else if series[k] <= 0.0 {
      SpreadConserves(s, start, series, f, k + 1);
    } else if start + k >= |s.withdraw| {
      InHorizonPast(series, start, k, |s.withdraw|);
    } else {
      var m0 := start + k;
      var a, b := series[k] * (1.0 - f), series[k] * f;
      assert a + b == series[k] by {
        assert series[k] * (1.0 - f) == series[k] - series[k] * f;
      }
      var s' := Schedules(s.withdraw[m0 := s.withdraw[m0] + a], s.reinvest[m0 := s.reinvest[m0] + b]);
      assert Spread(s, start, series, f, k) == Spread(s', start, series, f, k + 1);
      assert InHorizon(series, start, k, |s.withdraw|) == series[k] + InHorizon(series, start, k + 1, |s.withdraw|);
      SumAddAt(s.withdraw, m0, a);
      SumAddAt(s.reinvest, m0, b);
      SpreadConserves(s', start, series, f, k + 1);
    }
  }

  /** Past the horizon a series adds nothing more. */
  lemma {:induction false} InHorizonPast(series: seq<real>, start: nat, k: nat, horizon: nat)
    requires k <= |series| && start + k >= horizon
    ensures InHorizon(series, start, k, horizon) == 0.0
    decreases |series| - k
  {
    if k < |series| {
      InHorizonPast(series, start, k + 1, horizon);
    }
  }

  /** Entries stay non-negative when the reinvest fraction is a fraction. */
  lemma {:induction false} SpreadKeepsNonNegative(s: Schedules, start: nat, series: seq<real>, f: real, k: nat)
    requires |s.withdraw| == |s.reinvest| && k <= |series| && 0.0 <= f <= 1.0
    requires forall m :: 0 <= m < |s.withdraw| ==> s.withdraw[m] >= 0.0 && s.reinvest[m] >= 0.0
    ensures forall m :: 0 <= m < |s.withdraw| ==>
      Spread(s, start, series, f, k).withdraw[m] >= 0.0 && Spread(s, start, series, f, k).reinvest[m] >= 0.0
  {
    SpreadPointwise(s, start, series, f, k);
    forall m: nat | m < |s.withdraw|
      ensures Credited(series, start, k, m) * (1.0 - f) >= 0.0 && Credited(series, start, k, m) * f >= 0.0
    {
      var c := Credited(series, start, k, m);
      MulNonNegative(c, 1.0 - f);
      MulNonNegative(c, f);
    }
  }

  function PlanSchedules(p: PlanState): Schedules
  {
    Schedules(p.withdrawSchedule, p.reinvestSchedule)
  }

  /** The month an evaluation that started at `waveTime` finishes in. */
  function FinishMonth(waveTime: real, d: EvalDraw): (m: int)
    requires waveTime >= 0.0 && ValidDraw(d)
    ensures m >= 0 && m as real <= waveTime + d.days / 21.0 < m as real + 1.0
  {
    assert d.days / 21.0 >= 0.0;
    Trunc(waveTime + d.days / 21.0)
  }

  /** Whether a drawn evaluation schedules anything: it passed and finished within the horizon. */
  predicate Contributes(p: PlanState, waveTime: real, d: EvalDraw)
    requires waveTime >= 0.0 && ValidDraw(d)
  {
    d.passed && FinishMonth(waveTime, d) < |p.withdrawSchedule|
  }

  /**
   * One evaluation: nothing when it failed or finished beyond the horizon,
   * otherwise its payout series is spread from its finishing month on.
   */
  function ScheduleEvalPayouts(p: PlanState, waveTime: real, d: EvalDraw): (r: PlanState)
    requires Shaped(p) && waveTime >= 0.0 && ValidDraw(d)
    ensures Shaped(r) && |r.withdrawSchedule| == |p.withdrawSchedule|
    ensures r == p.(withdrawSchedule := r.withdrawSchedule, reinvestSchedule := r.reinvestSchedule)
    ensures !Contributes(p, waveTime, d) ==> r == p
  {
    if !d.passed then p
    else
      var fm := FinishMonth(waveTime, d);
      if fm >= |p.withdrawSchedule| then p
      else
        var s := Spread(PlanSchedules(p), fm, d.series, p.config.reinvestFraction, 0);
        p.(withdrawSchedule := s.withdraw, reinvestSchedule := s.reinvest)
  }

  /** What one evaluation adds to the schedules, in total. */
  function EvalContribution(p: PlanState, waveTime: real, d: EvalDraw): (r: real)
    requires waveTime >= 0.0 && ValidDraw(d)
    ensures r >= 0.0
    ensures !Contributes(p, waveTime, d) ==> r == 0.0
  {
    if Contributes(p, waveTime, d) then InHorizon(d.series, FinishMonth(waveTime, d), 0, |p.withdrawSchedule|) else 0.0
  }

  lemma ScheduleConserves(p: PlanState, waveTime: real, d: EvalDraw)
    requires Shaped(p) && waveTime >= 0.0 && ValidDraw(d)
    ensures var r := ScheduleEvalPayouts(p, waveTime, d);
      Sum(r.withdrawSchedule) + Sum(r.reinvestSchedule)
        == Sum(p.withdrawSchedule) + Sum(p.reinvestSchedule) + EvalContribution(p, waveTime, d)
  {
    if Contributes(p, waveTime, d) {
      SpreadConserves(PlanSchedules(p), FinishMonth(waveTime, d), d.series, p.config.reinvestFraction, 0);
    }
  }

  // ---------------------------------------------------------------------
  // A month of waves
  // ---------------------------------------------------------------------

  /** The random draws of a month: `draws(w, j)` is evaluation j of wave w. */
  type Draws = (nat, nat) -> EvalDraw

  ghost predicate ValidDraws(draws: Draws)
  {
    forall w: nat, j: nat :: ValidDraw(draws(w, j))
  }

  /** The evaluations 0 .. n-1 of wave `w`, scheduled in order. */
  function ScheduleEvals(p: PlanState, waveTime: real, draws: Draws, w: nat, n: nat): (r: PlanState)
    requires Shaped(p) && waveTime >= 0.0 && ValidDraws(draws)
    ensures Shaped(r) && |r.withdrawSchedule| == |p.withdrawSchedule|
    ensures r == p.(withdrawSchedule := r.withdrawSchedule, reinvestSchedule := r.reinvestSchedule)
  {
    if n == 0 then p
    else ScheduleEvalPayouts(ScheduleEvals(p, waveTime, draws, w, n - 1), waveTime, draws(w, n - 1))
  }

  /**
   * Wave `idx` of `month`: the PLAN_D stage-2 latch, then the wave is paid for
   * and its evaluations scheduled, or it is skipped.
   */
  function WaveStep(p: PlanState, month: nat, idx: nat, draws: Draws): (r: PlanState)
    requires Shaped(p) && ValidDraws(draws)
    ensures Shaped(r) && |r.withdrawSchedule| == |p.withdrawSchedule|
    ensures r == p.(bankroll := r.bankroll, stage2Active := r.stage2Active,
                    withdrawSchedule := r.withdrawSchedule, reinvestSchedule := r.reinvestSchedule)
  {
    var q := if p.config.mode == PlanD then LatchStage2(p) else p;
    var c := WaveMix(q);
    match Launch(q.bankroll, q.config.riskBudgetFraction, WaveCost(q.config, c))
    case None => q
    case Some(b) =>
      ScheduleEvals(q.(bankroll := b), WaveTime(month, idx, q.config.wavesPerMonth), draws, idx, IMax(0, c.feeder + c.large))
  }

  /** The first n waves of a month. */
  function Waves(p: PlanState, month: nat, draws: Draws, n: nat): (r: PlanState)
    requires Shaped(p) && ValidDraws(draws)
    ensures Shaped(r) && |r.withdrawSchedule| == |p.withdrawSchedule|
    ensures r == p.(bankroll := r.bankroll, stage2Active := r.stage2Active,
                    withdrawSchedule := r.withdrawSchedule, reinvestSchedule := r.reinvestSchedule)
  {
    if n == 0 then p else WaveStep(Waves(p, month, draws, n - 1), month, n - 1, draws)
  }

  /** One month of a plan: `wavesPerMonth` waves (none when it is not positive). */
  function RunPlanMonth(p: PlanState, month: nat, draws: Draws): (r: PlanState)
    requires Shaped(p) && ValidDraws(draws)
    ensures Shaped(r) && |r.withdrawSchedule| == |p.withdrawSchedule|
    ensures r == p.(bankroll := r.bankroll, stage2Active := r.stage2Active,
                    withdrawSchedule := r.withdrawSchedule, reinvestSchedule := r.reinvestSchedule)
  {
    Waves(p, month, draws, if p.config.wavesPerMonth > 0 then p.config.wavesPerMonth else 0)
  }

  /** A wave never leaves the bankroll negative if it was not, and never turns stage 2 off. */
  lemma WaveStepKeeps(p: PlanState, month: nat, idx: nat, draws: Draws)
    requires Shaped(p) && ValidDraws(draws)
    ensures p.bankroll >= 0.0 ==> WaveStep(p, month, idx, draws).bankroll >= 0.0
    ensures p.stage2Active ==> WaveStep(p, month, idx, draws).stage2Active
    ensures p.config.mode == Basic ==> WaveStep(p, month, idx, draws).stage2Active == p.stage2Active
    ensures p.config.evalsPerWave >= 0 && p.config.feederFee >= 0.0 && p.config.largeFee >= 0.0 ==>
      WaveStep(p, month, idx, draws).bankroll <= p.bankroll
  {
    var q := if p.config.mode == PlanD then LatchStage2(p) else p;
    assert q.config == p.config && q.bankroll == p.bankroll;
    var c := WaveMix(q);
    var cost := WaveCost(q.config, c);
    assert p.config.evalsPerWave >= 0 && p.config.feederFee >= 0.0 && p.config.largeFee >= 0.0 ==> cost >= 0.0 by {
      if p.config.evalsPerWave >= 0 && p.config.feederFee >= 0.0 && p.config.largeFee >= 0.0 {
        WaveCostNonNegative(q.config, c);
      }
    }
    match Launch(q.bankroll, q.config.riskBudgetFraction, cost)
    case None =>
    case Some(b) =>
      var r := ScheduleEvals(q.(bankroll := b), WaveTime(month, idx, q.config.wavesPerMonth), draws, idx, IMax(0, c.feeder + c.large));
      assert r.bankroll == b && r.stage2Active == q.stage2Active;
  }

  /** A wave with non-negative parts and fees costs nothing negative. */
  lemma WaveCostNonNegative(cfg: PlanConfig, c: Composition)
    requires c.feeder >= 0 && c.large >= 0 && cfg.feederFee >= 0.0 && cfg.largeFee >= 0.0
    ensures WaveCost(cfg, c) >= 0.0
  {
    MulNonNegative(c.feeder as real, cfg.feederFee);
    MulNonNegative(c.large as real, cfg.largeFee);
  }

  /**
   * Over a month the bankroll never goes negative, a plan once in stage 2
   * stays there, a basic plan never changes stage, and with non-negative
   * fees the bankroll only shrinks (reinvestments arrive separately).
   */
  lemma {:induction false} WavesKeep(p: PlanState, month: nat, draws: Draws, n: nat)
    requires Shaped(p) && ValidDraws(draws)
    ensures p.bankroll >= 0.0 ==> Waves(p, month, draws, n).bankroll >= 0.0
    ensures p.stage2Active ==> Waves(p, month, draws, n).stage2Active
    ensures p.config.mode == Basic ==> Waves(p, month, draws, n).stage2Active == p.stage2Active
    ensures p.config.evalsPerWave >= 0 && p.config.feederFee >= 0.0 && p.config.largeFee >= 0.0 ==>
      Waves(p, month, draws, n).bankroll <= p.bankroll
  {
    if n > 0 {
      WavesKeep(p, month, draws, n - 1);
      var prev := Waves(p, month, draws, n - 1);
      assert prev.config == p.config;
      assert Waves(p, month, draws, n) == WaveStep(prev, month, n - 1, draws);
      WaveStepKeeps(prev, month, n - 1, draws);
    }
  }

  lemma MonthKeeps(p: PlanState, month: nat, draws: Draws)
    requires Shaped(p) && ValidDraws(draws)
    ensures p.bankroll >= 0.0 ==> RunPlanMonth(p, month, draws).bankroll >= 0.0
    ensures p.stage2Active ==> RunPlanMonth(p, month, draws).stage2Active
    ensures p.config.mode == Basic ==> RunPlanMonth(p, month, draws).stage2Active == p.stage2Active
    ensures p.config.evalsPerWave >= 0 && p.config.feederFee >= 0.0 && p.config.largeFee >= 0.0 ==>
      RunPlanMonth(p, month, draws).bankroll <= p.bankroll
  {
    WavesKeep(p, month, draws, if p.config.wavesPerMonth > 0 then p.config.wavesPerMonth else 0);
  }

  /** A launched wave always leaves a non-negative bankroll, whatever it started with. */
  lemma LaunchedWaveSolvent(p: PlanState, month: nat, idx: nat, draws: Draws)
    requires Shaped(p) && ValidDraws(draws)
    requires var q := if p.config.mode == PlanD then LatchStage2(p) else p;
      Launch(q.bankroll, q.config.riskBudgetFraction, WaveCost(q.config, WaveMix(q))).Some?
    ensures WaveStep(p, month, idx, draws).bankroll >= 0.0
  {
  }

  /** The schedules' total never shrinks during a month. */
  lemma {:induction false} ScheduleEvalsGrow(p: PlanState, waveTime: real, draws: Draws, w: nat, n: nat)
    requires Shaped(p) && waveTime >= 0.0 && ValidDraws(draws)
    ensures var r := ScheduleEvals(p, waveTime, draws, w, n);
      Sum(r.withdrawSchedule) + Sum(r.reinvestSchedule) >= Sum(p.withdrawSchedule) + Sum(p.reinvestSchedule)
  {
    if n > 0 {
      ScheduleEvalsGrow(p, waveTime, draws, w, n - 1);
      ScheduleConserves(ScheduleEvals(p, waveTime, draws, w, n - 1), waveTime, draws(w, n - 1));
    }
  }

  lemma WaveStepGrowsSchedules(p: PlanState, month: nat, idx: nat, draws: Draws)
    requires Shaped(p) && ValidDraws(draws)
    ensures var r := WaveStep(p, month, idx, draws);
      Sum(r.withdrawSchedule) + Sum(r.reinvestSchedule) >= Sum(p.withdrawSchedule) + Sum(p.reinvestSchedule)
  {
    var q := if p.config.mode == PlanD then LatchStage2(p) else p;
    var c := WaveMix(q);
    match Launch(q.bankroll, q.config.riskBudgetFraction, WaveCost(q.config, c))
    case None =>
    case Some(b) =>
      ScheduleEvalsGrow(q.(bankroll := b), WaveTime(month, idx, q.config.wavesPerMonth), draws, idx, IMax(0, c.feeder + c.large));
  }

  lemma {:induction false} WavesGrowSchedules(p: PlanState, month: nat, draws: Draws, n: nat)
    requires Shaped(p) && ValidDraws(draws)
    ensures var r := Waves(p, month, draws, n);
      Sum(r.withdrawSchedule) + Sum(r.reinvestSchedule) >= Sum(p.withdrawSchedule) + Sum(p.reinvestSchedule)
  {
    if n > 0 {
      WavesGrowSchedules(p, month, draws, n - 1);
      WaveStepGrowsSchedules(Waves(p, month, draws, n - 1), month, n - 1, draws);
    }
  }

  // ---------------------------------------------------------------------
  // Settling a month's scheduled amounts
  // ---------------------------------------------------------------------

  datatype Ledger = Ledger(pool: real, cumulative: real)
  datatype Settled = Settled(plan: PlanState, ledger: Ledger)

  /**
   * The start of a month for one plan: an active plan's scheduled withdrawal
   * moves into the profit pool and its withdrawn totals, its scheduled
   * reinvestment into its bankroll, and both entries are cleared.
   */
  function Settle(p: PlanState, month: nat, l: Ledger): (r: Settled)
    requires Shaped(p) && month < |p.withdrawSchedule|
    ensures Shaped(r.plan) && |r.plan.withdrawSchedule| == |p.withdrawSchedule|
    ensures p.active ==> r.plan.withdrawSchedule[month] == 0.0 && r.plan.reinvestSchedule[month] == 0.0
    ensures !p.active ==> r == Settled(p, l)
  {
    if !p.active then Settled(p, l)
    else
      var w := p.withdrawSchedule[month];
      var p1 := if w != 0.0 then p.(totalWithdrawn := p.totalWithdrawn + w, withdrawSchedule := p.withdrawSchedule[month := 0.0]) else p;
      var l1 := if w != 0.0 then Ledger(l.pool + w, l.cumulative + w) else l;
      var v := p1.reinvestSchedule[month];
      var p2 := if v != 0.0 then p1.(bankroll := p1.bankroll + v, reinvestSchedule := p1.reinvestSchedule[month := 0.0]) else p1;
      Settled(p2, l1)
  }

  /**
   * Settling moves money without creating or losing any: pool, bankroll and
   * the schedules keep their total, and the pool, the plan's withdrawn total
   * and the run's cumulative payout all grow by the scheduled withdrawal.
   */
  lemma SettleConserves(p: PlanState, month: nat, l: Ledger)
    requires Shaped(p) && month < |p.withdrawSchedule| && p.active
    ensures var r := Settle(p, month, l);
      && r.ledger.pool + r.plan.bankroll + Sum(r.plan.withdrawSchedule) + Sum(r.plan.reinvestSchedule)
         == l.pool + p.bankroll + Sum(p.withdrawSchedule) + Sum(p.reinvestSchedule)
      && r.ledger.pool - l.pool == p.withdrawSchedule[month]
      && r.plan.totalWithdrawn - p.totalWithdrawn == p.withdrawSchedule[month]
      && r.ledger.cumulative - l.cumulative == p.withdrawSchedule[month]
      && r.plan.bankroll - p.bankroll == p.reinvestSchedule[month]
  {
    var w := p.withdrawSchedule[month];
    var v := p.reinvestSchedule[month];
    assert p.withdrawSchedule[month := 0.0] == p.withdrawSchedule[month := w + -w];
    assert p.reinvestSchedule[month := 0.0] == p.reinvestSchedule[month := v + -v];
    SumAddAt(p.withdrawSchedule, month, -w);
    SumAddAt(p.reinvestSchedule, month, -v);
  }

  // ---------------------------------------------------------------------
  // Policies
  // ---------------------------------------------------------------------

  /**
   * The policies: B then D once B has withdrawn 10k, or a ladder B, E, D with
   * E seeded at one threshold of B's withdrawals and D at a threshold of B's
   * and E's together.
   */
  datatype Policy = Direct | Ladder(eWithdrawn: real, dCombined: real)

  const PlanBD: Policy := Direct
  const PlanBED: Policy := Ladder(10000.0, 25000.0)
  const PlanBE3: Policy := Ladder(6500.0, 15000.0)

  const DirectWithdrawn: real := 10000.0
  const ESeed: real := 1500.0
  const DSeed: real := 5000.0

  /** The plans of a run: B and D always, E for the ladders. */
  datatype Plans = Plans(b: PlanState, e: Option<PlanState>, d: PlanState)

  function Factory(policy: Policy, horizon: nat): (r: Plans)
    ensures r.b.active && r.b.bankroll == InitialBankroll && !r.d.active
    ensures r.e.Some? <==> policy.Ladder?
    ensures r.e.Some? ==> !r.e.value.active
  {
    var b := NewPlan(PlanB, horizon, InitialBankroll, true, 0);
    var d := NewPlan(PlanDDirect, horizon, 0.0, false, 0);
    match policy
    case Direct => Plans(b, None, d)
    case Ladder(_, _) => Plans(b, Some(NewPlan(PlanE, horizon, 0.0, false, 0)), d)
  }

  datatype Seeded = Seeded(plan: PlanState, pool: real)

  /** Whether a trigger seeds `plan`: it is inactive, ready, the pool covers the seed and the horizon is not over. */
  predicate SeedsPlan(plan: PlanState, pool: real, month: int, ready: bool, seed: real)
  {
    !plan.active && ready && pool >= seed && month < HorizonMonths as int
  }

  /** Seeding a plan from the profit pool. */
  function Seed(plan: PlanState, pool: real, month: int, ready: bool, seed: real): (r: Seeded)
    ensures SeedsPlan(plan, pool, month, ready, seed) ==>
      r.plan.active && r.plan.bankroll == seed && r.plan.startMonth == month && r.pool >= 0.0
      && r.pool + r.plan.bankroll == pool
    ensures !SeedsPlan(plan, pool, month, ready, seed) ==> r == Seeded(plan, pool)
  {
    if SeedsPlan(plan, pool, month, ready, seed) then Seeded(ActivatePlan(plan, seed, month), pool - seed)
    else Seeded(plan, pool)
  }

  /** B's and, when E is active, E's withdrawals. */
  function Combined(b: PlanState, e: PlanState): real
  {
    b.totalWithdrawn + (if e.active then e.totalWithdrawn else 0.0)
  }

  datatype Triggered = Triggered(plans: Plans, pool: real)

  /**
   * A policy's trigger at the start of `month`, after settling: it may seed
   * E, then D, each from the pool. A ladder policy looks up plan E and fails
   * with a KeyError when the run has none.
   */
  function Trigger(policy: Policy, plans: Plans, pool: real, month: int): (r: Result<Triggered>)
    ensures r.Err? <==> policy.Ladder? && plans.e.None?
    ensures r.Ok? ==> r.value.plans.b == plans.b && r.value.plans.e.Some? == plans.e.Some?
    ensures r.Ok? && plans.d.active ==> r.value.plans.d == plans.d
    ensures r.Ok? && plans.e.Some? && plans.e.value.active ==> r.value.plans.e == plans.e
    ensures r.Ok? && pool >= 0.0 ==> r.value.pool >= 0.0
  {
    match policy
    case Direct =>
      var sd := Seed(plans.d, pool, month, plans.b.totalWithdrawn >= DirectWithdrawn, DSeed);
      Ok(Triggered(plans.(d := sd.plan), sd.pool))
    case Ladder(eWithdrawn, dCombined) =>
      if plans.e.None? then Err(KeyError("E"))
      else
        var se := Seed(plans.e.value, pool, month, plans.b.totalWithdrawn >= eWithdrawn, ESeed);
        var sd := Seed(plans.d, se.pool, month, Combined(plans.b, se.plan) >= dCombined, DSeed);
        Ok(Triggered(Plans(plans.b, Some(se.plan), sd.plan), sd.pool))
  }

  /**
   * A plan is seeded at most once: running the trigger a second time in the
   * same month changes nothing.
   */
  lemma TriggerIdempotent(policy: Policy, plans: Plans, pool: real, month: int)
    requires Trigger(policy, plans, pool, month).Ok?
    ensures var t := Trigger(policy, plans, pool, month).value;
      Trigger(policy, t.plans, t.pool, month) == Ok(t)
  {
    match policy
    case Direct =>
    case Ladder(eWithdrawn, dCombined) =>
      var se := Seed(plans.e.value, pool, month, plans.b.totalWithdrawn >= eWithdrawn, ESeed);
      var sd := Seed(plans.d, se.pool, month, Combined(plans.b, se.plan) >= dCombined, DSeed);
      var t := Trigger(policy, plans, pool, month).value;
      assert t.plans.e == Some(se.plan) && t.pool == sd.pool;
      var se2 := Seed(se.plan, sd.pool, month, plans.b.totalWithdrawn >= eWithdrawn, ESeed);
      assert sd.pool <= se.pool;
      assert se2 == Seeded(se.plan, sd.pool);
  }

  /**
   * Seeding happens only when the thresholds hold: a plan that was inactive
   * and is active afterwards saw its threshold met, a pool covering its seed
   * and a month within the horizon, and its seed left the pool.
   */
  lemma TriggerOnlyAtThresholds(policy: Policy, plans: Plans, pool: real, month: int)
    requires Trigger(policy, plans, pool, month).Ok?
    ensures var t := Trigger(policy, plans, pool, month).value;
      !plans.d.active && t.plans.d.active ==>
        && month < HorizonMonths as int
        && t.plans.d.bankroll == DSeed
        && (policy.Direct? ==> plans.b.totalWithdrawn >= DirectWithdrawn && pool >= DSeed && t.pool == pool - DSeed)
        && (policy.Ladder? ==> Combined(plans.b, t.plans.e.value) >= policy.dCombined)
    ensures var t := Trigger(policy, plans, pool, month).value;
      policy.Ladder? && !plans.e.value.active && t.plans.e.value.active ==>
        && month < HorizonMonths as int
        && plans.b.totalWithdrawn >= policy.eWithdrawn && pool >= ESeed
        && t.plans.e.value.bankroll == ESeed
  {
  }
}

=== FILE: challenge.dfy ===
/**
 * How core/challenge.py turns one backtest into a prop-challenge outcome:
 * the candidate end events (pass, total loss, daily-loss violation, the
 * risk engine's stop timestamps, the trading-day and calendar-day limits),
 * the earliest of which ends the challenge, and the statistics taken up to
 * that moment. The backtest result arrives as its equity curve, daily stats,
 * lock timestamps and trade exit times. Timestamps are UTC seconds; a
 * calendar date is the day number `ts / 86400`.
 */
module Challenge {
  import opened Wrappers
  import opened Num
  import Grouping

  const SecondsPerDay: int := 86400

  /**
   * Challenge rules. A day limit of 0 means the rule is off, as the source's
   * truthiness test treats both None and 0.
   */
  datatype ChallengeConfig = ChallengeConfig(
    startEquity: real,
    profitTargetFraction: real,
    maxTotalLossFraction: real,
    maxDailyLossFraction: real,
    minTradingDays: int,
    maxTradingDays: nat,
    maxCalendarDays: nat)

  datatype DailyStat = DailyStat(date: int, equityStartOfDay: real, realizedPnl: real)

  /** The parts of a backtest result the outcome reads. `exitTimes` holds each trade's exit time, if any. */
  datatype BacktestView = BacktestView(
    curve: seq<(int, real)>,
    dailyStats: seq<DailyStat>,
    internalStopTs: Option<int>,
    propFailTs: Option<int>,
    exitTimes: seq<Option<int>>,
    maxDailyLossFraction: real)

  datatype Outcome = Outcome(
    passed: bool,
    hitProfitTarget: bool,
    hitTotalLoss: bool,
    hitInternalStop: bool,
    hitPropViolation: bool,
    timedOut: bool,
    finalEquity: real,
    peakEquity: real,
    minEquity: real,
    numTradingDays: nat,
    numTrades: nat,
    startIndex: int,
    endIndex: int,
    maxDailyLossFraction: real,
    failureReason: Option<string>,
    startTimestamp: int,
    endTimestamp: int,
    maxObservedDailyLossFraction: real)

  function DayOf(ts: int): int
  {
    ts / SecondsPerDay
  }

  /** `_first_index_meeting`: the first position holding true, if any. */
  function FirstIndex(bs: seq<bool>): (r: Option<nat>)
    ensures r.Some? ==> r.value < |bs| && bs[r.value] && forall j :: 0 <= j < r.value ==> !bs[j]
    ensures r.None? ==> forall j :: 0 <= j < |bs| ==> !bs[j]
    decreases |bs|
  {
    if |bs| == 0 then None
    else if bs[0] then Some(0)
    else
      match FirstIndex(bs[1..])
      case None => None
      case Some(i) => Some(i + 1)
  }

  /** `_daily_loss_fraction`: the day's realised loss over its opening equity, 0 for a non-positive opening. */
  function DailyLossFraction(stat: DailyStat): (r: real)
    ensures r >= 0.0
    ensures stat.equityStartOfDay <= 0.0 ==> r == 0.0
    ensures stat.equityStartOfDay > 0.0 ==> r * stat.equityStartOfDay == Max(0.0, -stat.realizedPnl)
  {
    if stat.equityStartOfDay <= 0.0 then 0.0
    else Max(0.0, -stat.realizedPnl) / stat.equityStartOfDay
  }

  // Day ends -------------------------------------------------------------------

  /** The last curve timestamp falling on `day`: later points overwrite earlier ones in `_day_end_map`. */
  function LastOfDay(curve: seq<(int, real)>, day: int): (r: Option<nat>)
    ensures r.Some? ==> r.value < |curve| && DayOf(curve[r.value].0) == day
    ensures r.Some? ==> forall j :: r.value < j < |curve| ==> DayOf(curve[j].0) != day
    ensures r.None? ==> forall j :: 0 <= j < |curve| ==> DayOf(curve[j].0) != day
    decreases |curve|
  {
    if |curve| == 0 then None
    else if DayOf(curve[|curve| - 1].0) == day then Some(|curve| - 1)
    else LastOfDay(curve[..|curve| - 1], day)
  }

  /** `_get_day_end_timestamp`: the day's last curve timestamp, else that day's midnight. */
  function DayEnd(curve: seq<(int, real)>, day: int): (ts: int)
    ensures DayOf(ts) == day
    ensures LastOfDay(curve, day).None? ==> ts == day * SecondsPerDay
  {
    match LastOfDay(curve, day)
    case Some(i) => curve[i].0
    case None => day * SecondsPerDay
  }

  /** The end-of-day timestamp of every daily stat, in order. */
  function DayEnds(curve: seq<(int, real)>, stats: seq<DailyStat>): (r: seq<int>)
    ensures |r| == |stats|
    ensures forall k :: 0 <= k < |stats| ==> r[k] == DayEnd(curve, stats[k].date)
  {
    seq(|stats|, k requires 0 <= k < |stats| => DayEnd(curve, stats[k].date))
  }

  // Candidate events -------------------------------------------------------------

  function MeetsTarget(curve: seq<(int, real)>, target: real): (r: seq<bool>)
    ensures |r| == |curve|
    ensures forall i :: 0 <= i < |curve| ==> r[i] == (curve[i].1 >= target)
  {
    seq(|curve|, i requires 0 <= i < |curve| => curve[i].1 >= target)
  }

  function BelowLoss(curve: seq<(int, real)>, floor: real): (r: seq<bool>)
    ensures |r| == |curve|
    ensures forall i :: 0 <= i < |curve| ==> r[i] == (curve[i].1 <= floor)
  {
    seq(|curve|, i requires 0 <= i < |curve| => curve[i].1 <= floor)
  }

  /** When equity first reached the profit target, if ever. */
  function ProfitTs(cfg: ChallengeConfig, curve: seq<(int, real)>): (r: Option<int>)
    ensures r.Some? <==> exists i :: 0 <= i < |curve| && curve[i].1 >= cfg.startEquity * (1.0 + cfg.profitTargetFraction)
    ensures r.Some? ==>
      exists i :: 0 <= i < |curve| && curve[i].1 >= cfg.startEquity * (1.0 + cfg.profitTargetFraction)
        && r.value == curve[i].0 && forall j :: 0 <= j < i ==> curve[j].1 < cfg.startEquity * (1.0 + cfg.profitTargetFraction)
  {
    match FirstIndex(MeetsTarget(curve, cfg.startEquity * (1.0 + cfg.profitTargetFraction)))
    case None => None
    case Some(i) => Some(curve[i].0)
  }

  /** When equity first fell to the total-loss floor, if ever. */
  function LossTs(cfg: ChallengeConfig, curve: seq<(int, real)>): (r: Option<int>)
    ensures r.Some? <==> exists i :: 0 <= i < |curve| && curve[i].1 <= cfg.startEquity * (1.0 - cfg.maxTotalLossFraction)
    ensures r.Some? ==>
      exists i :: 0 <= i < |curve| && curve[i].1 <= cfg.startEquity * (1.0 - cfg.maxTotalLossFraction)
        && r.value == curve[i].0 && forall j :: 0 <= j < i ==> curve[j].1 > cfg.startEquity * (1.0 - cfg.maxTotalLossFraction)
  {
    match FirstIndex(BelowLoss(curve, cfg.startEquity * (1.0 - cfg.maxTotalLossFraction)))
    case None => None
    case Some(i) => Some(curve[i].0)
  }

  function OverDailyCap(cfg: ChallengeConfig, stats: seq<DailyStat>): (r: seq<bool>)
    ensures |r| == |stats|
    ensures forall k :: 0 <= k < |stats| ==> r[k] == (DailyLossFraction(stats[k]) > cfg.maxDailyLossFraction)
  {
    seq(|stats|, k requires 0 <= k < |stats| => DailyLossFraction(stats[k]) > cfg.maxDailyLossFraction)
  }

  /** The end of the first day whose loss fraction is strictly above the daily cap, if any. */
  function PropViolationTs(cfg: ChallengeConfig, curve: seq<(int, real)>, stats: seq<DailyStat>): (r: Option<int>)
    ensures r.None? <==> forall k :: 0 <= k < |stats| ==> DailyLossFraction(stats[k]) <= cfg.maxDailyLossFraction
    ensures r.Some? ==>
      exists k :: 0 <= k < |stats| && DailyLossFraction(stats[k]) > cfg.maxDailyLossFraction && r.value == DayEnd(curve, stats[k].date)
        && forall j :: 0 <= j < k ==> DailyLossFraction(stats[j]) <= cfg.maxDailyLossFraction
  {
    match FirstIndex(OverDailyCap(cfg, stats))
    case None => None
    case Some(k) => Some(DayEnd(curve, stats[k].date))
  }

  predicate PassDay(profitTs: int, dayEnds: seq<int>, minTradingDays: int, k: nat)
    requires k < |dayEnds|
  {
    dayEnds[k] >= profitTs && k + 1 >= minTradingDays
  }

  function PassDays(profitTs: int, dayEnds: seq<int>, minTradingDays: int): (r: seq<bool>)
    ensures |r| == |dayEnds|
    ensures forall k :: 0 <= k < |dayEnds| ==> r[k] == PassDay(profitTs, dayEnds, minTradingDays, k)
  {
    seq(|dayEnds|, k requires 0 <= k < |dayEnds| => PassDay(profitTs, dayEnds, minTradingDays, k))
  }

  /**
   * The pass moment: the end of the first trading day (counted from 1) that
   * ends at or after the profit moment and is at least the minimum day count.
   */
  function PassTs(profitTs: Option<int>, dayEnds: seq<int>, minTradingDays: int): (r: Option<int>)
    ensures r.None? <==> profitTs.None? || forall k :: 0 <= k < |dayEnds| ==> !PassDay(profitTs.value, dayEnds, minTradingDays, k)
    ensures r.Some? ==> exists k :: (0 <= k < |dayEnds| && PassDay(profitTs.value, dayEnds, minTradingDays, k) && r.value == dayEnds[k]
      && forall j :: 0 <= j < k ==> !PassDay(profitTs.value, dayEnds, minTradingDays, j))
  {
    if profitTs.None? then None
    else
      match FirstIndex(PassDays(profitTs.value, dayEnds, minTradingDays))
      case None => None
      case Some(k) => Some(dayEnds[k])
  }

  function MaxTradingDaysTs(cfg: ChallengeConfig, dayEnds: seq<int>): (r: Option<int>)
    ensures r.Some? <==> cfg.maxTradingDays > 0 && |dayEnds| >= cfg.maxTradingDays
    ensures r.Some? ==> r.value == dayEnds[cfg.maxTradingDays - 1]
  {
    if cfg.maxTradingDays > 0 && |dayEnds| >= cfg.maxTradingDays then Some(dayEnds[cfg.maxTradingDays - 1]) else None
  }

  function Candidate(ts: Option<int>, reason: string): (r: seq<(int, string)>)
    ensures ts.None? ==> r == []
    ensures ts.Some? ==> r == [(ts.value, reason)]
  {
    if ts.Some? then [(ts.value, reason)] else []
  }

  /** The calendar deadline, capped at the last curve timestamp; none when the rule is off. */
  function Deadline(cfg: ChallengeConfig, startTs: int, lastTs: int): (r: Option<int>)
    ensures cfg.maxCalendarDays == 0 <==> r.None?
    ensures r.Some? ==> r.value <= lastTs && r.value <= startTs + cfg.maxCalendarDays * SecondsPerDay
    ensures r.Some? ==> r.value == lastTs || r.value == startTs + cfg.maxCalendarDays * SecondsPerDay
  {
    if cfg.maxCalendarDays > 0 then
      var deadline := startTs + cfg.maxCalendarDays * SecondsPerDay;
      Some(if deadline > lastTs then lastTs else deadline)
    else None
  }

  /** The moment of each candidate end event, if it happens. */
  datatype EventTimes = EventTimes(
    pass: Option<int>,
    totalLoss: Option<int>,
    propViolation: Option<int>,
    internalStop: Option<int>,
    propFail: Option<int>,
    maxTradingDays: Option<int>,
    maxCalendarDays: Option<int>)

  function Times(cfg: ChallengeConfig, bt: BacktestView, startTs: int): EventTimes
    requires |bt.curve| > 0
  {
    var curve := bt.curve;
    var dayEnds := DayEnds(curve, bt.dailyStats);
    EventTimes(
      PassTs(ProfitTs(cfg, curve), dayEnds, cfg.minTradingDays),
      LossTs(cfg, curve),
      PropViolationTs(cfg, curve, bt.dailyStats),
      bt.internalStopTs,
      bt.propFailTs,
      MaxTradingDaysTs(cfg, dayEnds),
      Deadline(cfg, startTs, curve[|curve| - 1].0))
  }

  /** The events that happen, in the source's fixed order pass, total_loss, prop_violation, internal_stop, prop_fail, max_trading_days, max_calendar_days. */
  function EventList(t: EventTimes): (r: seq<(int, string)>)
    ensures forall k :: 0 <= k < |r| ==> r[k].1 != "timeout"
    ensures forall k :: 0 <= k < |r| && r[k].1 == "pass" ==> k == 0 && t.pass == Some(r[0].0)
    ensures t.pass.Some? ==> |r| > 0 && r[0] == (t.pass.value, "pass")
    ensures t.pass.Some? && t.totalLoss.Some? ==> |r| > 1 && r[1] == (t.totalLoss.value, "total_loss")
    ensures t.propViolation.None? ==> forall k :: 0 <= k < |r| ==> r[k].1 != "prop_violation"
  {
    Candidate(t.pass, "pass") + AfterPass(t)
  }

  function AfterPass(t: EventTimes): (r: seq<(int, string)>)
    ensures forall k :: 0 <= k < |r| ==> r[k].1 != "timeout" && r[k].1 != "pass"
    ensures t.totalLoss.Some? ==> |r| > 0 && r[0] == (t.totalLoss.value, "total_loss")
    ensures t.propViolation.None? ==> forall k :: 0 <= k < |r| ==> r[k].1 != "prop_violation"
  {
    Candidate(t.totalLoss, "total_loss") + Limits(t)
  }

  function Limits(t: EventTimes): (r: seq<(int, string)>)
    ensures forall k :: 0 <= k < |r| ==> r[k].1 !in {"timeout", "pass", "total_loss"}
    ensures t.propViolation.None? ==> forall k :: 0 <= k < |r| ==> r[k].1 != "prop_violation"
  {
    Candidate(t.propViolation, "prop_violation")
    + Candidate(t.internalStop, "internal_stop")
    + Candidate(t.propFail, "prop_fail")
    + Candidate(t.maxTradingDays, "max_trading_days")
    + Candidate(t.maxCalendarDays, "max_calendar_days")
  }

  /** The candidate end events; "timeout" at the last curve point only when none happens. */
  function Events(cfg: ChallengeConfig, bt: BacktestView, startTs: int): (r: seq<(int, string)>)
    requires |bt.curve| > 0
    ensures |r| > 0
    ensures |EventList(Times(cfg, bt, startTs))| > 0 ==> r == EventList(Times(cfg, bt, startTs))
    ensures |EventList(Times(cfg, bt, startTs))| == 0 ==> r == [(bt.curve[|bt.curve| - 1].0, "timeout")]
  {
    var found := EventList(Times(cfg, bt, startTs));
    if |found| == 0 then [(bt.curve[|bt.curve| - 1].0, "timeout")] else found
  }

  /**
   * The index a stable sort by timestamp brings to the front: the earliest
   * timestamp, and among equal timestamps the first in list order.
   */
  function EarliestIndex(events: seq<(int, string)>): (i: nat)
    requires |events| > 0
    ensures i < |events|
    ensures forall j :: 0 <= j < |events| ==> events[i].0 <= events[j].0
    ensures forall j :: 0 <= j < i ==> events[j].0 > events[i].0
    decreases |events|
  {
    if |events| == 1 then 0
    else
      var k := EarliestIndex(events[1..]) + 1;
      assert forall j :: 1 <= j < |events| ==> events[1..][j - 1] == events[j];
      if events[0].0 <= events[k].0 then 0 else k
  }

  // Statistics up to the end ---------------------------------------------------------

  /** A moment at or before `end`. */
  function NotAfter(end: int): int -> bool
  {
    t => t <= end
  }

  /** An exit that happened, at or before `end`. */
  function ExitedBy(end: int): Option<int> -> bool
  {
    (e: Option<int>) => e.Some? && e.value <= end
  }

  /** A curve point at or before `end`. */
  function PointBy(end: int): ((int, real)) -> bool
  {
    (p: (int, real)) => p.0 <= end
  }

  /** How many of the moments fall at or before the end: exactly the number of such positions. */
  function CountAtOrBefore(ts: seq<int>, end: int): (n: nat)
    ensures n == |Grouping.Positions(ts, NotAfter(end))|
    ensures n <= |ts|
    decreases |ts|
  {
    if |ts| == 0 then 0
    else
      Grouping.PositionsSnoc(ts, NotAfter(end));
      CountAtOrBefore(ts[..|ts| - 1], end) + (if ts[|ts| - 1] <= end then 1 else 0)
  }

  /** Trades with an exit time at or before the end: exactly the number of such positions. */
  function TradesAtOrBefore(exits: seq<Option<int>>, end: int): (n: nat)
    ensures n == |Grouping.Positions(exits, ExitedBy(end))|
    ensures n <= |exits|
    decreases |exits|
  {
    if |exits| == 0 then 0
    else
      var last := exits[|exits| - 1];
      Grouping.PositionsSnoc(exits, ExitedBy(end));
      TradesAtOrBefore(exits[..|exits| - 1], end) + (if last.Some? && last.value <= end then 1 else 0)
  }

  /** `x` is the equity of some curve point at or before the end. */
  ghost predicate EquityBy(x: real, curve: seq<(int, real)>, end: int)
  {
    exists j :: 0 <= j < |curve| && curve[j].0 <= end && x == curve[j].1
  }

  /** The equities of the curve points at or before the end: one per such point, in curve order. */
  function EquityUpTo(curve: seq<(int, real)>, end: int): (r: seq<real>)
    ensures |r| == |Grouping.KeptIndices(curve, PointBy(end))|
    ensures forall k :: 0 <= k < |r| ==> r[k] == curve[Grouping.KeptIndices(curve, PointBy(end))[k]].1
    ensures |r| <= |curve|
    ensures forall i :: 0 <= i < |r| ==> EquityBy(r[i], curve, end)
    ensures |r| == 0 <==> forall j :: 0 <= j < |curve| ==> curve[j].0 > end
    decreases |curve|
  {
    if |curve| == 0 then []
    else
      var init := curve[..|curve| - 1];
      var front := EquityUpTo(init, end);
      var r := if curve[|curve| - 1].0 <= end then front + [curve[|curve| - 1].1] else front;
      EquityUpToStep(curve, init, end, front, r);
      EquityUpToInOrder(curve, init, end, front, r);
      r
  }

  /** Extending the equities of the earlier points by the last point, when it is in time. */
  lemma EquityUpToStep(curve: seq<(int, real)>, init: seq<(int, real)>, end: int, front: seq<real>, r: seq<real>)
    requires |curve| > 0 && init == curve[..|curve| - 1]
    requires |front| <= |init|
    requires forall i :: 0 <= i < |front| ==> EquityBy(front[i], init, end)
    requires |front| == 0 <==> forall j :: 0 <= j < |init| ==> init[j].0 > end
    requires r == if curve[|curve| - 1].0 <= end then front + [curve[|curve| - 1].1] else front
    ensures |r| <= |curve|
    ensures forall i :: 0 <= i < |r| ==> EquityBy(r[i], curve, end)
    ensures |r| == 0 <==> forall j :: 0 <= j < |curve| ==> curve[j].0 > end
  {
    var last := |curve| - 1;
    forall i | 0 <= i < |r|
      ensures EquityBy(r[i], curve, end)
    {
      if i < |front| {
        assert EquityBy(front[i], init, end);
        var j :| 0 <= j < |init| && init[j].0 <= end && front[i] == init[j].1;
        assert curve[j] == init[j];
        assert r[i] == front[i];
      } else {
        assert r[i] == curve[last].1;
      }
    }
    assert forall j :: 0 <= j < |init| ==> init[j] == curve[j];
  }

  /** The same step keeps the selection to the in-time points, in curve order. */
  lemma EquityUpToInOrder(curve: seq<(int, real)>, init: seq<(int, real)>, end: int, front: seq<real>, r: seq<real>)
    requires |curve| > 0 && init == curve[..|curve| - 1]
    requires r == if curve[|curve| - 1].0 <= end then front + [curve[|curve| - 1].1] else front
    requires |front| == |Grouping.KeptIndices(init, PointBy(end))|
    requires forall k :: 0 <= k < |front| ==> front[k] == init[Grouping.KeptIndices(init, PointBy(end))[k]].1
    ensures |r| == |Grouping.KeptIndices(curve, PointBy(end))|
    ensures forall k :: 0 <= k < |r| ==> r[k] == curve[Grouping.KeptIndices(curve, PointBy(end))[k]].1
  {
    var last := |curve| - 1;
    var idx := Grouping.KeptIndices(curve, PointBy(end));
    var fidx := Grouping.KeptIndices(init, PointBy(end));
    assert idx == fidx + (if PointBy(end)(curve[last]) then [last] else []);
    forall k | 0 <= k < |r| ensures r[k] == curve[idx[k]].1 {
      if k < |front| {
        assert idx[k] == fidx[k];
        assert 0 <= fidx[k] < |init|;
      }
    }
  }

  /** The largest daily loss fraction among days ending at or before the end, 0 when there are none. */
  function MaxObservedLoss(dayEnds: seq<int>, stats: seq<DailyStat>, end: int): (r: real)
    requires |dayEnds| == |stats|
    ensures r >= 0.0
    ensures forall k :: 0 <= k < |stats| && dayEnds[k] <= end ==> DailyLossFraction(stats[k]) <= r
    ensures r == 0.0 || exists k :: 0 <= k < |stats| && dayEnds[k] <= end && r == DailyLossFraction(stats[k])
    decreases |stats|
  {
    if |stats| == 0 then 0.0
    else
      var n := |stats| - 1;
      var before := MaxObservedLoss(dayEnds[..n], stats[..n], end);
      if dayEnds[n] <= end then Max(before, DailyLossFraction(stats[n])) else before
  }

  /** The original row index of the last window row at or before the end, else the start index. */
  function EndIndex(window: Option<seq<(int, int)>>, startIndex: int, end: int): int
  {
    if window.None? then startIndex
    else
      var rows := window.value;
      LastRowIndex(rows, end).GetOr(startIndex)
  }

  function LastRowIndex(rows: seq<(int, int)>, end: int): (r: Option<int>)
    ensures r.Some? ==> exists i :: (0 <= i < |rows| && rows[i].0 <= end && r.value == rows[i].1
      && forall j :: i < j < |rows| ==> rows[j].0 > end)
    ensures r.None? ==> forall i :: 0 <= i < |rows| ==> rows[i].0 > end
    decreases |rows|
  {
    if |rows| == 0 then None
    else if rows[|rows| - 1].0 <= end then Some(rows[|rows| - 1].1)
    else
      var r := LastRowIndex(rows[..|rows| - 1], end);
      assert forall i :: 0 <= i < |rows| - 1 ==> rows[..|rows| - 1][i] == rows[i];
      r
  }

  // The outcome ------------------------------------------------------------------------

  const TimeoutReasons: set<string> := {"timeout", "max_trading_days", "max_calendar_days"}

  function NoDataOutcome(cfg: ChallengeConfig, startTs: int, startIndex: int): Outcome
  {
    Outcome(false, false, false, false, false, true, cfg.startEquity, cfg.startEquity, cfg.startEquity,
      0, 0, startIndex, startIndex, 0.0, Some("no_data"), startTs, startTs, 0.0)
  }

  /**
   * `_build_challenge_outcome`. Selecting the equity points up to the end
   * and taking the last one raises IndexError when there are none (every
   * candidate event came before the first curve point).
   */
  function BuildOutcome(bt: BacktestView, startTs: int, startIndex: int, cfg: ChallengeConfig, window: Option<seq<(int, int)>>): (r: Result<Outcome>)
    ensures |bt.curve| == 0 ==> r == Ok(NoDataOutcome(cfg, startTs, startIndex))
    ensures |bt.curve| > 0 ==> (r.Err? <==> forall j :: 0 <= j < |bt.curve| ==> bt.curve[j].0 > EndEvent(cfg, bt, startTs).0)
    ensures |bt.curve| > 0 && r.Ok? ==> Reported(r.value, EndEvent(cfg, bt, startTs).1)
    ensures |bt.curve| > 0 && r.Ok? ==> r.value.endTimestamp == EndEvent(cfg, bt, startTs).0
    ensures |bt.curve| > 0 && r.Ok? ==>
      Summarises(r.value, bt, cfg, startTs, startIndex, window, EndEvent(cfg, bt, startTs).0, EndEvent(cfg, bt, startTs).1)
    ensures r.Ok? ==> r.value.minEquity <= r.value.finalEquity <= r.value.peakEquity
    ensures r.Ok? ==> r.value.numTrades <= |bt.exitTimes| && r.value.numTradingDays <= |bt.dailyStats|
    ensures r.Ok? ==> r.value.maxObservedDailyLossFraction >= 0.0
  {
    if |bt.curve| == 0 then Ok(NoDataOutcome(cfg, startTs, startIndex))
    else
      var end := EndEvent(cfg, bt, startTs);
      var equities := EquityUpTo(bt.curve, end.0);
      if |equities| == 0 then Err(IndexError("single positional indexer is out-of-bounds"))
      else Ok(OutcomeAt(bt, startTs, startIndex, cfg, window, end.0, end.1, equities))
  }

  /** The event that ends the challenge: the front of the candidates stably sorted by time. */
  function EndEvent(cfg: ChallengeConfig, bt: BacktestView, startTs: int): (e: (int, string))
    requires |bt.curve| > 0
    ensures var events := Events(cfg, bt, startTs); e == events[EarliestIndex(events)]
  {
    var events := Events(cfg, bt, startTs);
    events[EarliestIndex(events)]
  }

  /** The reason flags as the outcome reports them, all read off the end reason. */
  predicate Reported(o: Outcome, reason: string)
  {
    && (o.passed <==> reason == "pass")
    && (o.failureReason.None? <==> o.passed)
    && (o.failureReason.Some? ==> o.failureReason.value == reason)
    && (o.hitTotalLoss <==> reason == "total_loss")
    && (o.hitInternalStop <==> reason == "internal_stop")
    && (o.hitPropViolation <==> reason == "prop_violation")
    && (o.timedOut <==> reason in TimeoutReasons)
  }

  /**
   * What each field of an outcome that ends at `end` for `reason` means: the
   * flags read off the reason, the final equity the last curve point at or
   * before the end, the peak and minimum the extremes of those points, the
   * counts those of the day ends and the exits at or before the end, and the
   * worst observed daily loss the largest among the days ending by then
   * (0 when there is none).
   */
  ghost predicate Summarises(o: Outcome, bt: BacktestView, cfg: ChallengeConfig, startTs: int, startIndex: int,
                             window: Option<seq<(int, int)>>, end: int, reason: string)
  {
    var curve := bt.curve;
    var dayEnds := DayEnds(curve, bt.dailyStats);
    var profit := ProfitTs(cfg, curve);
    && Reported(o, reason)
    && o.hitProfitTarget == (profit.Some? && profit.value <= end)
    && EquityFigures(o.finalEquity, o.peakEquity, o.minEquity, curve, end)
    && o.numTradingDays == |Grouping.Positions(dayEnds, NotAfter(end))|
    && o.numTrades == |Grouping.Positions(bt.exitTimes, ExitedBy(end))|
    && o.startIndex == startIndex && o.startTimestamp == startTs && o.endTimestamp == end
    && o.endIndex == (if window.Some? && LastRowIndex(window.value, end).Some? then LastRowIndex(window.value, end).value else startIndex)
    && o.maxDailyLossFraction == bt.maxDailyLossFraction
    && o.maxObservedDailyLossFraction >= 0.0
    && (forall k :: 0 <= k < |dayEnds| && dayEnds[k] <= end ==> DailyLossFraction(bt.dailyStats[k]) <= o.maxObservedDailyLossFraction)
    && (o.maxObservedDailyLossFraction == 0.0
        || exists k :: 0 <= k < |dayEnds| && dayEnds[k] <= end && o.maxObservedDailyLossFraction == DailyLossFraction(bt.dailyStats[k]))
  }

  /**
   * The equity figures of the curve points at or before the end: the final
   * one is the last such point, and the peak and minimum bound every such
   * point and are attained by one.
   */
  ghost predicate EquityFigures(final: real, peak: real, min: real, curve: seq<(int, real)>, end: int)
  {
    && LastPointBy(final, curve, end)
    && (forall i :: 0 <= i < |curve| && curve[i].0 <= end ==> min <= curve[i].1 <= peak)
    && EquityBy(peak, curve, end) && EquityBy(min, curve, end)
  }

  /** `x` is the equity of the last curve point at or before the end. */
  ghost predicate LastPointBy(x: real, curve: seq<(int, real)>, end: int)
  {
    exists i :: 0 <= i < |curve| && curve[i].0 <= end && x == curve[i].1 && forall j :: i < j < |curve| ==> curve[j].0 > end
  }

  /** The last selected equity is that of the last curve point at or before the end. */
  lemma EquityUpToLast(curve: seq<(int, real)>, end: int, r: seq<real>)
    requires r == EquityUpTo(curve, end) && |r| > 0
    ensures LastPointBy(r[|r| - 1], curve, end)
  {
    var idx := Grouping.KeptIndices(curve, PointBy(end));
    var last := idx[|r| - 1];
    assert PointBy(end)(curve[last]);
    forall j | last < j < |curve|
      ensures curve[j].0 > end
    {
      Grouping.KeptIndicesLast(curve, PointBy(end), idx, j);
    }
    LastPointAt(curve, end, last);
  }

  /** A point at or before the end with only later points after it is the last such point. */
  lemma LastPointAt(curve: seq<(int, real)>, end: int, last: int)
    requires 0 <= last < |curve| && curve[last].0 <= end
    requires forall j :: last < j < |curve| ==> curve[j].0 > end
    ensures LastPointBy(curve[last].1, curve, end)
  {
  }

  /** The extremes of the selected equities bound every curve point at or before the end, and are attained. */
  lemma EquityUpToExtremes(curve: seq<(int, real)>, end: int)
    requires |EquityUpTo(curve, end)| > 0
    ensures var r := EquityUpTo(curve, end);
      && (forall i :: 0 <= i < |curve| && curve[i].0 <= end ==> SeqMin(r) <= curve[i].1 <= SeqMax(r))
      && EquityBy(SeqMax(r), curve, end) && EquityBy(SeqMin(r), curve, end)
  {
    var r := EquityUpTo(curve, end);
    var idx := Grouping.KeptIndices(curve, PointBy(end));
    forall i | 0 <= i < |curve| && curve[i].0 <= end
      ensures SeqMin(r) <= curve[i].1 <= SeqMax(r)
    {
      assert PointBy(end)(curve[i]);
      var k :| 0 <= k < |idx| && idx[k] == i;
      assert r[k] == curve[i].1;
    }
  }

  /** The final, peak and minimum equity of `slice_equity`, the curve points at or before the end. */
  function SliceFigures(curve: seq<(int, real)>, end: int, equities: seq<real>): (f: (real, real, real))
    requires equities == EquityUpTo(curve, end) && |equities| > 0
    ensures EquityFigures(f.0, f.1, f.2, curve, end)
    ensures f.2 <= f.0 <= f.1
  {
    EquityUpToLast(curve, end, equities);
    EquityUpToExtremes(curve, end);
    (equities[|equities| - 1], SeqMax(equities), SeqMin(equities))
  }

  function OutcomeAt(bt: BacktestView, startTs: int, startIndex: int, cfg: ChallengeConfig, window: Option<seq<(int, int)>>,
                     end: int, reason: string, equities: seq<real>): (o: Outcome)
    requires equities == EquityUpTo(bt.curve, end) && |equities| > 0
    ensures Summarises(o, bt, cfg, startTs, startIndex, window, end, reason)
    ensures Reported(o, reason)
    ensures o.endTimestamp == end
    ensures o.minEquity <= o.finalEquity <= o.peakEquity
    ensures o.numTrades <= |bt.exitTimes| && o.numTradingDays <= |bt.dailyStats|
    ensures o.maxObservedDailyLossFraction >= 0.0
  {
    var dayEnds := DayEnds(bt.curve, bt.dailyStats);
    var profit := ProfitTs(cfg, bt.curve);
    var passed := reason == "pass";
    var figures := SliceFigures(bt.curve, end, equities);
    Outcome(
      passed,
      profit.Some? && profit.value <= end,
      reason == "total_loss",
      reason == "internal_stop",
      reason == "prop_violation",
      reason in TimeoutReasons,
      figures.0,
      figures.1,
      figures.2,
      CountAtOrBefore(dayEnds, end),
      TradesAtOrBefore(bt.exitTimes, end),
      startIndex,
      EndIndex(window, startIndex, end),
      bt.maxDailyLossFraction,
      if passed then None else Some(reason),
      startTs,
      end,
      MaxObservedLoss(dayEnds, bt.dailyStats, end))
  }

  // Properties -------------------------------------------------------------------------

  /** Exactly one end reason is reported: the outcome flags never overlap. */
  lemma FlagsExclusive(o: Outcome, reason: string)
    requires Reported(o, reason)
    ensures o.passed ==> !o.hitTotalLoss && !o.hitInternalStop && !o.hitPropViolation && !o.timedOut
    ensures o.hitTotalLoss ==> !o.hitInternalStop && !o.hitPropViolation && !o.timedOut
    ensures o.hitInternalStop ==> !o.hitPropViolation && !o.timedOut
    ensures o.hitPropViolation ==> !o.timedOut
  {
  }

  /** Daily losses at or below the cap never produce a prop violation: the test is strict. */
  lemma LossAtCapIsNoViolation(cfg: ChallengeConfig, bt: BacktestView, startTs: int)
    requires |bt.curve| > 0
    requires forall k :: 0 <= k < |bt.dailyStats| ==> DailyLossFraction(bt.dailyStats[k]) <= cfg.maxDailyLossFraction
    ensures forall j :: 0 <= j < |Events(cfg, bt, startTs)| ==> Events(cfg, bt, startTs)[j].1 != "prop_violation"
  {
    assert Times(cfg, bt, startTs).propViolation.None?;
  }

  /**
   * First event wins: the challenge ends no later than any candidate event,
   * and every candidate listed before the winner happened strictly later.
   */
  lemma FirstEventWins(cfg: ChallengeConfig, bt: BacktestView, startTs: int, j: nat)
    requires |bt.curve| > 0
    requires j < |Events(cfg, bt, startTs)|
    ensures var events := Events(cfg, bt, startTs); var w := EarliestIndex(events);
      && events[w].0 <= events[j].0
      && (j < w ==> events[j].0 > events[w].0)
  {
  }

  /** A total loss at or after the pass moment never ends the challenge; on a tie "pass" wins, being listed first. */
  lemma PassBeatsSameTimeLoss(t: EventTimes)
    requires t.pass.Some? && t.totalLoss.Some? && t.pass.value <= t.totalLoss.value
    ensures EventList(t)[EarliestIndex(EventList(t))].1 != "total_loss"
  {
  }

  /** With day ends in time order, a passed challenge has at least the minimum number of trading days. */
  lemma PassedMeetsMinimumDays(bt: BacktestView, startTs: int, startIndex: int, cfg: ChallengeConfig, window: Option<seq<(int, int)>>)
    requires |bt.curve| > 0
    requires var d := DayEnds(bt.curve, bt.dailyStats); forall i, j :: 0 <= i < j < |d| ==> d[i] <= d[j]
    requires BuildOutcome(bt, startTs, startIndex, cfg, window).Ok?
    requires BuildOutcome(bt, startTs, startIndex, cfg, window).value.passed
    ensures BuildOutcome(bt, startTs, startIndex, cfg, window).value.numTradingDays >= cfg.minTradingDays
  {
    var o := BuildOutcome(bt, startTs, startIndex, cfg, window).value;
    var t := Times(cfg, bt, startTs);
    var events := Events(cfg, bt, startTs);
    var w := EarliestIndex(events);
    var dayEnds := DayEnds(bt.curve, bt.dailyStats);
    assert events[w].1 == "pass";
    assert events == EventList(t);
    assert t.pass.Some? && events[w].0 == t.pass.value;
    var k :| 0 <= k < |dayEnds| && PassDay(ProfitTs(cfg, bt.curve).value, dayEnds, cfg.minTradingDays, k) && t.pass.value == dayEnds[k];
    CountAtOrBeforePrefix(dayEnds, k);
    assert o.numTradingDays == CountAtOrBefore(dayEnds, events[w].0);
  }

  /** In a time-ordered list, at least `k + 1` entries are at or before entry `k`. */
  lemma {:induction false} CountAtOrBeforePrefix(ts: seq<int>, k: nat)
    requires k < |ts|
    requires forall i, j :: 0 <= i < j < |ts| ==> ts[i] <= ts[j]
    ensures CountAtOrBefore(ts, ts[k]) >= k + 1
    decreases |ts|
  {
    if k < |ts| - 1 {
      CountAtOrBeforePrefix(ts[..|ts| - 1], k);
    } else if k > 0 {
      var front := ts[..|ts| - 1];
      CountAtOrBeforePrefix(front, k - 1);
      CountAtOrBeforeMonotone(front, front[k - 1], ts[k]);
    }
  }

  lemma {:induction false} CountAtOrBeforeMonotone(ts: seq<int>, a: int, b: int)
    requires a <= b
    ensures CountAtOrBefore(ts, a) <= CountAtOrBefore(ts, b)
    decreases |ts|
  {
    if |ts| > 0 {
      CountAtOrBeforeMonotone(ts[..|ts| - 1], a, b);
    }
  }

  // The sweep --------------------------------------------------------------------------

  /** `range(0, n, step)`: Python rejects a zero step and yields nothing for a negative one. */
  function Seeds(n: nat, step: int): (r: Result<seq<nat>>)
    ensures step == 0 <==> r.Err?
    ensures r.Ok? ==> forall k :: 0 <= k < |r.value| ==> r.value[k] == k * step && r.value[k] < n
    ensures r.Ok? && step > 0 ==> |r.value| * step >= n
  {
    if step == 0 then Err(ValueError("range() arg 3 must not be zero"))
    else if step < 0 then Ok([])
    else Ok(SeedsFrom(0, n, step))
  }

  function SeedsFrom(k: nat, n: nat, step: nat): (r: seq<nat>)
    requires step > 0
    ensures forall i :: 0 <= i < |r| ==> r[i] == (k + i) * step && r[i] < n
    ensures (k + |r|) * step >= n
    decreases n - k * step
  {
    if k * step >= n then [] else [k * step] + SeedsFrom(k + 1, n, step)
  }

  /**
   * `run_challenge_sweep`: outcomes are collected seed by seed; the first
   * ValueError ends the sweep with what was collected, and any other error
   * propagates.
   */
  function Sweep(attempts: seq<Result<Outcome>>): (r: Result<seq<Outcome>>)
    ensures r.Ok? ==> |r.value| <= |attempts|
    ensures r.Ok? ==> forall k :: 0 <= k < |r.value| ==> attempts[k] == Ok(r.value[k])
    ensures r.Ok? && |r.value| < |attempts| ==> attempts[|r.value|].Err? && attempts[|r.value|].error.ValueError?
    ensures r.Err? ==> !r.error.ValueError?
    ensures r.Err? ==>
      exists k :: 0 <= k < |attempts| && attempts[k] == Err(r.error) && forall j :: 0 <= j < k ==> attempts[j].Ok?
    decreases |attempts|
  {
    if |attempts| == 0 then Ok([])
    else
      match attempts[0]
      case Err(e) => if e.ValueError? then Ok([]) else Err(e)
      case Ok(o) =>
        match Sweep(attempts[1..])
        case Err(e) =>
          assert exists k :: 0 <= k < |attempts| - 1 && attempts[1..][k] == Err(e) && forall j :: 0 <= j < k ==> attempts[1..][j].Ok?;
          var k :| 0 <= k < |attempts| - 1 && attempts[1..][k] == Err(e) && forall j :: 0 <= j < k ==> attempts[1..][j].Ok?;
          assert attempts[k + 1] == Err(e);
          assert forall j :: 1 <= j < k + 1 ==> attempts[j] == attempts[1..][j - 1];
          Err(e)
        case Ok(rest) => Ok([o] + rest)
  }

  /** When every seed succeeds the sweep returns all outcomes. */
  lemma {:induction false} SweepAllOk(attempts: seq<Result<Outcome>>)
    requires forall k :: 0 <= k < |attempts| ==> attempts[k].Ok?
    ensures Sweep(attempts).Ok? && |Sweep(attempts).value| == |attempts|
    decreases |attempts|
  {
    if |attempts| > 0 {
      SweepAllOk(attempts[1..]);
    }
  }
}

=== FILE: challenge_summary.dfy ===
/**
 * The sweep summary of scripts/run_challenge_sim.py: pass rate, average
 * trading days of passes and failures, the worst daily loss, a tally of
 * failure reasons and the shares of runs reaching 5, 8 and 10 percent
 * return, plus the guard in `main` that refuses a sweep whose worst daily
 * loss exceeds the firm's internal cap.
 */
module ChallengeSummary {
  import opened Wrappers
  import opened Num
  import Challenge
  import Grouping

  /**
   * A `Counter` turned into a dict: keys in first-seen order with their
   * counts.
   */
  type Tally = seq<(string, nat)>

  predicate DistinctKeys(t: Tally)
  {
    forall i, j :: 0 <= i < j < |t| ==> t[i].0 != t[j].0
  }

  /** The count under `k`, 0 when `k` was never seen. */
  function CountOf(t: Tally, k: string): (n: nat)
    decreases |t|
  {
    if |t| == 0 then 0
    else if t[|t| - 1].0 == k then t[|t| - 1].1 + CountOf(t[..|t| - 1], k)
    else CountOf(t[..|t| - 1], k)
  }

  function TallySum(t: Tally): nat
    decreases |t|
  {
    if |t| == 0 then 0 else TallySum(t[..|t| - 1]) + t[|t| - 1].1
  }

  function KeyIndex(t: Tally, k: string): (r: Option<nat>)
    ensures r.Some? ==> r.value < |t| && t[r.value].0 == k
    ensures r.None? ==> forall i :: 0 <= i < |t| ==> t[i].0 != k
    decreases |t|
  {
    if |t| == 0 then None
    else if t[|t| - 1].0 == k then Some(|t| - 1)
    else
      var r := KeyIndex(t[..|t| - 1], k);
      assert forall i :: 0 <= i < |t| - 1 ==> t[..|t| - 1][i] == t[i];
      r
  }

  /** One more occurrence of `k`: its count goes up in place, or it is appended with count 1. */
  function Bump(t: Tally, k: string): (r: Tally)
    requires DistinctKeys(t)
  {
    match KeyIndex(t, k)
    case None => t + [(k, 1)]
    case Some(i) => t[i := (k, t[i].1 + 1)]
  }

  lemma {:induction false} CountOfUpdate(t: Tally, i: nat, k: string, c: nat, key: string)
    requires i < |t| && t[i].0 == k
    ensures CountOf(t[i := (k, c)], key) == if key == k then CountOf(t, key) - t[i].1 + c else CountOf(t, key)
    ensures TallySum(t[i := (k, c)]) == TallySum(t) - t[i].1 + c
    ensures CountOf(t, key) >= (if key == k then t[i].1 else 0)
    ensures TallySum(t) >= t[i].1
    decreases |t|
  {
    var u := t[i := (k, c)];
    if i < |t| - 1 {
      assert u[..|u| - 1] == t[..|t| - 1][i := (k, c)];
      CountOfUpdate(t[..|t| - 1], i, k, c, key);
    } else {
      assert u[..|u| - 1] == t[..|t| - 1];
    }
  }

  lemma CountOfAppend(t: Tally, x: (string, nat), key: string)
    ensures CountOf(t + [x], key) == CountOf(t, key) + (if x.0 == key then x.1 else 0)
    ensures TallySum(t + [x]) == TallySum(t) + x.1
  {
    assert (t + [x])[..|t|] == t;
  }

  /** Bumping keeps keys distinct, adds one to `k`'s count and to the total, and leaves other counts alone. */
  lemma BumpCounts(t: Tally, k: string, key: string)
    requires DistinctKeys(t)
    ensures DistinctKeys(Bump(t, k))
    ensures CountOf(Bump(t, k), key) == CountOf(t, key) + (if key == k then 1 else 0)
    ensures TallySum(Bump(t, k)) == TallySum(t) + 1
  {
    match KeyIndex(t, k)
    case None =>
      CountOfAppend(t, (k, 1), key);
    case Some(i) =>
      CountOfUpdate(t, i, k, t[i].1 + 1, key);
  }

  /** `o.failure_reason or "passed"`: a missing or empty reason reads as "passed". */
  function FailureLabel(o: Challenge.Outcome): (r: string)
    ensures |r| > 0
  {
    if o.failureReason.Some? && |o.failureReason.value| > 0 then o.failureReason.value else "passed"
  }

  /** How many outcomes carry the label `k`. */
  function LabelCount(os: seq<Challenge.Outcome>, k: string): (n: nat)
    ensures n <= |os|
    decreases |os|
  {
    if |os| == 0 then 0
    else LabelCount(os[..|os| - 1], k) + (if FailureLabel(os[|os| - 1]) == k then 1 else 0)
  }

  /** `Counter(o.failure_reason or "passed" for o in outcomes)`. */
  function Breakdown(os: seq<Challenge.Outcome>): (t: Tally)
    ensures DistinctKeys(t)
    decreases |os|
  {
    if |os| == 0 then []
    else
      var t := Breakdown(os[..|os| - 1]);
      BumpCounts(t, FailureLabel(os[|os| - 1]), "");
      Bump(t, FailureLabel(os[|os| - 1]))
  }

  /** Every label's count is its number of outcomes, and the counts add up to the number of runs. */
  lemma {:induction false} BreakdownCounts(os: seq<Challenge.Outcome>, k: string)
    ensures CountOf(Breakdown(os), k) == LabelCount(os, k)
    ensures TallySum(Breakdown(os)) == |os|
    decreases |os|
  {
    if |os| > 0 {
      BreakdownCounts(os[..|os| - 1], k);
      BumpCounts(Breakdown(os[..|os| - 1]), FailureLabel(os[|os| - 1]), k);
    }
  }

  predicate Passed(o: Challenge.Outcome)
  {
    o.passed
  }

  predicate Failed(o: Challenge.Outcome)
  {
    !o.passed
  }

  function TradingDays(o: Challenge.Outcome): real
  {
    o.numTradingDays as real
  }

  /** The number of passed outcomes: exactly the number of such positions. */
  function CountPassed(os: seq<Challenge.Outcome>): (n: nat)
    ensures n == |Grouping.Positions(os, Passed)|
    ensures n <= |os|
    decreases |os|
  {
    if |os| == 0 then 0
    else
      Grouping.PositionsSnoc(os, Passed);
      CountPassed(os[..|os| - 1]) + (if os[|os| - 1].passed then 1 else 0)
  }

  /** Trading days of the passed outcomes: one per passed outcome, in order. */
  function PassDays(os: seq<Challenge.Outcome>): (r: seq<real>)
    ensures |r| == |Grouping.KeptIndices(os, Passed)|
    ensures forall k :: 0 <= k < |r| ==> r[k] == TradingDays(os[Grouping.KeptIndices(os, Passed)[k]])
    ensures |r| == CountPassed(os)
    decreases |os|
  {
    if |os| == 0 then []
    else
      var init := PassDays(os[..|os| - 1]);
      var o := os[|os| - 1];
      var r := if o.passed then init + [o.numTradingDays as real] else init;
      Grouping.KeptProjectionStep(os, Passed, TradingDays, init, r);
      r
  }

  /** Trading days of the failed outcomes: one per failed outcome, in order. */
  function FailDays(os: seq<Challenge.Outcome>): (r: seq<real>)
    ensures |r| == |Grouping.KeptIndices(os, Failed)|
    ensures forall k :: 0 <= k < |r| ==> r[k] == TradingDays(os[Grouping.KeptIndices(os, Failed)[k]])
    ensures |r| == |os| - CountPassed(os)
    decreases |os|
  {
    if |os| == 0 then []
    else
      var init := FailDays(os[..|os| - 1]);
      var o := os[|os| - 1];
      var r := if o.passed then init else init + [o.numTradingDays as real];
      Grouping.KeptProjectionStep(os, Failed, TradingDays, init, r);
      r
  }

  function ObservedDailyLosses(os: seq<Challenge.Outcome>): (r: seq<real>)
    ensures |r| == |os|
    ensures forall i :: 0 <= i < |os| ==> r[i] == os[i].maxObservedDailyLossFraction
  {
    seq(|os|, i requires 0 <= i < |os| => os[i].maxObservedDailyLossFraction)
  }

  /** `final_equity / start_equity - 1` for each outcome. */
  function FinalReturns(os: seq<Challenge.Outcome>, startEquity: real): (r: seq<real>)
    requires startEquity != 0.0
    ensures |r| == |os|
    ensures forall i :: 0 <= i < |os| ==> r[i] == os[i].finalEquity / startEquity - 1.0
  {
    seq(|os|, i requires 0 <= i < |os| => os[i].finalEquity / startEquity - 1.0)
  }

  function TradeCounts(os: seq<Challenge.Outcome>): (r: seq<real>)
    ensures |r| == |os|
    ensures forall i :: 0 <= i < |os| ==> r[i] == os[i].numTrades as real
  {
    seq(|os|, i requires 0 <= i < |os| => os[i].numTrades as real)
  }

  /**
   * The counted fields of the summary dictionary; the return median and
   * percentiles, the trade median and the per-symbol means are not modelled.
   */
  datatype SweepSummary = SweepSummary(
    numRuns: nat,
    numPassed: nat,
    passRate: real,
    avgTradingDaysPass: real,
    avgTradingDaysFail: real,
    maxDailyLossFraction: real,
    maxTrailingDdFraction: real,
    failureBreakdown: Tally,
    meanReturn: real,
    meanTradesPerRun: real,
    hitRate5: real,
    hitRate8: real,
    hitRate10: real)

  /**
   * `summarize_outcomes` as written. The outcome record has no
   * `max_trailing_dd_fraction` attribute, so reading it raises
   * AttributeError for the first outcome; only an empty sweep gets through,
   * with every figure 0.
   */
  function SummarizeAsWritten(os: seq<Challenge.Outcome>): (r: Result<SweepSummary>)
    ensures r.Ok? <==> |os| == 0
    ensures r.Err? ==> r.error == AttributeError("max_trailing_dd_fraction")
  {
    if |os| > 0 then Err(AttributeError("max_trailing_dd_fraction"))
    else Ok(SweepSummary(0, 0, 0.0, 0.0, 0.0, 0.0, 0.0, [], 0.0, 0.0, 0.0, 0.0, 0.0))
  }

  /** Any non-empty sweep makes the summary as written fail, so `main` can never print one. */
  lemma AsWrittenFailsOnEverySweep(o: Challenge.Outcome)
    ensures SummarizeAsWritten([o]).Err?
    ensures SummarizeAsWritten([]).Ok?
  {
  }

  /** An outcome with the trailing drawdown fraction the summary evidently meant to read. */
  datatype RunOutcome = RunOutcome(outcome: Challenge.Outcome, maxTrailingDdFraction: real)

  function Outcomes(rs: seq<RunOutcome>): (r: seq<Challenge.Outcome>)
    ensures |r| == |rs|
    ensures forall i :: 0 <= i < |rs| ==> r[i] == rs[i].outcome
  {
    seq(|rs|, i requires 0 <= i < |rs| => rs[i].outcome)
  }

  function TrailingDds(rs: seq<RunOutcome>): (r: seq<real>)
    ensures |r| == |rs|
    ensures forall i :: 0 <= i < |rs| ==> r[i] == rs[i].maxTrailingDdFraction
  {
    seq(|rs|, i requires 0 <= i < |rs| => rs[i].maxTrailingDdFraction)
  }

  /**
   * `summarize_outcomes` with the trailing drawdown supplied per run. Rates
   * and averages are 0 for an empty group, the worst figures default to 0,
   * and the tally has exactly one key per distinct label.
   */
  function Summarize(rs: seq<RunOutcome>, startEquity: real): (s: SweepSummary)
    requires startEquity != 0.0
    ensures s.numRuns == |rs|
    ensures s.numPassed == CountPassed(Outcomes(rs))
    ensures s.passRate == Ratio(s.numPassed, s.numRuns)
    ensures s.avgTradingDaysPass == Mean(PassDays(Outcomes(rs)))
    ensures s.avgTradingDaysFail == Mean(FailDays(Outcomes(rs)))
    ensures forall i :: 0 <= i < |rs| ==> rs[i].outcome.maxObservedDailyLossFraction <= s.maxDailyLossFraction
    ensures |rs| == 0 ==> s.maxDailyLossFraction == 0.0 && s.maxTrailingDdFraction == 0.0
    ensures forall i :: 0 <= i < |rs| ==> rs[i].maxTrailingDdFraction <= s.maxTrailingDdFraction
    ensures |rs| > 0 ==> exists i :: 0 <= i < |rs| && rs[i].outcome.maxObservedDailyLossFraction == s.maxDailyLossFraction
    ensures |rs| > 0 ==> exists i :: 0 <= i < |rs| && rs[i].maxTrailingDdFraction == s.maxTrailingDdFraction
    ensures s.meanReturn == Mean(FinalReturns(Outcomes(rs), startEquity))
    ensures s.meanTradesPerRun == Mean(TradeCounts(Outcomes(rs)))
    ensures s.failureBreakdown == Breakdown(Outcomes(rs))
    ensures s.hitRate5 == ShareAtLeast(FinalReturns(Outcomes(rs), startEquity), 0.05)
    ensures s.hitRate8 == ShareAtLeast(FinalReturns(Outcomes(rs), startEquity), 0.08)
    ensures s.hitRate10 == ShareAtLeast(FinalReturns(Outcomes(rs), startEquity), 0.10)
  {
    var os := Outcomes(rs);
    var n := |os|;
    var passed := CountPassed(os);
    var rets := FinalReturns(os, startEquity);
    SweepSummary(
      n,
      passed,
      Ratio(passed, n),
      Mean(PassDays(os)),
      Mean(FailDays(os)),
      MaxOr(ObservedDailyLosses(os), 0.0),
      MaxOr(TrailingDds(rs), 0.0),
      Breakdown(os),
      Mean(rets),
      Mean(TradeCounts(os)),
      ShareAtLeast(rets, 0.05),
      ShareAtLeast(rets, 0.08),
      ShareAtLeast(rets, 0.10))
  }

  /** The figures the corrected summary shares with the one as written agree on an empty sweep. */
  lemma EmptySweepAgrees(startEquity: real)
    requires startEquity != 0.0
    ensures SummarizeAsWritten([]) == Ok(Summarize([], startEquity))
  {
    assert Outcomes([]) == [];
  }

  /** Pass and fail averages partition the runs: their group sizes add up to the number of runs. */
  lemma PassFailPartition(rs: seq<RunOutcome>, startEquity: real)
    requires startEquity != 0.0
    ensures |PassDays(Outcomes(rs))| + |FailDays(Outcomes(rs))| == Summarize(rs, startEquity).numRuns
    ensures 0.0 <= Summarize(rs, startEquity).passRate <= 1.0
  {
  }

  /** Every run reaching 10 percent reaches 8, and every run reaching 8 reaches 5. */
  lemma HitRatesNested(rs: seq<RunOutcome>, startEquity: real)
    requires startEquity != 0.0
    ensures Summarize(rs, startEquity).hitRate10 <= Summarize(rs, startEquity).hitRate8
    ensures Summarize(rs, startEquity).hitRate8 <= Summarize(rs, startEquity).hitRate5
  {
    var rets := FinalReturns(Outcomes(rs), startEquity);
    CountAtLeastAntitone(rets, 0.08, 0.10);
    CountAtLeastAntitone(rets, 0.05, 0.08);
    RatioMonotone(CountAtLeast(rets, 0.10), CountAtLeast(rets, 0.08), |rets|);
    RatioMonotone(CountAtLeast(rets, 0.08), CountAtLeast(rets, 0.05), |rets|);
  }

  /** The failure tally counts every run exactly once. */
  lemma BreakdownCoversRuns(rs: seq<RunOutcome>, startEquity: real)
    requires startEquity != 0.0
    ensures TallySum(Summarize(rs, startEquity).failureBreakdown) == |rs|
  {
    BreakdownCounts(Outcomes(rs), "");
  }

  /**
   * The guard in `main`: a worst daily loss more than 1e-9 above the internal
   * cap raises RuntimeError.
   */
  function DailyCapGuard(maxDailyLoss: real, internalCap: real): (r: Result<()>)
    ensures r.Err? <==> maxDailyLoss > internalCap + 0.000000001
    ensures r.Err? ==> r.error.RuntimeError?
  {
    if maxDailyLoss > internalCap + 0.000000001 then Err(RuntimeError("Challenge sweep observed daily loss above internal cap."))
    else Ok(())
  }

  /** A sweep whose every run stayed within the internal cap passes the guard. */
  lemma RunsWithinCapPassGuard(rs: seq<RunOutcome>, startEquity: real, internalCap: real)
    requires startEquity != 0.0
    requires internalCap >= 0.0
    requires forall i :: 0 <= i < |rs| ==> rs[i].outcome.maxObservedDailyLossFraction <= internalCap
    ensures DailyCapGuard(Summarize(rs, startEquity).maxDailyLossFraction, internalCap).Ok?
  {
    var s := Summarize(rs, startEquity);
    if |rs| > 0 {
      var losses := ObservedDailyLosses(Outcomes(rs));
      var i :| 0 <= i < |losses| && losses[i] == s.maxDailyLossFraction;
    }
  }
}

=== FILE: dicts.dfy ===
/**
 * Python dicts as their (key, value) pairs in insertion order. Lookups
 * read the last pair with the key, which is what a parsed document with a
 * repeated key and a dict built by repeated assignment both yield.
 */
module Dicts {
  import opened Wrappers

  /** `counts[key] = counts.get(key, 0) + 1` on a counter dict. */
  function Bump<K>(counts: map<K, nat>, key: K): (r: map<K, nat>)
    ensures r.Keys == counts.Keys + {key}
    ensures r[key] == (if key in counts then counts[key] else 0) + 1
    ensures forall k :: k in counts && k != key ==> r[k] == counts[k]
  {
    counts[key := (if key in counts then counts[key] else 0) + 1]
  }

  /** `d.get(key)`: the value of the last pair with that key. */
  function Get<K(==, !new), V>(d: seq<(K, V)>, key: K): (r: Option<V>)
    ensures r.None? <==> forall i :: 0 <= i < |d| ==> d[i].0 != key
    ensures r.Some? ==> exists i :: 0 <= i < |d| && d[i] == (key, r.value)
                                    && forall j :: i < j < |d| ==> d[j].0 != key
    decreases |d|
  {
    if |d| == 0 then None
    else if d[|d| - 1].0 == key then
      assert d[|d| - 1] == (key, d[|d| - 1].1);
      Some(d[|d| - 1].1)
    else
      var init := d[..|d| - 1];
      var r := Get(init, key);
      assert r.None? ==> forall i :: 0 <= i < |d| ==> d[i].0 != key by {
        if r.None? {
          forall i | 0 <= i < |d|
            ensures d[i].0 != key
          {
            if i < |init| {
              assert init[i] == d[i];
            }
          }
        }
      }
      assert r.Some? ==> exists i :: 0 <= i < |d| && d[i] == (key, r.value) && forall j :: i < j < |d| ==> d[j].0 != key by {
        if r.Some? {
          var i :| 0 <= i < |init| && init[i] == (key, r.value) && forall j :: i < j < |init| ==> init[j].0 != key;
          assert d[i] == init[i];
          forall j | i < j < |d|
            ensures d[j].0 != key
          {
            if j < |init| {
              assert init[j] == d[j];
            }
          }
        }
      }
      r
  }

  /** `key in d`. */
  predicate HasKey<K(==, !new), V>(d: seq<(K, V)>, key: K)
  {
    Get(d, key).Some?
  }

  /** The position `Get` reads from. */
  function LastIndex<K(==, !new), V>(d: seq<(K, V)>, key: K): (r: Option<nat>)
    ensures r.None? <==> Get(d, key).None?
    ensures r.Some? ==> r.value < |d| && d[r.value].0 == key && Get(d, key) == Some(d[r.value].1)
                        && forall j :: r.value < j < |d| ==> d[j].0 != key
  {
    if |d| == 0 then None
    else if d[|d| - 1].0 == key then Some(|d| - 1)
    else
      var r := LastIndex(d[..|d| - 1], key);
      assert forall i :: 0 <= i < |d| - 1 ==> d[..|d| - 1][i] == d[i];
      r
  }

  /** No key appears twice, as in a dict built by assignment. */
  predicate DistinctKeys<K(==), V>(d: seq<(K, V)>)
  {
    forall i, j :: 0 <= i < j < |d| ==> d[i].0 != d[j].0
  }

  /** `d[key] = value`: overwrite in place, or append a new pair. */
  function Put<K(==, !new), V>(d: seq<(K, V)>, key: K, value: V): (r: seq<(K, V)>)
    ensures Get(r, key) == Some(value)
    ensures forall k :: k != key ==> Get(r, k) == Get(d, k)
    ensures |r| == if HasKey(d, key) then |d| else |d| + 1
    ensures forall i :: 0 <= i < |r| ==> r[i].0 == key || (i < |d| && r[i].0 == d[i].0)
    ensures forall i :: 0 <= i < |d| ==> r[i].0 == d[i].0
    ensures DistinctKeys(d) ==> DistinctKeys(r)
  {
    match LastIndex(d, key)
    case Some(i) =>
      var r := d[i := (key, value)];
      GetReplaced(d, i, value);
      assert forall k :: k != key ==> Get(r, k) == Get(d, k) by {
        forall k | k != key
          ensures Get(r, k) == Get(d, k)
        {
          GetUnaffected(d, i, (key, value), k);
        }
      }
      r
    case None =>
      var r := d + [(key, value)];
      assert r[..|d|] == d;
      r
  }

  /** Overwriting the last pair with a key changes what the key reads. */
  lemma {:induction false} GetReplaced<K(!new), V>(d: seq<(K, V)>, i: nat, value: V)
    requires i < |d| && forall j :: i < j < |d| ==> d[j].0 != d[i].0
    ensures Get(d[i := (d[i].0, value)], d[i].0) == Some(value)
    decreases |d|
  {
    var r := d[i := (d[i].0, value)];
    if i < |d| - 1 {
      assert r[..|r| - 1] == d[..|d| - 1][i := (d[i].0, value)];
      GetReplaced(d[..|d| - 1], i, value);
    }
  }

  /** Overwriting a pair with a different key leaves the lookup of `k` alone. */
  lemma {:induction false} GetUnaffected<K(!new), V>(d: seq<(K, V)>, i: nat, p: (K, V), k: K)
    requires i < |d| && d[i].0 == p.0 && p.0 != k
    ensures Get(d[i := p], k) == Get(d, k)
    decreases |d|
  {
    var r := d[i := p];
    var last := |d| - 1;
    if d[last].0 == k {
      assert r[last] == d[last];
    } else if i < last {
      assert r[last] == d[last];
      assert r[..last] == d[..last][i := p];
      GetUnaffected(d[..last], i, p, k);
    } else {
      assert r[..last] == d[..last];
      assert r[last] == p;
    }
  }

  /** `d.update(other)`: every pair of `other` put in order. */
  function Update<K(==, !new), V>(d: seq<(K, V)>, other: seq<(K, V)>): (r: seq<(K, V)>)
    ensures forall k :: Get(r, k) == if HasKey(other, k) then Get(other, k) else Get(d, k)
  {
    if |other| == 0 then d
    else
      var last := other[|other| - 1];
      var r := Put(Update(d, other[..|other| - 1]), last.0, last.1);
      assert forall i :: 0 <= i < |other| - 1 ==> other[..|other| - 1][i] == other[i];
      r
  }

  /** The keys in insertion order. */
  function Keys<K(==, !new), V>(d: seq<(K, V)>): (ks: seq<K>)
    ensures |ks| == |d|
    ensures forall i :: 0 <= i < |d| ==> ks[i] == d[i].0
  {
    seq(|d|, i requires 0 <= i < |d| => d[i].0)
  }

  /** `{k: v for k, v in d.items() if k not in dropped}`. */
  function Without<K(==, !new), V>(d: seq<(K, V)>, dropped: set<K>): (r: seq<(K, V)>)
    ensures |r| <= |d|
    ensures forall k :: Get(r, k) == if k in dropped then None else Get(d, k)
  {
    if |d| == 0 then []
    else
      var init := Without(d[..|d| - 1], dropped);
      var last := d[|d| - 1];
      assert forall i :: 0 <= i < |d| - 1 ==> d[..|d| - 1][i] == d[i];
      if last.0 in dropped then init else init + [last]
  }
}

=== FILE: drawdown.dfy ===
/**
 * Drawdowns of a curve. `MaxDrop` is the absolute one, the largest fall
 * from a running peak to a later point (the `(curve.cummax() - curve).max()`
 * idiom); `MaxDrawdown` is the fractional one, the largest fall relative to
 * a running peak that starts from a given initial value and counts only
 * while that peak is positive.
 */
module Drawdown {
  import opened Num

  /** Running peak and the worst fall below it seen so far. */
  datatype Track = Track(peak: real, worst: real)

  function Scan(vs: seq<real>): (t: Track)
    requires |vs| > 0
    decreases |vs|
  {
    if |vs| == 1 then Track(vs[0], 0.0)
    else
      var t := Scan(vs[..|vs| - 1]);
      var p := Max(t.peak, vs[|vs| - 1]);
      Track(p, Max(t.worst, p - vs[|vs| - 1]))
  }

  /** The peak is the largest point of the curve. */
  lemma {:induction false} ScanPeak(vs: seq<real>)
    requires |vs| > 0
    ensures forall i :: 0 <= i < |vs| ==> vs[i] <= Scan(vs).peak
    ensures exists i :: 0 <= i < |vs| && vs[i] == Scan(vs).peak
    decreases |vs|
  {
    if |vs| > 1 {
      var init := vs[..|vs| - 1];
      ScanPeak(init);
      assert forall i :: 0 <= i < |init| ==> init[i] == vs[i];
      if Scan(vs).peak != vs[|vs| - 1] {
        var i :| 0 <= i < |init| && init[i] == Scan(init).peak;
        assert vs[i] == Scan(vs).peak;
      } else {
        assert vs[|vs| - 1] == Scan(vs).peak;
      }
    } else {
      assert vs[0] == Scan(vs).peak;
    }
  }

  /** The worst fall bounds every fall from an earlier point and is attained. */
  lemma ScanWorst(vs: seq<real>)
    requires |vs| > 0
    ensures Scan(vs).worst >= 0.0
    ensures forall j, i :: 0 <= j <= i < |vs| ==> vs[j] - vs[i] <= Scan(vs).worst
    ensures exists j, i :: 0 <= j <= i < |vs| && vs[j] - vs[i] == Scan(vs).worst
  {
    ScanWorstBounds(vs);
    ScanWorstAttained(vs);
  }

  lemma {:induction false} ScanWorstBounds(vs: seq<real>)
    requires |vs| > 0
    ensures Scan(vs).worst >= 0.0
    ensures forall j, i :: 0 <= j <= i < |vs| ==> vs[j] - vs[i] <= Scan(vs).worst
    decreases |vs|
  {
    if |vs| > 1 {
      var init := vs[..|vs| - 1];
      var n := |vs| - 1;
      ScanWorstBounds(init);
      ScanPeak(init);
      var p := Scan(vs).peak;
      forall j, i | 0 <= j <= i < |vs|
        ensures vs[j] - vs[i] <= Scan(vs).worst
      {
        if i == n {
          assert vs[j] <= p by {
            if j < n {
              assert init[j] == vs[j];
            }
          }
        } else {
          assert init[j] == vs[j] && init[i] == vs[i];
          assert init[j] - init[i] <= Scan(init).worst;
        }
      }
    }
  }

  lemma {:induction false} ScanWorstAttained(vs: seq<real>)
    requires |vs| > 0
    ensures exists j, i :: 0 <= j <= i < |vs| && vs[j] - vs[i] == Scan(vs).worst
    decreases |vs|
  {
    if |vs| == 1 {
      assert vs[0] - vs[0] == Scan(vs).worst;
    } else {
      var init := vs[..|vs| - 1];
      var n := |vs| - 1;
      ScanWorstAttained(init);
      ScanWorstBounds(init);
      ScanPeak(init);
      if Scan(vs).worst == Scan(init).worst {
        var j, i :| 0 <= j <= i < |init| && init[j] - init[i] == Scan(init).worst;
        assert init[j] == vs[j] && init[i] == vs[i];
        assert vs[j] - vs[i] == Scan(vs).worst;
      } else {
        var j :| 0 <= j < |init| && init[j] == Scan(init).peak;
        assert init[j] == vs[j];
        assert vs[j] - vs[n] == Scan(vs).worst;
      }
    }
  }

  /**
   * The largest fall from an earlier point of `vs` to a later one, 0 for
   * an empty curve.
   */
  function MaxDrop(vs: seq<real>): (d: real)
    ensures d >= 0.0
    ensures |vs| == 0 ==> d == 0.0
    ensures forall j, i :: 0 <= j <= i < |vs| ==> vs[j] - vs[i] <= d
    ensures |vs| > 0 ==> exists j, i :: 0 <= j <= i < |vs| && vs[j] - vs[i] == d
  {
    if |vs| == 0 then 0.0 else ScanWorst(vs); Scan(vs).worst
  }

  /** Running totals: `CumSum(s)[i]` is the sum of `s[..i + 1]`. */
  function CumSum(s: seq<real>): (c: seq<real>)
    ensures |c| == |s|
    ensures forall i :: 0 <= i < |s| ==> c[i] == Sum(s[..i + 1])
    decreases |s|
  {
    if |s| == 0 then []
    else
      var init := s[..|s| - 1];
      forall i | 0 <= i < |init|
        ensures CumSum(init)[i] == Sum(s[..i + 1])
      {
        assert init[..i + 1] == s[..i + 1];
      }
      assert s[..|s|] == s;
      CumSum(init) + [Sum(s)]
  }

  /** The running peak after the first `|vs|` points, starting from `initial`. */
  function Peak(initial: real, vs: seq<real>): (p: real)
    ensures p >= initial
    ensures forall i :: 0 <= i < |vs| ==> vs[i] <= p
    decreases |vs|
  {
    if |vs| == 0 then initial
    else
      var before := Peak(initial, vs[..|vs| - 1]);
      assert forall i :: 0 <= i < |vs| - 1 ==> vs[..|vs| - 1][i] == vs[i];
      Max(before, vs[|vs| - 1])
  }

  /** The drawdown of point `i` from the running peak, counted only while that peak is positive. */
  function DrawdownAt(initial: real, vs: seq<real>, i: nat): real
    requires i < |vs|
  {
    var p := Peak(initial, vs[..i + 1]);
    if p > 0.0 then (p - vs[i]) / p else 0.0
  }

  /** The loop of `max_drawdown_fraction` over the first `|vs|` points. */
  function MaxDrawdown(initial: real, vs: seq<real>): (r: real)
    ensures r >= 0.0
    ensures forall i :: 0 <= i < |vs| ==> DrawdownAt(initial, vs, i) <= r
    decreases |vs|
  {
    if |vs| == 0 then 0.0
    else
      var before := MaxDrawdown(initial, vs[..|vs| - 1]);
      PrefixDrawdowns(initial, vs);
      assert vs[..|vs|] == vs;
      var p := Peak(initial, vs);
      if p > 0.0 then Max(before, (p - vs[|vs| - 1]) / p) else before
  }

  /** Dropping the last point leaves the drawdowns of the earlier points as they were. */
  lemma PrefixDrawdowns(initial: real, vs: seq<real>)
    requires |vs| > 0
    ensures forall i :: 0 <= i < |vs| - 1 ==> DrawdownAt(initial, vs[..|vs| - 1], i) == DrawdownAt(initial, vs, i)
  {
    forall i | 0 <= i < |vs| - 1
      ensures DrawdownAt(initial, vs[..|vs| - 1], i) == DrawdownAt(initial, vs, i)
    {
      assert vs[..|vs| - 1][..i + 1] == vs[..i + 1];
    }
  }

  /** The maximum drawdown is attained: it is 0 or the drawdown of some recorded point. */
  lemma {:induction false} MaxDrawdownAttained(initial: real, vs: seq<real>)
    ensures MaxDrawdown(initial, vs) == 0.0 || exists i :: 0 <= i < |vs| && MaxDrawdown(initial, vs) == DrawdownAt(initial, vs, i)
    decreases |vs|
  {
    if |vs| > 0 {
      var init := vs[..|vs| - 1];
      MaxDrawdownAttained(initial, init);
      PrefixDrawdowns(initial, vs);
      assert vs[..|vs|] == vs;
      var before := MaxDrawdown(initial, init);
      if MaxDrawdown(initial, vs) == before && before != 0.0 {
        var i :| 0 <= i < |init| && before == DrawdownAt(initial, init, i);
        assert MaxDrawdown(initial, vs) == DrawdownAt(initial, vs, i);
      } else if MaxDrawdown(initial, vs) != before {
        assert MaxDrawdown(initial, vs) == DrawdownAt(initial, vs, |vs| - 1);
      }
    }
  }
}

=== FILE: event_stream.dfy ===
/**
 * `build_event_stream` and the rolling breakout levels of core/backtest.py:
 * each symbol's bars become (timestamp, symbol, row) events, concatenated in
 * the symbols' order and then stably sorted by timestamp.
 */
module EventStream {
  import opened Wrappers

  /** A symbol's frame: with a timestamp column, or without one (only its row count known). */
  datatype Frame = WithTimestamps(ts: seq<int>) | WithoutTimestamps(rows: nat)

  predicate IsEmpty(f: Frame)
  {
    match f
    case WithTimestamps(ts) => |ts| == 0
    case WithoutTimestamps(rows) => rows == 0
  }

  datatype BarEvent = BarEvent(timestamp: int, symbol: string, rowIndex: nat)

  /** The events of one frame, in row order. */
  function FrameEvents(symbol: string, ts: seq<int>): (evs: seq<BarEvent>)
    ensures |evs| == |ts|
    ensures forall i :: 0 <= i < |ts| ==> evs[i] == BarEvent(ts[i], symbol, i)
  {
    seq(|ts|, i requires 0 <= i < |ts| => BarEvent(ts[i], symbol, i))
  }

  /** Number of rows over all frames. */
  function TotalRows(frames: seq<(string, Frame)>): nat
  {
    if |frames| == 0 then 0
    else (match frames[0].1 case WithTimestamps(ts) => |ts| case WithoutTimestamps(n) => n) + TotalRows(frames[1..])
  }

  /** Some non-empty frame has no timestamp column. */
  predicate MissingTimestamps(frames: seq<(string, Frame)>)
  {
    exists k :: 0 <= k < |frames| && MissingAt(frames, k)
  }

  /** Frame `k` is non-empty and has no timestamp column. */
  predicate MissingAt(frames: seq<(string, Frame)>, k: int)
    requires 0 <= k < |frames|
  {
    frames[k].1.WithoutTimestamps? && !IsEmpty(frames[k].1)
  }

  /** The events one frame contributes: its rows in order, none when it is empty. */
  function FramePart(frame: (string, Frame)): seq<BarEvent>
  {
    match frame.1
    case WithTimestamps(ts) => FrameEvents(frame.0, ts)
    case WithoutTimestamps(_) => []
  }

  /** An event that names a row of one of the frames and carries that row's timestamp. */
  predicate EventOf(frames: seq<(string, Frame)>, e: BarEvent)
  {
    exists k :: 0 <= k < |frames| && frames[k].0 == e.symbol && frames[k].1.WithTimestamps?
      && e.rowIndex < |frames[k].1.ts| && frames[k].1.ts[e.rowIndex] == e.timestamp
  }

  function MissingColumnError(symbol: string): Error
  {
    ValueError("Symbol '" + symbol + "' dataframe is missing 'timestamp' column.")
  }

  /** The unsorted concatenation: empty frames are skipped, the first non-empty frame without timestamps is an error. */
  function Collect(frames: seq<(string, Frame)>): (r: Result<seq<BarEvent>>)
    ensures r.Err? <==> MissingTimestamps(frames)
    ensures r.Ok? ==> |r.value| == TotalRows(frames)
    ensures r.Ok? ==> forall e :: e in r.value ==> EventOf(frames, e)
    ensures r.Err? ==>
      exists k :: 0 <= k < |frames| && MissingAt(frames, k) && r.error == MissingColumnError(frames[k].0)
        && forall j :: 0 <= j < k ==> !MissingAt(frames, j)
    ensures r.Ok? && |frames| > 0 ==> Collect(frames[1..]).Ok? && r.value == FramePart(frames[0]) + Collect(frames[1..]).value
    decreases |frames|
  {
    if |frames| == 0 then Ok([])
    else
      var rest := Collect(frames[1..]);
      MissingShift(frames);
      if MissingAt(frames, 0) then Err(MissingColumnError(frames[0].0))
      else if rest.Err? then
        FirstMissingShift(frames, rest.error);
        rest
      else
        EventsShift(frames, rest.value);
        Ok(FramePart(frames[0]) + rest.value)
  }

  lemma MissingShift(frames: seq<(string, Frame)>)
    requires |frames| > 0
    ensures MissingTimestamps(frames) <==> MissingAt(frames, 0) || MissingTimestamps(frames[1..])
  {
    if MissingTimestamps(frames) && !MissingAt(frames, 0) {
      var k :| 0 <= k < |frames| && MissingAt(frames, k);
      assert frames[1..][k - 1] == frames[k];
      assert MissingAt(frames[1..], k - 1);
    }
    if MissingTimestamps(frames[1..]) {
      var k :| 0 <= k < |frames| - 1 && MissingAt(frames[1..], k);
      assert frames[1..][k] == frames[k + 1];
      assert MissingAt(frames, k + 1);
    }
  }

  /** The first missing column behind a frame that is not missing it stays the first one. */
  lemma FirstMissingShift(frames: seq<(string, Frame)>, err: Error)
    requires |frames| > 0 && !MissingAt(frames, 0)
    requires
      exists k :: 0 <= k < |frames[1..]| && MissingAt(frames[1..], k) && err == MissingColumnError(frames[1..][k].0)
        && forall j :: 0 <= j < k ==> !MissingAt(frames[1..], j)
    ensures
      exists k :: 0 <= k < |frames| && MissingAt(frames, k) && err == MissingColumnError(frames[k].0)
        && forall j :: 0 <= j < k ==> !MissingAt(frames, j)
  {
    var k :| 0 <= k < |frames[1..]| && MissingAt(frames[1..], k) && err == MissingColumnError(frames[1..][k].0)
      && forall j :: 0 <= j < k ==> !MissingAt(frames[1..], j);
    assert frames[1..][k] == frames[k + 1];
    forall j | 0 < j < k + 1
      ensures !MissingAt(frames, j)
    {
      assert frames[1..][j - 1] == frames[j];
      assert !MissingAt(frames[1..], j - 1);
    }
    assert MissingAt(frames, k + 1);
  }

  /** The first frame's events and the events of the rest are all events of the frames. */
  lemma EventsShift(frames: seq<(string, Frame)>, rest: seq<BarEvent>)
    requires |frames| > 0 && !MissingAt(frames, 0)
    requires forall e :: e in rest ==> EventOf(frames[1..], e)
    ensures forall e :: e in FramePart(frames[0]) + rest ==> EventOf(frames, e)
  {
    var mine := FramePart(frames[0]);
    forall e | e in mine + rest
      ensures EventOf(frames, e)
    {
      if e in mine {
        var i :| 0 <= i < |mine| && mine[i] == e;
        assert frames[0].0 == e.symbol && frames[0].1.ts[e.rowIndex] == e.timestamp;
      } else {
        var k :| 0 <= k < |frames[1..]| && frames[1..][k].0 == e.symbol && frames[1..][k].1.WithTimestamps?
          && e.rowIndex < |frames[1..][k].1.ts| && frames[1..][k].1.ts[e.rowIndex] == e.timestamp;
        assert frames[1..][k] == frames[k + 1];
      }
    }
  }

  /**
   * Collecting two lists of frames one after the other: the first list's
   * error wins, and otherwise the events are the first list's followed by
   * the second's.
   */
  lemma {:induction false} CollectAppend(a: seq<(string, Frame)>, b: seq<(string, Frame)>)
    ensures Collect(a).Err? ==> Collect(a + b) == Collect(a)
    ensures Collect(a + b).Ok? <==> Collect(a).Ok? && Collect(b).Ok?
    ensures Collect(a + b).Ok? ==> Collect(a + b).value == Collect(a).value + Collect(b).value
    decreases |a|
  {
    if |a| == 0 {
      assert a + b == b;
    } else {
      var ab := a + b;
      assert ab[0] == a[0];
      assert ab[1..] == a[1..] + b;
      CollectAppend(a[1..], b);
      if MissingAt(a, 0) {
        assert MissingAt(ab, 0);
      } else {
        assert !MissingAt(ab, 0);
        CollectStep(a);
        CollectStep(ab);
        if Collect(a[1..]).Ok? && Collect(b).Ok? {
          var x, y, z := FramePart(a[0]), Collect(a[1..]).value, Collect(b).value;
          assert x + (y + z) == (x + y) + z;
        }
      }
    }
  }

  /** One step of `Collect` past a frame that has its timestamps. */
  lemma CollectStep(f: seq<(string, Frame)>)
    requires |f| > 0 && !MissingAt(f, 0)
    ensures Collect(f).Err? <==> Collect(f[1..]).Err?
    ensures Collect(f).Err? ==> Collect(f) == Collect(f[1..])
    ensures Collect(f).Ok? ==> Collect(f).value == FramePart(f[0]) + Collect(f[1..]).value
  {
  }

  /** Timestamps never decrease along the sequence. */
  predicate Sorted(s: seq<BarEvent>)
  {
    forall i, j :: 0 <= i < j < |s| ==> s[i].timestamp <= s[j].timestamp
  }

  /** The events carrying timestamp `t`, in their order in `s`. */
  function WithTimestamp(s: seq<BarEvent>, t: int): seq<BarEvent>
  {
    if |s| == 0 then [] else Keep(s[0], t) + WithTimestamp(s[1..], t)
  }

  function Keep(e: BarEvent, t: int): seq<BarEvent>
  {
    if e.timestamp == t then [e] else []
  }

  lemma {:induction false} WithTimestampAppend(a: seq<BarEvent>, b: seq<BarEvent>, t: int)
    ensures WithTimestamp(a + b, t) == WithTimestamp(a, t) + WithTimestamp(b, t)
    decreases |a|
  {
    if |a| > 0 {
      assert (a + b)[0] == a[0];
      assert (a + b)[1..] == a[1..] + b;
      WithTimestampAppend(a[1..], b, t);
      assert WithTimestamp(a + b, t) == Keep(a[0], t) + WithTimestamp(a[1..] + b, t);
    } else {
      assert a + b == b;
    }
  }

  /** Insert `x` after every event whose timestamp is not later than its own. */
  function Insert(xs: seq<BarEvent>, x: BarEvent): (r: seq<BarEvent>)
    ensures |r| == |xs| + 1
    decreases |xs|
  {
    if |xs| == 0 then [x]
    else if xs[0].timestamp > x.timestamp then [x] + xs
    else [xs[0]] + Insert(xs[1..], x)
  }

  lemma {:induction false} InsertPermutes(xs: seq<BarEvent>, x: BarEvent)
    ensures multiset(Insert(xs, x)) == multiset(xs) + multiset{x}
    decreases |xs|
  {
    if |xs| > 0 && xs[0].timestamp <= x.timestamp {
      InsertPermutes(xs[1..], x);
      assert xs == [xs[0]] + xs[1..];
    }
  }

  lemma {:induction false} InsertSorted(xs: seq<BarEvent>, x: BarEvent)
    requires Sorted(xs)
    ensures Sorted(Insert(xs, x))
    ensures |xs| > 0 ==> Insert(xs, x)[0] == (if xs[0].timestamp > x.timestamp then x else xs[0])
    decreases |xs|
  {
    if |xs| > 0 && xs[0].timestamp <= x.timestamp {
      InsertSorted(xs[1..], x);
      var r := Insert(xs[1..], x);
      InsertPermutes(xs[1..], x);
      assert forall e :: e in r ==> e in xs[1..] || e == x by {
        forall e | e in r ensures e in xs[1..] || e == x {
          assert e in multiset(r);
        }
      }
      assert forall e :: e in xs[1..] ==> xs[0].timestamp <= e.timestamp;
    }
  }

  /** Inserting keeps the events of every timestamp in order, the new one last among its equals. */
  lemma {:induction false} InsertStable(xs: seq<BarEvent>, x: BarEvent, t: int)
    requires Sorted(xs)
    ensures WithTimestamp(Insert(xs, x), t) == WithTimestamp(xs, t) + Keep(x, t)
    decreases |xs|
  {
    if |xs| == 0 {
      assert WithTimestamp([x], t) == Keep(x, t) + WithTimestamp([], t);
    } else if xs[0].timestamp > x.timestamp {
      var r := [x] + xs;
      assert r[0] == x && r[1..] == xs;
      assert WithTimestamp(r, t) == Keep(x, t) + WithTimestamp(xs, t);
      if x.timestamp == t {
        NoneAtEarlierTime(xs, t);
      }
    } else {
      var rest := xs[1..];
      assert Sorted(rest);
      InsertStable(rest, x, t);
      var r := [xs[0]] + Insert(rest, x);
      assert r[0] == xs[0] && r[1..] == Insert(rest, x);
      assert WithTimestamp(r, t) == Keep(xs[0], t) + WithTimestamp(Insert(rest, x), t);
      assert WithTimestamp(xs, t) == Keep(xs[0], t) + WithTimestamp(rest, t);
    }
  }

  lemma {:induction false} NoneAtEarlierTime(xs: seq<BarEvent>, t: int)
    requires Sorted(xs)
    requires |xs| > 0 && xs[0].timestamp > t
    ensures WithTimestamp(xs, t) == []
    decreases |xs|
  {
    if |xs| > 1 {
      NoneAtEarlierTime(xs[1..], t);
    }
  }

  /** Stable insertion sort by timestamp, as Python's `list.sort` with a key. */
  function SortByTimestamp(s: seq<BarEvent>): (r: seq<BarEvent>)
    ensures |r| == |s|
    decreases |s|
  {
    if |s| == 0 then [] else Insert(SortByTimestamp(s[..|s| - 1]), s[|s| - 1])
  }

  lemma {:induction false} SortPermutes(s: seq<BarEvent>)
    ensures multiset(SortByTimestamp(s)) == multiset(s)
    decreases |s|
  {
    if |s| > 0 {
      SortPermutes(s[..|s| - 1]);
      InsertPermutes(SortByTimestamp(s[..|s| - 1]), s[|s| - 1]);
      assert s == s[..|s| - 1] + [s[|s| - 1]];
    }
  }

  lemma {:induction false} SortSorted(s: seq<BarEvent>)
    ensures Sorted(SortByTimestamp(s))
    decreases |s|
  {
    if |s| > 0 {
      SortSorted(s[..|s| - 1]);
      InsertSorted(SortByTimestamp(s[..|s| - 1]), s[|s| - 1]);
    }
  }

  lemma {:induction false} SortStable(s: seq<BarEvent>, t: int)
    ensures WithTimestamp(SortByTimestamp(s), t) == WithTimestamp(s, t)
    decreases |s|
  {
    if |s| > 0 {
      var init := s[..|s| - 1];
      var last := s[|s| - 1];
      assert s == init + [last];
      var sortedInit := SortByTimestamp(init);
      assert SortByTimestamp(s) == Insert(sortedInit, last);
      SortSorted(init);
      SortStable(init, t);
      InsertStable(sortedInit, last, t);
      SingletonWithTimestamp(last, t);
      WithTimestampAppend(init, [last], t);
    }
  }

  lemma SingletonWithTimestamp(e: BarEvent, t: int)
    ensures WithTimestamp([e], t) == Keep(e, t)
  {
    assert [e][1..] == [];
    assert WithTimestamp([e], t) == Keep(e, t) + WithTimestamp([], t);
  }

  /** The sort is ordered, a permutation, and keeps equal timestamps in their original order. */
  lemma SortByTimestampCorrect(s: seq<BarEvent>)
    ensures Sorted(SortByTimestamp(s))
    ensures multiset(SortByTimestamp(s)) == multiset(s)
    ensures forall t :: WithTimestamp(SortByTimestamp(s), t) == WithTimestamp(s, t)
  {
    SortSorted(s);
    SortPermutes(s);
    forall t ensures WithTimestamp(SortByTimestamp(s), t) == WithTimestamp(s, t) {
      SortStable(s, t);
    }
  }

  /** `build_event_stream`: the collected events of every frame, stably sorted by timestamp. */
  function BuildEventStream(frames: seq<(string, Frame)>): (r: Result<seq<BarEvent>>)
    ensures r.Err? <==> MissingTimestamps(frames)
    ensures r.Ok? ==> |r.value| == TotalRows(frames)
    ensures r.Ok? ==> Sorted(r.value)
    ensures r.Ok? ==> forall e :: e in r.value ==> EventOf(frames, e)
    ensures r.Ok? ==> multiset(r.value) == multiset(Collect(frames).value)
    ensures r.Ok? ==> forall t :: WithTimestamp(r.value, t) == WithTimestamp(Collect(frames).value, t)
  {
    var collected :- Collect(frames);
    SortByTimestampCorrect(collected);
    var sorted := SortByTimestamp(collected);
    assert forall e :: e in sorted ==> e in multiset(collected);
    Ok(sorted)
  }

  /** Two interleaved hourly frames come out merged, the earlier symbol first on equal times. */
  lemma InterleavedExample()
    ensures BuildEventStream([("EURUSD", WithTimestamps([0, 3600])), ("GBPUSD", WithTimestamps([0, 1800]))])
      == Ok([BarEvent(0, "EURUSD", 0), BarEvent(0, "GBPUSD", 0), BarEvent(1800, "GBPUSD", 1), BarEvent(3600, "EURUSD", 1)])
  {
    var c := [BarEvent(0, "EURUSD", 0), BarEvent(3600, "EURUSD", 1), BarEvent(0, "GBPUSD", 0), BarEvent(1800, "GBPUSD", 1)];
    InterleavedCollect();
    InterleavedSort(c[0], c[1], c[2], c[3]);
    assert c == [c[0], c[1], c[2], c[3]];
  }

  lemma InterleavedCollect()
    ensures Collect([("EURUSD", WithTimestamps([0, 3600])), ("GBPUSD", WithTimestamps([0, 1800]))])
      == Ok([BarEvent(0, "EURUSD", 0), BarEvent(3600, "EURUSD", 1), BarEvent(0, "GBPUSD", 0), BarEvent(1800, "GBPUSD", 1)])
  {
    var frames := [("EURUSD", WithTimestamps([0, 3600])), ("GBPUSD", WithTimestamps([0, 1800]))];
    var c := [BarEvent(0, "EURUSD", 0), BarEvent(3600, "EURUSD", 1), BarEvent(0, "GBPUSD", 0), BarEvent(1800, "GBPUSD", 1)];
    var g := frames[1..];
    assert g[1..] == [];
    assert Collect(g[1..]) == Ok([]);
    assert g[0].1 == WithTimestamps([0, 1800]) && !IsEmpty(g[0].1);
    assert FrameEvents("GBPUSD", [0, 1800]) + [] == c[2..];
    assert Collect(g).value == c[2..];
    assert FrameEvents("EURUSD", [0, 3600]) == c[..2];
    assert frames[0].0 == "EURUSD" && frames[0].1 == WithTimestamps([0, 3600]) && !IsEmpty(frames[0].1);
    assert c[..2] + c[2..] == c;
  }

  lemma InterleavedSort(e0: BarEvent, e1: BarEvent, e2: BarEvent, e3: BarEvent)
    requires e0.timestamp == 0 && e1.timestamp == 3600 && e2.timestamp == 0 && e3.timestamp == 1800
    ensures SortByTimestamp([e0, e1, e2, e3]) == [e0, e2, e3, e1]
  {
    InterleavedInserts(e0, e1, e2, e3);
    SortPrefixes(e0, e1, e2);
    var s := [e0, e1, e2, e3];
    assert s[..3] == [e0, e1, e2];
  }

  lemma SortPrefixes(e0: BarEvent, e1: BarEvent, e2: BarEvent)
    requires e0.timestamp == 0 && e1.timestamp == 3600 && e2.timestamp == 0
    ensures SortByTimestamp([e0, e1, e2]) == [e0, e2, e1]
  {
    InterleavedInserts(e0, e1, e2, e2.(timestamp := 1800));
    assert [e0][..0] == [];
    assert SortByTimestamp([e0]) == [e0];
    assert [e0, e1][..1] == [e0];
    assert SortByTimestamp([e0, e1]) == [e0, e1];
    assert [e0, e1, e2][..2] == [e0, e1];
  }

  lemma InterleavedInserts(e0: BarEvent, e1: BarEvent, e2: BarEvent, e3: BarEvent)
    requires e0.timestamp == 0 && e1.timestamp == 3600 && e2.timestamp == 0 && e3.timestamp == 1800
    ensures Insert([], e0) == [e0]
    ensures Insert([e0], e1) == [e0, e1]
    ensures Insert([e0, e1], e2) == [e0, e2, e1]
    ensures Insert([e0, e2, e1], e3) == [e0, e2, e3, e1]
  {
    assert [e0][1..] == [];
    assert [e0, e1][1..] == [e1];
    assert Insert([e1], e2) == [e2, e1];
    assert [e0, e2, e1][1..] == [e2, e1];
    assert [e2, e1][1..] == [e1];
    assert Insert([e1], e3) == [e3, e1];
    assert Insert([e2, e1], e3) == [e2, e3, e1];
  }

  /** Rolling maximum over the `lookback` rows ending at `i`; None until a full window exists. */
  function RollingMax(xs: seq<real>, i: nat, lookback: nat): (r: Option<real>)
    requires i < |xs| && lookback > 0
    ensures r.None? <==> i + 1 < lookback
    ensures r.Some? ==> forall k :: i + 1 - lookback <= k <= i ==> xs[k] <= r.value
    ensures r.Some? ==> exists k :: i + 1 - lookback <= k <= i && xs[k] == r.value
  {
    if i + 1 < lookback then None
    else
      var w := xs[i + 1 - lookback..i + 1];
      assert forall k :: i + 1 - lookback <= k <= i ==> xs[k] == w[k - (i + 1 - lookback)];
      Some(WindowMax(w))
  }

  /** Rolling minimum, the mirror of RollingMax. */
  function RollingMin(xs: seq<real>, i: nat, lookback: nat): (r: Option<real>)
    requires i < |xs| && lookback > 0
    ensures r.None? <==> i + 1 < lookback
    ensures r.Some? ==> forall k :: i + 1 - lookback <= k <= i ==> r.value <= xs[k]
    ensures r.Some? ==> exists k :: i + 1 - lookback <= k <= i && xs[k] == r.value
  {
    if i + 1 < lookback then None
    else
      var w := xs[i + 1 - lookback..i + 1];
      assert forall k :: i + 1 - lookback <= k <= i ==> xs[k] == w[k - (i + 1 - lookback)];
      Some(WindowMin(w))
  }

  function WindowMax(w: seq<real>): (r: real)
    requires |w| > 0
    ensures forall k :: 0 <= k < |w| ==> w[k] <= r
    ensures exists k :: 0 <= k < |w| && w[k] == r
  {
    if |w| == 1 then w[0]
    else
      var m := WindowMax(w[1..]);
      assert forall k :: 1 <= k < |w| ==> w[k] == w[1..][k - 1];
      if w[0] >= m then w[0] else m
  }

  function WindowMin(w: seq<real>): (r: real)
    requires |w| > 0
    ensures forall k :: 0 <= k < |w| ==> r <= w[k]
    ensures exists k :: 0 <= k < |w| && w[k] == r
  {
    if |w| == 1 then w[0]
    else
      var m := WindowMin(w[1..]);
      assert forall k :: 1 <= k < |w| ==> w[k] == w[1..][k - 1];
      if w[0] <= m then w[0] else m
  }
}

=== FILE: exec_log.dfy ===
/**
 * Rows of the execution log (one CSV line per OPEN, CLOSE or FILTER event)
 * and the helpers every log reader shares: timestamp and number parsing,
 * the live/historical test, and the profit of a closed position.
 */
module ExecLog {
  import opened Wrappers
  import Text
  import PositionSizing

  /**
   * A timestamp cell as ISO-8601 reads it: a naive local time, a time with
   * a UTC offset, an empty cell, or text `fromisoformat` rejects. Times are
   * seconds on the proleptic Gregorian scale.
   */
  datatype Stamp = Naive(seconds: int) | Aware(seconds: int, offsetSeconds: int) | Blank | Malformed

  /** A naive time is taken as UTC; an aware one is shifted to UTC; anything else is a ValueError. */
  function ParseTimestamp(s: Stamp): (r: Result<int>)
    ensures s.Naive? ==> r == Ok(s.seconds)
    ensures s.Aware? ==> r.Ok? && r.value + s.offsetSeconds == s.seconds
    ensures r.Err? <==> s.Blank? || s.Malformed?
    ensures r.Err? ==> r.error.ValueError?
  {
    match s
    case Naive(t) => Ok(t)
    case Aware(t, off) => Ok(t - off)
    case _ => Err(ValueError("Invalid isoformat string"))
  }

  /** The same instant written with two offsets parses to one UTC time. */
  lemma SameInstant(t: int, off: int, d: int)
    ensures ParseTimestamp(Aware(t, off)) == ParseTimestamp(Aware(t + d, off + d))
    ensures ParseTimestamp(Aware(t, 0)) == ParseTimestamp(Naive(t))
  {
  }

  /** A text cell with what Python's `float()` makes of it (`None` where it raises). */
  datatype Cell = Cell(text: string, number: Option<real>)

  /** `_safe_float`: missing, empty and "None" cells, and text that is not a number, give `None`. */
  function SafeFloat(c: Option<Cell>): (r: Option<real>)
    ensures c.None? ==> r.None?
    ensures c.Some? && c.value.text in {"", "None"} ==> r.None?
    ensures c.Some? && c.value.text !in {"", "None"} ==> r == c.value.number
  {
    match c
    case None => None
    case Some(cell) => if cell.text == "" || cell.text == "None" then None else cell.number
  }

  datatype Row = Row(
    stamp: Stamp,
    ticket: Option<string>,
    event: Option<string>,
    symbol: Option<string>,
    direction: Option<string>,
    volume: Option<Cell>,
    price: Option<Cell>,
    equity: Option<Cell>,
    pnl: Option<Cell>,
    dataMode: Option<string>,
    strategyId: Option<string>,
    strategyTag: Option<string>,
    sessionId: Option<string>,
    reason: Option<string>,
    signalReason: Option<string>)

  /** `row.get(k, "")`, and `row.get(k) or ""`: a missing cell reads as empty. */
  function CellText(c: Option<string>): string
  {
    c.GetOr("")
  }

  /** `row[k]`: a missing column is a KeyError. */
  function Required(c: Option<string>, column: string): (r: Result<string>)
    ensures c.Some? <==> r.Ok?
    ensures c.Some? ==> r.value == c.value
    ensures c.None? ==> r == Err(KeyError(column))
  {
    match c
    case Some(v) => Ok(v)
    case None => Err(KeyError(column))
  }

  /** `row.get("event", "").strip()`. */
  function EventOf(row: Row): string
  {
    Text.Strip(CellText(row.event))
  }

  /** `(row.get("data_mode") or "live").strip().lower()`. */
  function DataMode(row: Row): (m: string)
    ensures CellText(row.dataMode) == "" ==> m == "live"
  {
    var raw := CellText(row.dataMode);
    Text.Lower(Text.Strip(if raw == "" then "live" else raw))
  }

  /** Rows pass the data-mode filter when they are live or historical rows are wanted. */
  predicate Kept(row: Row, includeHistorical: bool)
  {
    includeHistorical || DataMode(row) == "live"
  }

  /** A blank strategy id is reported as "unknown". */
  function StrategyOrUnknown(c: Option<string>): (s: string)
    ensures s != ""
    ensures Text.Strip(CellText(c)) != "" ==> s == Text.Strip(CellText(c))
  {
    var id := Text.Strip(CellText(c));
    if id == "" then "unknown" else id
  }

  /** A position left open by an OPEN row, waiting for its CLOSE. */
  datatype Position = Position(symbol: string, direction: string, price: real, volume: real)

  /**
   * `_pnl_from_prices`: the price move in pips (reversed for "short"; any
   * other direction is long) times the pip value and the volume.
   */
  function PnlFromPrices(symbol: string, direction: string, entry: real, exit: real, volume: real): (p: real)
    ensures exit == entry || volume == 0.0 ==> p == 0.0
  {
    var meta := PositionSizing.GetSymbolMeta(symbol);
    var pips := (exit - entry) / meta.pipSize;
    var signed := if direction == "short" then -pips else pips;
    signed * meta.pipValuePerStandardLot * volume
  }

  /** Short and long results of the same prices are opposite. */
  lemma PnlShortMirrorsLong(symbol: string, direction: string, entry: real, exit: real, volume: real)
    requires direction != "short"
    ensures PnlFromPrices(symbol, "short", entry, exit, volume) == -PnlFromPrices(symbol, direction, entry, exit, volume)
  {
    var meta := PositionSizing.GetSymbolMeta(symbol);
    var pips := (exit - entry) / meta.pipSize;
    NegateProduct(pips, meta.pipValuePerStandardLot, volume);
  }

  lemma NegateProduct(a: real, b: real, c: real)
    ensures (-a) * b * c == -(a * b * c)
  {
  }

  /** With a positive volume, a long position gains exactly when the price rose. */
  lemma PnlSignLong(symbol: string, direction: string, entry: real, exit: real, volume: real)
    requires direction != "short" && volume > 0.0
    ensures PnlFromPrices(symbol, direction, entry, exit, volume) > 0.0 <==> exit > entry
    ensures PnlFromPrices(symbol, direction, entry, exit, volume) == 0.0 <==> exit == entry
  {
    var meta := PositionSizing.GetSymbolMeta(symbol);
    var pips := (exit - entry) / meta.pipSize;
    QuotientSignOf(exit - entry, meta.pipSize);
    ProductSign(pips, meta.pipValuePerStandardLot);
    ProductSign(pips * meta.pipValuePerStandardLot, volume);
  }

  lemma QuotientSignOf(a: real, b: real)
    requires b > 0.0
    ensures a / b > 0.0 <==> a > 0.0
    ensures a / b == 0.0 <==> a == 0.0
  {
    assert (a / b) * b == a;
  }

  lemma ProductSign(a: real, b: real)
    requires b > 0.0
    ensures a * b > 0.0 <==> a > 0.0
    ensures a * b == 0.0 <==> a == 0.0
  {
    if a < 0.0 {
      assert a * b < 0.0;
    }
  }
}

=== FILE: exec_report.dfy ===
/**
 * The daily execution report: one pass over the execution log that pairs
 * CLOSE rows with the OPEN rows of the same ticket, and collects the
 * closed-trade results, FILTER reasons and equity points inside the
 * reporting window.
 */
module ExecReport {
  import opened Wrappers
  import opened Num
  import Text
  import Dicts
  import Drawdown
  import Sorting
  import opened ExecLog

  /** The state of the pass after some rows. */
  datatype Scan = Scan(
    open: map<string, Position>,
    filters: map<string, nat>,
    results: seq<real>,
    points: seq<(int, real)>)

  const Empty := Scan(map[], map[], [], [])

  /** The reason a FILTER row is counted under; blank reasons are "unknown". */
  function FilterReason(row: Row): (k: string)
    ensures k != ""
  {
    var r := Text.Strip(CellText(row.reason));
    if r == "" then "unknown" else r
  }

  /** One row of `_analyze_log`. */
  function StepRow(s: Scan, row: Row, windowStart: int): (r: Result<Scan>)
    // A row needs a readable timestamp, a ticket and an event.
    ensures r.Ok? ==> ParseTimestamp(row.stamp).Ok? && row.ticket.Some? && row.event.Some?
    ensures r.Ok? && row.event == Some("OPEN") && SafeFloat(row.price).Some? && SafeFloat(row.volume).Some? ==>
      row.symbol.Some? && row.direction.Some?
    // An OPEN with a price and a volume is stored whatever its time.
    ensures r.Ok? && row.event == Some("OPEN") && SafeFloat(row.price).Some? && SafeFloat(row.volume).Some? ==>
      row.ticket.value in r.value.open
      && r.value.open[row.ticket.value] == Position(row.symbol.value, row.direction.value, SafeFloat(row.price).value, SafeFloat(row.volume).value)
    // A CLOSE always removes its ticket.
    ensures r.Ok? && row.event == Some("CLOSE") ==> row.ticket.value !in r.value.open
    // Rows before the window change nothing but the open positions.
    ensures r.Ok? && ParseTimestamp(row.stamp).value < windowStart ==>
      r.value.filters == s.filters && r.value.results == s.results && r.value.points == s.points
    // At most one result is added, and only by a CLOSE whose ticket was open.
    ensures r.Ok? ==> s.results <= r.value.results && |r.value.results| <= |s.results| + 1
    ensures r.Ok? && |r.value.results| > |s.results| ==>
      row.event == Some("CLOSE") && row.ticket.value in s.open && ParseTimestamp(row.stamp).value >= windowStart
    ensures r.Ok? ==> s.points <= r.value.points
    ensures ParseTimestamp(row.stamp).Err? ==> r.Err?
    // Which rows are readable: the converse of the first clause.
    ensures r.Ok? <==>
      && ParseTimestamp(row.stamp).Ok? && row.ticket.Some? && row.event.Some?
      && (row.event.value == "OPEN" && SafeFloat(row.price).Some? && SafeFloat(row.volume).Some? ==>
            row.symbol.Some? && row.direction.Some?)
    // Other tickets keep their open positions.
    ensures r.Ok? ==> forall k :: k != row.ticket.value ==>
      (k in r.value.open <==> k in s.open) && (k in s.open ==> r.value.open[k] == s.open[k])
    // In the window, an equity cell adds its point.
    ensures r.Ok? && ParseTimestamp(row.stamp).value >= windowStart ==>
      r.value.points == s.points + (if SafeFloat(row.equity).Some?
                                    then [(ParseTimestamp(row.stamp).value, SafeFloat(row.equity).value)] else [])
    // In the window, a FILTER row bumps its reason and nothing else.
    ensures r.Ok? && ParseTimestamp(row.stamp).value >= windowStart && row.event == Some("FILTER") ==>
      r.value.filters == Dicts.Bump(s.filters, FilterReason(row)) && r.value.results == s.results
    ensures r.Ok? && row.event != Some("FILTER") ==> r.value.filters == s.filters
    // In the window, a priced CLOSE of an open ticket appends its profit.
    ensures r.Ok? && ParseTimestamp(row.stamp).value >= windowStart && row.event == Some("CLOSE")
            && SafeFloat(row.price).Some? && row.ticket.value in s.open ==>
      var e := s.open[row.ticket.value];
      r.value.results == s.results + [PnlFromPrices(e.symbol, e.direction, e.price, SafeFloat(row.price).value, e.volume)]
  {
    var t :- ParseTimestamp(row.stamp);
    var ticket :- Required(row.ticket, "ticket");
    var event :- Required(row.event, "event");
    var price := SafeFloat(row.price);
    var volume := SafeFloat(row.volume);
    var stored :- (
      if event == "OPEN" && price.Some? && volume.Some? then
        var symbol :- Required(row.symbol, "symbol");
        var direction :- Required(row.direction, "direction");
        Ok(s.open[ticket := Position(symbol, direction, price.value, volume.value)])
      else Ok(s.open));
    var entry := if event == "CLOSE" && ticket in stored then Some(stored[ticket]) else None;
    var remaining := if event == "CLOSE" then stored - {ticket} else stored;
    if t < windowStart then Ok(s.(open := remaining))
    else
      var equity := SafeFloat(row.equity);
      var points := if equity.Some? then s.points + [(t, equity.value)] else s.points;
      if event == "FILTER" then
        Ok(Scan(remaining, Dicts.Bump(s.filters, FilterReason(row)), s.results, points))
      else if event == "CLOSE" && price.Some? && entry.Some? then
        var e := entry.value;
        Ok(Scan(remaining, s.filters, s.results + [PnlFromPrices(e.symbol, e.direction, e.price, price.value, e.volume)], points))
      else Ok(Scan(remaining, s.filters, s.results, points))
  }

  /** The pass over the first `|rows|` rows; the first unreadable row stops it. */
  function ScanRows(rows: seq<Row>, windowStart: int): (r: Result<Scan>)
    ensures r.Ok? ==> |r.value.results| <= |rows| && |r.value.points| <= |rows|
    ensures r.Ok? ==> forall i :: 0 <= i < |r.value.points| ==> r.value.points[i].0 >= windowStart
    ensures r.Ok? ==> forall k :: k in r.value.filters ==> k != ""
    ensures |rows| > 0 && ScanRows(rows[..|rows| - 1], windowStart).Err? ==> r.Err?
    decreases |rows|
  {
    if |rows| == 0 then Ok(Empty)
    else
      var s :- ScanRows(rows[..|rows| - 1], windowStart);
      StepKeepsWindow(s, rows[|rows| - 1], windowStart);
      StepRow(s, rows[|rows| - 1], windowStart)
  }

  /** One row keeps the points in the window and the reasons non-blank. */
  lemma StepKeepsWindow(s: Scan, row: Row, windowStart: int)
    requires forall i :: 0 <= i < |s.points| ==> s.points[i].0 >= windowStart
    requires forall k :: k in s.filters ==> k != ""
    ensures StepRow(s, row, windowStart).Ok? ==>
      var t := StepRow(s, row, windowStart).value;
      && |t.results| <= |s.results| + 1 && |t.points| <= |s.points| + 1
      && (forall i :: 0 <= i < |t.points| ==> t.points[i].0 >= windowStart)
      && (forall k :: k in t.filters ==> k != "")
  {
  }

  /** Rows in the window. */
  predicate InWindow(row: Row, windowStart: int)
  {
    ParseTimestamp(row.stamp).Ok? && ParseTimestamp(row.stamp).value >= windowStart
  }

  /** CLOSE rows in the window, which bound the number of trades counted. */
  function WindowCloses(rows: seq<Row>, windowStart: int): (n: nat)
    ensures n <= |rows|
    decreases |rows|
  {
    if |rows| == 0 then 0
    else
      var last := rows[|rows| - 1];
      WindowCloses(rows[..|rows| - 1], windowStart) + (if last.event == Some("CLOSE") && InWindow(last, windowStart) then 1 else 0)
  }

  /** Only CLOSE rows inside the window count as trades. */
  lemma {:induction false} TradesAreWindowCloses(rows: seq<Row>, windowStart: int)
    requires ScanRows(rows, windowStart).Ok?
    ensures |ScanRows(rows, windowStart).value.results| <= WindowCloses(rows, windowStart)
    decreases |rows|
  {
    if |rows| > 0 {
      TradesAreWindowCloses(rows[..|rows| - 1], windowStart);
    }
  }

  /** A log whose rows all precede the window reports nothing. */
  lemma {:induction false} EarlyRowsReportNothing(rows: seq<Row>, windowStart: int)
    requires ScanRows(rows, windowStart).Ok?
    requires forall i :: 0 <= i < |rows| ==> !InWindow(rows[i], windowStart)
    ensures ScanRows(rows, windowStart).value.results == []
    ensures ScanRows(rows, windowStart).value.points == []
    ensures ScanRows(rows, windowStart).value.filters == map[]
    decreases |rows|
  {
    if |rows| > 0 {
      var init := rows[..|rows| - 1];
      assert forall i :: 0 <= i < |init| ==> init[i] == rows[i];
      EarlyRowsReportNothing(init, windowStart);
      assert !InWindow(rows[|rows| - 1], windowStart);
    }
  }

  function ByTime(p: (int, real)): real
  {
    p.0 as real
  }

  function Equities(points: seq<(int, real)>): (vs: seq<real>)
    ensures |vs| == |points|
    ensures forall i :: 0 <= i < |points| ==> vs[i] == points[i].1
  {
    seq(|points|, i requires 0 <= i < |points| => points[i].1)
  }

  /**
   * `_max_drawdown`: the running peak starts at the first point logged and
   * the points are then scanned in time order.
   */
  function PointsDrawdown(points: seq<(int, real)>): (d: real)
    ensures d >= 0.0
    ensures |points| == 0 ==> d == 0.0
    ensures |points| > 0 ==> forall i :: 0 <= i < |points| ==>
      Drawdown.DrawdownAt(points[0].1, Equities(Sorting.SortBy(points, ByTime)), i) <= d
    ensures d == 0.0 || (exists i :: 0 <= i < |points| &&
                               Drawdown.DrawdownAt(points[0].1, Equities(Sorting.SortBy(points, ByTime)), i) == d)
  {
    if |points| == 0 then 0.0
    else
      var vs := Equities(Sorting.SortBy(points, ByTime));
      Drawdown.MaxDrawdownAttained(points[0].1, vs);
      Drawdown.MaxDrawdown(points[0].1, vs)
  }

  datatype Stats = Stats(pnlTotal: real, trades: nat, winRate: real, maxDrawdown: real, filters: map<string, nat>)

  /** `_analyze_log`: the report's figures, or the error of the first unreadable row. */
  function AnalyzeLog(rows: seq<Row>, windowStart: int): (r: Result<Stats>)
    ensures r.Ok? <==> ScanRows(rows, windowStart).Ok?
    ensures r.Ok? ==> r.value.trades <= WindowCloses(rows, windowStart)
    ensures r.Ok? ==> r.value.pnlTotal == Sum(ScanRows(rows, windowStart).value.results)
    ensures r.Ok? ==> r.value.winRate == ShareAbove(ScanRows(rows, windowStart).value.results, 0.0)
    ensures r.Ok? ==> r.value.maxDrawdown >= 0.0
    ensures r.Ok? ==> r.value.trades == |ScanRows(rows, windowStart).value.results|
    ensures r.Ok? ==> r.value.maxDrawdown == PointsDrawdown(ScanRows(rows, windowStart).value.points)
    ensures r.Ok? ==> r.value.filters == ScanRows(rows, windowStart).value.filters
  {
    var s :- ScanRows(rows, windowStart);
    TradesAreWindowCloses(rows, windowStart);
    Ok(Stats(Sum(s.results), |s.results|, ShareAbove(s.results, 0.0), PointsDrawdown(s.points), s.filters))
  }
}

=== FILE: execution_accounts.dfy ===
/**
 * MT5 account profiles (core/execution_accounts.py): the example file and
 * the user file are merged per upper-cased profile name, user fields over
 * example fields, and an account is resolved from explicit arguments, the
 * environment and the profile, in that order. Whether each file exists,
 * the parsed documents and the three environment variables are parameters.
 */
module ExecutionAccounts {
  import opened Wrappers
  import Text
  import Yaml
  import Dicts
  import Sorting

  type Fields = seq<(string, Yaml.Value)>

  /** Profile name to its merged fields, in insertion order. */
  type Profiles = seq<(string, Fields)>

  /**
   * `_load_yaml(path).get("profiles", {})` followed by `.items()`: a missing
   * file or an empty document has no profiles.
   */
  function ProfilesOf(fileExists: bool, doc: Yaml.Value): (r: Result<Fields>)
    ensures !fileExists ==> r == Ok([])
    ensures r.Err? ==> r.error.AttributeError?
  {
    if !fileExists || !Yaml.Truthy(doc) then Ok([])
    else if !doc.Map? then Err(AttributeError("get"))
    else
      var found: Option<Yaml.Value> := Dicts.Get(doc.fields, "profiles");
      match found
      case None => Ok([])
      case Some(Map(fields)) => Ok(fields)
      case Some(_) => Err(AttributeError("items"))
  }

  /** `dict(cfg)` for every example profile. */
  function ExampleConfigs(profiles: Fields): (r: Result<Profiles>)
    ensures r.Ok? ==> |r.value| == |profiles|
    ensures r.Ok? ==> forall i :: 0 <= i < |profiles| ==>
                        r.value[i].0 == profiles[i].0 && profiles[i].1 == Yaml.Map(r.value[i].1)
    ensures r.Err? ==> exists i :: 0 <= i < |profiles| && !profiles[i].1.Map?
  {
    if |profiles| == 0 then Ok([])
    else
      var init :- ExampleConfigs(profiles[..|profiles| - 1]);
      var last := profiles[|profiles| - 1];
      if last.1.Map? then Ok(init + [(last.0, last.1.fields)])
      else Err(TypeError("cannot convert profile to dict"))
  }

  /** `cfg or {}` for every user profile. */
  function UserConfigs(profiles: Fields): (r: Result<Profiles>)
    ensures r.Ok? ==> |r.value| == |profiles|
    ensures r.Ok? ==> forall i :: 0 <= i < |profiles| ==>
                        r.value[i].0 == profiles[i].0
                        && (profiles[i].1 == Yaml.Map(r.value[i].1) || (!Yaml.Truthy(profiles[i].1) && r.value[i].1 == []))
  {
    if |profiles| == 0 then Ok([])
    else
      var init :- UserConfigs(profiles[..|profiles| - 1]);
      var last := profiles[|profiles| - 1];
      if last.1.Map? then Ok(init + [(last.0, last.1.fields)])
      else if !Yaml.Truthy(last.1) then Ok(init + [(last.0, [])])
      else Err(TypeError("cannot update profile from a non-mapping"))
  }

  /** `merged[name.upper()] = dict(cfg)` for each example profile in turn. */
  function MergeExamples(m: Profiles, configs: Profiles): (r: Profiles)
  {
    if |configs| == 0 then m
    else
      var last := configs[|configs| - 1];
      Dicts.Put(MergeExamples(m, configs[..|configs| - 1]), Text.Upper(last.0), last.1)
  }

  /** `merged.setdefault(upper, {}).update(cfg)` for each user profile in turn. */
  function MergeUsers(m: Profiles, configs: Profiles): (r: Profiles)
  {
    if |configs| == 0 then m
    else
      var last := configs[|configs| - 1];
      var prev := MergeUsers(m, configs[..|configs| - 1]);
      var key := Text.Upper(last.0);
      Dicts.Put(prev, key, Dicts.Update(Dicts.Get(prev, key).GetOr([]), last.1))
  }

  /** `load_account_profiles`: the example file's profiles, then the user file's merged over them. */
  function LoadAccountProfiles(exampleExists: bool, exampleDoc: Yaml.Value, userExists: bool, userDoc: Yaml.Value)
    : (r: Result<Profiles>)
    ensures !exampleExists && !userExists ==> r == Ok([])
    ensures r.Ok? ==> UpperNames(r.value)
  {
    var example :- ProfilesOf(exampleExists, exampleDoc);
    var user :- ProfilesOf(userExists, userDoc);
    var exampleConfigs :- ExampleConfigs(example);
    var userConfigs :- UserConfigs(user);
    var r := MergeUsers(MergeExamples([], exampleConfigs), userConfigs);
    UpperKeys(exampleConfigs, userConfigs);
    Ok(r)
  }

  /** Every name is in upper case. */
  predicate UpperNames(m: Profiles)
  {
    forall i :: 0 <= i < |m| ==> Text.Upper(m[i].0) == m[i].0
  }

  /** Putting under an upper-cased name keeps every name upper-cased. */
  lemma PutUpper(m: Profiles, name: string, fields: Fields)
    requires UpperNames(m)
    ensures UpperNames(Dicts.Put(m, Text.Upper(name), fields))
  {
    var key := Text.Upper(name);
    var r := Dicts.Put(m, key, fields);
    Text.UpperIdempotent(name);
    forall i | 0 <= i < |r|
      ensures Text.Upper(r[i].0) == r[i].0
    {
      if r[i].0 != key {
        assert r[i].0 == m[i].0;
      }
    }
  }

  lemma {:induction false} UpperKeys(examples: Profiles, users: Profiles)
    ensures UpperNames(MergeUsers(MergeExamples([], examples), users))
  {
    ExamplesUpper(examples);
    UsersUpper(MergeExamples([], examples), users);
  }

  lemma {:induction false} ExamplesUpper(examples: Profiles)
    ensures UpperNames(MergeExamples([], examples))
    decreases |examples|
  {
    if |examples| > 0 {
      var last := examples[|examples| - 1];
      ExamplesUpper(examples[..|examples| - 1]);
      PutUpper(MergeExamples([], examples[..|examples| - 1]), last.0, last.1);
    }
  }

  lemma {:induction false} UsersUpper(m: Profiles, users: Profiles)
    requires UpperNames(m)
    ensures UpperNames(MergeUsers(m, users))
    decreases |users|
  {
    if |users| > 0 {
      var last := users[|users| - 1];
      var prev := MergeUsers(m, users[..|users| - 1]);
      var key := Text.Upper(last.0);
      UsersUpper(m, users[..|users| - 1]);
      PutUpper(prev, last.0, Dicts.Update(Dicts.Get(prev, key).GetOr([]), last.1));
    }
  }

  /** The fields the last example profile named `key` (after upper-casing) defines. */
  function ExampleFor(configs: Profiles, key: string): Option<Fields>
  {
    if |configs| == 0 then None
    else if Text.Upper(configs[|configs| - 1].0) == key then Some(configs[|configs| - 1].1)
    else ExampleFor(configs[..|configs| - 1], key)
  }

  /** The value of `field` in the last user profile named `key` that sets it. */
  function UserFor(configs: Profiles, key: string, field: string): Option<Yaml.Value>
  {
    if |configs| == 0 then None
    else
      var last := configs[|configs| - 1];
      if Text.Upper(last.0) == key && Dicts.HasKey(last.1, field) then Dicts.Get(last.1, field)
      else UserFor(configs[..|configs| - 1], key, field)
  }

  /** A later example profile with the same upper-cased name replaces an earlier one whole. */
  lemma {:induction false} MergeExamplesGet(m: Profiles, configs: Profiles, key: string)
    ensures Dicts.Get(MergeExamples(m, configs), key)
            == if ExampleFor(configs, key).Some? then ExampleFor(configs, key) else Dicts.Get(m, key)
    decreases |configs|
  {
    if |configs| > 0 {
      MergeExamplesGet(m, configs[..|configs| - 1], key);
    }
  }

  /** User fields are merged field by field over what was there. */
  lemma {:induction false} MergeUsersField(m: Profiles, configs: Profiles, key: string, field: string)
    ensures Dicts.Get(Dicts.Get(MergeUsers(m, configs), key).GetOr([]), field)
            == if UserFor(configs, key, field).Some? then UserFor(configs, key, field)
               else Dicts.Get(Dicts.Get(m, key).GetOr([]), field)
    decreases |configs|
  {
    if |configs| > 0 {
      var init := configs[..|configs| - 1];
      var last := configs[|configs| - 1];
      MergeUsersField(m, init, key, field);
      var prev := MergeUsers(m, init);
      var name := Text.Upper(last.0);
      assert MergeUsers(m, configs) == Dicts.Put(prev, name, Dicts.Update(Dicts.Get(prev, name).GetOr([]), last.1));
      MergeUsersFieldStep(prev, last, key, field);
    }
  }

  /** One user profile updates the fields it sets under its upper-cased name and nothing else. */
  lemma MergeUsersFieldStep(prev: Profiles, last: (string, Fields), key: string, field: string)
    ensures var name := Text.Upper(last.0);
      var next := Dicts.Put(prev, name, Dicts.Update(Dicts.Get(prev, name).GetOr([]), last.1));
      Dicts.Get(Dicts.Get(next, key).GetOr([]), field)
      == if name == key && Dicts.HasKey(last.1, field) then Dicts.Get(last.1, field)
         else Dicts.Get(Dicts.Get(prev, key).GetOr([]), field)
  {
  }

  /** Some profile in `configs` has the upper-cased name `key`. */
  predicate Mentions(configs: Profiles, key: string)
  {
    |configs| > 0 && (Text.Upper(configs[|configs| - 1].0) == key || Mentions(configs[..|configs| - 1], key))
  }

  /** A profile exists under every upper-cased name the user file mentions, and no new other. */
  lemma {:induction false} MergeUsersHas(m: Profiles, configs: Profiles, key: string)
    ensures Dicts.HasKey(MergeUsers(m, configs), key) <==> Dicts.HasKey(m, key) || Mentions(configs, key)
    decreases |configs|
  {
    if |configs| > 0 {
      MergeUsersHas(m, configs[..|configs| - 1], key);
    }
  }

  /** Likewise for the example file. */
  lemma {:induction false} MergeExamplesHas(m: Profiles, configs: Profiles, key: string)
    ensures Dicts.HasKey(MergeExamples(m, configs), key) <==> Dicts.HasKey(m, key) || Mentions(configs, key)
    decreases |configs|
  {
    if |configs| > 0 {
      MergeExamplesHas(m, configs[..|configs| - 1], key);
    }
  }

  /**
   * Field precedence of the merged profiles: a field the user file sets for
   * the profile wins; otherwise the value comes from the example file's
   * profile of the same upper-cased name.
   */
  lemma ProfileFieldPrecedence(
    exampleExists: bool, exampleDoc: Yaml.Value, userExists: bool, userDoc: Yaml.Value, key: string, field: string)
    requires LoadAccountProfiles(exampleExists, exampleDoc, userExists, userDoc).Ok?
    ensures var example := ExampleConfigs(ProfilesOf(exampleExists, exampleDoc).value).value;
            var user := UserConfigs(ProfilesOf(userExists, userDoc).value).value;
            var merged := LoadAccountProfiles(exampleExists, exampleDoc, userExists, userDoc).value;
            Dicts.Get(Dicts.Get(merged, key).GetOr([]), field)
            == if UserFor(user, key, field).Some? then UserFor(user, key, field)
               else Dicts.Get(ExampleFor(example, key).GetOr([]), field)
  {
    var example := ExampleConfigs(ProfilesOf(exampleExists, exampleDoc).value).value;
    var user := UserConfigs(ProfilesOf(userExists, userDoc).value).value;
    MergeUsersField(MergeExamples([], example), user, key, field);
    MergeExamplesGet([], example, key);
  }

  // ---------------------------------------------------------------------------
  // Account resolution
  // ---------------------------------------------------------------------------

  /** The three environment variables, each unset (None) or a string. */
  datatype Environment = Environment(login: Option<string>, server: Option<string>, password: Option<string>)

  /** The profile names, in file order. */
  function Names(profiles: Profiles): seq<string>
  {
    seq(|profiles|, i requires 0 <= i < |profiles| => profiles[i].0)
  }

  /** A name is its own sort key. */
  function NameKey(name: string): string { name }

  /**
   * `available_profile_names`: the merged profile names in Python's string
   * order; they are exactly the names loaded, and upper-cased when the
   * profiles were loaded by `LoadAccountProfiles`.
   */
  function AvailableProfileNames(profiles: Profiles): (names: seq<string>)
    ensures Sorting.SortedByName(names, NameKey)
    ensures multiset(names) == multiset(Names(profiles))
    ensures UpperNames(profiles) ==> forall i :: 0 <= i < |names| ==> Text.Upper(names[i]) == names[i]
  {
    var ns := Names(profiles);
    var r := Sorting.SortByName(ns, NameKey);
    Sorting.SortByNameSortsAndPermutes(ns, NameKey);
    assert forall i :: 0 <= i < |r| ==> r[i] in ns by {
      forall i | 0 <= i < |r| ensures r[i] in ns {
        assert r[i] in multiset(r);
      }
    }
    r
  }

  /** A resolved account; Python's None is `Yaml.Null` in the optional fields. */
  datatype AccountConfig = AccountConfig(
    name: string,
    server: Yaml.Value,
    login: Option<int>,
    password: Yaml.Value,
    description: Yaml.Value,
    defaultSymbol: Yaml.Value,
    terminalPath: Yaml.Value)

  /** `_maybe_int`: None, "", "None" and anything `int()` rejects give None. */
  function MaybeInt(v: Yaml.Value): (r: Option<int>)
    ensures (v == Yaml.Null || v == Yaml.Str("") || v == Yaml.Str("None")) ==> r.None?
    ensures r.Some? <==> !(v == Yaml.Null || v == Yaml.Str("") || v == Yaml.Str("None")) && Yaml.ToInt(v).Ok?
    ensures r.Some? ==> r.value == Yaml.ToInt(v).value
  {
    if v == Yaml.Null || v == Yaml.Str("") || v == Yaml.Str("None") then None
    else match Yaml.ToInt(v)
      case Ok(i) => Some(i)
      case Err(_) => None
  }

  /** A rendered integer survives `_maybe_int`. */
  lemma MaybeIntOfRendered(i: int)
    ensures MaybeInt(Yaml.Str(Text.IntToString(i))) == Some(i)
  {
    var s := Text.IntToString(i);
    Yaml.ToIntOfRendered(i);
    assert s != "" && s != "None" by {
      assert s[0] == '-' || Text.IsDigit(s[0]);
    }
  }

  function OptionalText(s: Option<string>): (v: Yaml.Value)
    ensures s.None? <==> v == Yaml.Null
  {
    if s.Some? then Yaml.Str(s.value) else Yaml.Null
  }

  /** `login if login is not None else env_login`, then the profile's login through `_maybe_int`. */
  function ResolveLogin(login: Option<int>, envLogin: Option<string>, data: Option<Fields>): (r: Option<int>)
    ensures login.Some? ==> r == login
    ensures (login.None? && envLogin.Some? && MaybeInt(Yaml.Str(envLogin.value)).Some?) ==>
              r == MaybeInt(Yaml.Str(envLogin.value))
    ensures (login.None? && (envLogin.None? || MaybeInt(Yaml.Str(envLogin.value)).None?)) ==>
              r == (if data.Some? && |data.value| > 0 then MaybeInt(Dicts.Get(data.value, "login").GetOr(Yaml.Null)) else None)
  {
    var fromEnv := if envLogin.Some? then MaybeInt(Yaml.Str(envLogin.value)) else None;
    var explicit := if login.Some? then login else fromEnv;
    if explicit.None? && data.Some? && |data.value| > 0 then MaybeInt(Dicts.Get(data.value, "login").GetOr(Yaml.Null))
    else explicit
  }

  /** `password if password is not None else env_password`, then the profile's password. */
  function ResolvePassword(password: Option<string>, envPassword: Option<string>, data: Option<Fields>): (r: Yaml.Value)
    ensures password.Some? ==> r == Yaml.Str(password.value)
    ensures (password.None? && envPassword.Some?) ==> r == Yaml.Str(envPassword.value)
    ensures (password.None? && envPassword.None?) ==>
              r == (if data.Some? && |data.value| > 0 then Dicts.Get(data.value, "password").GetOr(Yaml.Null) else Yaml.Null)
  {
    var explicit := if password.Some? then Yaml.Str(password.value) else OptionalText(envPassword);
    if explicit == Yaml.Null && data.Some? && |data.value| > 0 then Dicts.Get(data.value, "password").GetOr(Yaml.Null)
    else explicit
  }

  /**
   * `server or env_server`: an empty explicit server falls through to the
   * environment, and the profile is consulted only when the result is None.
   */
  function ResolveServer(server: Option<string>, envServer: Option<string>, data: Option<Fields>): (r: Yaml.Value)
    ensures (server.Some? && server.value != "") ==> r == Yaml.Str(server.value)
    ensures ((server.None? || server.value == "") && envServer.Some?) ==> r == Yaml.Str(envServer.value)
    ensures ((server.None? || server.value == "") && envServer.None?) ==>
              r == (if data.Some? && |data.value| > 0 then Dicts.Get(data.value, "server").GetOr(Yaml.Null) else Yaml.Null)
  {
    var explicit := if server.Some? && server.value != "" then Yaml.Str(server.value) else OptionalText(envServer);
    if explicit == Yaml.Null && data.Some? && |data.value| > 0 then Dicts.Get(data.value, "server").GetOr(Yaml.Null)
    else explicit
  }

  /** `profiles.get(profile_name.upper()) if profile_name else None`. */
  function ProfileData(profiles: Profiles, profileName: Option<string>): (r: Option<Fields>)
    ensures r.Some? <==> profileName.Some? && profileName.value != "" && Dicts.HasKey(profiles, Text.Upper(profileName.value))
  {
    if profileName.Some? && profileName.value != "" then Dicts.Get(profiles, Text.Upper(profileName.value)) else None
  }

  /** The value the matched profile gives `field`, if there is a profile and it has the field. */
  function ProfileField(profiles: Profiles, profileName: Option<string>, field: string): (v: Option<Yaml.Value>)
    ensures ProfileData(profiles, profileName).None? ==> v.None?
    ensures ProfileData(profiles, profileName).Some? ==> v == Dicts.Get(ProfileData(profiles, profileName).value, field)
  {
    var data := ProfileData(profiles, profileName);
    if data.Some? then Dicts.Get(data.value, field) else None
  }

  /**
   * `resolve_account_config`: login, password and server as above; the
   * description, default symbol and terminal path from the profile, with
   * "" and "EURUSD" standing in for missing or empty values.
   */
  function ResolveAccount(
    profiles: Profiles, profileName: Option<string>, login: Option<int>, password: Option<string>,
    server: Option<string>, env: Environment)
    : (a: AccountConfig)
    ensures a.name == (if profileName.Some? && profileName.value != "" then Text.Upper(profileName.value) else "UNSPECIFIED")
    ensures a.login == ResolveLogin(login, env.login, ProfileData(profiles, profileName))
    ensures a.password == ResolvePassword(password, env.password, ProfileData(profiles, profileName))
    ensures a.server == ResolveServer(server, env.server, ProfileData(profiles, profileName))
    ensures Yaml.Truthy(a.defaultSymbol) && (Yaml.Truthy(a.description) || a.description == Yaml.Str(""))
    ensures var v := ProfileField(profiles, profileName, "default_symbol");
      a.defaultSymbol == (if v.Some? && Yaml.Truthy(v.value) then v.value else Yaml.Str("EURUSD"))
    ensures var v := ProfileField(profiles, profileName, "description");
      a.description == (if v.Some? && Yaml.Truthy(v.value) then v.value else Yaml.Str(""))
    ensures var v := ProfileField(profiles, profileName, "terminal_path");
      a.terminalPath == (if v.Some? then v.value else Yaml.Null)
  {
    var data := ProfileData(profiles, profileName);
    var fields := if data.Some? then data.value else [];
    var description := if data.Some? && |fields| > 0 then Dicts.Get(fields, "description").GetOr(Yaml.Null) else Yaml.Str("");
    var symbol := Dicts.Get(fields, "default_symbol").GetOr(Yaml.Str("EURUSD"));
    AccountConfig(
      if profileName.Some? && profileName.value != "" then Text.Upper(profileName.value) else "UNSPECIFIED",
      ResolveServer(server, env.server, data),
      ResolveLogin(login, env.login, data),
      ResolvePassword(password, env.password, data),
      Yaml.Or(Some(description), Yaml.Str("")),
      Yaml.Or(Some(symbol), Yaml.Str("EURUSD")),
      Dicts.Get(fields, "terminal_path").GetOr(Yaml.Null))
  }

  /**
   * Without a matching profile, the account holds only what the arguments
   * and the environment give, with the default symbol and no description
   * or terminal path.
   */
  lemma NoProfileDefaults(
    profiles: Profiles, profileName: Option<string>, login: Option<int>, password: Option<string>,
    server: Option<string>, env: Environment)
    requires profileName.None? || profileName.value == "" || !Dicts.HasKey(profiles, Text.Upper(profileName.value))
    ensures var a := ResolveAccount(profiles, profileName, login, password, server, env);
            a.defaultSymbol == Yaml.Str("EURUSD") && a.description == Yaml.Str("") && a.terminalPath == Yaml.Null
            && (a.login.Some? ==> login.Some? || env.login.Some?)
            && (a.password != Yaml.Null ==> password.Some? || env.password.Some?)
            && (a.server != Yaml.Null ==> server.Some? || env.server.Some?)
  {
  }

  /**
   * With no explicit argument and nothing in the environment, the login,
   * password and server are the profile's own (the login through
   * `_maybe_int`).
   */
  lemma ProfileSuppliesCredentials(profiles: Profiles, name: string)
    requires name != "" && Dicts.HasKey(profiles, Text.Upper(name))
    requires |Dicts.Get(profiles, Text.Upper(name)).value| > 0
    ensures var fields := Dicts.Get(profiles, Text.Upper(name)).value;
            var a := ResolveAccount(profiles, Some(name), None, None, None, Environment(None, None, None));
            a.login == MaybeInt(Dicts.Get(fields, "login").GetOr(Yaml.Null))
            && a.password == Dicts.Get(fields, "password").GetOr(Yaml.Null)
            && a.server == Dicts.Get(fields, "server").GetOr(Yaml.Null)
  {
  }

  /**
   * A field of the matched profile, after loading both files, is the one
   * the user file sets for that profile when it sets it, and otherwise the
   * example file's.
   */
  lemma ProfileFieldFromFiles(
    exampleExists: bool, exampleDoc: Yaml.Value, userExists: bool, userDoc: Yaml.Value, name: string, field: string)
    requires LoadAccountProfiles(exampleExists, exampleDoc, userExists, userDoc).Ok?
    requires name != ""
    ensures var example := ExampleConfigs(ProfilesOf(exampleExists, exampleDoc).value).value;
            var user := UserConfigs(ProfilesOf(userExists, userDoc).value).value;
            var merged := LoadAccountProfiles(exampleExists, exampleDoc, userExists, userDoc).value;
            var key := Text.Upper(name);
            ProfileField(merged, Some(name), field)
            == if UserFor(user, key, field).Some? then UserFor(user, key, field)
               else Dicts.Get(ExampleFor(example, key).GetOr([]), field)
  {
    var merged := LoadAccountProfiles(exampleExists, exampleDoc, userExists, userDoc).value;
    ProfileFieldPrecedence(exampleExists, exampleDoc, userExists, userDoc, Text.Upper(name), field);
    if !Dicts.HasKey(merged, Text.Upper(name)) {
      assert Dicts.Get(merged, Text.Upper(name)).GetOr([]) == [];
    }
  }

  /**
   * A truthy default symbol or description, or any terminal path, that the
   * user file sets for the profile is the one the resolved account carries.
   */
  lemma UserFileFieldsWin(
    exampleExists: bool, exampleDoc: Yaml.Value, userExists: bool, userDoc: Yaml.Value, name: string,
    login: Option<int>, password: Option<string>, server: Option<string>, env: Environment)
    requires LoadAccountProfiles(exampleExists, exampleDoc, userExists, userDoc).Ok?
    requires name != ""
    ensures var user := UserConfigs(ProfilesOf(userExists, userDoc).value).value;
            var merged := LoadAccountProfiles(exampleExists, exampleDoc, userExists, userDoc).value;
            var key := Text.Upper(name);
            var a := ResolveAccount(merged, Some(name), login, password, server, env);
            && (UserFor(user, key, "default_symbol").Some? && Yaml.Truthy(UserFor(user, key, "default_symbol").value)
                ==> a.defaultSymbol == UserFor(user, key, "default_symbol").value)
            && (UserFor(user, key, "description").Some? && Yaml.Truthy(UserFor(user, key, "description").value)
                ==> a.description == UserFor(user, key, "description").value)
            && (UserFor(user, key, "terminal_path").Some?
                ==> a.terminalPath == UserFor(user, key, "terminal_path").value)
  {
    ProfileFieldFromFiles(exampleExists, exampleDoc, userExists, userDoc, name, "default_symbol");
    ProfileFieldFromFiles(exampleExists, exampleDoc, userExists, userDoc, name, "description");
    ProfileFieldFromFiles(exampleExists, exampleDoc, userExists, userDoc, name, "terminal_path");
  }
}

=== FILE: export_bundle.dfy ===
/**
 * The export bundle (scripts/run_export_bundle.py): the look-back window
 * from `--hours` or `--days`, the window label, the log file chosen, and the
 * names of the two files written. The export and the analysis it runs are
 * modelled in ExportLogs and RecentLogs; file existence is a parameter.
 */
module ExportBundle {
  import opened Wrappers
  import Text
  import ExportLogs
  import ExecLog
  import Num

  const ExportDir: string := "results/data_exports/"
  const DefaultLogPath: string := "results/mt5_demo_exec_log.csv"

  /** Exactly one of `--hours` and `--days`; days count as 24 hours each. */
  function ResolveHours(hours: Option<real>, days: Option<real>): (r: Result<real>)
    ensures r.Ok? <==> (hours.Some? != days.Some?)
    ensures r.Err? ==> r.error.ValueError?
    ensures hours.Some? && r.Ok? ==> r.value == hours.value
    ensures days.Some? && r.Ok? ==> r.value == days.value * 24.0
  {
    if hours.Some? && days.Some? then Err(ValueError("Specify either --hours or --days (not both)."))
    else if hours.Some? then Ok(hours.value)
    else if days.Some? then Ok(days.value * 24.0)
    else Err(ValueError("Must supply --hours or --days."))
  }

  predicate Integral(h: real) { h.Floor as real == h }

  /**
   * The window without its environment: `2d` for whole days, `36h` for whole
   * hours, and otherwise the hours in Python's general float format (the
   * `shortest` parameter) then `h`.
   */
  function Span(hours: real, shortest: real -> string): (unit: string)
    ensures |unit| >= 1
    ensures unit[|unit| - 1] == 'd' <==> ExportLogs.WholeDays(hours)
    ensures ExportLogs.WholeDays(hours) ==> unit == ExportLogs.WindowLabel(hours)
    ensures !ExportLogs.WholeDays(hours) && Integral(hours) ==> unit == Text.IntToString(hours.Floor) + "h"
    ensures !Integral(hours) ==> unit == shortest(hours) + "h"
  {
    if ExportLogs.WholeDays(hours) then
      WholeDaysIntegral(hours);
      ExportLogs.WindowLabel(hours)
    else if Integral(hours) then
      var n := Text.IntToString(hours.Floor);
      n + "h"
    else
      shortest(hours) + "h"
  }

  /** A whole number of days is a whole number of hours. */
  lemma WholeDaysIntegral(hours: real)
    requires ExportLogs.WholeDays(hours)
    ensures Integral(hours)
  {
    var k := (hours / 24.0).Floor;
    assert hours == (k * 24) as real;
  }

  /** `format_window_label`: the span, `_`, and the environment. */
  function WindowLabel(hours: real, env: string, shortest: real -> string): (name: string)
    ensures |name| >= |env| + 2
    ensures name[..|name| - |env| - 1] == Span(hours, shortest)
    ensures name[|name| - |env| - 1..] == "_" + env
  {
    var unit := Span(hours, shortest);
    unit + "_" + env
  }

  /** An explicit path wins, then the environment's own log if it is on disk, then the default log. */
  function ResolveLogPath(env: string, explicit: Option<string>, onDisk: string -> bool): (path: string)
    ensures explicit.Some? ==> path == explicit.value
    ensures explicit.None? && onDisk("results/mt5_" + env + "_exec_log.csv") ==> path == "results/mt5_" + env + "_exec_log.csv"
    ensures explicit.None? && !onDisk("results/mt5_" + env + "_exec_log.csv") ==> path == DefaultLogPath
  {
    if explicit.Some? then explicit.value
    else
      var own := "results/mt5_" + env + "_exec_log.csv";
      if onDisk(own) then own else DefaultLogPath
  }

  datatype Outputs = Outputs(log: string, csv: string, summary: string, exported: ExportLogs.Export)

  /**
   * The files of one bundle: the log read, the CSV and summary written, and
   * the export written into the CSV. `rows` are the rows of the chosen log
   * and `now` the clock. A missing log is a FileNotFoundError; a row whose
   * timestamp does not parse stops the export with a ValueError.
   */
  function Bundle(
    hours: real, env: string, explicit: Option<string>, onDisk: string -> bool, shortest: real -> string,
    rows: seq<ExecLog.Row>, now: int, includeHistorical: bool)
    : (r: Result<Outputs>)
    ensures r.Ok? <==> onDisk(ResolveLogPath(env, explicit, onDisk)) && ExportLogs.AllParse(rows)
    ensures !onDisk(ResolveLogPath(env, explicit, onDisk)) ==> r.Err? && r.error.FileNotFoundError?
    ensures onDisk(ResolveLogPath(env, explicit, onDisk)) && !ExportLogs.AllParse(rows) ==> r.Err? && r.error.ValueError?
    ensures r.Ok? ==> r.value.log == ResolveLogPath(env, explicit, onDisk)
    ensures r.Ok? ==> r.value.csv == ExportDir + "exec_log_last_" + WindowLabel(hours, env, shortest) + ".csv"
    ensures r.Ok? ==> r.value.summary == ExportDir + "behavior_summary_last_" + WindowLabel(hours, env, shortest) + ".txt"
    ensures r.Ok? ==> r.value.exported.rows == ExportLogs.SelectRows(rows, includeHistorical, ExportLogs.WindowStart(now, hours), now)
  {
    var log := ResolveLogPath(env, explicit, onDisk);
    if !onDisk(log) then Err(FileNotFoundError(log))
    else
      var window := WindowLabel(hours, env, shortest);
      var exported :- ExportLogs.ExportRecentLogs(rows, hours, now, includeHistorical);
      Ok(Outputs(log, ExportDir + "exec_log_last_" + window + ".csv", ExportDir + "behavior_summary_last_" + window + ".txt", exported))
  }

  /** `--days n` labels the bundle `nd_env`. */
  lemma DaysLabel(n: nat, env: string, shortest: real -> string)
    requires n >= 1
    ensures var h := ResolveHours(None, Some(n as real));
            h.Ok? && WindowLabel(h.value, env, shortest) == Text.NatToString(n) + "d_" + env
  {
    var hours := n as real * 24.0;
    assert (hours / 24.0).Floor == n;
    var unit := Span(hours, shortest);
    var k: nat :| k as real * 24.0 == hours && unit == Text.NatToString(k) + "d";
    assert k == n;
    var name := WindowLabel(hours, env, shortest);
    assert name == name[..|name| - |env| - 1] + name[|name| - |env| - 1..];
  }

  /** Different whole, non-negative windows in one environment never share a label, so never share files. */
  lemma WholeWindowsLabelledApart(h1: real, h2: real, env: string, shortest: real -> string)
    requires h1 >= 0.0 && h2 >= 0.0 && Integral(h1) && Integral(h2)
    requires WindowLabel(h1, env, shortest) == WindowLabel(h2, env, shortest)
    ensures h1 == h2
  {
    var u1 := Span(h1, shortest);
    var u2 := Span(h2, shortest);
    assert u1 == u2;
    if ExportLogs.WholeDays(h1) {
      var k1: nat :| k1 as real * 24.0 == h1 && u1 == Text.NatToString(k1) + "d";
      var k2: nat :| k2 as real * 24.0 == h2 && u2 == Text.NatToString(k2) + "d";
      DigitsAgree(Text.NatToString(k1), Text.NatToString(k2), "d");
      Text.NatToStringValue(k1);
      Text.NatToStringValue(k2);
    } else {
      var n1: nat := h1.Floor;
      var n2: nat := h2.Floor;
      DigitsAgree(Text.NatToString(n1), Text.NatToString(n2), "h");
      Text.NatToStringValue(n1);
      Text.NatToStringValue(n2);
    }
  }

  /** Equal strings with the same tail have the same head. */
  lemma DigitsAgree(a: string, b: string, tail: string)
    requires a + tail == b + tail
    ensures a == b
  {
    assert a == (a + tail)[..|a|];
    assert b == (b + tail)[..|b|];
  }
}

=== FILE: export_logs.dfy ===
/**
 * Export of the recent part of the execution log: the rows inside a time
 * window ending now, their event counts and result figures, and the label
 * of the window used in the export's file name.
 */
module ExportLogs {
  import opened Wrappers
  import opened Num
  import Text
  import Grouping
  import opened ExecLog

  const SecondsPerHour: real := 3600.0

  /** The window `[now - max(hours, 0) h, now]`, in seconds. */
  function WindowStart(now: int, hours: real): (s: real)
    ensures s <= now as real
    ensures hours >= 0.0 ==> s == now as real - hours * SecondsPerHour
  {
    now as real - Max(hours, 0.0) * SecondsPerHour
  }

  predicate InWindow(t: int, start: real, now: int)
  {
    start <= t as real && t <= now
  }

  /** The window is a whole number of days of at least one day. */
  predicate WholeDays(hours: real)
  {
    hours >= 24.0 && (hours / 24.0).Floor as real == hours / 24.0
  }

  /** `2d` for a whole number of days, `36h` (hours truncated toward zero) otherwise. */
  function WindowLabel(hours: real): (name: string)
    ensures |name| >= 2
    ensures name[|name| - 1] == 'd' <==> WholeDays(hours)
    ensures WholeDays(hours) ==> exists k: nat :: k as real * 24.0 == hours && name == Text.NatToString(k) + "d"
    ensures !WholeDays(hours) ==> name == Text.IntToString(Trunc(hours)) + "h"
  {
    if WholeDays(hours) then
      var k := (hours / 24.0).Floor;
      assert k as real * 24.0 == hours;
      Text.NatToString(k) + "d"
    else Text.IntToString(Trunc(hours)) + "h"
  }

  lemma WindowLabelExamples()
    ensures WindowLabel(48.0) == "2d"
    ensures WindowLabel(36.0) == "36h"
    ensures WindowLabel(12.5) == "12h"
  {
    assert WholeDays(48.0);
    assert !WholeDays(36.0) by { assert (36.0 / 24.0).Floor == 1; }
  }

  /** Whether a row goes into the export: live (unless historical rows are wanted) and inside the window. */
  predicate Chosen(row: Row, includeHistorical: bool, start: real, now: int)
  {
    ParseTimestamp(row.stamp).Ok? && Kept(row, includeHistorical) && InWindow(ParseTimestamp(row.stamp).value, start, now)
  }

  predicate AllParse(rows: seq<Row>)
  {
    forall i :: 0 <= i < |rows| ==> ParseTimestamp(rows[i].stamp).Ok?
  }

  function ChosenBy(includeHistorical: bool, start: real, now: int): Row -> bool
  {
    row => Chosen(row, includeHistorical, start, now)
  }

  /** The chosen rows, in log order. */
  function SelectRows(rows: seq<Row>, includeHistorical: bool, start: real, now: int): (r: seq<Row>)
    ensures |r| <= |rows|
    ensures forall i :: 0 <= i < |r| ==> Chosen(r[i], includeHistorical, start, now)
    ensures forall i :: 0 <= i < |rows| && Chosen(rows[i], includeHistorical, start, now) ==> rows[i] in r
    // Exactly the chosen positions of the log, kept in ascending order.
    ensures |r| == |Grouping.KeptIndices(rows, ChosenBy(includeHistorical, start, now))|
    ensures forall k :: 0 <= k < |r| ==> r[k] == rows[Grouping.KeptIndices(rows, ChosenBy(includeHistorical, start, now))[k]]
  {
    var keep := ChosenBy(includeHistorical, start, now);
    Grouping.SelectInOrder(rows, keep);
    Grouping.Select(rows, keep)
  }

  /** Selecting again from an export keeps all of it. */
  lemma SelectRowsIdempotent(rows: seq<Row>, includeHistorical: bool, start: real, now: int)
    ensures var once := SelectRows(rows, includeHistorical, start, now);
            SelectRows(once, includeHistorical, start, now) == once
  {
    Grouping.SelectIdempotent(rows, ChosenBy(includeHistorical, start, now));
  }

  /** A row's timestamp that does not parse stops the export with a ValueError. */
  function FirstBadStamp(rows: seq<Row>): (r: Option<Error>)
    ensures r.None? <==> AllParse(rows)
    ensures r.Some? ==> r.value.ValueError?
    decreases |rows|
  {
    if |rows| == 0 then None
    else
      var init := rows[..|rows| - 1];
      assert forall i :: 0 <= i < |init| ==> init[i] == rows[i];
      match FirstBadStamp(init)
      case Some(e) => Some(e)
      case None =>
        match ParseTimestamp(rows[|rows| - 1].stamp)
        case Err(e) => Some(e)
        case Ok(_) => None
  }

  /** How many rows carry event `e`. */
  function CountEvent(rows: seq<Row>, e: string): (n: nat)
    ensures n <= |rows|
    decreases |rows|
  {
    if |rows| == 0 then 0
    else CountEvent(rows[..|rows| - 1], e) + (if EventOf(rows[|rows| - 1]) == e then 1 else 0)
  }

  /** How many rows of strategy `id` carry event `e`. */
  function CountStrategyEvent(rows: seq<Row>, e: string, id: string): (n: nat)
    ensures n <= CountEvent(rows, e)
    decreases |rows|
  {
    if |rows| == 0 then 0
    else
      var last := rows[|rows| - 1];
      CountStrategyEvent(rows[..|rows| - 1], e, id) + (if EventOf(last) == e && StrategyOrUnknown(last.strategyId) == id then 1 else 0)
  }

  /** Counts per strategy of the rows carrying event `e`; strategies without such rows have no entry. */
  function StrategyCounts(rows: seq<Row>, e: string): (m: map<string, nat>)
    ensures forall id :: id in m ==> m[id] == CountStrategyEvent(rows, e, id) && m[id] > 0
    ensures forall id :: CountStrategyEvent(rows, e, id) > 0 ==> id in m
    decreases |rows|
  {
    if |rows| == 0 then map[]
    else
      var m := StrategyCounts(rows[..|rows| - 1], e);
      var last := rows[|rows| - 1];
      if EventOf(last) == e then
        var id := StrategyOrUnknown(last.strategyId);
        m[id := (if id in m then m[id] else 0) + 1]
      else m
  }

  /** The parseable results of the CLOSE rows, in order. */
  function ClosePnls(rows: seq<Row>): (ps: seq<real>)
    ensures |ps| <= CountEvent(rows, "CLOSE")
    decreases |rows|
  {
    if |rows| == 0 then []
    else
      var last := rows[|rows| - 1];
      var pnl := SafeFloat(last.pnl);
      ClosePnls(rows[..|rows| - 1]) + (if EventOf(last) == "CLOSE" && pnl.Some? then [pnl.value] else [])
  }

  datatype Summary = Summary(
    openTrades: nat,
    closeTrades: nat,
    filterEvents: nat,
    totalPnl: real,
    avgPnl: real,
    winRate: real,
    strategyOpenCounts: map<string, nat>,
    strategyCloseCounts: map<string, nat>,
    totalRows: nat)

  /** `_compute_summary` with the row total the export adds. */
  function Summarize(rows: seq<Row>): (s: Summary)
    ensures s.totalRows == |rows|
    ensures s.openTrades == CountEvent(rows, "OPEN") && s.closeTrades == CountEvent(rows, "CLOSE")
    ensures s.filterEvents == CountEvent(rows, "FILTER")
    ensures s.totalPnl == Sum(ClosePnls(rows))
    ensures s.avgPnl == Mean(ClosePnls(rows)) && s.winRate == ShareAbove(ClosePnls(rows), 0.0)
    ensures s.strategyOpenCounts == StrategyCounts(rows, "OPEN")
    ensures s.strategyCloseCounts == StrategyCounts(rows, "CLOSE")
  {
    var pnls := ClosePnls(rows);
    Summary(
      openTrades := CountEvent(rows, "OPEN"),
      closeTrades := CountEvent(rows, "CLOSE"),
      filterEvents := CountEvent(rows, "FILTER"),
      totalPnl := Sum(pnls),
      avgPnl := Mean(pnls),
      winRate := ShareAbove(pnls, 0.0),
      strategyOpenCounts := StrategyCounts(rows, "OPEN"),
      strategyCloseCounts := StrategyCounts(rows, "CLOSE"),
      totalRows := |rows|)
  }

  /** The three event kinds are distinct, so their counts together never exceed the rows. */
  lemma {:induction false} EventCountsBounded(rows: seq<Row>)
    ensures CountEvent(rows, "OPEN") + CountEvent(rows, "CLOSE") + CountEvent(rows, "FILTER") <= |rows|
    decreases |rows|
  {
    if |rows| > 0 {
      EventCountsBounded(rows[..|rows| - 1]);
    }
  }

  /** Every strategy's OPEN count is one of the rows the summary counts as OPEN. */
  lemma StrategyCountWithinTotal(rows: seq<Row>, e: string, id: string)
    requires id in StrategyCounts(rows, e)
    ensures 0 < StrategyCounts(rows, e)[id] <= CountEvent(rows, e)
  {
  }

  datatype Export = Export(name: string, windowStart: real, windowEnd: int, rows: seq<Row>, summary: Summary)

  /** `export_recent_logs` at time `now` (seconds), over the rows of an existing log. */
  function ExportRecentLogs(rows: seq<Row>, hours: real, now: int, includeHistorical: bool): (r: Result<Export>)
    ensures r.Ok? <==> AllParse(rows)
    ensures r.Ok? ==> r.value.name == WindowLabel(hours)
    ensures r.Ok? ==> r.value.windowStart == WindowStart(now, hours) && r.value.windowEnd == now
    ensures r.Ok? ==> r.value.rows == SelectRows(rows, includeHistorical, WindowStart(now, hours), now)
    ensures r.Ok? ==> forall i :: 0 <= i < |r.value.rows| ==>
      Kept(r.value.rows[i], includeHistorical) && InWindow(ParseTimestamp(r.value.rows[i].stamp).value, r.value.windowStart, now)
    ensures r.Ok? ==> r.value.summary == Summarize(r.value.rows) && r.value.summary.totalRows <= |rows|
  {
    match FirstBadStamp(rows)
    case Some(e) => Err(e)
    case None =>
      var start := WindowStart(now, hours);
      var selected := SelectRows(rows, includeHistorical, start, now);
      Ok(Export(WindowLabel(hours), start, now, selected, Summarize(selected)))
  }
}

=== FILE: filters.dfy ===
/**
 * The session/trend/volatility trade gates of core/filters.py. The four
 * ENABLE_* switches are settings outside this model and are passed in.
 */
module Filters {
  import opened Wrappers
  import Text

  datatype FilterSwitches = FilterSwitches(session: bool, trend: bool, lowVol: bool, highVolSideways: bool)

  datatype TradeTags = TradeTags(sessionTag: Option<string>, trendRegime: Option<string>, volatilityRegime: Option<string>)

  datatype TradeFilterResult = TradeFilterResult(
    allowed: bool,
    reason: Option<string>,
    sessionPassed: bool,
    trendPassed: bool,
    volatilityPassed: bool)

  /** `(tag or "").upper()`. */
  function Normalized(tag: Option<string>): string
  {
    if tag.Some? then Text.Upper(tag.value) else ""
  }

  const KnownVolatility: set<string> := {"LOW", "NORMAL", "HIGH", "UNKNOWN"}

  predicate SessionGate(sw: FilterSwitches, tags: TradeTags): (ok: bool)
    ensures !sw.session ==> ok
    ensures tags.sessionTag.None? ==> ok
  {
    !(sw.session && Normalized(tags.sessionTag) == "ASIA")
  }

  predicate TrendGate(sw: FilterSwitches, tags: TradeTags): (ok: bool)
    ensures !sw.trend ==> ok
    ensures tags.trendRegime.None? ==> ok
  {
    !(sw.trend && Normalized(tags.trendRegime) == "COUNTER_TREND")
  }

  /** The reason the volatility gate fails, if it does. */
  function VolatilityFailure(sw: FilterSwitches, tags: TradeTags): Option<string>
  {
    var vol := Normalized(tags.volatilityRegime);
    if sw.lowVol && vol == "LOW" then Some("low_volatility")
    else if sw.highVolSideways && vol == "HIGH" && Normalized(tags.trendRegime) == "SIDEWAYS" then Some("high_vol_sideways")
    else if vol !in KnownVolatility then Some("volatility")
    else None
  }

  /**
   * Gates run session, then trend, then volatility; the first failure
   * decides the reason, with every earlier gate's flag set.
   */
  function ShouldAllowTrade(sw: FilterSwitches, tags: TradeTags): (r: TradeFilterResult)
    ensures r.allowed <==> SessionGate(sw, tags) && TrendGate(sw, tags) && VolatilityFailure(sw, tags).None?
    ensures r.allowed ==> r == TradeFilterResult(true, None, true, true, true)
    ensures !SessionGate(sw, tags) ==> r == TradeFilterResult(false, Some("session"), false, false, false)
    ensures SessionGate(sw, tags) && !TrendGate(sw, tags) ==> r == TradeFilterResult(false, Some("trend"), true, false, false)
    ensures SessionGate(sw, tags) && TrendGate(sw, tags) && VolatilityFailure(sw, tags).Some? ==>
      r == TradeFilterResult(false, VolatilityFailure(sw, tags), true, true, false)
    ensures !r.allowed <==> r.reason.Some?
  {
    if !SessionGate(sw, tags) then TradeFilterResult(false, Some("session"), false, false, false)
    else if !TrendGate(sw, tags) then TradeFilterResult(false, Some("trend"), true, false, false)
    else
      var failure := VolatilityFailure(sw, tags);
      if failure.Some? then TradeFilterResult(false, failure, true, true, false)
      else TradeFilterResult(true, None, true, true, true)
  }

  /** Tags compare after upper-casing, so "asia" is blocked like "ASIA". */
  lemma LowerCaseAsiaBlocked(sw: FilterSwitches, trend: Option<string>, vol: Option<string>)
    requires sw.session
    ensures ShouldAllowTrade(sw, TradeTags(Some("asia"), trend, vol)).reason == Some("session")
  {
    assert Text.Upper("asia") == "ASIA";
  }

  /** With every switch off, only an unrecognised volatility label blocks a trade. */
  lemma SwitchesOffOnlyCheckLabel(tags: TradeTags)
    ensures var r := ShouldAllowTrade(FilterSwitches(false, false, false, false), tags);
      r.allowed <==> Normalized(tags.volatilityRegime) in KnownVolatility
  {
  }
}

=== FILE: grouping.dfy ===
/**
 * Grouping rows by a key in order of first appearance: the
 * `defaultdict(list)` and `groupby` idiom. The groups partition the rows.
 */
module Grouping {
  import opened Wrappers

  datatype Group<K, T> = Group(key: K, members: seq<T>)

  /** The rows with key `k`, in input order. */
  function Members<K(==), T>(xs: seq<T>, key: T -> K, k: K): (m: seq<T>)
    ensures |m| <= |xs|
    ensures forall i :: 0 <= i < |m| ==> key(m[i]) == k
    decreases |xs|
  {
    if |xs| == 0 then []
    else
      var last := xs[|xs| - 1];
      Members(xs[..|xs| - 1], key, k) + (if key(last) == k then [last] else [])
  }

  function IndexOf<K(==), T>(gs: seq<Group<K, T>>, k: K): (r: Option<nat>)
    ensures r.Some? ==> r.value < |gs| && gs[r.value].key == k
    ensures r.None? ==> forall i :: 0 <= i < |gs| ==> gs[i].key != k
    decreases |gs|
  {
    if |gs| == 0 then None
    else if gs[|gs| - 1].key == k then Some(|gs| - 1)
    else IndexOf(gs[..|gs| - 1], k)
  }

  /** File a row under its key, opening a new group for a key not seen before. */
  function Add<K(==), T>(gs: seq<Group<K, T>>, x: T, key: T -> K): (r: seq<Group<K, T>>)
  {
    match IndexOf(gs, key(x))
    case Some(i) => gs[i := Group(key(x), gs[i].members + [x])]
    case None => gs + [Group(key(x), [x])]
  }

  function GroupBy<K(==), T>(xs: seq<T>, key: T -> K): (gs: seq<Group<K, T>>)
    decreases |xs|
  {
    if |xs| == 0 then [] else Add(GroupBy(xs[..|xs| - 1], key), xs[|xs| - 1], key)
  }

  ghost predicate DistinctKeys<K, T>(gs: seq<Group<K, T>>)
  {
    forall i, j :: 0 <= i < j < |gs| ==> gs[i].key != gs[j].key
  }

  /** Each group holds exactly the rows with its key, in input order. */
  ghost predicate Faithful<K, T>(gs: seq<Group<K, T>>, xs: seq<T>, key: T -> K)
  {
    forall i :: 0 <= i < |gs| ==> gs[i].members == Members(xs, key, gs[i].key)
  }

  /** Every row's key has a group. */
  ghost predicate Covers<K, T>(gs: seq<Group<K, T>>, xs: seq<T>, key: T -> K)
  {
    forall k :: 0 <= k < |xs| ==> IndexOf(gs, key(xs[k])).Some?
  }

  lemma {:induction false} MembersAbsent<K, T>(xs: seq<T>, key: T -> K, k: K)
    requires forall i :: 0 <= i < |xs| ==> key(xs[i]) != k
    ensures Members(xs, key, k) == []
    decreases |xs|
  {
    if |xs| > 0 {
      MembersAbsent(xs[..|xs| - 1], key, k);
    }
  }

  /** Grouping partitions the rows: distinct keys, faithful groups, every row filed. */
  lemma {:induction false} GroupByPartitions<K, T>(xs: seq<T>, key: T -> K)
    ensures DistinctKeys(GroupBy(xs, key))
    ensures Faithful(GroupBy(xs, key), xs, key)
    ensures Covers(GroupBy(xs, key), xs, key)
    decreases |xs|
  {
    if |xs| > 0 {
      var init := xs[..|xs| - 1];
      var x := xs[|xs| - 1];
      assert xs == init + [x];
      var gs := GroupBy(init, key);
      assert GroupBy(xs, key) == Add(gs, x, key);
      GroupByPartitions(init, key);
      AddKeeps(gs, init, x, key);
    }
  }

  lemma AddKeeps<K, T>(gs: seq<Group<K, T>>, init: seq<T>, x: T, key: T -> K)
    requires DistinctKeys(gs) && Faithful(gs, init, key) && Covers(gs, init, key)
    ensures DistinctKeys(Add(gs, x, key))
    ensures Faithful(Add(gs, x, key), init + [x], key)
    ensures Covers(Add(gs, x, key), init + [x], key)
  {
    var xs := init + [x];
    assert xs[..|xs| - 1] == init;
    var r := Add(gs, x, key);
    match IndexOf(gs, key(x))
    case Some(g) =>
      forall k | 0 <= k < |xs|
        ensures IndexOf(r, key(xs[k])).Some?
      {
        if k < |init| {
          assert xs[k] == init[k];
          KeysKept(gs, r, key(init[k]));
        } else {
          assert xs[k] == x;
          KeysKept(gs, r, key(x));
        }
      }
    case None =>
      forall k | 0 <= k < |xs|
        ensures IndexOf(r, key(xs[k])).Some?
      {
        if k < |init| {
          assert xs[k] == init[k];
          KeysKept(gs, r, key(init[k]));
        } else {
          assert xs[k] == x;
          assert r == gs + [Group(key(x), [x])];
          assert r[|r| - 1].key == key(x);
        }
      }
      forall k | 0 <= k < |init|
        ensures key(init[k]) != key(x)
      {
        assert IndexOf(gs, key(init[k])).Some?;
      }
      MembersAbsent(init, key, key(x));
  }

  /** A key found in `gs` is found in any `r` that keeps `gs`'s keys in place. */
  lemma KeysKept<K, T>(gs: seq<Group<K, T>>, r: seq<Group<K, T>>, k: K)
    requires |gs| <= |r|
    requires forall i :: 0 <= i < |gs| ==> r[i].key == gs[i].key
    ensures IndexOf(gs, k).Some? ==> IndexOf(r, k).Some?
  {
    if IndexOf(gs, k).Some? {
      var i := IndexOf(gs, k).value;
      assert r[i].key == k;
    }
  }

  /** No group is empty: a group is opened by its first row. */
  lemma {:induction false} GroupsNonEmpty<K, T>(xs: seq<T>, key: T -> K)
    ensures forall i :: 0 <= i < |GroupBy(xs, key)| ==> |GroupBy(xs, key)[i].members| > 0
    decreases |xs|
  {
    if |xs| > 0 {
      GroupsNonEmpty(xs[..|xs| - 1], key);
    }
  }

  /** Total number of rows over the groups. */
  function Size<K, T>(gs: seq<Group<K, T>>): nat
    decreases |gs|
  {
    if |gs| == 0 then 0 else Size(gs[..|gs| - 1]) + |gs[|gs| - 1].members|
  }

  /** No row is lost or counted twice. */
  lemma {:induction false} GroupBySize<K, T>(xs: seq<T>, key: T -> K)
    ensures Size(GroupBy(xs, key)) == |xs|
    decreases |xs|
  {
    if |xs| > 0 {
      GroupBySize(xs[..|xs| - 1], key);
      AddSize(GroupBy(xs[..|xs| - 1], key), xs[|xs| - 1], key);
    }
  }

  lemma AddSize<K, T>(gs: seq<Group<K, T>>, x: T, key: T -> K)
    ensures Size(Add(gs, x, key)) == Size(gs) + 1
  {
    match IndexOf(gs, key(x))
    case Some(i) =>
      SizeUpdate(gs, i, Group(key(x), gs[i].members + [x]));
    case None =>
      assert (gs + [Group(key(x), [x])])[..|gs|] == gs;
  }

  lemma {:induction false} SizeUpdate<K, T>(gs: seq<Group<K, T>>, i: nat, g: Group<K, T>)
    requires i < |gs|
    ensures Size(gs[i := g]) == Size(gs) - |gs[i].members| + |g.members|
    decreases |gs|
  {
    var n := |gs| - 1;
    if i < n {
      SizeUpdate(gs[..n], i, g);
      assert gs[i := g][..n] == gs[..n][i := g];
    } else {
      assert gs[i := g][..n] == gs[..n];
    }
  }

  /** `le` compares any two keys, and its comparisons chain. */
  ghost predicate TotalPreorder<K(!new)>(le: (K, K) -> bool)
  {
    && (forall a, b :: le(a, b) || le(b, a))
    && (forall a, b, c :: le(a, b) && le(b, c) ==> le(a, c))
  }

  ghost predicate SortedKeys<K, T>(gs: seq<Group<K, T>>, le: (K, K) -> bool)
  {
    forall i, j :: 0 <= i < j < |gs| ==> le(gs[i].key, gs[j].key)
  }

  /** Insert `g` after every group whose key is not above its own. */
  function InsertGroup<K, T>(gs: seq<Group<K, T>>, g: Group<K, T>, le: (K, K) -> bool): (r: seq<Group<K, T>>)
    ensures |r| == |gs| + 1
    ensures multiset(r) == multiset(gs) + multiset{g}
    ensures Size(r) == Size(gs) + |g.members|
    decreases |gs|
  {
    if |gs| == 0 || !le(gs[0].key, g.key) then
      SizeCons(g, gs);
      [g] + gs
    else
      var rest := InsertGroup(gs[1..], g, le);
      assert gs == [gs[0]] + gs[1..];
      SizeCons(gs[0], gs[1..]);
      SizeCons(gs[0], rest);
      [gs[0]] + rest
  }

  /** The groups in key order (a stable insertion sort), as `groupby(sort=True)` lists them. */
  function SortGroups<K, T>(gs: seq<Group<K, T>>, le: (K, K) -> bool): (r: seq<Group<K, T>>)
    ensures |r| == |gs|
    ensures multiset(r) == multiset(gs)
    ensures Size(r) == Size(gs)
    decreases |gs|
  {
    if |gs| == 0 then []
    else
      var init := gs[..|gs| - 1];
      assert gs == init + [gs[|gs| - 1]];
      InsertGroup(SortGroups(init, le), gs[|gs| - 1], le)
  }

  lemma {:induction false} SizeCons<K, T>(g: Group<K, T>, gs: seq<Group<K, T>>)
    ensures Size([g] + gs) == |g.members| + Size(gs)
    decreases |gs|
  {
    if |gs| > 0 {
      var n := |gs| - 1;
      SizeCons(g, gs[..n]);
      assert ([g] + gs)[..|gs|] == [g] + gs[..n];
    } else {
      assert [g] + gs == [g];
    }
  }

  /** A key at or below every inserted key stays at or below all of them. */
  lemma InsertGroupBound<K, T>(gs: seq<Group<K, T>>, g: Group<K, T>, le: (K, K) -> bool, a: K)
    requires forall i :: 0 <= i < |gs| ==> le(a, gs[i].key)
    requires le(a, g.key)
    ensures forall i :: 0 <= i < |InsertGroup(gs, g, le)| ==> le(a, InsertGroup(gs, g, le)[i].key)
  {
    var r := InsertGroup(gs, g, le);
    forall i | 0 <= i < |r|
      ensures le(a, r[i].key)
    {
      assert r[i] in multiset(r);
      if r[i] != g {
        assert r[i] in multiset(gs);
        var k :| 0 <= k < |gs| && gs[k] == r[i];
      }
    }
  }

  lemma {:induction false} InsertGroupSorted<K(!new), T>(gs: seq<Group<K, T>>, g: Group<K, T>, le: (K, K) -> bool)
    requires TotalPreorder(le) && SortedKeys(gs, le)
    ensures SortedKeys(InsertGroup(gs, g, le), le)
    decreases |gs|
  {
    if |gs| > 0 && le(gs[0].key, g.key) {
      var rest := InsertGroup(gs[1..], g, le);
      InsertGroupSorted(gs[1..], g, le);
      assert forall i :: 0 <= i < |gs[1..]| ==> le(gs[0].key, gs[1..][i].key) by {
        forall i | 0 <= i < |gs[1..]|
          ensures le(gs[0].key, gs[1..][i].key)
        {
          assert gs[1..][i] == gs[i + 1];
        }
      }
      InsertGroupBound(gs[1..], g, le, gs[0].key);
      var r := [gs[0]] + rest;
      forall i, j | 0 <= i < j < |r|
        ensures le(r[i].key, r[j].key)
      {
        assert r[j] == rest[j - 1];
        if i > 0 {
          assert r[i] == rest[i - 1];
        }
      }
    } else if |gs| > 0 {
      var r := [g] + gs;
      assert le(g.key, gs[0].key);
      forall i, j | 0 <= i < j < |r|
        ensures le(r[i].key, r[j].key)
      {
        assert r[j] == gs[j - 1];
        if i > 0 {
          assert r[i] == gs[i - 1];
        } else if j > 1 {
          assert le(gs[0].key, gs[j - 1].key);
        }
      }
    }
  }

  /** Sorting orders the groups by key. */
  lemma {:induction false} SortGroupsSorted<K(!new), T>(gs: seq<Group<K, T>>, le: (K, K) -> bool)
    requires TotalPreorder(le)
    ensures SortedKeys(SortGroups(gs, le), le)
    decreases |gs|
  {
    if |gs| > 0 {
      SortGroupsSorted(gs[..|gs| - 1], le);
      InsertGroupSorted(SortGroups(gs[..|gs| - 1], le), gs[|gs| - 1], le);
    }
  }

  lemma {:induction false} InsertGroupDistinct<K, T>(gs: seq<Group<K, T>>, g: Group<K, T>, le: (K, K) -> bool)
    requires DistinctKeys(gs)
    requires forall x :: x in gs ==> x.key != g.key
    ensures DistinctKeys(InsertGroup(gs, g, le))
    decreases |gs|
  {
    if |gs| > 0 && le(gs[0].key, g.key) {
      var rest := InsertGroup(gs[1..], g, le);
      InsertGroupDistinct(gs[1..], g, le);
      forall x | x in rest
        ensures x.key != gs[0].key
      {
        if x != g {
          assert x in multiset(rest);
          assert x in multiset(gs[1..]);
          var k :| 0 <= k < |gs[1..]| && gs[1..][k] == x;
          assert gs[k + 1] == x;
        }
      }
      ConsDistinct(gs[0], rest);
    } else if |gs| > 0 {
      ConsDistinct(g, gs);
    }
  }

  /** A group in front of groups with distinct keys other than its own keeps the keys distinct. */
  lemma ConsDistinct<K, T>(h: Group<K, T>, gs: seq<Group<K, T>>)
    requires DistinctKeys(gs)
    requires forall x :: x in gs ==> x.key != h.key
    ensures DistinctKeys([h] + gs)
  {
    var r := [h] + gs;
    forall i, j | 0 <= i < j < |r|
      ensures r[i].key != r[j].key
    {
      assert r[j] == gs[j - 1] && r[j] in gs;
      if i > 0 {
        assert r[i] == gs[i - 1];
      }
    }
  }

  /** Sorting keeps the keys distinct. */
  lemma {:induction false} SortGroupsDistinct<K, T>(gs: seq<Group<K, T>>, le: (K, K) -> bool)
    requires DistinctKeys(gs)
    ensures DistinctKeys(SortGroups(gs, le))
    decreases |gs|
  {
    if |gs| > 0 {
      var init := gs[..|gs| - 1];
      var last := gs[|gs| - 1];
      SortGroupsDistinct(init, le);
      forall x | x in SortGroups(init, le)
        ensures x.key != last.key
      {
        assert x in multiset(SortGroups(init, le));
        assert x in multiset(init);
        var k :| 0 <= k < |init| && init[k] == x;
        assert gs[k] == x;
      }
      InsertGroupDistinct(SortGroups(init, le), last, le);
    }
  }

  /** The positions of the rows satisfying `keep`. */
  ghost function Positions<T>(xs: seq<T>, keep: T -> bool): set<int>
  {
    set i | 0 <= i < |xs| && keep(xs[i])
  }

  /**
   * The positions of the rows satisfying `keep`, ascending: every listed
   * position is kept, each kept position is listed, and their number is
   * the number of kept rows.
   */
  ghost function KeptIndices<T>(xs: seq<T>, keep: T -> bool): (idx: seq<int>)
    ensures Ascending(idx, xs, keep)
    ensures forall i :: 0 <= i < |xs| && keep(xs[i]) ==> i in idx
    ensures |idx| == |Positions(xs, keep)|
    decreases |xs|
  {
    if |xs| == 0 then []
    else
      var n := |xs| - 1;
      var front := KeptIndices(xs[..n], keep);
      var idx := front + (if keep(xs[n]) then [n] else []);
      KeptIndicesStep(xs, keep, front, idx);
      idx
  }

  /** Positions into `xs`, strictly ascending, of rows satisfying `keep`. */
  ghost predicate Ascending<T>(idx: seq<int>, xs: seq<T>, keep: T -> bool)
  {
    && (forall k :: 0 <= k < |idx| ==> 0 <= idx[k] < |xs| && keep(xs[idx[k]]))
    && (forall k, l :: 0 <= k < l < |idx| ==> idx[k] < idx[l])
  }

  /** The position of the last occurrence of `x`, if any. */
  function LastIndex<T(==)>(xs: seq<T>, x: T): (r: Option<nat>)
    ensures r.Some? ==> r.value < |xs| && xs[r.value] == x && forall j :: r.value < j < |xs| ==> xs[j] != x
    ensures r.None? <==> x !in xs
    decreases |xs|
  {
    if |xs| == 0 then None
    else if xs[|xs| - 1] == x then Some(|xs| - 1)
    else LastIndex(xs[..|xs| - 1], x)
  }

  /** In a strictly ascending list of positions the last one is the largest. */
  lemma AscendingLastIsMax(idx: seq<int>)
    requires |idx| > 0
    requires forall k, l :: 0 <= k < l < |idx| ==> idx[k] < idx[l]
    ensures forall k :: 0 <= k < |idx| ==> idx[k] <= idx[|idx| - 1]
  {
  }

  /** No row after the last kept position is kept. */
  lemma KeptIndicesLast<T>(xs: seq<T>, keep: T -> bool, idx: seq<int>, j: int)
    requires idx == KeptIndices(xs, keep) && |idx| > 0
    requires idx[|idx| - 1] < j < |xs|
    ensures !keep(xs[j])
  {
    AscendingLastIsMax(idx);
    assert j !in idx;
  }

  /** Extending the kept positions of a prefix by the last row, when it is kept. */
  lemma KeptIndicesStep<T>(xs: seq<T>, keep: T -> bool, front: seq<int>, idx: seq<int>)
    requires |xs| > 0
    requires Ascending(front, xs[..|xs| - 1], keep)
    requires forall i :: 0 <= i < |xs| - 1 && keep(xs[..|xs| - 1][i]) ==> i in front
    requires |front| == |Positions(xs[..|xs| - 1], keep)|
    requires idx == front + (if keep(xs[|xs| - 1]) then [|xs| - 1] else [])
    ensures Ascending(idx, xs, keep)
    ensures forall i :: 0 <= i < |xs| && keep(xs[i]) ==> i in idx
    ensures |idx| == |Positions(xs, keep)|
  {
    var n := |xs| - 1;
    var init := xs[..n];
    PositionsSnoc(xs, keep);
    forall k | 0 <= k < |idx| ensures 0 <= idx[k] < |xs| && keep(xs[idx[k]]) {
      if k < |front| { assert init[front[k]] == xs[idx[k]]; }
    }
    forall i | 0 <= i < |xs| && keep(xs[i]) ensures i in idx {
      if i < n { assert init[i] == xs[i]; assert i in front; }
    }
  }

  /**
   * Extending a projection of the kept rows of a prefix by the last row,
   * when it is kept, gives the projection of the kept rows of the whole.
   */
  lemma KeptProjectionStep<T, U>(xs: seq<T>, keep: T -> bool, f: T -> U, init: seq<U>, r: seq<U>)
    requires |xs| > 0
    requires |init| == |KeptIndices(xs[..|xs| - 1], keep)|
    requires forall k :: 0 <= k < |init| ==> init[k] == f(xs[..|xs| - 1][KeptIndices(xs[..|xs| - 1], keep)[k]])
    requires r == if keep(xs[|xs| - 1]) then init + [f(xs[|xs| - 1])] else init
    ensures |r| == |KeptIndices(xs, keep)|
    ensures forall k :: 0 <= k < |r| ==> r[k] == f(xs[KeptIndices(xs, keep)[k]])
  {
    var n := |xs| - 1;
    var idx := KeptIndices(xs, keep);
    var fidx := KeptIndices(xs[..n], keep);
    assert idx == fidx + (if keep(xs[n]) then [n] else []);
    forall k | 0 <= k < |r| ensures r[k] == f(xs[idx[k]]) {
      if k < |init| {
        assert idx[k] == fidx[k];
        assert xs[..n][fidx[k]] == xs[idx[k]];
      }
    }
  }

  /** The kept positions of a sequence are those of its prefix, plus the last one when it is kept. */
  lemma PositionsSnoc<T>(xs: seq<T>, keep: T -> bool)
    requires |xs| > 0
    ensures Positions(xs, keep) == Positions(xs[..|xs| - 1], keep) + (if keep(xs[|xs| - 1]) then {|xs| - 1} else {})
    ensures |Positions(xs, keep)| == |Positions(xs[..|xs| - 1], keep)| + (if keep(xs[|xs| - 1]) then 1 else 0)
  {
    var n := |xs| - 1;
    assert forall i :: 0 <= i < n ==> xs[..n][i] == xs[i];
    assert n !in Positions(xs[..n], keep);
  }

  /** The rows satisfying `keep`, in order: a list comprehension with a condition. */
  function Select<T>(xs: seq<T>, keep: T -> bool): (r: seq<T>)
    ensures |r| <= |xs|
    ensures forall i :: 0 <= i < |r| ==> keep(r[i]) && r[i] in xs
    ensures forall i :: 0 <= i < |xs| && keep(xs[i]) ==> xs[i] in r
  {
    FilterInOrder(xs, keep);
    var r := Filter(xs, keep);
    var idx := KeptIndices(xs, keep);
    assert forall i :: 0 <= i < |r| ==> keep(r[i]) && r[i] in xs by {
      forall i | 0 <= i < |r|
        ensures keep(r[i]) && r[i] in xs
      {
        assert r[i] == xs[idx[i]];
      }
    }
    assert forall i :: 0 <= i < |xs| && keep(xs[i]) ==> xs[i] in r by {
      forall i | 0 <= i < |xs| && keep(xs[i])
        ensures xs[i] in r
      {
        var k :| 0 <= k < |idx| && idx[k] == i;
        assert r[k] == xs[i];
      }
    }
    r
  }

  /** The selection itself, kept apart from the membership facts `Select` states about it. */
  function Filter<T>(xs: seq<T>, keep: T -> bool): (r: seq<T>)
    ensures |r| <= |xs|
    decreases |xs|
  {
    if |xs| == 0 then []
    else Filter(xs[..|xs| - 1], keep) + (if keep(xs[|xs| - 1]) then [xs[|xs| - 1]] else [])
  }

  /** A selection lists the kept rows in their original order, each once. */
  lemma SelectInOrder<T>(xs: seq<T>, keep: T -> bool)
    ensures |Select(xs, keep)| == |KeptIndices(xs, keep)|
    ensures forall k :: 0 <= k < |Select(xs, keep)| ==> Select(xs, keep)[k] == xs[KeptIndices(xs, keep)[k]]
  {
    FilterInOrder(xs, keep);
  }

  lemma {:induction false} FilterInOrder<T>(xs: seq<T>, keep: T -> bool)
    ensures |Filter(xs, keep)| == |KeptIndices(xs, keep)|
    ensures forall k :: 0 <= k < |Filter(xs, keep)| ==> Filter(xs, keep)[k] == xs[KeptIndices(xs, keep)[k]]
    decreases |xs|
  {
    if |xs| > 0 {
      var n := |xs| - 1;
      FilterInOrder(xs[..n], keep);
      SelectStep(xs, xs[..n], keep, Filter(xs[..n], keep), Filter(xs, keep));
    }
  }

  /** Extending the selection of a prefix by the last row, when it is kept, keeps it in order. */
  lemma SelectStep<T>(xs: seq<T>, front: seq<T>, keep: T -> bool, init: seq<T>, r: seq<T>)
    requires |xs| > 0 && front == xs[..|xs| - 1]
    requires |init| == |KeptIndices(front, keep)|
    requires forall k :: 0 <= k < |init| ==> init[k] == front[KeptIndices(front, keep)[k]]
    requires r == init + (if keep(xs[|xs| - 1]) then [xs[|xs| - 1]] else [])
    ensures |r| == |KeptIndices(xs, keep)|
    ensures forall k :: 0 <= k < |r| ==> r[k] == xs[KeptIndices(xs, keep)[k]]
  {
    var n := |xs| - 1;
    var idx := KeptIndices(xs, keep);
    var fidx := KeptIndices(xs[..n], keep);
    assert idx == fidx + (if keep(xs[n]) then [n] else []);
    forall k | 0 <= k < |r| ensures r[k] == xs[idx[k]] {
      if k < |init| {
        assert idx[k] == fidx[k];
        assert xs[..n][fidx[k]] == xs[idx[k]];
      }
    }
  }

  /** A selection keeps every row that satisfies the condition. */
  lemma SelectKeepsAll<T>(xs: seq<T>, keep: T -> bool)
    requires forall i :: 0 <= i < |xs| ==> keep(xs[i])
    ensures Select(xs, keep) == xs
  {
    FilterKeepsAll(xs, keep);
  }

  lemma {:induction false} FilterKeepsAll<T>(xs: seq<T>, keep: T -> bool)
    requires forall i :: 0 <= i < |xs| ==> keep(xs[i])
    ensures Filter(xs, keep) == xs
    decreases |xs|
  {
    if |xs| > 0 {
      var init := xs[..|xs| - 1];
      assert forall i :: 0 <= i < |init| ==> init[i] == xs[i];
      FilterKeepsAll(init, keep);
      assert init + [xs[|xs| - 1]] == xs;
    }
  }

  /** Selecting twice with the same condition selects nothing more. */
  lemma SelectIdempotent<T>(xs: seq<T>, keep: T -> bool)
    ensures Select(Select(xs, keep), keep) == Select(xs, keep)
  {
    SelectKeepsAll(Select(xs, keep), keep);
  }
}

=== FILE: last_trades.dfy ===
/**
 * The query of the latest closed trades in the execution log: OPEN rows
 * with a price and a volume are paired with the CLOSE of their ticket, the
 * result is computed from the prices, and the newest trades come first.
 */
module LastTrades {
  import opened Wrappers
  import opened Num
  import Text
  import Sorting
  import opened ExecLog

  datatype Entry = Entry(
    symbol: string,
    direction: string,
    price: real,
    volume: real,
    signalReason: string,
    sessionId: string,
    strategyId: string)

  datatype Trade = Trade(
    time: int,
    sessionId: string,
    symbol: string,
    direction: string,
    volume: real,
    pnl: real,
    signalReason: string,
    strategyId: string)

  /**
   * The query's data-mode reading: unlike the report scripts, a cell of
   * blanks also counts as "live".
   */
  function QueryMode(row: Row): (m: string)
    ensures Text.Strip(CellText(row.dataMode)) == "" ==> m == "live"
  {
    var raw := CellText(row.dataMode);
    var m := Text.Lower(Text.Strip(if raw == "" then "live" else raw));
    if m == "" then "live" else m
  }

  /**
   * The two readings differ on a cell of blanks: the report scripts read it
   * as a mode of its own, which is not live, and the query reads it as live.
   */
  lemma BlankModeReadings(row: Row)
    requires row.dataMode == Some("  ")
    ensures DataMode(row) == "" && !Kept(row, false)
    ensures QueryMode(row) == "live"
  {
    assert Text.Strip("  ") == "";
  }

  /** `strategy_id or strategy_tag or default`, stripped after the choice. */
  function RowStrategy(row: Row, defaultStrategy: string): (s: string)
    ensures CellText(row.strategyId) != "" ==> s == Text.Strip(CellText(row.strategyId))
    ensures CellText(row.strategyId) == "" && CellText(row.strategyTag) != "" ==> s == Text.Strip(CellText(row.strategyTag))
    ensures CellText(row.strategyId) == "" && CellText(row.strategyTag) == "" ==> s == Text.Strip(defaultStrategy)
  {
    var id := CellText(row.strategyId);
    var tag := CellText(row.strategyTag);
    Text.Strip(if id != "" then id else if tag != "" then tag else defaultStrategy)
  }

  /** The query's parameters: `cutoff` is `now - max(hours, 0)` when a window is asked for, and an empty session matches all. */
  datatype Query = Query(cutoff: Option<real>, session: string, includeHistorical: bool, defaultStrategy: string)

  datatype Book = Book(open: map<string, Entry>, trades: seq<Trade>)

  /** Rows the query reads: live (unless historical rows are wanted) and of the requested session. */
  predicate Considered(row: Row, q: Query)
  {
    (q.includeHistorical || QueryMode(row) == "live")
    && (q.session == "" || Text.Strip(CellText(row.sessionId)) == q.session)
  }

  function TradeOf(entry: Entry, row: Row, t: int, exit: real, q: Query): Trade
  {
    var rowSession := Text.Strip(CellText(row.sessionId));
    var rowStrategy := RowStrategy(row, q.defaultStrategy);
    Trade(
      time := t,
      sessionId := if rowSession != "" then rowSession else entry.sessionId,
      symbol := entry.symbol,
      direction := entry.direction,
      volume := entry.volume,
      pnl := PnlFromPrices(entry.symbol, entry.direction, entry.price, exit, entry.volume),
      signalReason := entry.signalReason,
      strategyId := if entry.strategyId != "" then entry.strategyId else if rowStrategy != "" then rowStrategy else q.defaultStrategy)
  }

  /**
   * One row of `load_trades`. A row without a timestamp is skipped; one that
   * does not parse is an error. The event is compared as written.
   */
  function StepRow(b: Book, row: Row, q: Query): (r: Result<Book>)
    ensures row.stamp.Blank? ==> r == Ok(b)
    ensures r.Err? <==> row.stamp.Malformed?
    ensures r.Ok? && (row.stamp.Blank? || !Considered(row, q)) ==> r.value == b
    ensures r.Ok? ==> |b.trades| <= |r.value.trades| <= |b.trades| + 1
    ensures r.Ok? ==> r.value.trades[..|b.trades|] == b.trades
    // A new trade comes from a priced CLOSE, at or after the cutoff, of an open ticket, which it takes out.
    ensures r.Ok? && |r.value.trades| > |b.trades| ==>
      var t := ParseTimestamp(row.stamp).value;
      var ticket := CellText(row.ticket);
      Considered(row, q) && row.event == Some("CLOSE") && SafeFloat(row.price).Some?
      && (q.cutoff.None? || t as real >= q.cutoff.value)
      && ticket in b.open && r.value.open == b.open - {ticket}
      && r.value.trades[|b.trades|] == TradeOf(b.open[ticket], row, t, SafeFloat(row.price).value, q)
    // A priced OPEN with a volume stores its position under its ticket.
    ensures (r.Ok? && !row.stamp.Blank? && Considered(row, q) && row.event == Some("OPEN")
      && SafeFloat(row.price).Some? && SafeFloat(row.volume).Some?) ==>
      r.value.trades == b.trades && CellText(row.ticket) in r.value.open
    // Conversely, such a CLOSE always yields its trade.
    ensures (r.Ok? && !row.stamp.Blank? && Considered(row, q) && row.event == Some("CLOSE")
      && SafeFloat(row.price).Some? && CellText(row.ticket) in b.open
      && (q.cutoff.None? || ParseTimestamp(row.stamp).value as real >= q.cutoff.value)) ==>
      r.value == Book(b.open - {CellText(row.ticket)},
                      b.trades + [TradeOf(b.open[CellText(row.ticket)], row, ParseTimestamp(row.stamp).value, SafeFloat(row.price).value, q)])
    // Events other than OPEN and CLOSE change nothing.
    ensures r.Ok? && row.event != Some("OPEN") && row.event != Some("CLOSE") ==> r.value == b
  {
    if row.stamp.Blank? then Ok(b)
    else
      var t :- ParseTimestamp(row.stamp);
      if !Considered(row, q) then Ok(b)
      else
        var ticket := CellText(row.ticket);
        var price := SafeFloat(row.price);
        var volume := SafeFloat(row.volume);
        if row.event == Some("OPEN") && price.Some? && volume.Some? then
          var entry := Entry(
            symbol := CellText(row.symbol),
            direction := CellText(row.direction),
            price := price.value,
            volume := volume.value,
            signalReason := CellText(row.signalReason),
            sessionId := Text.Strip(CellText(row.sessionId)),
            strategyId := RowStrategy(row, q.defaultStrategy));
          Ok(b.(open := b.open[ticket := entry]))
        else if row.event == Some("CLOSE") && price.Some? then
          if q.cutoff.Some? && (t as real) < q.cutoff.value then Ok(b)
          else if ticket !in b.open then Ok(b)
          else Ok(Book(b.open - {ticket}, b.trades + [TradeOf(b.open[ticket], row, t, price.value, q)]))
        else Ok(b)
  }

  /** The pass over the rows in log order; the first malformed timestamp stops it. */
  function ScanRows(rows: seq<Row>, q: Query): (r: Result<Book>)
    ensures r.Err? <==> exists i :: 0 <= i < |rows| && rows[i].stamp.Malformed?
    ensures r.Ok? ==> |r.value.trades| <= |rows|
    decreases |rows|
  {
    if |rows| == 0 then Ok(Book(map[], []))
    else
      var init := rows[..|rows| - 1];
      MalformedSnoc(rows, init);
      var b :- ScanRows(init, q);
      StepRow(b, rows[|rows| - 1], q)
  }

  /** Some row is malformed exactly when one of the earlier rows or the last row is. */
  lemma MalformedSnoc(rows: seq<Row>, init: seq<Row>)
    requires |rows| > 0 && init == rows[..|rows| - 1]
    ensures (exists i :: 0 <= i < |rows| && rows[i].stamp.Malformed?) <==>
      (exists i :: 0 <= i < |init| && init[i].stamp.Malformed?) || rows[|rows| - 1].stamp.Malformed?
  {
    assert forall i :: 0 <= i < |init| ==> init[i] == rows[i];
  }

  /** With a session asked for, every trade reported belongs to it. */
  lemma {:induction false} TradesOfSession(rows: seq<Row>, q: Query)
    requires ScanRows(rows, q).Ok? && q.session != ""
    ensures forall i :: 0 <= i < |ScanRows(rows, q).value.trades| ==> ScanRows(rows, q).value.trades[i].sessionId == q.session
    decreases |rows|
  {
    if |rows| > 0 {
      var b := ScanRows(rows[..|rows| - 1], q).value;
      TradesOfSession(rows[..|rows| - 1], q);
      var r := StepRow(b, rows[|rows| - 1], q).value;
      forall i | 0 <= i < |r.trades|
        ensures r.trades[i].sessionId == q.session
      {
        if i < |b.trades| {
          assert r.trades[i] == r.trades[..|b.trades|][i];
        }
      }
    }
  }

  /** With a cutoff, every trade reported closed at or after it. */
  lemma {:induction false} TradesAfterCutoff(rows: seq<Row>, q: Query)
    requires ScanRows(rows, q).Ok? && q.cutoff.Some?
    ensures forall i :: 0 <= i < |ScanRows(rows, q).value.trades| ==> ScanRows(rows, q).value.trades[i].time as real >= q.cutoff.value
    decreases |rows|
  {
    if |rows| > 0 {
      var b := ScanRows(rows[..|rows| - 1], q).value;
      TradesAfterCutoff(rows[..|rows| - 1], q);
      var r := StepRow(b, rows[|rows| - 1], q).value;
      forall i | 0 <= i < |r.trades|
        ensures r.trades[i].time as real >= q.cutoff.value
      {
        if i < |b.trades| {
          assert r.trades[i] == r.trades[..|b.trades|][i];
        }
      }
    }
  }

  /** Newest first: the sort key is the negated close time, so a stable ascending sort keeps ties in log order. */
  function NewestFirst(t: Trade): real
  {
    -(t.time as real)
  }

  /**
   * `load_trades`: the closed trades, newest first, cut to `max(0, limit)`.
   * `logExists` says whether the log file is on disk; a missing log is a
   * FileNotFoundError naming `path`, raised before any row is read.
   */
  function LoadTrades(path: string, logExists: bool, rows: seq<Row>, q: Query, limit: int): (r: Result<seq<Trade>>)
    ensures !logExists ==> r == Err(FileNotFoundError(path))
    ensures r.Ok? <==> logExists && ScanRows(rows, q).Ok?
    ensures r.Ok? ==> |r.value| == IMin(|ScanRows(rows, q).value.trades|, IMax(0, limit))
    ensures r.Ok? ==> forall i, j :: 0 <= i < j < |r.value| ==> r.value[j].time <= r.value[i].time
    ensures r.Ok? ==> multiset(r.value) <= multiset(ScanRows(rows, q).value.trades)
    // Nothing left out is newer than what is shown.
    ensures r.Ok? ==> var all := Sorting.SortBy(ScanRows(rows, q).value.trades, NewestFirst);
      r.value == all[..|r.value|]
      && forall i, j :: 0 <= i < |r.value| <= j < |all| ==> all[j].time <= r.value[i].time
  {
    if !logExists then Err(FileNotFoundError(path)) else
    var b :- ScanRows(rows, q);
    Sorting.SmallestFirst(b.trades, NewestFirst, IMax(0, limit));
    Ok(Sorting.Head(Sorting.SortBy(b.trades, NewestFirst), IMax(0, limit)))
  }
}

=== FILE: legacy_capital_plan.dfy ===
/**
 * The single-plan capital simulation of scripts/legacy/run_capital_plan_sim.py.
 * Funded payout records are bucketed into 21-trading-day months; a campaign
 * launches waves of evaluations while its bankroll can pay for them, dying at
 * the first wave it cannot afford; the scheduled withdrawals and
 * reinvestments are then settled month by month. The random draws are inputs.
 */
module LegacyCapitalPlan {
  import opened Wrappers
  import opened Num
  import Text
  import opened CapitalPolicy

  // ---------------------------------------------------------------------
  // Funded payout records
  // ---------------------------------------------------------------------

  /** A field of a payout record: absent, convertible by `float()`, or not convertible. */
  datatype Field = Missing | Number(value: real) | Unconvertible

  /** One element of a parsed payout list: a dict with `day` and `amount`, or something else. */
  datatype Entry = Record(day: Field, amount: Field) | NotADict

  /** A CSV cell: a string, or any other value (pandas' NaN for an empty cell). */
  datatype Cell = StrCell(s: string) | OtherCell

  /** What `ast.literal_eval` makes of a string: a list, another literal, or a parse error. */
  datatype Literal = ListLiteral(entries: seq<Entry>) | OtherLiteral | Malformed

  predicate NonBlank(cell: Cell)
  {
    cell.StrCell? && Text.Strip(cell.s) != ""
  }

  /**
   * The payout list of a cell, given what the literal evaluator makes of it:
   * a non-blank string that evaluates to a list yields that list, anything
   * else yields no payouts.
   */
  function ParsePayouts(cell: Cell, parsed: Literal): (r: seq<Entry>)
    ensures r != [] ==> NonBlank(cell) && parsed == ListLiteral(r)
    ensures !NonBlank(cell) || !parsed.ListLiteral? ==> r == []
  {
    if NonBlank(cell) && parsed.ListLiteral? then parsed.entries else []
  }

  /** Every list a non-blank cell evaluates to is kept whole. */
  lemma ParsePayoutsKeepsLists(cell: Cell, entries: seq<Entry>)
    requires NonBlank(cell)
    ensures ParsePayouts(cell, ListLiteral(entries)) == entries
  {
  }

  /** `float(entry.get(key, 0.0))`, None when the conversion raises. */
  function FieldValue(f: Field): (r: Option<real>)
    ensures f.Missing? ==> r == Some(0.0)
    ensures r.None? <==> f.Unconvertible?
  {
    match f
    case Missing => Some(0.0)
    case Number(v) => Some(v)
    case Unconvertible => None
  }

  /** The 21-trading-day month of a day: `int(day // 21.0)`. */
  function MonthOf(day: real): (m: int)
    ensures 21.0 * m as real <= day < 21.0 * (m as real + 1.0)
  {
    (day / 21.0).Floor
  }

  /** The month and amount a record contributes, when both fields convert. */
  function Contribution(e: Entry): Option<(int, real)>
    requires e.Record?
  {
    match (FieldValue(e.day), FieldValue(e.amount))
    case (Some(d), Some(a)) => Some((MonthOf(d), a))
    case _ => None
  }

  /** The reference: the amounts of all records landing in month m. */
  function MonthTotal(entries: seq<Entry>, m: int): real
    requires forall i :: 0 <= i < |entries| ==> entries[i].Record?
  {
    if |entries| == 0 then 0.0
    else
      var e := entries[|entries| - 1];
      MonthTotal(entries[..|entries| - 1], m)
        + (match Contribution(e) case Some((k, a)) => if k == m then a else 0.0 case None => 0.0)
  }

  /**
   * Bucketing payout records into a horizon of `horizon` months. A record
   * that is not a dict makes `.get` raise; a record whose fields do not
   * convert is skipped; a month outside the horizon is dropped.
   */
  function PayoutsToMonthly(entries: seq<Entry>, horizon: int): (r: Result<seq<real>>)
    ensures r.Err? <==> exists i :: 0 <= i < |entries| && entries[i].NotADict?
    ensures r.Ok? ==> |r.value| == IMax(0, horizon)
    decreases |entries|
  {
    if |entries| == 0 then Ok(Zeros(IMax(0, horizon)))
    else
      var e := entries[|entries| - 1];
      match PayoutsToMonthly(entries[..|entries| - 1], horizon)
      case Err(err) => Err(err)
      case Ok(arr) =>
        if e.NotADict? then Err(AttributeError("get"))
        else
          match Contribution(e)
          case Some((m, a)) => if 0 <= m < horizon then Ok(arr[m := arr[m] + a]) else Ok(arr)
          case None => Ok(arr)
  }

  /** Each month of the result holds exactly the amounts of the records landing in it. */
  lemma {:induction false} PayoutsToMonthlyPointwise(entries: seq<Entry>, horizon: int)
    requires forall i :: 0 <= i < |entries| ==> entries[i].Record?
    ensures PayoutsToMonthly(entries, horizon).Ok?
    ensures forall m :: 0 <= m < horizon ==> PayoutsToMonthly(entries, horizon).value[m] == MonthTotal(entries, m)
    decreases |entries|
  {
    if |entries| > 0 {
      PayoutsToMonthlyPointwise(entries[..|entries| - 1], horizon);
    }
  }

  /** Records landing outside the horizon are dropped: the months sum to the in-horizon amounts. */
  lemma {:induction false} PayoutsToMonthlyTotal(entries: seq<Entry>, horizon: int)
    requires forall i :: 0 <= i < |entries| ==> entries[i].Record?
    ensures PayoutsToMonthly(entries, horizon).Ok?
    ensures Sum(PayoutsToMonthly(entries, horizon).value) == InHorizonTotal(entries, horizon)
    decreases |entries|
  {
    if |entries| == 0 {
      SumZeros(IMax(0, horizon));
    } else {
      var prefix := entries[..|entries| - 1];
      PayoutsToMonthlyTotal(prefix, horizon);
      var arr := PayoutsToMonthly(prefix, horizon).value;
      match Contribution(entries[|entries| - 1])
      case Some((m, a)) =>
        if 0 <= m < horizon {
          SumAddAt(arr, m, a);
        }
      case None =>
    }
  }

  /** The amounts of all convertible records whose month lies in [0, horizon). */
  function InHorizonTotal(entries: seq<Entry>, horizon: int): real
    requires forall i :: 0 <= i < |entries| ==> entries[i].Record?
  {
    if |entries| == 0 then 0.0
    else
      InHorizonTotal(entries[..|entries| - 1], horizon)
        + (match Contribution(entries[|entries| - 1]) case Some((m, a)) => if 0 <= m < horizon then a else 0.0 case None => 0.0)
  }

  // ---------------------------------------------------------------------
  // Arguments
  // ---------------------------------------------------------------------

  datatype Args = Args(
    months: int,
    evalsPerWave: int,
    wavesPerMonth: int,
    evalFee: real,
    initialBankroll: real,
    riskBudgetFraction: real,
    reinvestFraction: real,
    mode: Mode,
    feederEvalFee: Option<real>,
    largeEvalFee: real,
    stage2Trigger: real,
    stage1MonthLimit: real,
    largeFraction: real)

  /** The command-line defaults. */
  const DefaultArgs: Args := Args(12, 4, 1, 300.0, 1000.0, 1.0, 0.2, Basic, None, 350.0, 10000.0, 6.0, 0.5)

  predicate IsFraction(x: real) { 0.0 <= x <= 1.0 }

  /**
   * The checks `main` makes before simulating, in order: the reinvest
   * fraction, the risk budget, and for PLAN_D the large fraction must lie in
   * [0, 1].
   */
  function Validate(a: Args): (r: Result<()>)
    ensures r.Ok? <==> IsFraction(a.reinvestFraction) && IsFraction(a.riskBudgetFraction)
                        && (a.mode == PlanD ==> IsFraction(a.largeFraction))
    ensures !IsFraction(a.reinvestFraction) ==> r == Err(ValueError("reinvest_fraction must be between 0 and 1."))
    ensures IsFraction(a.reinvestFraction) && !IsFraction(a.riskBudgetFraction) ==>
      r == Err(ValueError("risk_budget_fraction must be between 0 and 1."))
  {
    if !IsFraction(a.reinvestFraction) then Err(ValueError("reinvest_fraction must be between 0 and 1."))
    else if !IsFraction(a.riskBudgetFraction) then Err(ValueError("risk_budget_fraction must be between 0 and 1."))
    else if a.mode == PlanD && !IsFraction(a.largeFraction) then Err(ValueError("plan_d_large_fraction must be between 0 and 1."))
    else Ok(())
  }

  /** The feeder fee: the explicit one when given, else the baseline fee. */
  function FeederFee(a: Args): real
  {
    match a.feederEvalFee
    case Some(f) => f
    case None => a.evalFee
  }

  // ---------------------------------------------------------------------
  // The wave loop
  // ---------------------------------------------------------------------

  /**
   * The composition as this script writes it, with an extra guard against a
   * negative feeder count.
   */
  function LegacyCompose(evals: int, fraction: real): (c: Composition)
    ensures c == Compose(evals, fraction)
  {
    var large := IMax(0, IMin(RoundHalfEven(evals as real * fraction), evals));
    var feeder := evals - large;
    var feeder' := if feeder < 0 then 0 else feeder;
    if feeder' + large == 0 then Composition(evals, 0) else Composition(feeder', large)
  }

  /** The loop's variables. `stopped` records a `break`. */
  datatype Campaign = Campaign(
    bankroll: real,
    withdrawn: seq<real>,
    reinvest: seq<real>,
    death: bool,
    stopped: bool,
    stage2: bool,
    evalsLaunched: int,
    wavesLaunched: nat)

  predicate CampaignShaped(c: Campaign)
  {
    |c.withdrawn| == |c.reinvest|
  }

  /** No schedule entry is negative. */
  predicate NonNegativeSchedules(c: Campaign)
  {
    forall m :: 0 <= m < |c.withdrawn| ==> c.withdrawn[m] >= 0.0 && (m < |c.reinvest| ==> c.reinvest[m] >= 0.0)
  }

  /**
   * One evaluation: a pass that finishes before the horizon spreads its
   * payout series from its finishing month on.
   */
  function ProcessEval(c: Campaign, months: int, waveTime: real, f: real, d: EvalDraw): (r: Campaign)
    requires CampaignShaped(c) && |c.withdrawn| == months && waveTime >= 0.0 && ValidDraw(d)
    ensures CampaignShaped(r) && |r.withdrawn| == months
    ensures r == c.(withdrawn := r.withdrawn, reinvest := r.reinvest)
    ensures !d.passed || waveTime + d.days / 21.0 >= months as real ==> r == c
  {
    var finish := waveTime + d.days / 21.0;
    if !d.passed || finish >= months as real then c
    else
      assert d.days / 21.0 >= 0.0;
      var s := Spread(Schedules(c.withdrawn, c.reinvest), finish.Floor, d.series, f, 0);
      c.(withdrawn := s.withdraw, reinvest := s.reinvest)
  }

  /**
   * Nothing is lost or invented: an evaluation that passes in time adds to
   * the schedules exactly the positive amounts of its series that land
   * within the horizon.
   */
  lemma ProcessEvalConserves(c: Campaign, months: int, waveTime: real, f: real, d: EvalDraw)
    requires CampaignShaped(c) && |c.withdrawn| == months && waveTime >= 0.0 && ValidDraw(d)
    requires d.passed && waveTime + d.days / 21.0 < months as real
    ensures var r := ProcessEval(c, months, waveTime, f, d);
      Sum(r.withdrawn) + Sum(r.reinvest)
        == Sum(c.withdrawn) + Sum(c.reinvest) + InHorizon(d.series, (waveTime + d.days / 21.0).Floor, 0, months)
  {
    assert d.days / 21.0 >= 0.0;
    SpreadConserves(Schedules(c.withdrawn, c.reinvest), (waveTime + d.days / 21.0).Floor, d.series, f, 0);
  }

  function ProcessEvals(c: Campaign, months: int, waveTime: real, f: real, draws: Draws, w: nat, n: nat): (r: Campaign)
    requires CampaignShaped(c) && |c.withdrawn| == months && waveTime >= 0.0 && ValidDraws(draws)
    ensures CampaignShaped(r) && |r.withdrawn| == months
    ensures r == c.(withdrawn := r.withdrawn, reinvest := r.reinvest)
  {
    if n == 0 then c else ProcessEval(ProcessEvals(c, months, waveTime, f, draws, w, n - 1), months, waveTime, f, draws(w, n - 1))
  }

  /** The composition and cost of a wave once the stage is known. */
  function WaveMixOf(a: Args, stage2: bool): (c: Composition)
    ensures c.feeder + c.large == a.evalsPerWave
  {
    if a.mode == PlanD then LegacyCompose(a.evalsPerWave, if stage2 then a.largeFraction else 0.0)
    else Composition(a.evalsPerWave, 0)
  }

  function LegacyWaveCost(a: Args, stage2: bool): real
  {
    var c := WaveMixOf(a, stage2);
    if a.mode == PlanD then c.feeder as real * FeederFee(a) + c.large as real * a.largeEvalFee
    else c.feeder as real * a.evalFee
  }

  /**
   * Wave `w`, given the withdrawals `realised` so far as the stage-2 check
   * sees them. A wave past the horizon stops the loop; a wave whose cost
   * exceeds the risk budget or the bankroll kills the campaign and stops it.
   */
  function WaveStep(a: Args, c: Campaign, w: nat, draws: Draws, realised: real): (r: Campaign)
    requires a.wavesPerMonth > 0 && CampaignShaped(c) && |c.withdrawn| == a.months && ValidDraws(draws)
    ensures CampaignShaped(r) && |r.withdrawn| == a.months
    ensures c.stopped ==> r == c
    ensures c.death ==> r.death
    ensures r.wavesLaunched == c.wavesLaunched ==> r.evalsLaunched == c.evalsLaunched
    ensures r.wavesLaunched != c.wavesLaunched ==>
      r.wavesLaunched == c.wavesLaunched + 1 && r.evalsLaunched == c.evalsLaunched + a.evalsPerWave
  {
    if c.stopped then c
    else
      var t := w as real / a.wavesPerMonth as real;
      if t >= a.months as real then c.(stopped := true)
      else if t.Floor >= |c.withdrawn| then c.(stopped := true)
      else
        var stage2 := if a.mode == PlanD then c.stage2 || realised >= a.stage2Trigger || t >= a.stage1MonthLimit else c.stage2;
        var mix := WaveMixOf(a, stage2);
        var cost := LegacyWaveCost(a, stage2);
        if cost > a.riskBudgetFraction * c.bankroll || cost > c.bankroll then
          c.(stage2 := stage2, death := true, stopped := true)
        else
          Launch(a, c, t, stage2, draws, w)
  }

  /** A wave that goes ahead: its fees leave the bankroll and its evaluations are processed. */
  function Launch(a: Args, c: Campaign, t: real, stage2: bool, draws: Draws, w: nat): (r: Campaign)
    requires CampaignShaped(c) && |c.withdrawn| == a.months && t >= 0.0 && ValidDraws(draws)
    ensures CampaignShaped(r) && |r.withdrawn| == a.months
    ensures r.wavesLaunched == c.wavesLaunched + 1 && r.evalsLaunched == c.evalsLaunched + a.evalsPerWave
    ensures r.bankroll == c.bankroll - LegacyWaveCost(a, stage2)
    ensures !r.stopped ==> !c.stopped
    ensures c.death ==> r.death
  {
    var mix := WaveMixOf(a, stage2);
    var launched := c.(stage2 := stage2, bankroll := c.bankroll - LegacyWaveCost(a, stage2),
                       evalsLaunched := c.evalsLaunched + mix.feeder + mix.large,
                       wavesLaunched := c.wavesLaunched + 1);
    ProcessEvals(launched, a.months, t, a.reinvestFraction, draws, w, IMax(0, mix.feeder + mix.large))
  }

  /** The withdrawals scheduled through the month a wave starts in. */
  function RealisedThrough(c: Campaign, w: nat, a: Args): real
    requires a.wavesPerMonth > 0
  {
    var m := (w as real / a.wavesPerMonth as real).Floor;
    if 0 <= m < |c.withdrawn| then Sum(c.withdrawn[..m + 1]) else Sum(c.withdrawn)
  }

  /**
   * The first n waves. As written, the stage-2 check reads the running
   * withdrawal total, which the script only accumulates after the wave loop,
   * so it is always 0 there; the corrected loop reads the withdrawals
   * scheduled through the wave's month.
   */
  function Waves(a: Args, draws: Draws, n: nat, corrected: bool): (c: Campaign)
    requires a.wavesPerMonth > 0 && a.months >= 0 && ValidDraws(draws)
    ensures CampaignShaped(c) && |c.withdrawn| == a.months
    ensures c.wavesLaunched <= n
  {
    if n == 0 then Campaign(a.initialBankroll, Zeros(a.months), Zeros(a.months), false, false, false, 0, 0)
    else
      var c := Waves(a, draws, n - 1, corrected);
      WaveStep(a, c, n - 1, draws, if corrected then RealisedThrough(c, n - 1, a) else 0.0)
  }

  /** The number of waves: `int(months * waves_per_month)`, none when it is not positive. */
  function WaveCount(a: Args): nat
  {
    if a.months * a.wavesPerMonth > 0 then a.months * a.wavesPerMonth else 0
  }

  /** The campaign as the script runs it. */
  function RunCampaignAsWritten(a: Args, draws: Draws): (c: Campaign)
    requires a.wavesPerMonth > 0 && a.months >= 0 && ValidDraws(draws)
    ensures CampaignShaped(c) && |c.withdrawn| == a.months
    ensures c.wavesLaunched <= WaveCount(a)
  {
    Waves(a, draws, WaveCount(a), false)
  }

  /** The campaign with the stage-2 payout trigger reading the realised withdrawals. */
  function RunCampaign(a: Args, draws: Draws): (c: Campaign)
    requires a.wavesPerMonth > 0 && a.months >= 0 && ValidDraws(draws)
    ensures CampaignShaped(c) && |c.withdrawn| == a.months
    ensures c.wavesLaunched <= WaveCount(a)
  {
    Waves(a, draws, WaveCount(a), true)
  }

  /**
   * As written, a positive withdrawal trigger can never switch stage 2 on:
   * with the month limit at or past the horizon a campaign stays in stage 1
   * whatever it withdraws.
   */
  lemma {:induction false} AsWrittenNeverStage2(a: Args, draws: Draws, n: nat)
    requires a.wavesPerMonth > 0 && a.months >= 0 && ValidDraws(draws)
    requires a.stage2Trigger > 0.0 && a.stage1MonthLimit >= a.months as real
    ensures !Waves(a, draws, n, false).stage2
  {
    if n > 0 {
      AsWrittenNeverStage2(a, draws, n - 1);
    }
  }

  /**
   * As written, a campaign whose month limit lies at or past the horizon
   * never reaches stage 2 while the withdrawal trigger is positive.
   */
  lemma AsWrittenIgnoresPayouts(a: Args, draws: Draws)
    requires a.wavesPerMonth > 0 && a.months >= 0 && ValidDraws(draws)
    requires a.stage2Trigger > 0.0 && a.stage1MonthLimit >= a.months as real
    ensures !RunCampaignAsWritten(a, draws).stage2
  {
    AsWrittenNeverStage2(a, draws, WaveCount(a));
  }

  /**
   * The discrepancy on one wave: a campaign whose scheduled withdrawals have
   * reached the trigger by the wave's month enters stage 2 when corrected,
   * and stays in stage 1 as written.
   */
  lemma TriggerDiscrepancy(a: Args, c: Campaign, w: nat, draws: Draws)
    requires a.wavesPerMonth > 0 && CampaignShaped(c) && |c.withdrawn| == a.months && ValidDraws(draws)
    requires a.mode == PlanD && !c.stopped && !c.stage2
    requires w as real / a.wavesPerMonth as real < a.months as real
    requires a.stage2Trigger > 0.0 && a.stage1MonthLimit >= a.months as real
    requires RealisedThrough(c, w, a) >= a.stage2Trigger
    ensures WaveStep(a, c, w, draws, RealisedThrough(c, w, a)).stage2
    ensures !WaveStep(a, c, w, draws, 0.0).stage2
  {
  }

  // ---------------------------------------------------------------------
  // Properties of the wave loop
  // ---------------------------------------------------------------------

  /**
   * Once a campaign has stopped (in particular once it has died) no later
   * wave changes it.
   */
  lemma {:induction false} StoppedStaysStopped(a: Args, draws: Draws, n: nat, m: nat, corrected: bool)
    requires a.wavesPerMonth > 0 && a.months >= 0 && ValidDraws(draws)
    requires n <= m && Waves(a, draws, n, corrected).stopped
    ensures Waves(a, draws, m, corrected) == Waves(a, draws, n, corrected)
    decreases m - n
  {
    if n < m {
      StoppedStaysStopped(a, draws, n, m - 1, corrected);
    }
  }

  /** Every launched wave launches exactly the configured number of evaluations. */
  lemma {:induction false} EvalsPerLaunchedWave(a: Args, draws: Draws, n: nat, corrected: bool)
    requires a.wavesPerMonth > 0 && a.months >= 0 && ValidDraws(draws)
    ensures Waves(a, draws, n, corrected).evalsLaunched == Waves(a, draws, n, corrected).wavesLaunched * a.evalsPerWave
  {
    if n > 0 {
      EvalsPerLaunchedWave(a, draws, n - 1, corrected);
      var c := Waves(a, draws, n - 1, corrected);
      WaveStepEvals(a, c, n - 1, draws, if corrected then RealisedThrough(c, n - 1, a) else 0.0);
    }
  }

  /** One wave step keeps the evaluations at the configured number per launched wave. */
  lemma WaveStepEvals(a: Args, c: Campaign, w: nat, draws: Draws, realised: real)
    requires a.wavesPerMonth > 0 && CampaignShaped(c) && |c.withdrawn| == a.months && ValidDraws(draws)
    requires c.evalsLaunched == c.wavesLaunched * a.evalsPerWave
    ensures var r := WaveStep(a, c, w, draws, realised);
      r.evalsLaunched == r.wavesLaunched * a.evalsPerWave
  {
    MulSucc(c.wavesLaunched, a.evalsPerWave);
  }

  lemma MulSucc(k: int, e: int)
    ensures (k + 1) * e == k * e + e
  {
  }

  /** A wave either launches and leaves a non-negative bankroll, or leaves the bankroll alone. */
  lemma {:induction false} WavesKeepBankroll(a: Args, draws: Draws, n: nat, corrected: bool)
    requires a.wavesPerMonth > 0 && a.months >= 0 && ValidDraws(draws)
    requires a.initialBankroll >= 0.0
    ensures Waves(a, draws, n, corrected).bankroll >= 0.0
  {
    if n > 0 {
      WavesKeepBankroll(a, draws, n - 1, corrected);
      var c := Waves(a, draws, n - 1, corrected);
      assert c.bankroll >= 0.0;
    }
  }

  /** With the reinvest fraction in [0, 1] the schedules never hold a negative entry. */
  lemma {:induction false} WavesScheduleNonNegative(a: Args, draws: Draws, n: nat, corrected: bool)
    requires a.wavesPerMonth > 0 && a.months >= 0 && ValidDraws(draws) && IsFraction(a.reinvestFraction)
    ensures NonNegativeSchedules(Waves(a, draws, n, corrected))
  {
    if n > 0 {
      WavesScheduleNonNegative(a, draws, n - 1, corrected);
      var c := Waves(a, draws, n - 1, corrected);
      WaveStepScheduleNonNegative(a, c, n - 1, draws, if corrected then RealisedThrough(c, n - 1, a) else 0.0);
    }
  }

  lemma WaveStepScheduleNonNegative(a: Args, c: Campaign, w: nat, draws: Draws, realised: real)
    requires a.wavesPerMonth > 0 && CampaignShaped(c) && |c.withdrawn| == a.months && ValidDraws(draws)
    requires IsFraction(a.reinvestFraction)
    requires NonNegativeSchedules(c)
    ensures NonNegativeSchedules(WaveStep(a, c, w, draws, realised))
  {
    if !c.stopped {
      var t := w as real / a.wavesPerMonth as real;
      if t < a.months as real && t.Floor < |c.withdrawn| {
        var stage2 := if a.mode == PlanD then c.stage2 || realised >= a.stage2Trigger || t >= a.stage1MonthLimit else c.stage2;
        LaunchNonNegative(a, c, t, stage2, draws, w);
      }
    }
  }

  lemma LaunchNonNegative(a: Args, c: Campaign, t: real, stage2: bool, draws: Draws, w: nat)
    requires CampaignShaped(c) && |c.withdrawn| == a.months && t >= 0.0 && ValidDraws(draws)
    requires IsFraction(a.reinvestFraction)
    requires NonNegativeSchedules(c)
    ensures NonNegativeSchedules(Launch(a, c, t, stage2, draws, w))
  {
    var mix := WaveMixOf(a, stage2);
    var launched := c.(stage2 := stage2, bankroll := c.bankroll - LegacyWaveCost(a, stage2),
                       evalsLaunched := c.evalsLaunched + mix.feeder + mix.large,
                       wavesLaunched := c.wavesLaunched + 1);
    ProcessEvalsNonNegative(launched, a.months, t, a.reinvestFraction, draws, w, IMax(0, mix.feeder + mix.large));
  }

  lemma {:induction false} ProcessEvalsNonNegative(c: Campaign, months: int, waveTime: real, f: real, draws: Draws, w: nat, n: nat)
    requires CampaignShaped(c) && |c.withdrawn| == months && waveTime >= 0.0 && ValidDraws(draws) && IsFraction(f)
    requires NonNegativeSchedules(c)
    ensures NonNegativeSchedules(ProcessEvals(c, months, waveTime, f, draws, w, n))
  {
    if n > 0 {
      ProcessEvalsNonNegative(c, months, waveTime, f, draws, w, n - 1);
      var p := ProcessEvals(c, months, waveTime, f, draws, w, n - 1);
      var d := draws(w, n - 1);
      var finish := waveTime + d.days / 21.0;
      if d.passed && finish < months as real {
        assert d.days / 21.0 >= 0.0;
        SpreadKeepsNonNegative(Schedules(p.withdrawn, p.reinvest), finish.Floor, d.series, f, 0);
      }
    }
  }

  // ---------------------------------------------------------------------
  // Settling the months
  // ---------------------------------------------------------------------

  datatype Settlement = Settlement(withdrawnTotal: real, bankroll: real, breach: bool)

  /**
   * The month loop over the first n months: withdrawals add to the total,
   * reinvestments to the bankroll, and a bankroll below zero is a breach.
   */
  function SettleMonths(bankroll: real, death: bool, ws: seq<real>, rs: seq<real>, n: nat): (r: Settlement)
    requires |ws| == |rs| && n <= |ws|
    ensures r.withdrawnTotal == Sum(ws[..n])
    ensures r.bankroll == bankroll + Sum(rs[..n])
    ensures death ==> r.breach
  {
    if n == 0 then Settlement(0.0, bankroll, death)
    else
      var s := SettleMonths(bankroll, death, ws, rs, n - 1);
      assert ws[..n] == ws[..n - 1] + [ws[n - 1]];
      assert rs[..n] == rs[..n - 1] + [rs[n - 1]];
      SumAppend(ws[..n - 1], ws[n - 1]);
      SumAppend(rs[..n - 1], rs[n - 1]);
      var b := s.bankroll + rs[n - 1];
      Settlement(s.withdrawnTotal + ws[n - 1], b, s.breach || b < 0.0)
  }

  /** A breach in the month loop is a month whose running bankroll fell below zero. */
  lemma {:induction false} BreachWhen(bankroll: real, death: bool, ws: seq<real>, rs: seq<real>, n: nat)
    requires |ws| == |rs| && n <= |ws|
    ensures SettleMonths(bankroll, death, ws, rs, n).breach <==>
      death || exists k :: 1 <= k <= n && bankroll + Sum(rs[..k]) < 0.0
  {
    if n > 0 {
      BreachWhen(bankroll, death, ws, rs, n - 1);
      var s := SettleMonths(bankroll, death, ws, rs, n - 1);
      var r := SettleMonths(bankroll, death, ws, rs, n);
      assert r.bankroll == s.bankroll + rs[n - 1];
      assert r.breach == (s.breach || r.bankroll < 0.0);
      assert r.bankroll == bankroll + Sum(rs[..n]);
    }
  }

  /**
   * With a non-negative bankroll and non-negative reinvestments the month
   * loop never finds a breach: only an unaffordable wave kills a campaign.
   */
  lemma NoBreachFromReinvestments(bankroll: real, death: bool, ws: seq<real>, rs: seq<real>)
    requires |ws| == |rs| && bankroll >= 0.0
    requires forall m :: 0 <= m < |rs| ==> rs[m] >= 0.0
    ensures SettleMonths(bankroll, death, ws, rs, |ws|).breach == death
  {
    BreachWhen(bankroll, death, ws, rs, |ws|);
    forall k | 1 <= k <= |ws|
      ensures bankroll + Sum(rs[..k]) >= 0.0
    {
      SumNonNegative(rs[..k]);
    }
  }

  /** The first month, counted from 1, by whose end the withdrawals reach `t`. */
  function FirstReach(ws: seq<real>, t: real, k: nat): (r: Option<nat>)
    requires k <= |ws|
    ensures r.Some? ==> k < r.value <= |ws| && Sum(ws[..r.value]) >= t
    ensures r.Some? ==> forall j :: k < j < r.value ==> Sum(ws[..j]) < t
    ensures r.None? ==> forall j :: k < j <= |ws| ==> Sum(ws[..j]) < t
    decreases |ws| - k
  {
    if k == |ws| then None
    else if Sum(ws[..k + 1]) >= t then Some(k + 1)
    else FirstReach(ws, t, k + 1)
  }

  /** A lower milestone is reached no later than a higher one. */
  lemma FirstReachOrdered(ws: seq<real>, t: real, u: real)
    requires t <= u
    ensures FirstReach(ws, u, 0).Some? ==> FirstReach(ws, t, 0).Some? && FirstReach(ws, t, 0).value <= FirstReach(ws, u, 0).value
  {
  }

  // ---------------------------------------------------------------------
  // One simulated campaign
  // ---------------------------------------------------------------------

  datatype RunRecord = RunRecord(
    totalPayout: real,
    finalBankroll: real,
    evalsLaunched: int,
    bankrollBreach: bool,
    monthsTo5k: Option<nat>,
    monthsTo10k: Option<nat>)

  /**
   * One campaign of `simulate`: a zero wave rate divides by zero, a negative
   * horizon cannot size the schedules.
   */
  function Simulate(a: Args, draws: Draws): (r: Result<RunRecord>)
    requires ValidDraws(draws)
    ensures a.wavesPerMonth == 0 ==> r.Err? && r.error.ZeroDivisionError?
    ensures a.wavesPerMonth != 0 && a.months < 0 ==> r.Err?
    ensures r.Ok? ==> r.value.monthsTo5k.Some? && r.value.monthsTo10k.Some? ==> r.value.monthsTo5k.value <= r.value.monthsTo10k.value
  {
    if a.wavesPerMonth == 0 then Err(ZeroDivisionError("float division by zero"))
    else if a.months < 0 then Err(ValueError("negative dimensions are not allowed"))
    else
      var c := if a.wavesPerMonth > 0 then RunCampaign(a, draws)
               else Campaign(a.initialBankroll, Zeros(a.months), Zeros(a.months), false, false, false, 0, 0);
      var s := SettleMonths(c.bankroll, c.death, c.withdrawn, c.reinvest, |c.withdrawn|);
      FirstReachOrdered(c.withdrawn, 5000.0, 10000.0);
      Ok(RunRecord(s.withdrawnTotal, s.bankroll, c.evalsLaunched, s.breach,
                   FirstReach(c.withdrawn, 5000.0, 0), FirstReach(c.withdrawn, 10000.0, 0)))
  }

  /**
   * For arguments `main` accepts and a non-negative starting bankroll, a
   * campaign reports a bankroll breach exactly when a wave was unaffordable,
   * the total payout is everything withdrawn over the horizon, and every
   * launched wave launched `evals_per_wave` evaluations.
   */
  lemma SimulateFacts(a: Args, draws: Draws)
    requires ValidDraws(draws) && a.wavesPerMonth > 0 && a.months >= 0
    requires Validate(a).Ok? && a.initialBankroll >= 0.0
    ensures var c := RunCampaign(a, draws);
      && Simulate(a, draws).Ok?
      && Simulate(a, draws).value.bankrollBreach == c.death
      && Simulate(a, draws).value.totalPayout == Sum(c.withdrawn)
      && c.evalsLaunched == c.wavesLaunched * a.evalsPerWave
  {
    var c := RunCampaign(a, draws);
    WavesKeepBankroll(a, draws, WaveCount(a), true);
    WavesScheduleNonNegative(a, draws, WaveCount(a), true);
    EvalsPerLaunchedWave(a, draws, WaveCount(a), true);
    NoBreachFromReinvestments(c.bankroll, c.death, c.withdrawn, c.reinvest);
    assert c.withdrawn[..|c.withdrawn|] == c.withdrawn;
  }
}

=== FILE: live_vs_sim.dfy ===
/**
 * The live-versus-simulation comparison: figures of a live trial (return,
 * trailing and daily drawdown, hit rate, average R, trade rate) and the
 * percentile rank of a live figure among simulated runs.
 */
module LiveVsSim {
  import opened Wrappers
  import opened Num
  import Drawdown
  import Sorting
  import Grouping

  /** A closed live trade: its calendar day (days since an epoch) and its result. Trades are in time order. */
  datatype LiveTrade = LiveTrade(day: int, pnl: real)

  function Pnls(ts: seq<LiveTrade>): (ps: seq<real>)
    ensures |ps| == |ts|
    ensures forall i :: 0 <= i < |ts| ==> ps[i] == ts[i].pnl
  {
    seq(|ts|, i requires 0 <= i < |ts| => ts[i].pnl)
  }

  /** The equity after each trade: the account size plus the running total. */
  function Equity(account: real, ts: seq<LiveTrade>): (e: seq<real>)
    ensures |e| == |ts|
    ensures forall i :: 0 <= i < |ts| ==> e[i] == account + Sum(Pnls(ts)[..i + 1])
  {
    var c := Drawdown.CumSum(Pnls(ts));
    seq(|ts|, i requires 0 <= i < |ts| => account + c[i])
  }

  /**
   * `_max_drawdown_pct`: the largest fall from the running peak, which
   * starts at the starting equity, as a percentage of that peak.
   */
  function MaxDrawdownPct(equity: seq<real>, starting: real): (r: real)
    ensures r >= 0.0
    ensures |equity| == 0 ==> r == 0.0
    ensures forall i :: 0 <= i < |equity| ==> 100.0 * Drawdown.DrawdownAt(starting, equity, i) <= r
    ensures r == 0.0 || exists i :: 0 <= i < |equity| && r == 100.0 * Drawdown.DrawdownAt(starting, equity, i)
  {
    Drawdown.MaxDrawdownAttained(starting, equity);
    Drawdown.MaxDrawdown(starting, equity) * 100.0
  }

  /** A day's loss as a percentage of the day's starting equity; only losing days with a positive start count. */
  function LossPct(start: real, pnl: real): (r: real)
    ensures r >= 0.0
    ensures r > 0.0 <==> pnl < 0.0 && start > 0.0
  {
    if pnl < 0.0 && start > 0.0 then
      QuotientSign(pnl, start);
      Abs(pnl / start) * 100.0
    else 0.0
  }

  function DayOf(t: LiveTrade): int
  {
    t.day
  }

  function DayKey(g: Grouping.Group<int, LiveTrade>): real
  {
    g.key as real
  }

  /** The trades grouped by calendar day, days in ascending order. */
  function Days(ts: seq<LiveTrade>): (ds: seq<Grouping.Group<int, LiveTrade>>)
    ensures |ds| == |Grouping.GroupBy(ts, DayOf)|
    ensures Sorting.SortedBy(ds, DayKey)
    ensures forall i :: 0 <= i < |ds| ==> ds[i].members == Grouping.Members(ts, DayOf, ds[i].key)
  {
    var gs := Grouping.GroupBy(ts, DayOf);
    var ds := Sorting.SortBy(gs, DayKey);
    Grouping.GroupByPartitions(ts, DayOf);
    Sorting.SortBySortsAndPermutes(gs, DayKey);
    forall i | 0 <= i < |ds|
      ensures ds[i].members == Grouping.Members(ts, DayOf, ds[i].key)
    {
      assert ds[i] in multiset(gs);
    }
    ds
  }

  function DayTotals(ds: seq<Grouping.Group<int, LiveTrade>>): (totals: seq<real>)
    ensures |totals| == |ds|
    ensures forall i :: 0 <= i < |ds| ==> totals[i] == Sum(Pnls(ds[i].members))
  {
    seq(|ds|, i requires 0 <= i < |ds| => Sum(Pnls(ds[i].members)))
  }

  datatype Walk = Walk(equity: real, worst: real)

  /** Day by day, the equity carried forward and the worst daily loss so far. */
  function WalkDays(start: real, totals: seq<real>): (w: Walk)
    ensures w.equity == start + Sum(totals)
    ensures w.worst >= 0.0
    decreases |totals|
  {
    if |totals| == 0 then Walk(start, 0.0)
    else
      var before := WalkDays(start, totals[..|totals| - 1]);
      var last := totals[|totals| - 1];
      Walk(before.equity + last, Max(before.worst, LossPct(before.equity, last)))
  }

  /** Each day starts from the equity the earlier days left. */
  function DayStart(start: real, totals: seq<real>, k: nat): real
    requires k <= |totals|
  {
    start + Sum(totals[..k])
  }

  /** The walk's worst day bounds every day's loss and is one of them (or 0). */
  lemma {:induction false} WalkDaysWorst(start: real, totals: seq<real>)
    ensures forall k :: 0 <= k < |totals| ==> LossPct(DayStart(start, totals, k), totals[k]) <= WalkDays(start, totals).worst
    ensures WalkDays(start, totals).worst == 0.0
      || exists k :: 0 <= k < |totals| && WalkDays(start, totals).worst == LossPct(DayStart(start, totals, k), totals[k])
    decreases |totals|
  {
    if |totals| > 0 {
      var n := |totals| - 1;
      var init := totals[..n];
      WalkDaysWorst(start, init);
      var before := WalkDays(start, init);
      assert before.equity == DayStart(start, totals, n);
      forall k | 0 <= k < n
        ensures LossPct(DayStart(start, init, k), init[k]) == LossPct(DayStart(start, totals, k), totals[k])
      {
        assert init[..k] == totals[..k];
      }
      if WalkDays(start, totals).worst != before.worst {
        assert WalkDays(start, totals).worst == LossPct(DayStart(start, totals, n), totals[n]);
      } else if before.worst != 0.0 {
        var k :| 0 <= k < n && before.worst == LossPct(DayStart(start, init, k), init[k]);
        assert WalkDays(start, totals).worst == LossPct(DayStart(start, totals, k), totals[k]);
      }
    }
  }

  /** `_max_daily_loss_pct`: the worst losing day, relative to the equity the day started with. */
  function MaxDailyLossPct(ts: seq<LiveTrade>, starting: real): (r: real)
    ensures r >= 0.0
    ensures |ts| == 0 ==> r == 0.0
    ensures |ts| > 0 ==> r == WalkDays(starting, DayTotals(Days(ts))).worst
  {
    if |ts| == 0 then 0.0 else WalkDays(starting, DayTotals(Days(ts))).worst
  }

  /** Results divided by the reference risk. */
  function Scaled(s: seq<real>, c: real): (r: seq<real>)
    requires c != 0.0
    ensures |r| == |s|
    ensures forall i :: 0 <= i < |s| ==> r[i] * c == s[i]
  {
    seq(|s|, i requires 0 <= i < |s| => s[i] / c)
  }

  lemma {:induction false} ScaledSum(s: seq<real>, c: real)
    requires c != 0.0
    ensures Sum(Scaled(s, c)) * c == Sum(s)
    decreases |s|
  {
    if |s| > 0 {
      var init := s[..|s| - 1];
      ScaledSum(init, c);
      assert Scaled(s, c)[..|s| - 1] == Scaled(init, c);
      assert Scaled(s, c)[|s| - 1] * c == s[|s| - 1];
      assert (Sum(Scaled(init, c)) + Scaled(s, c)[|s| - 1]) * c == Sum(Scaled(init, c)) * c + Scaled(s, c)[|s| - 1] * c;
    }
  }

  /** `mean(pnl / reference_risk)`, 0 with no trades or no positive reference risk. */
  function AvgR(pnls: seq<real>, referenceRisk: real): (r: real)
    ensures |pnls| == 0 || referenceRisk <= 0.0 ==> r == 0.0
    ensures |pnls| > 0 && referenceRisk > 0.0 ==> r * referenceRisk * (|pnls| as real) == Sum(pnls)
  {
    if |pnls| == 0 || referenceRisk <= 0.0 then 0.0
    else
      var m := Mean(Scaled(pnls, referenceRisk));
      ScaledSum(pnls, referenceRisk);
      assert m * (|pnls| as real) == Sum(Scaled(pnls, referenceRisk));
      assert m * referenceRisk * (|pnls| as real) == m * (|pnls| as real) * referenceRisk;
      m
  }

  /** `_trades_per_day`: trades per distinct calendar day, 0 with no trades. */
  function TradesPerDay(ts: seq<LiveTrade>): (r: real)
    ensures |ts| == 0 ==> r == 0.0
    ensures |ts| > 0 ==> 1.0 <= r <= |ts| as real
    ensures |ts| > 0 ==> r == Ratio(|ts|, |Grouping.GroupBy(ts, DayOf)|)
  {
    if |ts| == 0 then 0.0
    else
      var days := |Grouping.GroupBy(ts, DayOf)|;
      DayCount(ts);
      AtLeastOnePerDay(|ts|, days);
      Ratio(|ts|, days)
  }

  /** A non-empty list of trades has at least one day, and no more days than trades. */
  lemma DayCount(ts: seq<LiveTrade>)
    requires |ts| > 0
    ensures 1 <= |Grouping.GroupBy(ts, DayOf)| <= |ts|
  {
    var gs := Grouping.GroupBy(ts, DayOf);
    Grouping.GroupByPartitions(ts, DayOf);
    Grouping.GroupBySize(ts, DayOf);
    Grouping.GroupsNonEmpty(ts, DayOf);
    assert Grouping.IndexOf(gs, DayOf(ts[0])).Some?;
    SizeAtLeastCount(gs);
  }

  lemma {:induction false} SizeAtLeastCount<K, T>(gs: seq<Grouping.Group<K, T>>)
    requires forall i :: 0 <= i < |gs| ==> |gs[i].members| > 0
    ensures |gs| <= Grouping.Size(gs)
    decreases |gs|
  {
    if |gs| > 0 {
      SizeAtLeastCount(gs[..|gs| - 1]);
    }
  }

  lemma AtLeastOnePerDay(n: nat, days: nat)
    requires 1 <= days <= n
    ensures 1.0 <= Ratio(n, days) <= n as real
  {
    RatioOne(days, days);
    DivMonotone(days as real, n as real, days as real);
    DivAntitone(n as real, 1.0, days as real);
  }

  /** The total return in percent of the account size; `None` where that size is zero. */
  function ReturnPct(total: real, account: real): (r: Option<real>)
    ensures r.None? <==> account == 0.0
    ensures r.Some? ==> r.value * account == 100.0 * total
    ensures account > 0.0 && r.Some? ==> (r.value >= 0.0 <==> total >= 0.0)
  {
    match SafeDiv(total, account)
    case None => None
    case Some(q) =>
      assert (q * 100.0) * account == 100.0 * (q * account);
      Some(q * 100.0)
  }

  datatype LiveMetrics = LiveMetrics(
    totalReturnPct: Option<real>,
    maxDrawdownPct: real,
    maxDailyLossPct: real,
    numTrades: nat,
    hitRate: real,
    avgRMultiple: real,
    tradesPerDay: real)

  /**
   * `compute_live_metrics` over trades in time order. The return is `None`
   * where the source divides by a zero account size.
   */
  function ComputeLiveMetrics(ts: seq<LiveTrade>, account: real, referenceRisk: real): (m: LiveMetrics)
    ensures |ts| == 0 ==> m.totalReturnPct == Some(0.0)
    ensures |ts| > 0 ==> m.totalReturnPct == ReturnPct(Sum(Pnls(ts)), account)
    ensures m.maxDrawdownPct == MaxDrawdownPct(Equity(account, ts), account)
    ensures m.maxDailyLossPct == MaxDailyLossPct(ts, account)
    ensures m.numTrades == |ts|
    ensures m.hitRate == Ratio(CountAbove(Pnls(ts), 0.0), |ts|)
    ensures m.avgRMultiple == AvgR(Pnls(ts), referenceRisk)
    ensures m.tradesPerDay == TradesPerDay(ts)
  {
    var equity := Equity(account, ts);
    LastEquity(account, ts);
    var gain := if |ts| == 0 then 0.0 else equity[|ts| - 1] - account;
    assert |ts| > 0 ==> gain == Sum(Pnls(ts));
    var ret := if |ts| == 0 then Some(0.0) else ReturnPct(gain, account);
    LiveMetrics(
      totalReturnPct := ret,
      maxDrawdownPct := MaxDrawdownPct(equity, account),
      maxDailyLossPct := MaxDailyLossPct(ts, account),
      numTrades := |ts|,
      hitRate := Ratio(CountAbove(Pnls(ts), 0.0), |ts|),
      avgRMultiple := AvgR(Pnls(ts), referenceRisk),
      tradesPerDay := TradesPerDay(ts))
  }

  lemma LastEquity(account: real, ts: seq<LiveTrade>)
    ensures |ts| > 0 ==> Equity(account, ts)[|ts| - 1] - account == Sum(Pnls(ts))
  {
    assert Pnls(ts)[..|ts|] == Pnls(ts);
  }

  // Percentile rank ---------------------------------------------------------------

  function Identity(x: real): real
  {
    x
  }

  /** `searchsorted(side="right")`: the length of the leading run of values not above `v`. */
  function SearchRight(s: seq<real>, v: real): (k: nat)
    ensures k <= |s|
    ensures forall i :: 0 <= i < k ==> s[i] <= v
    ensures k < |s| ==> s[k] > v
    decreases |s|
  {
    if |s| == 0 || s[0] > v then 0 else 1 + SearchRight(s[1..], v)
  }

  /** `percentile_rank`: `None` (NaN) without runs, else the percentage of runs at or below `v`. */
  function PercentileRank(series: seq<real>, v: real): (r: Option<real>)
    ensures r.None? <==> |series| == 0
    ensures r.Some? ==> 0.0 <= r.value <= 100.0
    ensures r.Some? ==> r.value == 100.0 * Ratio(|series| - CountAbove(series, v), |series|)
  {
    if |series| == 0 then None
    else
      var sorted := Sorting.SortBy(series, Identity);
      SearchCounts(series, v);
      Some(Ratio(SearchRight(sorted, v), |sorted|) * 100.0)
  }

  /** In the sorted copy, the leading run at or below `v` holds exactly the values not above `v`. */
  lemma SearchCounts(series: seq<real>, v: real)
    ensures SearchRight(Sorting.SortBy(series, Identity), v) == |series| - CountAbove(series, v)
  {
    var sorted := Sorting.SortBy(series, Identity);
    Sorting.SortBySortsAndPermutes(series, Identity);
    SortedSearchCounts(sorted, v);
    CountAbovePermutation(series, sorted, v);
  }

  lemma SortedSearchCounts(sorted: seq<real>, v: real)
    requires Sorting.SortedBy(sorted, Identity)
    ensures SearchRight(sorted, v) == |sorted| - CountAbove(sorted, v)
  {
    var k := SearchRight(sorted, v);
    var low, high := sorted[..k], sorted[k..];
    assert sorted == low + high;
    CountAboveConcat(low, high, v);
    CountAboveNone(low, v);
    forall i | 0 <= i < |high|
      ensures high[i] > v
    {
      assert Identity(sorted[k]) <= Identity(sorted[k + i]);
    }
    CountAboveAll(high, v);
  }

  lemma {:induction false} CountAboveNone(s: seq<real>, v: real)
    requires forall i :: 0 <= i < |s| ==> s[i] <= v
    ensures CountAbove(s, v) == 0
    decreases |s|
  {
    if |s| > 0 {
      CountAboveNone(s[..|s| - 1], v);
    }
  }

  lemma {:induction false} CountAboveConcat(a: seq<real>, b: seq<real>, v: real)
    ensures CountAbove(a + b, v) == CountAbove(a, v) + CountAbove(b, v)
    decreases |b|
  {
    if |b| == 0 {
      assert a + b == a;
    } else {
      var b' := b[..|b| - 1];
      assert (a + b)[..|a + b| - 1] == a + b';
      CountAboveConcat(a, b', v);
    }
  }

  lemma {:induction false} CountAboveAll(s: seq<real>, v: real)
    requires forall i :: 0 <= i < |s| ==> s[i] > v
    ensures CountAbove(s, v) == |s|
    decreases |s|
  {
    if |s| > 0 {
      CountAboveAll(s[..|s| - 1], v);
    }
  }

  /** Counting is blind to order. */
  lemma {:induction false} CountAbovePermutation(a: seq<real>, b: seq<real>, v: real)
    requires multiset(a) == multiset(b)
    ensures CountAbove(a, v) == CountAbove(b, v)
    decreases |a|
  {
    if |a| > 0 {
      var x := a[|a| - 1];
      var a' := a[..|a| - 1];
      assert a == a' + [x];
      assert x in multiset(b);
      var k :| 0 <= k < |b| && b[k] == x;
      var b' := b[..k] + b[k + 1..];
      CountAboveRemove(b, k, v);
      RemoveOne(b, k);
      assert multiset(a') == multiset(a) - multiset{x};
      CountAbovePermutation(a', b', v);
      assert CountAbove(a, v) == CountAbove(a', v) + (if x > v then 1 else 0);
    }
  }

  /** Dropping entry `k` drops one copy of it from the multiset. */
  lemma RemoveOne(b: seq<real>, k: nat)
    requires k < |b|
    ensures multiset(b[..k] + b[k + 1..]) == multiset(b) - multiset{b[k]}
  {
    assert b == b[..k] + [b[k]] + b[k + 1..];
  }

  /** Removing entry `k` removes its own contribution to the count. */
  lemma CountAboveRemove(b: seq<real>, k: nat, v: real)
    requires k < |b|
    ensures CountAbove(b, v) == CountAbove(b[..k] + b[k + 1..], v) + (if b[k] > v then 1 else 0)
  {
    assert b == b[..k] + ([b[k]] + b[k + 1..]);
    CountAboveConcat(b[..k], [b[k]] + b[k + 1..], v);
    CountAboveConcat([b[k]], b[k + 1..], v);
    CountAboveConcat(b[..k], b[k + 1..], v);
    assert CountAbove([b[k]], v) == (if b[k] > v then 1 else 0) by {
      assert [b[k]][..0] == [];
    }
  }

  /** A higher live figure never ranks lower among the same runs. */
  lemma PercentileMonotone(series: seq<real>, v: real, w: real)
    requires |series| > 0 && v <= w
    ensures PercentileRank(series, v).value <= PercentileRank(series, w).value
  {
    CountAboveAntitone(series, v, w);
    RatioMonotone(|series| - CountAbove(series, v), |series| - CountAbove(series, w), |series|);
  }

  lemma {:induction false} CountAboveAntitone(xs: seq<real>, t: real, u: real)
    requires t <= u
    ensures CountAbove(xs, u) <= CountAbove(xs, t)
    decreases |xs|
  {
    if |xs| > 0 {
      CountAboveAntitone(xs[..|xs| - 1], t, u);
    }
  }
}

=== FILE: london_session.dfy ===
/**
 * The London-session breakout of strategies/omega_session_london.py. The
 * closure's mutable dictionary becomes an explicit `BoxState` threaded
 * through `Step`. Timestamps are UTC seconds; the calendar day and hour are
 * derived from them.
 */
module LondonSession {
  import opened Wrappers
  import opened Num
  import opened Strategy
  import Text

  const StrategyId: string := "OMEGA_SESSION_LDN_M15"
  const PipFactor: real := 10000.0

  datatype Config = Config(
    symbol: string,
    asianStartHour: int,
    asianEndHour: int,
    londonEndHour: int,
    minRangePips: real,
    maxRangePips: real,
    triggerBufferPips: real)

  function DefaultConfig(): Config
  {
    Config("GBPUSD", 0, 7, 12, 15.0, 60.0, 3.0)
  }

  datatype BoxState = BoxState(
    currentDay: Option<int>,
    asianHigh: Option<real>,
    asianLow: Option<real>,
    buyTrigger: Option<real>,
    sellTrigger: Option<real>,
    boxHeight: Option<real>,
    boxMid: Option<real>,
    boxReady: bool,
    boxInvalid: bool,
    triggeredSide: Option<Action>)

  /** A bar: its symbol ("" when missing), UTC timestamp in seconds, and high/low (`None` is NaN). */
  datatype Row = Row(symbol: string, timestamp: int, high: Option<real>, low: Option<real>)

  function DayOf(ts: int): int { ts / 86400 }
  function HourOf(ts: int): (h: int) ensures 0 <= h < 24 { (ts % 86400) / 3600 }

  function Initial(): BoxState
  {
    BoxState(None, None, None, None, None, None, None, false, false, None)
  }

  function Reset(day: int): (s: BoxState)
    ensures s == Initial().(currentDay := Some(day))
  {
    BoxState(Some(day), None, None, None, None, None, None, false, false, None)
  }

  /** A ready box carries its triggers, height and mid; a ready box is never marked invalid. */
  ghost predicate Valid(cfg: Config, s: BoxState)
  {
    && (s.asianHigh.Some? <==> s.asianLow.Some?)
    && (s.boxReady ==>
          && !s.boxInvalid
          && s.asianHigh.Some? && s.asianLow.Some?
          && s.buyTrigger == Some(s.asianHigh.value + cfg.triggerBufferPips / PipFactor)
          && s.sellTrigger == Some(s.asianLow.value - cfg.triggerBufferPips / PipFactor)
          && s.boxHeight == Some(s.asianHigh.value - s.asianLow.value)
          && s.boxMid == Some((s.asianHigh.value + s.asianLow.value) / 2.0)
          && cfg.minRangePips <= s.boxHeight.value * PipFactor <= cfg.maxRangePips)
  }

  /** Widen the Asian range to include the bar. */
  function RecordAsianRange(s: BoxState, high: real, low: real): (t: BoxState)
    ensures t.asianHigh.Some? && t.asianLow.Some?
    ensures t.asianHigh.value >= high && t.asianLow.value <= low
    ensures s.asianHigh.Some? ==> t.asianHigh.value == Max(s.asianHigh.value, high)
    ensures s.asianLow.Some? ==> t.asianLow.value == Min(s.asianLow.value, low)
    ensures s.asianHigh.None? ==> t.asianHigh == Some(high)
    ensures s.asianLow.None? ==> t.asianLow == Some(low)
    ensures t.(asianHigh := s.asianHigh, asianLow := s.asianLow) == s
  {
    s.(asianHigh := Some(if s.asianHigh.None? then high else Max(s.asianHigh.value, high)),
       asianLow := Some(if s.asianLow.None? then low else Min(s.asianLow.value, low)))
  }

  /** Close the Asian box: invalid when empty or when its height in pips is outside the configured range. */
  function FinalizeBox(cfg: Config, s: BoxState): (t: BoxState)
    ensures t.boxReady != t.boxInvalid
    ensures t.boxReady <==>
      s.asianHigh.Some? && s.asianLow.Some?
      && cfg.minRangePips <= (s.asianHigh.value - s.asianLow.value) * PipFactor <= cfg.maxRangePips
    ensures t.boxReady ==>
      && t.buyTrigger == Some(s.asianHigh.value + cfg.triggerBufferPips / PipFactor)
      && t.sellTrigger == Some(s.asianLow.value - cfg.triggerBufferPips / PipFactor)
    ensures !t.boxReady ==> t == s.(boxInvalid := true, boxReady := false)
    ensures t.currentDay == s.currentDay && t.triggeredSide == s.triggeredSide
    ensures t.asianHigh == s.asianHigh && t.asianLow == s.asianLow
  {
    if s.asianHigh.None? || s.asianLow.None? then s.(boxInvalid := true, boxReady := false)
    else
      var hi, lo := s.asianHigh.value, s.asianLow.value;
      var height := hi - lo;
      if !(cfg.minRangePips <= height * PipFactor <= cfg.maxRangePips) then s.(boxInvalid := true, boxReady := false)
      else
        var buffer := cfg.triggerBufferPips / PipFactor;
        s.(buyTrigger := Some(hi + buffer), sellTrigger := Some(lo - buffer), boxHeight := Some(height),
           boxMid := Some((hi + lo) / 2.0), boxReady := true, boxInvalid := false)
  }

  /** Stop and target of a breakout entered at `entry` from a box of the given mid and height. */
  function BreakoutDistances(entry: real, mid: real, height: real): (r: (real, real))
    ensures r.0 > 0.0 && r.1 >= 1.0
    ensures Abs(entry - mid) > 0.0 ==> r.0 == Abs(entry - mid) * PipFactor
    ensures Abs(entry - mid) == 0.0 ==> r.0 == Max(height * PipFactor * 0.5, 1.0)
    ensures r.1 == Max(height * PipFactor, 1.0)
  {
    var stop := Abs(entry - mid) * PipFactor;
    var stop' := if stop <= 0.0 then Max(height * PipFactor * 0.5, 1.0) else stop;
    (stop', Max(height * PipFactor, 1.0))
  }

  /** The breakout signal of a ready box, once its trigger is touched; the buy side is tested first. */
  function Breakout(s: BoxState, high: real, low: real): (r: Option<(Action, real)>)
    ensures s.buyTrigger.Some? && high >= s.buyTrigger.value ==> r == Some((Long, s.buyTrigger.value))
    ensures !(s.buyTrigger.Some? && high >= s.buyTrigger.value) && s.sellTrigger.Some? && low <= s.sellTrigger.value ==>
              r == Some((Short, s.sellTrigger.value))
    ensures r.None? <==> !(s.buyTrigger.Some? && high >= s.buyTrigger.value) && !(s.sellTrigger.Some? && low <= s.sellTrigger.value)
  {
    if s.buyTrigger.Some? && high >= s.buyTrigger.value then Some((Long, s.buyTrigger.value))
    else if s.sellTrigger.Some? && low <= s.sellTrigger.value then Some((Short, s.sellTrigger.value))
    else None
  }

  /**
   * The state a bar outside the Asian hours is judged against: a new day
   * starts afresh, and a box neither ready nor invalid is closed once the
   * Asian session is over.
   */
  function Prepared(cfg: Config, s: BoxState, ts: int): (t: BoxState)
    requires Valid(cfg, s)
    ensures Valid(cfg, t)
    ensures t.currentDay == Some(DayOf(ts))
    ensures s.currentDay == Some(DayOf(ts)) ==> t.triggeredSide == s.triggeredSide
    ensures s.currentDay != Some(DayOf(ts)) ==> t.triggeredSide.None?
    ensures s.currentDay == Some(DayOf(ts)) && (s.boxReady || s.boxInvalid) ==> t == s
    ensures HourOf(ts) >= cfg.asianEndHour && !(s.currentDay == Some(DayOf(ts)) && (s.boxReady || s.boxInvalid)) ==>
              t == FinalizeBox(cfg, if s.currentDay != Some(DayOf(ts)) then Reset(DayOf(ts)) else s)
  {
    var day := DayOf(ts);
    var s1 := if s.currentDay != Some(day) then Reset(day) else s;
    if !s1.boxReady && !s1.boxInvalid && HourOf(ts) >= cfg.asianEndHour then FinalizeBox(cfg, s1) else s1
  }

  /** One call of the strategy closure: the new box state and the decision, if any. */
  function Step(cfg: Config, s: BoxState, row: Row): (r: (BoxState, Option<TradeDecision>))
    requires Valid(cfg, s)
    ensures Valid(cfg, r.0)
    ensures Text.Upper(row.symbol) != cfg.symbol ==> r == (s, None)
    ensures Text.Upper(row.symbol) == cfg.symbol ==> r.0.currentDay == Some(DayOf(row.timestamp))
    ensures r.1.Some? ==>
      && cfg.asianEndHour <= HourOf(row.timestamp) < cfg.londonEndHour
      && (s.triggeredSide.None? || s.currentDay != Some(DayOf(row.timestamp)))
    ensures r.1.Some? ==> r.0.triggeredSide == Some(r.1.value.action) && r.1.value.action != Flat
    ensures r.1.Some? ==> r.1.value.strategyId == StrategyId && r.1.value.variant == "ldn_session"
    ensures r.1.Some? ==> row.high.Some? && row.low.Some? && Text.Upper(row.symbol) == cfg.symbol
    ensures r.1.Some? && r.1.value.action == Long ==> r.0.buyTrigger.Some? && row.high.value >= r.0.buyTrigger.value
    ensures r.1.Some? && r.1.value.action == Short ==>
      r.0.sellTrigger.Some? && row.low.value <= r.0.sellTrigger.value
      && !(r.0.buyTrigger.Some? && row.high.value >= r.0.buyTrigger.value)
    ensures s.currentDay == Some(DayOf(row.timestamp)) && s.triggeredSide.Some? ==>
      r.1.None? && r.0.triggeredSide == s.triggeredSide
    // Conversely: a priced bar of the symbol in the London hours signals exactly when the
    // prepared box is ready, no side is taken yet and a trigger is touched, at the trigger price.
    ensures Text.Upper(row.symbol) == cfg.symbol && row.high.Some? && row.low.Some?
            && cfg.asianEndHour <= HourOf(row.timestamp) < cfg.londonEndHour ==>
      var p := Prepared(cfg, s, row.timestamp);
      var b := Breakout(p, row.high.value, row.low.value);
      && (r.1.Some? <==> p.boxReady && p.triggeredSide.None? && b.Some?)
      && (r.1.Some? ==>
            var dist := BreakoutDistances(b.value.1, p.boxMid.value, p.boxHeight.value);
            && r.1.value.action == b.value.0
            && r.1.value.stopDistancePips == Some(dist.0)
            && r.1.value.takeProfitDistancePips == Some(dist.1))
  {
    if Text.Upper(row.symbol) != cfg.symbol then (s, None)
    else
      var day := DayOf(row.timestamp);
      var s1 := if s.currentDay != Some(day) then Reset(day) else s;
      var hour := HourOf(row.timestamp);
      if row.high.None? || row.low.None? then (s1, None)
      else
        var high, low := row.high.value, row.low.value;
        if cfg.asianStartHour <= hour < cfg.asianEndHour then
          (RecordAsianRange(s1, high, low).(boxReady := false, boxInvalid := false), None)
        else
          var s2 := Prepared(cfg, s, row.timestamp);
          if s2.boxInvalid || !s2.boxReady then (s2, None)
          else if hour < cfg.asianEndHour || hour >= cfg.londonEndHour then (s2, None)
          else if s2.triggeredSide.Some? then (s2, None)
          else
            match Breakout(s2, high, low)
            case None => (s2, None)
            case Some((direction, entry)) =>
              var dist := BreakoutDistances(entry, s2.boxMid.value, s2.boxHeight.value);
              (s2.(triggeredSide := Some(direction)),
               Some(TradeDecision(direction, Some(dist.0), Some(dist.1), "London session breakout", "ldn_session",
                                  if direction == Long then "ldn_long" else "ldn_short", StrategyId)))
  }

  /** Feed a sequence of rows through the strategy, collecting the decisions. */
  function Run(cfg: Config, s: BoxState, rows: seq<Row>): (r: (BoxState, seq<Option<TradeDecision>>))
    requires Valid(cfg, s)
    ensures Valid(cfg, r.0) && |r.1| == |rows|
    // Every signal comes from a priced bar of the symbol inside the London hours.
    ensures forall i :: 0 <= i < |rows| && r.1[i].Some? ==>
      && Text.Upper(rows[i].symbol) == cfg.symbol && rows[i].high.Some? && rows[i].low.Some?
      && cfg.asianEndHour <= HourOf(rows[i].timestamp) < cfg.londonEndHour
      && r.1[i].value.action != Flat
    ensures |rows| > 0 ==> r.1[0] == Step(cfg, s, rows[0]).1
    decreases |rows|
  {
    if |rows| == 0 then (s, [])
    else
      var (s1, d) := Step(cfg, s, rows[0]);
      var (s2, ds) := Run(cfg, s1, rows[1..]);
      assert forall i :: 1 <= i < |rows| ==> rows[1..][i - 1] == rows[i];
      (s2, [d] + ds)
  }

  /** Running over two stretches of bars is running over the first, then over the second from where it ended. */
  lemma {:induction false} RunAppend(cfg: Config, s: BoxState, a: seq<Row>, b: seq<Row>)
    requires Valid(cfg, s)
    ensures var first := Run(cfg, s, a);
            var second := Run(cfg, first.0, b);
            Run(cfg, s, a + b) == (second.0, first.1 + second.1)
    decreases |a|
  {
    if |a| > 0 {
      var (s1, d) := Step(cfg, s, a[0]);
      assert (a + b)[0] == a[0];
      assert (a + b)[1..] == a[1..] + b;
      RunAppend(cfg, s1, a[1..], b);
      var rest := Run(cfg, s1, a[1..]);
      var second := Run(cfg, rest.0, b);
      assert Run(cfg, s, a) == (rest.0, [d] + rest.1);
      assert Run(cfg, s, a + b) == (second.0, [d] + (rest.1 + second.1));
      assert [d] + (rest.1 + second.1) == ([d] + rest.1) + second.1;
    } else {
      assert a + b == b;
      assert Run(cfg, s, a).1 + Run(cfg, s, b).1 == Run(cfg, s, b).1;
    }
  }

  function CountSignals(ds: seq<Option<TradeDecision>>): nat
  {
    if |ds| == 0 then 0 else (if ds[0].Some? then 1 else 0) + CountSignals(ds[1..])
  }

  /** Once the day's side is taken, no further row of that day signals, and the side stays taken. */
  lemma {:induction false} TriggeredDayIsSilent(cfg: Config, s: BoxState, rows: seq<Row>, day: int)
    requires Valid(cfg, s)
    requires s.currentDay == Some(day) && s.triggeredSide.Some?
    requires forall i :: 0 <= i < |rows| ==> DayOf(rows[i].timestamp) == day
    ensures CountSignals(Run(cfg, s, rows).1) == 0
    ensures Run(cfg, s, rows).0.triggeredSide.Some?
    decreases |rows|
  {
    if |rows| > 0 {
      var (s1, d) := Step(cfg, s, rows[0]);
      assert d.None?;
      TriggeredDayIsSilent(cfg, s1, rows[1..], day);
    }
  }

  /** Rows of a single calendar day produce at most one breakout signal. */
  lemma {:induction false} AtMostOneSignalPerDay(cfg: Config, s: BoxState, rows: seq<Row>, day: int)
    requires Valid(cfg, s)
    requires forall i :: 0 <= i < |rows| ==> DayOf(rows[i].timestamp) == day
    ensures CountSignals(Run(cfg, s, rows).1) <= 1
    decreases |rows|
  {
    if |rows| > 0 {
      var (s1, d) := Step(cfg, s, rows[0]);
      if d.Some? {
        assert s1.currentDay == Some(day);
        TriggeredDayIsSilent(cfg, s1, rows[1..], day);
      } else {
        AtMostOneSignalPerDay(cfg, s1, rows[1..], day);
      }
    }
  }

  /** A row for another symbol is ignored and leaves the state as it was. */
  lemma OtherSymbolIgnored(s: BoxState, ts: int, high: real, low: real)
    requires Valid(DefaultConfig(), s)
    ensures Step(DefaultConfig(), s, Row("EURUSD", ts, Some(high), Some(low))) == (s, None)
  {
    assert Text.Upper("EURUSD") == "EURUSD";
  }
}

=== FILE: mean_reversion.dfy ===
/**
 * The Bollinger/RSI fade of strategies/omega_mr_m15.py. A row cell is absent,
 * NaN, or a number; Python's `float(row.get(k, d) or d)` turns an absent or
 * zero cell into the default but keeps NaN.
 */
module MeanReversion {
  import opened Wrappers
  import opened Num
  import opened Strategy

  const StrategyId: string := "OMEGA_MR_M15"
  const PipFactor: real := 10000.0
  const AdxThreshold: real := 30.0
  const RsiLow: real := 30.0
  const RsiHigh: real := 70.0

  datatype Cell = Absent | NaN | Num(v: real)

  /** `float(cell or default)`; `None` stands for NaN. */
  function OrDefault(c: Cell, default: real): (r: Option<real>)
    ensures c.NaN? <==> r.None?
    ensures c.Absent? || c == Num(0.0) ==> r == Some(default)
  {
    match c
    case Absent => Some(default)
    case NaN => None
    case Num(v) => if v == 0.0 then Some(default) else Some(v)
  }

  /** `pd.isna(row.get(k))`: absent cells read as None, which pandas treats as missing. */
  predicate IsNa(c: Cell) { !c.Num? }

  datatype MrRow = MrRow(close: Cell, bbLower: Cell, bbUpper: Cell, bbMid: Cell, rsi: Cell, adx: Cell, atr: Cell)

  /** The stop in pips: 1.5 ATR, at least one pip. */
  function StopPips(atr: real): (s: real)
    ensures s >= 1.0 && s >= atr * PipFactor * 1.5
  {
    Max(atr * PipFactor * 1.5, 1.0)
  }

  /** The target: the pip distance to the mid band, or the stop when that is not positive. */
  function TargetPips(distance: real, stop: real): (t: real)
    ensures distance > 0.0 ==> t == distance * PipFactor
    ensures distance <= 0.0 ==> t == stop
  {
    var tp := Max(distance * PipFactor, 0.0);
    if tp <= 0.0 then stop else tp
  }

  predicate LongSetup(close: Option<real>, lower: real, rsi: Option<real>)
  {
    close.Some? && rsi.Some? && close.value < lower && rsi.value < RsiLow
  }

  predicate ShortSetup(close: Option<real>, upper: real, rsi: Option<real>)
  {
    close.Some? && rsi.Some? && close.value > upper && rsi.value > RsiHigh
  }

  function GenerateMeanReversionSignal(row: MrRow): (r: Option<TradeDecision>)
    ensures var adx := OrDefault(row.adx, 0.0);
      adx.None? || adx.value >= AdxThreshold ==> r.None?
    ensures IsNa(row.bbLower) || IsNa(row.bbUpper) || IsNa(row.bbMid) || OrDefault(row.atr, 0.0).None? ==> r.None?
    ensures r.Some? ==>
      && row.bbLower.Num? && row.bbUpper.Num? && row.bbMid.Num? && OrDefault(row.atr, 0.0).Some?
      && r.value.strategyId == StrategyId && r.value.variant == "mr_bb_rsi"
      && r.value.stopDistancePips == Some(StopPips(OrDefault(row.atr, 0.0).value))
      && r.value.takeProfitDistancePips.Some? && r.value.takeProfitDistancePips.value > 0.0
    ensures r.Some? && r.value.action == Long <==>
      && (var adx := OrDefault(row.adx, 0.0); adx.Some? && adx.value < AdxThreshold)
      && row.bbLower.Num? && row.bbUpper.Num? && row.bbMid.Num? && OrDefault(row.atr, 0.0).Some?
      && LongSetup(OrDefault(row.close, 0.0), row.bbLower.v, OrDefault(row.rsi, 50.0))
    ensures r.Some? && r.value.action == Short <==>
      && (var adx := OrDefault(row.adx, 0.0); adx.Some? && adx.value < AdxThreshold)
      && row.bbLower.Num? && row.bbUpper.Num? && row.bbMid.Num? && OrDefault(row.atr, 0.0).Some?
      && !LongSetup(OrDefault(row.close, 0.0), row.bbLower.v, OrDefault(row.rsi, 50.0))
      && ShortSetup(OrDefault(row.close, 0.0), row.bbUpper.v, OrDefault(row.rsi, 50.0))
    ensures r.Some? ==> r.value.action != Flat
  {
    var adx := OrDefault(row.adx, 0.0);
    if adx.None? || adx.value >= AdxThreshold then None
    else
      var close := OrDefault(row.close, 0.0);
      var rsi := OrDefault(row.rsi, 50.0);
      var atr := OrDefault(row.atr, 0.0);
      if IsNa(row.bbLower) || IsNa(row.bbUpper) || IsNa(row.bbMid) || atr.None? then None
      else
        var stop := StopPips(atr.value);
        if LongSetup(close, row.bbLower.v, rsi) then
          Some(TradeDecision(Long, Some(stop), Some(TargetPips(row.bbMid.v - close.value, stop)),
                             "Omega MR M15 long", "mr_bb_rsi", "bb_rsi_fade_long", StrategyId))
        else if ShortSetup(close, row.bbUpper.v, rsi) then
          Some(TradeDecision(Short, Some(stop), Some(TargetPips(close.value - row.bbMid.v, stop)),
                             "Omega MR M15 short", "mr_bb_rsi", "bb_rsi_fade_short", StrategyId))
        else None
  }

  /** A 40 ADX suppresses the signal whatever the other cells hold. */
  lemma HighAdxRejected(row: MrRow)
    requires row.adx == Num(40.0)
    ensures GenerateMeanReversionSignal(row).None?
  {
  }

  /** Close 0.99 under a 1.005 lower band with RSI 20 and ADX 25 fades long, targeting the 1.002 mid band. */
  lemma LongFadeExample()
    ensures var r := GenerateMeanReversionSignal(MrRow(Num(0.99), Num(1.005), Num(0.995), Num(1.002), Num(20.0), Num(25.0), Num(0.0005)));
      r.Some? && r.value.action == Long && r.value.signalReason == "bb_rsi_fade_long"
      && r.value.stopDistancePips == Some(7.5) && r.value.takeProfitDistancePips == Some(120.0)
  {
  }
}

=== FILE: metrics.dfy ===
/**
 * Performance metrics over a list of closed trades (each reduced to its
 * profit or loss) and an equity curve: the longest losing streak, the
 * profit factor and the summary report.
 */
module Metrics {
  import opened Wrappers
  import opened Num
  import Drawdown

  /** Trades `i..j` are all losses. */
  predicate LossRun(pnls: seq<real>, i: int, j: int)
  {
    0 <= i <= j <= |pnls| && forall k :: i <= k < j ==> pnls[k] < 0.0
  }

  /** The losing streak still running at the end, and the longest one seen. */
  datatype Streak = Streak(current: nat, longest: nat)

  function Streaks(pnls: seq<real>): (s: Streak)
    ensures s.current <= s.longest
    decreases |pnls|
  {
    if |pnls| == 0 then Streak(0, 0)
    else
      var t := Streaks(pnls[..|pnls| - 1]);
      if pnls[|pnls| - 1] < 0.0 then Streak(t.current + 1, IMax(t.longest, t.current + 1))
      else Streak(0, t.longest)
  }

  /** The current streak is the run of losses ending the sequence, preceded by a non-loss. */
  lemma {:induction false} StreaksCurrent(pnls: seq<real>)
    ensures LossRun(pnls, |pnls| - Streaks(pnls).current, |pnls|)
    ensures Streaks(pnls).current < |pnls| ==> pnls[|pnls| - Streaks(pnls).current - 1] >= 0.0
    decreases |pnls|
  {
    if |pnls| == 0 {
      assert LossRun(pnls, 0, 0);
    } else {
      var n := |pnls|;
      var init := pnls[..n - 1];
      StreaksCurrent(init);
      assert forall k :: 0 <= k < n - 1 ==> init[k] == pnls[k];
    }
  }

  /** No run of losses is longer than the longest streak. */
  lemma {:induction false} StreaksBound(pnls: seq<real>)
    ensures forall i, j :: LossRun(pnls, i, j) ==> j - i <= Streaks(pnls).longest
    decreases |pnls|
  {
    if |pnls| > 0 {
      var n := |pnls|;
      var init := pnls[..n - 1];
      var t := Streaks(init);
      StreaksBound(init);
      StreaksCurrent(init);
      forall i, j | LossRun(pnls, i, j)
        ensures j - i <= Streaks(pnls).longest
      {
        if j < n {
          assert forall k :: i <= k < j ==> init[k] == pnls[k];
          assert LossRun(init, i, j);
        } else if i < n {
          assert pnls[n - 1] < 0.0;
          assert forall k :: i <= k < n - 1 ==> init[k] == pnls[k];
          assert LossRun(init, i, n - 1);
        }
      }
    }
  }

  /** Some run of losses is exactly as long as the longest streak. */
  lemma {:induction false} StreaksAttained(pnls: seq<real>)
    ensures exists i, j :: LossRun(pnls, i, j) && j - i == Streaks(pnls).longest
    decreases |pnls|
  {
    if |pnls| == 0 {
      assert LossRun(pnls, 0, 0);
    } else {
      var n := |pnls|;
      var init := pnls[..n - 1];
      var t := Streaks(init);
      StreaksAttained(init);
      StreaksCurrent(init);
      var i0, j0 :| LossRun(init, i0, j0) && j0 - i0 == t.longest;
      if Streaks(pnls).longest == t.longest {
        assert forall k :: i0 <= k < j0 ==> init[k] == pnls[k];
        assert LossRun(pnls, i0, j0);
      } else {
        assert forall k :: n - 1 - t.current <= k < n - 1 ==> init[k] == pnls[k];
        assert LossRun(pnls, n - Streaks(pnls).longest, n);
      }
    }
  }

  /**
   * The longest run of consecutive losing trades: every run of losses is
   * at most this long, and one run is exactly this long.
   */
  function MaxConsecutiveLosses(pnls: seq<real>): (n: nat)
    ensures n <= |pnls|
    ensures forall i, j :: LossRun(pnls, i, j) ==> j - i <= n
    ensures exists i, j :: LossRun(pnls, i, j) && j - i == n
  {
    StreaksBound(pnls);
    StreaksAttained(pnls);
    Streaks(pnls).longest
  }

  /** The winning trades, in order. */
  function Wins(pnls: seq<real>): (w: seq<real>)
    ensures forall i :: 0 <= i < |w| ==> w[i] > 0.0
    ensures |w| <= |pnls|
    decreases |pnls|
  {
    if |pnls| == 0 then []
    else Wins(pnls[..|pnls| - 1]) + (if pnls[|pnls| - 1] > 0.0 then [pnls[|pnls| - 1]] else [])
  }

  /** The losing trades, in order. */
  function Losses(pnls: seq<real>): (l: seq<real>)
    ensures forall i :: 0 <= i < |l| ==> l[i] < 0.0
    ensures |l| <= |pnls|
    decreases |pnls|
  {
    if |pnls| == 0 then []
    else Losses(pnls[..|pnls| - 1]) + (if pnls[|pnls| - 1] < 0.0 then [pnls[|pnls| - 1]] else [])
  }

  /** A trade wins or loses unless its result is exactly zero. */
  lemma {:induction false} WinsAndLossesCount(pnls: seq<real>)
    ensures |Wins(pnls)| + |Losses(pnls)| <= |pnls|
    ensures |Wins(pnls)| + |Losses(pnls)| == |pnls| <==> forall i :: 0 <= i < |pnls| ==> pnls[i] != 0.0
    decreases |pnls|
  {
    if |pnls| > 0 {
      var init := pnls[..|pnls| - 1];
      WinsAndLossesCount(init);
      assert forall i :: 0 <= i < |init| ==> init[i] == pnls[i];
    }
  }

  /** There are no winners exactly when no trade made money. */
  lemma {:induction false} NoWins(pnls: seq<real>)
    ensures |Wins(pnls)| == 0 <==> forall i :: 0 <= i < |pnls| ==> pnls[i] <= 0.0
    decreases |pnls|
  {
    if |pnls| > 0 {
      var init := pnls[..|pnls| - 1];
      NoWins(init);
      assert forall i :: 0 <= i < |init| ==> init[i] == pnls[i];
    }
  }

  /** There are no losers exactly when no trade lost money. */
  lemma {:induction false} NoLosses(pnls: seq<real>)
    ensures |Losses(pnls)| == 0 <==> forall i :: 0 <= i < |pnls| ==> pnls[i] >= 0.0
    decreases |pnls|
  {
    if |pnls| > 0 {
      var init := pnls[..|pnls| - 1];
      NoLosses(init);
      assert forall i :: 0 <= i < |init| ==> init[i] == pnls[i];
    }
  }

  /** Net result splits into the winners' and the losers' contributions. */
  lemma {:induction false} NetSplits(pnls: seq<real>)
    ensures Sum(pnls) == Sum(Wins(pnls)) + Sum(Losses(pnls))
    decreases |pnls|
  {
    if |pnls| > 0 {
      var init := pnls[..|pnls| - 1];
      var x := pnls[|pnls| - 1];
      NetSplits(init);
      SumConcat(Wins(init), if x > 0.0 then [x] else []);
      SumConcat(Losses(init), if x < 0.0 then [x] else []);
      assert Sum([x]) == x by { assert [x][..0] == []; }
      assert Sum([]) == 0.0;
    }
  }

  lemma {:induction false} SumOfPositives(w: seq<real>)
    requires forall i :: 0 <= i < |w| ==> w[i] > 0.0
    ensures |w| > 0 ==> Sum(w) > 0.0
    decreases |w|
  {
    if |w| > 1 {
      SumOfPositives(w[..|w| - 1]);
    }
  }

  lemma {:induction false} SumOfNegatives(l: seq<real>)
    requires forall i :: 0 <= i < |l| ==> l[i] < 0.0
    ensures Sum(l) <= 0.0
    ensures |l| > 0 ==> Sum(l) < 0.0
    decreases |l|
  {
    if |l| > 0 {
      SumOfNegatives(l[..|l| - 1]);
    }
  }

  function GrossProfit(pnls: seq<real>): real
  {
    Sum(Wins(pnls))
  }

  function GrossLoss(pnls: seq<real>): real
  {
    Abs(Sum(Losses(pnls)))
  }

  /** A profit factor is a ratio, or infinite when nothing was lost. */
  datatype Factor = Finite(value: real) | Infinite

  /**
   * Gross profit over gross loss: 0 for no trades, infinite when trades
   * exist but none lost.
   */
  function ProfitFactor(pnls: seq<real>): (f: Factor)
    ensures |pnls| == 0 ==> f == Finite(0.0)
    ensures f.Infinite? <==> |pnls| > 0 && forall i :: 0 <= i < |pnls| ==> pnls[i] >= 0.0
    ensures f.Finite? ==> f.value >= 0.0
    ensures f.Finite? && |pnls| > 0 ==> f.value * GrossLoss(pnls) == GrossProfit(pnls)
  {
    NoLosses(pnls);
    SumOfNegatives(Losses(pnls));
    SumNonNegative(Wins(pnls));
    if |pnls| == 0 then Finite(0.0)
    else if GrossLoss(pnls) > 0.0 then
      QuotientSign(GrossProfit(pnls), GrossLoss(pnls));
      Finite(GrossProfit(pnls) / GrossLoss(pnls))
    else Infinite
  }

  /** A finite profit factor reaches 1 exactly when the trades net a non-negative result. */
  lemma ProfitFactorBreakEven(pnls: seq<real>)
    requires ProfitFactor(pnls).Finite? && |pnls| > 0
    ensures ProfitFactor(pnls).value >= 1.0 <==> Sum(pnls) >= 0.0
  {
    NetSplits(pnls);
    NoLosses(pnls);
    SumOfNegatives(Losses(pnls));
    assert GrossLoss(pnls) == -Sum(Losses(pnls));
    RatioAtLeastOne(GrossProfit(pnls), GrossLoss(pnls));
  }

  lemma RatioAtLeastOne(p: real, l: real)
    requires l > 0.0
    ensures p / l >= 1.0 <==> p >= l
  {
    if p / l >= 1.0 {
      assert p == (p / l) * l;
    }
  }

  /** Mean profit of the winning trades, 0 when there are none. */
  function AverageWin(pnls: seq<real>): (a: real)
    ensures |Wins(pnls)| == 0 ==> a == 0.0
    ensures |Wins(pnls)| > 0 ==> a > 0.0 && a * (|Wins(pnls)| as real) == GrossProfit(pnls)
  {
    var w := Wins(pnls);
    SumOfPositives(w);
    if |w| > 0 then MeanSign(w); Mean(w) else 0.0
  }

  /** Mean loss of the losing trades (negative), 0 when there are none. */
  function AverageLoss(pnls: seq<real>): (a: real)
    ensures |Losses(pnls)| == 0 ==> a == 0.0
    ensures |Losses(pnls)| > 0 ==> a < 0.0 && a * (|Losses(pnls)| as real) == -GrossLoss(pnls)
  {
    var l := Losses(pnls);
    SumOfNegatives(l);
    if |l| > 0 then MeanSign(l); Mean(l) else 0.0
  }

  /** Relative change from the first to the last equity; `None` when the start is zero. */
  function TotalReturn(initial: real, final: real): (r: Option<real>)
    ensures r.None? <==> initial == 0.0
    ensures r.Some? ==> r.value * initial == final - initial
    ensures r.Some? && initial > 0.0 ==> (r.value >= 0.0 <==> final >= initial)
  {
    SafeDiv(final - initial, initial)
  }

  /** The report of a run: the `{"error": ...}` dictionary is `None`. */
  datatype Report = Report(
    totalReturn: Option<real>,
    totalTrades: nat,
    winningTrades: nat,
    losingTrades: nat,
    winRate: real,
    avgWin: real,
    avgLoss: real,
    maxDrawdown: Option<real>,
    profitFactor: Factor,
    maxConsecutiveLosses: nat,
    finalEquity: real)

  /** The performance report of an equity curve and its trades. */
  function PerformanceReport(equity: seq<real>, pnls: seq<real>): (r: Option<Report>)
    ensures r.None? <==> |equity| == 0
    ensures r.Some? ==>
      && r.value.totalTrades == |pnls|
      && r.value.winningTrades == CountAbove(pnls, 0.0)
      && r.value.winningTrades + r.value.losingTrades <= |pnls|
      && r.value.finalEquity == equity[|equity| - 1]
    ensures r.Some? ==> r.value.losingTrades + CountAtLeast(pnls, 0.0) == |pnls|
    ensures r.Some? ==> r.value.winRate == Ratio(r.value.winningTrades, |pnls|)
    ensures r.Some? ==> r.value.totalReturn == TotalReturn(equity[0], equity[|equity| - 1])
    ensures r.Some? ==> r.value.avgWin == AverageWin(pnls) && r.value.avgLoss == AverageLoss(pnls)
    ensures r.Some? ==> r.value.profitFactor == ProfitFactor(pnls)
    ensures r.Some? ==> r.value.maxConsecutiveLosses == MaxConsecutiveLosses(pnls)
    ensures r.Some? ==> r.value.maxDrawdown == SafeDiv(Drawdown.MaxDrop(equity), SeqMax(equity))
  {
    if |equity| == 0 then None
    else
      var w := Wins(pnls);
      var l := Losses(pnls);
      WinsAndLossesCount(pnls);
      WinsCountAbove(pnls);
      LossesCountAtLeast(pnls);
      Some(Report(
        totalReturn := TotalReturn(equity[0], equity[|equity| - 1]),
        totalTrades := |pnls|,
        winningTrades := |w|,
        losingTrades := |l|,
        winRate := Ratio(|w|, |pnls|),
        avgWin := AverageWin(pnls),
        avgLoss := AverageLoss(pnls),
        maxDrawdown := SafeDiv(Drawdown.MaxDrop(equity), SeqMax(equity)),
        profitFactor := ProfitFactor(pnls),
        maxConsecutiveLosses := MaxConsecutiveLosses(pnls),
        finalEquity := equity[|equity| - 1]))
  }

  /** The winners are the trades counted above zero. */
  lemma {:induction false} WinsCountAbove(pnls: seq<real>)
    ensures |Wins(pnls)| == CountAbove(pnls, 0.0)
    decreases |pnls|
  {
    if |pnls| > 0 {
      WinsCountAbove(pnls[..|pnls| - 1]);
    }
  }

  /** Every trade either loses or reaches zero. */
  lemma {:induction false} LossesCountAtLeast(pnls: seq<real>)
    ensures |Losses(pnls)| + CountAtLeast(pnls, 0.0) == |pnls|
    decreases |pnls|
  {
    if |pnls| > 0 {
      LossesCountAtLeast(pnls[..|pnls| - 1]);
    }
  }
}

=== FILE: monitoring.dfy ===
/**
 * The pure parts of the monitoring helpers (core/monitoring_helpers.py): the
 * per-strategy breakdown that merges summary sources into one sorted list of
 * entries, the coercion that fills missing per-strategy statistics, and the
 * balance reconciliation rule. Reading the summary JSON, the snapshot file,
 * the log statistics and the broker's open positions is left out; the logged
 * balance P&L of the session is a parameter.
 */
module Monitoring {
  import opened Wrappers
  import opened Num
  import Text
  import Sorting

  /** The largest balance mismatch (account currency) still reported as consistent. */
  const ReconciliationEpsilon: real := 1.0

  /** Known strategy ids and their families. */
  const FamilyHints: map<string, string> := map[
    "OMEGA_M15_TF1" := "trend",
    "OMEGA_MR_M15" := "mean_reversion",
    "OMEGA_SESSION_LDN_M15" := "session_momentum"
  ]

  function InferFamily(id: string): (family: string)
    ensures family == "unknown" <==> id !in FamilyHints
    ensures family in {"trend", "mean_reversion", "session_momentum", "unknown"}
  {
    if id in FamilyHints then FamilyHints[id] else "unknown"
  }

  /** A per-strategy summary as read from JSON: every field may be absent (None). */
  datatype Payload = Payload(
    strategyId: Option<string>,
    trades: Option<int>,
    wins: Option<int>,
    losses: Option<int>,
    pnl: Option<real>,
    winRate: Option<real>,
    avgPnlPerTrade: Option<real>,
    avgPnl: Option<real>,
    family: Option<string>)

  const EmptyPayload: Payload := Payload(None, None, None, None, None, None, None, None, None)

  /** One row of the breakdown, with every statistic filled in. */
  datatype Entry = Entry(
    strategyId: string,
    family: string,
    trades: int,
    wins: int,
    losses: int,
    pnl: real,
    winRate: real,
    avgPnl: real)

  /**
   * Fills the statistics a payload leaves out: wins from the win rate, losses
   * from trades and wins, the average from the total, the win rate from the
   * counts, and the family from the hints.
   */
  function CoerceEntry(id: string, p: Payload): (e: Entry)
    ensures e.strategyId == id && e.trades == p.trades.GetOr(0) && e.pnl == p.pnl.GetOr(0.0)
    ensures p.wins.Some? ==> e.wins == p.wins.value
    ensures (p.wins.None? && p.winRate.Some? && e.trades != 0) ==>
              -0.5 <= p.winRate.value * e.trades as real - e.wins as real <= 0.5
    ensures (p.wins.None? && (p.winRate.None? || e.trades == 0)) ==> e.wins == 0
    ensures p.losses.Some? ==> e.losses == p.losses.value
    ensures (p.losses.None? && e.wins <= e.trades) ==> e.wins + e.losses == e.trades
    ensures (p.losses.None? && e.wins > e.trades) ==> e.losses == 0
    ensures p.avgPnlPerTrade.Some? ==> e.avgPnl == p.avgPnlPerTrade.value
    ensures (p.avgPnlPerTrade.None? && p.avgPnl.Some?) ==> e.avgPnl == p.avgPnl.value
    ensures (p.avgPnlPerTrade.None? && p.avgPnl.None?) ==>
              (if e.trades != 0 then Scales(e.avgPnl, e.trades as real, e.pnl) else e.avgPnl == 0.0)
    ensures p.winRate.Some? ==> e.winRate == p.winRate.value
    ensures p.winRate.None? ==>
              (if e.trades != 0 then Scales(e.winRate, e.trades as real, e.wins as real) else e.winRate == 0.0)
    ensures e.family == (if p.family.Some? && p.family.value != "" then p.family.value else InferFamily(id))
  {
    var trades := p.trades.GetOr(0);
    var wins := CoercedWins(p, trades);
    var losses :=
      if p.losses.Some? then p.losses.value
      else if trades >= wins then trades - wins
      else 0;
    var pnl := p.pnl.GetOr(0.0);
    var avg := if p.avgPnlPerTrade.Some? then p.avgPnlPerTrade.value else AverageOr(p.avgPnl, pnl, trades);
    var rate := AverageOr(p.winRate, wins as real, trades);
    var family := if p.family.Some? && p.family.value != "" then p.family.value else InferFamily(id);
    Entry(id, family, trades, wins, losses, pnl, rate, avg)
  }

  /** The wins as given, else the win rate times the trades rounded half to even, else 0. */
  function CoercedWins(p: Payload, trades: int): (wins: int)
    ensures p.wins.Some? ==> wins == p.wins.value
    ensures (p.wins.None? && p.winRate.Some? && trades != 0) ==>
              -0.5 <= p.winRate.value * trades as real - wins as real <= 0.5
    ensures (p.wins.None? && (p.winRate.None? || trades == 0)) ==> wins == 0
  {
    if p.wins.Some? then p.wins.value
    else if p.winRate.Some? && trades != 0 then RoundHalfEven(p.winRate.value * trades as real)
    else 0
  }

  /** A given figure, else the total spread over the trades, else 0. */
  function AverageOr(given: Option<real>, total: real, trades: int): (r: real)
    ensures given.Some? ==> r == given.value
    ensures given.None? ==> (if trades != 0 then Scales(r, trades as real, total) else r == 0.0)
  {
    if given.Some? then given.value
    else if trades != 0 then Per(total, trades as real)
    else 0.0
  }

  /** An id with no statistics gets zeros and its hinted family. */
  lemma CoerceEmpty(id: string)
    ensures var e := CoerceEntry(id, EmptyPayload);
            e.trades == 0 && e.wins == 0 && e.losses == 0 && e.pnl == 0.0
            && e.winRate == 0.0 && e.avgPnl == 0.0 && e.family == InferFamily(id)
  {
  }

  /**
   * Given only consistent counts and a total, the filled-in entry is
   * consistent: wins and losses add up to trades, and the rate and the
   * average agree with the counts and the total.
   */
  lemma CoerceConsistent(id: string, trades: nat, wins: nat, pnl: real)
    requires 0 < trades && wins <= trades
    ensures var e := CoerceEntry(id, EmptyPayload.(trades := Some(trades), wins := Some(wins), pnl := Some(pnl)));
            e.wins + e.losses == e.trades && 0.0 <= e.winRate <= 1.0
            && Scales(e.winRate, trades as real, wins as real) && Scales(e.avgPnl, trades as real, pnl)
  {
    var e := CoerceEntry(id, EmptyPayload.(trades := Some(trades), wins := Some(wins), pnl := Some(pnl)));
    assert e.winRate == wins as real / trades as real;
  }

  /** With only a win rate in [0, 1], the derived wins stay within [0, trades]. */
  lemma CoerceWinsFromRate(id: string, trades: nat, rate: real)
    requires 0 < trades && 0.0 <= rate <= 1.0
    ensures var e := CoerceEntry(id, EmptyPayload.(trades := Some(trades), winRate := Some(rate)));
            0 <= e.wins <= trades && e.wins + e.losses == trades
  {
    var p := EmptyPayload.(trades := Some(trades), winRate := Some(rate));
    var x := rate * trades as real;
    assert 0.0 <= x <= trades as real by {
      assert rate * trades as real <= 1.0 * trades as real;
    }
    var w := CoercedWins(p, trades);
    assert -0.5 <= x - w as real <= 0.5;
    assert 0 <= w <= trades;
    assert CoerceEntry(id, p).wins == w;
  }

  // ---------------------------------------------------------------------------
  // Sources and buckets
  // ---------------------------------------------------------------------------

  /**
   * One argument of `build_strategy_breakdown_entries`: a dict from id to
   * payload (in its insertion order), a list of payloads carrying their own
   * ids, or anything else (ignored).
   */
  datatype Source =
    | FromDict(pairs: seq<(string, Payload)>)
    | FromList(payloads: seq<Payload>)
    | Other

  /** The (id, payload) pairs one source contributes, in order. */
  function SourceItems(s: Source): (items: seq<(Option<string>, Payload)>)
    ensures s.Other? ==> items == []
    ensures s.FromDict? ==> |items| == |s.pairs|
    ensures s.FromList? ==> |items| == |s.payloads|
  {
    match s
    case FromDict(pairs) => seq(|pairs|, i requires 0 <= i < |pairs| => (Some(pairs[i].0), pairs[i].1))
    case FromList(ps) => seq(|ps|, i requires 0 <= i < |ps| => (ps[i].strategyId, ps[i]))
    case Other => []
  }

  /** All pairs of all sources, in argument order. */
  function Items(sources: seq<Source>): (items: seq<(Option<string>, Payload)>)
    ensures sources == [] ==> items == []
  {
    if |sources| == 0 then [] else Items(sources[..|sources| - 1]) + SourceItems(sources[|sources| - 1])
  }

  /** Python's truthiness of an optional id: present and non-empty. */
  predicate Named(id: Option<string>)
  {
    id.Some? && id.value != ""
  }

  /** The dict of buckets, as its values in insertion order. */
  type Buckets = seq<Entry>

  predicate Has(bs: Buckets, id: string)
  {
    exists i :: 0 <= i < |bs| && bs[i].strategyId == id
  }

  predicate UniqueIds(bs: Buckets)
  {
    forall i, j :: 0 <= i < j < |bs| ==> bs[i].strategyId != bs[j].strategyId
  }

  /** The position of the bucket for `id`, if there is one. */
  function Find(bs: Buckets, id: string): (r: Option<nat>)
    ensures r.Some? ==> r.value < |bs| && bs[r.value].strategyId == id
    ensures r.None? <==> !Has(bs, id)
  {
    if |bs| == 0 then None
    else if bs[|bs| - 1].strategyId == id then Some(|bs| - 1)
    else
      var r := Find(bs[..|bs| - 1], id);
      assert forall i :: 0 <= i < |bs| - 1 ==> bs[..|bs| - 1][i] == bs[i];
      r
  }

  /** `buckets[e.strategy_id] = e`: replace in place, or append. */
  function Put(bs: Buckets, e: Entry): (r: Buckets)
    requires UniqueIds(bs)
    ensures UniqueIds(r) && e in r
    ensures forall id :: Has(r, id) <==> (Has(bs, id) || id == e.strategyId)
    ensures forall x :: x in bs && x.strategyId != e.strategyId ==> x in r
    ensures forall x :: x in r && x.strategyId != e.strategyId ==> x in bs
  {
    match Find(bs, e.strategyId)
    case Some(k) =>
      var r := bs[k := e];
      assert forall x :: x in bs && x.strategyId != e.strategyId ==> x in r by {
        forall x | x in bs && x.strategyId != e.strategyId
          ensures x in r
        {
          var i :| 0 <= i < |bs| && bs[i] == x;
          assert r[i] == x;
        }
      }
      assert forall id :: Has(r, id) ==> (Has(bs, id) || id == e.strategyId) by {
        forall id | Has(r, id)
          ensures Has(bs, id) || id == e.strategyId
        {
          var i :| 0 <= i < |r| && r[i].strategyId == id;
          if i != k {
            assert bs[i].strategyId == id;
          }
        }
      }
      assert forall id :: Has(bs, id) ==> Has(r, id) by {
        forall id | Has(bs, id)
          ensures Has(r, id)
        {
          var i :| 0 <= i < |bs| && bs[i].strategyId == id;
          assert r[i].strategyId == id;
        }
      }
      assert r[k] == e;
      r
    case None =>
      var r := bs + [e];
      assert forall id :: Has(r, id) ==> (Has(bs, id) || id == e.strategyId) by {
        forall id | Has(r, id)
          ensures Has(bs, id) || id == e.strategyId
        {
          var i :| 0 <= i < |r| && r[i].strategyId == id;
          if i < |bs| {
            assert bs[i].strategyId == id;
          }
        }
      }
      assert forall id :: Has(bs, id) ==> Has(r, id) by {
        forall id | Has(bs, id)
          ensures Has(r, id)
        {
          var i :| 0 <= i < |bs| && bs[i].strategyId == id;
          assert r[i].strategyId == id;
        }
      }
      assert r[|bs|] == e;
      r
  }

  /** `buckets.setdefault(e.strategy_id, e)`: append only when the id is new. */
  function SetDefault(bs: Buckets, e: Entry): (r: Buckets)
    requires UniqueIds(bs)
    ensures UniqueIds(r)
    ensures Has(bs, e.strategyId) ==> r == bs
    ensures !Has(bs, e.strategyId) ==> r == Put(bs, e)
  {
    if Find(bs, e.strategyId).Some? then bs else Put(bs, e)
  }

  /** The source loop: every named pair overwrites its id's bucket. */
  function Fill(bs: Buckets, items: seq<(Option<string>, Payload)>): (r: Buckets)
    requires UniqueIds(bs)
    ensures UniqueIds(r)
    decreases |items|
  {
    if |items| == 0 then bs
    else
      var next := if Named(items[0].0) then Put(bs, CoerceEntry(items[0].0.value, items[0].1)) else bs;
      Fill(next, items[1..])
  }

  /** The pair at `i` is the last one naming its id. */
  ghost predicate LastFor(items: seq<(Option<string>, Payload)>, i: nat)
    requires i < |items|
  {
    forall j :: i < j < |items| ==> items[j].0 != items[i].0
  }

  /**
   * Later sources override earlier ones: the bucket of every named id holds
   * the entry coerced from the last pair naming it, and the ids present are
   * exactly the earlier ones plus the named ones.
   */
  lemma {:induction false} FillLastWins(bs: Buckets, items: seq<(Option<string>, Payload)>)
    requires UniqueIds(bs)
    ensures forall i :: 0 <= i < |items| && Named(items[i].0) && LastFor(items, i) ==>
              CoerceEntry(items[i].0.value, items[i].1) in Fill(bs, items)
    ensures forall id :: Has(Fill(bs, items), id) <==>
              (Has(bs, id) || exists i :: 0 <= i < |items| && items[i].0 == Some(id) && id != "")
    ensures forall x :: x in bs && (forall i :: 0 <= i < |items| ==> items[i].0 != Some(x.strategyId)) ==>
              x in Fill(bs, items)
    decreases |items|
  {
    if |items| > 0 {
      var next := if Named(items[0].0) then Put(bs, CoerceEntry(items[0].0.value, items[0].1)) else bs;
      var rest := items[1..];
      FillLastWins(next, rest);
      var r := Fill(bs, items);
      assert r == Fill(next, rest);
      forall i | 0 <= i < |items| && Named(items[i].0) && LastFor(items, i)
        ensures CoerceEntry(items[i].0.value, items[i].1) in r
      {
        if i == 0 {
          var e := CoerceEntry(items[0].0.value, items[0].1);
          assert e in next;
          assert forall j :: 0 <= j < |rest| ==> rest[j].0 != Some(e.strategyId) by {
            forall j | 0 <= j < |rest|
              ensures rest[j].0 != Some(e.strategyId)
            {
              assert rest[j] == items[j + 1];
            }
          }
        } else {
          assert items[i] == rest[i - 1];
          assert LastFor(rest, i - 1) by {
            forall j | i - 1 < j < |rest|
              ensures rest[j].0 != rest[i - 1].0
            {
              assert rest[j] == items[j + 1];
            }
          }
        }
      }
      forall id
        ensures Has(r, id) <==> (Has(bs, id) || exists i :: 0 <= i < |items| && items[i].0 == Some(id) && id != "")
      {
        if exists i :: 0 <= i < |rest| && rest[i].0 == Some(id) && id != "" {
          var i :| 0 <= i < |rest| && rest[i].0 == Some(id) && id != "";
          assert items[i + 1] == rest[i];
        }
        if exists i :: 0 <= i < |items| && items[i].0 == Some(id) && id != "" {
          var i :| 0 <= i < |items| && items[i].0 == Some(id) && id != "";
          if i > 0 {
            assert rest[i - 1] == items[i];
          }
        }
      }
      forall x | x in bs && (forall i :: 0 <= i < |items| ==> items[i].0 != Some(x.strategyId))
        ensures x in r
      {
        assert items[0].0 != Some(x.strategyId);
        assert x in next;
        forall i | 0 <= i < |rest|
          ensures rest[i].0 != Some(x.strategyId)
        {
          assert rest[i] == items[i + 1];
        }
      }
    }
  }

  /** The `(sid or "").strip()` ids that survive the empty check, in order. */
  function ExpectedIds(expected: seq<Option<string>>): (ids: seq<string>)
    ensures forall k :: 0 <= k < |ids| ==> ids[k] != ""
    ensures |ids| <= |expected|
  {
    if |expected| == 0 then []
    else
      var sid := Text.Strip(expected[|expected| - 1].GetOr(""));
      ExpectedIds(expected[..|expected| - 1]) + (if sid == "" then [] else [sid])
  }

  /** The expected-id loop: add an empty-statistics bucket for each missing id. */
  function AddExpected(bs: Buckets, ids: seq<string>): (r: Buckets)
    requires UniqueIds(bs)
    ensures UniqueIds(r)
    ensures forall id :: Has(r, id) <==> (Has(bs, id) || id in ids)
    ensures forall x :: x in bs ==> x in r
    ensures forall x :: x in r && x !in bs ==> x == CoerceEntry(x.strategyId, EmptyPayload)
    decreases |ids|
  {
    if |ids| == 0 then bs
    else
      var e := CoerceEntry(ids[0], EmptyPayload);
      var next := SetDefault(bs, e);
      assert forall x :: x in bs ==> x in next;
      var r := AddExpected(next, ids[1..]);
      assert ids == [ids[0]] + ids[1..];
      r
  }

  /** Python's `sorted(..., key=lambda row: row["strategy_id"])`. */
  function SortById(bs: Buckets): (r: Buckets)
    ensures |r| == |bs|
  {
    Sorting.SortByName(bs, (e: Entry) => e.strategyId)
  }

  /**
   * The buckets of `build_strategy_breakdown_entries` before sorting: every
   * source merged in, the expected ids added, and the default id when
   * nothing is left.
   */
  function MergedBuckets(sources: seq<Source>, expected: seq<Option<string>>, defaultId: string): (bs: Buckets)
    ensures UniqueIds(bs) && |bs| > 0
  {
    var filled := Fill([], Items(sources));
    var withExpected := AddExpected(filled, ExpectedIds(expected));
    if |withExpected| == 0 then [CoerceEntry(defaultId, EmptyPayload)] else withExpected
  }

  /** `build_strategy_breakdown_entries`: the merged buckets sorted by id. */
  function Breakdown(sources: seq<Source>, expected: seq<Option<string>>, defaultId: string): (r: seq<Entry>)
    ensures |r| > 0
  {
    SortById(MergedBuckets(sources, expected, defaultId))
  }

  lemma {:induction false} TwoPositionsCount<T>(s: seq<T>, i: nat, j: nat)
    requires i < j < |s| && s[i] == s[j]
    ensures multiset(s)[s[i]] >= 2
  {
    assert s == s[..j] + s[j..];
    assert s[i] == s[..j][i];
    assert s[j] == s[j..][0];
    assert multiset(s) == multiset(s[..j]) + multiset(s[j..]);
  }

  lemma {:induction false} UniqueCountOne(bs: Buckets, x: Entry)
    requires UniqueIds(bs)
    ensures multiset(bs)[x] <= 1
    decreases |bs|
  {
    if |bs| > 0 {
      var init := bs[..|bs| - 1];
      var last := bs[|bs| - 1];
      assert bs == init + [last];
      assert UniqueIds(init) by {
        forall i, j | 0 <= i < j < |init|
          ensures init[i].strategyId != init[j].strategyId
        {
          assert init[i] == bs[i] && init[j] == bs[j];
        }
      }
      UniqueCountOne(init, x);
    }
  }

  /** Reordering a bucket list keeps its ids distinct. */
  lemma UniquePermutation(bs: Buckets, r: Buckets)
    requires UniqueIds(bs) && multiset(r) == multiset(bs)
    ensures UniqueIds(r)
  {
    forall i, j | 0 <= i < j < |r|
      ensures r[i].strategyId != r[j].strategyId
    {
      if r[i] == r[j] {
        TwoPositionsCount(r, i, j);
        UniqueCountOne(bs, r[i]);
      } else {
        assert r[i] in multiset(bs) && r[j] in multiset(bs);
        var a :| 0 <= a < |bs| && bs[a] == r[i];
        var b :| 0 <= b < |bs| && bs[b] == r[j];
        assert a != b;
      }
    }
  }

  /** The breakdown has distinct ids in strictly increasing string order. */
  lemma BreakdownStrictlySorted(sources: seq<Source>, expected: seq<Option<string>>, defaultId: string)
    ensures var r := Breakdown(sources, expected, defaultId);
            forall i, j :: 0 <= i < j < |r| ==> Text.Less(r[i].strategyId, r[j].strategyId)
  {
    var bs := MergedBuckets(sources, expected, defaultId);
    var r := Breakdown(sources, expected, defaultId);
    assert r == SortById(bs);
    Sorting.SortByNameSortsAndPermutes(bs, (e: Entry) => e.strategyId);
    UniquePermutation(bs, r);
    forall i, j | 0 <= i < j < |r|
      ensures Text.Less(r[i].strategyId, r[j].strategyId)
    {
      assert !Text.Less(r[j].strategyId, r[i].strategyId);
      Text.LessTotal(r[i].strategyId, r[j].strategyId);
    }
  }

  /** Sorting keeps exactly the merged entries. */
  lemma BreakdownMembers(sources: seq<Source>, expected: seq<Option<string>>, defaultId: string)
    ensures forall x :: x in Breakdown(sources, expected, defaultId) <==> x in MergedBuckets(sources, expected, defaultId)
  {
    var bs := MergedBuckets(sources, expected, defaultId);
    var r := Breakdown(sources, expected, defaultId);
    Sorting.SortByNameSortsAndPermutes(bs, (e: Entry) => e.strategyId);
    forall x
      ensures x in r <==> x in bs
    {
      assert x in bs <==> x in multiset(bs);
      assert x in r <==> x in multiset(r);
    }
  }

  /**
   * Later sources override earlier ones: the breakdown holds the entry
   * coerced from the last pair naming each id.
   */
  lemma BreakdownLastWins(sources: seq<Source>, expected: seq<Option<string>>, defaultId: string)
    ensures var items := Items(sources);
            forall i :: 0 <= i < |items| && Named(items[i].0) && LastFor(items, i) ==>
              CoerceEntry(items[i].0.value, items[i].1) in Breakdown(sources, expected, defaultId)
  {
    var items := Items(sources);
    var filled := Fill([], items);
    var withExpected := AddExpected(filled, ExpectedIds(expected));
    FillLastWins([], items);
    BreakdownMembers(sources, expected, defaultId);
    forall i | 0 <= i < |items| && Named(items[i].0) && LastFor(items, i)
      ensures CoerceEntry(items[i].0.value, items[i].1) in MergedBuckets(sources, expected, defaultId)
    {
      assert CoerceEntry(items[i].0.value, items[i].1) in withExpected;
    }
  }

  /**
   * Every expected id is in the breakdown, with zero statistics unless some
   * source named it.
   */
  lemma BreakdownHasExpected(sources: seq<Source>, expected: seq<Option<string>>, defaultId: string)
    ensures var r := Breakdown(sources, expected, defaultId);
            forall id :: id in ExpectedIds(expected) ==>
              (Has(r, id)
               && (!Has(Fill([], Items(sources)), id) ==> CoerceEntry(id, EmptyPayload) in r))
  {
    var filled := Fill([], Items(sources));
    var bs := MergedBuckets(sources, expected, defaultId);
    var r := Breakdown(sources, expected, defaultId);
    BreakdownMembers(sources, expected, defaultId);
    forall id | id in ExpectedIds(expected)
      ensures Has(r, id) && (!Has(filled, id) ==> CoerceEntry(id, EmptyPayload) in r)
    {
      MergedHasExpected(sources, expected, defaultId, id);
      SameMembersHas(bs, r, id, CoerceEntry(id, EmptyPayload));
    }
  }

  /** Two bucket lists with the same members hold the same ids. */
  lemma SameMembersHas(bs: Buckets, r: Buckets, id: string, e: Entry)
    requires forall x :: x in r <==> x in bs
    requires Has(bs, id)
    ensures Has(r, id) && (e in bs ==> e in r)
  {
    var k :| 0 <= k < |bs| && bs[k].strategyId == id;
    assert bs[k] in r;
  }

  /** Before sorting: the merged buckets hold each expected id, as an empty entry when no source named it. */
  lemma MergedHasExpected(sources: seq<Source>, expected: seq<Option<string>>, defaultId: string, id: string)
    requires id in ExpectedIds(expected)
    ensures var bs := MergedBuckets(sources, expected, defaultId);
            Has(bs, id) && (!Has(Fill([], Items(sources)), id) ==> CoerceEntry(id, EmptyPayload) in bs)
  {
    var filled := Fill([], Items(sources));
    AddedHas(filled, ExpectedIds(expected), id);
    assert MergedBuckets(sources, expected, defaultId) == AddExpected(filled, ExpectedIds(expected));
  }

  /** An id added by `setdefault` is present, as an empty entry when it was not there before. */
  lemma AddedHas(bs: Buckets, ids: seq<string>, id: string)
    requires UniqueIds(bs) && id in ids
    ensures var r := AddExpected(bs, ids);
            Has(r, id) && (!Has(bs, id) ==> CoerceEntry(id, EmptyPayload) in r)
  {
    var r := AddExpected(bs, ids);
    var k :| 0 <= k < |r| && r[k].strategyId == id;
    if !Has(bs, id) {
      assert r[k] !in bs;
    }
  }

  /** With no named pair and no expected id, only the default id is reported. */
  lemma BreakdownDefault(sources: seq<Source>, expected: seq<Option<string>>, defaultId: string)
    requires forall i :: 0 <= i < |Items(sources)| ==> !Named(Items(sources)[i].0)
    requires ExpectedIds(expected) == []
    ensures Breakdown(sources, expected, defaultId) == [CoerceEntry(defaultId, EmptyPayload)]
  {
    var items := Items(sources);
    FillLastWins([], items);
    var filled := Fill([], items);
    assert |filled| == 0 by {
      if |filled| > 0 {
        assert Has(filled, filled[0].strategyId);
      }
    }
    assert MergedBuckets(sources, expected, defaultId) == [CoerceEntry(defaultId, EmptyPayload)];
  }

  // ---------------------------------------------------------------------------
  // Reconciliation
  // ---------------------------------------------------------------------------

  datatype Reconciliation = Reconciliation(
    sessionId: string,
    balanceDelta: real,
    loggedBalancePnl: real,
    difference: real,
    ok: bool)

  /**
   * Compares the broker balance change with the P&L the session's log
   * records. `loggedBalancePnl` is the session's logged balance P&L over the
   * last 24 hours.
   */
  function Reconcile(sessionId: Option<string>, balanceStart: real, balanceEnd: real, loggedBalancePnl: real)
    : (r: Reconciliation)
    ensures !Named(sessionId) ==> r == Reconciliation("", 0.0, 0.0, 0.0, true)
    ensures Named(sessionId) ==>
              r.sessionId == sessionId.value
              && r.balanceDelta + balanceStart == balanceEnd
              && r.difference + r.loggedBalancePnl == r.balanceDelta
              && r.loggedBalancePnl == loggedBalancePnl
              && (r.ok <==> -ReconciliationEpsilon <= balanceEnd - balanceStart - loggedBalancePnl <= ReconciliationEpsilon)
  {
    if !Named(sessionId) then Reconciliation("", 0.0, 0.0, 0.0, true)
    else
      var delta := balanceEnd - balanceStart;
      var difference := delta - loggedBalancePnl;
      Reconciliation(sessionId.value, delta, loggedBalancePnl, difference, Abs(difference) <= ReconciliationEpsilon)
  }

  /** A balance change the log fully explains always reconciles, whatever the session. */
  lemma ExplainedBalanceReconciles(sessionId: Option<string>, balanceStart: real, loggedBalancePnl: real)
    ensures Reconcile(sessionId, balanceStart, balanceStart + loggedBalancePnl, loggedBalancePnl).ok
  {
  }
}

=== FILE: mt5_prep.dfy ===
/**
 * Normalisation of an MT5 price export (scripts/prepare_mt5_data.py): the
 * header normalisation, the choice of time, date and volume columns, the
 * timeframe inferred from the file name, and the cleaned bar table (rows
 * with a missing value dropped, sorted by timestamp, one row per
 * timestamp). Reading the CSV and parsing timestamps and numbers happen
 * before this model: each row arrives with its parsed values, absent where
 * parsing failed.
 */
module Mt5Prep {
  import opened Wrappers
  import Text
  import Dicts
  import Sorting

  predicate IsAngle(c: char) { c == '<' || c == '>' }

  function StripLeftAngles(s: string): (r: string)
    ensures |r| <= |s| && r == s[|s| - |r|..]
    ensures |r| > 0 ==> !IsAngle(r[0])
    decreases |s|
  {
    if |s| > 0 && IsAngle(s[0]) then StripLeftAngles(s[1..]) else s
  }

  function StripRightAngles(s: string): (r: string)
    ensures |r| <= |s| && r == s[..|r|]
    ensures |r| > 0 ==> !IsAngle(r[|r| - 1])
    ensures |s| > 0 && !IsAngle(s[|s| - 1]) ==> r == s
    decreases |s|
  {
    if |s| > 0 && IsAngle(s[|s| - 1]) then StripRightAngles(s[..|s| - 1]) else s
  }

  /** `s.strip("<>")`: angle brackets removed from both ends. */
  function StripAngles(s: string): (r: string)
    ensures |r| > 0 ==> !IsAngle(r[0]) && !IsAngle(r[|r| - 1])
  {
    var left := StripLeftAngles(s);
    var r := StripRightAngles(left);
    assert |r| > 0 ==> r[0] == left[0];
    r
  }

  /** `_normalize_header`: strip, lowercase, strip angle brackets, spaces to underscores. */
  function NormalizeHeader(name: string): (key: string)
    ensures forall i :: 0 <= i < |key| ==> key[i] != ' ' && !Text.IsUpperLetter(key[i])
    ensures |key| > 0 ==> !IsAngle(key[0]) && !IsAngle(key[|key| - 1])
  {
    ShapeAfterStrip(Text.Strip(name));
    Text.ReplaceChar(StripAngles(Text.Lower(Text.Strip(name))), ' ', '_')
  }

  lemma ShapeAfterStrip(stripped: string)
    ensures var key := Text.ReplaceChar(StripAngles(Text.Lower(stripped)), ' ', '_');
            (forall i :: 0 <= i < |key| ==> key[i] != ' ' && !Text.IsUpperLetter(key[i]))
            && (|key| > 0 ==> !IsAngle(key[0]) && !IsAngle(key[|key| - 1]))
  {
    var lowered := Text.Lower(stripped);
    StripAnglesKeepsCase(lowered);
    ReplaceShape(StripAngles(lowered));
  }

  lemma ReplaceShape(bare: string)
    requires forall i :: 0 <= i < |bare| ==> !Text.IsUpperLetter(bare[i])
    requires |bare| > 0 ==> !IsAngle(bare[0]) && !IsAngle(bare[|bare| - 1])
    ensures var key := Text.ReplaceChar(bare, ' ', '_');
            (forall i :: 0 <= i < |key| ==> key[i] != ' ' && !Text.IsUpperLetter(key[i]))
            && (|key| > 0 ==> !IsAngle(key[0]) && !IsAngle(key[|key| - 1]))
  {
  }

  lemma StripAnglesKeepsCase(s: string)
    requires forall i :: 0 <= i < |s| ==> !Text.IsUpperLetter(s[i])
    ensures forall i :: 0 <= i < |StripAngles(s)| ==> !Text.IsUpperLetter(StripAngles(s)[i])
  {
    var left := StripLeftAngles(s);
    assert forall i :: 0 <= i < |left| ==> left[i] == s[|s| - |left| + i];
  }

  predicate Plain(w: string)
  {
    forall i :: 0 <= i < |w| ==> !Text.IsSpace(w[i]) && !IsAngle(w[i])
  }

  /** A header without whitespace or angle brackets normalises to the lowercased word. */
  lemma BareHeader(w: string)
    requires Plain(w)
    ensures NormalizeHeader(w) == Text.Lower(w)
  {
    StripsNothing(w);
    var lw := Text.Lower(w);
    LowerPlain(w);
    AnglesAround(lw);
    NoSpaceNoReplace(lw);
  }

  /** The MT5 bracketed form `<W>` of such a header normalises to the lowercased word too. */
  lemma BracketedHeader(w: string)
    requires Plain(w)
    ensures NormalizeHeader("<" + w + ">") == Text.Lower(w)
  {
    var b := "<" + w + ">";
    StripsNothing(b);
    assert Text.Strip(b) == b;
    var lw := Text.Lower(w);
    LowerPlain(w);
    LowerAround(w);
    assert Text.Lower(b) == "<" + lw + ">";
    AnglesAround(lw);
    assert StripAngles("<" + lw + ">") == lw;
    NoSpaceNoReplace(lw);
  }

  lemma LowerPlain(w: string)
    requires Plain(w)
    ensures Plain(Text.Lower(w))
  {
  }

  lemma LowerAround(w: string)
    ensures Text.Lower("<" + w + ">") == "<" + Text.Lower(w) + ">"
  {
    var b := "<" + w + ">";
    var lw := Text.Lower(w);
    var l := Text.Lower(b);
    var e := "<" + lw + ">";
    assert |l| == |e|;
    forall i | 0 <= i < |l|
      ensures l[i] == e[i]
    {
      if 0 < i < |l| - 1 {
        assert b[i] == w[i - 1];
        assert e[i] == lw[i - 1];
      }
    }
  }

  /** Stripping angle brackets from `<x>` gives `x` when `x` holds none. */
  lemma AnglesAround(x: string)
    requires Plain(x)
    ensures StripAngles("<" + x + ">") == x
    ensures StripAngles(x) == x
  {
    assert ("<" + x + ">")[1..] == x + ">";
    if |x| == 0 {
      assert StripLeftAngles(">") == "";
    } else {
      assert StripLeftAngles(x + ">") == x + ">";
      assert (x + ">")[..|x|] == x;
      assert StripRightAngles(x + ">") == StripRightAngles(x) == x;
    }
  }

  lemma NoSpaceNoReplace(x: string)
    requires Plain(x)
    ensures Text.ReplaceChar(x, ' ', '_') == x
  {
  }

  /** Whitespace stripping leaves a string without whitespace at its ends alone. */
  lemma StripsNothing(s: string)
    requires |s| > 0 ==> !Text.IsSpace(s[0]) && !Text.IsSpace(s[|s| - 1])
    ensures Text.Strip(s) == s
  {
  }

  /** Each column with its normalised header. */
  function Keyed(columns: seq<string>): (r: seq<(string, string)>)
    ensures |r| == |columns|
    ensures forall i :: 0 <= i < |columns| ==> r[i].1 == columns[i]
  {
    seq(|columns|, i requires 0 <= i < |columns| => (NormalizeHeader(columns[i]), columns[i]))
  }

  /** The last column whose header is `key`: what `{normalised: col}` keeps. */
  function LastWith(keyed: seq<(string, string)>, key: string): (r: Option<string>)
    ensures r.None? <==> forall i :: 0 <= i < |keyed| ==> keyed[i].0 != key
    ensures r.Some? ==> exists i :: 0 <= i < |keyed| && keyed[i] == (key, r.value)
                                    && forall j :: i < j < |keyed| ==> keyed[j].0 != key
  {
    Dicts.Get(keyed, key)
  }

  /** The position of the first column whose header is `key`. */
  function FirstAt(keyed: seq<(string, string)>, key: string): (r: Option<nat>)
    ensures r.None? <==> forall i :: 0 <= i < |keyed| ==> keyed[i].0 != key
    ensures r.Some? ==> r.value < |keyed| && keyed[r.value].0 == key
                        && forall j :: 0 <= j < r.value ==> keyed[j].0 != key
    decreases |keyed|
  {
    if |keyed| == 0 then None
    else if keyed[0].0 == key then Some(0)
    else
      match FirstAt(keyed[1..], key)
      case None => None
      case Some(k) => Some(k + 1)
  }

  /** The first column whose header is `key`. */
  function FirstWith(keyed: seq<(string, string)>, key: string): (r: Option<string>)
    ensures r.None? <==> forall i :: 0 <= i < |keyed| ==> keyed[i].0 != key
    ensures r.Some? ==> exists i :: 0 <= i < |keyed| && keyed[i] == (key, r.value)
                                    && forall j :: 0 <= j < i ==> keyed[j].0 != key
  {
    match FirstAt(keyed, key)
    case Some(i) => Some(keyed[i].1)
    case None => None
  }

  /** The value `find` gives for the first key it finds anything for. */
  function FirstFound(keys: seq<string>, find: string -> Option<string>): (r: Option<string>)
    ensures r.None? <==> forall k :: 0 <= k < |keys| ==> find(keys[k]).None?
    ensures r.Some? ==> exists k :: 0 <= k < |keys| && find(keys[k]) == r && forall j :: 0 <= j < k ==> find(keys[j]).None?
    decreases |keys|
  {
    if |keys| == 0 then None
    else if find(keys[0]).Some? then find(keys[0])
    else
      var r := FirstFound(keys[1..], find);
      assert forall k :: 0 <= k < |keys| - 1 ==> keys[1..][k] == keys[k + 1];
      r
  }

  datatype Detected = Detected(time: Option<string>, date: Option<string>, third: Option<string>)

  /**
   * `_detect_columns`: the time column by priority time, datetime,
   * timestamp; the date column by priority date, day; and a third slot
   * that always repeats the time column.
   */
  function DetectColumns(columns: seq<string>): (d: Detected)
    ensures d.time == (if LastWith(Keyed(columns), "time").Some? then LastWith(Keyed(columns), "time")
                       else if LastWith(Keyed(columns), "datetime").Some? then LastWith(Keyed(columns), "datetime")
                       else LastWith(Keyed(columns), "timestamp"))
    ensures d.date == (if LastWith(Keyed(columns), "date").Some? then LastWith(Keyed(columns), "date") else LastWith(Keyed(columns), "day"))
    ensures d.third == d.time
  {
    var keyed := Keyed(columns);
    var find := key => LastWith(keyed, key);
    var time := FirstFound(["time", "datetime", "timestamp"], find);
    var date := FirstFound(["date", "day"], find);
    var third := if LastWith(keyed, "time").Some? then LastWith(keyed, "time") else time;
    Detected(time, date, third)
  }

  /** `_select_volume_column`: the first column named tickvol, else volume, else vol; ValueError if none. */
  function SelectVolumeColumn(columns: seq<string>): (r: Result<string>)
    ensures r.Err? <==> FirstWith(Keyed(columns), "tickvol").None? && FirstWith(Keyed(columns), "volume").None? && FirstWith(Keyed(columns), "vol").None?
    ensures r.Err? ==> r.error.ValueError?
    ensures FirstWith(Keyed(columns), "tickvol").Some? ==> r == Ok(FirstWith(Keyed(columns), "tickvol").value)
    ensures FirstWith(Keyed(columns), "tickvol").None? && FirstWith(Keyed(columns), "volume").Some? ==> r == Ok(FirstWith(Keyed(columns), "volume").value)
    ensures FirstWith(Keyed(columns), "tickvol").None? && FirstWith(Keyed(columns), "volume").None? && FirstWith(Keyed(columns), "vol").Some? ==>
              r == Ok(FirstWith(Keyed(columns), "vol").value)
  {
    var keyed := Keyed(columns);
    match FirstFound(["tickvol", "volume", "vol"], key => FirstWith(keyed, key))
    case Some(col) => Ok(col)
    case None => Err(ValueError("Unable to locate volume/tick volume column in MT5 export."))
  }

  const Timeframes: seq<string> := ["H1", "M15", "H4"]

  /** The timeframe the pattern `_(H1|M15|H4)` matches at position `i`, if it does. */
  function MatchAt(name: string, i: nat): (r: Option<string>)
    ensures r.Some? ==> r.value in Timeframes && i < |name| && name[i] == '_' && Text.StartsWith(name[i + 1..], r.value)
    ensures r.None? ==> forall t :: t in Timeframes ==> !(i < |name| && name[i] == '_' && Text.StartsWith(name[i + 1..], t))
  {
    if i >= |name| || name[i] != '_' then None
    else if Text.StartsWith(name[i + 1..], "H1") then Some("H1")
    else if Text.StartsWith(name[i + 1..], "M15") then Some("M15")
    else if Text.StartsWith(name[i + 1..], "H4") then Some("H4")
    else None
  }

  /** `re.search`: the leftmost match at or after `from`. */
  function Search(name: string, from: nat): (r: Option<string>)
    ensures r.None? <==> forall i :: from <= i < |name| ==> MatchAt(name, i).None?
    ensures r.Some? ==> exists i :: from <= i < |name| && MatchAt(name, i) == r && forall j :: from <= j < i ==> MatchAt(name, j).None?
    decreases |name| - from
  {
    if from >= |name| then None
    else if MatchAt(name, from).Some? then MatchAt(name, from)
    else Search(name, from + 1)
  }

  /**
   * `_infer_timeframe`: a non-empty explicit hint, upper-cased; else the
   * first `_H1`, `_M15` or `_H4` in the upper-cased file stem; else H1.
   */
  function InferTimeframe(stem: string, explicit: Option<string>): (tf: string)
    ensures explicit.Some? && explicit.value != "" ==> tf == Text.Upper(explicit.value)
    ensures (explicit.None? || explicit.value == "") ==> tf in Timeframes
    ensures (explicit.None? || explicit.value == "") ==>
              (tf == "H1" || exists i :: 0 <= i < |stem| && MatchAt(Text.Upper(stem), i) == Some(tf))
    ensures (explicit.None? || explicit.value == "") && (forall i :: 0 <= i < |stem| ==> MatchAt(Text.Upper(stem), i).None?) ==>
              tf == "H1"
  {
    if explicit.Some? && explicit.value != "" then Text.Upper(explicit.value)
    else
      match Search(Text.Upper(stem), 0)
      case Some(tf) => tf
      case None => "H1"
  }

  predicate NoUnderscore(s: string)
  {
    forall i :: 0 <= i < |s| ==> s[i] != '_'
  }

  /** A file named `SYMBOL_TF` yields TF when the symbol holds no underscore. */
  lemma InferFromSymbolStem(symbol: string, tf: string)
    requires NoUnderscore(symbol) && tf in Timeframes
    ensures InferTimeframe(symbol + "_" + tf, None) == tf
  {
    var stem := symbol + "_" + tf;
    var name := Text.Upper(stem);
    assert Text.Upper(tf) == tf;
    assert name[|symbol|] == '_';
    assert name[|symbol| + 1..] == tf;
    var rest := name[|symbol| + 1..];
    assert rest == tf;
    if tf != "H1" {
      assert rest[1] != '1' || rest[0] != 'H';
    }
    if tf == "H4" {
      assert rest[0] != 'M';
    }
    forall i | 0 <= i < |symbol|
      ensures MatchAt(name, i).None?
    {
      assert name[i] == Text.UpperChar(symbol[i]);
    }
    assert MatchAt(name, |symbol|) == Some(tf);
  }

  datatype RawBar = RawBar(stamp: Option<int>, open: Option<real>, high: Option<real>, low: Option<real>, close: Option<real>, volume: Option<real>)

  datatype Bar = Bar(stamp: int, open: real, high: real, low: real, close: real, volume: real)

  predicate Whole(raw: RawBar)
  {
    raw.stamp.Some? && raw.open.Some? && raw.high.Some? && raw.low.Some? && raw.close.Some? && raw.volume.Some?
  }

  function ToBar(raw: RawBar): Bar
    requires Whole(raw)
  {
    Bar(raw.stamp.value, raw.open.value, raw.high.value, raw.low.value, raw.close.value, raw.volume.value)
  }

  /** The two `dropna` steps: the rows with a timestamp and all five numbers, in order. */
  function Complete(raw: seq<RawBar>): (bars: seq<Bar>)
    ensures |bars| <= |raw|
    ensures forall b :: b in bars ==> exists i :: 0 <= i < |raw| && Whole(raw[i]) && ToBar(raw[i]) == b
    ensures forall i :: 0 <= i < |raw| && Whole(raw[i]) ==> ToBar(raw[i]) in bars
    decreases |raw|
  {
    if |raw| == 0 then []
    else
      var init := raw[..|raw| - 1];
      var last := raw[|raw| - 1];
      assert forall i :: 0 <= i < |init| ==> init[i] == raw[i];
      Complete(init) + (if Whole(last) then [ToBar(last)] else [])
  }

  function Stamp(b: Bar): real { b.stamp as real }

  predicate HasStamp(bars: seq<Bar>, t: int)
  {
    exists i :: 0 <= i < |bars| && bars[i].stamp == t
  }

  predicate DistinctStamps(bars: seq<Bar>)
  {
    forall i, j :: 0 <= i < j < |bars| ==> bars[i].stamp != bars[j].stamp
  }

  /** `drop_duplicates("timestamp")`: the first row of each timestamp, in order. */
  function KeepFirst(bars: seq<Bar>): (r: seq<Bar>)
    ensures |r| <= |bars|
    decreases |bars|
  {
    if |bars| == 0 then []
    else
      var init := bars[..|bars| - 1];
      var last := bars[|bars| - 1];
      KeepFirst(init) + (if HasStamp(init, last.stamp) then [] else [last])
  }

  /** The rows kept are input rows, with pairwise different timestamps, and every input timestamp is kept. */
  lemma {:induction false} KeepFirstFacts(bars: seq<Bar>)
    ensures forall b :: b in KeepFirst(bars) ==> b in bars
    ensures DistinctStamps(KeepFirst(bars))
    ensures forall i :: 0 <= i < |bars| ==> HasStamp(KeepFirst(bars), bars[i].stamp)
    decreases |bars|
  {
    if |bars| > 0 {
      var init := bars[..|bars| - 1];
      var last := bars[|bars| - 1];
      KeepFirstFacts(init);
      var kept := KeepFirst(init);
      var r := KeepFirst(bars);
      assert forall i :: 0 <= i < |init| ==> init[i] == bars[i];
      if HasStamp(init, last.stamp) {
        assert r == kept;
        var k :| 0 <= k < |init| && init[k].stamp == last.stamp;
        assert HasStamp(kept, init[k].stamp);
      } else {
        assert r == kept + [last];
        forall i, j | 0 <= i < j < |r|
          ensures r[i].stamp != r[j].stamp
        {
          assert r[i] == kept[i];
          if j < |kept| {
            assert r[j] == kept[j];
            assert kept[i].stamp != kept[j].stamp;
          } else {
            assert kept[i] in kept;
            var k :| 0 <= k < |init| && init[k] == kept[i];
          }
        }
        forall i | 0 <= i < |kept|
          ensures kept[i].stamp != last.stamp
        {
          assert kept[i] in kept;
          var k :| 0 <= k < |init| && init[k] == kept[i];
        }
        forall i | 0 <= i < |bars|
          ensures HasStamp(r, bars[i].stamp)
        {
          if i < |init| {
            var k :| 0 <= k < |kept| && kept[k].stamp == init[i].stamp;
            assert r[k] == kept[k];
          } else {
            assert r[|kept|] == last;
          }
        }
      }
    }
  }

  /** Dropping repeats keeps a sorted table sorted. */
  lemma {:induction false} KeepFirstSorted(bars: seq<Bar>)
    requires Sorting.SortedBy(bars, Stamp)
    ensures Sorting.SortedBy(KeepFirst(bars), Stamp)
    decreases |bars|
  {
    if |bars| > 0 {
      var init := bars[..|bars| - 1];
      var last := bars[|bars| - 1];
      KeepFirstSorted(init);
      KeepFirstFacts(init);
      var kept := KeepFirst(init);
      forall i | 0 <= i < |kept|
        ensures Stamp(kept[i]) <= Stamp(last)
      {
        assert kept[i] in kept;
        var k :| 0 <= k < |init| && init[k] == kept[i];
        assert init[k] == bars[k];
      }
    }
  }

  /** The cleaned bars: complete rows, sorted by timestamp, one per timestamp. */
  function Clean(raw: seq<RawBar>): (bars: seq<Bar>)
    ensures |bars| <= |raw|
  {
    KeepFirst(Sorting.SortBy(Complete(raw), Stamp))
  }

  /**
   * The cleaned bars have strictly increasing timestamps, each is a complete
   * input row, and every timestamp of a complete input row is kept.
   */
  lemma CleanOrdered(raw: seq<RawBar>)
    ensures var bars := Clean(raw);
            forall i, j :: 0 <= i < j < |bars| ==> bars[i].stamp < bars[j].stamp
    ensures forall b :: b in Clean(raw) ==> exists i :: 0 <= i < |raw| && Whole(raw[i]) && ToBar(raw[i]) == b
    ensures forall i :: 0 <= i < |raw| && Whole(raw[i]) ==> HasStamp(Clean(raw), raw[i].stamp.value)
  {
    var whole := Complete(raw);
    var sorted := Sorting.SortBy(whole, Stamp);
    Sorting.SortBySortsAndPermutes(whole, Stamp);
    var bars := KeepFirst(sorted);
    KeepFirstFacts(sorted);
    KeepFirstSorted(sorted);
    forall i, j | 0 <= i < j < |bars|
      ensures bars[i].stamp < bars[j].stamp
    {
      assert Stamp(bars[i]) <= Stamp(bars[j]);
      assert bars[i].stamp != bars[j].stamp;
    }
    forall b | b in bars
      ensures exists i :: 0 <= i < |raw| && Whole(raw[i]) && ToBar(raw[i]) == b
    {
      assert b in sorted;
      assert b in multiset(whole);
      assert b in whole;
    }
    forall i | 0 <= i < |raw| && Whole(raw[i])
      ensures HasStamp(bars, raw[i].stamp.value)
    {
      var b := ToBar(raw[i]);
      assert b in multiset(whole);
      var k :| 0 <= k < |sorted| && sorted[k] == b;
    }
  }

  /** The OHLC keys in sorted order, as the error message lists the missing ones. */
  const Prices: seq<string> := ["close", "high", "low", "open"]

  /** Python's repr of a list of strings. */
  function ListRepr(names: seq<string>): string
  {
    "[" + Items(names) + "]"
  }

  function Items(names: seq<string>): string
    decreases |names|
  {
    if |names| == 0 then ""
    else if |names| == 1 then "'" + names[0] + "'"
    else "'" + names[0] + "', " + Items(names[1..])
  }

  /** The keys in `keys` that no column normalises to. */
  function Missing(keyed: seq<(string, string)>, keys: seq<string>): (r: seq<string>)
    ensures forall k :: k in r <==> k in keys && FirstWith(keyed, k).None?
    decreases |keys|
  {
    if |keys| == 0 then []
    else (if FirstWith(keyed, keys[0]).None? then [keys[0]] else []) + Missing(keyed, keys[1..])
  }

  /** Every price column is among the kept columns. */
  predicate PricesPresent(kept: seq<string>)
  {
    forall k :: k in Prices ==> FirstWith(Keyed(kept), k).Some?
  }

  lemma MissingIsEmpty(kept: seq<string>)
    ensures |Missing(Keyed(kept), Prices)| == 0 <==> PricesPresent(kept)
  {
    var m := Missing(Keyed(kept), Prices);
    if |m| > 0 {
      assert m[0] in m;
    }
  }

  /** The columns left after dropping the time and date columns, a literal `timestamp` column excepted. */
  function Remaining(columns: seq<string>, d: Detected): (r: seq<string>)
    ensures forall c :: c in r <==> c in columns && (c == "timestamp" || (Some(c) != d.time && Some(c) != d.date))
    decreases |columns|
  {
    if |columns| == 0 then []
    else
      var c := columns[0];
      (if c == "timestamp" || (Some(c) != d.time && Some(c) != d.date) then [c] else []) + Remaining(columns[1..], d)
  }

  /**
   * `_normalize_mt5_csv` after the file is read: the ValueErrors for an
   * empty export, no time column, missing price columns and no volume
   * column, in that order; otherwise the cleaned bars.
   */
  function NormalizeMt5(columns: seq<string>, raw: seq<RawBar>): (r: Result<seq<Bar>>)
    ensures r.Err? ==> r.error.ValueError?
    ensures |columns| == 0 || |raw| == 0 ==> r == Err(ValueError("MT5 export is empty."))
    ensures r.Ok? ==> DetectColumns(columns).time.Some?
    ensures r.Ok? ==> PricesPresent(Remaining(columns, DetectColumns(columns)))
    ensures r.Ok? ==> SelectVolumeColumn(Remaining(columns, DetectColumns(columns))).Ok?
    ensures r.Ok? ==> r.value == Clean(raw)
    ensures |columns| > 0 && |raw| > 0 ==>
      var d := DetectColumns(columns);
      var kept := Remaining(columns, d);
      && (d.time.None? ==> r == Err(ValueError("Unable to locate time columns in MT5 export.")))
      && (d.time.Some? && !PricesPresent(kept) ==>
            r == Err(ValueError("MT5 export missing columns: " + ListRepr(Missing(Keyed(kept), Prices)))))
      && (d.time.Some? && PricesPresent(kept) && SelectVolumeColumn(kept).Err? ==> r == Err(SelectVolumeColumn(kept).error))
      && (d.time.Some? && PricesPresent(kept) && SelectVolumeColumn(kept).Ok? ==> r == Ok(Clean(raw)))
  {
    if |columns| == 0 || |raw| == 0 then Err(ValueError("MT5 export is empty."))
    else
      var d := DetectColumns(columns);
      if d.time.None? then Err(ValueError("Unable to locate time columns in MT5 export."))
      else CheckKept(Remaining(columns, d), raw)
  }

  /** The checks on the columns left once a time column is found: the price columns, then a volume column. */
  function CheckKept(kept: seq<string>, raw: seq<RawBar>): (r: Result<seq<Bar>>)
    ensures r.Err? ==> r.error.ValueError?
    ensures !PricesPresent(kept) ==> r == Err(ValueError("MT5 export missing columns: " + ListRepr(Missing(Keyed(kept), Prices))))
    ensures PricesPresent(kept) && SelectVolumeColumn(kept).Err? ==> r == Err(SelectVolumeColumn(kept).error)
    ensures PricesPresent(kept) && SelectVolumeColumn(kept).Ok? ==> r == Ok(Clean(raw))
  {
    var missing := Missing(Keyed(kept), Prices);
    MissingIsEmpty(kept);
    if |missing| > 0 then Err(ValueError("MT5 export missing columns: " + ListRepr(missing)))
    else
      var _ :- SelectVolumeColumn(kept);
      Ok(Clean(raw))
  }
}

=== FILE: notification_snapshot.dfy ===
/**
 * Reading an execution report back for the notification snapshot: the
 * "- key: value" lines of the report become a dictionary with defaults,
 * typed per key, and the report is rejected when a required field is absent.
 */
module NotificationSnapshot {
  import opened Wrappers
  import Text

  datatype Value = Number(x: real) | Count(n: int) | Word(s: string)

  /**
   * Python's `float()` and `int()` on a stripped cell, `None` where they
   * raise; they are taken as given.
   */
  datatype Parsers = Parsers(toFloat: string -> Option<real>, toInt: string -> Option<int>)

  type Report = map<string, Value>

  const Defaults: Report := map[
    "filtered_max_positions" := Count(0),
    "filtered_daily_loss" := Count(0),
    "filtered_invalid_stops" := Count(0),
    "Session id" := Word("unknown"),
    "Environment" := Word("unknown")]

  const Required: seq<string> := [
    "End equity", "PnL", "PnL %", "Closed trades", "Win rate", "Risk tier",
    "Environment", "Session id", "filtered_max_positions", "filtered_daily_loss", "filtered_invalid_stops"]

  /** The key and value of a "- key: value" line, split at the first ':' and trimmed. */
  function SplitLine(line: string): (r: Option<(string, string)>)
    ensures !Text.StartsWith(Text.Strip(line), "- ") ==> r.None?
    ensures r.Some? ==> forall j :: 0 <= j < |r.value.0| ==> r.value.0[j] != ':'
    ensures r.Some? ==> Trimmed(r.value.0) && Trimmed(r.value.1)
  {
    var l := Text.Strip(line);
    if !Text.StartsWith(l, "- ") then None else SplitBody(l[2..])
  }

  /** "key: value" split at the first ':'; both halves trimmed. */
  function SplitBody(body: string): (r: Option<(string, string)>)
    ensures r.None? <==> forall j :: 0 <= j < |body| ==> body[j] != ':'
    ensures r.Some? ==> forall j :: 0 <= j < |r.value.0| ==> r.value.0[j] != ':'
    ensures r.Some? ==> Trimmed(r.value.0) && Trimmed(r.value.1)
  {
    match Text.FindChar(body, ':')
    case NotFound => None
    case At(k) =>
      Text.StripKeepsAbsent(body[..k], ':');
      Some((Text.Strip(body[..k]), Text.Strip(body[k + 1..])))
  }

  /** No whitespace at either end. */
  predicate Trimmed(s: string)
  {
    |s| > 0 ==> !Text.IsSpace(s[0]) && !Text.IsSpace(s[|s| - 1])
  }

  /** Writing a line as "- key: value" and splitting it gives the key and the value back. */
  lemma SplitLineRoundTrip(key: string, value: string)
    requires |key| > 0 && Trimmed(key) && forall j :: 0 <= j < |key| ==> key[j] != ':'
    requires |value| > 0 && Trimmed(value)
    ensures SplitLine("- " + key + ": " + value) == Some((key, value))
  {
    var body := key + ": " + value;
    var line := "- " + key + ": " + value;
    assert line == "- " + body;
    Text.StripUnspaced(line);
    assert line[2..] == body;
    SplitBodyRoundTrip(key, value);
  }

  lemma SplitBodyRoundTrip(key: string, value: string)
    requires |key| > 0 && Trimmed(key) && forall j :: 0 <= j < |key| ==> key[j] != ':'
    requires |value| > 0 && Trimmed(value)
    ensures SplitBody(key + ": " + value) == Some((key, value))
  {
    var body := key + ": " + value;
    FirstColonAfterKey(key, value);
    assert body[..|key|] == key;
    Text.StripUnspaced(key);
    assert body[|key| + 1..] == " " + value;
    StripLeadingSpace(value);
  }

  lemma FirstColonAfterKey(key: string, value: string)
    requires forall j :: 0 <= j < |key| ==> key[j] != ':'
    ensures Text.FindChar(key + ": " + value, ':') == Text.At(|key|)
  {
    var body := key + ": " + value;
    assert body[|key|] == ':';
    assert forall j :: 0 <= j < |key| ==> body[j] == key[j];
  }

  lemma StripLeadingSpace(value: string)
    requires |value| > 0 && Trimmed(value)
    ensures Text.Strip(" " + value) == value
  {
    var rest := " " + value;
    assert rest[1..] == value;
    assert Text.StripLeft(rest) == Text.StripLeft(value);
    Text.StripUnspaced(value);
    assert Text.StripLeft(value) == value;
  }

  predicate IsFiltered(key: string)
  {
    Text.StartsWith(key, "filtered_")
  }

  /** Keys the parser stores; every other key is passed over. */
  predicate Known(key: string)
  {
    key in {"Start equity", "End equity", "PnL", "PnL %", "Closed trades", "Win rate", "Risk tier", "Environment", "Session id"}
    || IsFiltered(key)
  }

  /** The typed value of one entry; a number that does not parse is a ValueError. */
  function Convert(key: string, value: string, p: Parsers): (r: Result<Value>)
    requires Known(key)
    ensures key in {"Start equity", "End equity", "PnL"} ==> (r.Ok? <==> p.toFloat(value).Some?) && (r.Ok? ==> r.value == Number(p.toFloat(value).value))
    ensures key in {"Closed trades"} || (IsFiltered(key) && !(key in {"Start equity", "End equity", "PnL", "PnL %", "Win rate", "Risk tier", "Environment", "Session id"})) ==>
      (r.Ok? <==> p.toInt(value).Some?) && (r.Ok? ==> r.value == Count(p.toInt(value).value))
    ensures key in {"PnL %", "Win rate", "Risk tier"} ==> r == Ok(Word(value))
    ensures key in {"Environment", "Session id"} ==> r == Ok(Word(if value == "" then "unknown" else value))
    ensures r.Err? ==> r.error.ValueError?
  {
    if key in {"Start equity", "End equity", "PnL"} then
      match p.toFloat(value)
      case None => Err(ValueError("could not convert string to float"))
      case Some(x) => Ok(Number(x))
    else if key == "PnL %" || key == "Win rate" || key == "Risk tier" then Ok(Word(value))
    else if key == "Closed trades" then
      match p.toInt(value)
      case None => Err(ValueError("invalid literal for int()"))
      case Some(n) => Ok(Count(n))
    else if key == "Environment" || key == "Session id" then Ok(Word(if value == "" then "unknown" else value))
    else
      match p.toInt(value)
      case None => Err(ValueError("invalid literal for int()"))
      case Some(n) => Ok(Count(n))
  }

  /** One line: a known key is stored (a later line overwrites an earlier one); anything else changes nothing. */
  function StepLine(data: Report, line: string, p: Parsers): (r: Result<Report>)
    ensures r.Err? ==> r.error.ValueError?
    ensures SplitLine(line).None? ==> r == Ok(data)
    ensures SplitLine(line).Some? && !Known(SplitLine(line).value.0) ==> r == Ok(data)
    ensures SplitLine(line).Some? && Known(SplitLine(line).value.0) ==>
      var (k, v) := SplitLine(line).value;
      (r.Ok? <==> Convert(k, v, p).Ok?) && (r.Ok? ==> r.value == data[k := Convert(k, v, p).value])
  {
    match SplitLine(line)
    case None => Ok(data)
    case Some((k, v)) =>
      if !Known(k) then Ok(data)
      else
        var x :- Convert(k, v, p);
        Ok(data[k := x])
  }

  function ParseLines(data: Report, lines: seq<string>, p: Parsers): (r: Result<Report>)
    ensures r.Err? ==> r.error.ValueError?
    decreases |lines|
  {
    if |lines| == 0 then Ok(data)
    else
      var before :- ParseLines(data, lines[..|lines| - 1], p);
      StepLine(before, lines[|lines| - 1], p)
  }

  /** Parsing only adds keys: whatever was there before stays a key. */
  lemma {:induction false} ParseKeepsKeys(data: Report, lines: seq<string>, p: Parsers)
    requires ParseLines(data, lines, p).Ok?
    ensures data.Keys <= ParseLines(data, lines, p).value.Keys
    ensures forall k :: k in ParseLines(data, lines, p).value && k !in data ==> Known(k)
    decreases |lines|
  {
    if |lines| > 0 {
      ParseKeepsKeys(data, lines[..|lines| - 1], p);
    }
  }

  /** The last line that sets a key decides its value. */
  lemma LastLineWins(data: Report, lines: seq<string>, p: Parsers, k: string, v: string)
    requires |lines| > 0 && SplitLine(lines[|lines| - 1]) == Some((k, v)) && Known(k)
    requires ParseLines(data, lines, p).Ok?
    ensures Convert(k, v, p).Ok? && ParseLines(data, lines, p).value[k] == Convert(k, v, p).value
  {
  }

  /** `_parse_report` over the lines of a report. */
  function ParseReport(lines: seq<string>, p: Parsers): (r: Result<Report>)
    ensures r.Ok? <==> (ParseLines(Defaults, lines, p).Ok?
      && forall i :: 0 <= i < |Required| ==> Required[i] in ParseLines(Defaults, lines, p).value)
    ensures r.Ok? ==> r.value == ParseLines(Defaults, lines, p).value
    ensures r.Ok? ==> Defaults.Keys <= r.value.Keys
    ensures r.Err? ==> r.error.ValueError?
  {
    var data :- ParseLines(Defaults, lines, p);
    ParseKeepsKeys(Defaults, lines, p);
    if forall i :: 0 <= i < |Required| ==> Required[i] in data then Ok(data)
    else Err(ValueError("Report missing fields"))
  }

  /** A report without lines misses its equity, result and counts. */
  lemma EmptyReportRejected(p: Parsers)
    ensures ParseReport([], p).Err?
  {
    assert Required[0] !in Defaults;
  }
}

=== FILE: num.dfy ===
/** Real-number helpers shared by every module: min/max, sums, averages and rounding. */
module Num {
  import opened Wrappers


  function Max(a: real, b: real): (r: real)
    ensures r >= a && r >= b
    ensures r == a || r == b
  {
    if a >= b then a else b
  }

  function IMin(a: int, b: int): (r: int)
    ensures r <= a && r <= b
    ensures r == a || r == b
  {
    if a <= b then a else b
  }

  function Min(a: real, b: real): (r: real)
    ensures r <= a && r <= b
    ensures r == a || r == b
  {
    if a <= b then a else b
  }

  function Abs(x: real): (r: real)
    ensures r >= 0.0
    ensures r == x || r == -x
  {
    if x < 0.0 then -x else x
  }

  function IMax(a: int, b: int): (r: int)
    ensures r >= a && r >= b
    ensures r == a || r == b
  {
    if a >= b then a else b
  }

  /** Sum of a sequence of reals, peeled from the back so that loops summing left to right match it. */
  function Sum(s: seq<real>): real
  {
    if |s| == 0 then 0.0 else Sum(s[..|s| - 1]) + s[|s| - 1]
  }

  lemma SumAppend(s: seq<real>, x: real)
    ensures Sum(s + [x]) == Sum(s) + x
  {
    assert (s + [x])[..|s|] == s;
  }

  lemma {:induction false} SumConcat(a: seq<real>, b: seq<real>)
    ensures Sum(a + b) == Sum(a) + Sum(b)
    decreases |b|
  {
    if |b| == 0 {
      assert a + b == a;
    } else {
      var b' := b[..|b| - 1];
      assert a + b == (a + b') + [b[|b| - 1]];
      SumAppend(a + b', b[|b| - 1]);
      SumConcat(a, b');
      assert b == b' + [b[|b| - 1]];
      SumAppend(b', b[|b| - 1]);
    }
  }

  lemma {:induction false} SumNonNegative(s: seq<real>)
    requires forall i :: 0 <= i < |s| ==> s[i] >= 0.0
    ensures Sum(s) >= 0.0
  {
    if |s| > 0 {
      SumNonNegative(s[..|s| - 1]);
    }
  }

  /** Arithmetic mean, 0 for an empty sequence (the `x / n if n else 0.0` idiom). */
  function Mean(s: seq<real>): (r: real)
    ensures |s| == 0 ==> r == 0.0
    ensures |s| > 0 ==> Scales(r, |s| as real, Sum(s))
  {
    if |s| == 0 then 0.0 else Sum(s) / (|s| as real)
  }

  /** `a * k == b`, kept behind a name so that the solver matches it rather than searching. */
  predicate Scales(a: real, k: real, b: real)
  {
    a * k == b
  }

  /** `count / total`, or 0 when the total is zero. */
  function Ratio(count: nat, total: nat): (r: real)
    ensures total == 0 ==> r == 0.0
    ensures count <= total ==> 0.0 <= r <= 1.0
    ensures total > 0 ==> Scales(r, total as real, count as real)
    ensures total > 0 ==> (r > 0.0 <==> count > 0)
  {
    if total == 0 then 0.0
    else
      QuotientSign(count as real, total as real);
      (count as real) / (total as real)
  }

  /** Largest element of a non-empty sequence. */
  function SeqMax(s: seq<real>): (r: real)
    requires |s| > 0
    ensures forall i :: 0 <= i < |s| ==> s[i] <= r
    ensures exists i :: 0 <= i < |s| && s[i] == r
  {
    if |s| == 1 then s[0]
    else
      var m := SeqMax(s[..|s| - 1]);
      assert forall i :: 0 <= i < |s| - 1 ==> s[..|s| - 1][i] == s[i];
      Max(m, s[|s| - 1])
  }

  /** Smallest element of a non-empty sequence. */
  function SeqMin(s: seq<real>): (r: real)
    requires |s| > 0
    ensures forall i :: 0 <= i < |s| ==> r <= s[i]
    ensures exists i :: 0 <= i < |s| && s[i] == r
  {
    if |s| == 1 then s[0]
    else
      var m := SeqMin(s[..|s| - 1]);
      assert forall i :: 0 <= i < |s| - 1 ==> s[..|s| - 1][i] == s[i];
      Min(m, s[|s| - 1])
  }

  /**
   * Rounding to a multiple of 1/scale, half away from minus infinity. Python's
   * `round` breaks exact ties to the even neighbour; the two differ only on ties.
   */
  function RoundTo(x: real, scale: nat): (r: real)
    requires scale > 0
    ensures x - 1.0 / (2 * scale) as real < r <= x + 1.0 / (2 * scale) as real
    ensures r * scale as real == RoundedUnits(x, scale) as real
  {
    var n := RoundedUnits(x, scale);
    var r := n as real / scale as real;
    assert r * scale as real == n as real;
    r
  }

  /** The whole number of 1/scale units that `RoundTo` lands on. */
  function RoundedUnits(x: real, scale: nat): (n: int)
    requires scale > 0
    ensures n as real <= x * scale as real + 0.5 < n as real + 1.0
  {
    (x * scale as real + 0.5).Floor
  }

  /** Rounding never reverses the order of two values. */
  lemma RoundToMonotone(x: real, y: real, scale: nat)
    requires scale > 0 && x <= y
    ensures RoundTo(x, scale) <= RoundTo(y, scale)
  {
    var s := scale as real;
    assert x * s <= y * s;
    var nx, ny := RoundedUnits(x, scale), RoundedUnits(y, scale);
    assert nx <= ny;
    assert RoundTo(x, scale) == nx as real / s;
    assert RoundTo(y, scale) == ny as real / s;
  }

  /** Rounding a value in [lo/scale, hi/scale] with integral bounds stays in that interval. */
  lemma RoundToStaysInGrid(x: real, scale: nat, lo: int, hi: int)
    requires scale > 0
    requires lo as real <= x * scale as real <= hi as real
    ensures lo as real / scale as real <= RoundTo(x, scale) <= hi as real / scale as real
  {
    var s := scale as real;
    var n := RoundedUnits(x, scale);
    assert lo <= n <= hi;
    assert RoundTo(x, scale) == n as real / s;
  }

  /** Python's `int(x)`: truncation toward zero. */
  /**
   * Python's `round(x)` to a whole number: the nearest integer, and on an
   * exact tie the even one.
   */
  function RoundHalfEven(x: real): (n: int)
    ensures -0.5 <= x - n as real <= 0.5
    ensures (x - n as real == 0.5 || x - n as real == -0.5) ==> n % 2 == 0
  {
    var f := x.Floor;
    var d := x - f as real;
    if d < 0.5 then f
    else if d > 0.5 then f + 1
    else if f % 2 == 0 then f
    else f + 1
  }

  /** The two conditions above pin the result down: it is the only such integer. */
  lemma RoundHalfEvenUnique(x: real, m: int)
    requires -0.5 <= x - m as real <= 0.5
    requires (x - m as real == 0.5 || x - m as real == -0.5) ==> m % 2 == 0
    ensures m == RoundHalfEven(x)
  {
  }

  /** Rounding half to even never reverses the order of its arguments. */
  lemma RoundHalfEvenMonotone(x: real, y: real)
    requires x <= y
    ensures RoundHalfEven(x) <= RoundHalfEven(y)
  {
    var a, b := RoundHalfEven(x), RoundHalfEven(y);
    if a > b {
      assert false;
    }
  }

  function Trunc(x: real): (n: int)
    ensures x >= 0.0 ==> n >= 0 && n as real <= x < n as real + 1.0
    ensures x < 0.0 ==> n <= 0 && n as real - 1.0 < x <= n as real
  {
    if x >= 0.0 then x.Floor else -((-x).Floor)
  }

  /** Python's `min(max(x, lo), hi)` and `max(lo, min(x, hi))`, which agree when lo <= hi. */
  function Clamp(x: real, lo: real, hi: real): (r: real)
    requires lo <= hi
    ensures lo <= r <= hi
    ensures lo <= x <= hi ==> r == x
    ensures x < lo ==> r == lo
    ensures x > hi ==> r == hi
  {
    if x < lo then lo else if x > hi then hi else x
  }

  lemma ClampMonotone(x: real, y: real, lo: real, hi: real)
    requires lo <= hi && x <= y
    ensures Clamp(x, lo, hi) <= Clamp(y, lo, hi)
  {
  }

  lemma DivMonotone(a: real, b: real, c: real)
    requires c > 0.0 && a <= b
    ensures a / c <= b / c
  {
    assert b / c - a / c == (b - a) / c;
  }

  lemma DivAntitone(a: real, c: real, d: real)
    requires a >= 0.0 && 0.0 < c <= d
    ensures a / d <= a / c
  {
    assert (a / c) * c == a;
    assert (a / d) * d == a;
    assert (a / c) * c <= (a / c) * d;
    MulNonPositive(a / d - a / c, d);
  }

  /** Dividing by a positive number keeps the sign and is undone by multiplying back. */
  lemma QuotientSign(p: real, l: real)
    requires l > 0.0
    ensures (p / l) * l == p
    ensures p >= 0.0 ==> p / l >= 0.0
    ensures p > 0.0 ==> p / l > 0.0
    ensures p < 0.0 ==> p / l < 0.0
  {
  }

  /** `p / l`, or `None` where floating point would give infinity or NaN. */
  function SafeDiv(p: real, l: real): (r: Option<real>)
    ensures r.None? <==> l == 0.0
    ensures r.Some? ==> r.value * l == p
    ensures r.Some? && l > 0.0 ==> (r.value >= 0.0 <==> p >= 0.0)
  {
    if l == 0.0 then None
    else if l > 0.0 then QuotientSign(p, l); Some(p / l)
    else Some(p / l)
  }

  /** The mean has the sign of the sum. */
  lemma MeanSign(s: seq<real>)
    requires |s| > 0
    ensures Sum(s) > 0.0 ==> Mean(s) > 0.0
    ensures Sum(s) < 0.0 ==> Mean(s) < 0.0
  {
    QuotientSign(Sum(s), |s| as real);
  }

  lemma MulNonPositive(x: real, y: real)
    requires y > 0.0
    ensures x <= 0.0 ==> x * y <= 0.0
  {
  }

  /** A fraction with a non-negative numerator below a positive denominator lies in [0, 1). */
  lemma FractionBelowOne(a: real, b: real)
    requires b > 0.0 && 0.0 <= a < b
    ensures 0.0 <= a / b < 1.0
  {
    var q := a / b;
    assert q * b == a;
    assert (1.0 - q) * b == b - a;
    MulNonPositive(1.0 - q, b);
    MulNonPositive(-q, b);
  }

  /** How many entries reach the threshold `t` (the `sum(1 for x in xs if x >= t)` idiom). */
  function CountAtLeast(xs: seq<real>, t: real): (n: nat)
    ensures n <= |xs|
    ensures n == 0 <==> forall i :: 0 <= i < |xs| ==> xs[i] < t
    decreases |xs|
  {
    if |xs| == 0 then 0
    else
      assert forall i :: 0 <= i < |xs| - 1 ==> xs[..|xs| - 1][i] == xs[i];
      CountAtLeast(xs[..|xs| - 1], t) + (if xs[|xs| - 1] >= t then 1 else 0)
  }

  /** How many entries lie strictly above `t`. */
  function CountAbove(xs: seq<real>, t: real): (n: nat)
    ensures n <= |xs|
    ensures n == 0 <==> forall i :: 0 <= i < |xs| ==> xs[i] <= t
    decreases |xs|
  {
    if |xs| == 0 then 0
    else
      assert forall i :: 0 <= i < |xs| - 1 ==> xs[..|xs| - 1][i] == xs[i];
      CountAbove(xs[..|xs| - 1], t) + (if xs[|xs| - 1] > t then 1 else 0)
  }

  /** Raising a threshold never adds entries that reach it. */
  lemma {:induction false} CountAtLeastAntitone(xs: seq<real>, t: real, u: real)
    requires t <= u
    ensures CountAtLeast(xs, u) <= CountAtLeast(xs, t)
    decreases |xs|
  {
    if |xs| > 0 {
      CountAtLeastAntitone(xs[..|xs| - 1], t, u);
    }
  }

  /** Reaching `u` implies lying strictly above any `t` below it. */
  lemma {:induction false} CountAtLeastWithinAbove(xs: seq<real>, t: real, u: real)
    requires t < u
    ensures CountAtLeast(xs, u) <= CountAbove(xs, t)
    decreases |xs|
  {
    if |xs| > 0 {
      CountAtLeastWithinAbove(xs[..|xs| - 1], t, u);
    }
  }

  /** The share of `xs` reaching `t`. */
  function ShareAtLeast(xs: seq<real>, t: real): (r: real)
    ensures 0.0 <= r <= 1.0
    ensures |xs| > 0 ==> r * (|xs| as real) == CountAtLeast(xs, t) as real
  {
    Ratio(CountAtLeast(xs, t), |xs|)
  }

  /** The share of `xs` strictly above `t`. */
  function ShareAbove(xs: seq<real>, t: real): (r: real)
    ensures 0.0 <= r <= 1.0
    ensures |xs| > 0 ==> Scales(r, |xs| as real, CountAbove(xs, t) as real)
    ensures r > 0.0 <==> CountAbove(xs, t) > 0
  {
    Ratio(CountAbove(xs, t), |xs|)
  }

  /** Largest element, or `default` for an empty sequence (`max(xs, default=...)`). */
  function MaxOr(xs: seq<real>, default: real): (r: real)
    ensures |xs| == 0 ==> r == default
    ensures forall i :: 0 <= i < |xs| ==> xs[i] <= r
    ensures |xs| > 0 ==> exists i :: 0 <= i < |xs| && xs[i] == r
  {
    if |xs| == 0 then default else SeqMax(xs)
  }

  lemma RatioMonotone(a: nat, b: nat, n: nat)
    requires a <= b
    ensures Ratio(a, n) <= Ratio(b, n)
  {
    if n > 0 {
      DivMonotone(a as real, b as real, n as real);
    }
  }

  /** `total / n` for a non-zero divisor `n`. */
  function Per(total: real, n: real): (r: real)
    requires n != 0.0
    ensures Scales(r, n, total)
  {
    total / n
  }

  /** The ratio is one exactly when the count is the whole total. */
  lemma RatioOne(count: nat, total: nat)
    requires total > 0
    ensures Ratio(count, total) == 1.0 <==> count == total
  {
    var d := total as real;
    var r := Ratio(count, total);
    assert r * d == count as real;
    assert r == (count as real) / d;
  }

  /** A sequence of `n` zeros (`[0.0] * n`, `np.zeros(n)`). */
  function Zeros(n: nat): (z: seq<real>)
    ensures |z| == n
    ensures forall i :: 0 <= i < n ==> z[i] == 0.0
  {
    seq(n, i => 0.0)
  }

  lemma {:induction false} SumZeros(n: nat)
    ensures Sum(Zeros(n)) == 0.0
  {
    if n > 0 {
      assert Zeros(n)[..n - 1] == Zeros(n - 1);
      SumZeros(n - 1);
    }
  }

  /** Adding `x` to one entry adds `x` to the sum. */
  lemma {:induction false} SumAddAt(s: seq<real>, i: nat, x: real)
    requires i < |s|
    ensures Sum(s[i := s[i] + x]) == Sum(s) + x
  {
    var t := s[i := s[i] + x];
    var n := |s| - 1;
    if i == n {
      assert t[..n] == s[..n];
    } else {
      assert t[..n] == s[..n][i := s[i] + x];
      SumAddAt(s[..n], i, x);
    }
  }
}

=== FILE: omega_m15.dfy ===
/**
 * The strategy-interface wrapper of strategies/omega/m15.py: it reads the
 * current and previous M15 feature payloads and forwards them to the SMA
 * crossover signal.
 */
module OmegaM15 {
  import opened Wrappers
  import opened Strategy

  const Name: string := "omega_m15"

  /** A feature payload: a row-like mapping of indicator values, or anything else. */
  datatype Payload = RowLike(bar: Bar) | NotAMapping

  /** The `meta` dictionary of the result. */
  datatype Meta =
    | MissingFeatures
    | DecisionMeta(reason: string, variant: string, stopDistancePips: Option<real>,
                   takeProfitDistancePips: Option<real>, signalReason: string)

  datatype BarSignal = BarSignal(action: Action, riskTier: string, meta: Meta)

  const Columns: seq<string> := ["close", "SMA_fast", "SMA_slow", "ATR_14"]

  /** Both timeframes ask for the four columns the crossover signal reads. */
  function RequiredFeatures(): (r: map<string, seq<string>>)
    ensures r.Keys == {"M15_current", "M15_previous"}
    ensures forall k :: k in r ==> "close" in r[k] && "SMA_fast" in r[k] && "SMA_slow" in r[k] && "ATR_14" in r[k]
  {
    map["M15_current" := Columns, "M15_previous" := Columns]
  }

  /** `_to_series`: a row-like payload becomes a bar, anything else (including a missing key) none. */
  function ToSeries(p: Option<Payload>): (r: Option<Bar>)
    ensures r.Some? <==> p.Some? && p.value.RowLike?
    ensures r.Some? ==> r.value == p.value.bar
  {
    if p.Some? && p.value.RowLike? then Some(p.value.bar) else None
  }

  function Lookup(features: map<string, Payload>, key: string): Option<Payload>
  {
    if key in features then Some(features[key]) else None
  }

  function OnBar(features: map<string, Payload>, defaultId: string): (r: BarSignal)
    ensures r.riskTier == "UNKNOWN"
    ensures var cur := ToSeries(Lookup(features, "M15_current"));
      var prev := ToSeries(Lookup(features, "M15_previous"));
      && (cur.None? || prev.None? ==> r == BarSignal(Flat, "UNKNOWN", MissingFeatures))
      && (cur.Some? && prev.Some? ==>
            var d := GenerateSignal(cur.value, prev.value, "EURUSD", defaultId);
            && r.action == d.action
            && r.meta == DecisionMeta(d.reason, d.variant, d.stopDistancePips, d.takeProfitDistancePips, d.signalReason))
  {
    var cur := ToSeries(Lookup(features, "M15_current"));
    var prev := ToSeries(Lookup(features, "M15_previous"));
    if cur.None? || prev.None? then BarSignal(Flat, "UNKNOWN", MissingFeatures)
    else
      var d := GenerateSignal(cur.value, prev.value, "EURUSD", defaultId);
      BarSignal(d.action, "UNKNOWN",
                DecisionMeta(d.reason, d.variant, d.stopDistancePips, d.takeProfitDistancePips, d.signalReason))
  }

  /** A non-flat wrapper signal always carries both distances, with the target twice the stop. */
  lemma OnBarTradesCarryDistances(features: map<string, Payload>, id: string)
    ensures var r := OnBar(features, id);
      r.action != Flat ==>
        && r.meta.DecisionMeta?
        && r.meta.stopDistancePips.Some?
        && r.meta.takeProfitDistancePips.Some?
        && r.meta.takeProfitDistancePips.value == 2.0 * r.meta.stopDistancePips.value
  {
  }
}

=== FILE: payouts.dfy ===
/**
 * The funded-account payout simulation of scripts/run_funded_payout_sim.py.
 * A payout floor starts at the account size; each day of a backtest whose
 * end-of-day equity clears the floor may pay out a share of the gain, and
 * every payout raises the floor by its amount. Many such runs are then
 * summarised into survival and payout rates.
 */
module FundedPayouts {
  import opened Wrappers
  import opened Num
  import Grouping

  datatype PayoutPolicy = PayoutPolicy(accountSize: real, split: real, intervalDays: int, ratchetFraction: real)

  /** A payout on trading day `day`, counted from 1. */
  datatype Payout = Payout(day: nat, amount: real)

  /** The share of a gain paid out: the split clamped into [0, 1]. */
  function Share(p: PayoutPolicy): (r: real)
    ensures 0.0 <= r <= 1.0
    ensures 0.0 <= p.split <= 1.0 ==> r == p.split
  {
    Clamp(p.split, 0.0, 1.0)
  }

  /** A scheduled payout day: a positive interval divides the day number. */
  predicate Scheduled(p: PayoutPolicy, day: nat)
  {
    p.intervalDays > 0 && day % p.intervalDays == 0
  }

  /** The gain as a fraction of the floor, 0 when the floor is not positive. */
  function GainFraction(gain: real, floor: real): (r: real)
    ensures floor > 0.0 && gain > 0.0 ==> r > 0.0
    ensures floor <= 0.0 ==> r == 0.0
  {
    if floor > 0.0 then gain / floor else 0.0
  }

  /** The day qualifies: it is scheduled or the gain reaches the ratchet fraction. */
  predicate Eligible(p: PayoutPolicy, floor: real, day: nat, equity: real)
  {
    Scheduled(p, day) || GainFraction(equity - floor, floor) >= p.ratchetFraction
  }

  /** What day `day`, ending at `equity` over the floor `floor`, pays out, if anything. */
  function PayoutOn(p: PayoutPolicy, floor: real, day: nat, equity: real): (r: Option<real>)
    ensures r.Some? ==> equity > floor
    ensures r.Some? ==> r.value > 0.0
    ensures r.Some? ==> r.value <= equity - floor
    ensures r.Some? && Share(p) == 1.0 ==> r.value == equity - floor
  {
    if equity - floor <= 0.0 then None
    else if !Eligible(p, floor, day, equity) then None
    else
      var amount := Portion(equity - floor, Share(p));
      if amount <= 0.0 then None else Some(amount)
  }

  /**
   * A day pays out exactly when it ends above the floor, is scheduled or
   * reaches the ratchet fraction, and the clamped split is positive.
   */
  lemma PayoutOnWhen(p: PayoutPolicy, floor: real, day: nat, equity: real)
    ensures PayoutOn(p, floor, day, equity).Some? <==> equity > floor && Eligible(p, floor, day, equity) && Share(p) > 0.0
  {
    if equity > floor {
      var amount := Portion(equity - floor, Share(p));
    }
  }

  /** A payout is the split's share of the day's gain over the floor. */
  lemma PayoutIsShareOfGain(p: PayoutPolicy, floor: real, day: nat, equity: real)
    ensures var r := PayoutOn(p, floor, day, equity);
      r.Some? ==> r.value == (equity - floor) * Share(p)
  {
  }

  /** The share `share` of a positive gain: never more than the gain, and positive exactly when the share is. */
  function Portion(gain: real, share: real): (r: real)
    requires gain > 0.0 && 0.0 <= share <= 1.0
    ensures r <= gain
    ensures r > 0.0 <==> share > 0.0
    ensures share == 1.0 ==> r == gain
  {
    assert gain - gain * share == gain * (1.0 - share);
    assert share > 0.0 ==> gain * share > 0.0;
    gain * share
  }

  function Amounts(ps: seq<Payout>): (r: seq<real>)
    ensures |r| == |ps|
    ensures forall i :: 0 <= i < |ps| ==> r[i] == ps[i].amount
  {
    seq(|ps|, i requires 0 <= i < |ps| => ps[i].amount)
  }

  lemma AmountsAppend(ps: seq<Payout>, x: Payout)
    ensures Sum(Amounts(ps + [x])) == Sum(Amounts(ps)) + x.amount
  {
    assert Amounts(ps + [x]) == Amounts(ps) + [x.amount];
    SumAppend(Amounts(ps), x.amount);
  }

  /** The loop's variables after some days: the floor, the payouts so far and the first payout day. */
  datatype PayoutState = PayoutState(floor: real, payouts: seq<Payout>, firstPayoutDay: Option<nat>)

  /**
   * The payout loop over the end-of-day equities of the first |eods| days.
   * The floor is the account size plus everything paid, so it never drops
   * below the account size.
   */
  function Walk(p: PayoutPolicy, eods: seq<real>): (s: PayoutState)
    ensures s.floor == p.accountSize + Sum(Amounts(s.payouts))
    ensures s.floor >= p.accountSize
    decreases |eods|
  {
    if |eods| == 0 then PayoutState(p.accountSize, [], None)
    else Step(p, Walk(p, eods[..|eods| - 1]), |eods|, eods[|eods| - 1])
  }

  /** One iteration of the loop: day `day` ends at `equity`. */
  function Step(p: PayoutPolicy, s: PayoutState, day: nat, equity: real): (r: PayoutState)
    requires s.floor == p.accountSize + Sum(Amounts(s.payouts))
    ensures r.floor == p.accountSize + Sum(Amounts(r.payouts))
    ensures PayoutOn(p, s.floor, day, equity).None? ==> r == s
    ensures PayoutOn(p, s.floor, day, equity).Some? ==>
      && r.floor == s.floor + PayoutOn(p, s.floor, day, equity).value
      && r.payouts == s.payouts + [Payout(day, PayoutOn(p, s.floor, day, equity).value)]
      && r.firstPayoutDay == (if s.firstPayoutDay.None? then Some(day) else s.firstPayoutDay)
  {
    match PayoutOn(p, s.floor, day, equity)
    case None => s
    case Some(amount) =>
      AmountsAppend(s.payouts, Payout(day, amount));
      var first := if s.firstPayoutDay.None? then Some(day) else s.firstPayoutDay;
      PayoutState(s.floor + amount, s.payouts + [Payout(day, amount)], first)
  }

  /** Every payout is positive and falls on a day of the walk. */
  lemma {:induction false} WalkPayoutsPositive(p: PayoutPolicy, eods: seq<real>)
    ensures forall i :: 0 <= i < |Walk(p, eods).payouts| ==>
      Walk(p, eods).payouts[i].amount > 0.0 && 1 <= Walk(p, eods).payouts[i].day <= |eods|
    decreases |eods|
  {
    if |eods| > 0 {
      var init := eods[..|eods| - 1];
      WalkPayoutsPositive(p, init);
      var s := Walk(p, init);
      var pay := PayoutOn(p, s.floor, |eods|, eods[|eods| - 1]);
      if pay.Some? {
        var t := s.payouts + [Payout(|eods|, pay.value)];
        assert forall i :: 0 <= i < |s.payouts| ==> t[i] == s.payouts[i];
      }
    }
  }

  /** Payout days strictly increase. */
  lemma {:induction false} WalkPayoutDaysIncrease(p: PayoutPolicy, eods: seq<real>)
    ensures forall i, j :: 0 <= i < j < |Walk(p, eods).payouts| ==> Walk(p, eods).payouts[i].day < Walk(p, eods).payouts[j].day
    decreases |eods|
  {
    if |eods| > 0 {
      var init := eods[..|eods| - 1];
      WalkPayoutDaysIncrease(p, init);
      WalkPayoutsPositive(p, init);
      var s := Walk(p, init);
      var pay := PayoutOn(p, s.floor, |eods|, eods[|eods| - 1]);
      if pay.Some? {
        var t := s.payouts + [Payout(|eods|, pay.value)];
        assert forall i :: 0 <= i < |s.payouts| ==> t[i] == s.payouts[i];
      }
    }
  }

  /** The first-payout-day variable is set exactly when there is a payout, to the first one's day. */
  lemma {:induction false} WalkFirstPayoutDay(p: PayoutPolicy, eods: seq<real>)
    ensures var s := Walk(p, eods);
      s.firstPayoutDay.None? <==> |s.payouts| == 0
    ensures var s := Walk(p, eods);
      s.firstPayoutDay.Some? ==> s.firstPayoutDay.value == s.payouts[0].day
    decreases |eods|
  {
    if |eods| > 0 {
      WalkFirstPayoutDay(p, eods[..|eods| - 1]);
    }
  }

  datatype PayoutResult = PayoutResult(
    totalPayout: real,
    largestPayout: real,
    numPayouts: nat,
    firstPayoutDay: Option<nat>,
    payouts: seq<Payout>)

  /** Largest amount, 0 when there is none. */
  function Largest(ps: seq<Payout>): (r: real)
    ensures |ps| == 0 ==> r == 0.0
    ensures forall i :: 0 <= i < |ps| ==> ps[i].amount <= r
    ensures |ps| > 0 ==> exists i :: 0 <= i < |ps| && ps[i].amount == r
  {
    if |ps| == 0 then 0.0 else SeqMax(Amounts(ps))
  }

  /**
   * `_simulate_payouts`: the payouts of the walk with their total, largest
   * amount, count and first day. The total is exactly how far the floor rose.
   */
  function SimulatePayouts(p: PayoutPolicy, eods: seq<real>): (r: PayoutResult)
    ensures r.payouts == Walk(p, eods).payouts
    ensures r.totalPayout == Sum(Amounts(r.payouts))
    ensures r.totalPayout == Walk(p, eods).floor - p.accountSize
    ensures r.numPayouts == |r.payouts|
    ensures r.numPayouts == 0 ==> r.largestPayout == 0.0 && r.firstPayoutDay.None?
    ensures r.numPayouts > 0 ==> r.firstPayoutDay == Some(r.payouts[0].day)
    ensures forall i :: 0 <= i < |r.payouts| ==> 0.0 < r.payouts[i].amount <= r.largestPayout
  {
    var s := Walk(p, eods);
    WalkPayoutsPositive(p, eods);
    WalkPayoutDaysIncrease(p, eods);
    WalkFirstPayoutDay(p, eods);
    PayoutResult(Sum(Amounts(s.payouts)), Largest(s.payouts), |s.payouts|, s.firstPayoutDay, s.payouts)
  }

  lemma {:induction false} SumCoversElement(xs: seq<real>, i: nat)
    requires i < |xs|
    requires forall k :: 0 <= k < |xs| ==> xs[k] >= 0.0
    ensures xs[i] <= Sum(xs)
    decreases |xs|
  {
    var init := xs[..|xs| - 1];
    SumNonNegative(init);
    if i < |xs| - 1 {
      SumCoversElement(init, i);
    }
  }

  /** The largest payout never exceeds the total, and neither is negative. */
  lemma LargestWithinTotal(p: PayoutPolicy, eods: seq<real>)
    ensures var r := SimulatePayouts(p, eods);
      0.0 <= r.largestPayout <= r.totalPayout
  {
    var r := SimulatePayouts(p, eods);
    if |r.payouts| > 0 {
      var i :| 0 <= i < |r.payouts| && r.payouts[i].amount == r.largestPayout;
      SumCoversElement(Amounts(r.payouts), i);
    }
  }

  /** The floor after more days is never lower: payouts only ever raise it. */
  lemma {:induction false} FloorNonDecreasing(p: PayoutPolicy, eods: seq<real>, k: nat)
    requires k <= |eods|
    ensures Walk(p, eods[..k]).floor <= Walk(p, eods).floor
    decreases |eods|
  {
    if k < |eods| {
      var init := eods[..|eods| - 1];
      assert init[..k] == eods[..k];
      FloorNonDecreasing(p, init, k);
    } else {
      assert eods[..k] == eods;
    }
  }

  /** The end-of-day equity of the last payout day, when there was a payout. */
  function LastPayoutEquity(p: PayoutPolicy, eods: seq<real>): (r: Option<real>)
    ensures r.None? <==> |Walk(p, eods).payouts| == 0
  {
    var ps := Walk(p, eods).payouts;
    WalkPayoutsPositive(p, eods);
    if |ps| == 0 then None else Some(eods[ps[|ps| - 1].day - 1])
  }

  /**
   * Each payout takes at most the whole gain, so the floor never passes the
   * end-of-day equity of the last payout day.
   */
  lemma {:induction false} FloorWithinLastPayoutEquity(p: PayoutPolicy, eods: seq<real>)
    ensures LastPayoutEquity(p, eods).Some? ==> Walk(p, eods).floor <= LastPayoutEquity(p, eods).value
    decreases |eods|
  {
    if |eods| > 0 {
      var init := eods[..|eods| - 1];
      FloorWithinLastPayoutEquity(p, init);
      WalkPayoutsPositive(p, init);
      var s := Walk(p, init);
      var day := |eods|;
      var pay := PayoutOn(p, s.floor, day, eods[day - 1]);
      if pay.None? && |s.payouts| > 0 {
        assert eods[s.payouts[|s.payouts| - 1].day - 1] == init[s.payouts[|s.payouts| - 1].day - 1];
      }
    }
  }

  /** With a full split the floor ratchets up to exactly the end-of-day equity of the last payout day. */
  lemma {:induction false} FullSplitFloorMeetsLastPayoutEquity(p: PayoutPolicy, eods: seq<real>)
    requires Share(p) == 1.0
    ensures LastPayoutEquity(p, eods).Some? ==> Walk(p, eods).floor == LastPayoutEquity(p, eods).value
    decreases |eods|
  {
    if |eods| > 0 {
      var init := eods[..|eods| - 1];
      FullSplitFloorMeetsLastPayoutEquity(p, init);
      WalkPayoutsPositive(p, init);
      var s := Walk(p, init);
      var day := |eods|;
      var pay := PayoutOn(p, s.floor, day, eods[day - 1]);
      if pay.None? && |s.payouts| > 0 {
        assert eods[s.payouts[|s.payouts| - 1].day - 1] == init[s.payouts[|s.payouts| - 1].day - 1];
      }
    }
  }

  /** A run whose equity never closes a day above the account size pays nothing. */
  lemma {:induction false} NoGainNoPayout(p: PayoutPolicy, eods: seq<real>)
    requires forall i :: 0 <= i < |eods| ==> eods[i] <= p.accountSize
    ensures Walk(p, eods).payouts == []
    decreases |eods|
  {
    if |eods| > 0 {
      NoGainNoPayout(p, eods[..|eods| - 1]);
    }
  }

  /** A split of zero or less pays nothing, whatever the equity does. */
  lemma {:induction false} ZeroSplitNeverPays(p: PayoutPolicy, eods: seq<real>)
    requires p.split <= 0.0
    ensures Walk(p, eods).payouts == []
    decreases |eods|
  {
    if |eods| > 0 {
      ZeroSplitNeverPays(p, eods[..|eods| - 1]);
    }
  }

  /** One run as `main` records it. */
  datatype RunRecord = RunRecord(
    totalPayout: real,
    largestPayout: real,
    numPayouts: nat,
    firstPayoutDay: Option<nat>,
    accountDied: bool,
    maxDailyLoss: real,
    maxTrailingDd: real)

  /** The counted fields of `_summarize`'s dictionary (its medians and percentiles are not modelled). */
  datatype FundedSummary = FundedSummary(
    numRuns: nat,
    passiveSurvivalRate: real,
    probAccountDeath: real,
    avgTotalPayout: real,
    probAtLeastOnePayout: real,
    probTotalPayoutGe10k: real,
    probTotalPayoutGe20k: real,
    probTotalPayoutGe50k: real,
    probLargestPayoutGe5k: real,
    meanTimeToFirstPayoutDays: Option<real>,
    payoutRatePerRun: real,
    maxDailyLossObserved: real,
    maxTrailingDdObserved: real,
    meanMonthlyPayout: real)

  function Totals(rs: seq<RunRecord>): (r: seq<real>)
    ensures |r| == |rs|
    ensures forall i :: 0 <= i < |rs| ==> r[i] == rs[i].totalPayout
  {
    seq(|rs|, i requires 0 <= i < |rs| => rs[i].totalPayout)
  }

  function Largests(rs: seq<RunRecord>): (r: seq<real>)
    ensures |r| == |rs|
    ensures forall i :: 0 <= i < |rs| ==> r[i] == rs[i].largestPayout
  {
    seq(|rs|, i requires 0 <= i < |rs| => rs[i].largestPayout)
  }

  function PayoutCounts(rs: seq<RunRecord>): (r: seq<real>)
    ensures |r| == |rs|
    ensures forall i :: 0 <= i < |rs| ==> r[i] == rs[i].numPayouts as real
  {
    seq(|rs|, i requires 0 <= i < |rs| => rs[i].numPayouts as real)
  }

  function DailyLosses(rs: seq<RunRecord>): (r: seq<real>)
    ensures |r| == |rs|
    ensures forall i :: 0 <= i < |rs| ==> r[i] == rs[i].maxDailyLoss
  {
    seq(|rs|, i requires 0 <= i < |rs| => rs[i].maxDailyLoss)
  }

  function TrailingDds(rs: seq<RunRecord>): (r: seq<real>)
    ensures |r| == |rs|
    ensures forall i :: 0 <= i < |rs| ==> r[i] == rs[i].maxTrailingDd
  {
    seq(|rs|, i requires 0 <= i < |rs| => rs[i].maxTrailingDd)
  }

  /** Runs whose account survived. */
  predicate Survived(r: RunRecord)
  {
    !r.accountDied
  }

  predicate HasFirstPayout(r: RunRecord)
  {
    r.firstPayoutDay.Some?
  }

  /** The number of runs whose account survived: exactly the number of such runs. */
  function CountAlive(rs: seq<RunRecord>): (n: nat)
    ensures n == |Grouping.Positions(rs, Survived)|
    ensures n <= |rs|
    ensures n == |rs| <==> forall i :: 0 <= i < |rs| ==> !rs[i].accountDied
    decreases |rs|
  {
    if |rs| == 0 then 0
    else
      assert forall i :: 0 <= i < |rs| - 1 ==> rs[..|rs| - 1][i] == rs[i];
      Grouping.PositionsSnoc(rs, Survived);
      CountAlive(rs[..|rs| - 1]) + (if rs[|rs| - 1].accountDied then 0 else 1)
  }

  /** The first payout days of the runs that had one: one per such run, in run order. */
  function FirstDays(rs: seq<RunRecord>): (r: seq<real>)
    ensures |r| == |Grouping.KeptIndices(rs, HasFirstPayout)|
    ensures forall k :: 0 <= k < |r| ==> r[k] == rs[Grouping.KeptIndices(rs, HasFirstPayout)[k]].firstPayoutDay.value as real
    ensures |r| <= |rs|
    ensures |r| == 0 <==> forall i :: 0 <= i < |rs| ==> rs[i].firstPayoutDay.None?
    decreases |rs|
  {
    if |rs| == 0 then []
    else
      var n := |rs| - 1;
      var init := FirstDays(rs[..n]);
      var r := match rs[n].firstPayoutDay
        case None => init
        case Some(d) => init + [d as real];
      FirstDaysStep(rs, rs[..n], init, r);
      FirstDaysShapeStep(rs, rs[..n], init, r);
      r
  }

  /** Extending the first payout days of the earlier runs by the last run's, when it has one. */
  lemma FirstDaysStep(rs: seq<RunRecord>, front: seq<RunRecord>, init: seq<real>, r: seq<real>)
    requires |rs| > 0 && front == rs[..|rs| - 1]
    requires |init| == |Grouping.KeptIndices(front, HasFirstPayout)|
    requires forall k :: 0 <= k < |init| ==>
      init[k] == front[Grouping.KeptIndices(front, HasFirstPayout)[k]].firstPayoutDay.value as real
    requires r == if rs[|rs| - 1].firstPayoutDay.Some? then init + [rs[|rs| - 1].firstPayoutDay.value as real] else init
    ensures |r| == |Grouping.KeptIndices(rs, HasFirstPayout)|
    ensures forall k :: 0 <= k < |r| ==> r[k] == rs[Grouping.KeptIndices(rs, HasFirstPayout)[k]].firstPayoutDay.value as real
  {
    var n := |rs| - 1;
    assert forall i :: 0 <= i < n ==> front[i] == rs[i];
    var idx := Grouping.KeptIndices(rs, HasFirstPayout);
    var fidx := Grouping.KeptIndices(front, HasFirstPayout);
    assert idx == fidx + (if HasFirstPayout(rs[n]) then [n] else []);
    forall k | 0 <= k < |r| ensures r[k] == rs[idx[k]].firstPayoutDay.value as real {
      if k < |init| {
        assert idx[k] == fidx[k];
        assert front[fidx[k]] == rs[idx[k]];
      }
    }
  }

  /** Extending the first payout days keeps them within the runs, and empty exactly when no run paid. */
  lemma FirstDaysShapeStep(rs: seq<RunRecord>, front: seq<RunRecord>, init: seq<real>, r: seq<real>)
    requires |rs| > 0 && front == rs[..|rs| - 1]
    requires |init| <= |front|
    requires |init| == 0 <==> forall i :: 0 <= i < |front| ==> front[i].firstPayoutDay.None?
    requires r == if rs[|rs| - 1].firstPayoutDay.Some? then init + [rs[|rs| - 1].firstPayoutDay.value as real] else init
    ensures |r| <= |rs|
    ensures |r| == 0 <==> forall i :: 0 <= i < |rs| ==> rs[i].firstPayoutDay.None?
  {
    assert forall i :: 0 <= i < |front| ==> front[i] == rs[i];
  }

  /** The share of runs whose account survived. */
  function SurvivalRate(rs: seq<RunRecord>): (r: real)
    ensures 0.0 <= r <= 1.0
    ensures |rs| > 0 ==> Scales(r, |rs| as real, CountAlive(rs) as real)
    ensures r == 1.0 <==> |rs| > 0 && forall i :: 0 <= i < |rs| ==> !rs[i].accountDied
  {
    var alive := CountAlive(rs);
    var r := Ratio(alive, |rs|);
    assert r == 1.0 <==> |rs| > 0 && alive == |rs| by {
      if |rs| > 0 {
        RatioOne(alive, |rs|);
      }
    }
    r
  }

  /** The mean first payout day over the runs that had one; `None` (NaN) when none did. */
  function MeanFirstDay(rs: seq<RunRecord>): (m: Option<real>)
    ensures m.None? <==> forall i :: 0 <= i < |rs| ==> rs[i].firstPayoutDay.None?
    ensures m.Some? ==> m.value == Mean(FirstDays(rs))
  {
    var days := FirstDays(rs);
    if |days| == 0 then None else Some(Mean(days))
  }

  /** The worst daily loss over the runs. */
  function WorstDailyLoss(rs: seq<RunRecord>): (w: real)
    requires |rs| > 0
    ensures forall i :: 0 <= i < |rs| ==> rs[i].maxDailyLoss <= w
    ensures exists i :: 0 <= i < |rs| && rs[i].maxDailyLoss == w
  {
    var losses := DailyLosses(rs);
    var w := SeqMax(losses);
    assert exists i :: 0 <= i < |rs| && rs[i].maxDailyLoss == w by {
      var i :| 0 <= i < |losses| && losses[i] == w;
    }
    w
  }

  /** The worst trailing drawdown over the runs. */
  function WorstTrailingDd(rs: seq<RunRecord>): (w: real)
    requires |rs| > 0
    ensures forall i :: 0 <= i < |rs| ==> rs[i].maxTrailingDd <= w
    ensures exists i :: 0 <= i < |rs| && rs[i].maxTrailingDd == w
  {
    var dds := TrailingDds(rs);
    var w := SeqMax(dds);
    assert exists i :: 0 <= i < |rs| && rs[i].maxTrailingDd == w by {
      var i :| 0 <= i < |dds| && dds[i] == w;
    }
    w
  }

  /**
   * `_summarize`: None stands for the empty dictionary returned when there
   * are no runs. Otherwise rates are shares of the runs, the death
   * probability complements the survival rate, and the monthly payout
   * spreads the average total over at least one month.
   */
  function Summarize(rs: seq<RunRecord>, months: int): (r: Option<FundedSummary>)
    ensures r.None? <==> |rs| == 0
    ensures r.Some? ==> r.value.numRuns == |rs|
    ensures r.Some? ==> r.value.passiveSurvivalRate == SurvivalRate(rs)
    ensures r.Some? ==> r.value.avgTotalPayout == Mean(Totals(rs))
    ensures r.Some? ==> r.value.probAtLeastOnePayout == ShareAbove(Totals(rs), 0.0)
    ensures r.Some? ==> r.value.probTotalPayoutGe10k == ShareAtLeast(Totals(rs), 10000.0)
    ensures r.Some? ==> r.value.probTotalPayoutGe20k == ShareAtLeast(Totals(rs), 20000.0)
    ensures r.Some? ==> r.value.probTotalPayoutGe50k == ShareAtLeast(Totals(rs), 50000.0)
    ensures r.Some? ==> r.value.probLargestPayoutGe5k == ShareAtLeast(Largests(rs), 5000.0)
    ensures r.Some? ==> r.value.passiveSurvivalRate + r.value.probAccountDeath == 1.0
    ensures r.Some? ==> (r.value.meanTimeToFirstPayoutDays.None? <==> forall i :: 0 <= i < |rs| ==> rs[i].firstPayoutDay.None?)
    ensures r.Some? ==> forall i :: 0 <= i < |rs| ==> rs[i].maxDailyLoss <= r.value.maxDailyLossObserved
    ensures r.Some? ==> forall i :: 0 <= i < |rs| ==> rs[i].maxTrailingDd <= r.value.maxTrailingDdObserved
    ensures r.Some? ==> exists i :: 0 <= i < |rs| && rs[i].maxDailyLoss == r.value.maxDailyLossObserved
    ensures r.Some? ==> exists i :: 0 <= i < |rs| && rs[i].maxTrailingDd == r.value.maxTrailingDdObserved
    ensures r.Some? && r.value.meanTimeToFirstPayoutDays.Some? ==> r.value.meanTimeToFirstPayoutDays.value == Mean(FirstDays(rs))
    ensures r.Some? ==> r.value.meanMonthlyPayout == MonthlyPayout(r.value.avgTotalPayout, months)
    ensures r.Some? ==> r.value.payoutRatePerRun == Mean(PayoutCounts(rs))
  {
    if |rs| == 0 then None
    else
      var n := |rs|;
      var totals := Totals(rs);
      var survival := SurvivalRate(rs);
      var meanFirst := MeanFirstDay(rs);
      var worstDaily := WorstDailyLoss(rs);
      var worstTrailing := WorstTrailingDd(rs);
      var avg := Mean(totals);
      var monthly := MonthlyPayout(avg, months);
      Some(FundedSummary(
        n,
        survival,
        1.0 - survival,
        avg,
        ShareAbove(totals, 0.0),
        ShareAtLeast(totals, 10000.0),
        ShareAtLeast(totals, 20000.0),
        ShareAtLeast(totals, 50000.0),
        ShareAtLeast(Largests(rs), 5000.0),
        meanFirst,
        Mean(PayoutCounts(rs)),
        worstDaily,
        worstTrailing,
        monthly))
  }

  /** An amount spread over at least one month. */
  function MonthlyPayout(total: real, months: int): (r: real)
    ensures r * (IMax(1, months) as real) == total
  {
    total / (IMax(1, months) as real)
  }

  /**
   * The payout-size rates are nested: every run reaching 50k reaches 20k,
   * every run reaching 20k reaches 10k, and every run reaching 10k has paid
   * out something.
   */
  lemma PayoutRatesNested(rs: seq<RunRecord>, months: int)
    requires |rs| > 0
    ensures var s := Summarize(rs, months).value;
      && s.probTotalPayoutGe50k <= s.probTotalPayoutGe20k
      && s.probTotalPayoutGe20k <= s.probTotalPayoutGe10k
      && s.probTotalPayoutGe10k <= s.probAtLeastOnePayout
      && s.probAtLeastOnePayout <= 1.0
  {
    var t := Totals(rs);
    CountAtLeastAntitone(t, 20000.0, 50000.0);
    CountAtLeastAntitone(t, 10000.0, 20000.0);
    CountAtLeastWithinAbove(t, 0.0, 10000.0);
    RatioMonotone(CountAtLeast(t, 50000.0), CountAtLeast(t, 20000.0), |rs|);
    RatioMonotone(CountAtLeast(t, 20000.0), CountAtLeast(t, 10000.0), |rs|);
    RatioMonotone(CountAtLeast(t, 10000.0), CountAbove(t, 0.0), |rs|);
  }

  /** A run that paid out counts toward the at-least-one-payout rate exactly when it recorded a payout. */
  lemma PaidRunHasPayouts(p: PayoutPolicy, eods: seq<real>)
    ensures var r := SimulatePayouts(p, eods);
      r.totalPayout > 0.0 <==> r.numPayouts > 0
  {
    var r := SimulatePayouts(p, eods);
    LargestWithinTotal(p, eods);
    if r.numPayouts > 0 {
      assert 0.0 < r.payouts[0].amount <= r.largestPayout;
    }
  }
}

=== FILE: position_sizing.dfy ===
/**
 * Symbol metadata and the execution-time lot sizing of core/position_sizing.py,
 * with the account constants of config/settings.py.
 */
module PositionSizing {
  import opened Wrappers
  import opened Num
  import Text

  const InitialEquity: real := 10000.0
  const PipValuePerStandardLot: real := 10.0
  const MinLotSize: real := 0.01
  const MaxLotSize: real := 2.0

  datatype SymbolMeta = SymbolMeta(symbol: string, pipValuePerStandardLot: real, pipSize: real, lotStep: real)

  const EurUsd: SymbolMeta := SymbolMeta("EURUSD", 10.0, 0.0001, 0.01)
  const GbpUsd: SymbolMeta := SymbolMeta("GBPUSD", 10.0, 0.0001, 0.01)
  const UsdJpy: SymbolMeta := SymbolMeta("USDJPY", 9.0, 0.01, 0.01)

  /** The DEFAULT_SYMBOL_META table. */
  const DefaultSymbolMeta: map<string, SymbolMeta> := map["EURUSD" := EurUsd, "GBPUSD" := GbpUsd, "USDJPY" := UsdJpy]

  /** Metadata for the upper-cased symbol, falling back to EURUSD for any symbol not in the table. */
  function GetSymbolMeta(symbol: string): (m: SymbolMeta)
    ensures Text.Upper(symbol) in DefaultSymbolMeta ==> m == DefaultSymbolMeta[Text.Upper(symbol)]
    ensures Text.Upper(symbol) !in DefaultSymbolMeta ==> m == EurUsd
    ensures m.pipSize > 0.0 && m.pipValuePerStandardLot > 0.0 && m.lotStep == 0.01
  {
    var key := Text.Upper(symbol);
    if key in DefaultSymbolMeta then DefaultSymbolMeta[key] else EurUsd
  }

  /** The lookup ignores case: symbols equal after upper-casing share their metadata. */
  lemma GetSymbolMetaCaseInsensitive(a: string, b: string)
    requires Text.SameUpper(a, b)
    ensures GetSymbolMeta(a) == GetSymbolMeta(b)
  {
  }

  /** Gold is not in the table, so it gets EURUSD's 0.0001 pip. */
  lemma XauUsdFallsBackToEurUsd()
    ensures GetSymbolMeta("XAUUSD") == EurUsd
    ensures GetSymbolMeta("usdjpy") == UsdJpy
  {
    assert Text.Upper("XAUUSD") == "XAUUSD";
    assert Text.Upper("usdjpy") == "USDJPY";
  }

  /** The lot count before clipping: the risk budget divided by the loss per standard lot at the stop. */
  function RawLots(equity: real, riskFraction: real, entry: real, stop: real, meta: SymbolMeta): real
    requires meta.pipSize > 0.0 && meta.pipValuePerStandardLot > 0.0 && entry != stop
  {
    (equity * riskFraction) / CostPerStandardLot(entry, stop, meta)
  }

  /** Loss of one standard lot between entry and stop: the pip distance times the pip value. */
  function CostPerStandardLot(entry: real, stop: real, meta: SymbolMeta): (c: real)
    requires meta.pipSize > 0.0 && meta.pipValuePerStandardLot > 0.0 && entry != stop
    ensures c > 0.0
  {
    var pipDistance := Abs(entry - stop) / meta.pipSize;
    assert pipDistance > 0.0;
    pipDistance * meta.pipValuePerStandardLot
  }

  /**
   * Python's `round(x / 0.01) * 0.01` on exact reals: the nearest multiple of the
   * 0.01 lot step, and on an exact tie the even multiple.
   */
  function RoundToLotStep(x: real): (r: real)
    ensures OnLotGrid(r)
    ensures -0.005 <= r - x <= 0.005
    ensures (r - x == 0.005 || x - r == 0.005) ==> (r * 100.0).Floor % 2 == 0
  {
    var n := RoundHalfEven(x * 100.0);
    var r := n as real / 100.0;
    assert r * 100.0 == n as real;
    r
  }

  /** A whole number of 0.01 lot steps. */
  predicate OnLotGrid(r: real)
  {
    r * 100.0 == (r * 100.0).Floor as real
  }

  /** A size already on the grid is its own rounding. */
  lemma RoundToLotStepOnGrid(x: real)
    requires OnLotGrid(x)
    ensures RoundToLotStep(x) == x
  {
    var n := (x * 100.0).Floor;
    RoundHalfEvenUnique(x * 100.0, n);
  }

  /**
   * Clip to [0.01, 2.0], round to the 0.01 lot step, clip again and round to two
   * decimals. Both roundings go half to even, like Python's `round`; the second one
   * and the second clip change nothing, so the result is the clipped size rounded
   * to the nearest lot step, ties to the even step.
   */
  function FinalLots(rawLots: real): (r: real)
    ensures MinLotSize <= r <= MaxLotSize
    ensures OnLotGrid(r)
    ensures var clipped := Clamp(rawLots, MinLotSize, MaxLotSize); -0.005 <= r - clipped <= 0.005
    ensures var clipped := Clamp(rawLots, MinLotSize, MaxLotSize);
              (r - clipped == 0.005 || clipped - r == 0.005) ==> (r * 100.0).Floor % 2 == 0
  {
    var clipped := Clamp(rawLots, MinLotSize, MaxLotSize);
    var rounded := RoundToLotStep(clipped);
    var bounded := Clamp(rounded, MinLotSize, MaxLotSize);
    LotStepStaysInBounds(clipped);
    assert bounded == rounded;
    RoundToLotStepOnGrid(bounded);
    RoundToLotStep(bounded)
  }

  /** Rounding a size in [0.01, 2.0] to the lot step stays in [0.01, 2.0]. */
  lemma LotStepStaysInBounds(x: real)
    requires MinLotSize <= x <= MaxLotSize
    ensures MinLotSize <= RoundToLotStep(x) <= MaxLotSize
  {
    var n := RoundHalfEven(x * 100.0);
    assert 1.0 <= x * 100.0 <= 200.0;
    assert 1 <= n <= 200;
    assert RoundToLotStep(x) == n as real / 100.0;
  }

  /** The tie 0.125 goes down to the even step 0.12, as Python's `round` does, not up to 0.13. */
  lemma FinalLotsTieGoesToEven()
    ensures FinalLots(0.125) == 0.12
  {
    assert Clamp(0.125, MinLotSize, MaxLotSize) == 0.125;
    RoundHalfEvenUnique(12.5, 12);
    assert RoundToLotStep(0.125) == 0.12;
    RoundToLotStepOnGrid(0.12);
  }

  predicate SizingInputsValid(equity: real, riskFraction: real, entry: real, stop: real)
  {
    equity > 0.0 && riskFraction > 0.0 && entry > 0.0 && stop > 0.0 && entry != stop
  }

  /**
   * MT5 lot size for a stop-loss trade. Fails with ValueError for a
   * non-positive equity, risk fraction or price, or equal entry and stop;
   * otherwise the raw size is clipped to [0.01, 2.0], rounded to the lot step
   * and rounded again to two decimals, so a tiny size becomes 0.01.
   */
  function CalculatePositionSize(equity: real, riskFraction: real, entry: real, stop: real, symbol: string): (r: Result<real>)
    ensures r.Err? <==> !SizingInputsValid(equity, riskFraction, entry, stop)
    ensures r.Ok? ==> MinLotSize <= r.value <= MaxLotSize
    ensures r.Ok? ==> OnLotGrid(r.value)
    ensures r.Ok? ==> var clipped := Clamp(RawLots(equity, riskFraction, entry, stop, GetSymbolMeta(symbol)), MinLotSize, MaxLotSize);
      -0.005 <= r.value - clipped <= 0.005
  {
    if equity <= 0.0 then Err(ValueError("Equity must be positive for position sizing."))
    else if riskFraction <= 0.0 then Err(ValueError("Risk fraction must be positive."))
    else if entry <= 0.0 || stop <= 0.0 then Err(ValueError("Prices must be positive for position sizing."))
    else if entry == stop then Err(ValueError("Entry and stop prices must differ for position sizing."))
    else Ok(FinalLots(RawLots(equity, riskFraction, entry, stop, GetSymbolMeta(symbol))))
  }

  /** Only the distance between entry and stop matters, so swapping them gives the same size. */
  lemma CalculatePositionSizeSymmetric(equity: real, riskFraction: real, entry: real, stop: real, symbol: string)
    ensures CalculatePositionSize(equity, riskFraction, entry, stop, symbol)
         == CalculatePositionSize(equity, riskFraction, stop, entry, symbol)
  {
    assert Abs(entry - stop) == Abs(stop - entry);
    if SizingInputsValid(equity, riskFraction, entry, stop) {
      var m := GetSymbolMeta(symbol);
      assert CostPerStandardLot(entry, stop, m) == CostPerStandardLot(stop, entry, m);
    }
  }

  /** 100k at 1% with a 100-pip EURUSD stop is exactly one standard lot. */
  lemma OneLotExample()
    ensures CalculatePositionSize(100000.0, 0.01, 1.1, 1.09, "EURUSD") == Ok(1.0)
  {
    assert Text.Upper("EURUSD") == "EURUSD";
    assert CostPerStandardLot(1.1, 1.09, EurUsd) == 1000.0;
    assert RawLots(100000.0, 0.01, 1.1, 1.09, EurUsd) == 1.0;
    RoundToLotStepOnGrid(1.0);
  }
}

=== FILE: recent_logs.dfy ===
/**
 * Behaviour analysis of the recent execution log: OPEN and CLOSE rows are
 * paired by ticket into completed trades, which are summarised overall and
 * per strategy (counts, averages, trade rate and histograms).
 */
module RecentLogs {
  import opened Wrappers
  import opened Num
  import Text
  import PositionSizing
  import Grouping
  import opened ExecLog

  /** An OPEN row waiting for its CLOSE. */
  datatype OpenTrade = OpenTrade(
    ticket: string,
    symbol: string,
    direction: string,
    volume: Option<real>,
    entryPrice: Option<real>,
    entryTime: int,
    strategyId: string,
    sessionId: string,
    signalReason: string)

  datatype Completed = Completed(
    entry: OpenTrade,
    exitPrice: real,
    exitTime: int,
    pnl: real,
    holdSeconds: int,
    pipsMoved: real,
    rMultiple: Option<real>,
    isWin: bool)

  /** The stop distance used when estimating risk, in pips. */
  const TypicalStopPips: real := 20.0

  /** The volume the risk estimate uses: a missing or zero volume counts as one lot. */
  function RiskVolume(volume: Option<real>): (v: real)
    ensures volume.Some? && volume.value != 0.0 ==> v == volume.value
    ensures volume.None? || volume.value == 0.0 ==> v == 1.0
  {
    if volume.None? || volume.value == 0.0 then 1.0 else volume.value
  }

  /**
   * The R multiple estimate: only for a known result above 0.01 in size,
   * and only when the estimated risk is positive.
   */
  function RMultiple(pnl: Option<real>, symbol: string, volume: Option<real>): (r: Option<real>)
    ensures r.Some? <==> pnl.Some? && Abs(pnl.value) > 0.01 && RiskVolume(volume) > 0.0
    ensures r.Some? ==> r.value * (TypicalStopPips * PositionSizing.GetSymbolMeta(symbol).pipValuePerStandardLot * RiskVolume(volume)) == pnl.value
  {
    var meta := PositionSizing.GetSymbolMeta(symbol);
    var v := RiskVolume(volume);
    var risk := TypicalStopPips * meta.pipValuePerStandardLot * v;
    RiskPositive(meta.pipValuePerStandardLot, v);
    if pnl.Some? && Abs(pnl.value) > 0.01 && risk > 0.0 then
      QuotientSign(pnl.value, risk);
      Some(pnl.value / risk)
    else None
  }

  lemma RiskPositive(pipValue: real, v: real)
    requires pipValue > 0.0
    ensures TypicalStopPips * pipValue * v > 0.0 <==> v > 0.0
  {
    if v <= 0.0 {
      MulNonPositive(v, TypicalStopPips * pipValue);
    }
  }

  /** The completed trade of an OPEN and its CLOSE, when both prices are known. */
  function CloseTrade(entry: OpenTrade, exitPrice: Option<real>, pnl: Option<real>, t: int): (c: Option<Completed>)
    ensures c.Some? <==> exitPrice.Some? && entry.entryPrice.Some?
    ensures c.Some? ==> c.value.entry == entry && c.value.exitTime == t && c.value.holdSeconds == t - entry.entryTime
    ensures c.Some? ==> (c.value.pipsMoved >= 0.0
      && c.value.pipsMoved * PositionSizing.GetSymbolMeta(entry.symbol).pipSize == Abs(exitPrice.value - entry.entryPrice.value))
    ensures c.Some? ==> c.value.pnl == pnl.GetOr(0.0) && (c.value.isWin <==> pnl.GetOr(0.0) > 0.0)
    ensures c.Some? ==> c.value.rMultiple == RMultiple(pnl, entry.symbol, entry.volume)
  {
    if exitPrice.Some? && entry.entryPrice.Some? then
      var meta := PositionSizing.GetSymbolMeta(entry.symbol);
      var moved := Abs(exitPrice.value - entry.entryPrice.value);
      QuotientSign(moved, meta.pipSize);
      Some(Completed(
        entry := entry,
        exitPrice := exitPrice.value,
        exitTime := t,
        pnl := pnl.GetOr(0.0),
        holdSeconds := t - entry.entryTime,
        pipsMoved := moved / meta.pipSize,
        rMultiple := RMultiple(pnl, entry.symbol, entry.volume),
        isWin := pnl.GetOr(0.0) > 0.0))
    else None
  }

  datatype Pairing = Pairing(open: map<string, OpenTrade>, trades: seq<Completed>)

  function OpenOf(row: Row, ticket: string, t: int): OpenTrade
  {
    OpenTrade(
      ticket := ticket,
      symbol := CellText(row.symbol),
      direction := CellText(row.direction),
      volume := SafeFloat(row.volume),
      entryPrice := SafeFloat(row.price),
      entryTime := t,
      strategyId := StrategyOrUnknown(row.strategyId),
      sessionId := Text.Strip(CellText(row.sessionId)),
      signalReason := Text.Strip(CellText(row.signalReason)))
  }

  /** One row of `analyze_logs`. The timestamp is parsed before the data-mode filter. */
  function StepRow(p: Pairing, row: Row, includeHistorical: bool): (r: Result<Pairing>)
    ensures r.Ok? ==> ParseTimestamp(row.stamp).Ok? && row.ticket.Some?
    ensures r.Ok? && !Kept(row, includeHistorical) ==> r.value == p
    ensures r.Ok? && Kept(row, includeHistorical) && EventOf(row) == "OPEN" ==>
      r.value.trades == p.trades
      && r.value.open == p.open[row.ticket.value := OpenOf(row, row.ticket.value, ParseTimestamp(row.stamp).value)]
    // A CLOSE takes the OPEN of its ticket out, completing a trade when both prices are known.
    ensures r.Ok? && Kept(row, includeHistorical) && EventOf(row) == "CLOSE" && row.ticket.value in p.open ==>
      r.value.open == p.open - {row.ticket.value}
      && var c := CloseTrade(p.open[row.ticket.value], SafeFloat(row.price), SafeFloat(row.pnl), ParseTimestamp(row.stamp).value);
         r.value.trades == p.trades + (if c.Some? then [c.value] else [])
    // An unmatched CLOSE, and any other event, changes nothing.
    ensures r.Ok? && EventOf(row) != "OPEN" && !(EventOf(row) == "CLOSE" && row.ticket.value in p.open) ==> r.value == p
  {
    var t :- ParseTimestamp(row.stamp);
    var ticket :- Required(row.ticket, "ticket");
    var event := EventOf(row);
    if !Kept(row, includeHistorical) then Ok(p)
    else if event == "OPEN" then Ok(p.(open := p.open[ticket := OpenOf(row, ticket, t)]))
    else if event == "CLOSE" && ticket in p.open then
      var c := CloseTrade(p.open[ticket], SafeFloat(row.price), SafeFloat(row.pnl), t);
      Ok(Pairing(p.open - {ticket}, p.trades + (if c.Some? then [c.value] else [])))
    else Ok(p)
  }

  function PairRows(rows: seq<Row>, includeHistorical: bool): (r: Result<Pairing>)
    decreases |rows|
  {
    if |rows| == 0 then Ok(Pairing(map[], []))
    else
      var p :- PairRows(rows[..|rows| - 1], includeHistorical);
      StepRow(p, rows[|rows| - 1], includeHistorical)
  }

  /** Kept CLOSE rows, which bound the number of completed trades. */
  function KeptCloses(rows: seq<Row>, includeHistorical: bool): (n: nat)
    ensures n <= |rows|
    decreases |rows|
  {
    if |rows| == 0 then 0
    else
      var last := rows[|rows| - 1];
      KeptCloses(rows[..|rows| - 1], includeHistorical) + (if Kept(last, includeHistorical) && EventOf(last) == "CLOSE" then 1 else 0)
  }

  /** Every completed trade comes from its own kept CLOSE row. */
  lemma {:induction false} TradesFromCloses(rows: seq<Row>, includeHistorical: bool)
    requires PairRows(rows, includeHistorical).Ok?
    ensures |PairRows(rows, includeHistorical).value.trades| <= KeptCloses(rows, includeHistorical)
    decreases |rows|
  {
    if |rows| > 0 {
      TradesFromCloses(rows[..|rows| - 1], includeHistorical);
      var p := PairRows(rows[..|rows| - 1], includeHistorical).value;
      StepRowAddsAtMostOne(p, rows[|rows| - 1], includeHistorical);
    }
  }

  /** A row completes at most one trade, and only a kept CLOSE row completes one. */
  lemma StepRowAddsAtMostOne(p: Pairing, row: Row, includeHistorical: bool)
    ensures StepRow(p, row, includeHistorical).Ok? ==>
      |StepRow(p, row, includeHistorical).value.trades| <= |p.trades| + (if Kept(row, includeHistorical) && EventOf(row) == "CLOSE" then 1 else 0)
  {
  }

  // Histograms -------------------------------------------------------------------

  datatype Edge = Finite(x: real) | Infinity

  predicate AtMost(e: Edge, v: real)
  {
    e.Finite? && e.x <= v
  }

  predicate Below(v: real, e: Edge)
  {
    e.Infinity? || v < e.x
  }

  /** `v` lies in bin `i`, between edge `i` (inclusive) and edge `i + 1`. */
  predicate InBin(v: real, bins: seq<Edge>, i: int)
  {
    0 <= i < |bins| - 1 && AtMost(bins[i], v) && Below(v, bins[i + 1])
  }

  /** The first bin holding `v`, if any. */
  function BinOf(v: real, bins: seq<Edge>, from: nat): (r: Option<nat>)
    ensures r.Some? ==> from <= r.value && InBin(v, bins, r.value)
    ensures r.Some? ==> forall j :: from <= j < r.value ==> !InBin(v, bins, j)
    ensures r.None? ==> forall j :: from <= j ==> !InBin(v, bins, j)
    decreases |bins| - from
  {
    if from + 1 >= |bins| then None
    else if InBin(v, bins, from) then Some(from)
    else BinOf(v, bins, from + 1)
  }

  const HoldBins: seq<Edge> := [Finite(0.0), Finite(1800.0), Finite(3600.0), Finite(7200.0), Finite(14400.0), Infinity]
  const RBins: seq<Edge> := [Finite(-5.0), Finite(-2.0), Finite(-1.0), Finite(0.0), Finite(1.0), Finite(2.0), Finite(5.0), Infinity]

  /** How many values fall in bin `i`. */
  function CountInBin(values: seq<real>, bins: seq<Edge>, i: nat): (n: nat)
    ensures n <= |values|
    decreases |values|
  {
    if |values| == 0 then 0
    else CountInBin(values[..|values| - 1], bins, i) + (if BinOf(values[|values| - 1], bins, 0) == Some(i) then 1 else 0)
  }

  /**
   * `_histogram`: counts per bin, keyed by bin index (the source labels a
   * bin "lo-hi"); bins that received nothing have no entry, and values
   * outside every bin are dropped.
   */
  function Histogram(values: seq<real>, bins: seq<Edge>): (h: map<nat, nat>)
    ensures |values| == 0 ==> h == map[]
    ensures forall i :: i in h ==> h[i] == CountInBin(values, bins, i) && h[i] > 0
    ensures forall i: nat :: CountInBin(values, bins, i) > 0 ==> i in h
    decreases |values|
  {
    if |values| == 0 then map[]
    else
      var h := Histogram(values[..|values| - 1], bins);
      match BinOf(values[|values| - 1], bins, 0)
      case None => h
      case Some(i) => h[i := (if i in h then h[i] else 0) + 1]
  }

  /** With increasing edges every value from the first edge up to the last lies in a bin. */
  lemma {:induction false} InRangeIsBinned(v: real, bins: seq<Edge>, from: nat)
    requires from + 1 < |bins|
    requires forall i :: 0 <= i < |bins| - 1 ==> bins[i].Finite?
    requires forall i :: 0 <= i < |bins| - 2 ==> bins[i].x <= bins[i + 1].x
    requires AtMost(bins[from], v) && Below(v, bins[|bins| - 1])
    ensures BinOf(v, bins, from).Some?
    decreases |bins| - from
  {
    if !InBin(v, bins, from) {
      assert !Below(v, bins[from + 1]);
      if from + 2 < |bins| {
        InRangeIsBinned(v, bins, from + 1);
      }
    }
  }

  /** A hold time of an hour lands in the 3600-7200 bin; a negative one is dropped. */
  lemma HoldBinsExamples()
    ensures BinOf(3600.0, HoldBins, 0) == Some(2)
    ensures BinOf(-1.0, HoldBins, 0) == None
    ensures BinOf(1.0e9, HoldBins, 0) == Some(4)
  {
  }

  // Statistics -----------------------------------------------------------------

  function Pnls(trades: seq<Completed>): (ps: seq<real>)
    ensures |ps| == |trades|
    ensures forall i :: 0 <= i < |trades| ==> ps[i] == trades[i].pnl
  {
    seq(|trades|, i requires 0 <= i < |trades| => trades[i].pnl)
  }

  function Wins(trades: seq<Completed>): (n: nat)
    ensures n <= |trades|
    decreases |trades|
  {
    if |trades| == 0 then 0 else Wins(trades[..|trades| - 1]) + (if trades[|trades| - 1].isWin then 1 else 0)
  }

  /** The values that are not zero (Python's truthiness filter), in order. */
  function NonZero(xs: seq<real>): (r: seq<real>)
    ensures |r| <= |xs|
    ensures forall i :: 0 <= i < |r| ==> r[i] != 0.0
    decreases |xs|
  {
    if |xs| == 0 then []
    else NonZero(xs[..|xs| - 1]) + (if xs[|xs| - 1] != 0.0 then [xs[|xs| - 1]] else [])
  }

  function HoldTimes(trades: seq<Completed>): (hs: seq<real>)
    ensures |hs| == |trades|
  {
    seq(|trades|, i requires 0 <= i < |trades| => trades[i].holdSeconds as real)
  }

  function Pips(trades: seq<Completed>): (ps: seq<real>)
    ensures |ps| == |trades|
  {
    seq(|trades|, i requires 0 <= i < |trades| => trades[i].pipsMoved)
  }

  /** The R multiples that were estimated, in order. */
  function RMultiples(trades: seq<Completed>): (rs: seq<real>)
    ensures |rs| <= |trades|
    decreases |trades|
  {
    if |trades| == 0 then []
    else
      var last := trades[|trades| - 1];
      RMultiples(trades[..|trades| - 1]) + (if last.rMultiple.Some? then [last.rMultiple.value] else [])
  }

  function MinEntry(trades: seq<Completed>): (t: int)
    requires |trades| > 0
    ensures forall i :: 0 <= i < |trades| ==> t <= trades[i].entry.entryTime
    ensures exists i :: 0 <= i < |trades| && t == trades[i].entry.entryTime
    decreases |trades|
  {
    if |trades| == 1 then trades[0].entry.entryTime
    else
      var rest := MinEntry(trades[..|trades| - 1]);
      assert forall i :: 0 <= i < |trades| - 1 ==> trades[..|trades| - 1][i] == trades[i];
      IMin(rest, trades[|trades| - 1].entry.entryTime)
  }

  function MaxExit(trades: seq<Completed>): (t: int)
    requires |trades| > 0
    ensures forall i :: 0 <= i < |trades| ==> trades[i].exitTime <= t
    ensures exists i :: 0 <= i < |trades| && t == trades[i].exitTime
    decreases |trades|
  {
    if |trades| == 1 then trades[0].exitTime
    else
      var rest := MaxExit(trades[..|trades| - 1]);
      assert forall i :: 0 <= i < |trades| - 1 ==> trades[..|trades| - 1][i] == trades[i];
      IMax(rest, trades[|trades| - 1].exitTime)
  }

  const SecondsPerDay: real := 86400.0

  /**
   * Trades per day over the span from the first entry to the last exit,
   * the span counted as at least one day; 0 for fewer than two trades.
   */
  function TradesPerDay(trades: seq<Completed>): (r: real)
    ensures |trades| < 2 ==> r == 0.0
    ensures |trades| >= 2 ==> 0.0 < r <= |trades| as real
    ensures |trades| >= 2 ==> Scales(r, Max((MaxExit(trades) - MinEntry(trades)) as real / SecondsPerDay, 1.0), |trades| as real)
  {
    if |trades| < 2 then 0.0
    else
      var days := (MaxExit(trades) - MinEntry(trades)) as real / SecondsPerDay;
      var span := Max(days, 1.0);
      AtMostCount(|trades| as real, span);
      |trades| as real / span
  }

  /** When the first entry and the last exit are at most a day apart, the rate is the trade count itself. */
  lemma TradesPerDayWithinADay(trades: seq<Completed>)
    requires |trades| >= 2
    requires MaxExit(trades) - MinEntry(trades) <= 86400
    ensures TradesPerDay(trades) == |trades| as real
  {
    var days := (MaxExit(trades) - MinEntry(trades)) as real / SecondsPerDay;
    assert days <= 1.0 by {
      assert (MaxExit(trades) - MinEntry(trades)) as real <= SecondsPerDay;
    }
    assert Scales(TradesPerDay(trades), 1.0, |trades| as real);
  }

  lemma AtMostCount(n: real, span: real)
    requires n > 0.0 && span >= 1.0
    ensures 0.0 < n / span <= n
    ensures Scales(n / span, span, n)
  {
    assert (n / span) * span == n;
  }

  datatype StrategyStats = StrategyStats(
    strategyId: string,
    totalTrades: nat,
    wins: nat,
    losses: nat,
    winRate: real,
    totalPnl: real,
    avgPnl: real,
    avgHoldSeconds: real,
    avgHoldMinutes: real,
    avgPips: real,
    avgRMultiple: Option<real>,
    tradesPerDay: real,
    holdTimeDist: map<nat, nat>,
    rMultipleDist: map<nat, nat>)

  /** `_compute_strategy_stats`; the empty dictionary for no trades is `None`. */
  function StrategyStatsOf(trades: seq<Completed>, strategyId: string): (r: Option<StrategyStats>)
    ensures r.None? <==> |trades| == 0
    ensures r.Some? ==> r.value.strategyId == strategyId
    ensures r.Some? ==> r.value.totalTrades == |trades| && r.value.wins + r.value.losses == |trades|
    ensures r.Some? ==> r.value.tradesPerDay == TradesPerDay(trades)
    ensures r.Some? ==> r.value.wins == Wins(trades) && r.value.winRate == Ratio(Wins(trades), |trades|)
    ensures r.Some? ==> r.value.totalPnl == Sum(Pnls(trades)) && Scales(r.value.avgPnl, |trades| as real, r.value.totalPnl)
    ensures r.Some? ==> (r.value.avgHoldSeconds == Mean(NonZero(HoldTimes(trades)))
      && Scales(r.value.avgHoldMinutes, 60.0, r.value.avgHoldSeconds))
    ensures r.Some? ==> r.value.avgPips == Mean(NonZero(Pips(trades)))
    ensures r.Some? ==> (r.value.avgRMultiple.None? <==> |RMultiples(trades)| == 0)
    ensures r.Some? && r.value.avgRMultiple.Some? ==> r.value.avgRMultiple.value == Mean(RMultiples(trades))
    ensures r.Some? ==> r.value.rMultipleDist == Histogram(RMultiples(trades), RBins)
    ensures r.Some? ==> r.value.holdTimeDist == Histogram(NonZero(HoldTimes(trades)), HoldBins)
  {
    if |trades| == 0 then None
    else
      var n := |trades|;
      var wins := Wins(trades);
      var total := Sum(Pnls(trades));
      var holds := NonZero(HoldTimes(trades));
      var rs := RMultiples(trades);
      var avgHold := Mean(holds);
      Some(StrategyStats(
        strategyId := strategyId,
        totalTrades := n,
        wins := wins,
        losses := n - wins,
        winRate := Ratio(wins, n),
        totalPnl := total,
        avgPnl := Mean(Pnls(trades)),
        avgHoldSeconds := avgHold,
        avgHoldMinutes := avgHold / 60.0,
        avgPips := Mean(NonZero(Pips(trades))),
        avgRMultiple := if |rs| == 0 then None else Some(Mean(rs)),
        tradesPerDay := TradesPerDay(trades),
        holdTimeDist := Histogram(holds, HoldBins),
        rMultipleDist := Histogram(rs, RBins)))
  }

  /** `_compute_overall_stats`: `{"total_trades": 0}` for no trades. */
  datatype Overall = NoTrades | Overall(totalTrades: nat, wins: nat, losses: nat, winRate: real, totalPnl: real, avgPnl: real)

  function OverallStats(trades: seq<Completed>): (o: Overall)
    ensures o.NoTrades? <==> |trades| == 0
    ensures o.Overall? ==> o.totalTrades == |trades| && o.wins + o.losses == |trades| && o.wins == Wins(trades)
    ensures o.Overall? ==> o.winRate * (|trades| as real) == o.wins as real
    ensures o.Overall? ==> o.totalPnl == Sum(Pnls(trades)) && o.avgPnl * (|trades| as real) == o.totalPnl
  {
    if |trades| == 0 then NoTrades
    else
      var n := |trades|;
      var wins := Wins(trades);
      Overall(n, wins, n - wins, Ratio(wins, n), Sum(Pnls(trades)), Mean(Pnls(trades)))
  }

  /** The overall figures and one strategy's figures agree when every trade is that strategy's. */
  lemma OverallMatchesSingleStrategy(trades: seq<Completed>, id: string)
    requires |trades| > 0
    ensures var o := OverallStats(trades);
            var s := StrategyStatsOf(trades, id).value;
            o.totalTrades == s.totalTrades && o.wins == s.wins && o.losses == s.losses
            && o.winRate == s.winRate && o.totalPnl == s.totalPnl && o.avgPnl == s.avgPnl
  {
  }

  function StrategyOf(c: Completed): string
  {
    c.entry.strategyId
  }

  /** `_aggregate_by_strategy`: one entry per strategy, in order of first trade. */
  function PerStrategy(trades: seq<Completed>): (r: seq<StrategyStats>)
    ensures |r| == |Grouping.GroupBy(trades, StrategyOf)|
    ensures forall i :: 0 <= i < |r| ==>
      var g := Grouping.GroupBy(trades, StrategyOf)[i];
      r[i].strategyId == g.key && Some(r[i]) == StrategyStatsOf(Grouping.Members(trades, StrategyOf, g.key), g.key)
  {
    var gs := Grouping.GroupBy(trades, StrategyOf);
    Grouping.GroupByPartitions(trades, StrategyOf);
    Grouping.GroupsNonEmpty(trades, StrategyOf);
    seq(|gs|, i requires 0 <= i < |gs| => NonEmptyStats(trades, gs, i))
  }

  function NonEmptyStats(trades: seq<Completed>, gs: seq<Grouping.Group<string, Completed>>, i: nat): (s: StrategyStats)
    requires i < |gs| && Grouping.Faithful(gs, trades, StrategyOf)
    requires |gs[i].members| > 0
    ensures Some(s) == StrategyStatsOf(Grouping.Members(trades, StrategyOf, gs[i].key), gs[i].key)
    ensures s.strategyId == gs[i].key
  {
    StrategyStatsOf(gs[i].members, gs[i].key).value
  }

  datatype Analysis = Analysis(trades: seq<Completed>, perStrategy: seq<StrategyStats>, overall: Overall)

  /** `analyze_logs` over the rows of an existing log. */
  function AnalyzeLogs(rows: seq<Row>, includeHistorical: bool): (r: Result<Analysis>)
    ensures r.Ok? <==> PairRows(rows, includeHistorical).Ok?
    ensures r.Ok? ==> r.value.trades == PairRows(rows, includeHistorical).value.trades
    ensures r.Ok? ==> |r.value.trades| <= KeptCloses(rows, includeHistorical)
    ensures r.Ok? ==> r.value.overall == OverallStats(r.value.trades)
    ensures r.Ok? ==> r.value.perStrategy == PerStrategy(r.value.trades)
  {
    var p :- PairRows(rows, includeHistorical);
    TradesFromCloses(rows, includeHistorical);
    Ok(Analysis(p.trades, PerStrategy(p.trades), OverallStats(p.trades)))
  }
}

=== FILE: risk.dfy ===
/**
 * The risk engine of core/risk.py: the three risk modes and their profiles,
 * the account's equity/peak/drawdown state with its sticky locks, the
 * pre-trade daily-loss check, and the mode controller that steps the mode
 * down on drawdown and up after a window of good trades.
 */
module Risk {
  import opened Wrappers
  import opened Num

  datatype RiskMode = UltraUltraConservative | UltraConservative | Conservative

  /** Position of a mode on the ladder, 0 being the most cautious. */
  function Rank(m: RiskMode): nat
  {
    match m
    case UltraUltraConservative => 0
    case UltraConservative => 1
    case Conservative => 2
  }

  datatype RiskProfile = RiskProfile(
    riskPerTradeFraction: real,
    dailyLossLimitFraction: real,
    maxTrailingDdFraction: real,
    maxOpenTrades: int)

  /** The fixed RISK_PROFILES table. */
  function ProfileOf(m: RiskMode): RiskProfile
  {
    match m
    case UltraUltraConservative => RiskProfile(0.002, 0.01, 0.02, 1)
    case UltraConservative => RiskProfile(0.004, 0.015, 0.03, 1)
    case Conservative => RiskProfile(0.006, 0.02, 0.04, 1)
  }

  /** A more aggressive mode never has tighter limits, every daily limit is within 2%, and one trade is open at most. */
  lemma ProfilesOrdered(a: RiskMode, b: RiskMode)
    requires Rank(a) <= Rank(b)
    ensures ProfileOf(a).riskPerTradeFraction <= ProfileOf(b).riskPerTradeFraction
    ensures ProfileOf(a).dailyLossLimitFraction <= ProfileOf(b).dailyLossLimitFraction
    ensures ProfileOf(a).maxTrailingDdFraction <= ProfileOf(b).maxTrailingDdFraction
    ensures 0.0 < ProfileOf(b).dailyLossLimitFraction <= 0.02
    ensures ProfileOf(b).maxOpenTrades == 1
  {
  }

  /** The parts of a prop-challenge configuration the risk engine reads. */
  datatype ChallengeLimits = ChallengeLimits(maxTotalLossFraction: real, maxDailyLossFraction: real)

  /** The parts of a firm profile the risk engine reads. */
  datatype FirmProfile = FirmProfile(internalMaxDailyLossFraction: real, internalMaxTrailingDdFraction: real)

  /** Timestamps are seconds since the epoch. */
  type Timestamp = int

  datatype RiskState = RiskState(
    equityPeak: real,
    currentEquity: real,
    startOfDayEquity: real,
    currentMode: RiskMode,
    tradingPaused: bool,
    firmProfile: Option<FirmProfile>,
    internalStopOutTriggered: bool,
    propFailTriggered: bool,
    internalStopTimestamp: Option<Timestamp>,
    propFailTimestamp: Option<Timestamp>)

  /** The peak is never below the current equity. */
  ghost predicate Valid(s: RiskState)
  {
    s.currentEquity <= s.equityPeak
  }

  function Init(initialEquity: real, mode: RiskMode, firm: Option<FirmProfile>): (s: RiskState)
    ensures s.equityPeak == s.currentEquity == s.startOfDayEquity == initialEquity
    ensures s.currentMode == mode && s.firmProfile == firm
    ensures Valid(s) && CanTrade(s) && !s.propFailTriggered
    ensures s.internalStopTimestamp.None? && s.propFailTimestamp.None?
  {
    RiskState(initialEquity, initialEquity, initialEquity, mode, false, firm, false, false, None, None)
  }

  /** Drawdown from the peak as a fraction of the peak; 0 when the peak is not positive. */
  function TotalDdFromPeak(s: RiskState): (dd: real)
    ensures s.equityPeak <= 0.0 ==> dd == 0.0
    ensures s.equityPeak > 0.0 ==> dd * s.equityPeak == s.equityPeak - s.currentEquity
    ensures Valid(s) ==> dd >= 0.0
    ensures s.equityPeak > 0.0 && s.currentEquity >= 0.0 ==> dd <= 1.0
  {
    if s.equityPeak <= 0.0 then 0.0 else (s.equityPeak - s.currentEquity) / s.equityPeak
  }

  /** Drawdown from the day's opening equity; 0 when that equity is not positive. */
  function DailyDd(s: RiskState): (dd: real)
    ensures s.startOfDayEquity <= 0.0 ==> dd == 0.0
    ensures s.startOfDayEquity > 0.0 ==> dd * s.startOfDayEquity == s.startOfDayEquity - s.currentEquity
    ensures s.currentEquity == s.startOfDayEquity ==> dd == 0.0
  {
    if s.startOfDayEquity <= 0.0 then 0.0 else (s.startOfDayEquity - s.currentEquity) / s.startOfDayEquity
  }

  function UpdateEquity(s: RiskState, newEquity: real): (t: RiskState)
    ensures t.currentEquity == newEquity
    ensures t.equityPeak >= s.equityPeak && t.equityPeak >= newEquity
    ensures t.equityPeak == s.equityPeak || t.equityPeak == newEquity
    ensures Valid(t)
    ensures t.(currentEquity := s.currentEquity, equityPeak := s.equityPeak) == s
  {
    s.(currentEquity := newEquity, equityPeak := if newEquity > s.equityPeak then newEquity else s.equityPeak)
  }

  function OnNewDay(s: RiskState): (t: RiskState)
    ensures DailyDd(t) == 0.0
    ensures t.startOfDayEquity == s.currentEquity
    ensures t.(startOfDayEquity := s.startOfDayEquity) == s
  {
    s.(startOfDayEquity := s.currentEquity)
  }

  /** The trailing-drawdown limit that trips the internal stop: the firm's if present, else the mode profile's. */
  function InternalTrailingLimit(s: RiskState, profile: RiskProfile): real
  {
    if s.firmProfile.Some? then s.firmProfile.value.internalMaxTrailingDdFraction else profile.maxTrailingDdFraction
  }

  /** Record `ts` only if nothing was recorded before. */
  function FirstTimestamp(prev: Option<Timestamp>, ts: Option<Timestamp>): (r: Option<Timestamp>)
    ensures prev.Some? ==> r == prev
    ensures prev.None? ==> r == ts
  {
    if prev.None? && ts.Some? then ts else prev
  }

  function EnforceDrawdownLimits(s: RiskState, profile: RiskProfile, challenge: ChallengeLimits, ts: Option<Timestamp>): (t: RiskState)
    ensures var dd := TotalDdFromPeak(s);
      && (t.propFailTriggered <==> s.propFailTriggered || dd >= challenge.maxTotalLossFraction)
      && (t.internalStopOutTriggered <==> s.internalStopOutTriggered || dd >= InternalTrailingLimit(s, profile))
      && (t.tradingPaused <==> s.tradingPaused || dd >= challenge.maxTotalLossFraction || dd >= InternalTrailingLimit(s, profile))
    ensures s.propFailTimestamp.Some? ==> t.propFailTimestamp == s.propFailTimestamp
    ensures s.internalStopTimestamp.Some? ==> t.internalStopTimestamp == s.internalStopTimestamp
    ensures t.propFailTimestamp.Some? && s.propFailTimestamp.None? ==> t.propFailTriggered && t.propFailTimestamp == ts
    ensures t.internalStopTimestamp.Some? && s.internalStopTimestamp.None? ==> t.internalStopOutTriggered && t.internalStopTimestamp == ts
    // A limit breached now records `ts` when nothing was recorded before; one not breached records nothing.
    ensures TotalDdFromPeak(s) >= challenge.maxTotalLossFraction && s.propFailTimestamp.None? ==> t.propFailTimestamp == ts
    ensures TotalDdFromPeak(s) < challenge.maxTotalLossFraction ==> t.propFailTimestamp == s.propFailTimestamp
    ensures TotalDdFromPeak(s) >= InternalTrailingLimit(s, profile) && s.internalStopTimestamp.None? ==> t.internalStopTimestamp == ts
    ensures TotalDdFromPeak(s) < InternalTrailingLimit(s, profile) ==> t.internalStopTimestamp == s.internalStopTimestamp
    ensures t.equityPeak == s.equityPeak && t.currentEquity == s.currentEquity && t.startOfDayEquity == s.startOfDayEquity
    ensures t.currentMode == s.currentMode && t.firmProfile == s.firmProfile
  {
    var dd := TotalDdFromPeak(s);
    var s1 := if dd >= challenge.maxTotalLossFraction then
        s.(propFailTriggered := true, tradingPaused := true,
           propFailTimestamp := FirstTimestamp(s.propFailTimestamp, ts))
      else s;
    if dd >= InternalTrailingLimit(s1, profile) then
      s1.(internalStopOutTriggered := true, tradingPaused := true,
          internalStopTimestamp := FirstTimestamp(s1.internalStopTimestamp, ts))
    else s1
  }

  predicate CanTrade(s: RiskState)
  {
    !(s.tradingPaused || s.internalStopOutTriggered)
  }

  /** The operations a backtest applies to the risk state, in any order. */
  datatype RiskEvent =
    | EquityUpdate(newEquity: real)
    | NewDay
    | Enforce(profile: RiskProfile, challenge: ChallengeLimits, ts: Option<Timestamp>)
    | ModeChange(mode: RiskMode)

  function Apply(s: RiskState, e: RiskEvent): RiskState
  {
    match e
    case EquityUpdate(x) => UpdateEquity(s, x)
    case NewDay => OnNewDay(s)
    case Enforce(p, c, ts) => EnforceDrawdownLimits(s, p, c, ts)
    case ModeChange(m) => s.(currentMode := m)
  }

  /** The state after applying the operations in order. */
  function Run(s: RiskState, es: seq<RiskEvent>): (t: RiskState)
    ensures Valid(s) ==> Valid(t)
    decreases |es|
  {
    if |es| == 0 then s
    else
      assert Valid(s) ==> Valid(Apply(s, es[0])) by {
        if Valid(s) {
          ApplyKeeps(s, es[0]);
        }
      }
      Run(Apply(s, es[0]), es[1..])
  }

  /**
   * Over any sequence of operations the peak never falls and stays above the
   * current equity, and the locks are never cleared: once trading is refused
   * it stays refused, and a recorded stop or fail time never changes.
   */
  lemma {:induction false} RunKeepsInvariants(s: RiskState, es: seq<RiskEvent>)
    requires Valid(s)
    ensures var t := Run(s, es);
      && Valid(t)
      && t.equityPeak >= s.equityPeak
      && (!CanTrade(s) ==> !CanTrade(t))
      && (s.internalStopOutTriggered ==> t.internalStopOutTriggered)
      && (s.propFailTriggered ==> t.propFailTriggered)
      && (s.propFailTimestamp.Some? ==> t.propFailTimestamp == s.propFailTimestamp)
      && (s.internalStopTimestamp.Some? ==> t.internalStopTimestamp == s.internalStopTimestamp)
    decreases |es|
  {
    if |es| > 0 {
      var s1 := Apply(s, es[0]);
      ApplyKeeps(s, es[0]);
      RunKeepsInvariants(s1, es[1..]);
      assert Keeps(s1, Run(s1, es[1..]));
      assert Run(s, es) == Run(s1, es[1..]);
    }
  }

  /** What `t` keeps from the earlier state `s`: the peak, the refusal to trade and the recorded locks. */
  predicate Keeps(s: RiskState, t: RiskState)
  {
    && t.equityPeak >= s.equityPeak
    && (!CanTrade(s) ==> !CanTrade(t))
    && (s.internalStopOutTriggered ==> t.internalStopOutTriggered)
    && (s.propFailTriggered ==> t.propFailTriggered)
    && (s.propFailTimestamp.Some? ==> t.propFailTimestamp == s.propFailTimestamp)
    && (s.internalStopTimestamp.Some? ==> t.internalStopTimestamp == s.internalStopTimestamp)
  }

  /** One operation keeps the state valid and keeps what an earlier state recorded. */
  lemma ApplyKeeps(s: RiskState, e: RiskEvent)
    requires Valid(s)
    ensures Valid(Apply(s, e)) && Keeps(s, Apply(s, e))
  {
  }

  /**
   * A 5% drawdown in CONSERVATIVE mode, with no firm profile and a prop cap
   * above 5%, trips the internal 4% stop but not the prop fail.
   */
  lemma ConservativeFivePercentStopsInternally(challenge: ChallengeLimits)
    requires challenge.maxTotalLossFraction > 0.05
    ensures var t := EnforceDrawdownLimits(
        UpdateEquity(Init(100000.0, Conservative, None), 95000.0), ProfileOf(Conservative), challenge, None);
      t.internalStopOutTriggered && !t.propFailTriggered && t.tradingPaused && !CanTrade(t)
  {
    var s := UpdateEquity(Init(100000.0, Conservative, None), 95000.0);
    assert TotalDdFromPeak(s) == 0.05;
  }

  /** The daily-loss fraction the internal check uses: the firm's if present, else the profile's. */
  function InternalDailyFraction(profile: RiskProfile, firm: Option<FirmProfile>): real
  {
    if firm.Some? then firm.value.internalMaxDailyLossFraction else profile.dailyLossLimitFraction
  }

  /** Realised loss so far today plus the worst case of every open position and the proposed trade. */
  function WorstCaseLoss(todaysRealizedPnl: real, openMaxLosses: seq<real>, proposedRisk: real): real
  {
    Max(0.0, -todaysRealizedPnl) + Sum(openMaxLosses) + proposedRisk
  }

  /** Reference definition of the pre-trade daily-loss check, computed in one expression. */
  function Admission(
    todaysRealizedPnl: real,
    openMaxLosses: seq<real>,
    proposedRisk: real,
    equityStartOfDay: real,
    profile: RiskProfile,
    challenge: ChallengeLimits,
    firm: Option<FirmProfile>): Result<bool>
  {
    var internal := InternalDailyFraction(profile, firm) * equityStartOfDay;
    if internal - challenge.maxDailyLossFraction * equityStartOfDay > 0.000000001 then
      Err(ValueError("Internal daily limit exceeds prop firm daily cap."))
    else Ok(WorstCaseLoss(todaysRealizedPnl, openMaxLosses, proposedRisk) <= internal)
  }

  /**
   * The pre-trade daily-loss check. Fails with ValueError when the internal
   * daily limit is configured above the prop firm's cap (beyond 1e-9);
   * otherwise admits the trade exactly when the worst-case loss stays within
   * the internal limit.
   */
  method CanOpenNewTrade(
    todaysRealizedPnl: real,
    openMaxLosses: seq<real>,
    proposedRisk: real,
    equityStartOfDay: real,
    profile: RiskProfile,
    challenge: ChallengeLimits,
    firm: Option<FirmProfile>)
    returns (r: Result<bool>)
    ensures var internal := InternalDailyFraction(profile, firm) * equityStartOfDay;
      && (r.Err? <==> internal - challenge.maxDailyLossFraction * equityStartOfDay > 0.000000001)
      && (r.Ok? ==> (r.value <==> WorstCaseLoss(todaysRealizedPnl, openMaxLosses, proposedRisk) <= internal))
    ensures r == Admission(todaysRealizedPnl, openMaxLosses, proposedRisk, equityStartOfDay, profile, challenge, firm)
  {
    var internalDailyLimit := InternalDailyFraction(profile, firm) * equityStartOfDay;
    var propDailyLimit := challenge.maxDailyLossFraction * equityStartOfDay;
    if internalDailyLimit - propDailyLimit > 0.000000001 {
      return Err(ValueError("Internal daily limit exceeds prop firm daily cap."));
    }
    var worst := AddUp(Max(0.0, -todaysRealizedPnl), openMaxLosses);
    worst := worst + proposedRisk;
    return Ok(worst <= internalDailyLimit);
  }

  /** The running total of the open positions' maximum losses, on top of `start`. */
  method AddUp(start: real, xs: seq<real>) returns (total: real)
    ensures total == start + Sum(xs)
  {
    total := start;
    var i := 0;
    while i < |xs|
      invariant 0 <= i <= |xs|
      invariant total == start + Sum(xs[..i])
    {
      assert xs[..i + 1] == xs[..i] + [xs[i]];
      SumAppend(xs[..i], xs[i]);
      total := total + xs[i];
      i := i + 1;
    }
    assert xs[..i] == xs;
  }

  /** Admission is monotone: a smaller proposed risk or a better day never turns an admitted trade away. */
  lemma WorstCaseLossMonotone(pnl: real, pnl': real, open: seq<real>, risk: real, risk': real)
    requires pnl' >= pnl && risk' <= risk
    ensures WorstCaseLoss(pnl', open, risk') <= WorstCaseLoss(pnl, open, risk)
  {
  }

  /**
   * With the ULTRA_ULTRA profile's 1% daily limit on 100k, a day at -500 with
   * a 400 open risk admits a 200 trade only if 1100 <= 1000, which fails.
   */
  lemma UltraUltraDailyLimitExample(challenge: ChallengeLimits)
    requires challenge.maxDailyLossFraction >= 0.01
    ensures WorstCaseLoss(-500.0, [400.0], 200.0) == 1100.0
    ensures InternalDailyFraction(ProfileOf(UltraUltraConservative), None) * 100000.0 == 1000.0
    ensures WorstCaseLoss(-500.0, [400.0], 200.0) > InternalDailyFraction(ProfileOf(UltraUltraConservative), None) * 100000.0
  {
    assert [400.0][..0] == [];
  }

  // ---------------------------------------------------------------------------
  // Mode controller
  // ---------------------------------------------------------------------------

  datatype ModeTransition = ModeTransition(timestamp: Timestamp, oldMode: RiskMode, newMode: RiskMode, reason: string)

  /** The length of the step-up window; the controller is only built with a positive one. */
  type Window = n: nat | n > 0 witness 40

  datatype Controller = Controller(
    state: RiskState,
    windowSize: Window,
    transitions: seq<ModeTransition>,
    tradePnls: seq<real>,
    equityHistory: seq<real>)

  /** `deque(maxlen=n).append(x)`: append, then drop from the front to keep at most `n` items. */
  function BoundedAppend(d: seq<real>, x: real, n: nat): (r: seq<real>)
    ensures |r| == if |d| + 1 <= n then |d| + 1 else n
    ensures r == (d + [x])[|d| + 1 - |r|..]
  {
    var e := d + [x];
    if |e| <= n then e else e[|e| - n..]
  }

  function NewController(state: RiskState, windowSize: Window): (c: Controller)
    ensures c.state == state && c.transitions == [] && c.tradePnls == [] && c.equityHistory == []
    ensures c.windowSize == windowSize
  {
    Controller(state, windowSize, [], [], [])
  }

  function Transition(c: Controller, ts: Timestamp, newMode: RiskMode, reason: string): (d: Controller)
    ensures newMode == c.state.currentMode ==> d == c
    ensures newMode != c.state.currentMode ==>
      && d.transitions == c.transitions + [ModeTransition(ts, c.state.currentMode, newMode, reason)]
      && d.state == c.state.(currentMode := newMode)
      && d.tradePnls == c.tradePnls && d.equityHistory == c.equityHistory && d.windowSize == c.windowSize
  {
    if newMode == c.state.currentMode then c
    else c.(transitions := c.transitions + [ModeTransition(ts, c.state.currentMode, newMode, reason)],
            state := c.state.(currentMode := newMode))
  }

  /** Every recorded transition changes the mode, and consecutive entries chain. */
  ghost predicate TransitionsChain(c: Controller)
  {
    && (forall i :: 0 <= i < |c.transitions| ==> c.transitions[i].oldMode != c.transitions[i].newMode)
    && (forall i :: 0 < i < |c.transitions| ==> c.transitions[i - 1].newMode == c.transitions[i].oldMode)
    && (|c.transitions| > 0 ==> c.transitions[|c.transitions| - 1].newMode == c.state.currentMode)
  }

  lemma TransitionKeepsChain(c: Controller, ts: Timestamp, m: RiskMode, reason: string)
    requires TransitionsChain(c)
    ensures TransitionsChain(Transition(c, ts, m, reason))
  {
  }

  function StepDownForDrawdown(c: Controller, ts: Timestamp, dd: real): (d: Controller)
    ensures Rank(d.state.currentMode) <= Rank(c.state.currentMode)
    ensures dd >= 0.03 ==> d.state.currentMode == UltraUltraConservative
    ensures 0.02 <= dd < 0.03 && c.state.currentMode == Conservative ==> d.state.currentMode == UltraConservative
    ensures dd < 0.02 ==> d == c
    ensures 0.02 <= dd < 0.03 && c.state.currentMode != Conservative ==> d == c
    ensures |d.transitions| <= |c.transitions| + 1
    ensures d.state == c.state.(currentMode := d.state.currentMode) && d.windowSize == c.windowSize
  {
    if dd >= 0.03 then Transition(c, ts, UltraUltraConservative, "Drawdown >= 3%")
    else if dd >= 0.02 && c.state.currentMode == Conservative then Transition(c, ts, UltraConservative, "Drawdown >= 2%")
    else c
  }

  /** Number of strictly positive entries. */
  function CountPositive(s: seq<real>): (n: nat)
    ensures n <= |s|
  {
    if |s| == 0 then 0 else CountPositive(s[..|s| - 1]) + (if s[|s| - 1] > 0.0 then 1 else 0)
  }

  /** Range drawdown over the equity window: (max − min) / max, 0 with fewer than two points or a zero max. */
  function RecentDrawdownFromHistory(h: seq<real>): (dd: real)
    ensures |h| < 2 ==> dd == 0.0
    ensures (forall i :: 0 <= i < |h| ==> h[i] > 0.0) ==> 0.0 <= dd < 1.0
    ensures |h| >= 2 && (forall i :: 0 <= i < |h| ==> h[i] == h[0]) ==> dd == 0.0
  {
    if |h| < 2 then 0.0
    else
      var mx := SeqMax(h);
      var mn := SeqMin(h);
      if mx == 0.0 then
        assert h[0] <= mx;
        0.0
      else
        assert (forall i :: 0 <= i < |h| ==> h[i] > 0.0) ==> 0.0 <= (mx - mn) / mx < 1.0 by {
          if forall i :: 0 <= i < |h| ==> h[i] > 0.0 {
            var k :| 0 <= k < |h| && h[k] == mn;
            assert 0.0 < h[k] <= mx;
            RangeBelowOne(mx, mn);
          }
        }
        (mx - mn) / mx
  }

  /** On positive figures the range drawdown is a fraction below one. */
  lemma RangeBelowOne(mx: real, mn: real)
    requires 0.0 < mn <= mx
    ensures 0.0 <= (mx - mn) / mx < 1.0
  {
    FractionBelowOne(mx - mn, mx);
  }


  /** The four conditions under which a full window of trades earns a step up. */
  predicate StepUpEligible(c: Controller): (ok: bool)
    ensures ok ==> |c.tradePnls| > 0 && |c.tradePnls| >= c.windowSize
  {
    && |c.tradePnls| >= c.windowSize
    && c.state.currentEquity >= c.state.equityPeak - 0.000000001
    && (CountPositive(c.tradePnls) as real) / (|c.tradePnls| as real) >= 0.58
    && RecentDrawdownFromHistory(c.equityHistory) <= 0.015
  }

  function MaybeStepUp(c: Controller, ts: Timestamp): (d: Controller)
    ensures d.state.currentMode == c.state.currentMode || Rank(d.state.currentMode) == Rank(c.state.currentMode) + 1
    ensures d.state.currentMode != c.state.currentMode <==> StepUpEligible(c) && c.state.currentMode != Conservative
    ensures d.tradePnls == c.tradePnls && d.equityHistory == c.equityHistory
    ensures d.state == c.state.(currentMode := d.state.currentMode) && d.windowSize == c.windowSize
  {
    if !StepUpEligible(c) then c
    else
      match c.state.currentMode
      case UltraUltraConservative => Transition(c, ts, UltraConservative, "Performance step-up")
      case UltraConservative => Transition(c, ts, Conservative, "Performance step-up")
      case Conservative => c
  }

  function RecordTrade(c: Controller, pnl: real, equityAfterTrade: real, ts: Timestamp): (d: Controller)
    ensures d.tradePnls == BoundedAppend(c.tradePnls, pnl, c.windowSize)
    ensures d.equityHistory == BoundedAppend(c.equityHistory, equityAfterTrade, c.windowSize)
    ensures |d.tradePnls| <= c.windowSize
    ensures Rank(c.state.currentMode) <= Rank(d.state.currentMode) <= Rank(c.state.currentMode) + 1
    ensures d.state == c.state.(currentMode := d.state.currentMode) && d.windowSize == c.windowSize
  {
    var c1 := c.(tradePnls := BoundedAppend(c.tradePnls, pnl, c.windowSize),
                 equityHistory := BoundedAppend(c.equityHistory, equityAfterTrade, c.windowSize));
    MaybeStepUp(c1, ts)
  }

  /** A window that is not yet full never moves the mode up. */
  lemma NoStepUpBeforeFullWindow(c: Controller, pnl: real, eq: real, ts: Timestamp)
    requires |c.tradePnls| + 1 < c.windowSize
    ensures RecordTrade(c, pnl, eq, ts).state.currentMode == c.state.currentMode
  {
  }
}

=== FILE: risk_aggression.dfy ===
/**
 * Tier-based risk scaling of core/risk_aggression.py. The edge-map and
 * override CSVs arrive as parsed rows; the expectancy thresholds, the minimum
 * trade count and the on/off switch are settings outside this model and are
 * passed in.
 */
module RiskAggression {
  import opened Wrappers
  import Grouping
  import Text

  /** (session, trend, volatility, pattern), each normalised to a non-blank string or None. */
  type Combo = (Option<string>, Option<string>, Option<string>, Option<string>)

  datatype ComboTier = ComboTier(tier: string, riskScale: real)

  datatype RiskAggressionResult = RiskAggressionResult(allowed: bool, riskScale: real, tier: string, reason: Option<string>)

  const TierScaleDefaults: map<string, real> := map["A" := 1.5, "B" := 0.75, "UNKNOWN" := 0.5, "C" := 0.0]

  /** `_normalize_value`: None/NaN stay None, text is stripped, and blank text becomes None. */
  function NormalizeValue(v: Option<string>): (r: Option<string>)
    ensures r.Some? ==> v.Some? && r.value == Text.Strip(v.value) && |r.value| > 0
    ensures r.None? ==> v.None? || |Text.Strip(v.value)| == 0
  {
    if v.None? then None
    else
      var text := Text.Strip(v.value);
      if |text| == 0 then None else Some(text)
  }

  function NormalizeCombo(c: Combo): Combo
  {
    (NormalizeValue(c.0), NormalizeValue(c.1), NormalizeValue(c.2), NormalizeValue(c.3))
  }

  datatype EdgeParams = EdgeParams(minTrades: real, aExpectancy: real, bExpectancy: real)

  /** An edge-map row: trade count and expectancy (None is NaN) and the raw combo cells. */
  datatype EdgeRow = EdgeRow(trades: Option<real>, expectancy: Option<real>, combo: Combo)

  /** The tier an edge-map row earns, if any. */
  function EdgeTier(p: EdgeParams, row: EdgeRow): (t: Option<string>)
    ensures t.Some? ==> t.value in TierScaleDefaults && t.value != "UNKNOWN"
    ensures t.Some? ==> row.trades.Some? && row.expectancy.Some? && row.trades.value >= p.minTrades
    ensures t == Some("C") ==> row.expectancy.value < 0.0
  {
    if row.trades.None? || row.expectancy.None? then None
    else if row.trades.value < p.minTrades then None
    else if row.expectancy.value >= p.aExpectancy then Some("A")
    else if row.expectancy.value >= p.bExpectancy then Some("B")
    else if row.expectancy.value < 0.0 then Some("C")
    else None
  }

  /** `_load_edge_map`: later rows overwrite earlier rows with the same combo. */
  function EdgeMap(p: EdgeParams, rows: seq<EdgeRow>): (m: map<Combo, ComboTier>)
    ensures forall c :: c in m ==> m[c].tier in TierScaleDefaults && m[c].riskScale == TierScaleDefaults[m[c].tier]
    decreases |rows|
  {
    if |rows| == 0 then map[]
    else
      var m := EdgeMap(p, rows[..|rows| - 1]);
      var last := rows[|rows| - 1];
      match EdgeTier(p, last)
      case None => m
      case Some(t) => m[NormalizeCombo(last.combo) := ComboTier(t, TierScaleDefaults[t])]
  }

  predicate Qualifies(p: EdgeParams, row: EdgeRow, c: Combo)
  {
    EdgeTier(p, row).Some? && NormalizeCombo(row.combo) == c
  }

  /** Index of the last row that earns a tier for combo `c`, if any. */
  function LastQualifying(p: EdgeParams, rows: seq<EdgeRow>, c: Combo): (r: Option<nat>)
    ensures r.Some? ==>
      && r.value < |rows|
      && Qualifies(p, rows[r.value], c)
      && forall j :: r.value < j < |rows| ==> !Qualifies(p, rows[j], c)
    ensures r.None? ==> forall j :: 0 <= j < |rows| ==> !Qualifies(p, rows[j], c)
    decreases |rows|
  {
    if |rows| == 0 then None
    else if Qualifies(p, rows[|rows| - 1], c) then Some(|rows| - 1)
    else
      var r := LastQualifying(p, rows[..|rows| - 1], c);
      SkipLast(p, rows, c, r);
      r
  }

  /** A last row that does not qualify leaves the answer for the earlier rows standing. */
  lemma SkipLast(p: EdgeParams, rows: seq<EdgeRow>, c: Combo, r: Option<nat>)
    requires |rows| > 0 && !Qualifies(p, rows[|rows| - 1], c)
    requires var init := rows[..|rows| - 1];
      && (r.Some? ==> r.value < |init| && Qualifies(p, init[r.value], c) && forall j :: r.value < j < |init| ==> !Qualifies(p, init[j], c))
      && (r.None? ==> forall j :: 0 <= j < |init| ==> !Qualifies(p, init[j], c))
    ensures r.Some? ==>
      && r.value < |rows|
      && Qualifies(p, rows[r.value], c)
      && forall j :: r.value < j < |rows| ==> !Qualifies(p, rows[j], c)
    ensures r.None? ==> forall j :: 0 <= j < |rows| ==> !Qualifies(p, rows[j], c)
  {
    var init := rows[..|rows| - 1];
    assert forall j :: 0 <= j < |init| ==> init[j] == rows[j];
  }

  /** A combo is in the edge map exactly when some row earns it a tier, and the last such row decides the tier. */
  lemma {:induction false} EdgeMapLastRowWins(p: EdgeParams, rows: seq<EdgeRow>, c: Combo)
    ensures c in EdgeMap(p, rows) <==> LastQualifying(p, rows, c).Some?
    ensures c in EdgeMap(p, rows) ==> Some(EdgeMap(p, rows)[c].tier) == EdgeTier(p, rows[LastQualifying(p, rows, c).value])
    decreases |rows|
  {
    if |rows| > 0 {
      var init := rows[..|rows| - 1];
      EdgeMapLastRowWins(p, init, c);
      if !Qualifies(p, rows[|rows| - 1], c) {
        assert LastQualifying(p, rows, c) == LastQualifying(p, init, c);
        if LastQualifying(p, init, c).Some? {
          assert init[LastQualifying(p, init, c).value] == rows[LastQualifying(p, init, c).value];
        }
      }
    }
  }

  /** How an override row's risk_scale cell reads: NaN/missing, a number, or text that is not a number. */
  datatype ScaleCell = ScaleNaN | ScaleNumber(v: real) | ScaleUnparseable

  datatype OverrideRow = OverrideRow(tier: Option<string>, combo: Combo, riskScale: ScaleCell)

  /** The tier and scale an override row contributes, if it is used at all. */
  function OverrideEntry(row: OverrideRow): (r: Option<ComboTier>)
    ensures r.Some? ==> r.value.tier in TierScaleDefaults
    ensures r.Some? ==> NormalizeCombo(row.combo) != (None, None, None, None)
    ensures r.Some? && !row.riskScale.ScaleNumber? ==> r.value.riskScale == TierScaleDefaults[r.value.tier]
    ensures r.Some? && row.riskScale.ScaleNumber? ==> r.value.riskScale == row.riskScale.v
  {
    var t := NormalizeValue(row.tier);
    if t.None? then None
    else
      var tier := Text.Upper(t.value);
      if tier !in TierScaleDefaults then None
      else if NormalizeCombo(row.combo) == (None, None, None, None) then None
      else
        var scale := if row.riskScale.ScaleNumber? then row.riskScale.v else TierScaleDefaults[tier];
        Some(ComboTier(tier, scale))
  }

  function OverrideMap(rows: seq<OverrideRow>): (m: map<Combo, ComboTier>)
    ensures forall c :: c in m ==> m[c].tier in TierScaleDefaults && c != (None, None, None, None)
    decreases |rows|
  {
    if |rows| == 0 then map[]
    else
      var m := OverrideMap(rows[..|rows| - 1]);
      var last := rows[|rows| - 1];
      match OverrideEntry(last)
      case None => m
      case Some(e) => m[NormalizeCombo(last.combo) := e]
  }

  /** The combo an override row supplies an entry for, if any. */
  function OverrideKey(row: OverrideRow): Option<Combo>
  {
    if OverrideEntry(row).Some? then Some(NormalizeCombo(row.combo)) else None
  }

  function OverrideKeys(rows: seq<OverrideRow>): (ks: seq<Option<Combo>>)
    ensures |ks| == |rows|
    ensures forall i :: 0 <= i < |rows| ==> ks[i] == OverrideKey(rows[i])
  {
    seq(|rows|, i requires 0 <= i < |rows| => OverrideKey(rows[i]))
  }

  /**
   * A combo is in the override map exactly when some row supplies it, and
   * the last such row decides its entry.
   */
  lemma {:induction false} OverrideMapLastRowWins(rows: seq<OverrideRow>, c: Combo)
    ensures c in OverrideMap(rows) <==> Some(c) in OverrideKeys(rows)
    ensures c in OverrideMap(rows) ==>
      Some(OverrideMap(rows)[c]) == OverrideEntry(rows[Grouping.LastIndex(OverrideKeys(rows), Some(c)).value])
    decreases |rows|
  {
    if |rows| > 0 {
      var init := rows[..|rows| - 1];
      var last := rows[|rows| - 1];
      OverrideMapLastRowWins(init, c);
      var ks, ki := OverrideKeys(rows), OverrideKeys(init);
      assert ks[..|rows| - 1] == ki;
      assert ks == ki + [OverrideKey(last)];
      if OverrideKey(last) == Some(c) {
        assert Grouping.LastIndex(ks, Some(c)) == Some(|rows| - 1);
        assert OverrideMap(rows)[c] == OverrideEntry(last).value;
      } else {
        assert Grouping.LastIndex(ks, Some(c)) == Grouping.LastIndex(ki, Some(c));
        assert Some(c) in ks <==> Some(c) in ki;
        assert c in OverrideMap(rows) <==> c in OverrideMap(init);
        if c in OverrideMap(init) {
          var i := Grouping.LastIndex(ki, Some(c)).value;
          assert init[i] == rows[i];
          assert OverrideMap(rows)[c] == OverrideMap(init)[c];
        }
      }
    }
  }

  /** `_build_combo_map`: the edge map with every override entry replacing or adding to it. */
  function BuildComboMap(p: EdgeParams, edgeRows: seq<EdgeRow>, overrideRows: seq<OverrideRow>): (m: map<Combo, ComboTier>)
    ensures m.Keys == EdgeMap(p, edgeRows).Keys + OverrideMap(overrideRows).Keys
    ensures forall c :: c in OverrideMap(overrideRows) ==> m[c] == OverrideMap(overrideRows)[c]
    ensures forall c :: c in m && c !in OverrideMap(overrideRows) ==> m[c] == EdgeMap(p, edgeRows)[c]
  {
    EdgeMap(p, edgeRows) + OverrideMap(overrideRows)
  }

  /** `_resolve_combo`: a known combo's entry, else UNKNOWN at the UNKNOWN default scale. */
  function ResolveCombo(m: map<Combo, ComboTier>, tags: Combo): (r: ComboTier)
    ensures tags in m ==> r == m[tags]
    ensures tags !in m ==> r == ComboTier("UNKNOWN", 0.5)
  {
    if tags in m then m[tags] else ComboTier("UNKNOWN", TierScaleDefaults["UNKNOWN"])
  }

  /**
   * With the filter off every combo is allowed at scale 1.0 under tier
   * UNFILTERED. With it on, tier C or a non-positive scale refuses with scale
   * 0 and reason "risk_aggression"; anything else is allowed at its scale.
   */
  function ShouldAllowRiskAggression(enabled: bool, m: map<Combo, ComboTier>, tags: Combo): (r: RiskAggressionResult)
    ensures !enabled ==> r == RiskAggressionResult(true, 1.0, "UNFILTERED", None)
    ensures enabled ==> var t := ResolveCombo(m, tags);
      && (r.allowed <==> t.tier != "C" && t.riskScale > 0.0)
      && (!r.allowed ==> r == RiskAggressionResult(false, 0.0, "C", Some("risk_aggression")))
      && (r.allowed ==> r == RiskAggressionResult(true, t.riskScale, t.tier, None))
    ensures r.allowed ==> r.riskScale > 0.0
  {
    if !enabled then RiskAggressionResult(true, 1.0, "UNFILTERED", None)
    else
      var t := ResolveCombo(m, tags);
      if t.tier == "C" || t.riskScale <= 0.0 then RiskAggressionResult(false, 0.0, "C", Some("risk_aggression"))
      else RiskAggressionResult(true, t.riskScale, t.tier, None)
  }

  /** An unseen combo is allowed at the UNKNOWN half scale. */
  lemma UnknownComboHalfScale(m: map<Combo, ComboTier>, tags: Combo)
    requires tags !in m
    ensures ShouldAllowRiskAggression(true, m, tags) == RiskAggressionResult(true, 0.5, "UNKNOWN", None)
  {
  }

  /** Without overrides, an allowed combo's scale is one of the tier defaults 1.5, 0.75 or 0.5. */
  lemma EdgeOnlyScales(p: EdgeParams, rows: seq<EdgeRow>, tags: Combo)
    ensures var r := ShouldAllowRiskAggression(true, BuildComboMap(p, rows, []), tags);
      r.allowed ==> r.riskScale in {1.5, 0.75, 0.5}
  {
    assert OverrideMap([]) == map[];
  }
}

=== FILE: risk_profiles.dfy ===
/**
 * Risk profile lookup (core/risk_profiles.py): the parsed YAML maps each
 * environment to its tiers and optional environment-wide caps; a lookup
 * picks the tier case-insensitively and bounds its values by the caps.
 * Whether the config file exists and its parsed contents are parameters.
 */
module RiskProfiles {
  import opened Wrappers
  import opened Num
  import Text
  import Yaml
  import Dicts

  datatype RiskProfile = RiskProfile(
    env: string,
    tier: string,
    perTradeRiskFraction: real,
    dailyLossFraction: real,
    maxPositions: int)

  /**
   * The environment block under `envKey` once the top-level keys are
   * lowercased; when two keys lowercase alike the later one wins.
   */
  function EnvBlock(raw: seq<(string, Yaml.Value)>, envKey: string): (r: Option<Yaml.Value>)
    ensures r.None? <==> forall i :: 0 <= i < |raw| ==> Text.Lower(raw[i].0) != envKey
    ensures r.Some? ==> exists i :: 0 <= i < |raw| && Text.Lower(raw[i].0) == envKey && raw[i].1 == r.value
                                    && forall j :: i < j < |raw| ==> Text.Lower(raw[j].0) != envKey
  {
    if |raw| == 0 then None
    else if Text.Lower(raw[|raw| - 1].0) == envKey then Some(raw[|raw| - 1].1)
    else
      var r := EnvBlock(raw[..|raw| - 1], envKey);
      assert forall i :: 0 <= i < |raw| - 1 ==> raw[..|raw| - 1][i] == raw[i];
      r
  }

  /** An environment-wide cap: present only when its value is a number. */
  function Cap(block: seq<(string, Yaml.Value)>, key: string): (r: Option<real>)
    ensures r.Some? <==> Dicts.Get(block, key).Some? && Yaml.IsNumber(Dicts.Get(block, key).value)
  {
    var found: Option<Yaml.Value> := Dicts.Get(block, key);
    match found
    case Some(Int(i)) => Some(i as real)
    case Some(Float(x, _)) => Some(x)
    case Some(Bool(b)) => Some(if b then 1.0 else 0.0)
    case _ => None
  }

  /** A tier entry: a mapping that holds a per-trade risk fraction. */
  predicate IsTier(v: Yaml.Value)
  {
    v.Map? && Dicts.HasKey(v.fields, "per_trade_risk_fraction")
  }

  /** The first tier entry whose lowercased name is `tierKey`. */
  function FindTier(block: seq<(string, Yaml.Value)>, tierKey: string): (r: Option<nat>)
    ensures r.Some? ==> r.value < |block| && IsTier(block[r.value].1) && Text.Lower(block[r.value].0) == tierKey
                        && forall j :: 0 <= j < r.value ==> !(IsTier(block[j].1) && Text.Lower(block[j].0) == tierKey)
    ensures r.None? <==> forall j :: 0 <= j < |block| ==> !(IsTier(block[j].1) && Text.Lower(block[j].0) == tierKey)
    decreases |block|
  {
    if |block| == 0 then None
    else if IsTier(block[0].1) && Text.Lower(block[0].0) == tierKey then Some(0)
    else
      match FindTier(block[1..], tierKey)
      case Some(k) =>
        assert block[1..][k] == block[k + 1];
        assert forall j :: 1 <= j < k + 1 ==> block[j] == block[1..][j - 1];
        Some(k + 1)
      case None =>
        assert forall j :: 1 <= j < |block| ==> block[j] == block[1..][j - 1];
        None
  }

  /** `tier_cfg[key]`, raising KeyError when absent. */
  function Required(cfg: seq<(string, Yaml.Value)>, key: string): (r: Result<Yaml.Value>)
    ensures r.Ok? <==> Dicts.HasKey(cfg, key)
    ensures r.Ok? ==> r.value == Dicts.Get(cfg, key).value
    ensures r.Err? ==> r.error == KeyError(key)
  {
    match Dicts.Get(cfg, key)
    case Some(v) => Ok(v)
    case None => Err(KeyError(key))
  }

  /** `min(value, cap)` when the cap is present. */
  function Bounded(value: real, cap: Option<real>): (r: real)
    ensures r <= value && (cap.Some? ==> r <= cap.value)
    ensures r == value || (cap.Some? && r == cap.value)
  {
    if cap.Some? then Min(value, cap.value) else value
  }

  /**
   * `load_risk_profile`: find the environment and the tier (both compared
   * in lower case), read the tier's three values and bound each by its
   * environment cap. `parseFloat` stands for Python's `float()` on strings.
   */
  function LoadRiskProfile(
    configExists: bool, raw: Yaml.Value, env: string, tier: string, parseFloat: string -> Option<real>)
    : (r: Result<RiskProfile>)
    ensures !configExists ==> r.Err? && r.error.FileNotFoundError?
    ensures (configExists && raw.Map? && EnvBlock(raw.fields, Text.Lower(env)).None?) ==>
              r.Err? && r.error.KeyError?
    ensures r.Ok? ==> r.value.env == Text.Lower(env) && r.value.tier == Text.Lower(tier)
    ensures r.Ok? ==> raw.Map? && EnvBlock(raw.fields, Text.Lower(env)).Some?
    ensures r.Ok? ==>
              var block := EnvBlock(raw.fields, Text.Lower(env)).value;
              block.Map?
              && FindTier(block.fields, Text.Lower(tier)).Some?
              && (Cap(block.fields, "max_per_trade_risk_fraction").Some? ==>
                    r.value.perTradeRiskFraction <= Cap(block.fields, "max_per_trade_risk_fraction").value)
              && (Cap(block.fields, "max_daily_loss_fraction").Some? ==>
                    r.value.dailyLossFraction <= Cap(block.fields, "max_daily_loss_fraction").value)
              && (Cap(block.fields, "max_positions").Some? ==>
                    r.value.maxPositions <= Trunc(Cap(block.fields, "max_positions").value))
    // A non-empty environment block is handed to the tier lookup.
    ensures configExists && raw.Map? && EnvBlock(raw.fields, Text.Lower(env)).Some?
            && EnvBlock(raw.fields, Text.Lower(env)).value.Map? && |EnvBlock(raw.fields, Text.Lower(env)).value.fields| > 0 ==>
              r == FromBlock(EnvBlock(raw.fields, Text.Lower(env)).value.fields, Text.Lower(env), Text.Lower(tier), env, tier, parseFloat)
  {
    if !configExists then Err(FileNotFoundError("config/risk_profiles.yaml"))
    else
      var top :- TopLevel(raw);
      var block :- EnvFields(EnvBlock(top, Text.Lower(env)), env);
      FromBlock(block, Text.Lower(env), Text.Lower(tier), env, tier, parseFloat)
  }

  /**
   * The tier lookup and capping inside one environment block. `env` and
   * `tier` only appear in the error message; the lookup uses the keys.
   */
  function FromBlock(
    block: seq<(string, Yaml.Value)>, envKey: string, tierKey: string, env: string, tier: string,
    parseFloat: string -> Option<real>)
    : (r: Result<RiskProfile>)
    ensures r.Ok? ==> r.value.env == envKey && r.value.tier == tierKey && FindTier(block, tierKey).Some?
    ensures FindTier(block, tierKey).None? ==> r.Err? && r.error.KeyError?
    ensures r.Ok? && Cap(block, "max_per_trade_risk_fraction").Some? ==>
              r.value.perTradeRiskFraction <= Cap(block, "max_per_trade_risk_fraction").value
    ensures r.Ok? && Cap(block, "max_daily_loss_fraction").Some? ==>
              r.value.dailyLossFraction <= Cap(block, "max_daily_loss_fraction").value
    ensures r.Ok? && Cap(block, "max_positions").Some? ==>
              r.value.maxPositions <= Trunc(Cap(block, "max_positions").value)
    // The tier's three values, each bounded by its cap when the block has one.
    ensures FindTier(block, tierKey).Some? ==>
              var cfg := block[FindTier(block, tierKey).value].1.fields;
              var perTrade := Yaml.ToFloat(Dicts.Get(cfg, "per_trade_risk_fraction").value, parseFloat);
              && (r.Ok? <==>
                    && perTrade.Ok?
                    && Dicts.HasKey(cfg, "daily_loss_fraction")
                    && Yaml.ToFloat(Dicts.Get(cfg, "daily_loss_fraction").value, parseFloat).Ok?
                    && Dicts.HasKey(cfg, "max_positions")
                    && Yaml.ToInt(Dicts.Get(cfg, "max_positions").value).Ok?)
              && (r.Ok? ==>
                    var daily := Yaml.ToFloat(Dicts.Get(cfg, "daily_loss_fraction").value, parseFloat).value;
                    var positions := Yaml.ToInt(Dicts.Get(cfg, "max_positions").value).value;
                    && r.value.perTradeRiskFraction == Bounded(perTrade.value, Cap(block, "max_per_trade_risk_fraction"))
                    && r.value.dailyLossFraction == Bounded(daily, Cap(block, "max_daily_loss_fraction"))
                    && (Cap(block, "max_positions").None? ==> r.value.maxPositions == positions)
                    && (Cap(block, "max_positions").Some? ==>
                          r.value.maxPositions == IMin(positions, Trunc(Cap(block, "max_positions").value))))
  {
    match FindTier(block, tierKey)
    case None => Err(KeyError("Unknown risk tier '" + tier + "' for env '" + env + "'"))
    case Some(k) =>
      var cfg := block[k].1.fields;
      var perTradeValue := Dicts.Get(cfg, "per_trade_risk_fraction").value;
      var perTrade :- Yaml.ToFloat(perTradeValue, parseFloat);
      var dailyValue :- Required(cfg, "daily_loss_fraction");
      var daily :- Yaml.ToFloat(dailyValue, parseFloat);
      var positionsValue :- Required(cfg, "max_positions");
      var positions :- Yaml.ToInt(positionsValue);
      var positionsCap := Cap(block, "max_positions");
      Ok(RiskProfile(
        envKey, tierKey,
        Bounded(perTrade, Cap(block, "max_per_trade_risk_fraction")),
        Bounded(daily, Cap(block, "max_daily_loss_fraction")),
        if positionsCap.Some? then IMin(positions, Trunc(positionsCap.value)) else positions))
  }

  /** The names in the error messages do not change what a lookup finds. */
  lemma FromBlockIgnoresNames(
    block: seq<(string, Yaml.Value)>, envKey: string, tierKey: string,
    env1: string, env2: string, tier1: string, tier2: string, parseFloat: string -> Option<real>)
    ensures var r1 := FromBlock(block, envKey, tierKey, env1, tier1, parseFloat);
            var r2 := FromBlock(block, envKey, tierKey, env2, tier2, parseFloat);
            r1.Ok? == r2.Ok? && (r1.Ok? ==> r1.value == r2.value)
  {
  }

  /** `yaml.safe_load(...) or {}` followed by `.items()`. */
  function TopLevel(raw: Yaml.Value): (r: Result<seq<(string, Yaml.Value)>>)
    ensures raw.Map? ==> r == Ok(raw.fields)
    ensures !Yaml.Truthy(raw) ==> r == Ok([])
    ensures r.Err? ==> r.error.AttributeError?
  {
    if raw.Map? then Ok(raw.fields)
    else if !Yaml.Truthy(raw) then Ok([])
    else Err(AttributeError("items"))
  }

  /**
   * `normalized_envs.get(env_key)` after `v or {}`: a missing or empty block
   * raises KeyError; a block that is not a mapping fails on `.get`.
   */
  function EnvFields(found: Option<Yaml.Value>, env: string): (r: Result<seq<(string, Yaml.Value)>>)
    ensures r.Ok? <==> found.Some? && found.value.Map? && |found.value.fields| > 0
    ensures r.Ok? ==> r.value == found.value.fields
    ensures (found.None? || !Yaml.Truthy(found.value)) ==> r.Err? && r.error.KeyError?
  {
    if found.None? || !Yaml.Truthy(found.value) then Err(KeyError("Unknown risk profile environment '" + env + "'"))
    else if found.value.Map? then Ok(found.value.fields)
    else Err(AttributeError("get"))
  }

  /** Lookups ignore the letter case of the environment and the tier. */
  lemma LoadIgnoresCase(
    configExists: bool, raw: Yaml.Value, env1: string, env2: string, tier1: string, tier2: string,
    parseFloat: string -> Option<real>)
    requires Text.Lower(env1) == Text.Lower(env2) && Text.Lower(tier1) == Text.Lower(tier2)
    ensures var r1 := LoadRiskProfile(configExists, raw, env1, tier1, parseFloat);
            var r2 := LoadRiskProfile(configExists, raw, env2, tier2, parseFloat);
            r1.Ok? == r2.Ok? && (r1.Ok? ==> r1.value == r2.value)
  {
    if configExists && TopLevel(raw).Ok? {
      var top := TopLevel(raw).value;
      var key := Text.Lower(env1);
      assert EnvFields(EnvBlock(top, key), env1).Ok? == EnvFields(EnvBlock(top, key), env2).Ok?;
      if EnvFields(EnvBlock(top, key), env1).Ok? {
        FromBlockIgnoresNames(EnvFields(EnvBlock(top, key), env1).value, key, Text.Lower(tier1),
                              env1, env2, tier1, tier2, parseFloat);
      }
    }
  }
}

=== FILE: risk_utils.dfy ===
/** Pip/price conversion and stop/target placement of core/risk_utils.py. */
module RiskUtils {
  import opened Wrappers
  import PositionSizing
  import Text

  function PipSize(symbol: string): (p: real)
    ensures p == PositionSizing.GetSymbolMeta(symbol).pipSize
    ensures p == 0.0001 || p == 0.01
  {
    PositionSizing.GetSymbolMeta(symbol).pipSize
  }

  function PipsToPrice(pips: real, symbol: string): (d: real)
    ensures d == 0.0 <==> pips == 0.0
    ensures d > 0.0 <==> pips > 0.0
  {
    pips * PipSize(symbol)
  }

  function PriceToPips(distance: real, symbol: string): (pips: real)
    ensures pips == 0.0 <==> distance == 0.0
    ensures pips > 0.0 <==> distance > 0.0
  {
    distance / PipSize(symbol)
  }

  /** The two conversions undo each other in both directions. */
  lemma PipConversionsInverse(x: real, symbol: string)
    ensures PriceToPips(PipsToPrice(x, symbol), symbol) == x
    ensures PipsToPrice(PriceToPips(x, symbol), symbol) == x
  {
    var p := PipSize(symbol);
    assert (x * p) / p == x;
    assert (x / p) * p == x;
  }

  /** Python truthiness of an optional number: None and 0 are false. */
  predicate Truthy(x: Option<real>)
  {
    x.Some? && x.value != 0.0
  }

  /**
   * Stop and target prices from pip distances. Only "long" places the stop
   * below entry; every other direction is treated as short. The target is
   * None whenever the target distance is falsy.
   */
  function CalculateSlTpPrices(entry: real, direction: string, stopPips: real, tpPips: Option<real>, symbol: string): (r: (real, Option<real>))
    ensures r.1.None? <==> !Truthy(tpPips)
    ensures direction == "long" ==> PriceToPips(entry - r.0, symbol) == stopPips
    ensures direction != "long" ==> PriceToPips(r.0 - entry, symbol) == stopPips
    ensures r.1.Some? && direction == "long" ==> PriceToPips(r.1.value - entry, symbol) == tpPips.value
    ensures r.1.Some? && direction != "long" ==> PriceToPips(entry - r.1.value, symbol) == tpPips.value
    ensures stopPips > 0.0 ==> (if direction == "long" then r.0 < entry else r.0 > entry)
  {
    var stopDistance := PipsToPrice(stopPips, symbol);
    PipConversionsInverse(stopPips, symbol);
    PipConversionsInverse(tpPips.GetOr(0.0), symbol);
    if direction == "long" then
      (entry - stopDistance, if Truthy(tpPips) then Some(entry + PipsToPrice(tpPips.value, symbol)) else None)
    else
      (entry + stopDistance, if Truthy(tpPips) then Some(entry - PipsToPrice(tpPips.value, symbol)) else None)
  }

  /** A long and a short with the same distances place their levels symmetrically about entry. */
  lemma LongShortMirror(entry: real, stopPips: real, tpPips: Option<real>, symbol: string)
    ensures var l := CalculateSlTpPrices(entry, "long", stopPips, tpPips, symbol);
      var s := CalculateSlTpPrices(entry, "short", stopPips, tpPips, symbol);
      && l.0 + s.0 == 2.0 * entry
      && (l.1.Some? <==> s.1.Some?)
      && (l.1.Some? ==> l.1.value + s.1.value == 2.0 * entry)
  {
  }

  /** Long EURUSD at 1.1 with a 20-pip stop and a 40-pip target: 1.098 and 1.104. */
  lemma EurUsdLongExample()
    ensures CalculateSlTpPrices(1.1, "long", 20.0, Some(40.0), "EURUSD") == (1.098, Some(1.104))
  {
    assert PipSize("EURUSD") == 0.0001 by {
      assert Text.Upper("EURUSD") == "EURUSD";
    }
  }
}

=== FILE: session.dfy ===
/**
 * Session identifiers (core/session.py): "<env>_<short tier>_<UTC stamp>".
 * The clock is a parameter: the caller passes the UTC date and time that
 * `datetime.now(timezone.utc)` would return.
 */
module Session {
  import opened Wrappers
  import Text

  /** Abbreviations of the three named risk tiers. */
  const TierShort: map<string, string> := map[
    "conservative" := "cons",
    "normal" := "norm",
    "aggressive" := "aggr"
  ]

  /** Python's `value or default` for an optional string. */
  function OrDefault(value: Option<string>, default: string): string
  {
    if value.Some? && value.value != "" then value.value else default
  }

  /**
   * The tier part of a session id: the abbreviation of a named tier, or the
   * lowercased tier without '-' cut to six characters ("custom" when
   * nothing is left). A missing tier reads as "unknown".
   */
  function ShortenTier(tier: Option<string>): (r: string)
    ensures 1 <= |r| <= 6
    ensures forall i :: 0 <= i < |r| ==> r[i] != '-' && !Text.IsUpperLetter(r[i])
    ensures Text.Lower(OrDefault(tier, "unknown")) in TierShort ==>
              r == TierShort[Text.Lower(OrDefault(tier, "unknown"))]
    // Any other tier: the first six characters left once '-' is removed, or "custom".
    ensures var cut := Text.RemoveChar(Text.Lower(OrDefault(tier, "unknown")), '-');
            Text.Lower(OrDefault(tier, "unknown")) !in TierShort ==>
              (cut == "" ==> r == "custom") && (cut != "" ==> |r| == (if |cut| <= 6 then |cut| else 6) && r == cut[..|r|])
    ensures tier.None? ==> r == "unknow"
  {
    var resolved := Text.Lower(OrDefault(tier, "unknown"));
    assert tier.None? ==> ShortenKey(resolved) == "unknow" by {
      if tier.None? {
        UnknownTierKey();
      }
    }
    LowerHasNoUpper(OrDefault(tier, "unknown"));
    ShortenKey(resolved)
  }

  /** The abbreviation of a resolved tier key: its named short form, or else `CutTier`. */
  function ShortenKey(resolved: string): (r: string)
    requires forall i :: 0 <= i < |resolved| ==> !Text.IsUpperLetter(resolved[i])
    ensures 1 <= |r| <= 6
    ensures forall i :: 0 <= i < |r| ==> r[i] != '-' && !Text.IsUpperLetter(r[i])
    ensures resolved in TierShort ==> r == TierShort[resolved]
    ensures resolved !in TierShort ==> r == CutTier(resolved)
  {
    if resolved in TierShort then
      NamedTierShape(resolved);
      TierShort[resolved]
    else
      var r := CutTier(resolved);
      assert forall i :: 0 <= i < |r| ==> !Text.IsUpperLetter(r[i]) by {
        forall i | 0 <= i < |r|
          ensures !Text.IsUpperLetter(r[i])
        {
          if r != "custom" {
            var k :| 0 <= k < |resolved| && resolved[k] == r[i];
          }
        }
      }
      r
  }

  /** Lower-casing leaves no upper-case letter. */
  lemma LowerHasNoUpper(s: string)
    ensures forall i :: 0 <= i < |Text.Lower(s)| ==> !Text.IsUpperLetter(Text.Lower(s)[i])
  {
  }

  /** A tier that is not named: the first six characters left once '-' is removed, or "custom". */
  function CutTier(resolved: string): (r: string)
    ensures 1 <= |r| <= 6
    ensures forall i :: 0 <= i < |r| ==> r[i] != '-'
    ensures r == "custom" || forall i :: 0 <= i < |r| ==> r[i] in resolved
    ensures var cut := Text.RemoveChar(resolved, '-');
      (cut == "" ==> r == "custom") && (cut != "" ==> |r| == (if |cut| <= 6 then |cut| else 6) && r == cut[..|r|])
  {
    var cut := Text.RemoveChar(resolved, '-');
    var short := if |cut| <= 6 then cut else cut[..6];
    assert forall i :: 0 <= i < |short| ==> short[i] in resolved by {
      forall i | 0 <= i < |short|
        ensures short[i] in resolved
      {
        assert short[i] == cut[i];
        assert cut[i] in cut;
      }
    }
    if short == "" then "custom" else short
  }

  /** The abbreviation of a named tier is one to six lower-case letters. */
  lemma NamedTierShape(k: string)
    requires k in TierShort
    ensures 1 <= |TierShort[k]| <= 6
    ensures forall i :: 0 <= i < |TierShort[k]| ==> TierShort[k][i] != '-' && !Text.IsUpperLetter(TierShort[k][i])
  {
  }

  /** The default tier is already lower case, has no '-' and is not a named tier. */
  lemma UnknownTierKey()
    ensures Text.Lower("unknown") == "unknown" && "unknown" !in TierShort
    ensures Text.RemoveChar("unknown", '-') == "unknown" && "unknown"[..6] == "unknow"
  {
    assert '-' !in "unknown";
  }

  /** Tier abbreviation ignores letter case. */
  lemma ShortenTierIgnoresCase(a: string, b: string)
    requires Text.Lower(a) == Text.Lower(b)
    ensures ShortenTier(Some(a)) == ShortenTier(Some(b))
  {
    assert |a| == |Text.Lower(a)| == |b|;
    if a == "" {
      assert b == "";
    }
  }

  /** A calendar date and time of day, as a Python `datetime` holds it. */
  datatype DateTime = DateTime(year: int, month: int, day: int, hour: int, minute: int, second: int)
  {
    predicate Valid()
    {
      1 <= year <= 9999 && 1 <= month <= 12 && 1 <= day <= 31
      && 0 <= hour < 24 && 0 <= minute < 60 && 0 <= second < 60
    }
  }

  /** A two-digit zero-padded field (`%m`, `%d`, `%H`, `%M`, `%S`). */
  function Pad2(n: nat): (s: string)
    requires n < 100
    ensures |s| == 2 && Text.AllDigits(s) && Text.DigitsValue(s) == n
  {
    Text.NatToStringShort(n);
    Text.ZeroPad(n, 2)
  }

  /** `%Y%m%d`. */
  function DatePart(t: DateTime): (s: string)
    requires t.Valid()
    ensures |s| == 8
    ensures Text.AllDigits(s[..4]) && Text.DigitsValue(s[..4]) == t.year
    ensures Text.AllDigits(s[4..6]) && Text.DigitsValue(s[4..6]) == t.month
    ensures Text.AllDigits(s[6..8]) && Text.DigitsValue(s[6..8]) == t.day
  {
    Text.NatToStringShort(t.year);
    var y := Text.ZeroPad(t.year, 4);
    var s := y + Pad2(t.month) + Pad2(t.day);
    assert s[..4] == y && s[4..6] == Pad2(t.month) && s[6..8] == Pad2(t.day);
    s
  }

  /** `%H%M%S`. */
  function ClockPart(t: DateTime): (s: string)
    requires t.Valid()
    ensures |s| == 6
    ensures Text.AllDigits(s[..2]) && Text.DigitsValue(s[..2]) == t.hour
    ensures Text.AllDigits(s[2..4]) && Text.DigitsValue(s[2..4]) == t.minute
    ensures Text.AllDigits(s[4..6]) && Text.DigitsValue(s[4..6]) == t.second
  {
    var s := Pad2(t.hour) + Pad2(t.minute) + Pad2(t.second);
    assert s[..2] == Pad2(t.hour) && s[2..4] == Pad2(t.minute) && s[4..6] == Pad2(t.second);
    s
  }

  /** `strftime("%Y%m%dT%H%M%SZ")`. */
  function Stamp(t: DateTime): (s: string)
    requires t.Valid()
    ensures |s| == 16 && s[8] == 'T' && s[15] == 'Z'
    ensures s[..8] == DatePart(t) && s[9..15] == ClockPart(t)
  {
    var s := DatePart(t) + "T" + ClockPart(t) + "Z";
    assert s[..8] == DatePart(t);
    assert s[9..15] == ClockPart(t);
    s
  }

  /**
   * `generate_session_id`: the lowercased environment ("unknown" when
   * missing), the tier abbreviation and the UTC stamp, joined by '_'.
   */
  function SessionId(env: Option<string>, tier: Option<string>, now: DateTime): (id: string)
    requires now.Valid()
    ensures var envKey := Text.Lower(OrDefault(env, "unknown"));
            |id| == |envKey| + |ShortenTier(tier)| + 18
            && id[..|envKey|] == envKey && id[|envKey|] == '_'
            && id[|envKey| + 1..|id| - 17] == ShortenTier(tier)
            && id[|id| - 17] == '_' && id[|id| - 16..] == Stamp(now)
  {
    var envKey := Text.Lower(OrDefault(env, "unknown"));
    var tierKey := ShortenTier(tier);
    var stamp := Stamp(now);
    JoinShape(envKey, tierKey, stamp);
    envKey + "_" + tierKey + "_" + stamp
  }

  /** Where the parts of `a_b_s` sit. */
  lemma JoinShape(a: string, b: string, s: string)
    ensures var id := a + "_" + b + "_" + s;
            |id| == |a| + |b| + |s| + 2 && id[..|a|] == a && id[|a|] == '_'
            && id[|a| + 1..|a| + 1 + |b|] == b
            && id[|id| - |s| - 1] == '_' && id[|id| - |s|..] == s
  {
    var id := a + "_" + b + "_" + s;
    assert id == (a + "_" + b + "_") + s;
    assert id[..|a|] == a;
    assert id[|a| + 1..|a| + 1 + |b|] == b;
  }

  /** The id does not depend on the letter case of the environment or the tier. */
  lemma SessionIdIgnoresCase(env1: string, env2: string, tier1: string, tier2: string, now: DateTime)
    requires now.Valid()
    requires Text.Lower(env1) == Text.Lower(env2) && Text.Lower(tier1) == Text.Lower(tier2)
    ensures SessionId(Some(env1), Some(tier1), now) == SessionId(Some(env2), Some(tier2), now)
  {
    ShortenTierIgnoresCase(tier1, tier2);
    assert |env1| == |Text.Lower(env1)| == |env2|;
    if env1 == "" {
      assert env2 == "";
    }
  }
}

=== FILE: simulated.dfy ===
/**
 * The offline execution backend of execution_backends/simulated.py: order
 * admission against the per-trade, open-position and daily-loss limits,
 * closing a position at a price, and the equity summaries. The CSV fill log
 * is not modelled; the uuid-based ticket, the wall clock and the
 * DEFAULT_STRATEGY_ID constant are parameters. Timestamps are whole seconds.
 */
module Simulated {
  import opened Wrappers
  import opened Num
  import Drawdown
  import PositionSizing
  import Text
  import Dicts

  const SecondsPerDay: int := 86400

  /** An order request; `signalReason` is the metadata's "signal_reason" entry, if any. */
  datatype OrderSpec = OrderSpec(
    symbol: string,
    direction: string,
    volume: real,
    entryPrice: Option<real>,
    stopLoss: Option<real>,
    takeProfit: Option<real>,
    timestamp: Option<int>,
    tag: string,
    signalReason: Option<string>,
    strategyId: string)

  datatype Position = Position(
    ticket: string,
    symbol: string,
    direction: string,
    volume: real,
    entryPrice: real,
    stopLoss: real,
    takeProfit: Option<real>,
    openedAt: int,
    tag: string,
    maxLossAmount: real,
    signalReason: string,
    strategyId: string)

  datatype TradeRecord = TradeRecord(
    ticket: string,
    symbol: string,
    direction: string,
    volume: real,
    entryPrice: real,
    exitPrice: real,
    openedAt: int,
    closedAt: int,
    reason: string,
    pnl: real)

  /** The backend's state. `positions` is the ticket-keyed dict in insertion order. */
  datatype Backend = Backend(
    initialEquity: real,
    currentEquity: real,
    positions: seq<Position>,
    tradeRecords: seq<TradeRecord>,
    equityHistory: seq<(int, real)>,
    connected: bool,
    maxPositions: int,
    perTradeRiskFraction: real,
    dailyLossFraction: real,
    dailyStartEquity: real,
    dailyRealized: real,
    filterCounters: map<string, nat>,
    lastLimitReason: Option<string>,
    defaultStrategyId: string)

  function InitialCounters(): map<string, nat>
  {
    map["max_positions" := 0, "daily_loss" := 0, "invalid_stops" := 0]
  }

  function Create(initialEquity: real, maxPositions: int, perTradeRiskFraction: real, dailyLossFraction: real, defaultStrategyId: string): (b: Backend)
    ensures Valid(b)
    ensures b.currentEquity == b.dailyStartEquity == initialEquity
    ensures !b.connected && b.positions == [] && b.equityHistory == []
  {
    Backend(initialEquity, initialEquity, [], [], [], false, maxPositions, perTradeRiskFraction,
      dailyLossFraction, initialEquity, 0.0, InitialCounters(), None, defaultStrategyId)
  }

  /** Creating the CSV log file is not modelled; only the flag changes. */
  function Connect(b: Backend): (r: Backend)
    ensures r.connected
    ensures r.(connected := b.connected) == b
  {
    b.(connected := true)
  }

  function Disconnect(b: Backend): (r: Backend)
    ensures !r.connected
    ensures r.(connected := b.connected) == b
  {
    b.(connected := false)
  }

  // Positions keyed by ticket -------------------------------------------------

  predicate DistinctTickets(ps: seq<Position>)
  {
    forall i, j :: 0 <= i < j < |ps| ==> ps[i].ticket != ps[j].ticket
  }

  function IndexOf(ps: seq<Position>, ticket: string): (r: Option<nat>)
    ensures r.Some? ==> r.value < |ps| && ps[r.value].ticket == ticket
    ensures r.None? ==> forall i :: 0 <= i < |ps| ==> ps[i].ticket != ticket
    decreases |ps|
  {
    if |ps| == 0 then None
    else if ps[|ps| - 1].ticket == ticket then Some(|ps| - 1)
    else IndexOf(ps[..|ps| - 1], ticket)
  }

  /** `positions[ticket] = p`: a known ticket keeps its place and gets the new value, a new one goes last. */
  function Put(ps: seq<Position>, p: Position): (r: seq<Position>)
    requires DistinctTickets(ps)
    ensures DistinctTickets(r)
    ensures IndexOf(ps, p.ticket).None? ==> r == ps + [p]
    ensures IndexOf(ps, p.ticket).Some? ==> r == ps[IndexOf(ps, p.ticket).value := p]
  {
    match IndexOf(ps, p.ticket)
    case None => ps + [p]
    case Some(i) => ps[i := p]
  }

  /** `positions.pop(ticket)` once the entry has been found at index `i`. */
  function RemoveAt(ps: seq<Position>, i: nat): (r: seq<Position>)
    requires i < |ps| && DistinctTickets(ps)
    ensures DistinctTickets(r)
    ensures |r| == |ps| - 1
    ensures forall j :: 0 <= j < |r| ==> r[j].ticket != ps[i].ticket
    ensures forall j :: 0 <= j < |r| ==> r[j] in ps
  {
    ps[..i] + ps[i + 1..]
  }

  function MaxLosses(ps: seq<Position>): (r: seq<real>)
    ensures |r| == |ps|
    ensures forall i :: 0 <= i < |ps| ==> r[i] == ps[i].maxLossAmount
  {
    seq(|ps|, i requires 0 <= i < |ps| => ps[i].maxLossAmount)
  }

  /** The summed max_loss_amount of the open positions. */
  function OpenRisk(ps: seq<Position>): real
  {
    Sum(MaxLosses(ps))
  }

  /** Replacing one position changes the open risk by the difference of the two risks. */
  lemma OpenRiskUpdate(ps: seq<Position>, i: nat, p: Position)
    requires i < |ps|
    ensures OpenRisk(ps[i := p]) == OpenRisk(ps) - ps[i].maxLossAmount + p.maxLossAmount
  {
    var a := MaxLosses(ps[..i]);
    var b := MaxLosses(ps[i + 1..]);
    assert MaxLosses(ps) == a + [ps[i].maxLossAmount] + b;
    assert MaxLosses(ps[i := p]) == a + [p.maxLossAmount] + b;
    SumConcat(a + [ps[i].maxLossAmount], b);
    SumConcat(a + [p.maxLossAmount], b);
    SumAppend(a, ps[i].maxLossAmount);
    SumAppend(a, p.maxLossAmount);
  }

  lemma OpenRiskAppend(ps: seq<Position>, p: Position)
    ensures OpenRisk(ps + [p]) == OpenRisk(ps) + p.maxLossAmount
  {
    assert MaxLosses(ps + [p]) == MaxLosses(ps) + [p.maxLossAmount];
    SumAppend(MaxLosses(ps), p.maxLossAmount);
  }

  // Risk and PnL ---------------------------------------------------------------

  /** `_risk_amount`: the loss of `volume` lots between entry and stop, in account currency. */
  function RiskAmount(symbol: string, entry: real, stop: real, volume: real): (r: real)
    ensures volume >= 0.0 ==> r >= 0.0
    ensures entry == stop ==> r == 0.0
  {
    var meta := PositionSizing.GetSymbolMeta(symbol);
    var pipDistance := Abs(entry - stop) / meta.pipSize;
    assert volume >= 0.0 ==> pipDistance * meta.pipValuePerStandardLot >= 0.0;
    pipDistance * meta.pipValuePerStandardLot * volume
  }

  /** The risk depends only on the distance between the two prices, not on which is the stop. */
  lemma RiskAmountSymmetric(symbol: string, entry: real, stop: real, volume: real)
    ensures RiskAmount(symbol, entry, stop, volume) == RiskAmount(symbol, stop, entry, volume)
  {
    assert Abs(entry - stop) == Abs(stop - entry);
  }

  /** Profit of a position closed at `exit`: signed pips times pip value times volume, negated for shorts. */
  function ClosePnl(symbol: string, direction: string, entry: real, exit: real, volume: real): (pnl: real)
    ensures exit == entry ==> pnl == 0.0
    ensures direction != "short" && volume > 0.0 ==> (pnl > 0.0 <==> exit > entry)
    ensures direction == "short" && volume > 0.0 ==> (pnl > 0.0 <==> exit < entry)
  {
    var meta := PositionSizing.GetSymbolMeta(symbol);
    var pipDistance := (exit - entry) / meta.pipSize;
    var signed := if direction == "short" then -pipDistance else pipDistance;
    assert signed * meta.pipValuePerStandardLot > 0.0 ==> signed > 0.0;
    assert signed > 0.0 ==> signed * meta.pipValuePerStandardLot * volume > 0.0 || volume <= 0.0;
    signed * meta.pipValuePerStandardLot * volume
  }

  /** A short earns exactly what a long of the same size loses over the same move. */
  lemma ClosePnlMirror(symbol: string, entry: real, exit: real, volume: real)
    ensures ClosePnl(symbol, "short", entry, exit, volume) == -ClosePnl(symbol, "long", entry, exit, volume)
  {
  }

  /** Closing at the stop loses exactly the risk amount the position was admitted with. */
  lemma ClosingAtStopLosesRiskAmount(symbol: string, direction: string, entry: real, stop: real, volume: real)
    requires volume >= 0.0
    requires direction == "short" ==> stop >= entry
    requires direction != "short" ==> stop <= entry
    ensures ClosePnl(symbol, direction, entry, stop, volume) == -RiskAmount(symbol, entry, stop, volume)
  {
    var meta := PositionSizing.GetSymbolMeta(symbol);
    if direction == "short" {
      assert Abs(entry - stop) == stop - entry;
      assert -((stop - entry) / meta.pipSize) == (entry - stop) / meta.pipSize;
    } else {
      assert Abs(entry - stop) == entry - stop;
      assert (stop - entry) / meta.pipSize == -((entry - stop) / meta.pipSize);
    }
  }

  // Order admission ------------------------------------------------------------

  /** Loss already taken today plus the most the open positions can still lose. */
  function Exposure(b: Backend): real
  {
    Max(0.0, -b.dailyRealized) + OpenRisk(b.positions)
  }

  function DailyCap(b: Backend): real
  {
    b.dailyLossFraction * b.dailyStartEquity
  }

  /** `_limit_reason`: the position cap is tested before the daily-loss budget. */
  function LimitReason(b: Backend, risk: real): (r: Option<string>)
    ensures r == Some("max_positions") <==> |b.positions| >= b.maxPositions
    ensures r == Some("daily_loss") <==> |b.positions| < b.maxPositions && Exposure(b) + risk > DailyCap(b)
    ensures r.None? <==> |b.positions| < b.maxPositions && Exposure(b) + risk <= DailyCap(b)
  {
    if |b.positions| >= b.maxPositions then Some("max_positions")
    else if Exposure(b) + risk > DailyCap(b) then Some("daily_loss")
    else None
  }

  /** The counter part of `_record_limit`; the FILTER log row is not modelled. */
  function RecordLimit(b: Backend, reason: string): (r: Backend)
    ensures r == b.(lastLimitReason := Some(reason), filterCounters := Dicts.Bump(b.filterCounters, reason))
    ensures Valid(b) ==> Valid(r)
  {
    b.(lastLimitReason := Some(reason), filterCounters := Dicts.Bump(b.filterCounters, reason))
  }

  /** `x or default` for strings: the empty string is falsy. */
  function OrText(x: string, default: string): (r: string)
    ensures |x| > 0 ==> r == x
    ensures |x| == 0 ==> r == default
  {
    if |x| > 0 then x else default
  }

  function OpenedPosition(b: Backend, order: OrderSpec, ticket: string, entry: real, stop: real, at: int, risk: real): (p: Position)
    ensures p.ticket == ticket && p.symbol == Text.Upper(order.symbol) && p.maxLossAmount == risk
    ensures p.entryPrice == entry && p.stopLoss == stop && p.volume == order.volume && p.openedAt == at
    ensures p.strategyId == OrText(order.strategyId, b.defaultStrategyId)
    ensures p.signalReason == OrText(order.signalReason.GetOr(""), order.tag)
  {
    Position(ticket, Text.Upper(order.symbol), order.direction, order.volume, entry, stop, order.takeProfit, at,
      order.tag, risk, OrText(order.signalReason.GetOr(""), order.tag), OrText(order.strategyId, b.defaultStrategyId))
  }

  /**
   * The state after `submit_order` together with what it returned or raised.
   * The per-trade check raises after `last_limit_reason` has been cleared, so
   * that error comes with a changed state.
   */
  datatype SubmitOutcome = SubmitOutcome(backend: Backend, result: Result<Option<string>>)

  predicate Admissible(order: OrderSpec)
  {
    order.volume > 0.0 && order.entryPrice.Some? && order.stopLoss.Some?
  }

  function OrderRisk(order: OrderSpec): real
    requires Admissible(order)
  {
    RiskAmount(order.symbol, order.entryPrice.value, order.stopLoss.value, order.volume)
  }

  predicate OverPerTradeLimit(b: Backend, risk: real)
  {
    b.perTradeRiskFraction > 0.0 && risk > b.perTradeRiskFraction * b.dailyStartEquity
  }

  /** `submit_order`; `ticket` stands for the generated "SIM-…" ticket and `now` for the clock. */
  function SubmitOrder(b: Backend, order: OrderSpec, ticket: string, now: int): (o: SubmitOutcome)
    requires Valid(b)
    ensures Valid(o.backend)
    ensures !b.connected ==> o == SubmitOutcome(b, Err(RuntimeError("Simulated backend not connected.")))
    ensures b.connected && order.volume <= 0.0 ==>
      o == SubmitOutcome(b, Err(ValueError("Order volume must be positive for simulated execution.")))
    ensures b.connected && order.volume > 0.0 && !Admissible(order) ==>
      o == SubmitOutcome(b, Err(RuntimeError("Simulated backend requires entry and stop-loss prices.")))
    ensures o.result.Err? && b.connected && Admissible(order) ==>
      OverPerTradeLimit(b, OrderRisk(order)) && o.backend == b.(lastLimitReason := None)
    ensures o.result.Ok? <==> b.connected && Admissible(order) && !OverPerTradeLimit(b, OrderRisk(order))
    ensures o.result.Ok? ==> var limit := LimitReason(b, OrderRisk(order));
      && (o.result.value.None? <==> limit.Some?)
      && (limit.Some? ==> o.backend == RecordLimit(b, limit.value))
      && (limit.None? ==> o.result.value == Some(ticket) && o.backend == Opened(b, order, ticket, order.timestamp.GetOr(now)))
    ensures o.backend.currentEquity == b.currentEquity && o.backend.tradeRecords == b.tradeRecords
    ensures o.backend.equityHistory == b.equityHistory && o.backend.dailyRealized == b.dailyRealized
  {
    if !b.connected then SubmitOutcome(b, Err(RuntimeError("Simulated backend not connected.")))
    else if order.volume <= 0.0 then SubmitOutcome(b, Err(ValueError("Order volume must be positive for simulated execution.")))
    else if order.entryPrice.None? || order.stopLoss.None? then
      SubmitOutcome(b, Err(RuntimeError("Simulated backend requires entry and stop-loss prices.")))
    else SubmitPriced(b, order, ticket, order.timestamp.GetOr(now))
  }

  /** `submit_order` once the order has passed its validity checks. */
  function SubmitPriced(b: Backend, order: OrderSpec, ticket: string, at: int): (o: SubmitOutcome)
    requires Valid(b) && Admissible(order)
    ensures Valid(o.backend)
    ensures o.result.Err? ==> OverPerTradeLimit(b, OrderRisk(order)) && o.backend == b.(lastLimitReason := None)
    ensures o.result.Ok? <==> !OverPerTradeLimit(b, OrderRisk(order))
    ensures o.result.Ok? ==> var limit := LimitReason(b, OrderRisk(order));
      && (o.result.value.None? <==> limit.Some?)
      && (limit.Some? ==> o.backend == RecordLimit(b, limit.value))
      && (limit.None? ==> o.result.value == Some(ticket) && o.backend == Opened(b, order, ticket, at))
    ensures o.backend.currentEquity == b.currentEquity && o.backend.tradeRecords == b.tradeRecords
    ensures o.backend.equityHistory == b.equityHistory && o.backend.dailyRealized == b.dailyRealized
  {
    var risk := OrderRisk(order);
    var cleared := ClearLimitReason(b);
    if OverPerTradeLimit(b, risk) then SubmitOutcome(cleared, Err(RuntimeError("Per-trade risk limit exceeded.")))
    else
      var limit := LimitReason(b, risk);
      if limit.Some? then SubmitOutcome(RecordLimit(cleared, limit.value), Ok(None))
      else SubmitOutcome(Opened(b, order, ticket, at), Ok(Some(ticket)))
  }

  /** `self.last_limit_reason = None`; the limits read nothing it touches. */
  function ClearLimitReason(b: Backend): (r: Backend)
    ensures r == b.(lastLimitReason := None)
    ensures Valid(b) ==> Valid(r)
    ensures forall risk :: LimitReason(r, risk) == LimitReason(b, risk)
  {
    b.(lastLimitReason := None)
  }

  /** The state after an admitted order: the new position is stored under its ticket and the limit reason cleared. */
  function Opened(b: Backend, order: OrderSpec, ticket: string, at: int): (r: Backend)
    requires Valid(b) && Admissible(order)
    ensures Valid(r)
    ensures r.lastLimitReason.None? && r.filterCounters == b.filterCounters
    ensures r == b.(lastLimitReason := None, positions := r.positions)
  {
    var p := OpenedPosition(b, order, ticket, order.entryPrice.value, order.stopLoss.value, at, OrderRisk(order));
    PutKeepsRisksNonNegative(b.positions, p);
    b.(lastLimitReason := None, positions := Put(b.positions, p))
  }

  lemma PutKeepsRisksNonNegative(ps: seq<Position>, p: Position)
    requires DistinctTickets(ps) && RisksNonNegative(ps) && p.maxLossAmount >= 0.0
    ensures RisksNonNegative(Put(ps, p))
  {
  }

  /**
   * An order the backend accepts never takes the day's exposure past the
   * daily cap, whether its ticket is new or (on a ticket clash) replaces an
   * open position.
   */
  lemma AcceptedOrderStaysWithinDailyCap(b: Backend, order: OrderSpec, ticket: string, now: int)
    requires Valid(b)
    requires SubmitOrder(b, order, ticket, now).result == Ok(Some(ticket))
    ensures Exposure(SubmitOrder(b, order, ticket, now).backend) <= DailyCap(b)
    ensures Get(SubmitOrder(b, order, ticket, now).backend.positions, ticket).Some?
    ensures Get(SubmitOrder(b, order, ticket, now).backend.positions, ticket).value.maxLossAmount == OrderRisk(order)
  {
    var risk := OrderRisk(order);
    var at := order.timestamp.GetOr(now);
    var p := OpenedPosition(b, order, ticket, order.entryPrice.value, order.stopLoss.value, at, risk);
    var ps := Put(b.positions, p);
    match IndexOf(b.positions, ticket)
    case None =>
      OpenRiskAppend(b.positions, p);
      assert IndexOf(ps, ticket) == Some(|ps| - 1);
    case Some(i) =>
      OpenRiskUpdate(b.positions, i, p);
      assert IndexOf(ps, ticket) == Some(i) by { IndexOfUnique(ps, i); }
  }

  /** In a ticket-distinct list, the entry found at `i` is the one `IndexOf` finds. */
  lemma IndexOfUnique(ps: seq<Position>, i: nat)
    requires DistinctTickets(ps) && i < |ps|
    ensures IndexOf(ps, ps[i].ticket) == Some(i)
  {
  }

  /** The position stored under a ticket, if any. */
  function Get(ps: seq<Position>, ticket: string): (r: Option<Position>)
    ensures r.Some? <==> exists i :: 0 <= i < |ps| && ps[i].ticket == ticket
    ensures r.Some? ==> r.value in ps && r.value.ticket == ticket
  {
    match IndexOf(ps, ticket)
    case None => None
    case Some(i) => Some(ps[i])
  }

  /** A full book refuses with "max_positions" before the daily budget is looked at, and counts exactly that refusal. */
  lemma FullBookRefusesWithMaxPositions(b: Backend, order: OrderSpec, ticket: string, now: int)
    requires Valid(b) && b.connected && Admissible(order) && !OverPerTradeLimit(b, OrderRisk(order))
    requires |b.positions| >= b.maxPositions
    ensures var o := SubmitOrder(b, order, ticket, now);
      && o.result == Ok(None)
      && o.backend.positions == b.positions
      && o.backend.lastLimitReason == Some("max_positions")
      && o.backend.filterCounters["max_positions"] == (if "max_positions" in b.filterCounters then b.filterCounters["max_positions"] else 0) + 1
      && forall k :: k in b.filterCounters && k != "max_positions" ==> o.backend.filterCounters[k] == b.filterCounters[k]
  {
  }

  // Closing --------------------------------------------------------------------

  /** `close_position`; `now` stands for the clock used when no timestamp is given. */
  function ClosePosition(b: Backend, ticket: string, reason: string, closePrice: Option<real>, timestamp: Option<int>, now: int): (r: Result<Backend>)
    requires Valid(b)
    ensures r.Err? <==> Get(b.positions, ticket).None?
    ensures r.Err? ==> r.error == KeyError("Unknown ticket " + ticket + " for simulated backend.")
    ensures r.Ok? ==> Valid(r.value)
    ensures r.Ok? ==> var i := IndexOf(b.positions, ticket).value;
      Closed(b, r.value, i, reason, closePrice.GetOr(b.positions[i].entryPrice), timestamp.GetOr(now))
    ensures r.Ok? ==> Get(r.value.positions, ticket).None?
  {
    match IndexOf(b.positions, ticket)
    case None => Err(KeyError("Unknown ticket " + ticket + " for simulated backend."))
    case Some(i) =>
      var p := b.positions[i];
      Ok(CloseAt(b, i, reason, closePrice.GetOr(p.entryPrice), timestamp.GetOr(now)))
  }

  /**
   * How closing the position at index `i` at price `exit` changes the books:
   * the position leaves the dict with the others kept in order, equity moves
   * by the pnl, one record carrying the position's entry fields and the exit
   * is appended with one equity point, only a loss accrues to the day, and
   * nothing else changes.
   */
  predicate Closed(b: Backend, r: Backend, i: nat, reason: string, exit: real, at: int)
    requires i < |b.positions| && DistinctTickets(b.positions)
  {
    var p := b.positions[i];
    var pnl := ClosePnl(p.symbol, p.direction, p.entryPrice, exit, p.volume);
    && r.positions == RemoveAt(b.positions, i)
    && r.currentEquity == b.currentEquity + pnl
    && |r.tradeRecords| == |b.tradeRecords| + 1
    && r.tradeRecords[..|b.tradeRecords|] == b.tradeRecords
    && ClosingRecord(r.tradeRecords[|b.tradeRecords|], p, reason, exit, at, pnl)
    && r.equityHistory == b.equityHistory + [(at, r.currentEquity)]
    && r.dailyRealized == b.dailyRealized + (if pnl < 0.0 then pnl else 0.0)
    && r.(positions := b.positions, currentEquity := b.currentEquity, tradeRecords := b.tradeRecords,
          equityHistory := b.equityHistory, dailyRealized := b.dailyRealized) == b
  }

  /** The record of closing `p`: its ticket and entry fields, the exit price and time, the reason and the pnl. */
  predicate ClosingRecord(t: TradeRecord, p: Position, reason: string, exit: real, at: int, pnl: real)
  {
    && t.ticket == p.ticket && t.symbol == p.symbol && t.direction == p.direction && t.volume == p.volume
    && t.entryPrice == p.entryPrice && t.openedAt == p.openedAt
    && t.exitPrice == exit && t.closedAt == at && t.reason == reason && t.pnl == pnl
  }

  /** Closes the position at index `i` at price `exit`. */
  function CloseAt(b: Backend, i: nat, reason: string, exit: real, at: int): (r: Backend)
    requires Valid(b) && i < |b.positions|
    ensures Valid(r)
    ensures Closed(b, r, i, reason, exit, at)
    ensures |r.positions| == |b.positions| - 1
    ensures forall j :: 0 <= j < |r.positions| ==> r.positions[j].ticket != b.positions[i].ticket
  {
    var p := b.positions[i];
    var pnl := ClosePnl(p.symbol, p.direction, p.entryPrice, exit, p.volume);
    var equity := b.currentEquity + pnl;
    var record := TradeRecord(p.ticket, p.symbol, p.direction, p.volume, p.entryPrice, exit, p.openedAt, at, reason, pnl);
    var r := b.(
      positions := RemoveAt(b.positions, i),
      currentEquity := equity,
      tradeRecords := b.tradeRecords + [record],
      equityHistory := b.equityHistory + [(at, equity)],
      dailyRealized := b.dailyRealized + (if pnl < 0.0 then pnl else 0.0));
    assert (b.tradeRecords + [record])[..|b.tradeRecords|] == b.tradeRecords;
    CloseKeepsValid(b, r, i, reason, exit, at);
    r
  }

  /** A close keeps the ledger invariant. */
  lemma CloseKeepsValid(b: Backend, r: Backend, i: nat, reason: string, exit: real, at: int)
    requires Valid(b) && i < |b.positions|
    requires Closed(b, r, i, reason, exit, at)
    ensures Valid(r)
  {
    var record := r.tradeRecords[|b.tradeRecords|];
    assert r.tradeRecords == b.tradeRecords + [record];
    CloseKeepsLedger(b, record);
    forall j | 0 <= j < |r.positions|
      ensures r.positions[j].maxLossAmount >= 0.0
    {
      assert r.positions[j] in b.positions;
    }
  }

  /** A long closed above its entry raises the account's equity. */
  lemma ProfitableLongRaisesEquity(b: Backend, ticket: string, price: real, at: int)
    requires Valid(b)
    requires Get(b.positions, ticket).Some?
    requires var p := Get(b.positions, ticket).value; p.direction == "long" && p.volume > 0.0 && price > p.entryPrice
    ensures ClosePosition(b, ticket, "tp", Some(price), Some(at), at).Ok?
    ensures ClosePosition(b, ticket, "tp", Some(price), Some(at), at).value.currentEquity > b.currentEquity
  {
  }

  // The ledger invariant -------------------------------------------------------

  function Pnls(ts: seq<TradeRecord>): (r: seq<real>)
    ensures |r| == |ts|
    ensures forall i :: 0 <= i < |ts| ==> r[i] == ts[i].pnl
  {
    seq(|ts|, i requires 0 <= i < |ts| => ts[i].pnl)
  }

  /** The losing part of each trade's pnl (0 for a winner). */
  function LossParts(ts: seq<TradeRecord>): (r: seq<real>)
    ensures |r| == |ts|
    ensures forall i :: 0 <= i < |ts| ==> r[i] == (if ts[i].pnl < 0.0 then ts[i].pnl else 0.0)
  {
    seq(|ts|, i requires 0 <= i < |ts| => if ts[i].pnl < 0.0 then ts[i].pnl else 0.0)
  }

  predicate RisksNonNegative(ps: seq<Position>)
  {
    forall i :: 0 <= i < |ps| ==> ps[i].maxLossAmount >= 0.0
  }

  /**
   * What every reachable backend satisfies: tickets are distinct, equity is
   * the initial equity plus every closed trade's pnl, one equity point per
   * close ending at the current equity, and the realised daily figure is the
   * sum of the losses alone.
   */
  predicate Valid(b: Backend)
  {
    && DistinctTickets(b.positions)
    && RisksNonNegative(b.positions)
    && b.currentEquity == b.initialEquity + Sum(Pnls(b.tradeRecords))
    && |b.equityHistory| == |b.tradeRecords|
    && (|b.equityHistory| > 0 ==> b.equityHistory[|b.equityHistory| - 1].1 == b.currentEquity)
    && b.dailyRealized == Sum(LossParts(b.tradeRecords))
  }

  lemma CloseKeepsLedger(b: Backend, record: TradeRecord)
    ensures Sum(Pnls(b.tradeRecords + [record])) == Sum(Pnls(b.tradeRecords)) + record.pnl
    ensures Sum(LossParts(b.tradeRecords + [record])) == Sum(LossParts(b.tradeRecords)) + (if record.pnl < 0.0 then record.pnl else 0.0)
  {
    assert Pnls(b.tradeRecords + [record]) == Pnls(b.tradeRecords) + [record.pnl];
    SumAppend(Pnls(b.tradeRecords), record.pnl);
    var l := if record.pnl < 0.0 then record.pnl else 0.0;
    assert LossParts(b.tradeRecords + [record]) == LossParts(b.tradeRecords) + [l];
    SumAppend(LossParts(b.tradeRecords), l);
  }

  /** Only losses accrue to `daily_realized`, so it never goes above zero. */
  lemma DailyRealizedNeverPositive(b: Backend)
    requires Valid(b)
    ensures b.dailyRealized <= 0.0
  {
    LossPartsNonPositive(LossParts(b.tradeRecords));
  }

  lemma {:induction false} LossPartsNonPositive(s: seq<real>)
    requires forall i :: 0 <= i < |s| ==> s[i] <= 0.0
    ensures Sum(s) <= 0.0
    decreases |s|
  {
    if |s| > 0 {
      LossPartsNonPositive(s[..|s| - 1]);
    }
  }

  // Drawdown summaries ---------------------------------------------------------

  function Values(history: seq<(int, real)>): (r: seq<real>)
    ensures |r| == |history|
    ensures forall i :: 0 <= i < |history| ==> r[i] == history[i].1
  {
    seq(|history|, i requires 0 <= i < |history| => history[i].1)
  }

  /** `max_drawdown_fraction` as a loop, equal to `Drawdown.MaxDrawdown` of the recorded equities. */
  method MaxDrawdownFraction(b: Backend) returns (r: real)
    ensures r == Drawdown.MaxDrawdown(b.initialEquity, Values(b.equityHistory))
    ensures r >= 0.0
  {
    var vs := Values(b.equityHistory);
    if |b.equityHistory| == 0 {
      return 0.0;
    }
    var peak := b.initialEquity;
    var maxDd := 0.0;
    var k := 0;
    while k < |b.equityHistory|
      invariant 0 <= k <= |vs|
      invariant peak == Drawdown.Peak(b.initialEquity, vs[..k])
      invariant maxDd == Drawdown.MaxDrawdown(b.initialEquity, vs[..k])
    {
      var value := b.equityHistory[k].1;
      assert vs[..k + 1][..k] == vs[..k];
      if value > peak {
        peak := value;
      }
      if peak > 0.0 {
        maxDd := Max(maxDd, (peak - value) / peak);
      }
      k := k + 1;
    }
    assert vs[..k] == vs;
    r := maxDd;
  }

  /** With no closes the drawdown is 0; with any close it is at least the last point's drop below the running peak. */
  lemma MaxDrawdownCoversLastPoint(initial: real, vs: seq<real>)
    requires |vs| > 0 && initial > 0.0
    ensures Drawdown.MaxDrawdown(initial, vs) >= (Drawdown.Peak(initial, vs) - vs[|vs| - 1]) / Drawdown.Peak(initial, vs)
  {
    assert vs[..|vs|] == vs;
    assert Drawdown.DrawdownAt(initial, vs, |vs| - 1) <= Drawdown.MaxDrawdown(initial, vs);
  }

  // Daily loss -----------------------------------------------------------------

  function DayOf(ts: int): int
  {
    ts / SecondsPerDay
  }

  predicate SortedByTime(rs: seq<(int, real)>)
  {
    forall i, j :: 0 <= i < j < |rs| ==> rs[i].0 <= rs[j].0
  }

  /** Inserts `x` after every entry with a timestamp not later than its own, as a stable sort does. */
  function InsertByTime(rs: seq<(int, real)>, x: (int, real)): (r: seq<(int, real)>)
    requires SortedByTime(rs)
    ensures SortedByTime(r)
    ensures |r| == |rs| + 1
    ensures forall i :: 0 <= i < |r| ==> r[i] == x || r[i] in rs
    decreases |rs|
  {
    if |rs| == 0 then [x]
    else if rs[|rs| - 1].0 <= x.0 then rs + [x]
    else
      var front := InsertByTime(rs[..|rs| - 1], x);
      assert forall i :: 0 <= i < |front| ==> front[i] == x || front[i] in rs[..|rs| - 1];
      front + [rs[|rs| - 1]]
  }

  lemma {:induction false} InsertByTimePermutes(rs: seq<(int, real)>, x: (int, real))
    requires SortedByTime(rs)
    ensures multiset(InsertByTime(rs, x)) == multiset(rs) + multiset{x}
    decreases |rs|
  {
    if |rs| > 0 && rs[|rs| - 1].0 > x.0 {
      var init := rs[..|rs| - 1];
      InsertByTimePermutes(init, x);
      assert rs == init + [rs[|rs| - 1]];
    }
  }

  /** `sorted(history, key=timestamp)`: an insertion sort, stable like Python's. */
  function SortByTime(rs: seq<(int, real)>): (r: seq<(int, real)>)
    ensures SortedByTime(r)
    ensures |r| == |rs|
    decreases |rs|
  {
    if |rs| == 0 then [] else InsertByTime(SortByTime(rs[..|rs| - 1]), rs[|rs| - 1])
  }

  lemma {:induction false} SortByTimePermutes(rs: seq<(int, real)>)
    ensures multiset(SortByTime(rs)) == multiset(rs)
    decreases |rs|
  {
    if |rs| > 0 {
      var init := rs[..|rs| - 1];
      SortByTimePermutes(init);
      InsertByTimePermutes(SortByTime(init), rs[|rs| - 1]);
      assert rs == init + [rs[|rs| - 1]];
    }
  }

  /** The loss fraction of a day that opened at `start` and closed at `close` (0 when start <= 0). */
  function DayLoss(start: real, close: real): (r: real)
    ensures r >= 0.0
    ensures start > 0.0 && close >= start ==> r == 0.0
    ensures start > 0.0 && close < start ==> r * start == start - close
  {
    if start > 0.0 then Max(0.0, (start - close) / start) else 0.0
  }

  /** Folds `worst = max(worst, loss)` over days whose closes are `closes`, each opening at the previous close. */
  function FoldDayLosses(worst: real, start: real, closes: seq<real>): (r: real)
    ensures r >= worst
    decreases |closes|
  {
    if |closes| == 0 then worst
    else FoldDayLosses(Max(worst, DayLoss(start, closes[0])), closes[0], closes[1..])
  }

  /** The closing equity of every calendar day, in order: each record that is the last of its day. */
  function DayCloses(rs: seq<(int, real)>): (r: seq<real>)
    ensures |rs| > 0 ==> |r| > 0 && r[|r| - 1] == rs[|rs| - 1].1
    decreases |rs|
  {
    if |rs| == 0 then []
    else if |rs| == 1 || DayOf(rs[1].0) != DayOf(rs[0].0) then [rs[0].1] + DayCloses(rs[1..])
    else DayCloses(rs[1..])
  }

  /** The loop of `max_daily_loss_fraction`, over the records still to visit. */
  function DailyWalk(rs: seq<(int, real)>, dailyStart: real, currentDay: int, worst: real, prev: real): real
    decreases |rs|
  {
    if |rs| == 0 then Max(worst, DayLoss(dailyStart, prev))
    else
      var day := DayOf(rs[0].0);
      if day != currentDay then DailyWalk(rs[1..], prev, day, Max(worst, DayLoss(dailyStart, prev)), rs[0].1)
      else DailyWalk(rs[1..], dailyStart, currentDay, worst, rs[0].1)
  }

  /** The walk in the middle of day `currentDay` is the fold of day losses over the remaining day closes. */
  lemma {:induction false} DailyWalkIsFoldOfDayCloses(rs: seq<(int, real)>, dailyStart: real, currentDay: int, worst: real, prev: real)
    requires |rs| > 0 && DayOf(rs[0].0) == currentDay
    ensures DailyWalk(rs, dailyStart, currentDay, worst, prev) == FoldDayLosses(worst, dailyStart, DayCloses(rs))
    decreases |rs|
  {
    if |rs| == 1 {
      assert DayCloses(rs) == [rs[0].1];
      assert DayCloses(rs)[1..] == [];
    } else {
      var rest := rs[1..];
      assert rest[0] == rs[1];
      if DayOf(rs[1].0) == currentDay {
        DailyWalkIsFoldOfDayCloses(rest, dailyStart, currentDay, worst, rs[0].1);
      } else {
        var d1 := DayOf(rs[1].0);
        var w1 := Max(worst, DayLoss(dailyStart, rs[0].1));
        DailyWalkIsFoldOfDayCloses(rest, rs[0].1, d1, w1, rs[0].1);
        assert DailyWalk(rest, dailyStart, currentDay, worst, rs[0].1) == DailyWalk(rest[1..], rs[0].1, d1, w1, rest[0].1);
        assert DailyWalk(rest, rs[0].1, d1, w1, rs[0].1) == DailyWalk(rest[1..], rs[0].1, d1, w1, rest[0].1);
        var cs := DayCloses(rs);
        assert cs == [rs[0].1] + DayCloses(rest);
        assert cs[1..] == DayCloses(rest);
      }
    }
  }

  /** `max_daily_loss_fraction`: the worst loss of any calendar day, each day opening at the previous day's close. */
  function MaxDailyLossFraction(b: Backend): (r: real)
    ensures r >= 0.0
    ensures |b.equityHistory| > 0 ==>
      r == FoldDayLosses(0.0, b.initialEquity, DayCloses(SortByTime(b.equityHistory)))
  {
    if |b.equityHistory| == 0 then 0.0
    else
      var rs := SortByTime(b.equityHistory);
      DailyWalkIsFoldOfDayCloses(rs, b.initialEquity, DayOf(rs[0].0), 0.0, b.initialEquity);
      DailyWalk(rs, b.initialEquity, DayOf(rs[0].0), 0.0, b.initialEquity)
  }

  /** The equity day `k` of `closes` opened at: the previous day's close, or `start` for the first. */
  function OpenOf(start: real, closes: seq<real>, k: nat): real
    requires k < |closes|
  {
    if k == 0 then start else closes[k - 1]
  }

  /** Every day's loss is at most the fold. */
  lemma {:induction false} FoldDayLossesCoversEachDay(worst: real, start: real, closes: seq<real>)
    ensures forall k :: 0 <= k < |closes| ==> DayLoss(OpenOf(start, closes, k), closes[k]) <= FoldDayLosses(worst, start, closes)
    decreases |closes|
  {
    if |closes| > 0 {
      var w := Max(worst, DayLoss(start, closes[0]));
      var rest := closes[1..];
      FoldDayLossesCoversEachDay(w, closes[0], rest);
      forall k | 1 <= k < |closes|
        ensures DayLoss(OpenOf(start, closes, k), closes[k]) <= FoldDayLosses(worst, start, closes)
      {
        assert OpenOf(start, closes, k) == OpenOf(closes[0], rest, k - 1);
      }
    }
  }

  /** The fold is the starting value or the loss of some day. */
  lemma {:induction false} FoldDayLossesAttained(worst: real, start: real, closes: seq<real>)
    ensures FoldDayLosses(worst, start, closes) == worst
      || exists k :: 0 <= k < |closes| && FoldDayLosses(worst, start, closes) == DayLoss(OpenOf(start, closes, k), closes[k])
    decreases |closes|
  {
    if |closes| > 0 {
      var w := Max(worst, DayLoss(start, closes[0]));
      var rest := closes[1..];
      FoldDayLossesAttained(w, closes[0], rest);
      var r := FoldDayLosses(worst, start, closes);
      if r != w {
        var k :| 0 <= k < |rest| && r == DayLoss(OpenOf(closes[0], rest, k), rest[k]);
        assert OpenOf(start, closes, k + 1) == OpenOf(closes[0], rest, k);
        assert r == DayLoss(OpenOf(start, closes, k + 1), closes[k + 1]);
      } else if w != worst {
        assert r == DayLoss(OpenOf(start, closes, 0), closes[0]);
      }
    }
  }

  /** Two closes a minute apart on one day: the figure is that day's loss from the initial equity to the later close. */
  lemma SingleDayLoss(b: Backend, ts: int, e1: real, e2: real)
    requires ts % SecondsPerDay < SecondsPerDay - 60
    requires b.equityHistory == [(ts, e1), (ts + 60, e2)]
    ensures MaxDailyLossFraction(b) == DayLoss(b.initialEquity, e2)
  {
    var h := b.equityHistory;
    assert DayOf(ts + 60) == DayOf(ts);
    assert h[..1] == [(ts, e1)];
    assert h[..1][..0] == [];
    assert SortByTime(h[..1]) == [(ts, e1)];
    assert SortByTime(h) == InsertByTime([(ts, e1)], (ts + 60, e2));
    assert SortByTime(h) == h;
    assert h[1..] == [(ts + 60, e2)];
    assert DayCloses(h[1..]) == [e2];
    assert DayCloses(h) == [e2];
    assert FoldDayLosses(0.0, b.initialEquity, [e2]) == Max(0.0, DayLoss(b.initialEquity, e2));
  }

  // Summary --------------------------------------------------------------------

  function CountWins(ts: seq<TradeRecord>): (n: nat)
    ensures n <= |ts|
    decreases |ts|
  {
    if |ts| == 0 then 0 else CountWins(ts[..|ts| - 1]) + (if ts[|ts| - 1].pnl > 0.0 then 1 else 0)
  }

  function CountLosses(ts: seq<TradeRecord>): (n: nat)
    ensures n <= |ts|
    decreases |ts|
  {
    if |ts| == 0 then 0 else CountLosses(ts[..|ts| - 1]) + (if ts[|ts| - 1].pnl <= 0.0 then 1 else 0)
  }

  /** A trade with pnl <= 0 counts as a loss, so every trade is exactly one of the two. */
  lemma {:induction false} WinsPlusLossesIsTotal(ts: seq<TradeRecord>)
    ensures CountWins(ts) + CountLosses(ts) == |ts|
    decreases |ts|
  {
    if |ts| > 0 {
      WinsPlusLossesIsTotal(ts[..|ts| - 1]);
    }
  }

  /** `wins / total if total else 0.0`. */
  function WinRate(ts: seq<TradeRecord>): (r: real)
    ensures 0.0 <= r <= 1.0
    ensures Scales(r, |ts| as real, CountWins(ts) as real)
  {
    var wins := CountWins(ts);
    if |ts| == 0 then 0.0 else Ratio(wins, |ts|)
  }

  datatype Summary = Summary(
    initialEquity: real,
    finalEquity: real,
    totalPnl: real,
    numberOfTrades: nat,
    winRate: real,
    maxDrawdownFraction: real,
    maxDailyLossFraction: real,
    dailyLossFraction: real,
    perTradeRiskFraction: real,
    maxPositions: int,
    filteredMaxPositions: int,
    filteredDailyLoss: int,
    filteredInvalidStops: int)

  function CounterOf(counts: map<string, nat>, key: string): int
  {
    if key in counts then counts[key] else 0
  }

  /**
   * `summary`: total pnl is the sum of the closed trades' pnls, the final
   * equity the initial one plus that total, and the drawdown figures are the
   * ones `max_drawdown_fraction` and `max_daily_loss_fraction` compute.
   */
  function Summarize(b: Backend): (s: Summary)
    requires Valid(b)
    ensures s.initialEquity == b.initialEquity
    ensures s.finalEquity == b.initialEquity + Sum(Pnls(b.tradeRecords)) == b.currentEquity
    ensures s.totalPnl == Sum(Pnls(b.tradeRecords)) == s.finalEquity - s.initialEquity
    ensures s.maxDrawdownFraction == Drawdown.MaxDrawdown(b.initialEquity, Values(b.equityHistory))
    ensures s.maxDailyLossFraction == MaxDailyLossFraction(b)
    ensures s.dailyLossFraction == b.dailyLossFraction && s.perTradeRiskFraction == b.perTradeRiskFraction
    ensures s.maxPositions == b.maxPositions
    ensures s.filteredInvalidStops == CounterOf(b.filterCounters, "invalid_stops")
    ensures s.numberOfTrades == |b.tradeRecords|
    ensures 0.0 <= s.winRate <= 1.0
    ensures s.winRate == WinRate(b.tradeRecords)
    ensures s.maxDrawdownFraction >= 0.0 && s.maxDailyLossFraction >= 0.0
    ensures s.filteredMaxPositions == CounterOf(b.filterCounters, "max_positions")
    ensures s.filteredDailyLoss == CounterOf(b.filterCounters, "daily_loss")
  {
    var total := |b.tradeRecords|;
    Summary(b.initialEquity, b.currentEquity, b.currentEquity - b.initialEquity, total, WinRate(b.tradeRecords),
      Drawdown.MaxDrawdown(b.initialEquity, Values(b.equityHistory)), MaxDailyLossFraction(b),
      b.dailyLossFraction, b.perTradeRiskFraction, b.maxPositions,
      CounterOf(b.filterCounters, "max_positions"), CounterOf(b.filterCounters, "daily_loss"),
      CounterOf(b.filterCounters, "invalid_stops"))
  }
}

=== FILE: sizing.dfy ===
/**
 * Backtest lot sizing of core/sizing.py: equity times the mode's per-trade
 * risk fraction, over the loss per lot at the stop, clamped to the lot bounds
 * and rounded to four decimals. The per-mode fractions (RISK_CONFIG) are not
 * defined in the modelled files, so they are a parameter.
 */
module Sizing {
  import opened Wrappers
  import opened Num
  import opened Risk
  import PositionSizing

  /** RISK_CONFIG[mode]["max_risk_per_trade"] for each mode. */
  type RiskConfig = RiskMode -> real

  function RawLots(equity: real, fraction: real, stopPips: real, pipValue: real): real
    requires stopPips > 0.0 && pipValue > 0.0
  {
    (equity * fraction) / (stopPips * pipValue)
  }

  /**
   * Fails with ValueError exactly when the stop distance is not positive;
   * otherwise the size lies in [0.01, 2.0] and within half a 1e-4 step of the
   * clamped raw size.
   */
  function ComputePositionSize(equity: real, mode: RiskMode, stopPips: real, pipValue: real, config: RiskConfig): (r: Result<real>)
    requires pipValue > 0.0
    ensures r.Err? <==> stopPips <= 0.0
    ensures r.Ok? ==> PositionSizing.MinLotSize <= r.value <= PositionSizing.MaxLotSize
    ensures r.Ok? ==> var c := Clamp(RawLots(equity, config(mode), stopPips, pipValue), PositionSizing.MinLotSize, PositionSizing.MaxLotSize);
      c - 0.00005 < r.value <= c + 0.00005
  {
    if stopPips <= 0.0 then Err(ValueError("stop_distance_pips must be positive to compute position size."))
    else
      var clipped := Clamp(RawLots(equity, config(mode), stopPips, pipValue), PositionSizing.MinLotSize, PositionSizing.MaxLotSize);
      RoundToStaysInGrid(clipped, 10000, 100, 20000);
      Ok(RoundTo(clipped, 10000))
  }

  /** More equity never buys a smaller position. */
  lemma SizeGrowsWithEquity(e1: real, e2: real, mode: RiskMode, stopPips: real, pipValue: real, config: RiskConfig)
    requires pipValue > 0.0 && stopPips > 0.0 && config(mode) >= 0.0 && e1 <= e2
    ensures ComputePositionSize(e1, mode, stopPips, pipValue, config).value
         <= ComputePositionSize(e2, mode, stopPips, pipValue, config).value
  {
    var f := config(mode);
    assert e1 * f <= e2 * f;
    DivMonotone(e1 * f, e2 * f, stopPips * pipValue);
    SizeFromRawMonotone(RawLots(e1, f, stopPips, pipValue), RawLots(e2, f, stopPips, pipValue));
  }

  /** A wider stop never buys a larger position. */
  lemma SizeShrinksWithStop(equity: real, mode: RiskMode, s1: real, s2: real, pipValue: real, config: RiskConfig)
    requires pipValue > 0.0 && 0.0 < s1 <= s2 && equity >= 0.0 && config(mode) >= 0.0
    ensures ComputePositionSize(equity, mode, s2, pipValue, config).value
         <= ComputePositionSize(equity, mode, s1, pipValue, config).value
  {
    var f := config(mode);
    assert s1 * pipValue <= s2 * pipValue;
    DivAntitone(equity * f, s1 * pipValue, s2 * pipValue);
    SizeFromRawMonotone(RawLots(equity, f, s2, pipValue), RawLots(equity, f, s1, pipValue));
  }

  /** A mode with a larger configured risk fraction never trades smaller. */
  lemma SizeGrowsWithModeRisk(equity: real, m1: RiskMode, m2: RiskMode, stopPips: real, pipValue: real, config: RiskConfig)
    requires pipValue > 0.0 && stopPips > 0.0 && equity >= 0.0 && config(m1) <= config(m2)
    ensures ComputePositionSize(equity, m1, stopPips, pipValue, config).value
         <= ComputePositionSize(equity, m2, stopPips, pipValue, config).value
  {
    assert equity * config(m1) <= equity * config(m2);
    DivMonotone(equity * config(m1), equity * config(m2), stopPips * pipValue);
    SizeFromRawMonotone(RawLots(equity, config(m1), stopPips, pipValue), RawLots(equity, config(m2), stopPips, pipValue));
  }

  lemma SizeFromRawMonotone(a: real, b: real)
    requires a <= b
    ensures RoundTo(Clamp(a, PositionSizing.MinLotSize, PositionSizing.MaxLotSize), 10000)
         <= RoundTo(Clamp(b, PositionSizing.MinLotSize, PositionSizing.MaxLotSize), 10000)
  {
    ClampMonotone(a, b, PositionSizing.MinLotSize, PositionSizing.MaxLotSize);
    RoundToMonotone(Clamp(a, PositionSizing.MinLotSize, PositionSizing.MaxLotSize),
                    Clamp(b, PositionSizing.MinLotSize, PositionSizing.MaxLotSize), 10000);
  }
}

=== FILE: sorting.dfy ===
/**
 * Stable sorting by a numeric key, the behaviour of Python's `sorted(xs, key=...)`:
 * the result is ordered by key, is a permutation of the input, and keeps
 * the input order among elements with equal keys. Also the `head`/`tail`
 * selections of a sorted table.
 */
module Sorting {
  import Text

  predicate SortedBy<T>(xs: seq<T>, key: T -> real)
  {
    forall i, j :: 0 <= i < j < |xs| ==> key(xs[i]) <= key(xs[j])
  }

  /** Insert `x` after every element whose key does not exceed its own. */
  function InsertBy<T>(xs: seq<T>, x: T, key: T -> real): (r: seq<T>)
    ensures |r| == |xs| + 1
    decreases |xs|
  {
    if |xs| == 0 || key(x) < key(xs[0]) then [x] + xs
    else [xs[0]] + InsertBy(xs[1..], x, key)
  }

  /** Insertion sort, inserting the elements in input order. */
  function SortBy<T>(xs: seq<T>, key: T -> real): (r: seq<T>)
    ensures |r| == |xs|
    decreases |xs|
  {
    if |xs| == 0 then [] else InsertBy(SortBy(xs[..|xs| - 1], key), xs[|xs| - 1], key)
  }

  lemma {:induction false} InsertByPermutes<T>(xs: seq<T>, x: T, key: T -> real)
    ensures multiset(InsertBy(xs, x, key)) == multiset(xs) + multiset{x}
    decreases |xs|
  {
    if |xs| > 0 && key(x) >= key(xs[0]) {
      InsertByPermutes(xs[1..], x, key);
      assert xs == [xs[0]] + xs[1..];
    }
  }

  lemma {:induction false} InsertBySorted<T>(xs: seq<T>, x: T, key: T -> real)
    requires SortedBy(xs, key)
    ensures SortedBy(InsertBy(xs, x, key), key)
    ensures |xs| > 0 ==> key(InsertBy(xs, x, key)[0]) == (if key(x) < key(xs[0]) then key(x) else key(xs[0]))
    decreases |xs|
  {
    if |xs| > 0 && key(x) >= key(xs[0]) {
      var rest := InsertBy(xs[1..], x, key);
      InsertBySorted(xs[1..], x, key);
      InsertByPermutes(xs[1..], x, key);
      forall i | 0 <= i < |rest|
        ensures key(xs[0]) <= key(rest[i])
      {
        assert rest[i] in multiset(rest);
        assert rest[i] in multiset(xs[1..]) || rest[i] == x;
        if rest[i] != x {
          var k :| 0 <= k < |xs[1..]| && xs[1..][k] == rest[i];
          assert xs[1..][k] == xs[k + 1];
        }
      }
    }
  }

  /** The sort orders by key and permutes its input. */
  lemma {:induction false} SortBySortsAndPermutes<T>(xs: seq<T>, key: T -> real)
    ensures SortedBy(SortBy(xs, key), key)
    ensures multiset(SortBy(xs, key)) == multiset(xs)
    decreases |xs|
  {
    if |xs| > 0 {
      var init := xs[..|xs| - 1];
      SortBySortsAndPermutes(init, key);
      InsertBySorted(SortBy(init, key), xs[|xs| - 1], key);
      InsertByPermutes(SortBy(init, key), xs[|xs| - 1], key);
      assert xs == init + [xs[|xs| - 1]];
    }
  }

  /** The elements of `xs` with key `k`, in order. */
  function WithKey<T>(xs: seq<T>, key: T -> real, k: real): (r: seq<T>)
    ensures |r| <= |xs|
    decreases |xs|
  {
    if |xs| == 0 then []
    else (if key(xs[0]) == k then [xs[0]] else []) + WithKey(xs[1..], key, k)
  }

  lemma {:induction false} WithKeyAppend<T>(xs: seq<T>, ys: seq<T>, key: T -> real, k: real)
    ensures WithKey(xs + ys, key, k) == WithKey(xs, key, k) + WithKey(ys, key, k)
    decreases |xs|
  {
    if |xs| > 0 {
      assert (xs + ys)[0] == xs[0];
      assert (xs + ys)[1..] == xs[1..] + ys;
      WithKeyAppend(xs[1..], ys, key, k);
      var head := if key(xs[0]) == k then [xs[0]] else [];
      assert WithKey(xs + ys, key, k) == head + WithKey(xs[1..] + ys, key, k);
      assert WithKey(xs, key, k) == head + WithKey(xs[1..], key, k);
    } else {
      assert xs + ys == ys;
    }
  }

  lemma {:induction false} InsertByStable<T>(xs: seq<T>, x: T, key: T -> real, k: real)
    requires SortedBy(xs, key)
    ensures WithKey(InsertBy(xs, x, key), key, k) == WithKey(xs, key, k) + WithKey([x], key, k)
    decreases |xs|
  {
    if |xs| == 0 {
    } else if key(x) < key(xs[0]) {
      WithKeyAppend([x], xs, key, k);
      if key(x) == k {
        WithKeyAbsent(xs, key, k);
      }
    } else {
      InsertByStable(xs[1..], x, key, k);
      WithKeyAppend([xs[0]], InsertBy(xs[1..], x, key), key, k);
      WithKeyAppend([xs[0]], xs[1..], key, k);
      assert [xs[0]] + InsertBy(xs[1..], x, key) == InsertBy(xs, x, key);
      assert [xs[0]] + xs[1..] == xs;
    }
  }

  /** A sorted sequence whose first key is above `k` has no element with key `k`. */
  lemma {:induction false} WithKeyAbsent<T>(xs: seq<T>, key: T -> real, k: real)
    requires SortedBy(xs, key) && (|xs| == 0 || key(xs[0]) > k)
    ensures WithKey(xs, key, k) == []
    decreases |xs|
  {
    if |xs| > 1 {
      WithKeyAbsent(xs[1..], key, k);
    }
  }

  /** Stability: among elements of equal key the sort keeps the input order. */
  lemma {:induction false} SortByStable<T>(xs: seq<T>, key: T -> real, k: real)
    ensures WithKey(SortBy(xs, key), key, k) == WithKey(xs, key, k)
    decreases |xs|
  {
    if |xs| > 0 {
      var init := xs[..|xs| - 1];
      SortByStable(init, key, k);
      SortBySortsAndPermutes(init, key);
      InsertByStable(SortBy(init, key), xs[|xs| - 1], key, k);
      assert xs == init + [xs[|xs| - 1]];
      WithKeyAppend(init, [xs[|xs| - 1]], key, k);
    }
  }

  /** `xs[:n]` in Python: the first `n` elements, or all but the last `-n` when `n` is negative. */
  function Head<T>(xs: seq<T>, n: int): (r: seq<T>)
    ensures 0 <= n <= |xs| ==> r == xs[..n]
    ensures n > |xs| ==> r == xs
    ensures n < 0 ==> r == xs[..if |xs| + n > 0 then |xs| + n else 0]
  {
    if n >= 0 then xs[..if n < |xs| then n else |xs|]
    else xs[..if |xs| + n > 0 then |xs| + n else 0]
  }

  /** A pandas `tail(n)`: the last `n` rows, none for 0, or all but the first `-n` when `n` is negative. */
  function Tail<T>(xs: seq<T>, n: int): (r: seq<T>)
    ensures 0 <= n <= |xs| ==> r == xs[|xs| - n..]
    ensures n > |xs| ==> r == xs
    ensures n < 0 ==> r == xs[if -n < |xs| then -n else |xs|..]
  {
    if n == 0 then []
    else if n > 0 then xs[|xs| - (if n < |xs| then n else |xs|)..]
    else xs[if -n < |xs| then -n else |xs|..]
  }

  /** Cutting off a tail with a negative `head` leaves exactly the rows that `tail` returns. */
  lemma HeadTailSplit<T>(xs: seq<T>, m: int)
    requires 0 < m <= |xs|
    ensures Head(xs, -m) + Tail(xs, m) == xs
    ensures Head(xs, m) + Tail(xs, -m) == xs
  {
    assert xs[..|xs| - m] + xs[|xs| - m..] == xs;
    assert xs[..m] + xs[m..] == xs;
  }

  /** A prefix of a sorted sequence is sorted, and no key after it is below a key in it. */
  lemma PrefixOfSorted<T>(all: seq<T>, key: T -> real, k: nat)
    requires SortedBy(all, key) && k <= |all|
    ensures SortedBy(all[..k], key)
    ensures forall i, j :: 0 <= i < k <= j < |all| ==> key(all[..k][i]) <= key(all[j])
    ensures multiset(all[..k]) <= multiset(all)
  {
    assert all == all[..k] + all[k..];
  }

  /**
   * The first `n` of a sorted sequence are its `n` smallest keys: sorted,
   * drawn from the input, and no key left out is below a key kept.
   */
  lemma SmallestFirst<T>(xs: seq<T>, key: T -> real, n: nat)
    ensures var all := SortBy(xs, key);
      var r := Head(all, n);
      |r| == (if n < |xs| then n else |xs|)
      && r == all[..|r|]
      && SortedBy(r, key)
      && multiset(r) <= multiset(xs)
      && forall i, j :: 0 <= i < |r| <= j < |all| ==> key(r[i]) <= key(all[j])
  {
    var all := SortBy(xs, key);
    SortBySortsAndPermutes(xs, key);
    var k := if n < |xs| then n else |xs|;
    assert Head(all, n) == all[..k];
    PrefixOfSorted(all, key, k);
  }

  /** Ordered by a text key in Python's string order (ties in any order). */
  predicate SortedByName<T>(xs: seq<T>, key: T -> string)
  {
    forall i, j :: 0 <= i < j < |xs| ==> !Text.Less(key(xs[j]), key(xs[i]))
  }

  function InsertByName<T>(xs: seq<T>, x: T, key: T -> string): (r: seq<T>)
    ensures |r| == |xs| + 1
    decreases |xs|
  {
    if |xs| == 0 || Text.Less(key(x), key(xs[0])) then [x] + xs
    else [xs[0]] + InsertByName(xs[1..], x, key)
  }

  /** `sorted(xs, key=...)` over a text key. */
  function SortByName<T>(xs: seq<T>, key: T -> string): (r: seq<T>)
    ensures |r| == |xs|
    decreases |xs|
  {
    if |xs| == 0 then [] else InsertByName(SortByName(xs[..|xs| - 1], key), xs[|xs| - 1], key)
  }

  lemma {:induction false} InsertByNamePermutes<T>(xs: seq<T>, x: T, key: T -> string)
    ensures multiset(InsertByName(xs, x, key)) == multiset(xs) + multiset{x}
    decreases |xs|
  {
    if |xs| > 0 && !Text.Less(key(x), key(xs[0])) {
      InsertByNamePermutes(xs[1..], x, key);
      assert xs == [xs[0]] + xs[1..];
    }
  }

  lemma {:induction false} InsertByNameSorted<T>(xs: seq<T>, x: T, key: T -> string)
    requires SortedByName(xs, key)
    ensures SortedByName(InsertByName(xs, x, key), key)
    decreases |xs|
  {
    if |xs| == 0 {
    } else if Text.Less(key(x), key(xs[0])) {
      var r := [x] + xs;
      forall i, j | 0 <= i < j < |r|
        ensures !Text.Less(key(r[j]), key(r[i]))
      {
        if i == 0 {
          if Text.Less(key(r[j]), key(x)) {
            if j - 1 > 0 {
              assert !Text.Less(key(xs[j - 1]), key(xs[0]));
            }
            Text.LessTransitive(key(r[j]), key(x), key(xs[0]));
            Text.LessIrreflexive(key(xs[0]));
          }
        }
      }
    } else {
      var rest := InsertByName(xs[1..], x, key);
      InsertByNameSorted(xs[1..], x, key);
      InsertByNamePermutes(xs[1..], x, key);
      forall i | 0 <= i < |rest|
        ensures !Text.Less(key(rest[i]), key(xs[0]))
      {
        assert rest[i] in multiset(rest);
        assert rest[i] in multiset(xs[1..]) || rest[i] == x;
        if rest[i] != x {
          var k :| 0 <= k < |xs[1..]| && xs[1..][k] == rest[i];
          assert xs[1..][k] == xs[k + 1];
        }
      }
    }
  }

  /** The sort orders by the text key and permutes its input. */
  lemma {:induction false} SortByNameSortsAndPermutes<T>(xs: seq<T>, key: T -> string)
    ensures SortedByName(SortByName(xs, key), key)
    ensures multiset(SortByName(xs, key)) == multiset(xs)
    decreases |xs|
  {
    if |xs| > 0 {
      var init := xs[..|xs| - 1];
      SortByNameSortsAndPermutes(init, key);
      InsertByNameSorted(SortByName(init, key), xs[|xs| - 1], key);
      InsertByNamePermutes(SortByName(init, key), xs[|xs| - 1], key);
      assert xs == init + [xs[|xs| - 1]];
    }
  }
}

=== FILE: strategy.dfy ===
/**
 * The SMA-crossover signal of core/strategy.py over precomputed indicator
 * values. A NaN indicator is `None`. The default strategy id lives in a
 * constants module outside this model and is passed in.
 */
module Strategy {
  import opened Wrappers
  import PositionSizing
  import Text

  datatype Action = Long | Short | Flat

  function ActionName(a: Action): string
  {
    match a
    case Long => "long"
    case Short => "short"
    case Flat => "flat"
  }

  datatype TradeDecision = TradeDecision(
    action: Action,
    stopDistancePips: Option<real>,
    takeProfitDistancePips: Option<real>,
    reason: string,
    variant: string,
    signalReason: string,
    strategyId: string)

  /** One bar's indicator columns; `None` is NaN. */
  datatype Bar = Bar(close: Option<real>, smaFast: Option<real>, smaSlow: Option<real>, atr: Option<real>)

  predicate HasIndicators(b: Bar)
  {
    b.smaFast.Some? && b.smaSlow.Some? && b.atr.Some?
  }

  predicate CrossUp(cur: Bar, prev: Bar): (up: bool)
    requires HasIndicators(cur) && HasIndicators(prev)
    ensures up ==> !CrossDown(cur, prev)
    ensures up ==> cur.smaFast.value - cur.smaSlow.value > prev.smaFast.value - prev.smaSlow.value
  {
    prev.smaFast.value <= prev.smaSlow.value && cur.smaFast.value > cur.smaSlow.value
  }

  predicate CrossDown(cur: Bar, prev: Bar): (down: bool)
    requires HasIndicators(cur) && HasIndicators(prev)
    ensures down ==> cur.smaFast.value - cur.smaSlow.value < prev.smaFast.value - prev.smaSlow.value
  {
    prev.smaFast.value >= prev.smaSlow.value && cur.smaFast.value < cur.smaSlow.value
  }

  const MomentumBand: real := 0.001

  /**
   * Trend continuation: fast above slow on both bars with the close no more
   * than the band below slow gives long; the mirror gives short. A NaN SMA or
   * close gives nothing (a NaN close fails every comparison).
   */
  function MomentumSignal(cur: Bar, prev: Bar): (r: Option<Action>)
    ensures r != Some(Flat)
    ensures r == Some(Long) <==>
      && cur.smaFast.Some? && cur.smaSlow.Some? && prev.smaFast.Some? && prev.smaSlow.Some? && cur.close.Some?
      && cur.smaFast.value > cur.smaSlow.value && prev.smaFast.value > prev.smaSlow.value
      && cur.close.value >= cur.smaSlow.value * (1.0 - MomentumBand)
    ensures r == Some(Short) <==>
      && cur.smaFast.Some? && cur.smaSlow.Some? && prev.smaFast.Some? && prev.smaSlow.Some? && cur.close.Some?
      && cur.smaFast.value < cur.smaSlow.value && prev.smaFast.value < prev.smaSlow.value
      && cur.close.value <= cur.smaSlow.value * (1.0 + MomentumBand)
  {
    if cur.smaFast.None? || cur.smaSlow.None? || prev.smaFast.None? || prev.smaSlow.None? then None
    else
      var fn, sn, fp, sp := cur.smaFast.value, cur.smaSlow.value, prev.smaFast.value, prev.smaSlow.value;
      if fn > sn && fp > sp && cur.close.Some? && cur.close.value >= sn * (1.0 - MomentumBand) then Some(Long)
      else if fn < sn && fp < sp && cur.close.Some? && cur.close.value <= sn * (1.0 + MomentumBand) then Some(Short)
      else None
  }

  /** ATR expressed in pips of the symbol's metadata. */
  function AtrPips(cur: Bar, symbol: string): real
    requires cur.atr.Some?
  {
    cur.atr.value / PositionSizing.GetSymbolMeta(symbol).pipSize
  }

  function GenerateSignal(cur: Bar, prev: Bar, symbol: string, defaultId: string): (d: TradeDecision)
    ensures !(HasIndicators(cur) && HasIndicators(prev)) ==>
      d == TradeDecision(Flat, None, None, "Insufficient data", "v1_cross", "insufficient_data", defaultId)
    ensures HasIndicators(cur) && HasIndicators(prev) && CrossUp(cur, prev) ==>
      d.action == Long && d.variant == "v1_cross" && d.reason == "SMA bullish crossover"
    ensures HasIndicators(cur) && HasIndicators(prev) && !CrossUp(cur, prev) && CrossDown(cur, prev) ==>
      d.action == Short && d.variant == "v1_cross" && d.reason == "SMA bearish crossover"
    ensures HasIndicators(cur) && HasIndicators(prev) && !CrossUp(cur, prev) && !CrossDown(cur, prev) ==>
      (d.action != Flat <==> MomentumSignal(cur, prev).Some?)
      && (d.action != Flat ==> Some(d.action) == MomentumSignal(cur, prev) && d.variant == "v2_momentum")
    ensures d.action != Flat <==> d.stopDistancePips.Some?
    ensures d.stopDistancePips.Some? <==> d.takeProfitDistancePips.Some?
    ensures d.action != Flat ==>
      && d.stopDistancePips.value == 1.5 * AtrPips(cur, symbol)
      && d.takeProfitDistancePips.value == 2.0 * d.stopDistancePips.value
    ensures d.action == Flat && HasIndicators(cur) && HasIndicators(prev) ==> d.reason == "No signal"
    ensures d.strategyId == defaultId
  {
    if !(HasIndicators(cur) && HasIndicators(prev)) then
      TradeDecision(Flat, None, None, "Insufficient data", "v1_cross", "insufficient_data", defaultId)
    else
      var atrPips := AtrPips(cur, symbol);
      var stop := 1.5 * atrPips;
      var tp := 3.0 * atrPips;
      if CrossUp(cur, prev) then
        TradeDecision(Long, Some(stop), Some(tp), "SMA bullish crossover", "v1_cross", "breakout_pullback", defaultId)
      else if CrossDown(cur, prev) then
        TradeDecision(Short, Some(stop), Some(tp), "SMA bearish crossover", "v1_cross", "breakout_pullback", defaultId)
      else
        match MomentumSignal(cur, prev)
        case Some(a) =>
          TradeDecision(a, Some(stop), Some(tp), "SMA momentum continuation", "v2_momentum", "trend_continuation", defaultId)
        case None =>
          TradeDecision(Flat, None, None, "No signal", "v1_cross", "no_signal", defaultId)
  }

  /** A long decision comes from a bullish cross or from long momentum, and conversely. */
  lemma LongExactly(cur: Bar, prev: Bar, symbol: string, id: string)
    requires HasIndicators(cur) && HasIndicators(prev)
    ensures GenerateSignal(cur, prev, symbol, id).action == Long <==>
      CrossUp(cur, prev) || (!CrossDown(cur, prev) && MomentumSignal(cur, prev) == Some(Long))
  {
  }

  /** The bullish-crossover case with a 0.0006 ATR gives a 9-pip stop on EURUSD. */
  lemma BullishCrossExample(id: string)
    ensures var d := GenerateSignal(Bar(None, Some(1.25), Some(1.23), Some(0.0006)), Bar(None, Some(1.20), Some(1.21), Some(0.0005)), "EURUSD", id);
      d.action == Long && d.stopDistancePips == Some(9.0)
  {
    assert PositionSizing.GetSymbolMeta("EURUSD").pipSize == 0.0001 by {
      assert Text.Upper("EURUSD") == "EURUSD";
    }
  }
}

=== FILE: strategy_registry.dfy ===
/**
 * The strategy registry (core/strategy_registry.py): strategy specs kept
 * under lowercased tags. The registry is a value here; `Register` returns
 * the new registry with the spec. A strategy class is represented by its
 * name.
 */
module StrategyRegistry {
  import opened Wrappers
  import Text
  import Dicts

  datatype StrategySpec = StrategySpec(tag: string, namespace: string, cls: string, description: string)

  /** Lowercased tag to spec, in registration order. */
  type Registry = seq<(string, StrategySpec)>

  /** Each tag once, and each spec filed under its own tag. */
  predicate WellFormed(reg: Registry)
  {
    Dicts.DistinctKeys(reg) && forall i :: 0 <= i < |reg| ==> reg[i].1.tag == reg[i].0
  }

  /** `register`: store the spec under the lowercased tag, replacing any earlier one. */
  function Register(reg: Registry, tag: string, namespace: string, cls: string, description: string)
    : (r: (StrategySpec, Registry))
    ensures r.0 == StrategySpec(Text.Lower(tag), namespace, cls, description)
    ensures Dicts.Get(r.1, Text.Lower(tag)) == Some(r.0)
    ensures forall k :: k != Text.Lower(tag) ==> Dicts.Get(r.1, k) == Dicts.Get(reg, k)
    ensures WellFormed(reg) ==> WellFormed(r.1)
  {
    var key := Text.Lower(tag);
    var spec := StrategySpec(key, namespace, cls, description);
    var next := Dicts.Put(reg, key, spec);
    assert WellFormed(reg) ==> WellFormed(next) by {
      if WellFormed(reg) {
        PutKeepsWellFormed(reg, key, spec);
      }
    }
    (spec, next)
  }

  /** Filing a spec under its own tag keeps the registry well formed. */
  lemma PutKeepsWellFormed(reg: Registry, key: string, spec: StrategySpec)
    requires WellFormed(reg) && spec.tag == key
    ensures WellFormed(Dicts.Put(reg, key, spec))
  {
    var next := Dicts.Put(reg, key, spec);
    forall i | 0 <= i < |next|
      ensures next[i].1.tag == next[i].0
    {
      RegisteredUnderOwnKey(next, i);
      if next[i].0 != key {
        RegisteredSpec(reg, next[i].0);
      }
    }
  }

  /** In a registry with distinct tags, the pair at `i` is what a lookup of its tag finds. */
  lemma RegisteredUnderOwnKey(reg: Registry, i: nat)
    requires Dicts.DistinctKeys(reg) && i < |reg|
    ensures Dicts.Get(reg, reg[i].0) == Some(reg[i].1)
  {
    var k := Dicts.LastIndex(reg, reg[i].0).value;
    assert k == i;
  }

  /** A well-formed registry finds, under any tag, a spec carrying that tag. */
  lemma RegisteredSpec(reg: Registry, key: string)
    requires WellFormed(reg)
    ensures Dicts.Get(reg, key).Some? ==> Dicts.Get(reg, key).value.tag == key
  {
  }

  /** `get`: the spec under the lowercased tag, or KeyError. */
  function GetSpec(reg: Registry, tag: string): (r: Result<StrategySpec>)
    ensures r.Ok? <==> Dicts.HasKey(reg, Text.Lower(tag))
    ensures r.Ok? ==> Dicts.Get(reg, Text.Lower(tag)) == Some(r.value)
    ensures r.Err? ==> r.error.KeyError?
  {
    match Dicts.Get(reg, Text.Lower(tag))
    case Some(spec) => Ok(spec)
    case None => Err(KeyError("Strategy '" + tag + "' is not registered."))
  }

  /** `get_strategy_class`: the class registered under the tag, or KeyError. */
  function ClassOf(reg: Registry, tag: string): (r: Result<string>)
    ensures r.Ok? <==> Dicts.HasKey(reg, Text.Lower(tag))
    ensures r.Ok? ==> r.value == Dicts.Get(reg, Text.Lower(tag)).value.cls
  {
    var spec :- GetSpec(reg, tag);
    Ok(spec.cls)
  }

  /** `list`: the registered specs in registration order. */
  function List(reg: Registry): (specs: seq<StrategySpec>)
    ensures |specs| == |reg|
    ensures forall i :: 0 <= i < |reg| ==> specs[i] == reg[i].1
  {
    seq(|reg|, i requires 0 <= i < |reg| => reg[i].1)
  }

  /** A lookup after registering finds the new spec, whatever the letter case of either tag. */
  lemma GetAfterRegister(reg: Registry, tag: string, lookup: string, namespace: string, cls: string, description: string)
    requires Text.Lower(lookup) == Text.Lower(tag)
    ensures var r := Register(reg, tag, namespace, cls, description);
            GetSpec(r.1, lookup) == Ok(r.0)
  {
  }

  /** Registering one tag leaves lookups of every other tag as they were. */
  lemma RegisterKeepsOthers(reg: Registry, tag: string, other: string, namespace: string, cls: string, description: string)
    requires Text.Lower(other) != Text.Lower(tag)
    ensures GetSpec(Register(reg, tag, namespace, cls, description).1, other).Ok? == GetSpec(reg, other).Ok?
    ensures GetSpec(reg, other).Ok? ==>
              GetSpec(Register(reg, tag, namespace, cls, description).1, other) == GetSpec(reg, other)
  {
  }

  /** Lookups ignore letter case. */
  lemma GetIgnoresCase(reg: Registry, tag: string)
    ensures GetSpec(reg, tag).Ok? == GetSpec(reg, Text.Lower(tag)).Ok?
    ensures GetSpec(reg, tag).Ok? ==> GetSpec(reg, tag) == GetSpec(reg, Text.Lower(tag))
  {
    Text.LowerIdempotent(tag);
  }

  /** A well-formed registry lists one spec per tag, each under its lowercased tag. */
  lemma ListOnePerTag(reg: Registry)
    requires WellFormed(reg)
    ensures var specs := List(reg);
            forall i, j :: 0 <= i < j < |specs| ==> specs[i].tag != specs[j].tag
  {
  }
}

=== FILE: text.dfy ===
/** ASCII string helpers standing in for Python's `str.upper`, `str.lower` and `str.strip`. */
module Text {
  import opened Wrappers

  predicate IsLowerLetter(c: char) { 'a' <= c <= 'z' }
  predicate IsUpperLetter(c: char) { 'A' <= c <= 'Z' }
  predicate IsSpace(c: char) { c == ' ' || c == '\t' || c == '\n' || c == '\r' }

  function UpperChar(c: char): (r: char)
    ensures !IsLowerLetter(r)
    ensures !IsLowerLetter(c) ==> r == c
  {
    if IsLowerLetter(c) then (c as int - 32) as char else c
  }

  function LowerChar(c: char): (r: char)
    ensures !IsUpperLetter(r)
    ensures !IsUpperLetter(c) ==> r == c
  {
    if IsUpperLetter(c) then (c as int + 32) as char else c
  }

  function Upper(s: string): (r: string)
    ensures |r| == |s|
    ensures forall i :: 0 <= i < |s| ==> r[i] == UpperChar(s[i])
  {
    seq(|s|, i requires 0 <= i < |s| => UpperChar(s[i]))
  }

  function Lower(s: string): (r: string)
    ensures |r| == |s|
    ensures forall i :: 0 <= i < |s| ==> r[i] == LowerChar(s[i])
  {
    seq(|s|, i requires 0 <= i < |s| => LowerChar(s[i]))
  }

  lemma UpperIdempotent(s: string)
    ensures Upper(Upper(s)) == Upper(s)
  {
  }

  lemma LowerIdempotent(s: string)
    ensures Lower(Lower(s)) == Lower(s)
  {
  }

  /** Case-insensitive equality in Python's `a.upper() == b.upper()` sense. */
  predicate SameUpper(a: string, b: string) { Upper(a) == Upper(b) }

  function StripLeft(s: string): (r: string)
    ensures |r| <= |s| && r == s[|s| - |r|..]
    ensures |r| > 0 ==> !IsSpace(r[0])
    ensures forall i :: 0 <= i < |s| - |r| ==> IsSpace(s[i])
  {
    if |s| > 0 && IsSpace(s[0]) then StripLeft(s[1..]) else s
  }

  function StripRight(s: string): (r: string)
    ensures |r| <= |s| && r == s[..|r|]
    ensures |r| > 0 ==> !IsSpace(r[|r| - 1])
    ensures forall i :: |r| <= i < |s| ==> IsSpace(s[i])
  {
    if |s| > 0 && IsSpace(s[|s| - 1]) then StripRight(s[..|s| - 1]) else s
  }

  /** Python's `str.strip()` over the ASCII whitespace characters. */
  function Strip(s: string): (r: string)
    ensures |r| <= |s|
    ensures |r| > 0 ==> !IsSpace(r[0]) && !IsSpace(r[|r| - 1])
  {
    StripRight(StripLeft(s))
  }

  /** Text without whitespace at either end is left as it is. */
  lemma StripUnpadded(s: string)
    requires |s| > 0 ==> !IsSpace(s[0]) && !IsSpace(s[|s| - 1])
    ensures Strip(s) == s
  {
    assert StripLeft(s) == s;
  }

  predicate StartsWith(s: string, prefix: string) { |prefix| <= |s| && s[..|prefix|] == prefix }

  /** Index of the first occurrence of `c`, if any (Python's `str.find` / `partition`). */
  function FindChar(s: string, c: char): (r: Position)
    ensures r.At? ==> 0 <= r.index < |s| && s[r.index] == c && forall j :: 0 <= j < r.index ==> s[j] != c
    ensures r.NotFound? ==> forall j :: 0 <= j < |s| ==> s[j] != c
  {
    if |s| == 0 then NotFound
    else if s[0] == c then At(0)
    else
      match FindChar(s[1..], c)
      case NotFound => NotFound
      case At(k) => At(k + 1)
  }

  datatype Position = NotFound | At(index: nat)

  /** Python's `str.replace(old, new)` for single characters. */
  function ReplaceChar(s: string, a: char, b: char): (r: string)
    ensures |r| == |s|
    ensures forall i :: 0 <= i < |s| ==> r[i] == (if s[i] == a then b else s[i])
  {
    seq(|s|, i requires 0 <= i < |s| => if s[i] == a then b else s[i])
  }

  /** Python's `str.replace(c, "")`: every occurrence of `c` removed. */
  function RemoveChar(s: string, c: char): (r: string)
    ensures |r| <= |s|
    ensures forall i :: 0 <= i < |r| ==> r[i] != c
    ensures forall x :: x in r ==> x in s
    ensures c !in s ==> r == s
  {
    if |s| == 0 then ""
    else if s[0] == c then RemoveChar(s[1..], c)
    else [s[0]] + RemoveChar(s[1..], c)
  }

  /** Decimal rendering of a natural number. */
  function NatToString(n: nat): (r: string)
    ensures |r| > 0
    ensures forall i :: 0 <= i < |r| ==> '0' <= r[i] <= '9'
    decreases n
  {
    if n < 10 then [('0' as int + n) as char]
    else NatToString(n / 10) + [('0' as int + n % 10) as char]
  }

  /** Decimal rendering of an integer, with a leading '-' when negative. */
  function IntToString(i: int): (r: string)
    ensures i >= 0 ==> r == NatToString(i)
    ensures i < 0 ==> r == "-" + NatToString(-i)
  {
    if i >= 0 then NatToString(i) else "-" + NatToString(-i)
  }

  predicate IsDigit(c: char) { '0' <= c <= '9' }

  predicate AllDigits(s: string)
  {
    forall i :: 0 <= i < |s| ==> IsDigit(s[i])
  }

  /** The number a string of decimal digits denotes (leading zeros allowed). */
  function DigitsValue(s: string): nat
    requires AllDigits(s)
  {
    if |s| == 0 then 0 else DigitsValue(s[..|s| - 1]) * 10 + (s[|s| - 1] as int - '0' as int)
  }

  /** Reading back a rendered number gives the number. */
  lemma {:induction false} NatToStringValue(n: nat)
    ensures DigitsValue(NatToString(n)) == n
    decreases n
  {
    if n >= 10 {
      NatToStringValue(n / 10);
      var s := NatToString(n);
      assert s[..|s| - 1] == NatToString(n / 10);
    }
  }

  lemma {:induction false} LeadingZeroValue(s: string)
    requires AllDigits(s)
    ensures AllDigits("0" + s) && DigitsValue("0" + s) == DigitsValue(s)
    decreases |s|
  {
    if |s| > 0 {
      LeadingZeroValue(s[..|s| - 1]);
      assert ("0" + s)[..|s|] == "0" + s[..|s| - 1];
    }
  }

  /** `str(n).zfill(width)` / `%0<width>d`: digits padded with leading zeros. */
  function ZeroPad(n: nat, width: nat): (r: string)
    ensures AllDigits(r) && DigitsValue(r) == n
    ensures |r| >= width && |r| >= 1
    ensures |NatToString(n)| <= width ==> |r| == width
    decreases width
  {
    var digits := NatToString(n);
    if |digits| >= width then
      NatToStringValue(n);
      digits
    else
      var rest := ZeroPad(n, width - 1);
      LeadingZeroValue(rest);
      "0" + rest
  }

  /** Short numbers render in few digits. */
  lemma {:induction false} NatToStringShort(n: nat)
    ensures n < 10 ==> |NatToString(n)| == 1
    ensures n < 100 ==> |NatToString(n)| <= 2
    ensures n < 1000 ==> |NatToString(n)| <= 3
    ensures n < 10000 ==> |NatToString(n)| <= 4
    decreases n
  {
    if n >= 10 {
      NatToStringShort(n / 10);
    }
  }

  /** Python's `int(s)` on a string: surrounding whitespace, an optional sign, then decimal digits. */
  function ParseInt(s: string): (r: Option<int>)
    ensures r.Some? ==> |Strip(s)| > 0
  {
    var t := Strip(s);
    if |t| > 1 && (t[0] == '-' || t[0] == '+') && AllDigits(t[1..]) then
      Some(if t[0] == '-' then -(DigitsValue(t[1..]) as int) else DigitsValue(t[1..]))
    else if |t| > 0 && AllDigits(t) then Some(DigitsValue(t))
    else None
  }

  /** A string with no whitespace at either end is its own strip. */
  lemma StripUnspaced(s: string)
    requires |s| > 0 && !IsSpace(s[0]) && !IsSpace(s[|s| - 1])
    ensures Strip(s) == s
  {
    assert StripLeft(s) == s;
    assert StripRight(s) == s;
  }

  /** Stripping only removes characters: one absent before is absent after. */
  lemma StripKeepsAbsent(s: string, c: char)
    requires forall j :: 0 <= j < |s| ==> s[j] != c
    ensures forall j :: 0 <= j < |Strip(s)| ==> Strip(s)[j] != c
  {
    var l := StripLeft(s);
    assert forall j :: 0 <= j < |l| ==> l[j] == s[|s| - |l| + j];
  }

  lemma ParseNatRoundTrip(n: nat)
    ensures ParseInt(NatToString(n)) == Some(n)
  {
    var s := NatToString(n);
    NatToStringValue(n);
    StripUnspaced(s);
    assert !(s[0] == '-' || s[0] == '+');
  }

  lemma ParseNegativeRoundTrip(n: nat)
    requires n > 0
    ensures ParseInt("-" + NatToString(n)) == Some(-(n as int))
  {
    var digits := NatToString(n);
    var s := "-" + digits;
    NatToStringValue(n);
    StripUnspaced(s);
    assert s[1..] == digits;
  }

  /** Parsing a rendered integer gives the integer back. */
  lemma ParseIntRoundTrip(i: int)
    ensures ParseInt(IntToString(i)) == Some(i)
  {
    if i >= 0 {
      ParseNatRoundTrip(i);
    } else {
      ParseNegativeRoundTrip(-i);
    }
  }

  /** A string with no digit at all never parses. */
  lemma ParseIntNeedsDigit(s: string)
    requires forall k :: 0 <= k < |s| ==> !IsDigit(s[k])
    ensures ParseInt(s) == None
  {
    var t := Strip(s);
    assert t == StripRight(StripLeft(s));
    assert forall k :: 0 <= k < |t| ==> !IsDigit(t[k]) by {
      forall k | 0 <= k < |t|
        ensures !IsDigit(t[k])
      {
        var l := StripLeft(s);
        assert t[k] == l[k];
        assert l[k] == s[|s| - |l| + k];
      }
    }
    if |t| > 1 {
      assert !IsDigit(t[1..][0]);
    }
  }

  /** Python's string `<`: lexicographic by character code. */
  predicate Less(a: string, b: string)
    decreases |a|
  {
    |b| > 0 && (|a| == 0 || a[0] < b[0] || (a[0] == b[0] && Less(a[1..], b[1..])))
  }

  lemma {:induction false} LessIrreflexive(a: string)
    ensures !Less(a, a)
    decreases |a|
  {
    if |a| > 0 {
      LessIrreflexive(a[1..]);
    }
  }

  lemma {:induction false} LessTransitive(a: string, b: string, c: string)
    requires Less(a, b) && Less(b, c)
    ensures Less(a, c)
    decreases |a|
  {
    if |a| > 0 && a[0] == b[0] && b[0] == c[0] {
      LessTransitive(a[1..], b[1..], c[1..]);
    }
  }

  /** Distinct strings are ordered one way or the other. */
  lemma {:induction false} LessTotal(a: string, b: string)
    requires a != b
    ensures Less(a, b) || Less(b, a)
    decreases |a|
  {
    if |a| > 0 && |b| > 0 && a[0] == b[0] {
      assert a == [a[0]] + a[1..] && b == [b[0]] + b[1..];
      LessTotal(a[1..], b[1..]);
    }
  }
}

=== FILE: trade_analysis.dfy ===
/**
 * Per-bucket trade statistics: trades are grouped by their four tags
 * (session, trend, volatility, pattern; a missing tag is a key of its own),
 * each bucket is summarised in R multiples, and the buckets with enough
 * trades are ranked by expectancy.
 */
module TradeAnalysis {
  import opened Wrappers
  import opened Num
  import Drawdown
  import opened Sorting
  import Grouping
  import Text

  datatype Tags = Tags(session: Option<string>, trend: Option<string>, volatility: Option<string>, pattern: Option<string>)

  /** One row of the trades file: entry time (seconds), R multiple and tags. */
  datatype Trade = Trade(entryTime: int, rMultiple: real, tags: Tags)

  function RMultiples(trades: seq<Trade>): (rs: seq<real>)
    ensures |rs| == |trades|
    ensures forall i :: 0 <= i < |trades| ==> rs[i] == trades[i].rMultiple
  {
    seq(|trades|, i requires 0 <= i < |trades| => trades[i].rMultiple)
  }

  /**
   * Worst fall of the cumulative R curve from an earlier point to a later
   * one; 0 when there are no trades.
   */
  function MaxDrawdownR(values: seq<real>): (d: real)
    ensures d >= 0.0
    ensures |values| == 0 ==> d == 0.0
    ensures forall j, i :: 0 <= j <= i < |values| ==> Drawdown.CumSum(values)[j] - Drawdown.CumSum(values)[i] <= d
    ensures |values| > 0 ==> exists j, i :: 0 <= j <= i < |values| && Drawdown.CumSum(values)[j] - Drawdown.CumSum(values)[i] == d
  {
    Drawdown.MaxDrop(Drawdown.CumSum(values))
  }

  /** Every losing trade after the first is a drawdown of at least its own size. */
  lemma DrawdownCoversEachLoss(values: seq<real>, k: nat)
    requires 0 < k < |values|
    ensures -values[k] <= MaxDrawdownR(values)
  {
    var curve := Drawdown.CumSum(values);
    var pre := values[..k + 1];
    assert pre[..|pre| - 1] == values[..k];
    assert Sum(pre) == Sum(values[..k]) + values[k];
    assert curve[k - 1] - curve[k] == -values[k];
  }

  datatype Summary = Summary(nTrades: nat, winRate: real, avgRMultiple: real, expectancy: real, maxDrawdownR: real)

  function ByEntryTime(t: Trade): real
  {
    t.entryTime as real
  }

  /** Statistics of one bucket; the drawdown is taken over the trades in entry-time order. */
  function SummarizeGroup(group: seq<Trade>): (s: Summary)
    ensures s.nTrades == |group|
    ensures s.winRate == ShareAbove(RMultiples(group), 0.0)
    ensures s.avgRMultiple == s.expectancy == Mean(RMultiples(group))
    ensures s.maxDrawdownR == MaxDrawdownR(RMultiples(SortBy(group, ByEntryTime)))
  {
    var rs := RMultiples(group);
    var expectancy := Mean(rs);
    Summary(
      nTrades := |group|,
      winRate := ShareAbove(rs, 0.0),
      avgRMultiple := expectancy,
      expectancy := expectancy,
      maxDrawdownR := MaxDrawdownR(RMultiples(SortBy(group, ByEntryTime))))
  }

  /** A bucket with positive expectancy has at least one winning trade. */
  lemma PositiveExpectancyHasWinner(group: seq<Trade>)
    requires SummarizeGroup(group).expectancy > 0.0
    ensures SummarizeGroup(group).winRate > 0.0
  {
    var rs := RMultiples(group);
    assert SummarizeGroup(group).expectancy == Mean(rs);
    if CountAbove(rs, 0.0) == 0 {
      NonPositiveSum(rs);
      assert false by {
        if |rs| > 0 {
          MeanSign(rs);
        }
      }
    }
  }

  lemma {:induction false} NonPositiveSum(s: seq<real>)
    requires forall i :: 0 <= i < |s| ==> s[i] <= 0.0
    ensures Sum(s) <= 0.0
    decreases |s|
  {
    if |s| > 0 {
      NonPositiveSum(s[..|s| - 1]);
    }
  }

  function TagsOf(t: Trade): Tags
  {
    t.tags
  }

  /**
   * The order `groupby` lists its keys in: a present tag before a missing
   * one, present tags by Python's string `<`.
   */
  predicate OptLess(a: Option<string>, b: Option<string>)
  {
    a.Some? && (b.None? || Text.Less(a.value, b.value))
  }

  /** Lexicographic over session, trend, volatility and pattern. */
  predicate TagsLess(a: Tags, b: Tags)
  {
    || OptLess(a.session, b.session)
    || (a.session == b.session && OptLess(a.trend, b.trend))
    || (a.session == b.session && a.trend == b.trend && OptLess(a.volatility, b.volatility))
    || (a.session == b.session && a.trend == b.trend && a.volatility == b.volatility && OptLess(a.pattern, b.pattern))
  }

  predicate TagsAtMost(a: Tags, b: Tags)
  {
    a == b || TagsLess(a, b)
  }

  lemma OptLessTransitive(a: Option<string>, b: Option<string>, c: Option<string>)
    requires OptLess(a, b) && OptLess(b, c)
    ensures OptLess(a, c)
  {
    if c.Some? {
      Text.LessTransitive(a.value, b.value, c.value);
    }
  }

  lemma OptLessTotal(a: Option<string>, b: Option<string>)
    requires a != b
    ensures OptLess(a, b) || OptLess(b, a)
  {
    if a.Some? && b.Some? {
      Text.LessTotal(a.value, b.value);
    }
  }

  lemma OptLessIrreflexive(a: Option<string>)
    ensures !OptLess(a, a)
  {
    if a.Some? {
      Text.LessIrreflexive(a.value);
    }
  }

  lemma TagsLessTotal(a: Tags, b: Tags)
    ensures TagsAtMost(a, b) || TagsAtMost(b, a)
  {
    if a.session != b.session {
      OptLessTotal(a.session, b.session);
    } else if a.trend != b.trend {
      OptLessTotal(a.trend, b.trend);
    } else if a.volatility != b.volatility {
      OptLessTotal(a.volatility, b.volatility);
    } else if a.pattern != b.pattern {
      OptLessTotal(a.pattern, b.pattern);
    }
  }

  lemma TagsLessTransitive(a: Tags, b: Tags, c: Tags)
    requires TagsLess(a, b) && TagsLess(b, c)
    ensures TagsLess(a, c)
  {
    if OptLess(a.session, b.session) && OptLess(b.session, c.session) {
      OptLessTransitive(a.session, b.session, c.session);
    } else if a.session == b.session == c.session {
      if OptLess(a.trend, b.trend) && OptLess(b.trend, c.trend) {
        OptLessTransitive(a.trend, b.trend, c.trend);
      } else if a.trend == b.trend == c.trend {
        if OptLess(a.volatility, b.volatility) && OptLess(b.volatility, c.volatility) {
          OptLessTransitive(a.volatility, b.volatility, c.volatility);
        } else if a.volatility == b.volatility == c.volatility {
          OptLessTransitive(a.pattern, b.pattern, c.pattern);
        }
      }
    }
  }

  lemma TagsLessIrreflexive(a: Tags)
    ensures !TagsLess(a, a)
  {
    OptLessIrreflexive(a.session);
    OptLessIrreflexive(a.trend);
    OptLessIrreflexive(a.volatility);
    OptLessIrreflexive(a.pattern);
  }

  /** The tag order compares any two keys and chains. */
  lemma TagOrderTotal()
    ensures Grouping.TotalPreorder(TagsAtMost)
  {
    forall a, b
      ensures TagsAtMost(a, b) || TagsAtMost(b, a)
    {
      TagsLessTotal(a, b);
    }
    forall a, b, c | TagsAtMost(a, b) && TagsAtMost(b, c)
      ensures TagsAtMost(a, c)
    {
      if a != b && b != c {
        TagsLessTransitive(a, b, c);
      }
    }
  }

  /**
   * `groupby(..., dropna=False)` over the four tags: one bucket per distinct
   * tag combination, listed in strictly increasing tag order.
   */
  function Buckets(trades: seq<Trade>): (buckets: seq<Grouping.Group<Tags, Trade>>)
    ensures Grouping.DistinctKeys(buckets)
    ensures forall i, j :: 0 <= i < j < |buckets| ==> TagsLess(buckets[i].key, buckets[j].key)
    ensures forall i :: 0 <= i < |buckets| ==> buckets[i].members == Grouping.Members(trades, TagsOf, buckets[i].key)
    ensures forall k :: 0 <= k < |trades| ==> exists i :: 0 <= i < |buckets| && buckets[i].key == trades[k].tags
    ensures Grouping.Size(buckets) == |trades|
  {
    Grouping.GroupByPartitions(trades, TagsOf);
    Grouping.GroupBySize(trades, TagsOf);
    var found := Grouping.GroupBy(trades, TagsOf);
    TagOrderTotal();
    Grouping.SortGroupsSorted(found, TagsAtMost);
    Grouping.SortGroupsDistinct(found, TagsAtMost);
    var buckets := Grouping.SortGroups(found, TagsAtMost);
    SortedBucketsIncrease(buckets);
    BucketsOfFound(trades, found, buckets);
    buckets
  }

  /** Sorted distinct keys increase strictly. */
  lemma SortedBucketsIncrease(buckets: seq<Grouping.Group<Tags, Trade>>)
    requires Grouping.DistinctKeys(buckets) && Grouping.SortedKeys(buckets, TagsAtMost)
    ensures forall i, j :: 0 <= i < j < |buckets| ==> TagsLess(buckets[i].key, buckets[j].key)
  {
    forall i, j | 0 <= i < j < |buckets|
      ensures TagsLess(buckets[i].key, buckets[j].key)
    {
      assert TagsAtMost(buckets[i].key, buckets[j].key);
    }
  }

  /** Reordering the groups keeps what each holds and which tags have one. */
  lemma BucketsOfFound(trades: seq<Trade>, found: seq<Grouping.Group<Tags, Trade>>, buckets: seq<Grouping.Group<Tags, Trade>>)
    requires multiset(buckets) == multiset(found)
    requires forall i :: 0 <= i < |found| ==> found[i].members == Grouping.Members(trades, TagsOf, found[i].key)
    requires forall k :: 0 <= k < |trades| ==> Grouping.IndexOf(found, TagsOf(trades[k])).Some?
    ensures forall i :: 0 <= i < |buckets| ==> buckets[i].members == Grouping.Members(trades, TagsOf, buckets[i].key)
    ensures forall k :: 0 <= k < |trades| ==> exists i :: 0 <= i < |buckets| && buckets[i].key == trades[k].tags
  {
    forall i | 0 <= i < |buckets|
      ensures buckets[i].members == Grouping.Members(trades, TagsOf, buckets[i].key)
    {
      assert buckets[i] in multiset(found);
      var j :| 0 <= j < |found| && found[j] == buckets[i];
    }
    forall k | 0 <= k < |trades|
      ensures exists i :: 0 <= i < |buckets| && buckets[i].key == trades[k].tags
    {
      var j := Grouping.IndexOf(found, TagsOf(trades[k])).value;
      assert found[j] in multiset(buckets);
      var i :| 0 <= i < |buckets| && buckets[i] == found[j];
    }
  }

  /** One line of the edge map: a bucket's tags and its statistics. */
  datatype Row = Row(tags: Tags, summary: Summary)

  function SummarizeBuckets(buckets: seq<Grouping.Group<Tags, Trade>>): (rows: seq<Row>)
    ensures |rows| == |buckets|
    ensures forall i :: 0 <= i < |buckets| ==>
      rows[i].tags == buckets[i].key && rows[i].summary == SummarizeGroup(buckets[i].members)
  {
    seq(|buckets|, i requires 0 <= i < |buckets| => Row(buckets[i].key, SummarizeGroup(buckets[i].members)))
  }

  /** The rows with at least `minTrades` trades, in table order. */
  function Eligible(rows: seq<Row>, minTrades: int): (r: seq<Row>)
    ensures forall i :: 0 <= i < |r| ==> r[i].summary.nTrades >= minTrades
    ensures forall x :: x in rows && x.summary.nTrades >= minTrades ==> x in r
    ensures multiset(r) <= multiset(rows)
    decreases |rows|
  {
    if |rows| == 0 then []
    else
      var last := rows[|rows| - 1];
      var init := rows[..|rows| - 1];
      assert rows == init + [last];
      Eligible(init, minTrades) + (if last.summary.nTrades >= minTrades then [last] else [])
  }

  function NegExpectancy(r: Row): real
  {
    -r.summary.expectancy
  }

  /** The eligible rows sorted by expectancy, highest first. */
  function Ranking(rows: seq<Row>, minTrades: int): (ranked: seq<Row>)
    ensures forall i, j :: 0 <= i < j < |ranked| ==> ranked[i].summary.expectancy >= ranked[j].summary.expectancy
    ensures multiset(ranked) == multiset(Eligible(rows, minTrades))
    ensures forall i :: 0 <= i < |ranked| ==> ranked[i].summary.nTrades >= minTrades
  {
    var eligible := Eligible(rows, minTrades);
    SortedByExpectancy(eligible, minTrades);
    SortBy(eligible, NegExpectancy)
  }

  /** Sorting on the negated expectancy orders highest first and keeps the rows' trade counts. */
  lemma SortedByExpectancy(eligible: seq<Row>, minTrades: int)
    requires forall i :: 0 <= i < |eligible| ==> eligible[i].summary.nTrades >= minTrades
    ensures var ranked := SortBy(eligible, NegExpectancy);
      && (forall i, j :: 0 <= i < j < |ranked| ==> ranked[i].summary.expectancy >= ranked[j].summary.expectancy)
      && multiset(ranked) == multiset(eligible)
      && (forall i :: 0 <= i < |ranked| ==> ranked[i].summary.nTrades >= minTrades)
  {
    SortBySortsAndPermutes(eligible, NegExpectancy);
    var ranked := SortBy(eligible, NegExpectancy);
    forall i, j | 0 <= i < j < |ranked|
      ensures ranked[i].summary.expectancy >= ranked[j].summary.expectancy
    {
      assert NegExpectancy(ranked[i]) <= NegExpectancy(ranked[j]);
    }
    forall i | 0 <= i < |ranked|
      ensures ranked[i].summary.nTrades >= minTrades
    {
      assert ranked[i] in multiset(eligible);
      var k :| 0 <= k < |eligible| && eligible[k] == ranked[i];
    }
  }

  /** The analysis output: every bucket row, and the top and bottom of the ranking when it is not empty. */
  datatype Analysis = Analysis(rows: seq<Row>, extremes: Option<(seq<Row>, seq<Row>)>)

  /**
   * The whole run over the rows of the trades file: an empty file or one
   * without R multiples stops the program; otherwise every bucket is
   * summarised and, when any bucket has enough trades, the first and last
   * `topK` of the ranking are selected.
   */
  function Analyze(trades: seq<Trade>, hasRMultiple: bool, minTrades: int, topK: int): (r: Result<Analysis>)
    ensures |trades| == 0 ==> r == Err(SystemExit("Trades file is empty; run the backtest first."))
    ensures |trades| > 0 && !hasRMultiple ==> r.Err? && r.error.SystemExit?
    ensures r.Ok? <==> |trades| > 0 && hasRMultiple
    ensures r.Ok? ==> r.value.rows == SummarizeBuckets(Buckets(trades))
    ensures r.Ok? ==> forall i, j :: 0 <= i < j < |r.value.rows| ==> TagsLess(r.value.rows[i].tags, r.value.rows[j].tags)
    ensures r.Ok? ==> (r.value.extremes.None? <==> |Ranking(r.value.rows, minTrades)| == 0)
    ensures r.Ok? && r.value.extremes.Some? ==>
      r.value.extremes.value.0 == Head(Ranking(r.value.rows, minTrades), topK)
      && r.value.extremes.value.1 == Tail(Ranking(r.value.rows, minTrades), topK)
  {
    if |trades| == 0 then Err(SystemExit("Trades file is empty; run the backtest first."))
    else if !hasRMultiple then Err(SystemExit("Trades file missing r_multiple column. Re-run backtest after Step 4.1."))
    else
      var rows := SummarizeBuckets(Buckets(trades));
      var ranked := Ranking(rows, minTrades);
      Ok(Analysis(rows, if |ranked| == 0 then None else Some((Head(ranked, topK), Tail(ranked, topK)))))
  }

  /** Each row counts exactly the trades carrying its tags, and the counts add up to all trades. */
  lemma RowsCountTrades(trades: seq<Trade>)
    ensures forall i :: 0 <= i < |SummarizeBuckets(Buckets(trades))| ==>
      SummarizeBuckets(Buckets(trades))[i].summary.nTrades
        == |Grouping.Members(trades, TagsOf, SummarizeBuckets(Buckets(trades))[i].tags)|
    ensures TotalTrades(SummarizeBuckets(Buckets(trades))) == |trades|
  {
    CountsAreSizes(Buckets(trades));
  }

  function TotalTrades(rows: seq<Row>): nat
    decreases |rows|
  {
    if |rows| == 0 then 0 else TotalTrades(rows[..|rows| - 1]) + rows[|rows| - 1].summary.nTrades
  }

  lemma {:induction false} CountsAreSizes(buckets: seq<Grouping.Group<Tags, Trade>>)
    ensures TotalTrades(SummarizeBuckets(buckets)) == Grouping.Size(buckets)
    decreases |buckets|
  {
    if |buckets| > 0 {
      var init := buckets[..|buckets| - 1];
      CountsAreSizes(init);
      assert SummarizeBuckets(buckets)[..|buckets| - 1] == SummarizeBuckets(init);
    }
  }
}

=== FILE: wrappers.dfy ===
/** Option and Result types used to model Python's `None` and its exceptions. */
module Wrappers {

  datatype Option<T> = None | Some(value: T)
  {
    predicate IsFailure() { None? }

    function GetOr(default: T): (r: T)
      ensures Some? ==> r == value
      ensures None? ==> r == default
    {
      match this
      case Some(v) => v
      case None => default
    }
  }

  /** The exception classes the modelled code raises. */
  datatype Error =
    | ValueError(msg: string)
    | RuntimeError(msg: string)
    | KeyError(key: string)
    | FileNotFoundError(path: string)
    | IndexError(msg: string)
    | AttributeError(name: string)
    | ZeroDivisionError(msg: string)
    | TypeError(msg: string)
    | SystemExit(msg: string)

  datatype Result<T> = Ok(value: T) | Err(error: Error)
  {
    predicate IsFailure() { Err? }

    function PropagateFailure<U>(): Result<U>
      requires Err?
    {
      Err(error)
    }

    function Extract(): T
      requires Ok?
    {
      value
    }
  }

  /** Applies `f` to every element in order; the first failure is the result. */
  function MapAll<T, U>(xs: seq<T>, f: T -> Result<U>): (r: Result<seq<U>>)
    ensures r.Ok? ==> |r.value| == |xs| && forall i :: 0 <= i < |xs| ==> f(xs[i]) == Ok(r.value[i])
    ensures r.Err? ==> exists i :: 0 <= i < |xs| && f(xs[i]) == Err(r.error)
  {
    if |xs| == 0 then Ok([])
    else
      match f(xs[0])
      case Err(e) => Err(e)
      case Ok(y) =>
        match MapAll(xs[1..], f)
        case Err(e) =>
          var i :| 0 <= i < |xs[1..]| && f(xs[1..][i]) == Err(e);
          assert xs[1..][i] == xs[i + 1];
          Err(e)
        case Ok(ys) =>
          assert forall i :: 1 <= i < |xs| ==> xs[i] == xs[1..][i - 1];
          Ok([y] + ys)
  }
}

=== FILE: yaml.dfy ===
/**
 * Parsed YAML documents, as `yaml.safe_load` hands them to the loaders of
 * risk profiles, account profiles and bot profiles, together with the
 * Python conversions (`str`, `int`, `float`, truthiness, `dict.get`) those
 * loaders apply to them.
 */
module Yaml {
  import opened Wrappers
  import opened Num
  import Text

  /**
   * A YAML node. Mapping keys are already rendered with `str()`; a float
   * carries the text Python's `str()` prints for it.
   */
  datatype Value =
    | Null
    | Bool(b: bool)
    | Int(i: int)
    | Float(x: real, shown: string)
    | Str(s: string)
    | List(items: seq<Value>)
    | Map(fields: seq<(string, Value)>)

  /** Python's `bool(v)`. */
  predicate Truthy(v: Value)
  {
    match v
    case Null => false
    case Bool(b) => b
    case Int(i) => i != 0
    case Float(x, _) => x != 0.0
    case Str(s) => s != ""
    case List(items) => |items| > 0
    case Map(fields) => |fields| > 0
  }

  /** Python's `value or default` on an optional node. */
  function Or(value: Option<Value>, default: Value): (r: Value)
    ensures value.Some? && Truthy(value.value) ==> r == value.value
    ensures (value.None? || !Truthy(value.value)) ==> r == default
  {
    if value.Some? && Truthy(value.value) then value.value else default
  }

  /** Python's `str(v)` for a scalar. */
  function Show(v: Value): (s: string)
    ensures v.Str? ==> s == v.s
    ensures v.Int? ==> s == Text.IntToString(v.i)
  {
    match v
    case Null => "None"
    case Bool(b) => if b then "True" else "False"
    case Int(i) => Text.IntToString(i)
    case Float(_, shown) => shown
    case Str(s) => s
    case List(_) => ""
    case Map(_) => ""
  }

  /** Python's `int(v)`: truncation for floats, decimal parsing for strings. */
  function ToInt(v: Value): (r: Result<int>)
    ensures r.Err? ==> (r.error.ValueError? || r.error.TypeError?)
    ensures v.Int? ==> r == Ok(v.i)
    ensures v.Float? ==> r.Ok? && -1.0 < r.value as real - v.x < 1.0
    ensures (v.Null? || v.List? || v.Map?) ==> r.Err? && r.error.TypeError?
  {
    match v
    case Int(i) => Ok(i)
    case Bool(b) => Ok(if b then 1 else 0)
    case Float(x, _) => Ok(Trunc(x))
    case Str(s) =>
      (match Text.ParseInt(s)
       case Some(i) => Ok(i)
       case None => Err(ValueError("invalid literal for int() with base 10")))
    case _ => Err(TypeError("int() argument must be a string or a number"))
  }

  /** A decimal string converts back to the integer it renders. */
  lemma ToIntOfRendered(i: int)
    ensures ToInt(Str(Text.IntToString(i))) == Ok(i)
  {
    Text.ParseIntRoundTrip(i);
  }

  /**
   * Python's `float(v)`. Parsing a float from a string is not modelled
   * here: `parseFloat` stands for it.
   */
  function ToFloat(v: Value, parseFloat: string -> Option<real>): (r: Result<real>)
    ensures r.Err? ==> (r.error.ValueError? || r.error.TypeError?)
    ensures v.Int? ==> r == Ok(v.i as real)
    ensures v.Float? ==> r == Ok(v.x)
    ensures (v.Null? || v.List? || v.Map?) ==> r.Err? && r.error.TypeError?
  {
    match v
    case Int(i) => Ok(i as real)
    case Bool(b) => Ok(if b then 1.0 else 0.0)
    case Float(x, _) => Ok(x)
    case Str(s) =>
      (match parseFloat(s)
       case Some(x) => Ok(x)
       case None => Err(ValueError("could not convert string to float")))
    case _ => Err(TypeError("float() argument must be a string or a number"))
  }

  /** `isinstance(v, (int, float))` (a bool is an int in Python). */
  predicate IsNumber(v: Value)
  {
    v.Int? || v.Float? || v.Bool?
  }
}
